=== FILE: README.md ===
# ising-life-lab core in Dafny

ising-life-lab explores Life-like cellular automata (rules written
`B<born digits>/S<survive digits>`) as associative memories. It has two halves:

- In the browser, JavaScript engines store 0/1 patterns and recall noisy
  copies of them. There is a nested-array CA engine, a flat-array CA engine,
  a Hopfield network and an ensemble of seven champion rules plus one Hopfield
  engine. Around them sit the attractor scans, the capacity experiment, the
  engine selector and the dataset scripts.
- In Python, the rule-space utilities and classifiers. They cover notation
  parsing, complements and neighbours; the CA engines; cycle detection and the
  memory and functional scores; Pareto selection and the meta-learner's bandit,
  memory and Hall of Fame; the closed-loop promotion gate; and the
  design-space catalogue of sensor systems with its scoring and
  physical-profile mapping.

This project restates those parts as pure Dafny functions over immutable
values and proves what each part promises. It states the error paths
(`Result` values for the exceptions the code raises), the edge cases the
code handles, and the properties that link operations:
- round trips between notations, masks and rule integers;
- agreement between the engines;
- first-match readings of the decision lists;
- the order and membership guarantees of every sort and filter.

Conventions:
- One Dafny module per source file, named after the file.
- Shared helpers:
  - `Wrappers` (Option/Result);
  - `Sorting` (one stable insertion sort over a total preorder);
  - `PyText`, `PyList`, `PyBits`, `PyFloat` (Python strings, lists, integers
    as bit strings, and IEEE doubles with NaN and the infinities);
  - `JsNumbers`, `JsFloat` (JavaScript number conversions and NaN);
  - `Masks`, `Arith`.
- Floats are exact reals. NaN and the infinities are carried explicitly in
  the functional score, the JavaScript number conversions and the Python
  float helpers; the places where a NaN could still reach a real-valued
  input are listed under "## Left out".
- `Math.random`, `np.random`, simulations and rule functions are parameters
  of the functions that use them (oracles).

## Model

| member | source | states |
|---|---|---|
| CaRules.Wrap | src/core/caRules.js:27-29 | the wrapped coordinate stays on the ring: one step left of 0 is n-1, one step right of n-1 is 0, otherwise the plain neighbour |
| CaRules.CountAliveNeighbors | src/core/caRules.js:14-37 | the toroidal Moore count is between 0 and 8, as the doc comment promises |
| CaRules.ApplyRuleToCell | src/core/caRules.js:51-62 | the next state is 0 or 1: a dead cell is born iff its count is a birth count, any other cell lives iff its count is a survival count |
| CaRules.NeighbourAt | src/core/caRules.js:20-29 | every wrapped neighbour position lies on the grid |
| CaRules.CentreNeverVisited | src/core/caRules.js:20-24 | on a grid at least 2 by 2 the eight offsets never land on the centre cell |
| CaRules.CountIgnoresCentre | src/core/caRules.js:14-37 | the count never reads the centre: rewriting (x, y) leaves it unchanged on grids at least 2 by 2 |
| CaRules.SingleCellSeesItself | src/core/caRules.js:26-34 | on a 1 by 1 torus the live cell is counted as all 8 of its own neighbours |
| CaRules.CountUniform | src/core/caRules.js:26-34 | on a uniform grid the count is 8 when every cell holds 1 and 0 for any other constant, since only `=== 1` counts |
| CaRules.CornerSeesOppositeCorner | src/core/caRules.js:27-29 | on every grid, the first offset of the corner (0, 0) wraps to the opposite corner (w-1, h-1) |
| CaGrid.CreateGrid | src/core/caGrid.js:13-15 | a grid of h rows of w cells, every one holding the fill value |
| CaGrid.CloneGrid | src/core/caGrid.js:22-24 | the copy has the same rows with the same cells as the original |
| CaGrid.RandomizeGrid | src/core/caGrid.js:33-63 | the grid keeps its shape and becomes 0/1; density at most 0 kills every cell and density at least 1 fills every cell |
| CaGrid.DrawLike | src/core/caGrid.js:55-60 | on the general path a cell becomes 1 exactly when its random draw is below the density |
| CaGrid.RandomizeShortcutsAgree | src/core/caGrid.js:34-53 | the two edge-case shortcuts give exactly what the general path would give, because every draw lies in [0, 1) |
| CaStep.Step | src/core/caStep.js:17-32 | a fresh grid of the same shape, rows of width 0 included, whose every cell is the rule applied to the old grid at that position |
| CaStep.Run | src/core/caStep.js:17-32 | repeated generations keep the grid's shape, rows of width 0 included, and, after at least one generation, leave only 0/1 cells |
| CaStep.EmptyRowsStayEmpty | src/core/caStep.js:17-31 | a grid of rows of width 0 is left unchanged by any number of generations, since the cell loop runs over nothing |
| CaStep.RunAdditive | src/core/caStep.js:17-32 | running a then b generations is the same as running a + b generations |
| CaStep.DeadGridFixedIff | src/core/caStep.js:17-32 | an all-dead grid is a fixed point of the step exactly when 0 is not a birth count |
| CaStep.FullGridFixedIff | src/core/caStep.js:17-32 | an all-live grid is a fixed point of the step exactly when 8 is a survival count |
| Metrics.RowOnes | src/metrics/metrics.js:23-27 | the live cells counted in a row never exceed the cells visited |
| Metrics.GridOnesBound | src/metrics/metrics.js:21-28 | the population is at most width times height |
| Metrics.Entropy | src/metrics/metrics.js:35-42 | the entropy is 0 whenever the density is 0 or 1 |
| Metrics.Density | src/metrics/metrics.js:31 | the density is a fraction in [0, 1] that is 0 iff nothing lives and 1 iff every cell of a non-empty board lives |
| Metrics.FractionBounds | src/metrics/metrics.js:31 | a part over a whole lies in [0, 1], and is 0 or 1 exactly at the ends |
| Metrics.GetBasicMetrics | src/metrics/metrics.js:15-49 | the population counts the cells equal to 1 and is at most the board size; density and entropy follow from it |
| Metrics.UniformRowOnes | src/metrics/metrics.js:22-28 | a row of one constant value has all or none of its cells counted |
| Metrics.UniformGridOnes | src/metrics/metrics.js:22-28 | a board filled with 1 has population w·h and one filled with anything else has 0 |
| Metrics.UniformMetrics | src/metrics/metrics.js:31-42 | a full board has density 1, an empty one density 0, and both have entropy 0 whatever log2 returns |
| Metrics.MixedDensity | src/metrics/metrics.js:31 | a board neither empty nor full has a density strictly between 0 and 1 |
| LocalEnergy.Local | src/energy/localEnergyStub.js:43-54 | a live cell's energy is at most 4, 4 when isolated and 0 iff it has at least 4 neighbours; a dead cell costs 1 iff it has more than 5 neighbours, else 0 |
| LocalEnergy.RowEnergy | src/energy/localEnergyStub.js:68-70 | one row contributes at most 4 per cell |
| LocalEnergy.GridEnergyBound | src/energy/localEnergyStub.js:62-74 | the whole board contributes at most 4 per cell |
| LocalEnergy.TotalEnergy | src/energy/localEnergyStub.js:62-74 | the nested loop sums the local energy of every cell, and the total is at most 4 per cell |
| LocalEnergy.UniformRowEnergy | src/energy/localEnergyStub.js:47-53 | in a uniform 0/1 row every cell has energy 0: no dead cell is crowded and no live cell is lonely |
| LocalEnergy.UniformGridEnergy | src/energy/localEnergyStub.js:62-74 | a uniform 0/1 board sums to energy 0 |
| LocalEnergy.UniformTotalZero | src/energy/localEnergyStub.js:62-74 | an all-dead board and an all-live board both have total energy 0 |
| LocalEnergy.LoneCellEnergy | src/energy/localEnergyStub.js:31-35 | a lone live cell on a dead board at least 2 by 2 has the highest energy, 4 |
| FlatEngine.IndexInBounds | ising-memory-ai-lab/src/ca/engine.js:22 | the index `y * width + x` of an on-board cell lies inside the `width * height` array |
| FlatEngine.CreateEmptyGrid | ising-memory-ai-lab/src/ca/engine.js:13-15 | a board of `width * height` cells, all zero |
| FlatEngine.NextCell | ising-memory-ai-lab/src/ca/engine.js:23-30 | the new value of a cell is 0 or 1 |
| FlatEngine.Step | ising-memory-ai-lab/src/ca/engine.js:17-35 | a 0/1 board of the same size whose every index holds the cell rule applied to the old board there |
| FlatEngine.StepCell | ising-memory-ai-lab/src/ca/engine.js:20-30 | the value the loops write at `y * width + x` is the cell rule at (x, y): a cell equal to 1 survives by the survival list, any other value is born by the birth list |
| FlatEngine.NextAt | ising-memory-ai-lab/src/ca/engine.js:20-30 | the value written at a flat index is 0 or 1 |
| FlatEngine.Run | ising-memory-ai-lab/src/ca/engine.js:53-59 | running keeps the board size, returns the board itself for 0 steps, and a 0/1 board after at least one step |
| FlatEngine.RunAdditive | ising-memory-ai-lab/src/ca/engine.js:53-59 | running a then b steps is running a + b steps |
| FlatEngine.CloneGrid | ising-memory-ai-lab/src/ca/engine.js:69-71 | the copy holds the same cells as the original |
| FlatEngine.RandomGrid | ising-memory-ai-lab/src/ca/engine.js:61-67 | a 0/1 board of `width * height` cells where cell i is 1 exactly when the i-th random draw is below the density |
| FlatEngine.Ones | ising-memory-ai-lab/src/ca/engine.js:73-79 | the number of live cells is at most the board size |
| FlatEngine.PopulationCountsOnes | ising-memory-ai-lab/src/ca/engine.js:73-79 | on a 0/1 board the summed population is the number of live cells, between 0 and the board size |
| CaMemory.ParseRule | src/memory/caMemoryEngine.js:9-19 | a rule object passes through; a notation fails with "Invalid rule: …" exactly when the `B…/S…` regular expression finds no match, and otherwise yields digit lists in 0..8 |
| CaMemory.ParseRuleRoundTrip | src/memory/caMemoryEngine.js:9-19 | a notation written from digit lists in 0..8 parses back to exactly those lists |
| CaMemory.Uint8ToGrid | src/memory/caMemoryEngine.js:57-65 | h rows of w cells, where row y, column x holds `arr[y * w + x]` |
| CaMemory.GridToUint8 | src/memory/caMemoryEngine.js:67-71 | no rows give an empty array |
| CaMemory.GridToUint8Length | src/memory/caMemoryEngine.js:67-71 | h rows of w cells give h·w bytes |
| CaMemory.GridToUint8At | src/memory/caMemoryEngine.js:67-71 | cell (x, y) lands at index `y * w + x`, stored as a byte |
| CaMemory.FlatRoundTrip | src/memory/caMemoryEngine.js:57-71 | a byte board converted to rows and back is unchanged |
| CaMemory.GridRoundTrip | src/memory/caMemoryEngine.js:57-71 | byte rows converted to a board and back are unchanged |
| CaMemory.Create | src/memory/caMemoryEngine.js:22-26 | creation succeeds exactly when the rule parses, and then holds the parsed rule, the sizes, the step count and nothing stored |
| CaMemory.Store | src/memory/caMemoryEngine.js:27-30 | storing drops the previous patterns and keeps byte copies of the new ones in order; nothing else changes |
| CaMemory.Evolve | src/memory/caMemoryEngine.js:33-38 | the evolved probe has `width * height` cells |
| CaMemory.Recall | src/memory/caMemoryEngine.js:32-52 | the evolved board, the steps used, and a distance that is infinite iff nothing is stored and otherwise the least Hamming distance to a stored pattern; success iff distance over probe length is within the ratio |
| CaMemory.EmptyStoreNeverSucceeds | src/memory/caMemoryEngine.js:40-48 | with nothing stored, recall never succeeds |
| EngineAgreement.SumIsCount | ising-memory-ai-lab/src/ca/engine.js:37-51 | on a 0/1 board, the flat engine's sum of neighbour values equals the nested engine's count of neighbours equal to 1 (src/core/caRules.js:26-34) |
| EngineAgreement.CellAgrees | ising-memory-ai-lab/src/ca/engine.js:20-30 | each cell after one flat step equals the same cell after one nested step of src/core/caStep.js |
| EngineAgreement.StepAgrees | ising-memory-ai-lab/src/ca/engine.js:17-35 | one flat step is one nested step seen through the `uint8ToGrid`/`gridToUint8` conversions of the CA memory |
| EngineAgreement.RunAgrees | ising-memory-ai-lab/src/ca/engine.js:53-59 | n flat steps equal n nested steps through the conversions, for every n |
| EngineAgreement.EvolveIsFlatRun | src/memory/caMemoryEngine.js:33-38 | the CA memory's recall evolves a 0/1 probe exactly as the flat engine's `run` does |
| BsRegex.RunLength | src/memory/caMemoryEngine.js:11 | the digit run starting at an index never runs past the end of the text |
| BsRegex.Run | src/memory/caMemoryEngine.js:11 | what a greedy `([0-8]*)` group captures at an index: only characters 0..8, as many as the run holds |
| BsRegex.RunOfDigits | src/memory/caMemoryEngine.js:11 | a digit string followed by a non-digit or the end is exactly what the greedy group captures |
| BsRegex.GroupsAt | src/memory/caMemoryEngine.js:11 | the two groups of a match are digit strings, the birth group at least `minBorn` long (the `[0-8]+` form of experiments/memory-ai-lab/memoryCapacity.js:216) |
| BsRegex.MatchFrom | src/memory/caMemoryEngine.js:11 | a match, when found, has digit groups and a birth group at least `minBorn` long |
| BsRegex.MatchFromNone | src/memory/caMemoryEngine.js:11-12 | `match` returns null exactly when the pattern matches at no position of the text |
| BsRegex.MatchFromLeftmost | src/memory/caMemoryEngine.js:11 | a found match reads its groups at the leftmost position where the pattern matches |
| BsRegex.MatchLetterRun | scripts/enrich-dataset-auto.js:57-68 | `match(/B([0-8]*)/)` fails iff the letter is absent, and otherwise captures a digit string |
| BsRegex.DigitValues | src/memory/caMemoryEngine.js:14-15 | `split('').map(Number)` turns each digit character into its value, one number per character |
| BsRegex.Digits | src/ai/rulePredictor.js:290 | `join('')` of a list of counts writes one digit character per count |
| BsRegex.DigitsRoundTrip | src/ai/rulePredictor.js:290 | digits written by `join('')` read back by `split('').map(Number)` to the same list |
| BsRegex.NotationTextMatches | src/memory/caMemoryEngine.js:11 | the regular expression reads the two digit groups of a `B…/S…` text back |
| BsRegex.NotationRoundTrip | src/memory/caMemoryEngine.js:11-16 | a notation written from digit lists in 0..8 is matched with exactly those digit groups |
| BsRegex.MatchesAtShift | src/memory/caMemoryEngine.js:11 | the pattern matches at a position of a suffix exactly when it matches there in the whole text |
| BsRegex.GroupsAtShift | src/memory/caMemoryEngine.js:11 | a match inside a suffix reads the same groups in the whole text |
| BsRegex.MatchFromShift | src/memory/caMemoryEngine.js:11 | scanning a suffix finds the same match as scanning the whole text from the same place |
| BsRegex.IgnoresPrefixWithoutB | src/memory/caMemoryEngine.js:11 | the match is unanchored: text before the first `B` does not change it |
| JsNumbers.ToUint8 | src/memory/caMemoryEngine.js:29 | storing an integer into a `Uint8Array` reduces it into 0..255 and leaves bytes unchanged |
| JsNumbers.ToBytes | src/memory/caMemoryEngine.js:29 | `new Uint8Array(p)` has the same length and stores every element as a byte |
| JsNumbers.ToBytesOfBytes | src/memory/caMemoryEngine.js:29 | copying an array of bytes into a `Uint8Array` changes nothing |
| JsNumbers.DecimalString | experiments/memory-ai-lab/memoryCapacity.js:36-37 | a template literal prints a non-negative integer as a non-empty string of decimal digits |
| JsNumbers.DecimalRoundTrip | experiments/memory-ai-lab/memoryCapacity.js:36-37 | the printed number reads back as itself and has no leading zero |
| JsNumbers.ToInt32 | experiments/memory-ai-lab/memory/attractorUtils.js:4 | OR-ing with 0 lands in the signed 32-bit range and leaves values already there unchanged |
| JsNumbers.ToInt32Periodic | experiments/memory-ai-lab/memory/attractorUtils.js:4 | OR-ing with 0 only depends on x modulo 2^32 |
| JsNumbers.ToInt32Congruent | experiments/memory-ai-lab/memory/attractorUtils.js:4 | OR-ing with 0 differs from x by a multiple of 2^32 |
| JsFloat.Add | src/memory/hopfieldMemoryEngine.js:20 | a JavaScript sum is a number iff both operands are, and is then their sum; NaN is contagious |
| JsFloat.Mul | src/memory/hopfieldMemoryEngine.js:20 | a JavaScript product is a number iff both operands are, and is then their product; NaN is contagious |
| JsFloat.MulCommutes | src/memory/hopfieldMemoryEngine.js:20 | the product does not depend on the operand order, NaN included |
| Counts.Keys | src/ai/engineSelector.js:46 | `Object.entries` lists one key per entry, in order |
| Counts.GetAbsent | src/ai/engineSelector.js:42 | a key that was never counted falls back to 0 |
| Counts.Bump | src/ai/engineSelector.js:42-43 | bumping adds one to the bumped key, leaves every other key and adds one to the total |
| Counts.BumpShape | src/ai/engineSelector.js:42-43 | an existing key keeps its place in insertion order; a new key goes last with count 1 |
| Counts.BumpDistinct | src/ai/engineSelector.js:42-43 | bumping never creates a duplicate key |
| Counts.BumpKeys | src/ai/engineSelector.js:42-43 | a key is present after bumping iff it was present before or is the bumped key |
| Counts.GetEntry | src/ai/engineSelector.js:46-49 | with distinct keys, the entry of a key holds exactly its count |
| Counts.TwoEntriesWithinTotal | src/ai/engineSelector.js:50 | two different entries together never exceed the reduced total |
| Counts.EntryWithinTotal | src/ai/engineSelector.js:50 | no entry exceeds the reduced total |
| Counts.ByCountDescIsTotalPreorder | src/ai/engineSelector.js:48 | the comparator `(a, b) => b[1] - a[1]` is a total preorder, so the sort is well defined |
| Counts.Top | src/ai/engineSelector.js:48-49 | the first entry after the sort is an entry whose count no other entry exceeds |
| Counts.TopIsFirstMax | src/ai/engineSelector.js:48-49 | the sort is stable, so among the entries with the largest count the earliest one comes first |
| Counts.MajorityTop | src/ai/engineSelector.js:52-55 | an entry holding at least 60% of a positive total outnumbers every other key |
| Counts.TallyGet | experiments/memory-ai-lab/autoScan.js:123 | each key of the tally counts exactly the occurrences of that item |
| Counts.TallyTotal | experiments/memory-ai-lab/autoScan.js:123 | the counts of the tally add up to the number of items |
| Counts.TallyKeys | experiments/memory-ai-lab/autoScan.js:123 | every distinct item gets exactly one entry and nothing else does |
| Counts.TallySize | experiments/memory-ai-lab/autoScan.js:123 | the tally has as many entries as there are distinct items |
| RecallCommon.HammingDist | src/memory/caMemoryEngine.js:73-77 | the distance counts differing positions below the first array's length, so it is at most that length |
| RecallCommon.HammingDistAgrees | experiments/memory-ai-lab/memory/attractorUtils.js:30-39 | on arrays of equal length the unchecked distance of the memory engines equals the checked one of attractorUtils.js |
| RecallCommon.MinDistance | src/memory/caMemoryEngine.js:40-44 | the best distance is infinite iff nothing is stored, and otherwise the least distance to some stored pattern |
| RecallCommon.ExactSucceeds | src/memory/caMemoryEngine.js:48 | an exact recall of a non-empty probe passes any non-negative ratio |
| HopfieldCore.SpinAt | src/memory/hopfieldMemoryEngine.js:18-19 | `a[j] * 2 - 1` is the spin 2a[j] - 1 inside the array and NaN past its end |
| HopfieldCore.Accumulate | src/memory/hopfieldMemoryEngine.js:13-24 | after the zeroing and the Hebb loops, entry (i, j) of the square matrix holds the sum of spin products over the patterns |
| HopfieldCore.Train | src/memory/hopfieldMemoryEngine.js:12-27 | the trained square matrix holds each Hebb sum times `1 / patterns.length` |
| HopfieldCore.HebbSumSymmetric | src/memory/hopfieldMemoryEngine.js:15-23 | the Hebb sum at (i, j) equals the one at (j, i) |
| HopfieldCore.HebbSumDiagonal | src/memory/hopfieldMemoryEngine.js:17 | the diagonal is never written, so its sum stays 0 |
| HopfieldCore.HebbSumIsInt | src/memory/hopfieldMemoryEngine.js:15-23 | on patterns that cover both units the Hebb sum is the integer sum of spin products |
| HopfieldCore.TrainSymmetric | src/memory/hopfieldMemoryEngine.js:12-27 | the trained weights are symmetric, whatever the patterns |
| HopfieldCore.TrainFormula | src/memory/hopfieldMemoryEngine.js:12-27 | with no pattern every weight is NaN (0 times `1/0`); otherwise the diagonal is 0 and w[i][j] is (1/P) times the sum of (2p[i] - 1)(2p[j] - 1) |
| HopfieldCore.NewValue | src/memory/hopfieldMemoryEngine.js:36-40 | a unit becomes 1 exactly when its summed field is at least 0; a NaN field gives 0 |
| HopfieldCore.Visit | src/memory/hopfieldMemoryEngine.js:41-44 | visiting a unit writes its new value, and reports a change, exactly when that value differs from the current cell; no other cell changes |
| HopfieldCore.Sweep | src/memory/hopfieldMemoryEngine.js:35-45 | a sweep keeps the state's length |
| HopfieldCore.SweepQuietIff | src/memory/hopfieldMemoryEngine.js:32-46 | a sweep reports no change exactly when every visited unit already holds its new value, and then the state is unchanged |
| HopfieldCore.SweepKeepsBinary | src/memory/hopfieldMemoryEngine.js:35-45 | a sweep leaves a 0/1 cell a 0/1 cell |
| HopfieldCore.SweepVisitedBinary | src/memory/hopfieldMemoryEngine.js:40-43 | after a sweep every visited unit inside the array holds 0 or 1 |
| HopfieldCore.Range | src/memory/hopfieldMemoryEngine.js:33 | `Array.from({ length: size }, (_, i) => i)` holds 0 .. size-1 in order |
| HopfieldCore.PickIndex | src/memory/hopfieldMemoryEngine.js:53 | `Math.floor(Math.random() * (i + 1))` is an index in 0..i |
| HopfieldCore.Swap | src/memory/hopfieldMemoryEngine.js:54 | swapping two entries permutes the array |
| HopfieldCore.ShuffleFrom | src/memory/hopfieldMemoryEngine.js:52-55 | each step of the Fisher-Yates loop keeps a permutation of the input |
| HopfieldCore.Shuffle | src/memory/hopfieldMemoryEngine.js:51-56 | the shuffle returns a permutation of its input |
| HopfieldCore.ShuffledUnits | src/memory/hopfieldMemoryEngine.js:33-34 | the shuffled index list holds every unit exactly once |
| HopfieldCore.QuietSweepIsStable | src/memory/hopfieldMemoryEngine.js:32-46 | a sweep over all units is quiet exactly when the state is stable under the weights |
| HopfieldCore.OrderAt | src/memory/hopfieldMemoryEngine.js:33-34 | the visiting order of every sweep is made of units and contains every unit |
| HopfieldCore.RecallLoop | src/memory/hopfieldMemoryEngine.js:31-47 | the loop keeps the state's length, runs at most `maxSteps` sweeps, and stops early only on a stable state |
| HopfieldCore.RecallSync | src/memory/hopfieldMemoryEngine.js:29-49 | the recalled state has the probe's length |
| HopfieldCore.RecallBounded | src/memory/hopfieldMemoryEngine.js:31-47 | from sweep 0 the loop runs at most `maxSteps` sweeps and an early stop means the state is stable |
| HopfieldCore.RecallOfStable | src/memory/hopfieldMemoryEngine.js:31-47 | a stable state comes back unchanged after one quiet sweep, or at once when no sweep is allowed |
| HopfieldCore.SweepAllBinary | src/memory/hopfieldMemoryEngine.js:35-45 | a sweep that visits every unit leaves every unit inside the array 0 or 1 |
| HopfieldCore.RecallBinary | src/memory/hopfieldMemoryEngine.js:31-47 | after at least one sweep every unit inside the array holds 0 or 1 |
| HopfieldCore.SweepKeepsForced | src/memory/hopfieldMemoryEngine.js:35-45 | under weights that force every field one way a sweep leaves a cell holding that value alone |
| HopfieldCore.SweepSetsForced | src/memory/hopfieldMemoryEngine.js:35-45 | under forcing weights a sweep sets every visited cell to the forced value |
| HopfieldCore.RecallForced | src/memory/hopfieldMemoryEngine.js:31-47 | under forcing weights every unit holds the forced value after at least one sweep |
| HopfieldCore.Zeros | src/memory/hopfieldMemoryEngine.js:9 | a fresh `Float32Array` matrix is square and all 0 |
| HopfieldCore.ZeroField | src/memory/hopfieldMemoryEngine.js:36-39 | under zero weights the field is 0, or NaN once it reads past the end of the state |
| HopfieldCore.ZeroWeightsForce | src/memory/hopfieldMemoryEngine.js:36-40 | untrained weights set every unit to 1 (`0 >= 0`), or to 0 when the state is shorter than the network and the field is NaN |
| HopfieldCore.NaNField | src/memory/hopfieldMemoryEngine.js:36-39 | a NaN weight makes the whole field NaN |
| HopfieldCore.NoPatternForcesZero | src/memory/hopfieldMemoryEngine.js:25-26 | weights trained on no pattern are NaN, so every unit is set to 0 |
| HopfieldCore.SinglePatternWeight | src/memory/hopfieldMemoryEngine.js:12-27 | trained on one 0/1 pattern, a weight is +1 where the two cells agree, -1 where they differ, and 0 on the diagonal |
| HopfieldCore.SinglePatternField | src/memory/hopfieldMemoryEngine.js:36-39 | at the stored pattern, each other column adds the spin of unit i to its field |
| HopfieldCore.SinglePatternStable | src/memory/hopfieldMemoryEngine.js:36-44 | one stored 0/1 pattern over at least 2 units is a stable state of its own weights |
| HopfieldCore.SinglePatternRecall | src/memory/hopfieldMemoryEngine.js:29-49 | recalling the one stored 0/1 pattern returns it unchanged |
| HopfieldMemory.Create | src/memory/hopfieldMemoryEngine.js:7-10 | `width * height` units (32 by 32 by default), all weights 0, nothing stored |
| HopfieldMemory.Store | src/memory/hopfieldMemoryEngine.js:59-63 | byte copies of the patterns replace the stored set and the weights are retrained on them from zero |
| HopfieldMemory.StoreForgets | src/memory/hopfieldMemoryEngine.js:59-63 | only the last store matters: earlier patterns and weights leave no trace |
| HopfieldMemory.Recall | src/memory/hopfieldMemoryEngine.js:65-80 | the recalled state, the steps requested, and a distance infinite iff nothing is stored, otherwise the least distance to a stored pattern; success iff distance over probe length is within the ratio |
| HopfieldMemory.BytesTwice | src/memory/hopfieldMemoryEngine.js:30 | copying the probe into a `Uint8Array` twice is copying it once |
| HopfieldMemory.SinglePatternFinal | src/memory/hopfieldMemoryEngine.js:59-80 | storing one 0/1 pattern and recalling it returns that pattern |
| HopfieldMemory.SinglePatternRecalled | src/memory/hopfieldMemoryEngine.js:59-80 | storing one 0/1 pattern over at least 2 units and recalling it gives distance 0 and succeeds for any non-negative ratio |
| HopfieldMemory.EmptyStoreRecall | src/memory/hopfieldMemoryEngine.js:59-80 | storing nothing makes every covered unit 0 after a sweep and recall never succeeds |
| HopfieldMemory.FreshEngineRecallsOnes | src/memory/hopfieldMemoryEngine.js:7-10 | before any store the weights are 0, so a probe covering the network comes back all ones after a sweep |
| HopfieldNetwork.New | experiments/memory-ai-lab/hopfield/hopfield.js:2-5 | a network of the given size with all weights 0 |
| HopfieldNetwork.FirstMismatch | experiments/memory-ai-lab/hopfield/hopfield.js:10-13 | the index of the first pattern of the wrong length: every earlier one fits and that one does not |
| HopfieldNetwork.Train | experiments/memory-ai-lab/hopfield/hopfield.js:7-28 | no pattern throws before the weights change; a wrong-sized pattern throws with its length after the earlier patterns were accumulated; otherwise the weights are the Hebb rule's |
| HopfieldNetwork.TrainedWeights | experiments/memory-ai-lab/hopfield/hopfield.js:7-28 | successful training gives symmetric weights, a zero diagonal, and w[i][j] = (1/P) times the sum of spin products |
| HopfieldNetwork.FirstPatternWrongSize | experiments/memory-ai-lab/hopfield/hopfield.js:9-13 | when the first pattern has the wrong size, training throws after zeroing, so the old weights are lost |
| HopfieldNetwork.SweptIsBinary | experiments/memory-ai-lab/hopfield/hopfield.js:35-51 | after at least one sweep the whole state is 0/1 |
| HopfieldNetwork.Recall | experiments/memory-ai-lab/hopfield/hopfield.js:30-53 | a state of the wrong length throws with its length; otherwise the sweeps run on a byte copy, give a 0/1 state of the network's size, and an early stop means it is stable |
| MemoryAI.ChampionNotation | src/memory/memoryAI.js:9-17 | each champion string is the canonical `B…/S…` notation of the rule listed beside it, with digits in 0..8 |
| MemoryAI.ChampionsParse | src/memory/memoryAI.js:25-28 | every champion notation parses, through the CA engine's `parseRule`, to the rule listed beside it |
| MemoryAI.New | src/memory/memoryAI.js:20-31 | one CA engine per champion in roster order over a 32 by 32 board and 80 steps by default, nothing stored, and a fresh Hopfield engine of the same size |
| MemoryAI.NewIsCreate | src/memory/memoryAI.js:25-28 | each CA engine of a new ensemble is what `CAMemoryEngine.create` builds from the champion's notation |
| MemoryAI.Store | src/memory/memoryAI.js:33-36 | every CA engine and the Hopfield engine store the same patterns; sizes and steps do not change |
| MemoryAI.StoreSharesPatterns | src/memory/memoryAI.js:33-36 | after a store all eight engines hold the very same byte copies |
| MemoryAI.Results | src/memory/memoryAI.js:39-45 | eight results: the CA engines in roster order, each recalled with the ensemble's steps, then Hopfield with its defaults |
| MemoryAI.ByDistanceIsTotalPreorder | src/memory/memoryAI.js:47 | the comparator `a.distance - b.distance`, with `Infinity - Infinity` read as a tie, is a total preorder |
| MemoryAI.Recall | src/memory/memoryAI.js:38-53 | all eight results, a permutation sorted by distance, and a best entry that is the first one and no farther than any other |
| MemoryAI.Rank | src/memory/memoryAI.js:47-52 | the stable sort of a non-empty result list is a sorted permutation whose head is no farther than any entry |
| MemoryAI.BestOnRoster | src/memory/memoryAI.js:49-52 | the best entry always names one of the seven champions or Hopfield |
| MemoryAI.BestIsFirstLeast | src/memory/memoryAI.js:47-50 | ties keep roster order: the best is the first engine in roster order with the least distance |
| MemoryAI.AllInfiniteKeepsFirst | src/memory/memoryAI.js:47 | when every distance is infinite all eight tie and the stable sort keeps the first entry first |
| MemoryAI.NothingStoredBest | src/memory/memoryAI.js:38-53 | with nothing stored every distance is infinite, so B01/S3 is reported best and fails |
| AttractorScan.FindName | src/memory/attractorScan.js:15-17 | the first rule with the name at or after a position, and none before it; none iff no rule from there on has the name |
| AttractorScan.GetRuleByName | src/memory/attractorScan.js:15-17 | `find` returns null iff no rule has the name, and otherwise the first rule with it |
| AttractorScan.RowTextNoBar | src/memory/attractorScan.js:24-26 | a row of numbers prints without the bar that separates rows |
| AttractorScan.RowTextBinary | src/memory/attractorScan.js:24-26 | a 0/1 row prints one character 0 or 1 per cell |
| AttractorScan.HashGridInjective | src/memory/attractorScan.js:24-26 | distinct non-empty 0/1 grids get distinct hashes, whatever their shapes |
| AttractorScan.ApplyNoise | src/memory/attractorScan.js:34-48 | a copy of the same shape in which a cell is flipped exactly when its draw is below the noise |
| AttractorScan.NoiseTwiceRestores | src/memory/attractorScan.js:34-48 | noise applied twice with the same draws gives the original grid back |
| AttractorScan.NoiseBinary | src/memory/attractorScan.js:34-48 | noise keeps a 0/1 grid 0/1, and leaves it as it was when no draw falls below the noise |
| AttractorScan.RunRelaxation | src/memory/attractorScan.js:57-70 | the final grid keeps the base's shape, rows of width 0 included, and is reported with its hash |
| AttractorScan.EmptyRowsRelax | src/memory/attractorScan.js:57-70 | a base of rows of width 0 relaxes to itself, with or without noise |
| AttractorScan.NoiselessRelaxation | src/memory/attractorScan.js:57-70 | without noise the clone equals the base, so relaxation is that many plain generations |
| AttractorScan.NoiselessDeterministic | src/memory/attractorScan.js:57-70 | without noise the outcome does not depend on the random draws |
| AttractorScan.StillLifeRelaxes | src/memory/attractorScan.js:62-64 | a still life relaxes without noise to itself |
| AttractorScan.Relaxations | src/memory/attractorScan.js:91-92 | one relaxation per run, run i with its own draws, for any base with rows of equal width (0 included) |
| AttractorScan.HashesOf | src/memory/attractorScan.js:92 | the final hash of every run, in order |
| AttractorScan.SampleOf | src/memory/attractorScan.js:97-100 | the grid kept with a hash is the final grid of the first run that reached it |
| AttractorScan.Entries | src/memory/attractorScan.js:105-110 | one entry per map entry, in insertion order, with its hash, count, sample and `frequency = count / runs` |
| AttractorScan.TabulateCount | src/memory/attractorScan.js:91-110 | each entry's count is the positive number of runs that ended on its hash, and its frequency that count over the runs |
| AttractorScan.TabulateSample | src/memory/attractorScan.js:94-101 | the sample kept with an entry is the final grid of the first run that reached its hash |
| AttractorScan.TabulateKeys | src/memory/attractorScan.js:89-102 | every hash some run reached has exactly one entry, and the number of entries is the number of distinct hashes |
| AttractorScan.TabulateSum | src/memory/attractorScan.js:91-102 | the counts over all entries add up to the number of runs |
| AttractorScan.ByFrequencyDescIsTotalPreorder | src/memory/attractorScan.js:113 | the comparator `b.frequency - a.frequency` is a total preorder |
| AttractorScan.Top | src/memory/attractorScan.js:113-116 | at most `maxAttractors` entries, sorted by descending frequency, taken from the full list at most as often as they occur there, none less frequent than an entry left out; the sort is stable, so the kept entries of each frequency are the first ones of that frequency in the full list, in its order |
| AttractorScan.PrefixSelects | src/memory/attractorScan.js:113-116 | a prefix of a sorted permutation is a sub-multiset of the list that no left-out element outranks |
| AttractorScan.ScanAttractors | src/memory/attractorScan.js:79-133 | the report echoes rule name, runs, steps and noise, counts every distinct attractor, and keeps the most frequent ones as `Top` does, equal frequencies in first-seen order |
| AttractorScan.SingleHashSingleAttractor | src/memory/attractorScan.js:91-110 | when every run ends on the same hash there is one attractor holding every run, with frequency 1 |
| AttractorScan.NoiselessSingleAttractor | src/memory/attractorScan.js:57-110 | without noise every run ends on the same grid, so the scan finds exactly one attractor with frequency 1 |
| EngineSelector.New | src/ai/engineSelector.js:13-18 | a selector over the given engines, or the eight default ones, with no wins, no mapping and not trained |
| EngineSelector.SampleWinner | src/ai/engineSelector.js:37-41 | the winner of one sample is always one of the eight default engines |
| EngineSelector.AddWinsGet | src/ai/engineSelector.js:37-44 | each engine gains in a pattern's tally exactly the samples it won |
| EngineSelector.AddWinsTotal | src/ai/engineSelector.js:37-44 | the tally's total grows by the number of samples |
| EngineSelector.AddWinsDistinct | src/ai/engineSelector.js:42-43 | no key of a tally is ever duplicated |
| EngineSelector.ClearWinnerIff | src/ai/engineSelector.js:52-53 | `topCount / total >= 0.6` holds exactly when the total is positive and the top count is at least three fifths of it |
| EngineSelector.Train | src/ai/engineSelector.js:20-65 | training marks the selector trained, keeps its engines and never drops a pattern mapping |
| EngineSelector.TrainFromMapping | src/ai/engineSelector.js:33-56 | after the loop, a pattern whose samples decided for an engine maps to it, and every other pattern keeps its old mapping or lack of one |
| EngineSelector.TrainFromTotal | src/ai/engineSelector.js:37-44 | each sample of each pattern is added to the global wins once |
| EngineSelector.TrainFromDistinct | src/ai/engineSelector.js:43 | training never duplicates a key of the global wins |
| EngineSelector.TrainEffect | src/ai/engineSelector.js:20-65 | the global wins grow by `patterns.length * samplesPerPattern`, keys stay distinct, patterns with a clear winner map to it, and every other mapping, stale or not, is left as it was |
| EngineSelector.TrainTotal | src/ai/engineSelector.js:33-44 | the global wins grow by patterns times samples per pattern |
| EngineSelector.TrainDistinct | src/ai/engineSelector.js:43 | the global wins keep distinct keys through training |
| EngineSelector.TrainMapping | src/ai/engineSelector.js:46-55 | a pattern is mapped after training to its clear winner, or keeps its old mapping |
| EngineSelector.VerdictIsStrictMajority | src/ai/engineSelector.js:52-55 | a mapped engine won at least three fifths of the samples and strictly more than any other engine |
| EngineSelector.VerdictClear | src/ai/engineSelector.js:46-55 | a decision is the top engine of the pattern's tally and holds three fifths of it |
| EngineSelector.SuggestForPattern | src/ai/engineSelector.js:67-69 | the mapped engine, or null when the pattern is unmapped or mapped to an empty name |
| EngineSelector.SuggestAfterTrain | src/ai/engineSelector.js:52-55 | after training, a pattern with a clear winner is suggested that winner |
| EngineSelector.BestGlobal | src/ai/engineSelector.js:71-76 | null exactly before any win; otherwise an engine that has wins |
| EngineSelector.BestGlobalIsMax | src/ai/engineSelector.js:72-75 | no engine has more global wins than the best one, and engines earlier in insertion order have fewer |
| EngineSelector.BestGlobalAfterTrain | src/ai/engineSelector.js:71-76 | once any sample has been taken, `bestGlobal` has an answer |
| AttractorUtils.HashValueIsPoly31 | experiments/memory-ai-lab/memory/attractorUtils.js:1-5 | the shift-and-subtract loop computes the base-31 polynomial hash of the cells modulo 2^32, as a signed int32 |
| AttractorUtils.Hex | experiments/memory-ai-lab/memory/attractorUtils.js:6 | `toString(16)` of a non-negative number is a non-empty string of hex digits |
| AttractorUtils.HexRoundTrip | experiments/memory-ai-lab/memory/attractorUtils.js:6 | the hex digits read back to the number |
| AttractorUtils.ToString16RoundTrip | experiments/memory-ai-lab/memory/attractorUtils.js:6 | the signed hex text determines the number: the printing is injective |
| AttractorUtils.HashGridMeaning | experiments/memory-ai-lab/memory/attractorUtils.js:1-7 | the hash text is the signed hex of the int32-reduced polynomial hash and reads back to it |
| AttractorUtils.KeepDominant | experiments/memory-ai-lab/memory/attractorUtils.js:10-16 | exactly the entries with at least 5% of the runs are kept, in insertion order, each with its percentage `count / totalRuns * 100` |
| AttractorUtils.ByCountDescIsTotalPreorder | experiments/memory-ai-lab/memory/attractorUtils.js:17 | the comparator `b.count - a.count` is a total preorder |
| AttractorUtils.FindDominantAttractors | experiments/memory-ai-lab/memory/attractorUtils.js:9-18 | the dominant entries, permuted into descending count order, entries of equal count kept in their Map order |
| AttractorUtils.DominantMembership | experiments/memory-ai-lab/memory/attractorUtils.js:9-18 | an entry comes back, with its percentage, exactly when its count is at least 5% of the runs |
| AttractorUtils.AddNoise | experiments/memory-ai-lab/memory/attractorUtils.js:20-28 | a copy of the same length in which cell i is flipped exactly when the i-th draw is below the level |
| AttractorUtils.Differences | experiments/memory-ai-lab/memory/attractorUtils.js:34-37 | the count of differing positions is at most the length |
| AttractorUtils.HammingDistance | experiments/memory-ai-lab/memory/attractorUtils.js:30-39 | throws exactly on a length mismatch, and otherwise counts at most `length` differences |
| AttractorUtils.DifferencesSymmetric | experiments/memory-ai-lab/memory/attractorUtils.js:34-37 | the difference count does not depend on the argument order |
| AttractorUtils.DifferencesZeroIffEqual | experiments/memory-ai-lab/memory/attractorUtils.js:34-37 | two boards of equal length have no differences exactly when they are equal |
| AttractorUtils.HammingMetric | experiments/memory-ai-lab/memory/attractorUtils.js:30-39 | the distance is symmetric and is 0 exactly for equal boards |
| AttractorUtils.NoiseDistanceIsFlips | experiments/memory-ai-lab/memory/attractorUtils.js:20-39 | on a 0/1 board the noisy copy lies at a Hamming distance equal to the number of flips drawn |
| AutoScan.Successes | experiments/memory-ai-lab/autoScan.js:125-127 | the success count is at most the number of runs |
| AutoScan.TestRuleOnPattern | experiments/memory-ai-lab/autoScan.js:114-141 | the recall rate is NaN exactly without runs and otherwise lies in [0, 1]; `attractors` counts the dominant attractors; the coverage lies in [0, 1] |
| AutoScan.SumPctPermutation | experiments/memory-ai-lab/autoScan.js:130-132 | the percentage sum does not depend on the order the dominant attractors were sorted into |
| AutoScan.KeptPctBound | experiments/memory-ai-lab/autoScan.js:130-132 | the kept percentages add up to at most the percentage of all counted runs |
| AutoScan.CoverageBounds | experiments/memory-ai-lab/autoScan.js:130-132 | the coverage of one pattern lies in [0, 1], since dominant attractors share at most all the runs |
| AutoScan.Mean | experiments/memory-ai-lab/autoScan.js:187-189 | `reduce(+) / length` is a number iff the list is non-empty and no term is NaN |
| AutoScan.SumNumNaN | experiments/memory-ai-lab/autoScan.js:187-189 | the sum is a number iff no term is NaN |
| AutoScan.SumNumBounds | experiments/memory-ai-lab/autoScan.js:187-188 | terms in [0, 1] have a sum in [0, n] |
| AutoScan.MeanBounds | experiments/memory-ai-lab/autoScan.js:187-188 | the mean of terms in [0, 1] lies in [0, 1] |
| AutoScan.Summarize | experiments/memory-ai-lab/autoScan.js:186-196 | the per-noise entry carries its noise level |
| AutoScan.SummaryBounds | experiments/memory-ai-lab/autoScan.js:186-196 | with no pattern all three means are NaN; with patterns and runs, recall and coverage are percentages in [0, 100] |
| AutoScan.OkLowNoise | experiments/memory-ai-lab/autoScan.js:200-205 | the filter keeps only entries of the list that pass the low-noise test |
| AutoScan.OkMedNoise | experiments/memory-ai-lab/autoScan.js:207-209 | `find` returns nothing iff no entry passes the medium-noise test, and otherwise an entry that passes it |
| AutoScan.TwoLowOk | experiments/memory-ai-lab/autoScan.js:200-205 | the filter holds at least one entry iff some level passes, and at least two iff two distinct levels pass |
| AutoScan.CandidateIff | experiments/memory-ai-lab/autoScan.js:200-211 | a rule is a candidate iff two distinct levels at most 0.05 meet recall, coverage and attractor bounds and some level at least 0.08 keeps recall at least 40 |
| AutoScan.MathMinIsLeast | experiments/memory-ai-lab/autoScan.js:219 | `Math.min(...)` is NaN iff some term is, +∞ iff there is none, and otherwise the least term |
| AutoScan.MathMaxIsGreatest | experiments/memory-ai-lab/autoScan.js:220 | `Math.max(...)` is NaN iff some term is, −∞ iff there is none, and otherwise the greatest term |
| AutoScan.Recalls | experiments/memory-ai-lab/autoScan.js:219-220 | `perNoise.map(p => p.recall)` lists the recall of every entry in order |
| AutoScan.RuleEntry | experiments/memory-ai-lab/autoScan.js:213-221 | the result entry names the rule, carries its per-noise list, and is a candidate exactly by the candidate test |
| AutoScan.PerNoise | experiments/memory-ai-lab/autoScan.js:171-197 | one summary per noise level, in the order of the levels |
| AutoScan.ScanMemoryCandidates | experiments/memory-ai-lab/autoScan.js:146-228 | one result per extra rule in list order, each with one entry per noise level and the candidate flag of the candidate test |
| AutoScan.Candidates | experiments/memory-ai-lab/autoScan.js:230 | the candidates are exactly the results flagged as candidates |
| AutoScan.NoPatternsNoCandidate | experiments/memory-ai-lab/autoScan.js:186-230 | with no test pattern every mean is NaN, every comparison fails and no rule is a candidate |
| MemoryCapacity.ParseNotation | experiments/memory-ai-lab/memoryCapacity.js:215-223 | the strict expression with at least one born digit: throws "Invalid notation: …" exactly when it finds no match, and otherwise returns digit lists in 0..8 with a non-empty born list and the notation as name |
| MemoryCapacity.NoBornRefused | experiments/memory-ai-lab/memoryCapacity.js:216-217 | a notation with no born digit, such as B/S3, is refused |
| MemoryCapacity.ParseNotationRoundTrip | experiments/memory-ai-lab/memoryCapacity.js:215-223 | every canonical notation with at least one born digit reads back to its own digit lists and name |
| MemoryCapacity.AgreesWithRelaxedParser | experiments/memory-ai-lab/memoryCapacity.js:215-223 | whenever the relaxed expression of the CA memory (src/memory/caMemoryEngine.js:11) finds a born digit, the strict one accepts and reads the same rule |
| MemoryCapacity.StrictScanAgrees | experiments/memory-ai-lab/memoryCapacity.js:216 | from any index, a relaxed match with a non-empty born group is also the strict match |
| MemoryCapacity.WriteStep | experiments/memory-ai-lab/memoryCapacity.js:27-31 | writing cell (ox + dx, oy + dy) when it is on the board sets exactly that cell |
| MemoryCapacity.WriteKeeps | experiments/memory-ai-lab/memoryCapacity.js:25-33 | each pass of the inner loop keeps "the grid holds 1 exactly on the cells written so far" one cell further on |
| MemoryCapacity.PatternGrid | experiments/memory-ai-lab/memoryCapacity.js:19-33 | the grid of pattern i has `size * size` cells and holds 1 exactly on the on-board cells of its 3×3 block at (10 + (i % 3)·8, 10 + ⌊i / 3⌋·8) |
| MemoryCapacity.PatternsDistinct | experiments/memory-ai-lab/memoryCapacity.js:21-33 | the top-left cell of a block that starts on the board belongs to that block and to no other |
| MemoryCapacity.OffsetsSeparate | experiments/memory-ai-lab/memoryCapacity.js:21-22 | block corners lie 8 apart, so two blocks whose corners are within 3 of each other are the same block |
| MemoryCapacity.GenerateSimplePatterns | experiments/memory-ai-lab/memoryCapacity.js:16-44 | `count` patterns, pattern i with id `capacity_i`, name `Pattern i+1`, the board size and its block |
| MemoryCapacity.Qualifying | experiments/memory-ai-lab/memoryCapacity.js:147 | the filter keeps only configurations of the list whose average reaches 90; NaN never does |
| MemoryCapacity.MaxCapacityIsLastMeeting | experiments/memory-ai-lab/memoryCapacity.js:147-152 | the capacity is '<3' iff no configuration reaches 90, and otherwise the count of the last one in list order that does |
| MemoryCapacity.MeetingLastDecides | experiments/memory-ai-lab/memoryCapacity.js:147-152 | when the last configuration reaches 90, its count is the capacity |
| MemoryCapacity.RowDetails | experiments/memory-ai-lab/memoryCapacity.js:123-136 | one detail per noise level, each tagged with the configuration's pattern count |
| MemoryCapacity.CapacityConfigs | experiments/memory-ai-lab/memoryCapacity.js:140-145 | one entry per configuration, in order, with its pattern count (the average as written pools every configuration sharing that count) |
| MemoryCapacity.SumForAppend | experiments/memory-ai-lab/memoryCapacity.js:142-144 | the filtered sum over two concatenated detail lists is the sum of the two sums |
| MemoryCapacity.DetailsSumIsOwnedBy | experiments/memory-ai-lab/memoryCapacity.js:118-144 | the details' sum for a count gathers the own recall of every configuration with that count |
| MemoryCapacity.OwnedByDistinct | experiments/memory-ai-lab/memoryCapacity.js:140-145 | with distinct counts, a configuration is the only contributor to its own count |
| MemoryCapacity.DetailsSum | experiments/memory-ai-lab/memoryCapacity.js:118-144 | with distinct counts, the filtered sum for a configuration's count is its own recall summed over the levels |
| MemoryCapacity.AverageIsOwnMean | experiments/memory-ai-lab/memoryCapacity.js:140-145 | with distinct pattern counts, each configuration's average is the mean of its own recall percentages over the noise levels |
| MemoryCapacity.SumRecallNaN | experiments/memory-ai-lab/memoryCapacity.js:153 | the sum of the averages is NaN iff some average is NaN |
| MemoryCapacity.OverallRecallNaN | experiments/memory-ai-lab/memoryCapacity.js:153 | the overall average is NaN exactly when there is no configuration or one of them averaged to NaN |
| MemoryCapacity.NoLevelsNoNaN | experiments/memory-ai-lab/memoryCapacity.js:140-145 | with at least one noise level no configuration averages to NaN |
| MemoryCapacity.OwnAverages | experiments/memory-ai-lab/memoryCapacity.js:140-145 | the intended average: one entry per configuration with its count and the mean of its own recall only |
| MemoryCapacity.PooledIsOwnWhenDistinct | experiments/memory-ai-lab/memoryCapacity.js:140-145 | with distinct pattern counts, as in the default configurations, the pooled and the per-configuration averages coincide |
| MemoryCapacity.OwnAverageIsPercentage | experiments/memory-ai-lab/memoryCapacity.js:134 | with recall rates in [0, 1], every per-configuration average is a percentage in [0, 100] |
| MemoryCapacity.PooledCounterexample | experiments/memory-ai-lab/memoryCapacity.js:140-145 | two configurations 32×32 and 16×16 with three patterns each, one noise level and every recall succeeding: the pooled average is 200 % where the configuration's own is 100 % |
| DatasetExport.EncodeRule | scripts/export-memory-dataset.js:47-55 | two masks of nine slots each |
| DatasetExport.EncodeRuleSlots | scripts/export-memory-dataset.js:47-55 | slot n of each mask is 1 exactly when n is in that list, and 0 otherwise |
| DatasetExport.EncodeRuleRoundTrip | scripts/export-memory-dataset.js:47-55 | the masks give back exactly the digits of each list that lie in 0..8 |
| DatasetExport.ParseNotation | scripts/export-memory-dataset.js:60-68 | null exactly when the relaxed `B…/S…` expression finds no match; otherwise digit lists in 0..8 |
| DatasetExport.ParseNotationAgrees | scripts/export-memory-dataset.js:60-68 | it reads what the CA memory's `parseRule` (src/memory/caMemoryEngine.js:9-19) reads, returning null where that one throws |
| DatasetExport.ParseNotationRoundTrip | scripts/export-memory-dataset.js:60-68 | the canonical notation of an in-range rule parses back to it |
| DatasetExport.NonCloseRun | scripts/export-memory-dataset.js:93 | the `[^)]+` run stops at the first `)` or at the end |
| DatasetExport.ParenFrom | scripts/export-memory-dataset.js:93 | a match of `\(([^)]+)\)` captures a non-empty group without `)` |
| DatasetExport.NoParenNoMatch | scripts/export-memory-dataset.js:93 | a text without `(` never matches |
| DatasetExport.PlainNameIsNotation | scripts/export-memory-dataset.js:93 | a name without a parenthesis is its own notation |
| DatasetExport.LabelledNameRoundTrip | scripts/export-memory-dataset.js:93 | a title followed by a parenthesised notation yields that notation: "Name (B01/S3)" gives "B01/S3" |
| DatasetExport.HofRecord | scripts/export-memory-dataset.js:92-109 | a Hall-of-Fame record carries the extracted notation and the rule's lists, is a memory candidate iff its notation is in the memory Hall of Fame, and has a recall mean only for B01/S3 |
| DatasetExport.ExtraRecord | scripts/export-memory-dataset.js:112-130 | an extra record is not Hall of Fame, its notation is its name, it is a candidate iff listed in the memory Hall of Fame, and only a candidate has a recall mean |
| DatasetExport.Records | scripts/export-memory-dataset.js:92-130 | one record per rule, in list order |
| DatasetExport.ExportMemoryDataset | scripts/export-memory-dataset.js:73-137 | the Hall-of-Fame records first, then the 24 extra rules, each in list order, with their flags, notations and lists |
| DatasetExport.AllRecords | scripts/export-memory-dataset.js:92-130 | the Hall-of-Fame records of one list followed by the extra records of another |
| DatasetExport.CountHallOfFameIsPrefix | scripts/export-memory-dataset.js:133 | counting the Hall-of-Fame flags of a list whose first n records are the flagged ones gives n |
| DatasetExport.HallOfFameCount | scripts/export-memory-dataset.js:133 | the logged Hall-of-Fame count is the length of the Hall-of-Fame list |
| DatasetEnrich.SlotsOf | scripts/enrich-dataset-auto.js:60 | nine slots, slot i 1 exactly when i is in the list |
| DatasetEnrich.ParseMask | scripts/enrich-dataset-auto.js:57-67 | for the letter B (parseBornMask) or S (parseSurviveMask): nine 0/1 slots, slot i 1 exactly when i is in the digit run after the first occurrence of the letter; all 0 when the letter is absent |
| DatasetEnrich.LetterRunSkips | scripts/enrich-dataset-auto.js:58 | a letter absent from a prefix is looked for in the rest |
| DatasetEnrich.LetterRunAtFront | scripts/enrich-dataset-auto.js:58 | after a leading letter the run is the digit string that follows, up to a non-digit |
| DatasetEnrich.BornRunOfNotation | scripts/enrich-dataset-auto.js:57-61 | the first `B` of a canonical notation is its first character, so the run is the born list |
| DatasetEnrich.SurviveRunOfNotation | scripts/enrich-dataset-auto.js:63-67 | the first `S` of a canonical notation follows the slash, so the run is the survive list |
| DatasetEnrich.MasksOfNotation | scripts/enrich-dataset-auto.js:57-67 | on a canonical notation both masks read back the rule's own lists, as `encodeRule` of scripts/export-memory-dataset.js builds them |
| DatasetEnrich.NewSamples | scripts/enrich-dataset-auto.js:21-33 | at most one sample per result, each with a positive average recall |
| DatasetEnrich.NewSamplesAreTested | scripts/enrich-dataset-auto.js:21-33 | the samples are exactly the evaluated results, each once, in order |
| DatasetEnrich.Keep | scripts/enrich-dataset-auto.js:22 | the filter keeps exactly the results with `avgRecall > 0` |
| DatasetEnrich.EnrichDatasetFromResults | scripts/enrich-dataset-auto.js:8-55 | an error exactly without the research page, null exactly when there are no validated results, otherwise the new samples and their count |
| RulePredictor.ParseRuleNotation | src/ai/rulePredictor.js:6-13 | throws "Invalid notation: …" exactly when the unanchored expression finds no match; otherwise digit lists in 0..8 |
| RulePredictor.AgreesWithParseRule | src/ai/rulePredictor.js:6-13 | it accepts exactly what the CA memory's `parseRule` accepts and reads the same lists; only the error text differs |
| RulePredictor.ParseRoundTrip | src/ai/rulePredictor.js:6-13 | the canonical notation of an in-range rule parses back to it |
| RulePredictor.EncodeRuleBS | src/ai/rulePredictor.js:15-26 | fails exactly when the notation does not parse, and otherwise gives 18 slots |
| RulePredictor.EncodeSlots | src/ai/rulePredictor.js:15-26 | slot n is 1 iff n is born, slot 9 + n is 1 iff n survives, and every other slot is 0 |
| RulePredictor.EncodeSameIff | src/ai/rulePredictor.js:15-26 | two notations get the same vector iff they name the same born and survive sets |
| RuleOps.ParseNotation | isinglab/core/rule_ops.py:10-22 | a notation without '/' raises ValueError; otherwise born and survive are sorted and hold exactly the digits before and after the first '/' |
| RuleOps.ParseToNotation | isinglab/core/rule_ops.py:25-29 | printing two digit lists and parsing the text back returns both lists sorted |
| RuleOps.ParseParts | isinglab/core/rule_ops.py:15-22 | text with a single '/' parses to the sorted digits of its two fields |
| RuleOps.ParseNote | isinglab/core/rule_ops.py:25-29 | the printed form of a canonical rule parses back to the same rule |
| RuleOps.NoteInjective | isinglab/core/rule_ops.py:25-29 | two canonical rules print the same text exactly when they are equal |
| RuleOps.UpperOfNotation | isinglab/core/rule_ops.py:61-64 | a printed notation has no lower-case letter, so the upper-casing in normalisation changes nothing |
| RuleOps.NormalizeNotation | isinglab/core/rule_ops.py:61-64 | fails exactly when '/' is missing; otherwise the result is the canonical printed form of the parsed rule |
| RuleOps.NormalizeIdempotent | isinglab/core/rule_ops.py:61-64 | normalising a normalised notation changes nothing |
| RuleOps.NormalizeIff | isinglab/core/rule_ops.py:61-64 | two notations normalise to the same text exactly when each side holds the same multiset of digits |
| RuleOps.Flip | isinglab/core/rule_ops.py:49-50 | the flipped list has the same length as its input |
| RuleOps.FlipCount | isinglab/core/rule_ops.py:49-50 | y occurs in the flipped list as often as 8 - y occurs in the input |
| RuleOps.FlipFlip | isinglab/core/rule_ops.py:49-50 | flipping twice gives back the list |
| RuleOps.ComplementRule | isinglab/core/rule_ops.py:32-52 | fails exactly when '/' is missing; otherwise prints born as the flipped survive digits and survive as the flipped born digits |
| RuleOps.ComplementOfComplement | isinglab/core/rule_ops.py:46-52 | on a canonical Life-like rule the code's complement is canonical and applying it twice gives the rule back |
| RuleOps.ComplementInvolution | isinglab/core/rule_ops.py:32-64 | on notations with digits 0..8 only, complementing twice gives the normalised notation |
| RuleOps.ComplementOfNote | isinglab/core/rule_ops.py:32-52 | the complement of a printed canonical rule is the printed complement of that rule |
| RuleOps.ComplementOfLife | isinglab/core/rule_ops.py:39-40 | the code complements B3/S23 to B56/S5, not to the B456/S0145678 that the docstring shows |
| RuleOps.NineFlipsNegative | isinglab/core/rule_ops.py:19-20 | the parser accepts a 9, and the complement then prints it as -1: B9/S complements to B/S-1 |
| RuleOps.NineBreaksInvolution | isinglab/core/rule_ops.py:32-52 | B/S-1 parses back as B/S1, whose complement is B7/S, so complementing B9/S twice does not return it |
| RuleOps.CheckedComplementRule | isinglab/core/rule_ops.py:32-52 | the range-checked complement fails exactly when the notation has no slash or a digit outside 0..8, and otherwise agrees with the code |
| RuleOps.CheckedComplementInvolution | isinglab/core/rule_ops.py:32-64 | wherever the range-checked complement succeeds, complementing twice gives the normalised notation |
| RuleOps.CheckedRejectsNine | isinglab/core/rule_ops.py:32-52 | the code complements B9/S to B/S-1, while the range-checked complement rejects it |
| RuleOps.MirrorsAbsentSpec | isinglab/core/rule_ops.py:36-37 | the helper lists exactly the counts from n to 8 whose mirror 8 - m is absent, each once, in increasing order |
| RuleOps.IntendedComplementOf | isinglab/core/rule_ops.py:36 | the complement the docstring describes: born holds m exactly when 8 - m is not a survive count, survive holds m exactly when 8 - m is not a born count |
| RuleOps.IncreasingUnique | isinglab/core/rule_ops.py:22 | two increasing lists with the same members are the same list |
| RuleOps.MirrorsTwice | isinglab/core/rule_ops.py:36-37 | taking the absent mirrors twice gives back any increasing list of counts |
| RuleOps.IntendedInvolution | isinglab/core/rule_ops.py:36 | the intended complement is an involution on Life-like rules |
| RuleOps.IntendedComplementRule | isinglab/core/rule_ops.py:32-45 | fails exactly when '/' is missing; the printed intended complement parses back to the intended complement of the parsed rule |
| RuleOps.IntendedComplementRuleInvolution | isinglab/core/rule_ops.py:32-45 | on notations with digits 0..8 only, complementing twice under the intended definition gives the normalised notation |
| RuleOps.SortMembers | isinglab/core/rule_ops.py:22 | sorting keeps exactly the members of a list |
| RuleOps.DayAndNightAsWritten | isinglab/core/rule_ops.py:41 | the code complements Day & Night (B3678/S34678) to a different rule and so reports it as not self-complementary, in any notation for it |
| RuleOps.DayAndNightComplement | isinglab/core/rule_ops.py:49-50 | the code's complement of Day & Night has born digits 0, 1, 2, 4, 5 and survive digits 0, 1, 2, 5 |
| RuleOps.DayAndNightIntended | isinglab/core/rule_ops.py:41 | under the intended complement Day & Night is its own complement, as the docstring claims |
| RuleOps.IsSelfComplementary | isinglab/core/rule_ops.py:55-58 | fails exactly when '/' is missing |
| RuleOps.SelfComplementaryIff | isinglab/core/rule_ops.py:55-58 | a Life-like rule is reported self-complementary exactly when its born list is the sorted flip of its survive list and vice versa |
| RuleOps.RuleDistance | isinglab/core/rule_ops.py:67-85 | fails exactly when either notation lacks '/'; otherwise the sizes of the symmetric differences of the born sets and of the survive sets, added |
| RuleOps.RuleDistanceSymmetric | isinglab/core/rule_ops.py:67-85 | the distance is symmetric |
| RuleOps.DistanceZero | isinglab/core/rule_ops.py:76-85 | a rule is at distance 0 from itself, and distance 0 means the same digit sets on both sides |
| RuleOps.RuleDistanceZero | isinglab/core/rule_ops.py:67-85 | a notation is at distance 0 from itself, and two notations are at distance 0 exactly when their digit sets agree |
| RuleOps.RuleDistanceTriangle | isinglab/core/rule_ops.py:67-85 | the distance satisfies the triangle inequality |
| RuleOps.MutationsMembers | isinglab/core/rule_ops.py:103-131 | the candidate list holds exactly the single-digit mutations that exist, born counts 0..8 then survive counts 0..8 |
| RuleOps.Dedup | isinglab/core/rule_ops.py:101-131 | keeps the first occurrence of each item not yet seen: the result reads the input at increasing positions, which are exactly the positions whose item is neither in the seen set nor earlier in the input |
| RuleOps.GenerateNeighbors | isinglab/core/rule_ops.py:88-133 | fails exactly when '/' is missing; otherwise lists without repeats exactly the printed single-digit mutations other than the input text, in loop order (born digits 0..8, then survive digits 0..8), each at its first occurrence |
| RuleOps.ToggleDistance | isinglab/core/rule_ops.py:105-112 | adding or removing one digit changes the digit set by exactly one digit |
| RuleOps.MutationAtDistanceOne | isinglab/core/rule_ops.py:103-131 | every mutation of a canonical rule is at distance 1 from it |
| RuleOps.NeighborsAtDistanceOne | isinglab/core/rule_ops.py:88-133 | every generated neighbour is at rule distance 1 from the notation it came from |
| RuleOps.RemovalKeepsADigit | isinglab/core/rule_ops.py:105-106 | a removal keeps a digit on its side unless that side repeats a single digit |
| RuleOps.RepeatedDigitEmptiesBorn | isinglab/core/rule_ops.py:105-107 | the guard `len(born) > 1` counts repeats: B33/S2 has the neighbour B/S2 with born empty |
| Explorer.ParseNotation | isinglab/memory_explorer.py:21-28 | fails with ValueError exactly when the text does not hold exactly one '/' (no slash, or a split into more than two parts); otherwise digit lists in written order |
| Explorer.FormatRoundTrip | isinglab/memory_explorer.py:21-28 | printing two digit lists in the B…/S… form and parsing them back gives the same lists in the same order |
| Explorer.FormatInjective | isinglab/memory_explorer.py:68 | different digit lists print different notations |
| Explorer.LifeRuleToInt | isinglab/memory_explorer.py:31-38 | bit k of the result is set exactly when k is a born digit or k - 9 is a survive digit; a negative shift count raises ValueError |
| Explorer.ParsedDigitsEncode | isinglab/memory_explorer.py:26-38 | digits from the parser never make a shift count negative, so encoding a parsed rule succeeds |
| Explorer.BornNineIsSurviveZero | isinglab/memory_explorer.py:31-38 | a born 9, which the parser accepts, sets the same bit as survive digit 0 |
| Explorer.BitsDetermine | isinglab/memory_explorer.py:31-38 | two non-negative integers with the same bits are equal, so the encoding is determined by its digit sets |
| Explorer.Changes | isinglab/memory_explorer.py:85-95 | there are 18 candidate changes, born counts 0..8 then survive counts 0..8 |
| Explorer.AddTracked | isinglab/memory_explorer.py:79-83 | adding a candidate keeps the seen set equal to the base plus the distinct notations found |
| Explorer.SweepSound | isinglab/memory_explorer.py:85-95 | every neighbour found is one of the proposals, and the seen set tracks them |
| Explorer.SweepComplete | isinglab/memory_explorer.py:85-95 | while no cap binds, every proposal's notation ends up seen |
| Explorer.SweepCapped | isinglab/memory_explorer.py:86-94 | once the cap is reached nothing more is added |
| Explorer.Caps | isinglab/memory_explorer.py:86-94 | the cap is radius * 20 in the born loop and radius * 40 in the survive loop |
| Explorer.GenerateIsSweep | isinglab/memory_explorer.py:74-98 | the generator is the capped sweep over the 18 proposals of the parsed lists |
| Explorer.NeighborsDistinct | isinglab/memory_explorer.py:77-83 | no two neighbours share a notation and none has the base notation |
| Explorer.NeighborsAreChanges | isinglab/memory_explorer.py:79-95 | every neighbour is one of the 18 changes, printed, with source neighbor_ followed by the base |
| Explorer.NoNeighborsBelowRadiusOne | isinglab/memory_explorer.py:86-94 | with a radius below 1 nothing is generated |
| Explorer.NeighborsComplete | isinglab/memory_explorer.py:85-95 | from radius 1 on, every change that prints differently from the base is a neighbour |
| Explorer.NeighborsAtMost18 | isinglab/memory_explorer.py:85-95 | there are at most 18 neighbours |
| Explorer.NeighborsKeepBorn | isinglab/memory_explorer.py:88-89 | a neighbour keeps born non-empty unless born repeats a single digit |
| Explorer.RepeatedBornDigitEmptiesBorn | isinglab/memory_explorer.py:88-89 | the guard `len(born) > 1` counts repeats: B33/S2 gets a neighbour with born empty |
| Explorer.SortedSample | isinglab/memory_explorer.py:66-67 | sorting a sample keeps it a sample of distinct values in range, now ascending |
| Explorer.CollectSpec | isinglab/memory_explorer.py:61-72 | with draws that random can return, a finished run holds exactly count candidates with distinct notations, each well formed |
| Explorer.RandomCandidatesSpec | isinglab/memory_explorer.py:52-72 | a finished run returns exactly count distinct well-formed candidates, and none for a count below 1 |
| Explorer.DefaultRangesNeverRaise | isinglab/memory_explorer.py:55-67 | with the default ranges of 9 values, random.sample never raises |
| PyLife.Ring | isinglab/memory_explorer.py:142-143 | Python's `(i + d) % n` for a step of -1, 0 or 1 wraps to the other edge of the ring and otherwise moves by d |
| PyLife.LoopCell | isinglab/memory_explorer.py:147-150 | the result is 0 or 1; a cell equal to 1 becomes 1 exactly when its count is a survive count, any other value exactly when its count is a born count |
| PyLife.LoopStep | isinglab/memory_explorer.py:129-152 | the new grid has the same shape and every cell is the loop update of that cell with its toroidal Moore sum |
| PyLife.LoopStepBinary | isinglab/memory_explorer.py:129-152 | every cell of a loop step is 0 or 1 |
| PyLife.ConvIsMooreSum | isinglab/core/ca_vectorized.py:28-33 | the wrapped convolution with the Moore kernel adds up the same eight neighbours as the nested loops |
| PyLife.VecCell | isinglab/core/ca_vectorized.py:36-46 | the result is 1 exactly when the cell is 1 with a survive count or 0 with a born count; any other cell value gives 0 |
| PyLife.VecStep | isinglab/core/ca_vectorized.py:13-48 | the new grid has the same shape and every cell is the vectorised update of that cell with its convolution count |
| PyLife.EvolveVectorized | isinglab/core/ca_vectorized.py:71-88 | iterating the vectorised step keeps the grid shape |
| PyLife.StepsAgreeOnBinary | isinglab/core/ca_vectorized.py:13-48 | on a 0/1 grid the loop step and the vectorised step give the same grid |
| PyLife.EvolveAgreesOnBinary | isinglab/core/ca_vectorized.py:123-124 | the agreement the benchmark asserts holds for every 0/1 start and every number of steps |
| PyLife.OtherValuesDisagree | isinglab/core/ca_vectorized.py:36-37 | a cell holding 2 is born by the loop update but cleared by the vectorised one, so the agreement needs 0/1 grids |
| PyLife.MooreSumIsJsCount | isinglab/core/ca_vectorized.py:33 | on a 0/1 grid the Python neighbour sum at row i, column j is the JS live-neighbour count at the same cell |
| PyLife.LoopStepIsJsStep | isinglab/memory_explorer.py:129-152 | on a 0/1 grid the Python loop step is the JS step of src/core/caStep.js with the same born and survive digits |
| CaEngine.Key | isinglab/core/ca_engine.py:61 | the 3-bit key of i is a triple of 0/1 digits whose binary value is i |
| CaEngine.BitValue | isinglab/core/ca_engine.py:61 | `int(rule & (1 << i) > 0)` is 1 exactly when bit i of the rule is set, and 0 otherwise |
| CaEngine.ElementaryTable | isinglab/core/ca_engine.py:58-63 | the elementary table has exactly the eight 0/1 triples as keys, the triple of i holding bit i of the rule |
| CaEngine.ParseLifeRule | isinglab/core/ca_engine.py:71-89 | birth holds exactly the counts 0..8 whose bit is set, survival exactly those whose bit 9 places higher is set |
| CaEngine.ParseRule | isinglab/core/ca_engine.py:56-69 | a type other than "elementary" or "life" raises ValueError with the type in the message; the two known types give their tables |
| CaEngine.ElementaryGetIsWolfram | isinglab/core/ca_engine.py:137 | an elementary lookup of a 0/1 neighbourhood (l, c, r) reads bit 4l + 2c + r of the rule number |
| CaEngine.ElementaryGetOther | isinglab/core/ca_engine.py:137 | any neighbourhood that is not a 0/1 triple falls back on the default 0 |
| CaEngine.ParseLifeInvertsEncoding | isinglab/core/ca_engine.py:71-89 | for counts 0..8, the number the explorer's encoder produces parses back to the same birth and survival sets |
| CaEngine.Rule224IsNotLife | isinglab/core/ca_engine.py:76 | the docstring calls 224 Conway's Life, but 224 parses to birth on 5, 6 and 7 with no survival |
| CaEngine.LifeIsRule6152 | isinglab/core/ca_engine.py:76-78 | under the documented bit layout, B3/S23 is rule 6152, the number the explorer's encoder gives for it |
| CaEngine.InitialLattice | isinglab/core/ca_engine.py:91-100 | a 1-D shape gives a line of the first row of draws, a 2-D shape an h × w grid of the draws, and any other shape a lattice the step cannot handle |
| CaEngine.InitialBinary | isinglab/core/ca_engine.py:91-100 | every cell of a fresh lattice is 0 or 1 |
| CaEngine.Neighborhood | isinglab/core/ca_engine.py:125-136 | the centre of the neighbourhood of cell i is cell i |
| CaEngine.Step1D | isinglab/core/ca_engine.py:119-139 | the new line has the same length and each cell is the table entry for its neighbourhood, 0 when the table has none |
| CaEngine.Step1DIsWolfram | isinglab/core/ca_engine.py:119-139 | a 0/1 line under an elementary rule follows Wolfram's numbering cell by cell |
| CaEngine.Step1DLifeClears | isinglab/core/ca_engine.py:137 | a Life table has no tuple keys, so a 1-D step of a Life engine clears the line |
| CaEngine.FixedSumInterior | isinglab/core/ca_engine.py:155-164 | away from the edge the fixed-boundary and periodic sums read the same cells |
| CaEngine.Step2DLife | isinglab/core/ca_engine.py:141-176 | the new grid has the same shape and each cell follows survival when it is 1 and birth otherwise, counted with the chosen boundary |
| CaEngine.StepLattice | isinglab/core/ca_engine.py:102-176 | a shape of other than one or two dimensions raises the unpacking ValueError; a non-empty 2-D grid with an elementary table raises KeyError('birth'); otherwise the 1-D or 2-D step |
| CaEngine.Create | isinglab/core/ca_engine.py:21-54 | fails exactly when the rule type is unknown; otherwise the engine holds the drawn lattice and a history of that one state |
| CaEngine.Step | isinglab/core/ca_engine.py:102-117 | fails exactly when the lattice step fails; otherwise the new lattice is current and appended to the history, and nothing else changes |
| CaEngine.Run | isinglab/core/ca_engine.py:178-191 | a run that succeeds keeps the grid size, lookup and boundary |
| CaEngine.RunHistory | isinglab/core/ca_engine.py:178-191 | a run keeps the history it started with and adds exactly one state per step |
| CaEngine.RunFailsAtOnce | isinglab/core/ca_engine.py:178-191 | a run fails exactly when it has at least one step and the first step fails |
| CaEngine.Reset | isinglab/core/ca_engine.py:193-200 | a reset redraws a lattice of the same shape with a one-state history and keeps the rule and boundary |
| CaEngine.PeriodicLifeIsLoopStep | isinglab/core/ca_engine.py:141-176 | the periodic 2-D step of a Life engine is the explorer's loop rule function |
| Ca3d.KernelAt | isinglab/core/ca3d_vectorized.py:27-28 | the 3 × 3 × 3 kernel weighs 0 exactly at its centre and 1 everywhere else |
| Ca3d.AllOnesCount | isinglab/core/ca3d_vectorized.py:27-31 | on an all-ones grid of any size every cell counts exactly 26 neighbours |
| Ca3d.CountBounds | isinglab/core/ca3d_vectorized.py:27-31 | on a 0/1 grid every neighbour count lies in 0..26 |
| Ca3d.DeadCount | isinglab/core/ca3d_vectorized.py:27-31 | on an all-zero grid every neighbour count is 0 |
| Ca3d.UpdateCell | isinglab/core/ca3d_vectorized.py:34-44 | the new cell is 0 or 1, and 1 exactly when the cell is 1 with a survive count or 0 with a born count |
| Ca3d.Step | isinglab/core/ca3d_vectorized.py:12-46 | the new grid keeps the shape, holds only 0/1, and each cell is the update of that cell with its wrapped 26-neighbour count |
| Ca3d.Evolve | isinglab/core/ca3d_vectorized.py:69-86 | after at least one step the grid is 0/1, and the last step is one step of the grid before it |
| Ca3d.DeadStaysDead | isinglab/core/ca3d_vectorized.py:12-46 | an all-dead cube stays all-dead under one step exactly when 0 is not a born count |
| Ca3d.FullStaysFull | isinglab/core/ca3d_vectorized.py:12-46 | an all-ones cube stays full under one step exactly when 26 is a survive count |
| LayeredCa.Mask | isinglab/experimental/layered_ca.py:50 | the mask is 1 exactly where layer A is positive and 0 elsewhere |
| LayeredCa.Times | isinglab/experimental/layered_ca.py:52 | the product is taken cell by cell and keeps the shape |
| LayeredCa.Xor | isinglab/experimental/layered_ca.py:56 | a cell is 1 exactly when one of the two layers is non-zero there and the other is zero |
| LayeredCa.Step | isinglab/experimental/layered_ca.py:32-62 | layer A follows its own rule; layer B follows its rule on itself, is masked to where A is alive under density_mask, or runs on A xor B under xor, and an unknown coupling acts as none |
| LayeredCa.LayerAIndependent | isinglab/experimental/layered_ca.py:64-68 | after n steps layer A is rule A applied n times, whatever the coupling and layer B |
| LayeredCa.UncoupledB | isinglab/experimental/layered_ca.py:64-68 | without the density_mask or xor coupling, layer B after n steps is rule B applied n times |
| LayeredCa.DeadMaskClearsB | isinglab/experimental/layered_ca.py:46-52 | under density_mask an all-dead layer A switches layer B off in one step |
| LayeredCa.XorFacts | isinglab/experimental/layered_ca.py:56 | the xor of two layers does not depend on their order, and a layer xor itself is all zero |
| DeepBrainHunt.GenerateNeighbors | scripts/deep_brain_hunt_v3_4.py:281-326 | fails exactly when '/' is missing; otherwise the single changes other than the seed, each once, in strictly ascending string order |
| DeepBrainHunt.OneChangeIsAnOutcome | scripts/deep_brain_hunt_v3_4.py:296-324 | a notation changes one value on one side, adding it when absent or removing it from a side with more than one entry, exactly when it is the outcome of the born or survive loop for that value |
| DeepBrainHunt.CandidatesAreOneChanges | scripts/deep_brain_hunt_v3_4.py:296-324 | the candidates are exactly the single changes of a value from 0 to 8 |
| DeepBrainHunt.RemovalKeepsOne | scripts/deep_brain_hunt_v3_4.py:304-305 | removing a value from a side that holds two distinct values leaves a value behind |
| DeepBrainHunt.RepeatedDigitEmptiesSide | scripts/deep_brain_hunt_v3_4.py:304-305 | the guard counts entries, not values: with born written 33, removing 3 leaves born empty |
| DeepBrainHunt.ClassifyFromMetrics | scripts/deep_brain_hunt_v3_4.py:214-266 | the first matching row decides; the robust-but-empty verdict is given exactly when robustness is above 0.9 and capacity below 0.3, and unclassified exactly when no row matches |
| DeepBrainHunt.BrainModuleIff | scripts/deep_brain_hunt_v3_4.py:222-244 | a brain module needs capacity above 0.4 with diversity above 0.3, or capacity above 0.5 with robustness above 0.2, and no robust-but-empty veto |
| DeepBrainHunt.ChaoticNeedsDiversity | scripts/deep_brain_hunt_v3_4.py:246-252 | a chaotic verdict needs diversity above 0.8 and capacity below 0.2 |
| DeepBrainHunt.ClassifyRule | scripts/deep_brain_hunt_v3_4.py:47-137 | fails exactly when '/' is missing; an empty born list is a stabilizer and an empty survive list chaotic before any simulation; past those, a sink exactly when the mean density is below 0.05 or above 0.95 |
| DeepBrainHunt.ClassifyUsesTable | scripts/deep_brain_hunt_v3_4.py:139-212 | past the structural and density exits the category is the metric table's |
| LastBrainHunt.SingleToggles | scripts/run_last_brain_hunt_v7.py:44-63 | a single toggle removes the value from the set when present and adds it when absent |
| LastBrainHunt.DoubleAdds | scripts/run_last_brain_hunt_v7.py:68-77 | a double mutation adds both values to the set |
| LastBrainHunt.FreePairs | scripts/run_last_brain_hunt_v7.py:68-69 | the pairs are exactly those of `combinations(range(9), 2)` from the starting pair on whose two values are both absent |
| LastBrainHunt.SinglesFirst | scripts/run_last_brain_hunt_v7.py:44-63 | the first eighteen mutations toggle each born value 0..8, then each survive value 0..8 |
| LastBrainHunt.NoDoublesBelowTwo | scripts/run_last_brain_hunt_v7.py:66 | below distance 2 there are exactly the eighteen single toggles |
| LastBrainHunt.DoublesOnlyAdd | scripts/run_last_brain_hunt_v7.py:66-77 | past the single toggles, a mutation adds two absent values to one side and keeps the other |
| LastBrainHunt.RawDoubleIndex | scripts/run_last_brain_hunt_v7.py:66-77 | past the single toggles, the born doubles come first and the survive doubles after them |
| LastBrainHunt.RawNeverSeed | scripts/run_last_brain_hunt_v7.py:26-78 | no mutation gives back the seed, since each changes the value set of one side |
| LastBrainHunt.Dedup | scripts/run_last_brain_hunt_v7.py:80-86 | keeps each mutation with a non-empty born list once, and every such mutation not already seen; the result reads the input at increasing positions, exactly those of the first occurrence of each such mutation |
| LastBrainHunt.GenerateLocalMutations | scripts/run_last_brain_hunt_v7.py:26-88 | the distinct mutations with a non-empty born list, exactly those of the raw list, none of them the seed, each at the position of its first occurrence in the raw list, in raw-list order |
| LastBrainHunt.EmptyBornOnlyAdds | scripts/run_last_brain_hunt_v7.py:44-52 | from an empty born list every single born addition is offered |
| LastBrainHunt.HardFilter | scripts/run_last_brain_hunt_v7.py:124-134 | quasi-death exactly below density 0.05, explosion exactly above 0.98, then sink exactly below entropy 0.1, and a pass otherwise |
| LastBrainHunt.FrozenTrialsAreRejected | scripts/run_last_brain_hunt_v7.py:110-131 | a rule whose every trial ends all dead or all alive has zero entropy and never passes the filter |
| LastBrainHunt.EvaluateRuleCandidate | scripts/run_last_brain_hunt_v7.py:137-198 | the notation prints the lists as given; rejected exactly when the filter fails, with its reason; otherwise it passes all exactly when capacity is at least 0.5, robustness at 15% noise at least 0.4 and density strictly between 0.05 and 0.98 |
| LastBrainHunt.PassedAllMeansDensityOk | scripts/run_last_brain_hunt_v7.py:124-178 | a rule that passes every criterion also passes the density tests of the filter |
| LastBrainHunt.BoundaryDensityPassesFilterOnly | scripts/run_last_brain_hunt_v7.py:125-178 | density 0.05 passes the filter but fails the criteria, which use a strict bound |
| MetaPareto.DominatesFromSpec | isinglab/meta_learner/pareto.py:23-33 | the objective loop from any point answers whether the first rule is at least as good on every remaining objective and better somewhere, counting any strict gain already seen |
| MetaPareto.Dominates | isinglab/meta_learner/pareto.py:12-33 | a rule dominates another exactly when it scores at least as well on every objective and strictly better on one, a missing score reading as 0 |
| MetaPareto.DominanceOrder | isinglab/meta_learner/pareto.py:12-33 | no rule dominates itself, two rules never dominate each other, and dominance chains |
| MetaPareto.NoObjectivesNoDominance | isinglab/meta_learner/pareto.py:12-33 | with no objectives nothing dominates anything |
| MetaPareto.DominatedFromSpec | isinglab/meta_learner/pareto.py:49-54 | skipping the rule itself in the inner loop changes nothing, since no rule dominates itself |
| MetaPareto.ParetoFront | isinglab/meta_learner/pareto.py:36-59 | the front is never longer than the list |
| MetaPareto.FrontMembers | isinglab/meta_learner/pareto.py:36-59 | the front holds exactly the rules of the list that no rule of the list dominates |
| MetaPareto.DominatesRaisesSum | isinglab/meta_learner/pareto.py:12-33 | a dominating rule has a strictly larger score total |
| MetaPareto.FrontNonEmpty | isinglab/meta_learner/pareto.py:36-59 | a non-empty list has a non-empty front, since a rule of largest total is undominated |
| MetaPareto.Truncate | isinglab/meta_learner/pareto.py:81-89 | a front longer than max_size is cut to at most max_size of its rules, best mean first; with no objectives the mean divides by zero; a short front is kept as it is |
| MetaPareto.RuleDistanceMetric | isinglab/meta_learner/pareto.py:121-129 | the rule distance is symmetric, 0 exactly on equal digit sets, and satisfies the triangle inequality |
| MetaPareto.FirstClose | isinglab/meta_learner/pareto.py:96-98 | the index found is the first kept rule closer than the threshold, or the end when there is none |
| MetaPareto.RemoveFirst | isinglab/meta_learner/pareto.py:103 | `list.remove` drops exactly one copy of a present element and leaves a list without it unchanged |
| MetaPareto.DiversityStep | isinglab/meta_learner/pareto.py:93-109 | a rule close to no kept rule is appended; otherwise it replaces the first close rule or is dropped; the mean divides by zero only when there is a close rule and no objective |
| MetaPareto.DiversityFrom | isinglab/meta_learner/pareto.py:93-109 | the diversity loop keeps a sub-multiset of the kept rules and the rules it visits |
| MetaPareto.Diversity | isinglab/meta_learner/pareto.py:91-109 | the diversity filter keeps a sub-multiset of the truncated front |
| MetaPareto.DiversityNeverFails | isinglab/meta_learner/pareto.py:93-109 | with at least one objective every mean is defined, so the diversity filter never raises |
| MetaPareto.Retained | isinglab/meta_learner/pareto.py:75-109 | the kept rules come from the Hall of Fame and the candidates, number at most max_size, and with at least one objective the selection never raises |
| MetaPareto.SelectParetoHof | isinglab/meta_learner/pareto.py:62-118 | promoted holds the kept rules whose notation is new to the Hall of Fame; removed holds exactly the Hall-of-Fame rules whose notation is no longer kept |
| DesignPareto.ValidateFrom | design_space/pareto.py:55-67 | in strict mode the loop succeeds exactly when every remaining column exists with direction max or min, and a missing column raises KeyError; otherwise a missing column cuts the dict to its present columns and ends the loop |
| DesignPareto.Validate | design_space/pareto.py:54-70 | the objectives used are non-empty and all present; strict mode keeps them all or raises; an empty dict raises ValueError |
| DesignPareto.SkippedDirectionCheck | design_space/pareto.py:55-67 | without strict mode, an invalid direction after a missing column is never checked and is kept, then read as max |
| DesignPareto.DomOrder | design_space/pareto.py:95 | row dominance is irreflexive and transitive |
| DesignPareto.DomRaisesSum | design_space/pareto.py:95 | a dominating row has a strictly larger total |
| DesignPareto.TopDominator | design_space/pareto.py:85-99 | a dominated row is dominated by some undominated row |
| DesignPareto.SomeUndominated | design_space/pareto.py:85-99 | a non-empty table has at least one Pareto-optimal row |
| DesignPareto.ParetoMask | design_space/pareto.py:81-99 | the double loop, which compares each row only with rows still flagged, flags exactly the rows no row dominates |
| DesignPareto.Flagged | design_space/pareto.py:101 | the flagged copy adds the flag column to every row and leaves every other value unchanged |
| DesignPareto.ParetoFront | design_space/pareto.py:21-106 | fails exactly when validation fails; otherwise every row is kept with its values, flagged exactly when no row dominates it, and a non-empty table has a flagged row |
| DesignPareto.ComputeParetoFront | design_space/pareto.py:52-106 | the method computes exactly the Pareto-front definition |
| DesignPareto.LexGeTotalPreorder | design_space/pareto.py:157 | descending order on the tie-breaker columns is total and transitive |
| DesignPareto.TieBreakers | design_space/pareto.py:141-148 | the tie-breakers used are the given ones, or the first objective, that exist as columns |
| DesignPareto.SortPart | design_space/pareto.py:155-165 | each part is a permutation of itself sorted descending by the tie-breakers |
| DesignPareto.RankedFacts | design_space/pareto.py:137-168 | on flagged rows the ranking is a permutation, the Pareto rows come first and each part is in tie-breaker order |
| DesignPareto.RankPareto | design_space/pareto.py:109-172 | fails exactly when validation fails; otherwise the ranked rows are a permutation of the flagged rows with every Pareto row before every other |
| MetaSelector.Update | isinglab/meta_learner/selector.py:21-25 | an update adds one pull and the reward to the total, and keeps the average equal to the total over the pulls |
| MetaSelector.UpdatesGiveMean | isinglab/meta_learner/selector.py:15-25 | from a fresh arm, the statistics are the count, the sum and the mean of the rewards |
| MetaSelector.ComputeUcb | isinglab/meta_learner/selector.py:27-32 | an unpulled arm has an infinite bound; a pulled arm has its mean plus the exploration bonus, and raises exactly when the total pull count is 0 |
| MetaSelector.NewBandit | isinglab/meta_learner/selector.py:49-53 | one fresh arm per distinct name, the arm names being the first occurrences of the names in input order, and the total pull count agrees with the arms |
| MetaSelector.Ucbs | isinglab/meta_learner/selector.py:57 | the bounds of all arms, in order, or an error exactly when some arm's bound raises |
| MetaSelector.FirstMax | isinglab/meta_learner/selector.py:58 | `max` with a key returns the first index whose value no other value exceeds |
| MetaSelector.SelectArm | isinglab/meta_learner/selector.py:55-59 | the selected name is one of the arms, and an empty bandit makes `max` raise |
| MetaSelector.SelectArmFacts | isinglab/meta_learner/selector.py:27-59 | on a consistent bandit the selection never fails, and while some arm is unpulled it picks the first unpulled arm |
| MetaSelector.FirstMaxInfinite | isinglab/meta_learner/selector.py:58 | the first infinite bound wins when every earlier bound is finite |
| MetaSelector.IndexOf | isinglab/meta_learner/selector.py:63 | the index found holds the arm of that name, and there is none exactly when no arm has the name |
| MetaSelector.UpdateArm | isinglab/meta_learner/selector.py:61-66 | an unknown name changes nothing; a known name updates that arm alone and adds one to the total pull count |
| MetaSelector.UpdateArmConsistent | isinglab/meta_learner/selector.py:61-66 | an update keeps the total pull count equal to the sum of the arms' pulls |
| MetaSelector.BucketsHoldPool | isinglab/meta_learner/selector.py:198-201 | the buckets by born count hold exactly the pool, and none of them is empty |
| MetaSelector.BucketsAscending | isinglab/meta_learner/selector.py:204 | the buckets are visited in ascending born count |
| MetaSelector.Round | isinglab/meta_learner/selector.py:204-210 | one pass moves bucket heads into the selection without losing or adding a candidate, and stops once the batch is full |
| MetaSelector.RoundFromStart | isinglab/meta_learner/selector.py:203-210 | a whole pass conserves the candidates and either fills the batch or takes a head from every bucket |
| MetaSelector.Sample | isinglab/meta_learner/selector.py:203-210 | the loop extends the selection with pool candidates until the batch is full or the pool is used up |
| MetaSelector.DiversitySampling | isinglab/meta_learner/selector.py:195-211 | a batch size of 0 or less gives nothing; otherwise the result holds the smaller of the batch size and the pool size candidates, taken from the pool |
| MetaSelector.SampleFirstRound | isinglab/meta_learner/selector.py:203-210 | the first pass over non-empty buckets takes their heads, in order |
| MetaSelector.DiversityFirstRound | isinglab/meta_learner/selector.py:195-211 | round robin: the first picks are the first candidate of each born count, in ascending count, before any count gives a second |
| MetaSelector.MutationMissing | isinglab/meta_learner/selector.py:365-378 | a digit has no mutation exactly when it is the only entry of its side |
| MetaSelector.AllMutationsExist | isinglab/meta_learner/selector.py:363-379 | when no side consists of a single digit, every one of the n toggles produces a mutation, in order |
| MetaSelector.MutateRuleFacts | isinglab/meta_learner/selector.py:363-379 | with more than one entry on each side there are exactly 18 mutations, mutation i toggling born digit i or survive digit i - 9, each at rule distance 1 from a canonical rule |
| MetaSelector.DedupByNotation | isinglab/meta_learner/selector.py:144-150 | keeps the first candidate of each notation not already seen: distinct notations, all from the input, covering every new notation, and the result reads the input at increasing positions, exactly the first position of each new notation |
| MetaSelector.FallbackBatch | isinglab/meta_learner/selector.py:138-150 | the default batch holds pool candidates with distinct notations, at most the batch size of them |
| ClosedLoop.RuleDistanceFacts | isinglab/closed_loop_agi.py:112-126 | the rule distance is symmetric, 0 exactly for equal digit sets, and satisfies the triangle inequality |
| ClosedLoop.AddedDigitsDistance | isinglab/closed_loop_agi.py:112-126 | adding digits a rule lacks moves it by exactly the number of digits added |
| ClosedLoop.FirstTooClose | isinglab/closed_loop_agi.py:138-141 | the index found is the first Hall-of-Fame rule closer than the threshold, or the end when there is none |
| ClosedLoop.IsDiverseEnough | isinglab/closed_loop_agi.py:128-143 | an empty Hall of Fame lets every candidate in; otherwise the candidate is diverse exactly when no rule is closer than the threshold, and a rejection names the first close rule |
| ClosedLoop.NotDiverseIff | isinglab/closed_loop_agi.py:128-143 | a candidate is rejected exactly when some Hall-of-Fame rule lies closer than the threshold |
| ClosedLoop.DuplicateNotDiverse | isinglab/closed_loop_agi.py:128-143 | under a positive threshold a candidate with the digit sets of a Hall-of-Fame rule is never diverse |
| ClosedLoop.ProfileCount | isinglab/closed_loop_agi.py:156-157 | the count of rules carrying a profile never exceeds the Hall-of-Fame size |
| ClosedLoop.CheckProfileQuota | isinglab/closed_loop_agi.py:145-164 | a profile without a quota gets in; one with a quota gets in exactly while fewer Hall-of-Fame rules than the quota carry it |
| ClosedLoop.QuotaFullStaysFull | isinglab/closed_loop_agi.py:145-164 | adding a rule never reopens a full quota, since the count only grows |
| ClosedLoop.EveryProfileHasDefaultQuota | isinglab/closed_loop_agi.py:22-30 | every profile the profile inference can return has a quota in the default configuration |
| ClosedLoop.Composite | isinglab/closed_loop_agi.py:96 | the composite of three scores in [0, 1] lies in [0, 1] |
| ClosedLoop.CompositesAreCompleteEntries | isinglab/closed_loop_agi.py:81-97 | there is one composite per memory entry holding all three scores, in memory order |
| ClosedLoop.ComputeAdaptiveThresholds | isinglab/closed_loop_agi.py:66-110 | the fixed thresholds come back exactly when the memory holds fewer than 5 entries; otherwise the composite threshold is the configured percentile (default 90) of the composites, or 0 when there are none, and the absolute minimums default to 0.01, 0.05 and 0.0 |
| ClosedLoop.PromoteAsWritten | isinglab/closed_loop_agi.py:269-372 | in fixed mode a result is promoted by the three minimums; in adaptive mode a fixed threshold dict, returned for a young memory, has no composite threshold and raises KeyError |
| ClosedLoop.YoungMemoryRaises | isinglab/closed_loop_agi.py:270-273 | with adaptive thresholds switched on, as in the default configuration, a memory of fewer than 5 entries makes every promotion attempt raise |
| ClosedLoop.Promote | isinglab/closed_loop_agi.py:71-73 | the corrected decision: adaptive thresholds give the adaptive test, a fixed dict gives the fixed test, and it agrees with the code wherever the code does not raise |
| ClosedLoop.YoungMemoryUsesFixed | isinglab/closed_loop_agi.py:71-73 | with a young memory the corrected decision promotes exactly when memory, edge and entropy each reach their fixed minimum |
| ClosedLoop.AdaptivePromotionFacts | isinglab/closed_loop_agi.py:330-360 | an adaptive promotion implies the absolute minimums, a free quota for the inferred profile and diversity against the whole Hall of Fame |
| ExportLibrary.HalfDigits | isinglab/export_memory_library.py:43-48 | one half of the signature holds no '/' and reads back as its sorted digits |
| ExportLibrary.SignatureRoundTrip | isinglab/export_memory_library.py:43-48 | digit lists survive the trip through their signature, sorted |
| ExportLibrary.SignatureIdentifiesRule | isinglab/export_memory_library.py:43-48 | two digit rules share a signature exactly when they hold the same digits with the same multiplicities |
| ExportLibrary.TagNamesDistinct | isinglab/export_memory_library.py:59-82 | distinct tags print as distinct strings |
| ExportLibrary.MemoryTag | isinglab/export_memory_library.py:59-65 | the memory tag is high exactly above 0.5 and low exactly at 0.1 or below |
| ExportLibrary.EdgeTag | isinglab/export_memory_library.py:67-73 | the edge tag is robust exactly above 0.3 and fragile exactly at 0.15 or below |
| ExportLibrary.EntropyTags | isinglab/export_memory_library.py:75-82 | above 0.7 the two tags high_entropy and dynamic, otherwise one tag: moderate above 0.3, static at 0.3 or below |
| ExportLibrary.InferTags | isinglab/export_memory_library.py:51-84 | three tags, or four above entropy 0.7, each band chosen by its score, a missing score reading as 0 |
| ExportLibrary.OneTagPerGroup | isinglab/export_memory_library.py:51-84 | exactly one memory tag and exactly one edge tag, whatever the scores |
| ExportLibrary.NoScoresTags | isinglab/export_memory_library.py:55-82 | with no scores at all the tags are the bottom band of each group |
| MetricsFunctional.CapacityScore | isinglab/metrics/functional.py:59 | no patterns give 0; a stable count up to the total lies in [0, 1], and all patterns stable give 1 |
| MetricsFunctional.BasinDiversity | isinglab/metrics/functional.py:154-155 | no samples give 0, and the share of distinct attractors always lies in [0, 1] |
| MetricsFunctional.BasinScoreFacts | isinglab/metrics/functional.py:157-163 | a diversity in [0, 1] scores in [0, 1); the middle band scores itself, the low band stays below 0.4, and all-identical or all-distinct samples score 0 |
| MetricsFunctional.FunctionalScore | isinglab/metrics/functional.py:173-188 | the score is the 0.4/0.35/0.25 weighting of the three scores with a missing key read as 0, and lies in [0, 1] when the scores do |
| MetricsFunctional.FunctionalScoreFacts | isinglab/metrics/functional.py:173-188 | empty results score 0, perfect results score 1, and raising any one score never lowers the total |
| MetricsFunctional.ProfileNamesDistinct | isinglab/metrics/functional.py:191-227 | each of the seven profiles has its own name and the names are exactly the seven the decision list can return |
| MetricsFunctional.InferProfile | isinglab/metrics/functional.py:198-227 | the chosen profile's guard holds and the guard of every earlier branch fails |
| MetricsFunctional.FirstMatch | isinglab/metrics/functional.py:198-227 | a profile is chosen exactly when its guard holds and no earlier guard does |
| MetricsFunctional.States | isinglab/metrics/functional.py:284-292 | the recorded states are the pattern and its images under 1 to n applications of the rule |
| MetricsFunctional.PatternScore | isinglab/metrics/functional.py:290-319 | a pattern survives exactly when its final state is non-empty, a period is credited only to a survivor whose state at step 5 recurs, and the score lies in [0, 1] |
| MetricsFunctional.DeadPatternScoresZero | isinglab/metrics/functional.py:301-319 | a pattern the rule has killed by the last step scores 0 |
| MetricsFunctional.StillLifeScores | isinglab/metrics/functional.py:301-314 | a live still life of the rule earns the survival and period credits at any period it is scored at |
| MetricsFunctional.LifeCapacityScore | isinglab/metrics/functional.py:330 | the global score, the mean of the five pattern scores, lies in [0, 1] |
| MetricsFunctional.StillLivesScoreHigh | isinglab/metrics/functional.py:280-330 | when all five patterns are live still lifes the global score is at least 0.8 |
| MetricsFunctional.DeadPatternsScoreZero | isinglab/metrics/functional.py:280-330 | when the rule kills all five patterns the global score is 0 |
| MetricsMemory.OffsetsMatchSpec | isinglab/metrics/memory.py:38-48 | the offset loop accepts exactly when each of the last p states equals the one p before it |
| MetricsMemory.StableFromSpec | isinglab/metrics/memory.py:52-59 | the stability loop accepts exactly when the history repeats with period p from the transient on |
| MetricsMemory.PeriodTest | isinglab/metrics/memory.py:35-59 | one period test accepts exactly when the last 2p states are one block of p states written twice |
| MetricsMemory.CycleFrom | isinglab/metrics/memory.py:35-61 | a returned period is the first one in range whose tail repeats, with transient n - 2p; no smaller period in range repeats |
| MetricsMemory.DetectCycle | isinglab/metrics/memory.py:15-61 | fewer than 2 states give None; a result is the smallest period in [1, min(max_period, n // 2)] whose tail repeats, with transient n - 2p; None means no period in range repeats |
| MetricsMemory.ConstantHistoryPeriodOne | isinglab/metrics/memory.py:35-59 | a history that never changes has period 1 with transient n - 2 |
| MetricsMemory.DetectCycleIntended | isinglab/metrics/memory.py:50-52 | the same period as detected, with the transient the first index from which the history repeats with that period |
| MetricsMemory.ConstantHistoryTransient | isinglab/metrics/memory.py:52 | on a constant history of three or more states the code reports transient n - 2 where the intended transient is 0 |
| MetricsMemory.Stability | isinglab/metrics/memory.py:113 | the stability is 1 - transient/length and lies in [0, 1] |
| MetricsMemory.AttractorAnalysis | isinglab/metrics/memory.py:64-130 | fewer than 2 states give the defaults; a detected cycle is fixed for period 1 and cycle otherwise, a period is reported only for those two kinds, and stability stays in [0, 1] |
| MetricsMemory.SingleStateNeedsNoPeriods | isinglab/metrics/memory.py:115-120 | on a constant history, no cycle is detected exactly when max_period is below 1 |
| MetricsMemory.Clip | isinglab/metrics/memory.py:175 | the result lies in [0, 1] and a value already in [0, 1] is unchanged |
| MetricsMemory.MemoryScore | isinglab/metrics/memory.py:133-175 | fewer than 2 states score 0, every score lies in [0, 1], and a ZeroDivisionError is raised exactly when max_period is 0 on a constant history of two or more states |
| MetricsMemory.NoCycleScoresLow | isinglab/metrics/memory.py:115-175 | without a detected cycle and with several states the score is 0 or 1/8 |
| DataMapping.FirstParsing | isinglab/data_bridge/mapping.py:104-107 | the index found is the first listed column whose present cell converts to a float, or the end when none does |
| DataMapping.FirstNumber | isinglab/data_bridge/mapping.py:104-117 | a number is found exactly when some listed column converts |
| DataMapping.SystemTypeModality | isinglab/data_bridge/mapping.py:64-74 | the keyword tests on the system type only ever yield one of the modality names |
| DataMapping.ModalityFacts | isinglab/data_bridge/mapping.py:43-76 | an explicit modality wins, lowered and stripped; otherwise a known family gives optical, then a nucleus gives nuclear, the result is one of the five names, and unknown means neither a known family nor a nucleus |
| DataMapping.ModalityNormal | isinglab/data_bridge/mapping.py:43-76 | every modality returned is already lower case and stripped |
| DataMapping.Band | isinglab/data_bridge/mapping.py:108-115 | below 10 K is cryogenic, below 280 K intermediate, up to 320 K inclusive physiological and above that high, each exactly on its interval |
| DataMapping.BandMonotone | isinglab/data_bridge/mapping.py:108-115 | a hotter temperature never lands in a colder band |
| DataMapping.EnvironmentRegime | isinglab/data_bridge/mapping.py:120-130 | the environment text gives physiological exactly when it names room temperature, ambient or 300, and never gives high |
| DataMapping.TemperatureFromColumn | isinglab/data_bridge/mapping.py:104-117 | the first temperature column that converts decides the regime by its band |
| DataMapping.TemperatureFallback | isinglab/data_bridge/mapping.py:120-130 | with no usable temperature the environment keywords decide, otherwise unknown, and the regime is then never high |
| DataMapping.TemperatureExamples | isinglab/data_bridge/mapping.py:83-130 | 310 K is physiological, 4 K cryogenic, and a row with neither temperature nor environment is unknown |
| DataMapping.FirstParsingIs | isinglab/data_bridge/mapping.py:104-107 | the first converting column is k exactly when k converts and no column before it does |
| DataMapping.CoherenceBand | isinglab/data_bridge/mapping.py:191-199 | below 1 microsecond is short, below 1 millisecond medium, below 1 second long and from 1 second record, each exactly on its interval |
| DataMapping.CoherenceUnknown | isinglab/data_bridge/mapping.py:162-201 | the class is unknown exactly when no T2 column of any unit converts |
| DataMapping.CoherenceFromSeconds | isinglab/data_bridge/mapping.py:162-169 | a converting seconds column decides the class by its value |
| DataMapping.CoherenceFromMilliseconds | isinglab/data_bridge/mapping.py:171-179 | without a seconds value a milliseconds column decides, divided by 1000 |
| DataMapping.CoherenceFromMicroseconds | isinglab/data_bridge/mapping.py:181-189 | without seconds or milliseconds a microseconds column decides, divided by 10^6 |
| DataMapping.CoherenceBandMonotone | isinglab/data_bridge/mapping.py:191-199 | a longer coherence time never falls in a shorter class |
| DataMapping.UnitsAgree | isinglab/data_bridge/mapping.py:171-189 | the same duration given in milliseconds or in microseconds gets the class of its value in seconds |
| DataMapping.CoherenceExamples | isinglab/data_bridge/mapping.py:137-201 | 1000 ms is record, 1800 microseconds long, and 0.5 microseconds short |
| DataMapping.FirstNumberAgree | isinglab/data_bridge/mapping.py:104-107 | the number found depends only on the listed columns |
| DataMapping.TemperatureAgree | isinglab/data_bridge/mapping.py:83-130 | the temperature regime reads only the temperature columns and the environment |
| DataMapping.CoherenceAgree | isinglab/data_bridge/mapping.py:137-201 | the coherence class reads only the T2 columns |
| DataMapping.InputsAreNotLabels | isinglab/data_bridge/mapping.py:223-228 | writing the three label columns leaves every column the classifiers read unchanged |
| DataMapping.Relabel | isinglab/data_bridge/mapping.py:226-228 | the result has the row's columns plus the three labels, holds the given labels and keeps every other cell |
| DataMapping.RelabelTwice | isinglab/data_bridge/mapping.py:226-228 | writing the same labels twice is writing them once |
| DataMapping.MapRow | isinglab/data_bridge/mapping.py:226-228 | the three columns written in turn hold the classifications of the original row, since no classifier reads another's column |
| DataMapping.MapSystemProperties | isinglab/data_bridge/mapping.py:208-230 | the output has one row per input row, each the input row with the three labels added and every other cell kept |
| DataMapping.MapRowIdempotent | isinglab/data_bridge/mapping.py:208-230 | labelling a labelled row changes nothing |
| DataMapping.MapIdempotent | isinglab/data_bridge/mapping.py:208-230 | mapping a mapped table again gives the same table |
| DynamicMemory.FirstWith | isinglab/meta_learner/dynamic_memory.py:72-76 | the index found is the first record with the notation, or the end when none has it |
| DynamicMemory.AddOrUpdateRule | isinglab/meta_learner/dynamic_memory.py:65-83 | a rule without a notation changes nothing; a new notation is appended; a known one is merged without growing the memory |
| DynamicMemory.MergeInPlace | isinglab/meta_learner/dynamic_memory.py:78-80 | a merge updates the first record with the notation, the rule's keys winning, and leaves every other record as it was |
| DynamicMemory.AddedRuleIsHeld | isinglab/meta_learner/dynamic_memory.py:65-83 | after adding a rule with a notation some record has that notation and carries every key of the rule |
| DynamicMemory.AddIdempotent | isinglab/meta_learner/dynamic_memory.py:65-83 | adding the same rule twice is adding it once |
| DynamicMemory.AddKeepsUnique | isinglab/meta_learner/dynamic_memory.py:72-83 | adding a rule keeps the notations unique when they were unique before |
| DynamicMemory.ByScoreDescIsTotalPreorder | isinglab/meta_learner/dynamic_memory.py:94-98 | ordering by descending functional score is a total preorder, so the stable sort is well defined |
| DynamicMemory.UpdateHof | isinglab/meta_learner/dynamic_memory.py:85-102 | the Hall of Fame is the first max_size of the non-trivial, positively scored rules, stably sorted best first; a score that cannot be compared with 0 raises |
| DynamicMemory.HofPrefix | isinglab/meta_learner/dynamic_memory.py:94-102 | the Hall of Fame is a prefix of the sorted candidates |
| DynamicMemory.HofQualifies | isinglab/meta_learner/dynamic_memory.py:88-91 | every rule in the Hall of Fame is non-trivial with a positive score |
| DynamicMemory.HofSorted | isinglab/meta_learner/dynamic_memory.py:94-98 | the Hall of Fame is ordered by non-increasing score |
| DynamicMemory.HofFromMemory | isinglab/meta_learner/dynamic_memory.py:88-102 | the Hall of Fame takes rules out of the memory, each no more often than the memory holds it |
| DynamicMemory.HofFacts | isinglab/meta_learner/dynamic_memory.py:85-102 | the Hall of Fame has min(max_size, candidates) rules, all qualifying, best first, taken from the memory |
| DynamicMemory.HofIsTopN | isinglab/meta_learner/dynamic_memory.py:85-102 | a qualifying rule left out of the Hall of Fame scores no higher than any rule kept in it |
| DynamicMemory.SmallMemoryIsWholeHof | isinglab/meta_learner/dynamic_memory.py:85-102 | a memory of qualifying rules no larger than the limit is its own Hall of Fame, reordered |
| FeatureEngineering.RuleLists | isinglab/meta_learner/feature_engineering.py:28-34 | given lists are used as they are; otherwise a notation without a slash gives empty lists, and unpacking raises exactly when the notation has more than one slash |
| FeatureEngineering.NotationGivesLists | isinglab/meta_learner/feature_engineering.py:28-34 | a notation printed from digit lists gives those lists back when no lists are passed |
| FeatureEngineering.Share | isinglab/meta_learner/feature_engineering.py:54-55 | a share of a list lies in [0, 1] and is 0 for an empty list |
| FeatureEngineering.FeaturesOf | isinglab/meta_learner/feature_engineering.py:35-69 | the counts are the list lengths, densities count/9 and (b+s)/18, overlap the shared digits over 9, and range, bias and parity alignment are 0 for an empty list and lie in [0, 1] |
| FeatureEngineering.RangeIsSpread | isinglab/meta_learner/feature_engineering.py:45-65 | the range is the largest minus the smallest element, over 8 |
| FeatureEngineering.RangeBounded | isinglab/meta_learner/feature_engineering.py:45-65 | with neighbour counts in 0..8 the range lies in [0, 1] |
| FeatureEngineering.SwapSymmetry | isinglab/meta_learner/feature_engineering.py:37-52 | swapping born and survive swaps their counts, densities and ranges and keeps overlap and parity alignment |
| FeatureEngineering.ExtractRuleFeatures | isinglab/meta_learner/feature_engineering.py:27-69 | extraction succeeds exactly when the lists can be chosen, and then gives the features of the chosen lists |
| FeatureEngineering.NothingGivesZeros | isinglab/meta_learner/feature_engineering.py:27-69 | a rule with neither lists nor a notation has all-zero features |
| FeatureEngineering.FeaturesToVector | isinglab/meta_learner/feature_engineering.py:72-73 | the vector has one entry per feature name, eleven in all |
| FeatureEngineering.VectorOrder | isinglab/meta_learner/feature_engineering.py:6-73 | the vector of an extracted dict lists the eleven features in their declared order |
| FeatureEngineering.PositiveIff | isinglab/meta_learner/feature_engineering.py:94-100 | an entry is positive exactly when memory is at least 0.7, or edge at least 0.35, or a label is champion, validated or promising |
| FeatureEngineering.MoreLabelsStayPositive | isinglab/meta_learner/feature_engineering.py:99-100 | adding labels never turns a positive entry negative |
| FeatureEngineering.ExtractsIff | isinglab/meta_learner/feature_engineering.py:28-34 | an entry's features extract exactly when lists are given or its notation has at most one slash |
| FeatureEngineering.FirstFailing | isinglab/meta_learner/feature_engineering.py:81-87 | the index found is the first entry whose features fail to extract, or the end |
| FeatureEngineering.Row | isinglab/meta_learner/feature_engineering.py:102 | every row of the dataset has eleven entries |
| FeatureEngineering.ExtractDatasetFeatures | isinglab/meta_learner/feature_engineering.py:76-109 | the first entry that fails to extract raises its error; otherwise there is one row of eleven features, one 0/1 label and one notation per entry, in order, with label 1 exactly for positive entries |
| FeatureEngineering.DatasetRows | isinglab/meta_learner/feature_engineering.py:81-102 | each row of the dataset is the feature vector of its entry |
| FeatureEngineering.EmptyDataset | isinglab/meta_learner/feature_engineering.py:106-107 | no entries give the empty dataset of width 11 |
| DesignSelector.Integrability | design_space/selector.py:153-158 | the score is at most 6, is 6 exactly when all four criteria hold and 0 exactly when none does |
| DesignSelector.HeavyCriteriaDominate | design_space/selector.py:153-158 | a system meeting both heavy criteria and neither light one outscores one meeting both light criteria and neither heavy one |
| DesignSelector.ByIntegrabilityIsTotalPreorder | design_space/selector.py:161-162 | ordering by descending score, then descending contrast, is a total preorder |
| DesignSelector.RankingOrder | design_space/selector.py:126-171 | the ranking holds exactly the catalogue's rows, best score first and higher contrast first among equal scores |
| DesignSelector.TopNIsPrefix | design_space/selector.py:164-165 | top_n keeps a prefix of the ranking of length min(top_n, rows) |
| DesignSelector.TopNIsBest | design_space/selector.py:150-165 | a row left out of the top n scores no higher than any row kept |
| DesignSelector.HighContrast | design_space/selector.py:97-98 | the candidates are exactly the rows with contrast at least the threshold, each kept as often as it occurs, highest contrast first |
| DesignSelector.HigherThresholdFewer | design_space/selector.py:97 | a row kept at a higher threshold is kept at every lower one |
| DesignSelector.FilterByFamily | design_space/selector.py:188 | the rows whose family equals the given one up to letter case, each as often as it occurs, in file order: row k is the input row at the k-th increasing position whose family matches |
| DesignSelector.FamilyCaseInsensitive | design_space/selector.py:188 | two spellings of a family that differ only in case select the same rows |
| DesignSelector.GetSystemById | design_space/selector.py:210-215 | an id no row has raises ValueError; otherwise the result is a row with that id |
| DesignSelector.GetSystemByIdIsFirst | design_space/selector.py:210-215 | the row found is the first one with that id |
| DesignSelector.RoomTempCandidates | design_space/selector.py:56 | the rows kept are exactly those viable at room temperature, each as often as in the input and in file order: the result reads the input at increasing positions, exactly those of such rows |
| DesignSelector.BioAdjacentCandidates | design_space/selector.py:75 | the rows kept are exactly those usable in a biological context, each as often as in the input and in file order: the result reads the input at increasing positions, exactly those of such rows |
| DesignSelector.NearInfraredCandidates | design_space/selector.py:118 | the rows kept are exactly those emitting in the near infrared, each as often as in the input and in file order: the result reads the input at increasing positions, exactly those of such rows |
| FunctionalScore.GetScoreWeights | metrics/functional_score.py:30-72 | an unknown mode raises ValueError; each of the three modes gives the four weights, each in [0, 1] and summing to 1 |
| FunctionalScore.Clamp | metrics/functional_score.py:154 | the result lies in [0, 1]; a value inside is kept, values above go to 1 and below to 0, and NaN or +inf end at 1.0 because min keeps its first argument |
| FunctionalScore.ContrastTerm | metrics/functional_score.py:113 | a given divisor of 0 raises ZeroDivisionError; otherwise the term is NaN exactly for a NaN contrast or divisor or 0/0, never exceeds 1, is -inf exactly for a negative contrast over a detected zero, and is min(c/max, 1) on ordinary numbers |
| FunctionalScore.BonusesOf | metrics/functional_score.py:130-148 | each stress bonus counts exactly when its column is present and not NaN |
| FunctionalScore.BonusBounds | metrics/functional_score.py:130-148 | stress scores in [0, 1] give a bonus total in [-0.1, 0.3] |
| FunctionalScore.ComputeParts | metrics/functional_score.py:103-124 | the lookups fail exactly on a missing required column, a given divisor of 0 or a missing weight, with KeyError for a missing column |
| FunctionalScore.Combine | metrics/functional_score.py:119-151 | the score before clamping is finite exactly when the contrast term is, and then equals the weighted sum times one plus the bonus total |
| FunctionalScore.ScoreAsWritten | metrics/functional_score.py:75-154 | the score fails exactly on a missing required column, a given divisor of 0 or a missing weight, and otherwise lies in [0, 1] |
| FunctionalScore.MissingContrastScoresOne | metrics/functional_score.py:113-154 | a system whose contrast is missing scores 1.0 whatever its other columns say |
| FunctionalScore.ZeroOverZeroScoresOne | metrics/functional_score.py:113-183 | under a detected maximum of zero, a system of zero contrast divides 0 by 0 and scores 1.0 |
| FunctionalScore.NegativeOverZeroScoresZero | metrics/functional_score.py:113-183 | under a detected maximum of zero, a negative contrast divides to -inf and, with a positive contrast weight and bonuses above -1, scores 0 |
| FunctionalScore.Known | metrics/functional_score.py:113 | the corrected contrast term is never NaN, replaces a NaN term by 0 and leaves every other term as it is |
| FunctionalScore.ComputeFunctionalScore | metrics/functional_score.py:75-154 | the corrected score fails on the same rows as the code, lies in [0, 1], and equals the score as written whenever contrast and divisor are ordinary numbers |
| FunctionalScore.MissingContrastCountsAsZero | metrics/functional_score.py:113 | with the correction, a missing contrast scores exactly as a contrast of zero |
| FunctionalScore.PerfectScoresOne | metrics/functional_score.py:119-154 | a system with full contrast and all three flags, without stress columns, scores exactly 1 under any weighting summing to 1 |
| FunctionalScore.Details | metrics/functional_score.py:259-275 | the bonus details list a stress bonus exactly when it applies |
| FunctionalScore.ExplainScore | metrics/functional_score.py:221-290 | the four components sum to the base score, the base is NaN exactly when the contrast component is, a NaN base comes with a final score of 1.0, and the final score lies in [0, 1] |
| FunctionalScore.ExplainAgrees | metrics/functional_score.py:221-290 | the explanation fails on the same rows as the score, and its final score is the score as written |
| FunctionalScore.ColumnMax | metrics/functional_score.py:183 | the column maximum is NaN exactly when every cell is missing, and is otherwise a value of the column at least as large as every finite value |
| FunctionalScore.ScoreRows | metrics/functional_score.py:209-212 | scoring succeeds exactly when every row scores, and then holds each row's score as written, in order |
| FunctionalScore.MaxContrastOf | metrics/functional_score.py:181-185 | without a given maximum, a frame with a contrast column divides by its detected maximum |
| FunctionalScore.ApplyFunctionalScore | metrics/functional_score.py:157-218 | a missing required column raises KeyError; success means every row scores, the output adds the score column to the same number of rows, and unsorted each row carries its own score as written |
| FunctionalScore.DetectedMaxNeverDivides | metrics/functional_score.py:181-195 | without a given maximum, a frame fails only by a KeyError, never by a division |
| FunctionalScore.ScoreRowsError | metrics/functional_score.py:209-212 | the error of a failed scoring is the error of some row's score |
| FunctionalScore.SortScored | metrics/functional_score.py:215-216 | sorting scored rows orders them by descending score and keeps every row |
| FunctionalScore.ApplySorted | metrics/functional_score.py:178-216 | with sort, the output holds exactly the unsorted output's rows, ordered by descending score |
| FunctionalScore.ScoresInUnitRange | metrics/functional_score.py:154-212 | every score in a scored frame lies in [0, 1] |
| FunctionalScore.MissingContrastRanksFirst | metrics/functional_score.py:113-216 | a system with a missing contrast appears with score 1.0, and in the sorted frame only rows scoring 1.0 come before it |
| FunctionalScore.FallbackUnused | metrics/functional_score.py:184-195 | without a contrast column the frame is rejected, so the 90.0 fallback never reaches a score |
| ProfileInference.FirstRule | isinglab/integration/profile_inference.py:38-54 | the index found is the first keyword rule with a keyword in the class, or the end when none matches |
| ProfileInference.InferBestProfile | isinglab/integration/profile_inference.py:15-63 | the profile returned is always one of the seven keys of the target-profile catalogue |
| ProfileInference.KeywordDecides | isinglab/integration/profile_inference.py:38-54 | the first keyword rule that matches the lower-cased class decides, whatever the noise and modality |
| ProfileInference.NvFirst | isinglab/integration/profile_inference.py:38-39 | a class mentioning nv or diamond always gets the NV cavity-QED profile |
| ProfileInference.NoKeywordFallbacks | isinglab/integration/profile_inference.py:56-63 | without a keyword match, high noise gives the radical-pair profile, then optical modality with low noise the biosensor profile, and otherwise the generic one |
| ProfileInference.EmptyFeaturesAreGeneric | isinglab/integration/profile_inference.py:33-63 | an empty feature set falls through every rule to the generic profile |
| MappingProfiles.CoherenceTable | isinglab/mapping_profiles.py:65-108 | long or record, short and medium coherence each set ranges for all five metrics inside [0, 1] and three regimes; any other class sets nothing |
| MappingProfiles.ShiftEntropy | isinglab/mapping_profiles.py:114-129 | the temperature step changes only the entropy range |
| MappingProfiles.ShiftKeepsUnitRanges | isinglab/mapping_profiles.py:114-129 | the entropy nudge keeps every range inside [0, 1] with its lower bound first |
| MappingProfiles.BroadDefaults | isinglab/mapping_profiles.py:147-156 | the default ranges cover all five metrics inside [0, 1] |
| MappingProfiles.GetTargetProfile | isinglab/mapping_profiles.py:51-158 | the confidence is always low, the profile carries ranges for all five metrics inside [0, 1] and at least one suggested regime, and echoes its three inputs |
| MappingProfiles.TemperatureMovesOnlyEntropy | isinglab/mapping_profiles.py:114-129 | for a known coherence class, temperature leaves every other range as the class sets it and moves entropy down 0.1 (floored at 0) when cryogenic and up 0.1 (capped at 1) when high |
| MappingProfiles.EntropyDirection | isinglab/mapping_profiles.py:114-129 | a cryogenic entropy range lies no higher than the neutral one and a high-temperature one no lower |
| MappingProfiles.UnknownClassIgnoresTemperature | isinglab/mapping_profiles.py:116-156 | an unknown coherence class gets the broad defaults unshifted and the broad-exploration regime, whatever the temperature |
| MappingProfiles.RecordIsLong | isinglab/mapping_profiles.py:65 | record coherence gets the same ranges as long coherence |
| MappingProfiles.FilterCriteria | isinglab/mapping_profiles.py:231-237 | every metric gets the profile's range, or (0, 1) when the profile has none |
| MappingProfiles.CriteriaOfTargetProfile | isinglab/mapping_profiles.py:231-237 | a profile built by the target-profile function passes its own ranges through unchanged |

## Left out

- HopfieldCore.Train: weights are exact reals. The `Float32Array` of src/memory/hopfieldMemoryEngine.js:9 rounds each stored weight to 32 bits (lines 20 and 26), and that rounding is not modelled.
- HopfieldCore.RecallLoop: the local field is summed over exact real weights, so the float32 rounding of the weights is not reflected in which units flip.
- CaMemory.Evolve: requires width and height above 0. In JavaScript a width of 0 makes the step loop over nothing, so every stored pattern is at distance 0; a height of 0 returns normally with 0 steps and throws a TypeError with more; neither is modelled.
- CaMemory.Recall: requires width and height above 0, for the same reason as CaMemory.Evolve.
- MemoryAI.Results: requires width and height above 0, because every engine it asks recalls on the CA engine's grid.
- MemoryAI.Recall: requires width and height above 0, as MemoryAI.Results does.
- EngineSelector.SampleWinner: requires width and height above 0, because it recalls through MemoryAI.Recall.
- AttractorUtils.KeepDominant: requires totalRuns above 0. With 0 runs the JavaScript percentages become Infinity or NaN. No caller in the repository passes 0.
- AttractorUtils.FindDominantAttractors: requires totalRuns above 0, for the same reason as AttractorUtils.KeepDominant.
- CaStep.Step: requires at least one row. On a grid of no rows the JavaScript reads `grid[0].length` and throws a TypeError; that error path is not modelled. Rows of width 0 are modelled.
- CaStep.Run: requires at least one row. With no rows the JavaScript returns the grid untouched after 0 steps and throws a TypeError after more (through CaStep.Step); neither is modelled.
- AttractorScan.ApplyNoise: requires at least one row. With no rows `grid[0].length` throws a TypeError, which is not modelled.
- AttractorScan.RunRelaxation: requires at least one base row. With no rows the JavaScript throws a TypeError when the noise is positive or a step is taken, and otherwise reports the empty grid with hash ""; neither path is modelled.
- AttractorScan.Relaxations: requires at least one base row, for the same reason as AttractorScan.RunRelaxation.
- AttractorScan.ScanAttractors: requires at least one base row, for the same reason as AttractorScan.RunRelaxation.
- DesignPareto.ParetoMask: objective values are reals, so NaN cannot be given. In pandas every comparison with NaN is false, so a row with a NaN objective is never dominated and design_space/pareto.py:95 always flags it; that is not modelled.
- DesignPareto.ParetoFront: a NaN objective cannot be given; the always-flagged NaN row of DesignPareto.ParetoMask is not modelled.
- DesignPareto.ComputeParetoFront: a NaN objective cannot be given, as for DesignPareto.ParetoMask.
- DesignPareto.RankPareto: a NaN objective cannot be given. pandas `sort_values` would place such a row last; that placement is not modelled.
- DesignSelector.HighContrast: contrasts are reals, so NaN cannot be given. design_space/selector.py:97 drops a NaN contrast, since the comparison is false; that is not modelled.
- DesignSelector.RankingOrder: contrasts are reals. design_space/selector.py:161-162 would sort a NaN contrast last among equal scores; that is not modelled.
- PyText.Lower: ASCII letters only. Python's `str.lower` also lowers other capitals, such as "É" to "é". The restriction reaches DataMapping.ModalityFacts, DesignSelector.FilterByFamily and ProfileInference.InferBestProfile.
- PyText.Strip: ASCII whitespace only. Python's `str.strip` also removes other Unicode spaces, such as U+00A0, so "Optical" followed by U+00A0 strips to "Optical" in Python and keeps its last character here.
- DataMapping.ModalityFacts: the explicit modality is lowered and stripped in ASCII only, as PyText.Lower and PyText.Strip say.
- DataMapping.ModalityNormal: "normal" is matched after ASCII-only lowering and stripping, as PyText.Lower and PyText.Strip say.
- DesignSelector.FilterByFamily: families are compared after ASCII-only lowering, as PyText.Lower says.
- ProfileInference.InferBestProfile: the system class and the modality are lowered in ASCII only, as PyText.Lower says.
- MetricsFunctional.LifeCapacityScore: the five pattern grids are a parameter. isinglab/metrics/functional.py:244-283 builds them as a block, a blinker, a glider, a toad and a beacon centred at (height // 2, width // 2), and numpy clips the slices on small grids or raises IndexError; that construction is not modelled, so no contract pins the score for a given grid size beyond the bounds and the still-life and dead-pattern cases.
- EngineSelector.Train: modelled over a given winner for each sample (an oracle). How one winner arises from a noisy recall is stated separately by EngineSelector.SampleWinner; the two are not composed over the random noise.
- CaGrid.RandomizeGrid: grids are values. That the JavaScript fills the passed array in place and returns the same object is not modelled.
- FlatEngine.Step: requires a board of positive width and height. For a 0-width or 0-height board the JavaScript loops never run and it returns an empty array; that case is not modelled, and every caller in the repository passes positive sizes.
- FlatEngine.Run: requires a board of positive width and height, as FlatEngine.Step does; a 0-width or 0-height board is not modelled. With 0 steps the JavaScript returns the very array it was given, not a copy. Values cannot express that identity.
- CaGrid.CloneGrid: the clone equals its input. That it is a distinct object is not modelled.
- FlatEngine.CloneGrid: the same holds as for CaGrid.CloneGrid.
- PyText.IsDigit: ASCII '0'..'9' only. Python's `str.isdigit` also accepts other Unicode digits, such as superscripts and other scripts' digits, which `int()` may then reject.
- PyFloat.Float: signed zero is not modelled; every zero is +0.0.
- LayeredCa.Step: the rule functions are parameters and are required to keep the grid shape. numpy would raise on a shape mismatch, and that error path is not modelled.
- MetaSelector.ComputeUcb: the exploration bonus `c * sqrt(log(total_pulls) / pulls)` is a parameter, since square root and logarithm are floating point.
- MetaSelector: the bandit's JSON persistence (isinglab/meta_learner/selector.py:75-96) is not modelled.
- ClosedLoop.ComputeAdaptiveThresholds: the percentile is a parameter. numpy's percentile interpolation is not modelled.
- DeepBrainHunt.ClassifyRule: the simulations behind the density samples and the capacity, robustness and basin scores are parameters.
- LastBrainHunt.EvaluateRuleCandidate: the simulated averages and scores are parameters.
- LastBrainHunt.HardFilter: the simulated averages are parameters, and so is the binary-entropy logarithm.
- MemoryCapacity.CapacityConfigs: the recall rates come from simulation and are given as `recall(c, n)`.
- AutoScan: what one noisy run produces (its final hash and whether recall succeeded) is given as `outcome(rule, noise, pattern, run)`.
- Metrics.Entropy: `Math.log2` is a parameter, so only the degenerate values of the entropy are pinned down.
- FunctionalScore.ContrastTerm: a given `max_contrast` of 0.0 raises ZeroDivisionError, as Python float division does. If pandas hands the cell over as a numpy float64, the division gives inf or NaN with a warning instead. The model follows the Python float reading.
- ProfileInference.InferBestProfile: the profile names are the keys of `PHYSICAL_TARGET_PROFILES`. The profile contents (isinglab/integration/target_profiles.py) are not modelled.
- Randomness: `Math.random`, `random.sample`, `np.random` and the Fisher-Yates shuffles are injected draws. Draws are assumed to lie in [0, 1), which `HopfieldCore.AllDrawsInRange` states.
- Map ordering: JavaScript `Map` and Python dicts are sequences of (key, value) pairs in insertion order. `Object.entries` lists integer-like keys first, and that reordering is not modelled; the counted keys are notations and engine names, which are never integer-like.
- EngineSelector.ClearWinner: the test `topCount / total >= 0.6` is decided in exact arithmetic, not in doubles.
- The unused classes `CAMemoryEngine_UNUSED` (src/memory/caMemoryEngine.js:79-191) and `HopfieldMemoryEngine_UNUSED` (src/memory/hopfieldMemoryEngine.js:91-233) are not modelled. Nothing calls them.
- The logistic-regression training and model I/O of src/ai/rulePredictor.js:28-339 are not modelled; only its parser and 18-slot encoding are.
- `isRecallSuccess` and `getDefaultPatterns`, imported from attractorUtils.js by the memory-lab scripts, are not defined there and are not part of this model.
- The stochastic measurements of isinglab/metrics/functional.py (`compute_memory_capacity`, `compute_robustness_to_noise` and the basin sampling) are not modelled; their ratios and score mappings are.
- `return_time_statistics` (isinglab/metrics/memory.py:178-229) is not modelled.
- `generate_system_profiles` and `summary_statistics` (isinglab/data_bridge/mapping.py:233-287) are not modelled.
- The loading, statistics and report helpers of design_space/selector.py (lines 18-43 and 217-295) are not modelled.
- `suggest_ca_rules_for_profile` and the YAML writing of isinglab/mapping_profiles.py are not modelled. The first samples with `np.random`; the second is file output.
- Console logging, `print`, warnings and file, JSON and YAML I/O are not modelled.
- PyLife.EvolveLoop: the benchmark in isinglab/core/ca_vectorized.py:109-124 means to time this loop version. It asks `_create_rule_function` with its default `vectorized=True`, so it times the vectorised step twice; the benchmark itself is not modelled.
- Sorting: the stable pandas `sort_values` calls (in design_space/selector.py, design_space/pareto.py and metrics/functional_score.py) are modelled as stable sorts. pandas' default single-key quicksort does not promise an order among equal keys, so no contract here states one for those calls.

## Findings

| source | as written | input that shows it | evidently intended | confidence | as-written member | corrected member |
|---|---|---|---|---|---|---|
| metrics/functional_score.py:113, 150-154 | a missing contrast divides to NaN; `min(NaN, 1.0)` keeps NaN, the score stays NaN, and `max(0.0, min(1.0, NaN))` returns 1.0 | a row with contrast NaN, all three flags false and no stress columns scores 1.0 | a missing contrast contributes nothing, so this row scores 0 | not executed | FunctionalScore.MissingContrastScoresOne | FunctionalScore.MissingContrastCountsAsZero |
| isinglab/core/ca_engine.py:76 | the docstring calls rule 224 Conway's Life (B3/S23) | 224 sets bits 5, 6 and 7, which parse to B567/S | Life under the documented bit layout is 6152 (bit 3, and bits 9 + 2 and 9 + 3) | not executed | CaEngine.Rule224IsNotLife | CaEngine.LifeIsRule6152 |
| isinglab/core/rule_ops.py:36-40, 49-50 | the complement is computed as born = {8 - s : s in survive}, survive = {8 - b : b in born}, which is not the rule that inverts the result on the inverted grid | B3/S23 complements to B56/S5 | the complement of line 36, which gives B0123478/S01234678 for Life (the docstring's B456/S0145678 matches neither) | not executed | RuleOps.ComplementOfLife | RuleOps.IntendedComplementOf |
| isinglab/core/rule_ops.py:41 | Day & Night is documented as self-complementary, but the code's complement moves it | B3678/S34678 complements to a different rule, and `is_self_complementary` returns False | Day & Night is its own complement | not executed | RuleOps.DayAndNightAsWritten | RuleOps.DayAndNightIntended |
| isinglab/core/rule_ops.py:32-52 | the parser accepts the digit 9, and 8 - 9 = -1 prints as "-1", which re-parses as the digit 1 | complementing B9/S twice gives B7/S, not B9/S | a digit outside 0..8 is rejected, and wherever the complement succeeds it is an involution | not executed | RuleOps.NineBreaksInvolution | RuleOps.CheckedComplementInvolution |
| isinglab/metrics/memory.py:52 | the transient is reported as n - 2p, the start of the last two blocks, whatever happened before them | a constant history of 3 states gives transient 1 | the transient is where the periodic behaviour starts, which is 0 here | not executed | MetricsMemory.ConstantHistoryTransient | MetricsMemory.DetectCycleIntended |
| experiments/memory-ai-lab/memoryCapacity.js:140-145 | the average recall of a configuration is taken over the results of every configuration with the same pattern count | configurations 32×32 and 16×16 with three patterns each, one noise level and every recall succeeding report an average of 200 % | each configuration averages its own recall results, a percentage in [0, 100] | not executed | MemoryCapacity.PooledCounterexample | MemoryCapacity.OwnAverageIsPercentage |
| isinglab/closed_loop_agi.py:71-73, 270-273 | a memory with fewer than 5 entries gets the fixed thresholds back, but the adaptive branch then reads `composite_threshold`, which that dict lacks | the default configuration, adaptive thresholds on, with an empty memory: every promotion attempt raises KeyError | a young memory is judged by the fixed minimums | not executed | ClosedLoop.YoungMemoryRaises | ClosedLoop.YoungMemoryUsesFixed |

=== FILE: arith.dfy ===
/** Small facts about Euclidean division used by the index arithmetic of the grids. */
module Arith {

  lemma MulStep(a: int, b: int, n: int)
    ensures n >= 0 && a < b ==> a * n + n <= b * n
  {
    if n >= 0 && a < b {
      var k := b - a - 1;
      assert k * n >= 0;
      assert b * n == (a + 1 + k) * n == a * n + n + k * n;
    }
  }

  lemma DivModUnique(a: int, n: int, q: int, r: int)
    requires n > 0 && 0 <= r < n && a == q * n + r
    ensures a / n == q && a % n == r
  {
    var q', r' := a / n, a % n;
    MulStep(q, q', n);
    MulStep(q', q, n);
  }

  /** `(i + d + n) % n` for a step d in {-1, 0, 1} from a coordinate on a ring of size n. */
  lemma WrapCases(i: int, d: int, n: int)
    requires n > 0 && 0 <= i < n && -1 <= d <= 1
    ensures (i + d + n) % n == if i + d < 0 then n - 1 else if i + d >= n then 0 else i + d
  {
    if i + d < 0 {
      DivModUnique(i + d + n, n, 0, n - 1);
    } else if i + d >= n {
      DivModUnique(i + d + n, n, 2, 0);
    } else {
      DivModUnique(i + d + n, n, 1, i + d);
    }
  }

  /** A flat index below w * h splits into a column below w and a row below h. */
  lemma DivBound(i: int, w: int, h: int)
    requires w > 0 && 0 <= i < w * h
    ensures 0 <= i / w < h && 0 <= i % w < w
  {
    MulStep(h - 1, i / w, w);
    assert (h - 1) * w + w == h * w;
  }

  /** The column and row of a flat index below w * h, in row-major order. */
  lemma Split(i: int, w: int, h: int) returns (x: nat, y: nat)
    requires w > 0 && 0 <= i < w * h
    ensures x < w && y < h && i == y * w + x
  {
    DivBound(i, w, h);
    x, y := i % w, i / w;
  }

  /** Cell (x, y) of a w by h board sits below w * h in row-major order. */
  lemma IndexBound(x: int, y: int, w: int, h: int)
    requires 0 <= x < w && 0 <= y < h
    ensures 0 <= y * w + x < w * h
  {
    MulStep(y, h, w);
    assert y * w >= 0;
  }

  lemma SelfQuotient(x: real)
    requires x > 0.0
    ensures x / x == 1.0
  {
  }

  /** A sum of m terms each in [0, c], divided by m, lies in [0, c]. */
  lemma QuotientBounds(sum: real, m: real, c: real)
    requires m >= 1.0 && 0.0 <= sum <= c * m
    ensures 0.0 <= sum / m <= c
  {
    assert sum / m * m == sum;
  }
}

=== FILE: attractor_scan.dfy ===
/**
 `src/memory/attractorScan.js`: relax a noisy copy of a pattern under a
 rule many times and count the distinct final grids. `Math.random()` is
 the oracle `draw(y, x)` inside one relaxation and `draws(i)` across runs.
 */
module AttractorScan {
  import opened Wrappers
  import opened CaGrid
  import opened CaRules
  import CaStep
  import Counts
  import Sorting
  import PyList
  import JsNumbers

  datatype NamedRule = NamedRule(name: string, rule: Rule)

  /** The index of the first rule named `name` at or after `from`. */
  function FindName(rules: seq<NamedRule>, name: string, from: nat): (k: Option<nat>)
    ensures k.Some? ==> from <= k.value < |rules| && rules[k.value].name == name
    ensures k.Some? ==> forall j :: from <= j < k.value ==> rules[j].name != name
    ensures k.None? <==> forall j :: from <= j < |rules| ==> rules[j].name != name
    decreases |rules| - from
  {
    if from >= |rules| then None
    else if rules[from].name == name then Some(from)
    else FindName(rules, name, from + 1)
  }

  /** `RULES.find(r => r.name === name) || null`, over a given catalogue. */
  function GetRuleByName(rules: seq<NamedRule>, name: string): (r: Option<NamedRule>)
    ensures r.None? <==> forall j :: 0 <= j < |rules| ==> rules[j].name != name
    ensures r.Some? ==> exists i :: 0 <= i < |rules| && rules[i] == r.value && r.value.name == name &&
                          forall j :: 0 <= j < i ==> rules[j].name != name
  {
    match FindName(rules, name, 0)
    case None => None
    case Some(i) => Some(rules[i])
  }

  // ---------------------------------------------------------------- hashGrid

  /** `String(cell)` for an integer cell. */
  function CellText(c: int): string {
    if c < 0 then "-" + JsNumbers.DecimalString(-c) else JsNumbers.DecimalString(c)
  }

  /** `row.join('')`. */
  function RowText(row: seq<int>): string {
    if |row| == 0 then "" else CellText(row[0]) + RowText(row[1..])
  }

  /** `grid.map(row => row.join('')).join('|')`. */
  function HashGrid(g: Grid): string {
    if |g| == 0 then ""
    else if |g| == 1 then RowText(g[0])
    else RowText(g[0]) + "|" + HashGrid(g[1..])
  }

  predicate BinaryRow(row: seq<int>) {
    forall x :: 0 <= x < |row| ==> row[x] == 0 || row[x] == 1
  }

  /** A row of numbers prints without a `|`. */
  lemma {:induction false} RowTextNoBar(row: seq<int>)
    ensures '|' !in RowText(row)
  {
    if |row| > 0 {
      RowTextNoBar(row[1..]);
      var d := JsNumbers.DecimalString(if row[0] < 0 then -row[0] else row[0]);
      assert '|' !in d;
    }
  }

  /** A 0/1 row prints one character per cell. */
  lemma {:induction false} RowTextBinary(row: seq<int>)
    requires BinaryRow(row)
    ensures |RowText(row)| == |row|
    ensures forall x :: 0 <= x < |row| ==> RowText(row)[x] == if row[x] == 1 then '1' else '0'
  {
    if |row| > 0 {
      RowTextBinary(row[1..]);
      assert CellText(row[0]) == if row[0] == 1 then "1" else "0";
    }
  }

  lemma RowTextInjective(a: seq<int>, b: seq<int>)
    requires BinaryRow(a) && BinaryRow(b) && RowText(a) == RowText(b)
    ensures a == b
  {
    RowTextBinary(a);
    RowTextBinary(b);
    forall x | 0 <= x < |a|
      ensures a[x] == b[x]
    {
      assert RowText(a)[x] == RowText(b)[x];
    }
  }

  /** The first `|` of `x + "|" + y` sits right after `x`. */
  lemma SplitAtBar(x: string, y: string, x': string, y': string)
    requires '|' !in x && '|' !in x' && x + "|" + y == x' + "|" + y'
    ensures x == x' && y == y'
  {
    var s := x + "|" + y;
    assert s[|x|] == '|' && s[|x'|] == '|';
    assert forall i :: 0 <= i < |x| ==> s[i] == x[i];
    assert forall i :: 0 <= i < |x'| ==> s[i] == x'[i];
    if |x| < |x'| {
      assert false;
    } else if |x'| < |x| {
      assert false;
    }
    assert x == s[..|x|] == x';
    assert y == s[|x| + 1..] == y';
  }

  /** Distinct non-empty 0/1 grids get distinct hashes, whatever their shapes. */
  lemma {:induction false} HashGridInjective(a: Grid, b: Grid)
    requires |a| > 0 && |b| > 0 && IsBinary(a) && IsBinary(b)
    requires HashGrid(a) == HashGrid(b)
    ensures a == b
    decreases |a|
  {
    assert BinaryRow(a[0]) && BinaryRow(b[0]);
    RowTextNoBar(a[0]);
    RowTextNoBar(b[0]);
    if |a| == 1 && |b| == 1 {
      RowTextInjective(a[0], b[0]);
    } else if |a| == 1 {
      assert false;
    } else if |b| == 1 {
      assert false;
    } else {
      SplitAtBar(RowText(a[0]), HashGrid(a[1..]), RowText(b[0]), HashGrid(b[1..]));
      RowTextInjective(a[0], b[0]);
      HashGridInjective(a[1..], b[1..]);
      assert a == [a[0]] + a[1..];
      assert b == [b[0]] + b[1..];
    }
  }

  // -------------------------------------------------------------- applyNoise

  /** `applyNoise(grid, noise)`: a copy in which cell (x, y) is flipped iff `draw(y, x) < noise`. */
  function ApplyNoise(g: Grid, noise: real, draw: (nat, nat) -> real): (r: Grid)
    requires Shaped(g)
    ensures IsGrid(r, |g[0]|, |g|) && Shaped(r)
    ensures forall y, x :: 0 <= y < |g| && 0 <= x < |g[0]| ==>
              r[y][x] == if draw(y, x) < noise then 1 - g[y][x] else g[y][x]
  {
    seq(|g|, (y: int) requires 0 <= y < |g| =>
      seq(|g[0]|, (x: int) requires 0 <= x < |g[0]| =>
        if draw(y, x) < noise then 1 - g[y][x] else g[y][x]))
  }

  /** Noise with the same draws applied twice gives the original grid back. */
  lemma NoiseTwiceRestores(g: Grid, noise: real, draw: (nat, nat) -> real)
    requires Shaped(g)
    ensures ApplyNoise(ApplyNoise(g, noise, draw), noise, draw) == g
  {
    var r := ApplyNoise(ApplyNoise(g, noise, draw), noise, draw);
    GridExt(r, g, |g[0]|, |g|);
  }

  /** Noise keeps a 0/1 grid 0/1, and a noise level no draw falls below leaves it as it was. */
  lemma NoiseBinary(g: Grid, noise: real, draw: (nat, nat) -> real)
    requires Shaped(g) && IsBinary(g)
    ensures IsBinary(ApplyNoise(g, noise, draw))
    ensures (forall y: nat, x: nat :: noise <= draw(y, x)) ==> ApplyNoise(g, noise, draw) == g
  {
    var r := ApplyNoise(g, noise, draw);
    if forall y: nat, x: nat :: noise <= draw(y, x) {
      GridExt(r, g, |g[0]|, |g|);
    }
  }

  // ----------------------------------------------------------- runRelaxation

  datatype Relaxed = Relaxed(finalGrid: Grid, finalHash: string)

  /** `runRelaxation(rule, baseGrid, { noise, steps })`. */
  function RunRelaxation(rule: Rule, base: Grid, noise: real, steps: nat, draw: (nat, nat) -> real): (r: Relaxed)
    requires Shaped(base)
    ensures IsGrid(r.finalGrid, Width(base), Height(base)) && Shaped(r.finalGrid)
    ensures r.finalHash == HashGrid(r.finalGrid)
  {
    var start := if noise > 0.0 then ApplyNoise(base, noise, draw) else CloneGrid(base);
    var g := CaStep.Run(start, rule, steps);
    Relaxed(g, HashGrid(g))
  }

  /** Without noise the clone equals the base, so relaxation is `steps` plain generations. */
  lemma NoiselessRelaxation(rule: Rule, base: Grid, noise: real, steps: nat, draw: (nat, nat) -> real)
    requires Shaped(base) && noise <= 0.0
    ensures RunRelaxation(rule, base, noise, steps, draw).finalGrid == CaStep.Run(base, rule, steps)
  {
    assert CloneGrid(base) == base;
  }

  /** Without noise the outcome does not depend on the random draws. */
  lemma NoiselessDeterministic(rule: Rule, base: Grid, noise: real, steps: nat, d1: (nat, nat) -> real, d2: (nat, nat) -> real)
    requires Shaped(base) && noise <= 0.0
    ensures RunRelaxation(rule, base, noise, steps, d1) == RunRelaxation(rule, base, noise, steps, d2)
  {
  }

  /** A base grid of empty rows relaxes to itself, noise or not. */
  lemma EmptyRowsRelax(rule: Rule, base: Grid, noise: real, steps: nat, draw: (nat, nat) -> real)
    requires Shaped(base) && Width(base) == 0
    ensures RunRelaxation(rule, base, noise, steps, draw).finalGrid == base
  {
    var start := if noise > 0.0 then ApplyNoise(base, noise, draw) else CloneGrid(base);
    GridExt(start, base, 0, |base|);
    CaStep.EmptyRowsStayEmpty(base, rule, steps);
  }

  /** A still life relaxes, without noise, to itself. */
  lemma {:induction false} StillLifeRelaxes(rule: Rule, base: Grid, steps: nat)
    requires Shaped(base) && CaStep.Step(base, rule) == base
    ensures CaStep.Run(base, rule, steps) == base
    decreases steps
  {
    if steps > 0 {
      StillLifeRelaxes(rule, base, steps - 1);
    }
  }

  // ---------------------------------------------------------- scanAttractors

  datatype Attractor = Attractor(hash: string, count: nat, frequency: real, sampleGrid: Grid)

  datatype Report = Report(ruleName: string, runs: nat, steps: nat, noise: real,
                           totalAttractors: nat, attractors: seq<Attractor>)

  /** The relaxations of runs 0 .. runs - 1; run i draws from `draws(i)`. */
  function Relaxations(rule: Rule, base: Grid, noise: real, steps: nat, runs: nat,
                       draws: nat -> (nat, nat) -> real): (rs: seq<Relaxed>)
    requires Shaped(base)
    ensures |rs| == runs
    ensures forall i :: 0 <= i < runs ==> rs[i] == RunRelaxation(rule, base, noise, steps, draws(i))
  {
    seq(runs, (i: int) requires 0 <= i < runs => RunRelaxation(rule, base, noise, steps, draws(i)))
  }

  function HashesOf(rs: seq<Relaxed>): (hs: seq<string>)
    ensures |hs| == |rs|
    ensures forall i :: 0 <= i < |rs| ==> hs[i] == rs[i].finalHash
  {
    seq(|rs|, (i: int) requires 0 <= i < |rs| => rs[i].finalHash)
  }

  /** The grid stored with a hash: the final grid of the first run that reached it. */
  function SampleOf(rs: seq<Relaxed>, h: string): (g: Grid)
    ensures h in HashesOf(rs) ==> exists i :: 0 <= i < |rs| && rs[i].finalHash == h && g == rs[i].finalGrid &&
                                   forall j :: 0 <= j < i ==> rs[j].finalHash != h
  {
    if |rs| == 0 then []
    else if rs[0].finalHash == h then rs[0].finalGrid
    else
      var g := SampleOf(rs[1..], h);
      assert h in HashesOf(rs) ==> h in HashesOf(rs[1..]) by {
        if h in HashesOf(rs) {
          var i :| 0 <= i < |rs| && HashesOf(rs)[i] == h;
          assert HashesOf(rs[1..])[i - 1] == h;
        }
      }
      g
  }

  /** The map's entries in insertion order, with `frequency = count / runs`. */
  function Entries(tally: Counts.Counts, rs: seq<Relaxed>, runs: nat): (es: seq<Attractor>)
    requires |tally| > 0 ==> runs > 0
    ensures |es| == |tally|
    ensures forall k :: 0 <= k < |tally| ==> es[k].hash == tally[k].0 && es[k].count == tally[k].1
    ensures forall k :: 0 <= k < |tally| ==> es[k].frequency == tally[k].1 as real / runs as real
    ensures forall k :: 0 <= k < |tally| ==> es[k].sampleGrid == SampleOf(rs, tally[k].0)
  {
    if |tally| == 0 then []
    else [Attractor(tally[0].0, tally[0].1, tally[0].1 as real / runs as real, SampleOf(rs, tally[0].0))]
         + Entries(tally[1..], rs, runs)
  }

  /** The attractor map of a list of runs, in first-seen order, before sorting and truncation. */
  function Tabulate(rs: seq<Relaxed>): (es: seq<Attractor>)
  {
    Counts.TallyTotal(HashesOf(rs));
    Entries(Counts.Tally(HashesOf(rs)), rs, |rs|)
  }

  function SumCounts(es: seq<Attractor>): nat {
    if |es| == 0 then 0 else es[0].count + SumCounts(es[1..])
  }

  /**
   One entry per distinct final hash: its count is the number of runs that
   ended there and its frequency that count over the runs.
   */
  lemma TabulateCount(rs: seq<Relaxed>, k: nat)
    requires k < |Tabulate(rs)|
    ensures Tabulate(rs)[k].hash in HashesOf(rs)
    ensures Tabulate(rs)[k].count == multiset(HashesOf(rs))[Tabulate(rs)[k].hash] > 0
    ensures Tabulate(rs)[k].frequency == Tabulate(rs)[k].count as real / |rs| as real
  {
    var hs := HashesOf(rs);
    var tally := Counts.Tally(hs);
    var a := Tabulate(rs)[k];
    Counts.TallyKeys(hs);
    assert Counts.Keys(tally)[k] == a.hash;
    Counts.GetEntry(tally, k);
    Counts.TallyGet(hs, a.hash);
  }

  /** The sample kept with an entry is the final grid of the first run that reached its hash. */
  lemma TabulateSample(rs: seq<Relaxed>, k: nat)
    requires k < |Tabulate(rs)|
    ensures exists i :: 0 <= i < |rs| && rs[i].finalHash == Tabulate(rs)[k].hash &&
                        Tabulate(rs)[k].sampleGrid == rs[i].finalGrid &&
                        forall j :: 0 <= j < i ==> rs[j].finalHash != Tabulate(rs)[k].hash
  {
    var hs := HashesOf(rs);
    var tally := Counts.Tally(hs);
    Counts.TallyKeys(hs);
    assert Counts.Keys(tally)[k] == Tabulate(rs)[k].hash;
  }

  /** Every hash that some run reached has exactly one entry. */
  lemma TabulateKeys(rs: seq<Relaxed>)
    ensures |Tabulate(rs)| == |set h | h in HashesOf(rs)|
    ensures forall h :: h in HashesOf(rs) ==> exists k :: 0 <= k < |Tabulate(rs)| && Tabulate(rs)[k].hash == h
    ensures forall j, k :: 0 <= j < k < |Tabulate(rs)| ==> Tabulate(rs)[j].hash != Tabulate(rs)[k].hash
  {
    var hs := HashesOf(rs);
    var tally := Counts.Tally(hs);
    var all := Tabulate(rs);
    Counts.TallySize(hs);
    Counts.TallyKeys(hs);
    forall h | h in hs
      ensures exists k :: 0 <= k < |all| && all[k].hash == h
    {
      var k :| 0 <= k < |tally| && Counts.Keys(tally)[k] == h;
      assert all[k].hash == h;
    }
  }

  /** The counts over all distinct hashes add up to the number of runs. */
  lemma TabulateSum(rs: seq<Relaxed>)
    ensures SumCounts(Tabulate(rs)) == |rs|
  {
    var tally := Counts.Tally(HashesOf(rs));
    Counts.TallyTotal(HashesOf(rs));
    SumCountsIsTotal(tally, rs, |rs|);
  }

  lemma {:induction false} SumCountsIsTotal(tally: Counts.Counts, rs: seq<Relaxed>, runs: nat)
    requires |tally| > 0 ==> runs > 0
    ensures SumCounts(Entries(tally, rs, runs)) == Counts.Total(tally)
  {
    if |tally| > 0 {
      SumCountsIsTotal(tally[1..], rs, runs);
      assert Entries(tally, rs, runs)[1..] == Entries(tally[1..], rs, runs);
    }
  }

  /** The comparator `(a, b) => b.frequency - a.frequency`. */
  predicate ByFrequencyDesc(a: Attractor, b: Attractor) {
    a.frequency >= b.frequency
  }

  lemma ByFrequencyDescIsTotalPreorder()
    ensures Sorting.TotalPreorder(ByFrequencyDesc)
  {
  }

  /**
   `attractors.sort(byFrequencyDesc).slice(0, maxAttractors)`: the most
   frequent attractors, in descending order, each taken from `all` at most
   as often as it occurs there, and none less frequent than one left out.
   The sort is stable, so attractors of equal frequency keep their order in
   `all`: those kept are the first ones of that frequency.
   */
  function Top(all: seq<Attractor>, maxAttractors: nat): (top: seq<Attractor>)
    ensures |top| == if maxAttractors < |all| then maxAttractors else |all|
    ensures Sorting.SortedBy(ByFrequencyDesc, top)
    ensures multiset(top) <= multiset(all)
    ensures forall a :: a in top ==> a in all
    ensures forall a, b :: a in top && b in all && b !in top ==> a.frequency >= b.frequency
    ensures forall d :: PyList.Filter(top, Sorting.Tied(ByFrequencyDesc, d)) <= PyList.Filter(all, Sorting.Tied(ByFrequencyDesc, d))
  {
    var sorted := Sorting.SortBy(ByFrequencyDesc, all);
    ByFrequencyDescIsTotalPreorder();
    Sorting.SortBySorted(ByFrequencyDesc, all);
    var n := if maxAttractors < |sorted| then maxAttractors else |sorted|;
    PrefixSelects(sorted, all, n);
    forall d
      ensures PyList.Filter(sorted[..n], Sorting.Tied(ByFrequencyDesc, d)) <= PyList.Filter(all, Sorting.Tied(ByFrequencyDesc, d))
    {
      PyList.FilterPrefix(sorted[..n], sorted, Sorting.Tied(ByFrequencyDesc, d));
      Sorting.SortByStable(ByFrequencyDesc, all, d);
    }
    sorted[..n]
  }

  /** A prefix of a sorted permutation of `t` is a sub-multiset of `t` that no element left out outranks. */
  lemma PrefixSelects(s: seq<Attractor>, t: seq<Attractor>, n: nat)
    requires multiset(s) == multiset(t) && n <= |s|
    requires Sorting.SortedBy(ByFrequencyDesc, s)
    ensures multiset(s[..n]) <= multiset(t)
    ensures forall a :: a in s[..n] ==> a in t
    ensures forall a, b :: a in s[..n] && b in t && b !in s[..n] ==> a.frequency >= b.frequency
  {
    assert s == s[..n] + s[n..];
    assert multiset(s) == multiset(s[..n]) + multiset(s[n..]);
    forall a | a in s[..n]
      ensures a in t
    {
      assert a in multiset(s);
    }
    forall a, b | a in s[..n] && b in t && b !in s[..n]
      ensures a.frequency >= b.frequency
    {
      assert b in multiset(s);
      var j :| 0 <= j < |s| && s[j] == b;
      var i :| 0 <= i < n && s[..n][i] == a;
      assert ByFrequencyDesc(s[i], s[j]);
    }
  }

  /** `scanAttractors(rule, baseGrid, { runs, steps, noise, maxAttractors })`. */
  function ScanAttractors(rule: NamedRule, base: Grid, runs: nat, steps: nat, noise: real, maxAttractors: nat,
                          draws: nat -> (nat, nat) -> real): (r: Report)
    requires Shaped(base)
    ensures r.ruleName == rule.name && r.runs == runs && r.steps == steps && r.noise == noise
    ensures var all := Tabulate(Relaxations(rule.rule, base, noise, steps, runs, draws));
            && r.totalAttractors == |all|
            && |r.attractors| == (if maxAttractors < |all| then maxAttractors else |all|)
            && Sorting.SortedBy(ByFrequencyDesc, r.attractors)
            && multiset(r.attractors) <= multiset(all)
            && (forall a :: a in r.attractors ==> a in all)
            && (forall a, b :: a in r.attractors && b in all && b !in r.attractors ==> a.frequency >= b.frequency)
            && forall d :: PyList.Filter(r.attractors, Sorting.Tied(ByFrequencyDesc, d)) <= PyList.Filter(all, Sorting.Tied(ByFrequencyDesc, d))
  {
    var all := Tabulate(Relaxations(rule.rule, base, noise, steps, runs, draws));
    Report(rule.name, runs, steps, noise, |all|, Top(all, maxAttractors))
  }

  /** When every run ends on the same hash there is one attractor, holding every run. */
  lemma SingleHashSingleAttractor(rs: seq<Relaxed>)
    requires |rs| > 0 && forall i :: 0 <= i < |rs| ==> rs[i].finalHash == rs[0].finalHash
    ensures |Tabulate(rs)| == 1 && Tabulate(rs)[0].count == |rs| && Tabulate(rs)[0].frequency == 1.0
  {
    SingleHashOneEntry(rs);
    OneEntryHoldsAll(rs);
  }

  lemma SingleHashOneEntry(rs: seq<Relaxed>)
    requires |rs| > 0 && forall i :: 0 <= i < |rs| ==> rs[i].finalHash == rs[0].finalHash
    ensures |Tabulate(rs)| == 1
  {
    var hs := HashesOf(rs);
    assert (set x | x in hs) == {rs[0].finalHash} by {
      forall x | x in hs
        ensures x == rs[0].finalHash
      {
        var i :| 0 <= i < |hs| && hs[i] == x;
      }
    }
    TabulateKeys(rs);
  }

  /** An attractor map with a single entry gives it every run. */
  lemma OneEntryHoldsAll(rs: seq<Relaxed>)
    requires |Tabulate(rs)| == 1
    ensures Tabulate(rs)[0].count == |rs| && Tabulate(rs)[0].frequency == 1.0
  {
    var all := Tabulate(rs);
    TabulateSum(rs);
    assert SumCounts(all) == all[0].count;
    TabulateCount(rs, 0);
    assert all[0].count == |rs| > 0;
    DivSelf(|rs| as real);
  }

  lemma DivSelf(n: real)
    requires n > 0.0
    ensures n / n == 1.0
  {
  }

  /** Without noise every run ends on the same grid, so the scan finds exactly one attractor, with frequency 1. */
  lemma NoiselessSingleAttractor(rule: Rule, base: Grid, noise: real, steps: nat, runs: nat,
                                 draws: nat -> (nat, nat) -> real)
    requires Shaped(base) && noise <= 0.0 && runs > 0
    ensures var all := Tabulate(Relaxations(rule, base, noise, steps, runs, draws));
            |all| == 1 && all[0].count == runs && all[0].frequency == 1.0
  {
    var rs := Relaxations(rule, base, noise, steps, runs, draws);
    forall i | 0 <= i < runs
      ensures rs[i].finalHash == rs[0].finalHash
    {
      NoiselessDeterministic(rule, base, noise, steps, draws(i), draws(0));
    }
    SingleHashSingleAttractor(rs);
  }
}

=== FILE: attractor_utils.dfy ===
/**
 `experiments/memory-ai-lab/memory/attractorUtils.js`: the int32 rolling
 hash of a flat board, dominant-attractor selection, bit-flip noise and
 the length-checked Hamming distance.
 */
module AttractorUtils {
  import opened Wrappers
  import opened JsNumbers
  import Sorting
  import PyList

  // ---------------------------------------------------------------- hashGrid

  /** One loop iteration: `((hash << 5) - hash + cell) | 0` on an int32 hash. */
  function HashStep(hash: int, cell: int): int {
    ToInt32(ToInt32(hash * 32) - hash + cell)
  }

  /** The numeric hash after the loop over every cell, starting from 0. */
  function HashValue(g: seq<int>): int {
    if |g| == 0 then 0 else HashStep(HashValue(g[..|g| - 1]), g[|g| - 1])
  }

  /** The exact polynomial hash: sum of cell_i * 31^(n-1-i). */
  function Poly31(g: seq<int>): int {
    if |g| == 0 then 0 else Poly31(g[..|g| - 1]) * 31 + g[|g| - 1]
  }

  /** The shift-and-subtract loop computes the base-31 polynomial hash modulo 2^32, as a signed int32. */
  lemma {:induction false} HashValueIsPoly31(g: seq<int>)
    ensures HashValue(g) == ToInt32(Poly31(g))
  {
    if |g| > 0 {
      var p := g[..|g| - 1];
      var c := g[|g| - 1];
      HashValueIsPoly31(p);
      var h := HashValue(p);
      ToInt32Congruent(h * 32);
      var k1 :| ToInt32(h * 32) == h * 32 + k1 * TwoTo32;
      ToInt32Periodic(31 * h + c, k1);
      assert ToInt32(h * 32) - h + c == 31 * h + c + k1 * TwoTo32;
      ToInt32Congruent(Poly31(p));
      var k2 :| h == Poly31(p) + k2 * TwoTo32;
      assert 31 * h + c == Poly31(p) * 31 + c + (31 * k2) * TwoTo32;
      ToInt32Periodic(Poly31(p) * 31 + c, 31 * k2);
    }
  }

  const HexDigits: string := "0123456789abcdef"

  /** `n.toString(16)` for a non-negative integer. */
  function Hex(n: nat): (s: string)
    ensures |s| > 0
    ensures forall k :: 0 <= k < |s| ==> s[k] in HexDigits
  {
    if n < 16 then [HexDigits[n]] else Hex(n / 16) + [HexDigits[n % 16]]
  }

  /** `x.toString(16)`: a leading `-` for negative numbers. */
  function ToString16(x: int): string {
    if x < 0 then "-" + Hex(-x) else Hex(x)
  }

  /** `hashGrid(grid)`. */
  function HashGrid(g: seq<int>): string {
    ToString16(HashValue(g))
  }

  function HexValue(c: char): nat {
    if '0' <= c <= '9' then c as int - '0' as int
    else if 'a' <= c <= 'f' then c as int - 'a' as int + 10
    else 0
  }

  /** Reads a lower-case hex digit string back. */
  function ParseHex(s: string): nat {
    if |s| == 0 then 0 else ParseHex(s[..|s| - 1]) * 16 + HexValue(s[|s| - 1])
  }

  function ParseSigned16(s: string): int {
    if |s| > 0 && s[0] == '-' then -(ParseHex(s[1..]) as int) else ParseHex(s)
  }

  lemma {:induction false} HexRoundTrip(n: nat)
    ensures ParseHex(Hex(n)) == n
  {
    if n >= 16 {
      HexRoundTrip(n / 16);
      var s := Hex(n);
      assert s[..|s| - 1] == Hex(n / 16);
      assert HexValue(HexDigits[n % 16]) == n % 16;
    } else {
      assert HexValue(HexDigits[n]) == n;
    }
  }

  /** The signed hex text determines the number: the printing is injective. */
  lemma ToString16RoundTrip(x: int)
    ensures ParseSigned16(ToString16(x)) == x
  {
    if x < 0 {
      NegativeRoundTrip(-x);
      assert ToString16(x) == "-" + Hex(-x);
    } else {
      var s := Hex(x);
      HexRoundTrip(x);
      SignedOfDigits(s);
      assert ToString16(x) == s;
    }
  }

  lemma NegativeRoundTrip(n: nat)
    ensures ParseSigned16("-" + Hex(n)) == -(n as int)
  {
    HexRoundTrip(n);
    SignedOfMinus(Hex(n));
  }

  lemma SignedOfMinus(s: string)
    ensures ParseSigned16("-" + s) == -(ParseHex(s) as int)
  {
    assert ("-" + s)[1..] == s;
  }

  lemma SignedOfDigits(s: string)
    requires |s| > 0 && s[0] in HexDigits
    ensures ParseSigned16(s) == ParseHex(s)
  {
  }

  /** The hash text is the signed hex of the int32-reduced polynomial hash, and reads back to it. */
  lemma HashGridMeaning(g: seq<int>)
    ensures HashGrid(g) == ToString16(ToInt32(Poly31(g)))
    ensures ParseSigned16(HashGrid(g)) == ToInt32(Poly31(g))
  {
    HashValueIsPoly31(g);
    ToString16RoundTrip(HashValue(g));
  }

  // --------------------------------------------------- findDominantAttractors

  datatype Dominant = Dominant(hash: string, count: nat, percentage: real)

  /** `count >= totalRuns * 0.05`, in exact arithmetic. */
  predicate IsDominant(count: nat, totalRuns: nat) {
    count as real >= totalRuns as real * 0.05
  }

  /** The loop over the Map's entries, in insertion order, keeping the dominant ones. */
  function KeepDominant(entries: seq<(string, nat)>, totalRuns: nat): (r: seq<Dominant>)
    requires totalRuns > 0
    ensures |r| <= |entries|
    ensures forall d :: d in r ==> IsDominant(d.count, totalRuns)
    ensures forall d :: d in r ==> (d.hash, d.count) in entries
    ensures forall d :: d in r ==> d.percentage == d.count as real / totalRuns as real * 100.0
    ensures forall e :: e in entries && IsDominant(e.1, totalRuns) ==>
              Dominant(e.0, e.1, e.1 as real / totalRuns as real * 100.0) in r
  {
    if |entries| == 0 then []
    else
      var e := entries[0];
      var rest := KeepDominant(entries[1..], totalRuns);
      assert forall x :: x in entries[1..] ==> x in entries;
      if IsDominant(e.1, totalRuns) then [Dominant(e.0, e.1, e.1 as real / totalRuns as real * 100.0)] + rest
      else rest
  }

  /** The comparator `(a, b) => b.count - a.count`: larger counts first. */
  predicate ByCountDesc(a: Dominant, b: Dominant) {
    a.count >= b.count
  }

  lemma ByCountDescIsTotalPreorder()
    ensures Sorting.TotalPreorder(ByCountDesc)
  {
  }

  /**
   `findDominantAttractors(attractorCounts, totalRuns)`: the dominant
   entries by descending count, entries of equal count in Map order.
   */
  function FindDominantAttractors(entries: seq<(string, nat)>, totalRuns: nat): (r: seq<Dominant>)
    requires totalRuns > 0
    ensures multiset(r) == multiset(KeepDominant(entries, totalRuns))
    ensures Sorting.SortedBy(ByCountDesc, r)
    ensures forall d :: PyList.Filter(r, Sorting.Tied(ByCountDesc, d)) ==
                        PyList.Filter(KeepDominant(entries, totalRuns), Sorting.Tied(ByCountDesc, d))
  {
    ByCountDescIsTotalPreorder();
    Sorting.SortBySorted(ByCountDesc, KeepDominant(entries, totalRuns));
    forall d
      ensures PyList.Filter(Sorting.SortBy(ByCountDesc, KeepDominant(entries, totalRuns)), Sorting.Tied(ByCountDesc, d)) ==
              PyList.Filter(KeepDominant(entries, totalRuns), Sorting.Tied(ByCountDesc, d))
    {
      Sorting.SortByStable(ByCountDesc, KeepDominant(entries, totalRuns), d);
    }
    Sorting.SortBy(ByCountDesc, KeepDominant(entries, totalRuns))
  }

  /** Exactly the entries with at least 5 % of the runs come back, with their percentage. */
  lemma DominantMembership(entries: seq<(string, nat)>, totalRuns: nat, e: (string, nat))
    requires totalRuns > 0
    requires e in entries
    ensures Dominant(e.0, e.1, e.1 as real / totalRuns as real * 100.0) in FindDominantAttractors(entries, totalRuns)
            <==> IsDominant(e.1, totalRuns)
  {
    var kept := KeepDominant(entries, totalRuns);
    var d := Dominant(e.0, e.1, e.1 as real / totalRuns as real * 100.0);
    assert d in FindDominantAttractors(entries, totalRuns) <==> d in multiset(kept);
  }

  // ---------------------------------------------------------------- addNoise

  /** `addNoise(grid, noiseLevel)`: a `Uint8Array` copy; cell i is flipped iff the i-th draw is below the level. */
  function AddNoise(g: seq<int>, level: real, draw: nat -> real): (r: seq<int>)
    ensures |r| == |g|
    ensures forall i :: 0 <= i < |g| ==>
              r[i] == if draw(i) < level then ToUint8(1 - ToUint8(g[i])) else ToUint8(g[i])
  {
    seq(|g|, (i: int) requires 0 <= i < |g| =>
      if draw(i) < level then ToUint8(1 - ToUint8(g[i])) else ToUint8(g[i]))
  }

  // --------------------------------------------------------- hammingDistance

  /** Number of positions below |a| where the two boards differ. */
  function Differences(a: seq<int>, b: seq<int>): (d: nat)
    requires |a| == |b|
    ensures d <= |a|
  {
    if |a| == 0 then 0
    else Differences(a[..|a| - 1], b[..|b| - 1]) + (if a[|a| - 1] != b[|b| - 1] then 1 else 0)
  }

  const LengthMismatch: string := "Les grilles doivent avoir la même taille"

  /** `hammingDistance(grid1, grid2)`: throws on a length mismatch. */
  function HammingDistance(a: seq<int>, b: seq<int>): (r: Result<nat>)
    ensures r.Err? <==> |a| != |b|
    ensures r.Ok? ==> r.value <= |a|
  {
    if |a| != |b| then Err(Error(RuntimeError, LengthMismatch)) else Ok(Differences(a, b))
  }

  lemma {:induction false} DifferencesSymmetric(a: seq<int>, b: seq<int>)
    requires |a| == |b|
    ensures Differences(a, b) == Differences(b, a)
  {
    if |a| > 0 {
      DifferencesSymmetric(a[..|a| - 1], b[..|b| - 1]);
    }
  }

  lemma {:induction false} DifferencesZeroIffEqual(a: seq<int>, b: seq<int>)
    requires |a| == |b|
    ensures Differences(a, b) == 0 <==> a == b
  {
    if |a| > 0 {
      DifferencesZeroIffEqual(a[..|a| - 1], b[..|b| - 1]);
      assert a == a[..|a| - 1] + [a[|a| - 1]];
      assert b == b[..|b| - 1] + [b[|b| - 1]];
    }
  }

  /** The distance is symmetric, and 0 exactly for equal boards. */
  lemma HammingMetric(a: seq<int>, b: seq<int>)
    requires |a| == |b|
    ensures HammingDistance(a, b) == HammingDistance(b, a)
    ensures HammingDistance(a, b) == Ok(0) <==> a == b
  {
    DifferencesSymmetric(a, b);
    DifferencesZeroIffEqual(a, b);
  }

  /** Number of draws below the level among the first n cells. */
  function Flips(n: nat, level: real, draw: nat -> real): nat {
    if n == 0 then 0 else Flips(n - 1, level, draw) + (if draw(n - 1) < level then 1 else 0)
  }

  lemma {:induction false} NoiseDistancePrefix(g: seq<int>, level: real, draw: nat -> real, n: nat)
    requires forall i :: 0 <= i < |g| ==> g[i] == 0 || g[i] == 1
    requires n <= |g|
    ensures Differences(g[..n], AddNoise(g, level, draw)[..n]) == Flips(n, level, draw)
  {
    if n > 0 {
      NoiseDistancePrefix(g, level, draw, n - 1);
      var a := AddNoise(g, level, draw);
      assert g[..n][..n - 1] == g[..n - 1];
      assert a[..n][..n - 1] == a[..n - 1];
      assert (g[n - 1] != a[n - 1]) == (draw(n - 1) < level);
    }
  }

  /** On a 0/1 board the noisy copy lies at Hamming distance equal to the number of flips drawn. */
  lemma NoiseDistanceIsFlips(g: seq<int>, level: real, draw: nat -> real)
    requires forall i :: 0 <= i < |g| ==> g[i] == 0 || g[i] == 1
    ensures HammingDistance(g, AddNoise(g, level, draw)) == Ok(Flips(|g|, level, draw))
  {
    NoiseDistancePrefix(g, level, draw, |g|);
    assert g[..|g|] == g;
    assert AddNoise(g, level, draw)[..|g|] == AddNoise(g, level, draw);
  }
}

=== FILE: auto_scan.dfy ===
/**
 `experiments/memory-ai-lab/autoScan.js`: the memory-candidate scan over
 the extra rules. What one noisy run produces (the hash of its final grid
 and whether recall succeeded) is the oracle `outcome(rule, noise, pattern,
 run)`; the rest — attractor counting, coverage, the per-noise means and
 the candidate decision — is modelled as written.
 */
module AutoScan {
  import opened Wrappers
  import opened JsFloat
  import Counts
  import AttractorUtils
  import DatasetExport
  import Arith

  // ------------------------------------------------------ testRuleOnPattern

  datatype PatternResult = PatternResult(recallRate: Num, coverage: real, attractors: nat, dominantPercentage: real)

  /** `dominants.reduce((sum, a) => sum + a.percentage, 0)`. */
  function SumPct(ds: seq<AttractorUtils.Dominant>): real {
    if |ds| == 0 then 0.0 else ds[0].percentage + SumPct(ds[1..])
  }

  function Successes(ok: seq<bool>): (n: nat)
    ensures n <= |ok|
  {
    if |ok| == 0 then 0 else Successes(ok[..|ok| - 1]) + (if ok[|ok| - 1] then 1 else 0)
  }

  /** The dominant attractors of the final hashes; with no run the Map is empty and so is the list. */
  function Dominants(hashes: seq<string>): seq<AttractorUtils.Dominant> {
    if |hashes| == 0 then [] else AttractorUtils.FindDominantAttractors(Counts.Tally(hashes), |hashes|)
  }

  /**
   `testRuleOnPattern`: one final hash and one success flag per run. The
   recall rate is `successCount / runs` (NaN without runs), the coverage the
   dominant percentages over 100, and the main attractor the first dominant
   one, or 0.
   */
  function TestRuleOnPattern(hashes: seq<string>, successes: seq<bool>): (r: PatternResult)
    requires |hashes| == |successes|
    ensures r.recallRate.NaN? <==> |hashes| == 0
    ensures r.recallRate.Real? ==> 0.0 <= r.recallRate.v <= 1.0
    ensures r.attractors == |Dominants(hashes)|
    ensures 0.0 <= r.coverage <= 1.0
  {
    var runs := |hashes|;
    var dominants := Dominants(hashes);
    var main := if |dominants| > 0 then dominants[0].percentage else 0.0;
    CoverageBounds(hashes);
    var recall := if runs == 0 then NaN else (
      Arith.QuotientBounds(Successes(successes) as real, runs as real, 1.0);
      Real(Successes(successes) as real / runs as real));
    PatternResult(recall, SumPct(dominants) / 100.0, |dominants|, main)
  }

  // ---------------------------------------------------------- coverage <= 1

  /** Sums over the same multiset agree: the sort does not change the total. */
  lemma {:induction false} SumPctPermutation(a: seq<AttractorUtils.Dominant>, b: seq<AttractorUtils.Dominant>)
    requires multiset(a) == multiset(b)
    ensures SumPct(a) == SumPct(b)
    decreases |a|
  {
    if |a| == 0 {
      assert |b| == |multiset(b)| == 0;
    } else {
      var x := a[0];
      assert x in multiset(b);
      var i :| 0 <= i < |b| && b[i] == x;
      var b' := Without(b, i);
      TailPermutation(a, b, i);
      SumPctPermutation(a[1..], b');
      SumPctRemove(b, i);
      assert SumPct(a) == x.percentage + SumPct(a[1..]);
    }
  }

  function Without<T>(b: seq<T>, i: nat): seq<T>
    requires i < |b|
  {
    b[..i] + b[i + 1..]
  }

  lemma WithoutMultiset<T>(b: seq<T>, i: nat)
    requires i < |b|
    ensures multiset(b) == multiset(Without(b, i)) + multiset{b[i]}
  {
    assert b == b[..i] + [b[i]] + b[i + 1..];
  }

  /** Taking the first element off one side and a copy of it off the other keeps them permutations. */
  lemma TailPermutation<T>(a: seq<T>, b: seq<T>, i: nat)
    requires multiset(a) == multiset(b) && |a| > 0 && i < |b| && b[i] == a[0]
    ensures multiset(a[1..]) == multiset(Without(b, i))
  {
    WithoutMultiset(b, i);
    assert a == [a[0]] + a[1..];
    assert multiset(a) == multiset{a[0]} + multiset(a[1..]);
    assert multiset(a[1..]) == multiset(a) - multiset{a[0]};
    assert multiset(Without(b, i)) == multiset(b) - multiset{a[0]};
  }

  lemma {:induction false} SumPctRemove(b: seq<AttractorUtils.Dominant>, i: nat)
    requires i < |b|
    ensures SumPct(b) == b[i].percentage + SumPct(Without(b, i))
    decreases i
  {
    if i > 0 {
      SumPctRemove(b[1..], i - 1);
      var c := Without(b, i);
      assert c[0] == b[0];
      assert c[1..] == Without(b[1..], i - 1);
    } else {
      assert Without(b, 0) == b[1..];
    }
  }

  lemma ScaledSum(a: real, b: real, n: real)
    requires n > 0.0
    ensures a / n * 100.0 + b / n * 100.0 == (a + b) / n * 100.0
  {
  }

  lemma ScaledLe(a: real, b: real, n: real)
    requires n > 0.0 && a <= b
    ensures a / n * 100.0 <= b / n * 100.0
  {
    assert a / n <= b / n;
  }

  /** The kept percentages add up to at most the percentage of all counted runs. */
  lemma {:induction false} KeptPctBound(entries: seq<(string, nat)>, runs: nat)
    requires runs > 0
    ensures 0.0 <= SumPct(AttractorUtils.KeepDominant(entries, runs)) <= Counts.Total(entries) as real / runs as real * 100.0
  {
    if |entries| > 0 {
      var e := entries[0];
      var n := runs as real;
      KeptPctBound(entries[1..], runs);
      var restTotal := Counts.Total(entries[1..]) as real;
      ScaledSum(e.1 as real, restTotal, n);
      ScaledLe(restTotal, e.1 as real + restTotal, n);
      assert 0.0 <= e.1 as real / n * 100.0;
    }
  }

  /** The coverage of one pattern lies in [0, 1]: dominant attractors share at most all runs. */
  lemma CoverageBounds(hashes: seq<string>)
    ensures 0.0 <= SumPct(Dominants(hashes)) / 100.0 <= 1.0
  {
    if |hashes| > 0 {
      var runs := |hashes|;
      var counts := Counts.Tally(hashes);
      var ds := AttractorUtils.FindDominantAttractors(counts, runs);
      var kept := AttractorUtils.KeepDominant(counts, runs);
      assert Dominants(hashes) == ds;
      SumPctPermutation(ds, kept);
      KeptPctBound(counts, runs);
      Counts.TallyTotal(hashes);
      WholeIsHundred(runs);
    }
  }

  lemma WholeIsHundred(n: nat)
    requires n > 0
    ensures n as real / n as real * 100.0 == 100.0
  {
  }

  // ------------------------------------------------------ per-noise averages

  /** One noise level of one rule: recall and coverage in percent, attractors as a mean count. */
  datatype NoiseSummary = NoiseSummary(noise: real, recall: Num, coverage: Num, attractors: Num)

  /** `xs.reduce((sum, x) => sum + x, 0) / xs.length`: NaN for an empty list or a NaN term. */
  function Mean(xs: seq<Num>): (m: Num)
    ensures m.Real? <==> |xs| > 0 && forall k :: 0 <= k < |xs| ==> xs[k].Real?
  {
    SumNumNaN(xs);
    if |xs| == 0 then NaN
    else match SumNum(xs)
      case NaN => NaN
      case Real(v) => Real(v / |xs| as real)
  }

  function SumNum(xs: seq<Num>): Num {
    if |xs| == 0 then Real(0.0) else Add(SumNum(xs[..|xs| - 1]), xs[|xs| - 1])
  }

  lemma {:induction false} SumNumNaN(xs: seq<Num>)
    ensures SumNum(xs).Real? <==> forall k :: 0 <= k < |xs| ==> xs[k].Real?
  {
    if |xs| > 0 {
      var pre := xs[..|xs| - 1];
      SumNumNaN(pre);
      assert forall k :: 0 <= k < |pre| ==> pre[k] == xs[k];
    }
  }

  /** Terms in [0, 1] have a sum in [0, n]. */
  lemma {:induction false} SumNumBounds(xs: seq<Num>)
    requires forall k :: 0 <= k < |xs| ==> xs[k].Real? && 0.0 <= xs[k].v <= 1.0
    ensures SumNum(xs).Real?
    ensures 0.0 <= SumNum(xs).v <= |xs| as real
  {
    if |xs| > 0 {
      var pre := xs[..|xs| - 1];
      assert forall k :: 0 <= k < |pre| ==> pre[k] == xs[k];
      SumNumBounds(pre);
    }
  }

  /** The mean of terms in [0, 1] lies in [0, 1]. */
  lemma MeanBounds(xs: seq<Num>)
    requires |xs| > 0
    requires forall k :: 0 <= k < |xs| ==> xs[k].Real? && 0.0 <= xs[k].v <= 1.0
    ensures Mean(xs).Real? && 0.0 <= Mean(xs).v <= 1.0
  {
    SumNumBounds(xs);
    MeanOfSum(xs);
    Arith.QuotientBounds(SumNum(xs).v, |xs| as real, 1.0);
  }

  lemma MeanOfSum(xs: seq<Num>)
    requires |xs| > 0 && SumNum(xs).Real?
    ensures Mean(xs) == Real(SumNum(xs).v / |xs| as real)
  {
  }

  function Percent(x: Num): Num {
    match x
    case NaN => NaN
    case Real(v) => Real(v * 100.0)
  }

  /** The per-noise entry built from the results of every pattern at that level. */
  function Summarize(noise: real, rs: seq<PatternResult>): (s: NoiseSummary)
    ensures s.noise == noise
  {
    NoiseSummary(noise,
      Percent(Mean(seq(|rs|, (k: int) requires 0 <= k < |rs| => rs[k].recallRate))),
      Percent(Mean(seq(|rs|, (k: int) requires 0 <= k < |rs| => Real(rs[k].coverage)))),
      Mean(seq(|rs|, (k: int) requires 0 <= k < |rs| => Real(rs[k].attractors as real))))
  }

  /**
   With at least one pattern and at least one run, recall and coverage are
   percentages in [0, 100]; with no pattern all three means are NaN.
   */
  lemma SummaryBounds(noise: real, rs: seq<PatternResult>)
    requires forall k :: 0 <= k < |rs| ==> rs[k].recallRate.Real? && 0.0 <= rs[k].recallRate.v <= 1.0 && 0.0 <= rs[k].coverage <= 1.0
    ensures |rs| == 0 ==> Summarize(noise, rs).recall.NaN? && Summarize(noise, rs).coverage.NaN? && Summarize(noise, rs).attractors.NaN?
    ensures |rs| > 0 ==> var s := Summarize(noise, rs);
              && s.recall.Real? && 0.0 <= s.recall.v <= 100.0
              && s.coverage.Real? && 0.0 <= s.coverage.v <= 100.0
  {
    if |rs| > 0 {
      MeanBounds(seq(|rs|, (k: int) requires 0 <= k < |rs| => rs[k].recallRate));
      MeanBounds(seq(|rs|, (k: int) requires 0 <= k < |rs| => Real(rs[k].coverage)));
    }
  }

  // ----------------------------------------------------------- isCandidate

  /** `x >= c`: false for NaN. */
  predicate AtLeast(x: Num, c: real) {
    x.Real? && x.v >= c
  }

  /** The low-noise test of `okLowNoise`. */
  predicate LowOk(p: NoiseSummary, minRecall: real, minCoverage: real) {
    p.noise <= 0.05 && AtLeast(p.recall, minRecall) && AtLeast(p.coverage, minCoverage) && AtLeast(p.attractors, 0.5)
  }

  /** The medium-noise test of `okMedNoise`. */
  predicate MedOk(p: NoiseSummary) {
    p.noise >= 0.08 && AtLeast(p.recall, 40.0)
  }

  /** `perNoise.filter(...)`. */
  function OkLowNoise(ps: seq<NoiseSummary>, minRecall: real, minCoverage: real): (ok: seq<NoiseSummary>)
    ensures forall p :: p in ok ==> p in ps && LowOk(p, minRecall, minCoverage)
  {
    if |ps| == 0 then []
    else OkLowNoise(ps[..|ps| - 1], minRecall, minCoverage) + (if LowOk(ps[|ps| - 1], minRecall, minCoverage) then [ps[|ps| - 1]] else [])
  }

  /** `perNoise.find(...)`: the first entry passing the medium-noise test. */
  function OkMedNoise(ps: seq<NoiseSummary>): (m: Option<NoiseSummary>)
    ensures m.None? <==> forall k :: 0 <= k < |ps| ==> !MedOk(ps[k])
    ensures m.Some? ==> m.value in ps && MedOk(m.value)
  {
    if |ps| == 0 then None
    else if MedOk(ps[0]) then Some(ps[0])
    else
      var m := OkMedNoise(ps[1..]);
      assert forall k :: 1 <= k < |ps| ==> ps[k] == ps[1..][k - 1];
      m
  }

  /** `okLowNoise.length >= 2 && !!okMedNoise`. */
  function IsCandidate(ps: seq<NoiseSummary>, minRecall: real, minCoverage: real): bool {
    |OkLowNoise(ps, minRecall, minCoverage)| >= 2 && OkMedNoise(ps).Some?
  }

  /** The filter holds at least two entries iff two distinct levels pass the low-noise test. */
  lemma {:induction false} TwoLowOk(ps: seq<NoiseSummary>, minRecall: real, minCoverage: real)
    ensures |OkLowNoise(ps, minRecall, minCoverage)| >= 1 <==> exists i :: 0 <= i < |ps| && LowOk(ps[i], minRecall, minCoverage)
    ensures |OkLowNoise(ps, minRecall, minCoverage)| >= 2 <==>
              exists i, j :: 0 <= i < j < |ps| && LowOk(ps[i], minRecall, minCoverage) && LowOk(ps[j], minRecall, minCoverage)
  {
    if |ps| > 0 {
      var n := |ps| - 1;
      var pre := ps[..n];
      TwoLowOk(pre, minRecall, minCoverage);
      assert forall k :: 0 <= k < n ==> pre[k] == ps[k];
      if exists i, j :: 0 <= i < j < |ps| && LowOk(ps[i], minRecall, minCoverage) && LowOk(ps[j], minRecall, minCoverage) {
        var i, j :| 0 <= i < j < |ps| && LowOk(ps[i], minRecall, minCoverage) && LowOk(ps[j], minRecall, minCoverage);
        if j < n {
          assert LowOk(pre[i], minRecall, minCoverage) && LowOk(pre[j], minRecall, minCoverage);
        } else {
          assert LowOk(pre[i], minRecall, minCoverage);
        }
      }
    }
  }

  /**
   A rule is a candidate iff two distinct noise levels ≤ 0.05 meet the recall,
   coverage and attractor bounds and some level ≥ 0.08 keeps recall ≥ 40.
   */
  lemma CandidateIff(ps: seq<NoiseSummary>, minRecall: real, minCoverage: real)
    ensures IsCandidate(ps, minRecall, minCoverage) <==>
              (exists i, j :: 0 <= i < j < |ps| && LowOk(ps[i], minRecall, minCoverage) && LowOk(ps[j], minRecall, minCoverage))
              && (exists k :: 0 <= k < |ps| && MedOk(ps[k]))
  {
    TwoLowOk(ps, minRecall, minCoverage);
  }

  // ------------------------------------------------- avg, min and max recall

  /** A JavaScript number as `Math.min`/`Math.max` can return it. */
  datatype Extended = Finite(x: real) | PlusInfinity | MinusInfinity | NotANumber

  /** `Math.min(...xs)`: +∞ for no argument, NaN as soon as one argument is NaN. */
  function MathMin(xs: seq<Num>): Extended {
    if |xs| == 0 then PlusInfinity
    else
      var m, x := MathMin(xs[..|xs| - 1]), xs[|xs| - 1];
      if m.NotANumber? || x.NaN? then NotANumber
      else if !m.Finite? || x.v < m.x then Finite(x.v)
      else m
  }

  /** `Math.max(...xs)`: −∞ for no argument, NaN as soon as one argument is NaN. */
  function MathMax(xs: seq<Num>): Extended {
    if |xs| == 0 then MinusInfinity
    else
      var m, x := MathMax(xs[..|xs| - 1]), xs[|xs| - 1];
      if m.NotANumber? || x.NaN? then NotANumber
      else if !m.Finite? || x.v > m.x then Finite(x.v)
      else m
  }

  predicate AllReal(xs: seq<Num>) {
    forall k :: 0 <= k < |xs| ==> xs[k].Real?
  }

  /** The minimum is NaN iff some term is, +∞ iff there is none, and otherwise the least term. */
  lemma {:induction false} MathMinIsLeast(xs: seq<Num>)
    ensures MathMin(xs).NotANumber? <==> !AllReal(xs)
    ensures MathMin(xs).PlusInfinity? <==> |xs| == 0
    ensures !MathMin(xs).MinusInfinity?
    ensures MathMin(xs).Finite? ==>
              (forall k :: 0 <= k < |xs| ==> MathMin(xs).x <= xs[k].v) &&
              exists k :: 0 <= k < |xs| && MathMin(xs).x == xs[k].v
  {
    if |xs| > 0 {
      var pre := xs[..|xs| - 1];
      MathMinIsLeast(pre);
      assert forall k :: 0 <= k < |pre| ==> pre[k] == xs[k];
      if MathMin(xs).Finite? && MathMin(pre).Finite? && MathMin(xs) == MathMin(pre) {
        var k :| 0 <= k < |pre| && MathMin(pre).x == pre[k].v;
        assert MathMin(xs).x == xs[k].v;
      }
    }
  }

  /** The maximum is NaN iff some term is, −∞ iff there is none, and otherwise the greatest term. */
  lemma {:induction false} MathMaxIsGreatest(xs: seq<Num>)
    ensures MathMax(xs).NotANumber? <==> !AllReal(xs)
    ensures MathMax(xs).MinusInfinity? <==> |xs| == 0
    ensures !MathMax(xs).PlusInfinity?
    ensures MathMax(xs).Finite? ==>
              (forall k :: 0 <= k < |xs| ==> xs[k].v <= MathMax(xs).x) &&
              exists k :: 0 <= k < |xs| && MathMax(xs).x == xs[k].v
  {
    if |xs| > 0 {
      var pre := xs[..|xs| - 1];
      MathMaxIsGreatest(pre);
      assert forall k :: 0 <= k < |pre| ==> pre[k] == xs[k];
      if MathMax(xs).Finite? && MathMax(pre).Finite? && MathMax(xs) == MathMax(pre) {
        var k :| 0 <= k < |pre| && MathMax(pre).x == pre[k].v;
        assert MathMax(xs).x == xs[k].v;
      }
    }
  }

  // ------------------------------------------------------ scanMemoryCandidates

  datatype RuleResult = RuleResult(
    rule: string,
    notation: string,
    perNoise: seq<NoiseSummary>,
    isCandidate: bool,
    avgRecall: Num,
    minRecall: Extended,
    maxRecall: Extended)

  function Recalls(ps: seq<NoiseSummary>): (rs: seq<Num>)
    ensures |rs| == |ps| && forall k :: 0 <= k < |ps| ==> rs[k] == ps[k].recall
  {
    seq(|ps|, (k: int) requires 0 <= k < |ps| => ps[k].recall)
  }

  /** The result entry of one rule from its per-noise summaries. */
  function RuleEntry(name: string, ps: seq<NoiseSummary>, minRecall: real, minCoverage: real): (r: RuleResult)
    ensures r.rule == name && r.notation == name && r.perNoise == ps
    ensures r.isCandidate == IsCandidate(ps, minRecall, minCoverage)
  {
    var recalls := Recalls(ps);
    RuleResult(name, name, ps, IsCandidate(ps, minRecall, minCoverage), Mean(recalls), MathMin(recalls), MathMax(recalls))
  }

  /** The oracle's outcome of every run of one rule, noise level and pattern. */
  function PatternRun(outcome: (nat, nat, nat, nat) -> (string, bool), r: nat, n: nat, p: nat, runs: nat): PatternResult {
    TestRuleOnPattern(seq(runs, (i: int) requires 0 <= i < runs => outcome(r, n, p, i).0),
                      seq(runs, (i: int) requires 0 <= i < runs => outcome(r, n, p, i).1))
  }

  /** The per-noise list of rule r: each level averages over every pattern. */
  function PerNoise(outcome: (nat, nat, nat, nat) -> (string, bool), r: nat, levels: seq<real>, patterns: nat, runs: nat): (ps: seq<NoiseSummary>)
    ensures |ps| == |levels|
    ensures forall n :: 0 <= n < |levels| ==> ps[n].noise == levels[n]
  {
    seq(|levels|, (n: int) requires 0 <= n < |levels| =>
      Summarize(levels[n], seq(patterns, (p: int) requires 0 <= p < patterns => PatternRun(outcome, r, n, p, runs))))
  }

  /** `scanMemoryCandidates(options)`: one result per extra rule, in list order. */
  function ScanMemoryCandidates(levels: seq<real>, patterns: nat, runs: nat, minRecall: real, minCoverage: real,
                                outcome: (nat, nat, nat, nat) -> (string, bool)): (rs: seq<RuleResult>)
    ensures |rs| == |DatasetExport.ExtraRules|
    ensures forall r :: 0 <= r < |rs| ==> rs[r].notation == DatasetExport.ExtraRules[r].name && |rs[r].perNoise| == |levels|
    ensures forall r :: 0 <= r < |rs| ==> rs[r].isCandidate == IsCandidate(rs[r].perNoise, minRecall, minCoverage)
  {
    var rules := DatasetExport.ExtraRules;
    seq(|rules|, (r: int) requires 0 <= r < |rules| =>
      RuleEntry(rules[r].name, PerNoise(outcome, r, levels, patterns, runs), minRecall, minCoverage))
  }

  /** `results.filter(r => r.isCandidate)`. */
  function Candidates(rs: seq<RuleResult>): (cs: seq<RuleResult>)
    ensures forall c :: c in cs <==> c in rs && c.isCandidate
  {
    if |rs| == 0 then []
    else Candidates(rs[..|rs| - 1]) + (if rs[|rs| - 1].isCandidate then [rs[|rs| - 1]] else [])
  }

  /** With no test pattern every mean is NaN, every comparison fails, and no rule is a candidate. */
  lemma NoPatternsNoCandidate(levels: seq<real>, runs: nat, minRecall: real, minCoverage: real,
                              outcome: (nat, nat, nat, nat) -> (string, bool))
    ensures Candidates(ScanMemoryCandidates(levels, 0, runs, minRecall, minCoverage, outcome)) == []
  {
    var rs := ScanMemoryCandidates(levels, 0, runs, minRecall, minCoverage, outcome);
    forall r | 0 <= r < |rs|
      ensures !rs[r].isCandidate
    {
      var ps := rs[r].perNoise;
      forall n | 0 <= n < |ps|
        ensures !LowOk(ps[n], minRecall, minCoverage)
      {
        assert ps[n] == Summarize(levels[n], []);
      }
      TwoLowOk(ps, minRecall, minCoverage);
    }
    NoneCandidate(rs);
  }

  lemma {:induction false} NoneCandidate(rs: seq<RuleResult>)
    requires forall r :: 0 <= r < |rs| ==> !rs[r].isCandidate
    ensures Candidates(rs) == []
  {
    if |rs| > 0 {
      NoneCandidate(rs[..|rs| - 1]);
    }
  }
}

=== FILE: bs_regex.dfy ===
/**
 The JavaScript regular expressions that read `B…/S…` notations:
 `/B([0-8]*)\/S([0-8]*)/` (and the variant with `[0-8]+` for the born digits)
 and `/B([0-8]*)/`, `/S([0-8]*)/`. `String.prototype.match` returns the
 leftmost match. Because `/` is not in `[0-8]`, backtracking never helps:
 the born group is always the maximal digit run after the `B`, and the
 greedy survive group is the maximal run after `/S`.
 */
module BsRegex {
  import opened Wrappers

  predicate IsDigit08(c: char) {
    '0' <= c <= '8'
  }

  predicate AllDigits08(d: string) {
    forall k :: 0 <= k < |d| ==> IsDigit08(d[k])
  }

  /** Length of the maximal run of `[0-8]` characters that starts at index i. */
  function RunLength(s: string, i: nat): (n: nat)
    requires i <= |s|
    ensures i + n <= |s|
    decreases |s| - i
  {
    if i == |s| || !IsDigit08(s[i]) then 0 else 1 + RunLength(s, i + 1)
  }

  /** The maximal run of `[0-8]` characters that starts at index i: what a greedy `([0-8]*)` group captures there. */
  function Run(s: string, i: nat): (d: string)
    requires i <= |s|
    ensures |d| == RunLength(s, i)
    ensures AllDigits08(d)
    decreases |s| - i
  {
    if i == |s| || !IsDigit08(s[i]) then "" else [s[i]] + Run(s, i + 1)
  }

  /** A digit string sitting at index i and followed by a non-digit (or the end) is the run there. */
  lemma {:induction false} RunOfDigits(s: string, i: nat, d: string)
    requires i + |d| <= |s| && AllDigits08(d)
    requires forall k :: 0 <= k < |d| ==> s[i + k] == d[k]
    requires i + |d| == |s| || !IsDigit08(s[i + |d|])
    ensures Run(s, i) == d
    decreases |d|
  {
    if |d| > 0 {
      assert s[i + 0] == d[0];
      forall k | 0 <= k < |d| - 1
        ensures s[i + 1 + k] == d[1..][k]
      {
        assert s[i + (k + 1)] == d[k + 1];
      }
      RunOfDigits(s, i + 1, d[1..]);
      assert d == [d[0]] + d[1..];
    }
  }

  /** `B([0-8]{minBorn,})\/S([0-8]*)` matches at index i. */
  predicate MatchesAt(s: string, i: nat, minBorn: nat)
    requires i <= |s|
  {
    && i < |s| && s[i] == 'B'
    && var j := i + 1 + RunLength(s, i + 1);
    && RunLength(s, i + 1) >= minBorn
    && j + 1 < |s| && s[j] == '/' && s[j + 1] == 'S'
  }

  /** The two capture groups of a match at i. */
  function GroupsAt(s: string, i: nat, minBorn: nat): (groups: (string, string))
    requires i <= |s| && MatchesAt(s, i, minBorn)
    ensures AllDigits08(groups.0) && AllDigits08(groups.1)
    ensures |groups.0| >= minBorn
  {
    var j := i + 1 + RunLength(s, i + 1);
    (Run(s, i + 1), Run(s, j + 2))
  }

  /** Leftmost match at or after index i, as the engine scans. */
  function MatchFrom(s: string, i: nat, minBorn: nat): (m: Option<(string, string)>)
    requires i <= |s|
    ensures m.Some? ==> AllDigits08(m.value.0) && AllDigits08(m.value.1)
    ensures m.Some? ==> |m.value.0| >= minBorn
    decreases |s| - i
  {
    if MatchesAt(s, i, minBorn) then Some(GroupsAt(s, i, minBorn))
    else if i == |s| then None
    else MatchFrom(s, i + 1, minBorn)
  }

  /** The scan reports no match exactly when the pattern matches at no position from i on. */
  lemma {:induction false} MatchFromNone(s: string, i: nat, minBorn: nat)
    requires i <= |s|
    ensures MatchFrom(s, i, minBorn).None? <==> forall k :: i <= k <= |s| ==> !MatchesAt(s, k, minBorn)
    decreases |s| - i
  {
    if !MatchesAt(s, i, minBorn) && i < |s| {
      MatchFromNone(s, i + 1, minBorn);
      assert MatchFrom(s, i, minBorn) == MatchFrom(s, i + 1, minBorn);
    }
  }

  /** A match found by the scan is the groups at the leftmost position where the pattern matches. */
  lemma {:induction false} MatchFromLeftmost(s: string, i: nat, minBorn: nat)
    requires i <= |s|
    ensures MatchFrom(s, i, minBorn).Some? ==>
              exists k :: i <= k <= |s| && MatchesAt(s, k, minBorn)
                && (forall k' :: i <= k' < k ==> !MatchesAt(s, k', minBorn))
                && MatchFrom(s, i, minBorn).value == GroupsAt(s, k, minBorn)
    decreases |s| - i
  {
    if MatchesAt(s, i, minBorn) {
      assert MatchFrom(s, i, minBorn) == Some(GroupsAt(s, i, minBorn));
    } else if i < |s| {
      MatchFromLeftmost(s, i + 1, minBorn);
      assert MatchFrom(s, i, minBorn) == MatchFrom(s, i + 1, minBorn);
      if MatchFrom(s, i, minBorn).Some? {
        var k :| i + 1 <= k <= |s| && MatchesAt(s, k, minBorn)
                && (forall k' :: i + 1 <= k' < k ==> !MatchesAt(s, k', minBorn))
                && MatchFrom(s, i + 1, minBorn).value == GroupsAt(s, k, minBorn);
        assert forall k' :: i <= k' < k ==> !MatchesAt(s, k', minBorn);
      }
    }
  }

  /** `s.match(/B([0-8]*)\/S([0-8]*)/)` for minBorn 0, and the `[0-8]+` form for minBorn 1. */
  function MatchBornSurvive(s: string, minBorn: nat): Option<(string, string)> {
    MatchFrom(s, 0, minBorn)
  }

  /** `s.match(/L([0-8]*)/)` for a letter L: the digit run after the first L, if any. */
  function MatchLetterRun(s: string, letter: char): (m: Option<string>)
    ensures m.None? <==> letter !in s
    ensures m.Some? ==> AllDigits08(m.value)
  {
    if |s| == 0 then None
    else if s[0] == letter then Some(Run(s, 1))
    else MatchLetterRun(s[1..], letter)
  }

  /** `.split('').map(Number)` on a digit group. */
  function DigitValues(d: string): (v: seq<int>)
    ensures |v| == |d|
    ensures forall k :: 0 <= k < |d| ==> v[k] == d[k] as int - '0' as int
  {
    if |d| == 0 then [] else [d[0] as int - '0' as int] + DigitValues(d[1..])
  }

  function DigitChar(n: int): char
    requires 0 <= n <= 9
  {
    ('0' as int + n) as char
  }

  /** Writes a list of counts as the digit string used in notations. */
  function Digits(v: seq<int>): (d: string)
    requires forall k :: 0 <= k < |v| ==> 0 <= v[k] <= 9
    ensures |d| == |v|
    ensures forall k :: 0 <= k < |v| ==> d[k] == DigitChar(v[k])
  {
    if |v| == 0 then "" else [DigitChar(v[0])] + Digits(v[1..])
  }

  predicate InRange08(v: seq<int>) {
    forall k :: 0 <= k < |v| ==> 0 <= v[k] <= 8
  }

  /** The canonical `B<born>/S<survive>` text of a rule, digits in the given order. */
  function Notation(born: seq<int>, survive: seq<int>): string
    requires InRange08(born) && InRange08(survive)
  {
    "B" + Digits(born) + "/S" + Digits(survive)
  }

  lemma DigitsRoundTrip(v: seq<int>)
    requires InRange08(v)
    ensures AllDigits08(Digits(v))
    ensures DigitValues(Digits(v)) == v
  {
  }

  /** Where the pieces of `B<db>/S<ds>` sit, and the digit runs read at the two group positions. */
  lemma NotationTextLayout(db: string, ds: string)
    requires AllDigits08(db) && AllDigits08(ds)
    ensures var s := "B" + db + "/S" + ds; var j := 1 + |db|;
      && |s| == j + 2 + |ds| && s[0] == 'B' && s[j] == '/' && s[j + 1] == 'S'
      && Run(s, 1) == db && Run(s, j + 2) == ds
  {
    var s := "B" + db + "/S" + ds;
    var j := 1 + |db|;
    assert forall k :: 0 <= k < |db| ==> s[1 + k] == db[k];
    RunOfDigits(s, 1, db);
    assert forall k :: 0 <= k < |ds| ==> s[j + 2 + k] == ds[k];
    RunOfDigits(s, j + 2, ds);
  }

  /** The regex reads the two digit groups of a notation text back. */
  lemma NotationTextMatches(db: string, ds: string, minBorn: nat)
    requires AllDigits08(db) && AllDigits08(ds) && minBorn <= |db|
    ensures MatchBornSurvive("B" + db + "/S" + ds, minBorn) == Some((db, ds))
  {
    var s := "B" + db + "/S" + ds;
    NotationTextLayout(db, ds);
    assert MatchesAt(s, 0, minBorn);
  }

  /** The regex reads back exactly the digit lists a notation was written from. */
  lemma NotationRoundTrip(born: seq<int>, survive: seq<int>, minBorn: nat)
    requires InRange08(born) && InRange08(survive)
    requires minBorn <= |born|
    ensures MatchBornSurvive(Notation(born, survive), minBorn) == Some((Digits(born), Digits(survive)))
  {
    DigitsRoundTrip(born);
    DigitsRoundTrip(survive);
    NotationTextMatches(Digits(born), Digits(survive), minBorn);
  }

  /** `s` is the text `t` from index `off` on, stated one character at a time. */
  predicate Shifted(t: string, off: nat, s: string)
    decreases |s|
  {
    off + |s| == |t| && (|s| == 0 || (t[off] == s[0] && Shifted(t, off + 1, s[1..])))
  }

  /** The character at k of the rest is the one at off + k of the whole text. */
  lemma {:induction false} ShiftedAt(t: string, off: nat, s: string, k: nat)
    requires Shifted(t, off, s) && k < |s|
    ensures t[off + k] == s[k]
    decreases k
  {
    if k > 0 {
      ShiftedAt(t, off + 1, s[1..], k - 1);
    }
  }

  /** Agreement at every index gives `Shifted`. */
  lemma {:induction false} ShiftedFrom(t: string, off: nat, s: string)
    requires off + |s| == |t| && forall k :: 0 <= k < |s| ==> t[off + k] == s[k]
    ensures Shifted(t, off, s)
    decreases |s|
  {
    if |s| > 0 {
      assert t[off + 0] == s[0];
      forall k | 0 <= k < |s| - 1
        ensures t[off + 1 + k] == s[1..][k]
      {
        assert t[off + (k + 1)] == s[k + 1];
      }
      ShiftedFrom(t, off + 1, s[1..]);
    }
  }

  /** Reading past an offset does not change the digit run read in the rest. */
  lemma {:induction false} RunShift(t: string, off: nat, s: string, i: nat, ti: nat)
    requires Shifted(t, off, s) && i <= |s| && ti == off + i
    ensures Run(t, ti) == Run(s, i)
    decreases |s| - i
  {
    if i < |s| {
      ShiftedAt(t, off, s, i);
      if IsDigit08(s[i]) {
        RunShift(t, off, s, i + 1, ti + 1);
      }
    }
  }

  /** The pattern matches at a position of the rest exactly when it matches there in the whole text. */
  lemma MatchesAtShift(t: string, off: nat, s: string, i: nat, minBorn: nat)
    requires Shifted(t, off, s) && i <= |s|
    ensures MatchesAt(t, off + i, minBorn) == MatchesAt(s, i, minBorn)
  {
    if i < |s| {
      ShiftedAt(t, off, s, i);
      RunShift(t, off, s, i + 1, off + i + 1);
      var j := i + 1 + RunLength(s, i + 1);
      if j + 1 < |s| {
        ShiftedAt(t, off, s, j);
        ShiftedAt(t, off, s, j + 1);
      }
    }
  }

  /** A match in the rest reads the same two groups in the whole text. */
  lemma GroupsAtShift(t: string, off: nat, s: string, i: nat, minBorn: nat)
    requires Shifted(t, off, s) && i <= |s|
    requires MatchesAt(s, i, minBorn)
    ensures MatchesAt(t, off + i, minBorn) && GroupsAt(t, off + i, minBorn) == GroupsAt(s, i, minBorn)
  {
    MatchesAtShift(t, off, s, i, minBorn);
    var it := off + i;
    var n := RunLength(s, i + 1);
    RunShift(t, off, s, i + 1, it + 1);
    RunShift(t, off, s, i + 1 + n + 2, it + 1 + n + 2);
  }

  lemma {:induction false} MatchFromShift(t: string, off: nat, s: string, i: nat, minBorn: nat)
    requires Shifted(t, off, s) && i <= |s|
    ensures MatchFrom(t, off + i, minBorn) == MatchFrom(s, i, minBorn)
    decreases |s| - i
  {
    MatchesAtShift(t, off, s, i, minBorn);
    if MatchesAt(s, i, minBorn) {
      GroupsAtShift(t, off, s, i, minBorn);
    } else if i < |s| {
      MatchFromShift(t, off, s, i + 1, minBorn);
    }
  }

  lemma {:induction false} NoMatchInPrefix(p: string, s: string, i: nat, minBorn: nat)
    requires i <= |p|
    requires 'B' !in p
    ensures MatchFrom(p + s, i, minBorn) == MatchFrom(p + s, |p|, minBorn)
    decreases |p| - i
  {
    if i < |p| {
      assert (p + s)[i] == p[i];
      NoMatchInPrefix(p, s, i + 1, minBorn);
    }
  }

  /** The match is unanchored: text before the first `B` is ignored. */
  lemma IgnoresPrefixWithoutB(p: string, s: string, minBorn: nat)
    requires 'B' !in p
    ensures MatchBornSurvive(p + s, minBorn) == MatchBornSurvive(s, minBorn)
  {
    NoMatchInPrefix(p, s, 0, minBorn);
    assert forall k :: 0 <= k < |s| ==> (p + s)[|p| + k] == s[k];
    ShiftedFrom(p + s, |p|, s);
    MatchFromShift(p + s, |p|, s, 0, minBorn);
  }
}

=== FILE: ca3d.dfy ===
/**
 isinglab/core/ca3d_vectorized.py: a Life-like step on a d × h × w grid
 `grid[z, y, x]` that counts the 26 neighbours of the 3 × 3 × 3 cube with
 `scipy.ndimage.convolve(..., mode='wrap')`, read here as periodic wrap on
 every axis.
 */
module Ca3d {
  import PyLife

  type Grid3 = seq<seq<seq<int>>>

  predicate IsGrid3(g: Grid3, w: nat, h: nat, d: nat) {
    |g| == d && forall z :: 0 <= z < d ==> |g[z]| == h && forall y :: 0 <= y < h ==> |g[z][y]| == w
  }

  predicate IsBinary3(g: Grid3) {
    forall z, y, x :: 0 <= z < |g| && 0 <= y < |g[z]| && 0 <= x < |g[z][y]| ==> g[z][y][x] in {0, 1}
  }

  /** `kernel = np.ones((3, 3, 3)); kernel[1, 1, 1] = 0`, flattened: entry t is (t / 9, t / 3 % 3, t % 3). */
  function KernelAt(t: nat): (k: int)
    requires t < 27
    ensures k == 0 <==> t == 13
  {
    if t == 13 then 0 else 1
  }

  /** The cell `convolve` weighs with kernel entry t at (z, y, x): the kernel is flipped, the grid wrapped. */
  function Term(g: Grid3, w: nat, h: nat, d: nat, z: nat, y: nat, x: nat, t: nat): int
    requires IsGrid3(g, w, h, d) && z < d && y < h && x < w && t < 27
  {
    KernelAt(t) * g[PyLife.Ring(z, 1 - t / 9, d)][PyLife.Ring(y, 1 - t / 3 % 3, h)][PyLife.Ring(x, 1 - t % 3, w)]
  }

  /** The first t terms of `neighbor_count[z, y, x]`. */
  function ConvSum(g: Grid3, w: nat, h: nat, d: nat, z: nat, y: nat, x: nat, t: nat): int
    requires IsGrid3(g, w, h, d) && z < d && y < h && x < w && t <= 27
  {
    if t == 0 then 0 else ConvSum(g, w, h, d, z, y, x, t - 1) + Term(g, w, h, d, z, y, x, t - 1)
  }

  function NeighborCount(g: Grid3, w: nat, h: nat, d: nat, z: nat, y: nat, x: nat): int
    requires IsGrid3(g, w, h, d) && z < d && y < h && x < w
  {
    ConvSum(g, w, h, d, z, y, x, 27)
  }

  /** On an all-ones grid of any size every cell counts exactly 26: the centre is the one term left out. */
  lemma {:induction false} AllOnesCount(g: Grid3, w: nat, h: nat, d: nat, z: nat, y: nat, x: nat, t: nat)
    requires IsGrid3(g, w, h, d) && z < d && y < h && x < w && t <= 27
    requires forall a, b, c :: 0 <= a < d && 0 <= b < h && 0 <= c < w ==> g[a][b][c] == 1
    ensures ConvSum(g, w, h, d, z, y, x, t) == if t > 13 then t - 1 else t
  {
    if t > 0 {
      AllOnesCount(g, w, h, d, z, y, x, t - 1);
    }
  }

  /** On a 0/1 grid the count lies in 0..26. */
  lemma {:induction false} CountBounds(g: Grid3, w: nat, h: nat, d: nat, z: nat, y: nat, x: nat, t: nat)
    requires IsGrid3(g, w, h, d) && IsBinary3(g) && z < d && y < h && x < w && t <= 27
    ensures 0 <= ConvSum(g, w, h, d, z, y, x, t) <= if t > 13 then t - 1 else t
  {
    if t > 0 {
      CountBounds(g, w, h, d, z, y, x, t - 1);
      var a, b, c := PyLife.Ring(z, 1 - (t - 1) / 9, d), PyLife.Ring(y, 1 - (t - 1) / 3 % 3, h), PyLife.Ring(x, 1 - (t - 1) % 3, w);
      assert g[a][b][c] in {0, 1};
    }
  }

  /** On an all-zero grid every count is 0. */
  lemma {:induction false} DeadCount(g: Grid3, w: nat, h: nat, d: nat, z: nat, y: nat, x: nat, t: nat)
    requires IsGrid3(g, w, h, d) && z < d && y < h && x < w && t <= 27
    requires forall a, b, c :: 0 <= a < d && 0 <= b < h && 0 <= c < w ==> g[a][b][c] == 0
    ensures ConvSum(g, w, h, d, z, y, x, t) == 0
  {
    if t > 0 {
      DeadCount(g, w, h, d, z, y, x, t - 1);
    }
  }

  /** `new_grid[alive & survive_mask] = 1; new_grid[dead & born_mask] = 1` on a zero array. */
  function UpdateCell(cell: int, n: int, born: set<int>, survive: set<int>): (v: int)
    ensures v in {0, 1}
    ensures v == 1 <==> (cell == 1 && n in survive) || (cell == 0 && n in born)
  {
    if (cell == 1 && n in survive) || (cell == 0 && n in born) then 1 else 0
  }

  /** `step_ca3d_vectorized(grid, born, survive)`. */
  function Step(g: Grid3, w: nat, h: nat, d: nat, born: set<int>, survive: set<int>): (r: Grid3)
    requires IsGrid3(g, w, h, d)
    ensures IsGrid3(r, w, h, d) && IsBinary3(r)
    ensures forall z, y, x :: 0 <= z < d && 0 <= y < h && 0 <= x < w ==>
      r[z][y][x] == UpdateCell(g[z][y][x], NeighborCount(g, w, h, d, z, y, x), born, survive)
  {
    seq(d, (z: int) requires 0 <= z < d =>
      seq(h, (y: int) requires 0 <= y < h =>
        seq(w, (x: int) requires 0 <= x < w => UpdateCell(g[z][y][x], NeighborCount(g, w, h, d, z, y, x), born, survive))))
  }

  /** `evolve_ca3d_vectorized(grid, born, survive, steps)`: `steps` steps from a copy. */
  function Evolve(g: Grid3, w: nat, h: nat, d: nat, born: set<int>, survive: set<int>, steps: nat): (r: Grid3)
    requires IsGrid3(g, w, h, d)
    ensures IsGrid3(r, w, h, d)
    ensures steps > 0 ==> IsBinary3(r)
    ensures steps > 0 ==> r == Step(Evolve(g, w, h, d, born, survive, steps - 1), w, h, d, born, survive)
    decreases steps
  {
    if steps == 0 then g else Step(Evolve(g, w, h, d, born, survive, steps - 1), w, h, d, born, survive)
  }

  lemma Ext3(a: Grid3, b: Grid3, w: nat, h: nat, d: nat)
    requires IsGrid3(a, w, h, d) && IsGrid3(b, w, h, d)
    requires forall z, y, x :: 0 <= z < d && 0 <= y < h && 0 <= x < w ==> a[z][y][x] == b[z][y][x]
    ensures a == b
  {
    forall z | 0 <= z < d
      ensures a[z] == b[z]
    {
      forall y | 0 <= y < h
        ensures a[z][y] == b[z][y]
      {
      }
    }
  }

  /** An all-dead cube stays all-dead under one step iff 0 is not a birth count. */
  lemma DeadStaysDead(g: Grid3, w: nat, h: nat, d: nat, born: set<int>, survive: set<int>)
    requires IsGrid3(g, w, h, d) && w > 0 && h > 0 && d > 0
    requires forall a, b, c :: 0 <= a < d && 0 <= b < h && 0 <= c < w ==> g[a][b][c] == 0
    ensures Step(g, w, h, d, born, survive) == g <==> 0 !in born
  {
    var r := Step(g, w, h, d, born, survive);
    DeadCount(g, w, h, d, 0, 0, 0, 27);
    if 0 !in born {
      forall z, y, x | 0 <= z < d && 0 <= y < h && 0 <= x < w
        ensures r[z][y][x] == g[z][y][x]
      {
        DeadCount(g, w, h, d, z, y, x, 27);
      }
      Ext3(r, g, w, h, d);
    } else {
      assert r[0][0][0] == 1;
    }
  }

  /** On an all-ones cube every cell sees 26 neighbours, so it stays full iff 26 is a survival count. */
  lemma FullStaysFull(g: Grid3, w: nat, h: nat, d: nat, born: set<int>, survive: set<int>)
    requires IsGrid3(g, w, h, d) && w > 0 && h > 0 && d > 0
    requires forall a, b, c :: 0 <= a < d && 0 <= b < h && 0 <= c < w ==> g[a][b][c] == 1
    ensures Step(g, w, h, d, born, survive) == g <==> 26 in survive
  {
    var r := Step(g, w, h, d, born, survive);
    AllOnesCount(g, w, h, d, 0, 0, 0, 27);
    if 26 in survive {
      forall z, y, x | 0 <= z < d && 0 <= y < h && 0 <= x < w
        ensures r[z][y][x] == g[z][y][x]
      {
        AllOnesCount(g, w, h, d, z, y, x, 27);
      }
      Ext3(r, g, w, h, d);
    } else {
      assert r[0][0][0] == 0;
    }
  }
}

=== FILE: ca_engine.dfy ===
/**
 `CAEngine` of isinglab/core/ca_engine.py: a rule number parsed into a
 lookup (the Wolfram table of an elementary CA, or birth and survival sets
 of a Life-like CA), a random 0/1 start of shape `grid_size`, and a step
 that is 1-D or 2-D according to the length of that shape. The random
 start is an array of draws handed in by the caller.
 */
module CaEngine {
  import opened Wrappers
  import opened CaGrid
  import PyBits
  import PyLife
  import Explorer

  // ------------------------------------------------------------------ lookup

  type Triple = (int, int, int)

  /** `tuple(map(int, f"{i:03b}"))` for 0 <= i < 8. */
  function Key(i: int): (t: Triple)
    requires 0 <= i < 8
    ensures 4 * t.0 + 2 * t.1 + t.2 == i
    ensures t.0 in {0, 1} && t.1 in {0, 1} && t.2 in {0, 1}
  {
    (i / 4, (i / 2) % 2, i % 2)
  }

  predicate BinaryTriple(t: Triple) {
    t.0 in {0, 1} && t.1 in {0, 1} && t.2 in {0, 1}
  }

  /** `int(rule & (1 << i) > 0)`: in Python `&` binds tighter than `>`. */
  function BitValue(rule: int, i: nat): (v: int)
    ensures v == 1 <==> PyBits.Bit(rule, i)
    ensures v == 0 || v == 1
  {
    if PyBits.Bit(rule, i) then 1 else 0
  }

  /** The dictionary `_parse_rule` builds for `ca_type == "elementary"`. */
  function ElementaryTable(rule: int): (t: map<Triple, int>)
    ensures forall k :: k in t <==> BinaryTriple(k)
    ensures forall i :: 0 <= i < 8 ==> Key(i) in t && t[Key(i)] == BitValue(rule, i)
  {
    map[(0, 0, 0) := BitValue(rule, 0), (0, 0, 1) := BitValue(rule, 1),
        (0, 1, 0) := BitValue(rule, 2), (0, 1, 1) := BitValue(rule, 3),
        (1, 0, 0) := BitValue(rule, 4), (1, 0, 1) := BitValue(rule, 5),
        (1, 1, 0) := BitValue(rule, 6), (1, 1, 1) := BitValue(rule, 7)]
  }

  /** `_parse_rule`'s result: a Wolfram table, or the `birth`/`survival` dictionary. */
  datatype Lookup = Elementary(table: map<Triple, int>) | Life(birth: set<int>, survival: set<int>)

  /** `_parse_life_rule(rule)`: bits 0..8 are birth counts, bits 9..17 survival counts. */
  function ParseLifeRule(rule: int): (l: Lookup)
    ensures l.Life?
    ensures forall n :: n in l.birth <==> 0 <= n <= 8 && PyBits.Bit(rule, n)
    ensures forall n :: n in l.survival <==> 0 <= n <= 8 && PyBits.Bit(rule, n + 9)
  {
    Life(set n | 0 <= n <= 8 && PyBits.Bit(rule, n), set n | 0 <= n <= 8 && SurvivalBit(rule, n))
  }

  /** `rule & (1 << (i + 9))`. */
  predicate SurvivalBit(rule: int, i: nat) {
    PyBits.Bit(rule, i + 9)
  }

  /** `_parse_rule(rule, ca_type)`. */
  function ParseRule(rule: int, caType: string): (r: Result<Lookup>)
    ensures r.Err? <==> caType != "elementary" && caType != "life"
    ensures r.Err? ==> r.error == Error(ValueError, "Unknown CA type: " + caType)
    ensures caType == "elementary" ==> r == Ok(Elementary(ElementaryTable(rule)))
    ensures caType == "life" ==> r == Ok(ParseLifeRule(rule))
  {
    if caType == "elementary" then Ok(Elementary(ElementaryTable(rule)))
    else if caType == "life" then Ok(ParseLifeRule(rule))
    else Err(Error(ValueError, "Unknown CA type: " + caType))
  }

  /** `self._rule_lookup.get(neighborhood, 0)`: the `birth`/`survival` dictionary has no tuple keys. */
  function Get(lookup: Lookup, key: Triple): int {
    match lookup
    case Elementary(t) => if key in t then t[key] else 0
    case Life(_, _) => 0
  }

  /** An elementary lookup of a 0/1 neighbourhood (l, c, r) reads bit 4l + 2c + r of the rule number. */
  lemma ElementaryGetIsWolfram(rule: int, key: Triple)
    requires BinaryTriple(key)
    ensures Get(Elementary(ElementaryTable(rule)), key) == BitValue(rule, 4 * key.0 + 2 * key.1 + key.2)
  {
    var i := 4 * key.0 + 2 * key.1 + key.2;
    assert Key(i) == key;
  }

  /** Any other neighbourhood falls back on the default 0. */
  lemma ElementaryGetOther(rule: int, key: Triple)
    requires !BinaryTriple(key)
    ensures Get(Elementary(ElementaryTable(rule)), key) == 0
  {
  }

  /** For counts 0..8, the Life rule number the explorer encodes parses back to the same digits. */
  lemma ParseLifeInvertsEncoding(born: seq<int>, survive: seq<int>)
    requires forall k :: 0 <= k < |born| ==> 0 <= born[k] <= 8
    requires forall k :: 0 <= k < |survive| ==> 0 <= survive[k] <= 8
    ensures Explorer.LifeRuleToInt(born, survive).Ok?
    ensures ParseLifeRule(Explorer.LifeRuleToInt(born, survive).value) == Life(set x | x in born, set x | x in survive)
  {
    assert Explorer.NoNegative(born);
    assert Explorer.NoNegative(Explorer.Shifted(survive, 9)) by {
      forall k | 0 <= k < |survive|
        ensures Explorer.Shifted(survive, 9)[k] == survive[k] + 9
      {
        Explorer.ShiftedMember(survive, 9, k);
      }
    }
    var v := Explorer.LifeRuleToInt(born, survive).value;
    var l := ParseLifeRule(v);
    forall n
      ensures n in l.birth <==> n in born
    {
      if n in born {
        assert 0 <= n <= 8 && PyBits.Bit(v, n);
      }
      if n in l.birth {
        assert n - 9 !in survive;
      }
    }
    forall n
      ensures n in l.survival <==> n in survive
    {
      if n in survive {
        assert 0 <= n <= 8 && PyBits.Bit(v, n + 9);
      }
      if n in l.survival {
        assert n + 9 !in born;
      }
    }
  }

  /** The docstring calls 224 Conway's Life, but 224 sets bits 5, 6 and 7: B567 with no survival. */
  lemma Rule224IsNotLife(r: int)
    requires r == 224
    ensures ParseLifeRule(r) == Life({5, 6, 7}, {})
  {
    var l := ParseLifeRule(r);
    forall n
      ensures n in l.birth <==> n in {5, 6, 7}
    {
      if n >= 0 {
        BitsOf224(r, n);
      }
    }
    forall n
      ensures n !in l.survival
    {
      if 0 <= n <= 8 {
        BitsOf224(r, n + 9);
      }
    }
  }

  lemma BitsOf224(r: int, n: int)
    requires r == 224 && n >= 0
    ensures PyBits.Bit(r, n) <==> n in {5, 6, 7}
  {
    if n >= 8 {
      PyBits.NoBitAbove(r, 8, n);
    } else if n == 0 {
    } else if n == 1 {
    } else if n == 2 {
    } else if n == 3 {
    } else if n == 4 {
    } else if n == 5 {
    } else if n == 6 {
    } else {
    }
  }

  /**
   Under the encoding the parser documents (bits 0-8 birth, bits 9-17
   survival), Conway's Life B3/S23 is rule 6152 = 2^3 + 2^11 + 2^12, the
   number the explorer's encoder produces for it.
   */
  lemma LifeIsRule6152(r: int)
    requires r == 6152
    ensures ParseLifeRule(r) == Life({3}, {2, 3})
    ensures ParseLifeRule(Explorer.LifeRuleToInt([3], [2, 3]).value) == ParseLifeRule(r)
  {
    var l := ParseLifeRule(r);
    forall n
      ensures n in l.birth <==> n in {3}
    {
      if n >= 0 {
        BitsOf6152(r, n);
      }
    }
    forall n
      ensures n in l.survival <==> n in {2, 3}
    {
      if 0 <= n <= 8 {
        BitsOf6152(r, n + 9);
      }
    }
    ParseLifeInvertsEncoding([3], [2, 3]);
    var e := ParseLifeRule(Explorer.LifeRuleToInt([3], [2, 3]).value);
    assert e.birth == {3} by {
      assert forall x :: x in [3] <==> x == 3;
    }
    assert e.survival == {2, 3} by {
      assert forall x :: x in [2, 3] <==> x == 2 || x == 3;
    }
  }

  lemma BitsOf6152(r: int, n: int)
    requires r == 6152 && n >= 0
    ensures PyBits.Bit(r, n) <==> n in {3, 11, 12}
  {
    if n >= 13 {
      PyBits.NoBitAbove(r, 13, n);
    } else if n == 0 {
    } else if n == 1 {
    } else if n == 2 {
    } else if n == 3 {
    } else if n == 4 {
    } else if n == 5 {
    } else if n == 6 {
    } else if n == 7 {
    } else if n == 8 {
    } else if n == 9 {
    } else if n == 10 {
    } else if n == 11 {
    } else {
    }
  }

  // ----------------------------------------------------------------- lattice

  /**
   The grid: 1-D for a one-element `grid_size`, 2-D (`h` rows of `w`) for
   two elements; any other shape keeps no cells here, since no step can
   read it.
   */
  datatype Lattice = Line(cells: seq<int>) | Plane(g: Grid, w: nat, h: nat) | Other(shape: seq<nat>)

  predicate ValidLattice(l: Lattice) {
    l.Plane? ==> IsGrid(l.g, l.w, l.h)
  }

  /**
   The draws of `np.random.randint(0, 2, size=...)`, shaped as the array it
   returns: one row of `grid_size[0]` for a 1-D shape, `h` rows of `w` for
   a 2-D one, none for any other shape.
   */
  predicate DrawsFit(shape: seq<nat>, draws: seq<seq<bool>>) {
    if |shape| == 1 then |draws| == 1 && |draws[0]| == shape[0]
    else if |shape| == 2 then |draws| == shape[0] && forall i :: 0 <= i < |draws| ==> |draws[i]| == shape[1]
    else draws == []
  }

  function Cell(b: bool): int {
    if b then 1 else 0
  }

  function Cells(row: seq<bool>): (r: seq<int>)
    ensures |r| == |row|
    ensures forall k :: 0 <= k < |row| ==> r[k] == Cell(row[k])
  {
    seq(|row|, (k: int) requires 0 <= k < |row| => Cell(row[k]))
  }

  /** `_initialize_grid()`: the drawn 0/1 array, cast to `int8`. */
  function InitialLattice(shape: seq<nat>, draws: seq<seq<bool>>): (l: Lattice)
    requires DrawsFit(shape, draws)
    ensures ValidLattice(l)
    ensures |shape| == 1 ==> l == Line(Cells(draws[0]))
    ensures |shape| == 2 ==> l.Plane? && l.h == shape[0] && l.w == shape[1]
    ensures |shape| == 2 ==> forall i, j :: 0 <= i < shape[0] && 0 <= j < shape[1] ==> l.g[i][j] == Cell(draws[i][j])
    ensures |shape| != 1 && |shape| != 2 ==> l == Other(shape)
  {
    if |shape| == 1 then Line(Cells(draws[0]))
    else if |shape| == 2 then
      Plane(seq(shape[0], (i: int) requires 0 <= i < shape[0] => Cells(draws[i])), shape[1], shape[0])
    else Other(shape)
  }

  /** Every cell of a fresh lattice is 0 or 1. */
  lemma InitialBinary(shape: seq<nat>, draws: seq<seq<bool>>)
    requires DrawsFit(shape, draws)
    ensures var l := InitialLattice(shape, draws);
      (l.Line? ==> forall k :: 0 <= k < |l.cells| ==> l.cells[k] in {0, 1}) &&
      (l.Plane? ==> IsBinary(l.g))
  {
  }

  // ------------------------------------------------------------------- steps

  /** The neighbourhood of cell i of a line; outside a periodic line the missing neighbour is 0. */
  function Neighborhood(cells: seq<int>, i: nat, periodic: bool): (t: Triple)
    requires i < |cells|
    ensures t.1 == cells[i]
  {
    var n := |cells|;
    if periodic then (cells[PyLife.Ring(i, -1, n)], cells[i], cells[PyLife.Ring(i, 1, n)])
    else ((if i > 0 then cells[i - 1] else 0), cells[i], (if i < n - 1 then cells[i + 1] else 0))
  }

  /** `_step_1d()`. */
  function Step1D(lookup: Lookup, cells: seq<int>, periodic: bool): (r: seq<int>)
    ensures |r| == |cells|
    ensures forall i :: 0 <= i < |cells| ==> r[i] == Get(lookup, Neighborhood(cells, i, periodic))
  {
    seq(|cells|, (i: int) requires 0 <= i < |cells| => Get(lookup, Neighborhood(cells, i, periodic)))
  }

  /** A 0/1 line under an elementary rule follows Wolfram's numbering cell by cell. */
  lemma Step1DIsWolfram(rule: int, cells: seq<int>, periodic: bool)
    requires forall k :: 0 <= k < |cells| ==> cells[k] in {0, 1}
    ensures var r := Step1D(Elementary(ElementaryTable(rule)), cells, periodic);
      forall i :: 0 <= i < |cells| ==>
        var t := Neighborhood(cells, i, periodic);
        r[i] == BitValue(rule, 4 * t.0 + 2 * t.1 + t.2)
  {
    forall i | 0 <= i < |cells|
      ensures BinaryTriple(Neighborhood(cells, i, periodic))
    {
    }
    forall i | 0 <= i < |cells|
      ensures var t := Neighborhood(cells, i, periodic);
        Get(Elementary(ElementaryTable(rule)), t) == BitValue(rule, 4 * t.0 + 2 * t.1 + t.2)
    {
      ElementaryGetIsWolfram(rule, Neighborhood(cells, i, periodic));
    }
  }

  /** A Life lookup finds no tuple keys, so a 1-D step of a Life engine clears the line. */
  lemma Step1DLifeClears(birth: set<int>, survival: set<int>, cells: seq<int>, periodic: bool)
    ensures Step1D(Life(birth, survival), cells, periodic) == seq(|cells|, k => 0)
  {
  }

  /** `neighbors` of `_step_2d` with a non-periodic boundary: neighbours off the grid are skipped. */
  function FixedSum(g: Grid, w: nat, h: nat, i: nat, j: nat, k: nat): int
    requires IsGrid(g, w, h) && i < h && j < w && k <= 8
  {
    if k == 0 then 0
    else
      var ni, nj := i + PyLife.LoopOffsets[k - 1].0, j + PyLife.LoopOffsets[k - 1].1;
      FixedSum(g, w, h, i, j, k - 1) + (if 0 <= ni < h && 0 <= nj < w then g[ni][nj] else 0)
  }

  /** Away from the edge the fixed and the periodic sums read the same cells. */
  lemma {:induction false} FixedSumInterior(g: Grid, w: nat, h: nat, i: nat, j: nat, k: nat)
    requires IsGrid(g, w, h) && 0 < i < h - 1 && 0 < j < w - 1 && k <= 8
    ensures FixedSum(g, w, h, i, j, k) == PyLife.LoopSum(g, w, h, i, j, k)
  {
    if k > 0 {
      FixedSumInterior(g, w, h, i, j, k - 1);
    }
  }

  /** `_step_2d()` on a grid with a `Life` lookup. */
  function Step2DLife(birth: set<int>, survival: set<int>, g: Grid, w: nat, h: nat, periodic: bool): (r: Grid)
    requires IsGrid(g, w, h)
    ensures IsGrid(r, w, h)
    ensures forall i, j :: 0 <= i < h && 0 <= j < w ==>
      r[i][j] == PyLife.LoopCell(g[i][j], if periodic then PyLife.MooreSum(g, w, h, i, j) else FixedSum(g, w, h, i, j, 8), birth, survival)
  {
    if periodic then PyLife.LoopStep(g, w, h, birth, survival)
    else
      seq(h, (i: int) requires 0 <= i < h =>
        seq(w, (j: int) requires 0 <= j < w => PyLife.LoopCell(g[i][j], FixedSum(g, w, h, i, j, 8), birth, survival)))
  }

  /** Only "periodic" wraps; "fixed", "reflect" and any other text skip the missing neighbours. */
  predicate Periodic(boundary: string) {
    boundary == "periodic"
  }

  /** `_step_1d()` or `_step_2d()`, whichever the shape selects. */
  function StepLattice(lookup: Lookup, boundary: string, l: Lattice): (r: Result<Lattice>)
    requires ValidLattice(l)
    ensures r.Ok? ==> ValidLattice(r.value)
    ensures r.Err? <==> l.Other? || (l.Plane? && lookup.Elementary? && l.w * l.h > 0)
    ensures l.Other? && |l.shape| < 2 ==> r == Err(Error(ValueError, "not enough values to unpack (expected 2, got 0)"))
    ensures l.Other? && |l.shape| > 2 ==> r == Err(Error(ValueError, "too many values to unpack (expected 2)"))
    ensures l.Plane? && lookup.Elementary? && l.w * l.h > 0 ==> r == Err(Error(KeyError, "birth"))
    ensures l.Line? ==> r == Ok(Line(Step1D(lookup, l.cells, Periodic(boundary))))
    ensures l.Plane? && lookup.Life? ==> r == Ok(Plane(Step2DLife(lookup.birth, lookup.survival, l.g, l.w, l.h, Periodic(boundary)), l.w, l.h))
  {
    match l
    case Line(cells) => Ok(Line(Step1D(lookup, cells, Periodic(boundary))))
    case Plane(g, w, h) =>
      if lookup.Elementary? then
        if w * h > 0 then Err(Error(KeyError, "birth")) else Ok(l)
      else Ok(Plane(Step2DLife(lookup.birth, lookup.survival, g, w, h, Periodic(boundary)), w, h))
    case Other(shape) =>
      if |shape| < 2 then Err(Error(ValueError, "not enough values to unpack (expected 2, got 0)"))
      else Err(Error(ValueError, "too many values to unpack (expected 2)"))
  }

  // ------------------------------------------------------------------ engine

  datatype Engine = Engine(gridSize: seq<nat>, lookup: Lookup, boundary: string, lattice: Lattice, history: seq<Lattice>)

  predicate ValidEngine(e: Engine) {
    ValidLattice(e.lattice) && |e.history| > 0 && e.history[|e.history| - 1] == e.lattice
  }

  /** `CAEngine(grid_size, rule, ca_type, boundary, seed)`, the seed's draws given as `draws`. */
  function Create(gridSize: seq<nat>, rule: int, caType: string, boundary: string, draws: seq<seq<bool>>): (r: Result<Engine>)
    requires DrawsFit(gridSize, draws)
    ensures r.Err? <==> ParseRule(rule, caType).Err?
    ensures r.Err? ==> r.error == ParseRule(rule, caType).error
    ensures r.Ok? ==> ValidEngine(r.value) && r.value.history == [r.value.lattice]
    ensures r.Ok? ==> r.value.lattice == InitialLattice(gridSize, draws) && r.value.lookup == ParseRule(rule, caType).value
  {
    var lookup :- ParseRule(rule, caType);
    var l := InitialLattice(gridSize, draws);
    Ok(Engine(gridSize, lookup, boundary, l, [l]))
  }

  /** `step()`: the new state becomes current and is appended to the history. */
  function Step(e: Engine): (r: Result<Engine>)
    requires ValidEngine(e)
    ensures r.Err? <==> StepLattice(e.lookup, e.boundary, e.lattice).Err?
    ensures r.Ok? ==> ValidEngine(r.value)
    ensures r.Ok? ==> r.value.history == e.history + [r.value.lattice]
    ensures r.Ok? ==> r.value.lattice == StepLattice(e.lookup, e.boundary, e.lattice).value
    ensures r.Ok? ==> r.value.gridSize == e.gridSize && r.value.lookup == e.lookup && r.value.boundary == e.boundary
  {
    var next :- StepLattice(e.lookup, e.boundary, e.lattice);
    Ok(e.(lattice := next, history := e.history + [next]))
  }

  /** `run(steps)`: `steps` calls of `step()`; the first exception ends the run. */
  function Run(e: Engine, steps: nat): (r: Result<Engine>)
    requires ValidEngine(e)
    ensures r.Ok? ==> ValidEngine(r.value)
    ensures r.Ok? ==> r.value.gridSize == e.gridSize && r.value.lookup == e.lookup && r.value.boundary == e.boundary
    decreases steps
  {
    if steps == 0 then Ok(e)
    else
      var next :- Step(e);
      Run(next, steps - 1)
  }

  /** A run keeps the history it started with and adds exactly one state per step. */
  lemma {:induction false} RunHistory(e: Engine, steps: nat)
    requires ValidEngine(e)
    ensures Run(e, steps).Ok? ==> |Run(e, steps).value.history| == |e.history| + steps
    ensures Run(e, steps).Ok? ==> Run(e, steps).value.history[..|e.history|] == e.history
    decreases steps
  {
    if steps > 0 && Step(e).Ok? {
      var next := Step(e).value;
      RunHistory(next, steps - 1);
      if Run(next, steps - 1).Ok? {
        var h := Run(next, steps - 1).value.history;
        assert h[..|next.history|] == next.history;
        assert h[..|e.history|] == next.history[..|e.history|];
      }
    }
  }

  /** A step that fails fails at once: the failure depends only on the shape and the lookup. */
  lemma {:induction false} RunFailsAtOnce(e: Engine, steps: nat)
    requires ValidEngine(e)
    ensures Run(e, steps).Err? <==> steps > 0 && Step(e).Err?
    decreases steps
  {
    if steps > 0 && Step(e).Ok? {
      var next := Step(e).value;
      RunFailsAtOnce(next, steps - 1);
      assert next.lattice.Other? == e.lattice.Other?;
      assert next.lattice.Plane? ==> next.lattice.w == e.lattice.w && next.lattice.h == e.lattice.h;
    }
  }

  /** `reset()`: a fresh start of the same shape, with a one-state history. */
  function Reset(e: Engine, draws: seq<seq<bool>>): (r: Engine)
    requires DrawsFit(e.gridSize, draws)
    ensures ValidEngine(r) && r.history == [r.lattice]
    ensures r.lattice == InitialLattice(e.gridSize, draws)
    ensures r.gridSize == e.gridSize && r.lookup == e.lookup && r.boundary == e.boundary
  {
    var l := InitialLattice(e.gridSize, draws);
    e.(lattice := l, history := [l])
  }

  /** The 2-D periodic step of a Life engine is the explorer's loop rule function. */
  lemma PeriodicLifeIsLoopStep(birth: set<int>, survival: set<int>, g: Grid, w: nat, h: nat)
    requires IsGrid(g, w, h)
    ensures Step2DLife(birth, survival, g, w, h, true) == PyLife.LoopStep(g, w, h, birth, survival)
  {
  }
}

=== FILE: ca_grid.dfy ===
/**
 Nested-array grids of `src/core/caGrid.js`: `grid[y][x]` is the cell at
 column x of row y. Cells are plain numbers; the engines only ever ask
 whether a cell is 0 or 1.
 */
module CaGrid {

  type Grid = seq<seq<int>>

  /** `g` has exactly `h` rows of `w` cells. */
  predicate IsGrid(g: Grid, w: nat, h: nat) {
    |g| == h && forall y :: 0 <= y < h ==> |g[y]| == w
  }

  /** A non-empty rectangular grid, the shape every engine reads `grid[0].length` from. */
  predicate Rect(g: Grid) {
    |g| > 0 && IsGrid(g, |g[0]|, |g|) && |g[0]| > 0
  }

  /** A non-empty rectangular grid of any width, read off row 0 as `grid[0].length`. */
  predicate Shaped(g: Grid) {
    |g| > 0 && IsGrid(g, |g[0]|, |g|)
  }

  function Width(g: Grid): nat
    requires |g| > 0
  {
    |g[0]|
  }

  function Height(g: Grid): nat {
    |g|
  }

  predicate AllCells(g: Grid, v: int) {
    forall y, x :: 0 <= y < |g| && 0 <= x < |g[y]| ==> g[y][x] == v
  }

  predicate IsBinary(g: Grid) {
    forall y, x :: 0 <= y < |g| && 0 <= x < |g[y]| ==> g[y][x] == 0 || g[y][x] == 1
  }

  /** `createGrid(width, height, fillValue)`. */
  function CreateGrid(w: nat, h: nat, v: int): (g: Grid)
    ensures IsGrid(g, w, h)
    ensures AllCells(g, v)
  {
    seq(h, _ => seq(w, _ => v))
  }

  /** `cloneGrid`: a row-by-row copy; as a value it equals the source. */
  function CloneGrid(g: Grid): (c: Grid)
    ensures |c| == |g|
    ensures forall y :: 0 <= y < |g| ==> c[y] == g[y]
  {
    seq(|g|, y requires 0 <= y < |g| => g[y][..])
  }

  /**
   `randomizeGrid(grid, density)`. The in-place writes are modelled by the
   returned grid; `draw(y, x)` is the `Math.random()` value consumed at cell
   (x, y) on the general path. Rows may have different lengths, as the
   source loops over `grid[y].length`.
   */
  function RandomizeGrid(g: Grid, density: real, draw: (nat, nat) -> real): (r: Grid)
    ensures |r| == |g|
    ensures forall y :: 0 <= y < |g| ==> |r[y]| == |g[y]|
    ensures IsBinary(r)
    ensures density <= 0.0 ==> AllCells(r, 0)
    ensures density >= 1.0 ==> AllCells(r, 1)
  {
    if density <= 0.0 then FillLike(g, 0)
    else if density >= 1.0 then FillLike(g, 1)
    else DrawLike(g, density, draw)
  }

  function FillLike(g: Grid, v: int): (r: Grid)
    ensures |r| == |g|
    ensures forall y :: 0 <= y < |g| ==> |r[y]| == |g[y]|
    ensures AllCells(r, v)
  {
    seq(|g|, y requires 0 <= y < |g| => seq(|g[y]|, _ => v))
  }

  /** The general path: cell (x, y) is 1 iff its draw is below the density. */
  function DrawLike(g: Grid, density: real, draw: (nat, nat) -> real): (r: Grid)
    ensures |r| == |g|
    ensures forall y :: 0 <= y < |g| ==> |r[y]| == |g[y]|
    ensures forall y, x :: 0 <= y < |g| && 0 <= x < |g[y]| ==> (r[y][x] == 1 <==> draw(y, x) < density)
    ensures IsBinary(r)
  {
    seq(|g|, y requires 0 <= y < |g| => seq(|g[y]|, (x: int) requires 0 <= x => if draw(y, x) < density then 1 else 0))
  }

  /**
   The two shortcut branches give exactly what the general path would have
   given, because `Math.random()` lies in [0, 1).
   */
  lemma RandomizeShortcutsAgree(g: Grid, density: real, draw: (nat, nat) -> real)
    requires forall y: nat, x: nat :: 0.0 <= draw(y, x) < 1.0
    ensures RandomizeGrid(g, density, draw) == DrawLike(g, density, draw)
  {
    var r := RandomizeGrid(g, density, draw);
    var d := DrawLike(g, density, draw);
    forall y | 0 <= y < |g|
      ensures r[y] == d[y]
    {
      forall x | 0 <= x < |g[y]|
        ensures r[y][x] == d[y][x]
      {
        assert 0.0 <= draw(y, x) < 1.0;
      }
    }
  }

  /** Two grids of the same shape with the same cells are equal. */
  lemma GridExt(a: Grid, b: Grid, w: nat, h: nat)
    requires IsGrid(a, w, h) && IsGrid(b, w, h)
    requires forall y, x :: 0 <= y < h && 0 <= x < w ==> a[y][x] == b[y][x]
    ensures a == b
  {
    forall y | 0 <= y < h
      ensures a[y] == b[y]
    {
    }
  }
}

=== FILE: ca_memory.dfy ===
/**
 `src/memory/caMemoryEngine.js`: a CA used as an associative memory.
 `store` keeps byte copies of the patterns; `recall` evolves the probe for
 a number of generations on the nested-array engine and reports the
 distance to the nearest stored pattern.
 */
module CaMemory {
  import opened Wrappers
  import opened JsNumbers
  import opened CaGrid
  import opened CaRules
  import CaStep
  import BsRegex
  import opened RecallCommon
  import Arith

  /** A rule argument: a notation string is parsed, anything else is used as given. */
  datatype RuleSpec = Text(notation: string) | Given(rule: Rule)

  /** `parseRule(notation)`. */
  function ParseRule(spec: RuleSpec): (r: Result<Rule>)
    ensures spec.Given? ==> r == Ok(spec.rule)
    ensures spec.Text? ==> (r.Err? <==> BsRegex.MatchBornSurvive(spec.notation, 0).None?)
    ensures r.Err? ==> r.error.message == "Invalid rule: " + spec.notation
    ensures spec.Text? && r.Ok? ==> BsRegex.InRange08(r.value.born) && BsRegex.InRange08(r.value.survive)
  {
    match spec
    case Given(rule) => Ok(rule)
    case Text(s) =>
      match BsRegex.MatchBornSurvive(s, 0)
      case None => Err(Error(RuntimeError, "Invalid rule: " + s))
      case Some((b, sv)) => Ok(Rule(BsRegex.DigitValues(b), BsRegex.DigitValues(sv)))
  }

  /** A notation written from digit lists in 0..8 parses back to exactly those lists. */
  lemma ParseRuleRoundTrip(born: seq<int>, survive: seq<int>)
    requires BsRegex.InRange08(born) && BsRegex.InRange08(survive)
    ensures ParseRule(Text(BsRegex.Notation(born, survive))) == Ok(Rule(born, survive))
  {
    BsRegex.NotationRoundTrip(born, survive, 0);
    BsRegex.DigitsRoundTrip(born);
    BsRegex.DigitsRoundTrip(survive);
  }

  /** `uint8ToGrid(arr, w, h)`: row y, column x holds `arr[y * w + x]`. */
  function Uint8ToGrid(arr: seq<int>, w: nat, h: nat): (g: Grid)
    ensures IsGrid(g, w, h)
    ensures forall y, x :: 0 <= y < h && 0 <= x < w ==>
              g[y][x] == if y * w + x < |arr| then arr[y * w + x] else Undefined
  {
    seq(h, (y: int) => seq(w, (x: int) => if 0 <= y * w + x < |arr| then arr[y * w + x] else Undefined))
  }

  /** Storing into a `Uint8Array`: `undefined` becomes 0, numbers are reduced modulo 256. */
  function StoreByte(c: int): nat {
    if c == Undefined then 0 else ToUint8(c)
  }

  /** `gridToUint8(grid)`: the rows concatenated, each cell stored as a byte. */
  function GridToUint8(g: Grid): (a: seq<int>)
    ensures |g| == 0 ==> |a| == 0
  {
    if |g| == 0 then []
    else seq(|g[0]|, (x: int) requires 0 <= x < |g[0]| => StoreByte(g[0][x])) + GridToUint8(g[1..])
  }

  lemma {:induction false} GridToUint8Length(g: Grid, w: nat)
    requires IsGrid(g, w, |g|)
    ensures |GridToUint8(g)| == |g| * w
  {
    if |g| > 0 {
      GridToUint8Length(g[1..], w);
      assert |g| * w == (|g| - 1) * w + w;
    }
  }

  /** Cell (x, y) of the rows lands at index `y * w + x` of the flat board. */
  lemma {:induction false} GridToUint8At(g: Grid, w: nat, y: nat, x: nat)
    requires IsGrid(g, w, |g|) && y < |g| && x < w
    ensures y * w + x < |GridToUint8(g)|
    ensures GridToUint8(g)[y * w + x] == StoreByte(g[y][x])
  {
    GridToUint8Length(g, w);
    Arith.IndexBound(x, y, w, |g|);
    var row := seq(|g[0]|, (i: int) requires 0 <= i < |g[0]| => StoreByte(g[0][i]));
    assert GridToUint8(g) == row + GridToUint8(g[1..]);
    if y > 0 {
      GridToUint8At(g[1..], w, y - 1, x);
      assert y * w + x == (y - 1) * w + x + w;
    }
  }

  /** Converting a byte board to rows and back gives the same board. */
  lemma FlatRoundTrip(a: seq<int>, w: nat, h: nat)
    requires w > 0 && |a| == w * h
    requires forall i :: 0 <= i < |a| ==> IsByte(a[i])
    ensures GridToUint8(Uint8ToGrid(a, w, h)) == a
  {
    var g := Uint8ToGrid(a, w, h);
    GridToUint8Length(g, w);
    forall i | 0 <= i < |a|
      ensures GridToUint8(g)[i] == a[i]
    {
      Arith.DivBound(i, w, h);
      var y, x := i / w, i % w;
      Arith.DivModUnique(i, w, y, x);
      GridToUint8At(g, w, y, x);
    }
  }

  /** Converting byte rows to a board and back gives the same rows. */
  lemma GridRoundTrip(g: Grid, w: nat, h: nat)
    requires w > 0 && IsGrid(g, w, h)
    requires forall y, x :: 0 <= y < h && 0 <= x < w ==> IsByte(g[y][x])
    ensures Uint8ToGrid(GridToUint8(g), w, h) == g
  {
    var a := GridToUint8(g);
    GridToUint8Length(g, w);
    var g' := Uint8ToGrid(a, w, h);
    forall y, x | 0 <= y < h && 0 <= x < w
      ensures g'[y][x] == g[y][x]
    {
      GridToUint8At(g, w, y, x);
    }
    GridExt(g', g, w, h);
  }

  const DefaultWidth: nat := 32
  const DefaultHeight: nat := 32
  const DefaultSteps: nat := 80

  /** The closure state of one engine built by `CAMemoryEngine.create`. */
  datatype Engine = Engine(rule: Rule, width: nat, height: nat, steps: nat, stored: seq<seq<int>>)

  /** `create({ rule, width, height, steps })`: parses the rule; nothing is stored yet. */
  function Create(spec: RuleSpec, width: nat, height: nat, steps: nat): (r: Result<Engine>)
    ensures r.Ok? <==> ParseRule(spec).Ok?
    ensures r.Ok? ==> r.value == Engine(ParseRule(spec).value, width, height, steps, [])
  {
    var rule :- ParseRule(spec);
    Ok(Engine(rule, width, height, steps, []))
  }

  /** `store(patterns)`: the previous patterns are dropped and byte copies of the new ones kept, in order. */
  function Store(e: Engine, patterns: seq<seq<int>>): (e': Engine)
    ensures e'.rule == e.rule && e'.width == e.width && e'.height == e.height && e'.steps == e.steps
    ensures |e'.stored| == |patterns|
    ensures forall k :: 0 <= k < |patterns| ==> e'.stored[k] == ToBytes(patterns[k])
  {
    e.(stored := seq(|patterns|, (k: int) requires 0 <= k < |patterns| => ToBytes(patterns[k])))
  }

  /** The board after evolving the probe `s` generations. */
  function Evolve(e: Engine, noisy: seq<int>, s: nat): (final: seq<int>)
    requires e.width > 0 && e.height > 0
    ensures |final| == e.width * e.height
  {
    var g := Uint8ToGrid(ToBytes(noisy), e.width, e.height);
    GridToUint8Length(CaStep.Run(g, e.rule, s), e.width);
    GridToUint8(CaStep.Run(g, e.rule, s))
  }

  /** `recall(noisyPattern, { steps, maxDiffRatio })`; absent options take the defaults. */
  function Recall(e: Engine, noisy: seq<int>, steps: Option<nat>, maxDiffRatio: Option<real>): (r: RecallResult)
    requires e.width > 0 && e.height > 0
    ensures r.stepsUsed == steps.GetOr(e.steps)
    ensures r.final == Evolve(e, noisy, r.stepsUsed)
    ensures r.distance.Infinity? <==> |e.stored| == 0
    ensures forall k :: 0 <= k < |e.stored| ==> r.distance.AtMost(Finite(HammingDist(r.final, e.stored[k])))
    ensures r.distance.Finite? ==> exists k :: 0 <= k < |e.stored| && r.distance.d == HammingDist(r.final, e.stored[k])
    ensures r.success <==> Succeeds(r.distance, |noisy|, maxDiffRatio.GetOr(DefaultMaxDiffRatio))
  {
    var s := steps.GetOr(e.steps);
    var final := Evolve(e, noisy, s);
    var dist := MinDistance(final, e.stored);
    RecallResult(final, Succeeds(dist, |noisy|, maxDiffRatio.GetOr(DefaultMaxDiffRatio)), dist, s)
  }

  /** With nothing stored, recall never succeeds. */
  lemma EmptyStoreNeverSucceeds(e: Engine, noisy: seq<int>, steps: Option<nat>, ratio: Option<real>)
    requires e.width > 0 && e.height > 0 && |e.stored| == 0
    ensures !Recall(e, noisy, steps, ratio).success
  {
  }
}

=== FILE: ca_rules.dfy ===
/**
 `src/core/caRules.js`: the toroidal Moore neighbour count and the
 Life-like birth/survival rule for one cell.
 */
module CaRules {
  import opened CaGrid
  import Arith

  /** A rule as the JS engines hold it: `{ born: number[], survive: number[] }`. */
  datatype Rule = Rule(born: seq<int>, survive: seq<int>)

  /** The eight (dx, dy) offsets, in the order the source lists them; (0, 0) is absent. */
  const Offsets: seq<(int, int)> :=
    [(-1, -1), (0, -1), (1, -1), (-1, 0), (1, 0), (-1, 1), (0, 1), (1, 1)]

  /** `(i + d + n) % n`: the coordinate one step away on a ring of size n. */
  function Wrap(i: int, d: int, n: int): (r: nat)
    requires n > 0 && 0 <= i < n && -1 <= d <= 1
    ensures r == if i + d < 0 then n - 1 else if i + d >= n then 0 else i + d
  {
    Arith.WrapCases(i, d, n);
    (i + d + n) % n
  }

  /** Number of the first `k` offsets whose wrapped neighbour holds exactly 1. */
  function CountFirst(g: Grid, x: nat, y: nat, k: nat): (c: nat)
    requires Rect(g) && x < Width(g) && y < Height(g) && k <= 8
    ensures c <= k
  {
    if k == 0 then 0
    else
      var (dx, dy) := Offsets[k - 1];
      var nx := Wrap(x, dx, Width(g));
      var ny := Wrap(y, dy, Height(g));
      CountFirst(g, x, y, k - 1) + (if g[ny][nx] == 1 then 1 else 0)
  }

  /** `countAliveNeighbors(grid, x, y)`. */
  function CountAliveNeighbors(g: Grid, x: nat, y: nat): (c: nat)
    requires Rect(g) && x < Width(g) && y < Height(g)
    ensures c <= 8
  {
    CountFirst(g, x, y, 8)
  }

  /** `applyRuleToCell`: a 0 cell is born, any other value must survive. */
  function ApplyRuleToCell(state: int, n: int, rule: Rule): (r: int)
    ensures r == 0 || r == 1
    ensures state == 0 ==> (r == 1 <==> n in rule.born)
    ensures state != 0 ==> (r == 1 <==> n in rule.survive)
  {
    if state == 0 then (if n in rule.born then 1 else 0)
    else (if n in rule.survive then 1 else 0)
  }

  /** The wrapped position of offset k around (x, y). */
  function NeighbourAt(g: Grid, x: nat, y: nat, k: nat): (p: (nat, nat))
    requires Rect(g) && x < Width(g) && y < Height(g) && k < 8
    ensures p.0 < Width(g) && p.1 < Height(g)
  {
    (Wrap(x, Offsets[k].0, Width(g)), Wrap(y, Offsets[k].1, Height(g)))
  }

  /** On a grid at least 2 wide and 2 high no offset lands back on the centre. */
  lemma CentreNeverVisited(g: Grid, x: nat, y: nat, k: nat)
    requires Rect(g) && x < Width(g) && y < Height(g) && k < 8
    requires Width(g) >= 2 && Height(g) >= 2
    ensures NeighbourAt(g, x, y, k) != (x, y)
  {
  }

  lemma {:induction false} CountFirstIgnoresCentre(g: Grid, g': Grid, x: nat, y: nat, k: nat)
    requires Rect(g) && x < Width(g) && y < Height(g) && k <= 8
    requires Width(g) >= 2 && Height(g) >= 2
    requires IsGrid(g', Width(g), Height(g))
    requires forall j, i :: 0 <= j < Height(g) && 0 <= i < Width(g) && (i, j) != (x, y) ==> g'[j][i] == g[j][i]
    ensures CountFirst(g', x, y, k) == CountFirst(g, x, y, k)
  {
    if k > 0 {
      CountFirstIgnoresCentre(g, g', x, y, k - 1);
      CentreNeverVisited(g, x, y, k - 1);
    }
  }

  /**
   The count never reads the centre cell: rewriting (x, y) alone leaves it
   unchanged, on any grid at least 2 by 2.
   */
  lemma CountIgnoresCentre(g: Grid, x: nat, y: nat, v: int)
    requires Rect(g) && x < Width(g) && y < Height(g)
    requires Width(g) >= 2 && Height(g) >= 2
    ensures CountAliveNeighbors(g[y := g[y][x := v]], x, y) == CountAliveNeighbors(g, x, y)
  {
    CountFirstIgnoresCentre(g, g[y := g[y][x := v]], x, y, 8);
  }

  /** On a 1 by 1 torus every offset wraps back to the cell itself. */
  lemma SingleCellSeesItself()
    ensures CountAliveNeighbors([[1]], 0, 0) == 8
  {
    assert Rect([[1]]);
    CountUniform([[1]], 0, 0, 1);
  }

  lemma {:induction false} CountFirstUniform(g: Grid, x: nat, y: nat, k: nat, v: int)
    requires Rect(g) && x < Width(g) && y < Height(g) && k <= 8
    requires AllCells(g, v)
    ensures CountFirst(g, x, y, k) == if v == 1 then k else 0
  {
    if k > 0 {
      CountFirstUniform(g, x, y, k - 1, v);
    }
  }

  /** Uniform grids: all-ones sees 8 live neighbours everywhere, any other constant sees 0. */
  lemma CountUniform(g: Grid, x: nat, y: nat, v: int)
    requires Rect(g) && x < Width(g) && y < Height(g)
    requires AllCells(g, v)
    ensures CountAliveNeighbors(g, x, y) == if v == 1 then 8 else 0
  {
    CountFirstUniform(g, x, y, 8, v);
  }

  /** The corner (0, 0) sees the opposite corner (w-1, h-1) through the wrap. */
  lemma CornerSeesOppositeCorner(g: Grid)
    requires Rect(g)
    ensures NeighbourAt(g, 0, 0, 0) == (Width(g) - 1, Height(g) - 1)
  {
  }
}

=== FILE: ca_step.dfy ===
/**
 `src/core/caStep.js`: one synchronous generation of the nested-array
 engine. Every cell of the new grid is computed from the old grid only.
 */
module CaStep {
  import opened CaGrid
  import opened CaRules

  /**
   `step(grid, rule)`: a fresh grid of the same shape, cell by cell from
   the old one. A grid of empty rows steps to as many empty rows.
   */
  function Step(g: Grid, rule: Rule): (r: Grid)
    requires Shaped(g)
    ensures IsGrid(r, Width(g), Height(g)) && Shaped(r)
    ensures IsBinary(r)
    ensures forall y, x :: 0 <= y < Height(g) && 0 <= x < Width(g) ==>
              r[y][x] == ApplyRuleToCell(g[y][x], CountAliveNeighbors(g, x, y), rule)
  {
    seq(Height(g), (y: int) requires 0 <= y < Height(g) =>
      seq(Width(g), (x: int) requires 0 <= x < Width(g) =>
        ApplyRuleToCell(g[y][x], CountAliveNeighbors(g, x, y), rule)))
  }

  /** `steps` generations in a row, as the callers' `for` loops apply them. */
  function Run(g: Grid, rule: Rule, steps: nat): (r: Grid)
    requires Shaped(g)
    ensures IsGrid(r, Width(g), Height(g)) && Shaped(r)
    ensures steps > 0 ==> IsBinary(r)
    decreases steps
  {
    if steps == 0 then g else Run(Step(g, rule), rule, steps - 1)
  }

  /** A grid of empty rows is left as it is by every step. */
  lemma {:induction false} EmptyRowsStayEmpty(g: Grid, rule: Rule, steps: nat)
    requires Shaped(g) && Width(g) == 0
    ensures Run(g, rule, steps) == g
    decreases steps
  {
    if steps > 0 {
      var r := Step(g, rule);
      assert r == g by {
        forall y | 0 <= y < |g|
          ensures r[y] == g[y]
        {
          assert |r[y]| == 0 == |g[y]|;
        }
      }
      EmptyRowsStayEmpty(r, rule, steps - 1);
    }
  }

  /** Running a then b generations is running a + b generations. */
  lemma {:induction false} RunAdditive(g: Grid, rule: Rule, a: nat, b: nat)
    requires Shaped(g)
    ensures Run(Run(g, rule, a), rule, b) == Run(g, rule, a + b)
    decreases a
  {
    if a > 0 {
      RunAdditive(Step(g, rule), rule, a - 1, b);
    }
  }

  /** An all-dead grid is a fixed point of `step` exactly when 0 is not a birth count. */
  lemma DeadGridFixedIff(w: nat, h: nat, rule: Rule)
    requires w > 0 && h > 0
    ensures Step(CreateGrid(w, h, 0), rule) == CreateGrid(w, h, 0) <==> 0 !in rule.born
  {
    var z := CreateGrid(w, h, 0);
    var r := Step(z, rule);
    CountUniform(z, 0, 0, 0);
    if 0 !in rule.born {
      forall y, x | 0 <= y < h && 0 <= x < w
        ensures r[y][x] == z[y][x]
      {
        CountUniform(z, x, y, 0);
      }
      GridExt(r, z, w, h);
    } else {
      assert r[0][0] == 1;
    }
  }

  /** An all-live grid is a fixed point of `step` exactly when 8 is a survival count. */
  lemma FullGridFixedIff(w: nat, h: nat, rule: Rule)
    requires w > 0 && h > 0
    ensures Step(CreateGrid(w, h, 1), rule) == CreateGrid(w, h, 1) <==> 8 in rule.survive
  {
    var z := CreateGrid(w, h, 1);
    var r := Step(z, rule);
    CountUniform(z, 0, 0, 1);
    if 8 in rule.survive {
      forall y, x | 0 <= y < h && 0 <= x < w
        ensures r[y][x] == z[y][x]
      {
        CountUniform(z, x, y, 1);
      }
      GridExt(r, z, w, h);
    } else {
      assert r[0][0] == 0;
    }
  }
}

=== FILE: closed_loop.dfy ===
/**
 The Hall-of-Fame gatekeeping of isinglab/closed_loop_agi.py: the rule
 distance, the diversity test against the current Hall of Fame, the
 per-profile quota, the adaptive-threshold computation with its guard for
 a small memory, and the promotion decision in fixed and adaptive mode.
 The percentile is a parameter (numpy's interpolation is not modelled);
 floats are exact reals.
 */
module ClosedLoop {
  import opened Wrappers
  import PyText
  import PyList
  import MetricsFunctional

  /** A rule dictionary as these checks read it; `born`/`survive` default to `[]`. */
  datatype LoopRule = LoopRule(notation: Option<string>, born: seq<int>, survive: seq<int>, moduleProfile: Option<string>)

  // ----------------------------------------------------------- distance

  /** `_compute_rule_distance`: the sizes of the symmetric differences of the born and survive sets. */
  function RuleDistance(a: LoopRule, b: LoopRule): nat {
    PyText.SymDiff(PyText.SetOf(a.born), PyText.SetOf(b.born)) + PyText.SymDiff(PyText.SetOf(a.survive), PyText.SetOf(b.survive))
  }

  /** The distance is symmetric, 0 exactly for equal digit sets, and obeys the triangle inequality. */
  lemma RuleDistanceFacts(a: LoopRule, b: LoopRule, c: LoopRule)
    ensures RuleDistance(a, b) == RuleDistance(b, a)
    ensures RuleDistance(a, b) == 0 <==> PyText.SetOf(a.born) == PyText.SetOf(b.born) && PyText.SetOf(a.survive) == PyText.SetOf(b.survive)
    ensures RuleDistance(a, c) <= RuleDistance(a, b) + RuleDistance(b, c)
  {
    PyText.SymDiffSymmetric(PyText.SetOf(a.born), PyText.SetOf(b.born));
    PyText.SymDiffSymmetric(PyText.SetOf(a.survive), PyText.SetOf(b.survive));
    PyText.SymDiffZero(PyText.SetOf(a.born), PyText.SetOf(b.born));
    PyText.SymDiffZero(PyText.SetOf(a.survive), PyText.SetOf(b.survive));
    PyText.SymDiffTriangle(PyText.SetOf(a.born), PyText.SetOf(b.born), PyText.SetOf(c.born));
    PyText.SymDiffTriangle(PyText.SetOf(a.survive), PyText.SetOf(b.survive), PyText.SetOf(c.survive));
  }

  /**
   Adding digits a rule lacks moves it by exactly the number of digits
   added: B13/S23 and B123/S236 are at distance 2.
   */
  lemma AddedDigitsDistance(a: LoopRule, b: LoopRule, bornAdded: set<int>, surviveAdded: set<int>)
    requires PyText.SetOf(b.born) == PyText.SetOf(a.born) + bornAdded && bornAdded !! PyText.SetOf(a.born)
    requires PyText.SetOf(b.survive) == PyText.SetOf(a.survive) + surviveAdded && surviveAdded !! PyText.SetOf(a.survive)
    ensures RuleDistance(a, b) == |bornAdded| + |surviveAdded|
  {
    assert (PyText.SetOf(a.born) - PyText.SetOf(b.born)) + (PyText.SetOf(b.born) - PyText.SetOf(a.born)) == bornAdded;
    assert (PyText.SetOf(a.survive) - PyText.SetOf(b.survive)) + (PyText.SetOf(b.survive) - PyText.SetOf(a.survive)) == surviveAdded;
  }

  // ----------------------------------------------------------- diversity

  /** `config.get('diversity_threshold', 2)`. */
  function DiversityThreshold(configured: Option<int>): int {
    if configured.Some? then configured.value else 2
  }

  /** The reason `_is_diverse_enough` gives; `TooSimilar` carries the clashing rule's notation and distance. */
  datatype DiversityReason = HofEmpty | TooSimilar(notation: Option<string>, distance: nat) | Diverse

  /** The candidate lies closer than the threshold to a Hall-of-Fame rule. */
  predicate TooClose(c: LoopRule, h: LoopRule, threshold: int) {
    RuleDistance(c, h) < threshold
  }

  /** The `for hof_rule in hof_rules` loop from index j on: the first rule too close to the candidate, or `|hof|`. */
  function FirstTooClose(c: LoopRule, hof: seq<LoopRule>, threshold: int, j: nat): (k: nat)
    requires j <= |hof|
    ensures j <= k <= |hof|
    ensures forall m :: j <= m < k ==> !TooClose(c, hof[m], threshold)
    ensures k < |hof| ==> TooClose(c, hof[k], threshold)
    decreases |hof| - j
  {
    if j == |hof| then j
    else if TooClose(c, hof[j], threshold) then j
    else FirstTooClose(c, hof, threshold, j + 1)
  }

  /**
   `_is_diverse_enough(candidate, hof_rules)`: `(True, "HoF empty")` for an
   empty Hall of Fame; otherwise False, naming the first rule closer than
   the threshold and its distance, when there is one.
   */
  function IsDiverseEnough(c: LoopRule, hof: seq<LoopRule>, threshold: int): (r: (bool, DiversityReason))
    ensures |hof| == 0 ==> r == (true, HofEmpty)
    ensures r.0 <==> FirstTooClose(c, hof, threshold, 0) == |hof|
    ensures r.0 && |hof| > 0 ==> r.1 == Diverse
    ensures !r.0 ==> var k := FirstTooClose(c, hof, threshold, 0);
      r.1 == TooSimilar(hof[k].notation, RuleDistance(c, hof[k])) && RuleDistance(c, hof[k]) < threshold
  {
    if |hof| == 0 then (true, HofEmpty)
    else
      var k := FirstTooClose(c, hof, threshold, 0);
      if k == |hof| then (true, Diverse)
      else (false, TooSimilar(hof[k].notation, RuleDistance(c, hof[k])))
  }

  /** The candidate is rejected exactly when some Hall-of-Fame rule lies closer than the threshold. */
  lemma NotDiverseIff(c: LoopRule, hof: seq<LoopRule>, threshold: int)
    ensures !IsDiverseEnough(c, hof, threshold).0 <==> exists k :: 0 <= k < |hof| && TooClose(c, hof[k], threshold)
  {
    var k := FirstTooClose(c, hof, threshold, 0);
    if k < |hof| {
      assert TooClose(c, hof[k], threshold);
    }
  }

  /** A candidate identical (as digit sets) to a Hall-of-Fame rule is never diverse under a positive threshold. */
  lemma DuplicateNotDiverse(c: LoopRule, hof: seq<LoopRule>, threshold: int, k: nat)
    requires k < |hof| && threshold > 0
    requires PyText.SetOf(c.born) == PyText.SetOf(hof[k].born) && PyText.SetOf(c.survive) == PyText.SetOf(hof[k].survive)
    ensures !IsDiverseEnough(c, hof, threshold).0
  {
    RuleDistanceFacts(c, hof[k], c);
    assert TooClose(c, hof[k], threshold);
    NotDiverseIff(c, hof, threshold);
  }

  // ------------------------------------------------------------- quotas

  /** `r.get('module_profile', 'unknown')`. */
  function ProfileOf(r: LoopRule): string {
    if r.moduleProfile.Some? then r.moduleProfile.value else "unknown"
  }

  /** `Counter(...).get(profile, 0)`: how many Hall-of-Fame rules carry the profile. */
  function ProfileCount(hof: seq<LoopRule>, profile: string): (n: nat)
    ensures n <= |hof|
    decreases |hof|
  {
    if |hof| == 0 then 0
    else ProfileCount(hof[..|hof| - 1], profile) + if ProfileOf(hof[|hof| - 1]) == profile then 1 else 0
  }

  datatype QuotaReason = NoQuota | QuotaOk(count: nat, max: int) | QuotaFull(count: nat, max: int)

  /**
   `_check_profile_quota(profile, current_hof)`: no quota for the profile
   (an empty quota dict included) lets it in; otherwise it gets in while
   fewer than the maximum Hall-of-Fame rules carry it.
   */
  function CheckProfileQuota(profile: string, quotas: map<string, int>, hof: seq<LoopRule>): (r: (bool, QuotaReason))
    ensures profile !in quotas ==> r == (true, NoQuota)
    ensures profile in quotas ==> (r.0 <==> ProfileCount(hof, profile) < quotas[profile])
    ensures r.1.QuotaOk? || r.1.QuotaFull? ==> r.1.count == ProfileCount(hof, profile)
  {
    if |quotas| == 0 || profile !in quotas then (true, NoQuota)
    else
      var count := ProfileCount(hof, profile);
      var max := quotas[profile];
      if count < max then (true, QuotaOk(count, max)) else (false, QuotaFull(count, max))
  }

  /** Adding a rule never reopens a full quota: the count only grows. */
  lemma QuotaFullStaysFull(profile: string, quotas: map<string, int>, hof: seq<LoopRule>, r: LoopRule)
    requires !CheckProfileQuota(profile, quotas, hof).0
    ensures !CheckProfileQuota(profile, quotas, hof + [r]).0
    ensures ProfileCount(hof + [r], profile) == ProfileCount(hof, profile) + if ProfileOf(r) == profile then 1 else 0
  {
    assert (hof + [r])[..|hof|] == hof;
  }

  /** The quotas of the default configuration. */
  const DefaultQuotas: map<string, int> := map[
    "stable_memory" := 4, "robust_memory" := 4, "diverse_memory" := 4, "chaotic_probe" := 4,
    "sensitive_detector" := 4, "attractor_dominant" := 2, "generic" := 2]

  /** Every profile `infer_module_profile` can return has a quota in the default configuration. */
  lemma EveryProfileHasDefaultQuota(p: MetricsFunctional.Profile)
    ensures MetricsFunctional.ProfileName(p) in DefaultQuotas
  {
  }

  // ------------------------------------------------------ thresholds

  /** A meta-memory entry's `scores` dict (an absent key is a missing score). */
  type Scores = map<string, real>

  predicate Complete(s: Scores) {
    "memory_score" in s && "edge_score" in s && "entropy" in s
  }

  /** `mem * 0.5 + edge * 0.3 + ent * 0.2`. */
  function Composite(mem: real, edge: real, ent: real): (c: real)
    ensures 0.0 <= mem <= 1.0 && 0.0 <= edge <= 1.0 && 0.0 <= ent <= 1.0 ==> 0.0 <= c <= 1.0
  {
    mem * 0.5 + edge * 0.3 + ent * 0.2
  }

  function CompositeOf(s: Scores): real
    requires Complete(s)
  {
    Composite(s["memory_score"], s["edge_score"], s["entropy"])
  }

  /** `composite_scores`: one composite per entry that has all three scores, in memory order. */
  function Composites(memory: seq<Scores>): (cs: seq<real>)
    decreases |memory|
  {
    if |memory| == 0 then []
    else
      var init := Composites(memory[..|memory| - 1]);
      var s := memory[|memory| - 1];
      if Complete(s) then init + [CompositeOf(s)] else init
  }

  /** The composites are exactly those of the complete entries, one each, in order. */
  lemma {:induction false} CompositesAreCompleteEntries(memory: seq<Scores>)
    ensures |Composites(memory)| == |PyList.Filter(memory, Complete)|
    ensures forall k :: 0 <= k < |Composites(memory)| ==>
      Composites(memory)[k] == CompositeOf(PyList.Filter(memory, Complete)[k])
    decreases |memory|
  {
    if |memory| > 0 {
      var init := memory[..|memory| - 1];
      CompositesAreCompleteEntries(init);
      PyList.FilterSnoc(init, memory[|memory| - 1], Complete);
      assert memory == init + [memory[|memory| - 1]];
    }
  }

  /** What `_compute_adaptive_thresholds` returns: the fixed dict itself, or the adaptive one. */
  datatype Thresholds =
    | FixedThresholds(memoryMin: real, edgeMin: real, entropyMin: real)
    | AdaptiveThresholds(composite: real, memoryAbs: real, edgeAbs: real, entropyAbs: real)

  /** `percentiles.get(key, default)`. */
  function GetOr(d: map<string, real>, key: string, default: real): real {
    if key in d then d[key] else default
  }

  /**
   `_compute_adaptive_thresholds()`: with fewer than 5 memory entries the
   fixed `hof_thresholds` come back unchanged; otherwise the composite
   threshold is the configured percentile (default 90) of the composites,
   0 when there are none, next to the absolute minimums (defaults 0.01,
   0.05 and 0.0).
   */
  function ComputeAdaptiveThresholds(memory: seq<Scores>, percentiles: map<string, real>, hofThresholds: Thresholds,
                                     percentile: (seq<real>, real) -> real): (t: Thresholds)
    requires hofThresholds.FixedThresholds?
    ensures |memory| < 5 <==> t == hofThresholds
    ensures t.AdaptiveThresholds? ==>
      && t.composite == (if |Composites(memory)| > 0 then percentile(Composites(memory), GetOr(percentiles, "composite_min", 90.0)) else 0.0)
      && t.memoryAbs == GetOr(percentiles, "memory_score_min_abs", 0.01)
      && t.edgeAbs == GetOr(percentiles, "edge_score_min_abs", 0.05)
      && t.entropyAbs == GetOr(percentiles, "entropy_min_abs", 0.0)
  {
    if |memory| < 5 then hofThresholds
    else
      var cs := Composites(memory);
      var pct := GetOr(percentiles, "composite_min", 90.0);
      AdaptiveThresholds(
        if |cs| > 0 then percentile(cs, pct) else 0.0,
        GetOr(percentiles, "memory_score_min_abs", 0.01),
        GetOr(percentiles, "edge_score_min_abs", 0.05),
        GetOr(percentiles, "entropy_min_abs", 0.0))
  }

  // -------------------------------------------------------- promotion

  /** The scores of one evaluated result, with the defaults of its `res.get(...)` reads. */
  datatype Evaluated = Evaluated(memory: real, edge: real, entropy: real, functional: real,
                                 capacity: real, robustness: real, basin: real)

  function FromResult(res: map<string, real>): Evaluated {
    Evaluated(GetOr(res, "memory_score", 0.0), GetOr(res, "edge_score", 0.0), GetOr(res, "entropy", 0.0),
              GetOr(res, "functional_score", 0.0), GetOr(res, "capacity_score", 0.0),
              GetOr(res, "robustness_score", 0.0), GetOr(res, "basin_diversity", 0.5))
  }

  /** The fixed-mode test: memory, edge and entropy each reach their minimum. */
  predicate FixedPromote(e: Evaluated, t: Thresholds)
    requires t.FixedThresholds?
  {
    e.memory >= t.memoryMin && e.edge >= t.edgeMin && e.entropy >= t.entropyMin
  }

  /** The adaptive-mode test, from the composite/functional gate through the profile quota to diversity. */
  predicate AdaptivePromote(e: Evaluated, t: Thresholds, c: LoopRule, hof: seq<LoopRule>, quotas: map<string, int>, threshold: int)
    requires t.AdaptiveThresholds?
  {
    var gate := (Composite(e.memory, e.edge, e.entropy) >= t.composite || e.functional >= 0.30) &&
      e.memory >= t.memoryAbs && e.edge >= t.edgeAbs && e.entropy >= t.entropyAbs;
    var profile := MetricsFunctional.ProfileName(MetricsFunctional.InferProfile(e.capacity, e.robustness, e.basin, e.entropy));
    gate && CheckProfileQuota(profile, quotas, hof).0 && IsDiverseEnough(c, hof, threshold).0
  }

  const NoCompositeThreshold := Error(KeyError, "'composite_threshold'")

  /**
   The promotion decision of `_update_memory_and_hof` as written. With
   adaptive thresholds switched on it reads `composite_threshold` from
   whatever `_compute_adaptive_thresholds` returned, so the fixed dict
   (fewer than 5 memory entries) raises KeyError; the same read is already
   made when the threshold is logged before the loop.
   */
  function PromoteAsWritten(useAdaptive: bool, t: Thresholds, fixed: Thresholds, e: Evaluated, c: LoopRule,
                            hof: seq<LoopRule>, quotas: map<string, int>, threshold: int): (r: Result<bool>)
    requires fixed.FixedThresholds?
    ensures useAdaptive && t.FixedThresholds? ==> r == Err(NoCompositeThreshold)
    ensures !useAdaptive ==> r == Ok(FixedPromote(e, fixed))
  {
    if useAdaptive then
      match t
      case FixedThresholds(_, _, _) => Err(NoCompositeThreshold)
      case AdaptiveThresholds(_, _, _, _) => Ok(AdaptivePromote(e, t, c, hof, quotas, threshold))
    else Ok(FixedPromote(e, fixed))
  }

  /** With the default adaptive mode and a young memory, every promotion attempt raises KeyError. */
  lemma YoungMemoryRaises(memory: seq<Scores>, percentiles: map<string, real>, fixed: Thresholds,
                          percentile: (seq<real>, real) -> real, e: Evaluated, c: LoopRule,
                          hof: seq<LoopRule>, quotas: map<string, int>, threshold: int)
    requires fixed.FixedThresholds? && |memory| < 5
    ensures PromoteAsWritten(true, ComputeAdaptiveThresholds(memory, percentiles, fixed, percentile), fixed, e, c, hof, quotas, threshold).Err?
  {
  }

  /**
   The evident intent of the guard ("not enough data, use the fixed
   thresholds"): a fixed dict coming back from the threshold computation
   selects fixed mode.
   */
  function Promote(useAdaptive: bool, t: Thresholds, fixed: Thresholds, e: Evaluated, c: LoopRule,
                   hof: seq<LoopRule>, quotas: map<string, int>, threshold: int): (r: bool)
    requires fixed.FixedThresholds?
    ensures t.AdaptiveThresholds? && useAdaptive ==> r == AdaptivePromote(e, t, c, hof, quotas, threshold)
    ensures PromoteAsWritten(useAdaptive, t, fixed, e, c, hof, quotas, threshold).Ok? ==>
      r == PromoteAsWritten(useAdaptive, t, fixed, e, c, hof, quotas, threshold).value
  {
    if useAdaptive && t.AdaptiveThresholds? then AdaptivePromote(e, t, c, hof, quotas, threshold)
    else FixedPromote(e, fixed)
  }

  /**
   With a young memory the corrected decision is the fixed-threshold test:
   promoted exactly when memory, edge and entropy each reach their minimum.
   */
  lemma YoungMemoryUsesFixed(memory: seq<Scores>, percentiles: map<string, real>, fixed: Thresholds,
                             percentile: (seq<real>, real) -> real, e: Evaluated, c: LoopRule,
                             hof: seq<LoopRule>, quotas: map<string, int>, threshold: int)
    requires fixed.FixedThresholds? && |memory| < 5
    ensures Promote(true, ComputeAdaptiveThresholds(memory, percentiles, fixed, percentile), fixed, e, c, hof, quotas, threshold) <==>
      e.memory >= fixed.memoryMin && e.edge >= fixed.edgeMin && e.entropy >= fixed.entropyMin
  {
  }

  /** An adaptive promotion implies the absolute minimums, a free quota and diversity. */
  lemma AdaptivePromotionFacts(e: Evaluated, t: Thresholds, c: LoopRule, hof: seq<LoopRule>, quotas: map<string, int>, threshold: int)
    requires t.AdaptiveThresholds? && AdaptivePromote(e, t, c, hof, quotas, threshold)
    ensures e.memory >= t.memoryAbs && e.edge >= t.edgeAbs && e.entropy >= t.entropyAbs
    ensures forall k :: 0 <= k < |hof| ==> !TooClose(c, hof[k], threshold)
    ensures var p := MetricsFunctional.ProfileName(MetricsFunctional.InferProfile(e.capacity, e.robustness, e.basin, e.entropy));
      p in quotas ==> ProfileCount(hof, p) < quotas[p]
  {
    NotDiverseIff(c, hof, threshold);
  }
}

=== FILE: counts.dfy ===
/**
 A plain JavaScript object used as a counter, `{ name: count }`. The
 entries are kept in insertion order, which is the order `Object.entries`
 reports for keys that are not array indices.
 */
module Counts {
  import Sorting

  type Counts = seq<(string, nat)>

  function Keys(c: Counts): (ks: seq<string>)
    ensures |ks| == |c|
    ensures forall i :: 0 <= i < |c| ==> ks[i] == c[i].0
  {
    if |c| == 0 then [] else [c[0].0] + Keys(c[1..])
  }

  predicate DistinctKeys(c: Counts) {
    forall i, j :: 0 <= i < j < |c| ==> c[i].0 != c[j].0
  }

  /** `c[k] || 0`. */
  function Get(c: Counts, k: string): nat {
    if |c| == 0 then 0 else if c[0].0 == k then c[0].1 else Get(c[1..], k)
  }

  /** The sum of all counts. */
  function Total(c: Counts): nat {
    if |c| == 0 then 0 else c[0].1 + Total(c[1..])
  }

  /** A key that was never counted reads as 0. */
  lemma {:induction false} GetAbsent(c: Counts, k: string)
    requires k !in Keys(c)
    ensures Get(c, k) == 0
  {
    if |c| > 0 {
      assert Keys(c) == [c[0].0] + Keys(c[1..]);
      GetAbsent(c[1..], k);
    }
  }

  /** `c[k] = (c[k] || 0) + 1`. */
  function Bump(c: Counts, k: string): (r: Counts)
    ensures Get(r, k) == Get(c, k) + 1
    ensures forall k' :: k' != k ==> Get(r, k') == Get(c, k')
    ensures Total(r) == Total(c) + 1
  {
    if |c| == 0 then [(k, 1)]
    else if c[0].0 == k then [(k, c[0].1 + 1)] + c[1..]
    else [c[0]] + Bump(c[1..], k)
  }

  /** An existing key keeps its place; a new key goes last, with count 1. */
  lemma {:induction false} BumpShape(c: Counts, k: string)
    ensures |Bump(c, k)| == if k in Keys(c) then |c| else |c| + 1
    ensures forall i :: 0 <= i < |c| ==> Bump(c, k)[i].0 == c[i].0
    ensures k !in Keys(c) ==> Bump(c, k)[|c|] == (k, 1)
  {
    if |c| > 0 {
      assert Keys(c) == [c[0].0] + Keys(c[1..]);
      if c[0].0 != k {
        BumpShape(c[1..], k);
      }
    }
  }

  /** Bumping never creates a duplicate key. */
  lemma BumpDistinct(c: Counts, k: string)
    requires DistinctKeys(c)
    ensures DistinctKeys(Bump(c, k))
  {
    var r := Bump(c, k);
    BumpShape(c, k);
    forall i, j | 0 <= i < j < |r|
      ensures r[i].0 != r[j].0
    {
      if j == |c| {
        assert k !in Keys(c);
        assert Keys(c)[i] == c[i].0;
      }
    }
  }

  /** With distinct keys, the entry for a key holds exactly `Get` of that key. */
  lemma {:induction false} GetEntry(c: Counts, i: nat)
    requires DistinctKeys(c) && i < |c|
    ensures Get(c, c[i].0) == c[i].1
  {
    if i > 0 {
      GetEntry(c[1..], i - 1);
    }
  }

  /** With distinct keys, two different entries together never exceed the total. */
  lemma {:induction false} TwoEntriesWithinTotal(c: Counts, i: nat, j: nat)
    requires DistinctKeys(c) && i < |c| && j < |c| && i != j
    ensures c[i].1 + c[j].1 <= Total(c)
  {
    if i == 0 {
      EntryWithinTotal(c[1..], j - 1);
    } else if j == 0 {
      EntryWithinTotal(c[1..], i - 1);
    } else {
      TwoEntriesWithinTotal(c[1..], i - 1, j - 1);
    }
  }

  lemma {:induction false} EntryWithinTotal(c: Counts, i: nat)
    requires i < |c|
    ensures c[i].1 <= Total(c)
  {
    if i > 0 {
      EntryWithinTotal(c[1..], i - 1);
    }
  }

  /** The comparator `(a, b) => b[1] - a[1]`: larger counts first. */
  predicate ByCountDesc(a: (string, nat), b: (string, nat)) {
    a.1 >= b.1
  }

  lemma ByCountDescIsTotalPreorder()
    ensures Sorting.TotalPreorder(ByCountDesc)
  {
  }

  /**
   `entries.sort((a, b) => b[1] - a[1])[0]`: an entry whose count no other
   entry exceeds.
   */
  function Top(c: Counts): (t: (string, nat))
    requires |c| > 0
    ensures t in c
    ensures forall i :: 0 <= i < |c| ==> t.1 >= c[i].1
  {
    ByCountDescIsTotalPreorder();
    Sorting.SortByHeadIsFirstLeast(ByCountDesc, c);
    Sorting.FirstLeastIsLeast(ByCountDesc, c);
    Sorting.SortBy(ByCountDesc, c)[0]
  }

  /** The sort is stable, so among entries with the largest count the earliest comes first. */
  lemma TopIsFirstMax(c: Counts)
    requires |c| > 0
    ensures exists k :: 0 <= k < |c| && Top(c) == c[k] && forall j :: 0 <= j < k ==> c[j].1 < c[k].1
  {
    ByCountDescIsTotalPreorder();
    Sorting.SortByHeadIsFirstLeast(ByCountDesc, c);
    Sorting.FirstLeastIsLeast(ByCountDesc, c);
    var k := Sorting.FirstLeast(ByCountDesc, c);
    assert Top(c) == c[k];
  }

  /** An entry holding at least three fifths of a positive total outnumbers every other key. */
  lemma MajorityTop(c: Counts, other: string)
    requires DistinctKeys(c) && |c| > 0 && Total(c) > 0
    requires 5 * Top(c).1 >= 3 * Total(c) && other != Top(c).0
    ensures Get(c, Top(c).0) == Top(c).1
    ensures Get(c, other) < Top(c).1
  {
    var t := Top(c);
    var k :| 0 <= k < |c| && t == c[k];
    GetEntry(c, k);
    if j :| 0 <= j < |c| && c[j].0 == other {
      GetEntry(c, j);
      TwoEntriesWithinTotal(c, k, j);
    } else {
      assert other !in Keys(c);
      GetAbsent(c, other);
    }
  }

  /** A key is present after bumping iff it was present before or is the bumped key. */
  lemma {:induction false} BumpKeys(c: Counts, k: string)
    ensures forall k' :: k' in Keys(Bump(c, k)) <==> k' in Keys(c) || k' == k
  {
    if |c| > 0 {
      assert Keys(c) == [c[0].0] + Keys(c[1..]);
      if c[0].0 == k {
        assert Keys(Bump(c, k)) == [k] + Keys(c[1..]);
      } else {
        BumpKeys(c[1..], k);
        assert Keys(Bump(c, k)) == [c[0].0] + Keys(Bump(c[1..], k));
      }
    }
  }

  /**
   A `Map` (or object) that counts the items of `xs`, visited in order:
   `map.has(x) ? map.get(x).count++ : map.set(x, 1)`.
   */
  function Tally(xs: seq<string>): Counts {
    if |xs| == 0 then [] else Bump(Tally(xs[..|xs| - 1]), xs[|xs| - 1])
  }

  /** Each key counts exactly its occurrences. */
  lemma {:induction false} TallyGet(xs: seq<string>, k: string)
    ensures Get(Tally(xs), k) == multiset(xs)[k]
  {
    if |xs| > 0 {
      var n := |xs| - 1;
      TallyGet(xs[..n], k);
      assert xs == xs[..n] + [xs[n]];
      assert multiset(xs) == multiset(xs[..n]) + multiset{xs[n]};
    }
  }

  /** The counts add up to the number of items. */
  lemma {:induction false} TallyTotal(xs: seq<string>)
    ensures Total(Tally(xs)) == |xs|
  {
    if |xs| > 0 {
      TallyTotal(xs[..|xs| - 1]);
    }
  }

  /** Every distinct item gets exactly one entry. */
  lemma {:induction false} TallyKeys(xs: seq<string>)
    ensures DistinctKeys(Tally(xs))
    ensures forall k :: k in Keys(Tally(xs)) <==> k in xs
  {
    if |xs| > 0 {
      var n := |xs| - 1;
      TallyKeys(xs[..n]);
      BumpDistinct(Tally(xs[..n]), xs[n]);
      BumpKeys(Tally(xs[..n]), xs[n]);
      assert xs == xs[..n] + [xs[n]];
      assert forall k :: k in xs <==> k in xs[..n] || k == xs[n];
    }
  }

  /** A list without repeats has as many elements as its set. */
  lemma {:induction false} DistinctCard(ks: seq<string>)
    requires forall i, j :: 0 <= i < j < |ks| ==> ks[i] != ks[j]
    ensures |set k | k in ks| == |ks|
  {
    if |ks| > 0 {
      var rest := ks[1..];
      DistinctCard(rest);
      assert (set k | k in ks) == (set k | k in rest) + {ks[0]};
      assert ks[0] !in (set k | k in rest);
    }
  }

  /** The number of entries of a tally is the number of distinct items. */
  lemma TallySize(xs: seq<string>)
    ensures |Tally(xs)| == |set x | x in xs|
  {
    var c := Tally(xs);
    TallyKeys(xs);
    DistinctCard(Keys(c));
    assert (set k | k in Keys(c)) == (set x | x in xs);
  }
}

=== FILE: data_mapping.dfy ===
/**
 The heuristic labelling of isinglab/data_bridge/mapping.py: each physical
 system (one table row) gets a modality, a temperature regime and a
 coherence class, read from whichever of several alternative columns the
 row carries. A row is a map from column names to cells; a missing column
 and a NaN cell are different things, as `col in row.index` and
 `pd.notna` tell them apart. A present cell is described by the two views
 the code takes of it: its text `str(v)` and `float(v)` when that succeeds.
 */
module DataMapping {
  import opened Wrappers
  import PyText

  datatype Cell = NA | Val(text: string, number: Option<real>)

  type Row = map<string, Cell>

  /** `col in row.index and pd.notna(row[col])`. */
  predicate Present(row: Row, col: string) {
    col in row && row[col].Val?
  }

  /** A present cell whose `float(...)` succeeds; a failing one is skipped (`except ...: pass`). */
  predicate Parses(row: Row, col: string) {
    Present(row, col) && row[col].number.Some?
  }

  /** `str(row[col]).lower()`. */
  function LowerText(row: Row, col: string): string
    requires Present(row, col)
  {
    PyText.Lower(row[col].text)
  }

  /** The first of the columns, from index j on, whose value converts to a float, or `|cols|`. */
  function FirstParsing(row: Row, cols: seq<string>, j: nat): (k: nat)
    requires j <= |cols|
    ensures j <= k <= |cols|
    ensures forall m :: j <= m < k ==> !Parses(row, cols[m])
    ensures k < |cols| ==> Parses(row, cols[k])
    decreases |cols| - j
  {
    if j == |cols| then j
    else if Parses(row, cols[j]) then j
    else FirstParsing(row, cols, j + 1)
  }

  /** `for col in cols: ... try: x = float(row[col]); break ...`: the first value that converts. */
  function FirstNumber(row: Row, cols: seq<string>): (r: Option<real>)
    ensures r.None? <==> FirstParsing(row, cols, 0) == |cols|
  {
    var k := FirstParsing(row, cols, 0);
    if k < |cols| then row[cols[k]].number else None
  }

  // ------------------------------------------------------------ modality

  /** The modality names the keyword rules produce. */
  const ModalityNames: set<string> := {"optical", "spin", "nuclear", "radical_pair", "unknown"}

  /** The keyword tests on the lowered `system_type`, in their order; `None` when none fires. */
  function SystemTypeModality(st: string): (r: Option<string>)
    ensures r.Some? ==> r.value in ModalityNames
  {
    if PyText.Contains(st, "nv") || PyText.Contains(st, "defect") || PyText.Contains(st, "spin") then Some("spin")
    else if PyText.Contains(st, "optical") || PyText.Contains(st, "photon") || PyText.Contains(st, "fluorescent") then Some("optical")
    else if PyText.Contains(st, "nuclear") || PyText.Contains(st, "nmr") then Some("nuclear")
    else if PyText.Contains(st, "radical") || PyText.Contains(st, "pair") then Some("radical_pair")
    else None
  }

  /** The `protein_or_complex` names that mark a radical pair. */
  predicate RadicalComplex(name: string) {
    PyText.Contains(name, "crypto") || PyText.Contains(name, "radical") || PyText.Contains(name, "photolyase")
  }

  /** A `family` other than `unknown` marks an optical system. */
  predicate KnownFamily(row: Row) {
    Present(row, "family") && LowerText(row, "family") != "unknown"
  }

  /** `classify_modality(row)`. */
  function Modality(row: Row): string {
    if Present(row, "modality") then PyText.Strip(PyText.Lower(row["modality"].text))
    else if KnownFamily(row) then "optical"
    else if Present(row, "nucleus") then "nuclear"
    else if Present(row, "protein_or_complex") && RadicalComplex(LowerText(row, "protein_or_complex")) then "radical_pair"
    else if Present(row, "system_type") && SystemTypeModality(LowerText(row, "system_type")).Some? then
      SystemTypeModality(LowerText(row, "system_type")).value
    else "unknown"
  }

  /**
   The order of the modality rules: an explicit `modality` cell wins,
   lowered and stripped; otherwise the result is one of the five names, a
   known family making it optical and otherwise a nucleus making it
   nuclear, and `unknown` only when neither is there.
   */
  lemma ModalityFacts(row: Row)
    ensures Present(row, "modality") ==> Modality(row) == PyText.Strip(PyText.Lower(row["modality"].text))
    ensures !Present(row, "modality") ==> Modality(row) in ModalityNames
    ensures !Present(row, "modality") && KnownFamily(row) ==> Modality(row) == "optical"
    ensures !Present(row, "modality") && !KnownFamily(row) && Present(row, "nucleus") ==> Modality(row) == "nuclear"
    ensures !Present(row, "modality") && Modality(row) == "unknown" ==> !KnownFamily(row) && !Present(row, "nucleus")
  {
  }

  /** A word of lower-case letters and underscores is its own lowered, stripped form. */
  lemma PlainWord(m: string)
    requires forall k :: 0 <= k < |m| ==> 'a' <= m[k] <= 'z' || m[k] == '_'
    ensures PyText.Strip(PyText.Lower(m)) == m
  {
    assert PyText.NoUpper(m);
    PyText.StripNothing(m);
  }

  /** Every modality is already lower case and stripped, so classifying it again keeps it. */
  lemma ModalityNormal(row: Row)
    ensures PyText.Strip(PyText.Lower(Modality(row))) == Modality(row)
  {
    var m := Modality(row);
    if Present(row, "modality") {
      PyText.StripLowerIdempotent(row["modality"].text);
    } else {
      ModalityFacts(row);
      assert forall k :: 0 <= k < |m| ==> 'a' <= m[k] <= 'z' || m[k] == '_';
      PlainWord(m);
    }
  }

  // ----------------------------------------------------- temperature regime

  datatype Regime = Cryogenic | Intermediate | Physiological | High | UnknownRegime

  function RegimeName(r: Regime): string {
    match r
    case Cryogenic => "cryogenic"
    case Intermediate => "intermediate"
    case Physiological => "physiological"
    case High => "high"
    case UnknownRegime => "unknown"
  }

  /** The regimes from cold to hot. */
  function RegimeRank(r: Regime): nat
    requires !r.UnknownRegime?
  {
    match r
    case Cryogenic => 0
    case Intermediate => 1
    case Physiological => 2
    case High => 3
  }

  const TemperatureColumns: seq<string> := ["temperature_K", "temp_K", "T", "operating_temp"]

  /** The temperature bands in kelvin: below 10, below 280, up to 320 inclusive, above. */
  function Band(t: real): (r: Regime)
    ensures !r.UnknownRegime?
    ensures r == Cryogenic <==> t < 10.0
    ensures r == Intermediate <==> 10.0 <= t < 280.0
    ensures r == Physiological <==> 280.0 <= t <= 320.0
    ensures r == High <==> t > 320.0
  {
    if t < 10.0 then Cryogenic else if t < 280.0 then Intermediate else if t <= 320.0 then Physiological else High
  }

  /** A hotter system never lands in a colder band. */
  lemma BandMonotone(t1: real, t2: real)
    requires t1 <= t2
    ensures RegimeRank(Band(t1)) <= RegimeRank(Band(t2))
  {
  }

  /** The keyword fallback on the lowered `environment` text. */
  function EnvironmentRegime(env: string): (r: Regime)
    ensures r == Physiological <==> PyText.Contains(env, "room temp") || PyText.Contains(env, "ambient") || PyText.Contains(env, "300")
    ensures r != High
  {
    if PyText.Contains(env, "room temp") || PyText.Contains(env, "ambient") || PyText.Contains(env, "300") then Physiological
    else if PyText.Contains(env, "cryo") || PyText.Contains(env, "mk") || PyText.Contains(env, "dilution") || PyText.Contains(env, "<1 k") then Cryogenic
    else if PyText.Contains(env, "intermediate") || PyText.Contains(env, "100 k") then Intermediate
    else UnknownRegime
  }

  /** `classify_temperature_regime(row)`. */
  function TemperatureRegime(row: Row): Regime {
    match FirstNumber(row, TemperatureColumns)
    case Some(t) => Band(t)
    case None =>
      if Present(row, "environment") then EnvironmentRegime(LowerText(row, "environment")) else UnknownRegime
  }

  /** The first temperature column that converts decides the regime by its band. */
  lemma TemperatureFromColumn(row: Row, k: nat)
    requires k < |TemperatureColumns| && Parses(row, TemperatureColumns[k])
    requires forall m :: 0 <= m < k ==> !Parses(row, TemperatureColumns[m])
    ensures TemperatureRegime(row) == Band(row[TemperatureColumns[k]].number.value)
  {
    FirstParsingIs(row, TemperatureColumns, k, 0);
  }

  /** With no usable temperature the environment keywords decide, and without those the regime is unknown; only a number can make it high. */
  lemma TemperatureFallback(row: Row)
    requires forall m :: 0 <= m < |TemperatureColumns| ==> !Parses(row, TemperatureColumns[m])
    ensures TemperatureRegime(row) == if Present(row, "environment") then EnvironmentRegime(LowerText(row, "environment")) else UnknownRegime
    ensures TemperatureRegime(row) != High
  {
    FirstParsingNone(row, TemperatureColumns, 0);
  }

  /** The library's worked values: 310 K is physiological, 4 K cryogenic, and a row without temperature or environment unknown. */
  lemma TemperatureExamples(text: string, other: Cell)
    ensures TemperatureRegime(map["temperature_K" := Val(text, Some(310.0))]) == Physiological
    ensures TemperatureRegime(map["temperature_K" := Val(text, Some(4.0))]) == Cryogenic
    ensures TemperatureRegime(map["other_col" := other]) == UnknownRegime
  {
    TemperatureFromColumn(map["temperature_K" := Val(text, Some(310.0))], 0);
    TemperatureFromColumn(map["temperature_K" := Val(text, Some(4.0))], 0);
    var row: Row := map["other_col" := other];
    assert forall m :: 0 <= m < |TemperatureColumns| ==> TemperatureColumns[m] !in row;
    assert "environment" !in row;
    TemperatureFallback(row);
  }

  /** The first converting column from j on is `k` when `k` converts and none before it does. */
  lemma {:induction false} FirstParsingIs(row: Row, cols: seq<string>, k: nat, j: nat)
    requires j <= k < |cols| && Parses(row, cols[k])
    requires forall m :: j <= m < k ==> !Parses(row, cols[m])
    ensures FirstParsing(row, cols, j) == k
    decreases k - j
  {
    if j < k {
      FirstParsingIs(row, cols, k, j + 1);
    }
  }

  lemma {:induction false} FirstParsingNone(row: Row, cols: seq<string>, j: nat)
    requires j <= |cols|
    requires forall m :: j <= m < |cols| ==> !Parses(row, cols[m])
    ensures FirstParsing(row, cols, j) == |cols|
    decreases |cols| - j
  {
    if j < |cols| {
      FirstParsingNone(row, cols, j + 1);
    }
  }

  // ------------------------------------------------------ coherence class

  datatype Coherence = Short | Medium | Long | Record | UnknownCoherence

  function CoherenceName(c: Coherence): string {
    match c
    case Short => "short"
    case Medium => "medium"
    case Long => "long"
    case Record => "record"
    case UnknownCoherence => "unknown"
  }

  const SecondColumns: seq<string> := ["T2_seconds", "coherence_time", "t2", "T2"]
  const MillisecondColumns: seq<string> := ["T2_milliseconds", "t2_ms", "T2_ms"]
  const MicrosecondColumns: seq<string> := ["T2_microseconds", "t2_us", "T2_us", "T2_star_microseconds"]

  /** T2 in seconds: a seconds column first, then milliseconds / 1000, then microseconds / 10^6. */
  function T2Seconds(row: Row): Option<real> {
    match FirstNumber(row, SecondColumns)
    case Some(s) => Some(s)
    case None =>
      match FirstNumber(row, MillisecondColumns)
      case Some(ms) => Some(ms / 1000.0)
      case None =>
        match FirstNumber(row, MicrosecondColumns)
        case Some(us) => Some(us / 1000000.0)
        case None => None
  }

  /** The coherence bands: below 1 microsecond, below 1 millisecond, below 1 second, and above. */
  function CoherenceBand(t: real): (c: Coherence)
    ensures c != UnknownCoherence
    ensures c == Short <==> t < 0.000001
    ensures c == Medium <==> 0.000001 <= t < 0.001
    ensures c == Long <==> 0.001 <= t < 1.0
    ensures c == Record <==> t >= 1.0
  {
    if t < 0.000001 then Short else if t < 0.001 then Medium else if t < 1.0 then Long else Record
  }

  /** `classify_coherence_class(row)`. */
  function CoherenceClass(row: Row): Coherence {
    match T2Seconds(row)
    case Some(t) => CoherenceBand(t)
    case None => UnknownCoherence
  }

  /** No T2 column that converts: the class is unknown, and only then. */
  lemma CoherenceUnknown(row: Row)
    ensures CoherenceClass(row) == UnknownCoherence <==>
      (forall m :: 0 <= m < |SecondColumns| ==> !Parses(row, SecondColumns[m])) &&
      (forall m :: 0 <= m < |MillisecondColumns| ==> !Parses(row, MillisecondColumns[m])) &&
      (forall m :: 0 <= m < |MicrosecondColumns| ==> !Parses(row, MicrosecondColumns[m]))
  {
    var a, b, c := FirstParsing(row, SecondColumns, 0), FirstParsing(row, MillisecondColumns, 0), FirstParsing(row, MicrosecondColumns, 0);
    if a < |SecondColumns| { assert Parses(row, SecondColumns[a]); }
    if b < |MillisecondColumns| { assert Parses(row, MillisecondColumns[b]); }
    if c < |MicrosecondColumns| { assert Parses(row, MicrosecondColumns[c]); }
  }

  /** A seconds column that converts, first of its list, decides the class. */
  lemma CoherenceFromSeconds(row: Row, k: nat)
    requires k < |SecondColumns| && Parses(row, SecondColumns[k])
    requires forall m :: 0 <= m < k ==> !Parses(row, SecondColumns[m])
    ensures CoherenceClass(row) == CoherenceBand(row[SecondColumns[k]].number.value)
  {
    FirstParsingIs(row, SecondColumns, k, 0);
  }

  /** Without a seconds value, a milliseconds column counts a thousandth of a second per unit. */
  lemma CoherenceFromMilliseconds(row: Row, k: nat)
    requires forall m :: 0 <= m < |SecondColumns| ==> !Parses(row, SecondColumns[m])
    requires k < |MillisecondColumns| && Parses(row, MillisecondColumns[k])
    requires forall m :: 0 <= m < k ==> !Parses(row, MillisecondColumns[m])
    ensures CoherenceClass(row) == CoherenceBand(row[MillisecondColumns[k]].number.value / 1000.0)
  {
    FirstParsingNone(row, SecondColumns, 0);
    FirstParsingIs(row, MillisecondColumns, k, 0);
  }

  /** Without seconds or milliseconds, a microseconds column counts a millionth of a second per unit. */
  lemma CoherenceFromMicroseconds(row: Row, k: nat)
    requires forall m :: 0 <= m < |SecondColumns| ==> !Parses(row, SecondColumns[m])
    requires forall m :: 0 <= m < |MillisecondColumns| ==> !Parses(row, MillisecondColumns[m])
    requires k < |MicrosecondColumns| && Parses(row, MicrosecondColumns[k])
    requires forall m :: 0 <= m < k ==> !Parses(row, MicrosecondColumns[m])
    ensures CoherenceClass(row) == CoherenceBand(row[MicrosecondColumns[k]].number.value / 1000000.0)
  {
    FirstParsingNone(row, SecondColumns, 0);
    FirstParsingNone(row, MillisecondColumns, 0);
    FirstParsingIs(row, MicrosecondColumns, k, 0);
  }

  /** A longer coherence time never falls in a shorter class. */
  lemma CoherenceBandMonotone(t1: real, t2: real)
    requires t1 <= t2
    ensures CoherenceRank(CoherenceBand(t1)) <= CoherenceRank(CoherenceBand(t2))
  {
  }

  function CoherenceRank(c: Coherence): nat
    requires c != UnknownCoherence
  {
    match c
    case Short => 0
    case Medium => 1
    case Long => 2
    case Record => 3
  }

  /** The same duration in milliseconds or microseconds, alone in its row, gets the class of its value in seconds. */
  lemma UnitsAgree(x: real, text: string)
    ensures CoherenceClass(map["T2_milliseconds" := Val(text, Some(x))]) == CoherenceBand(x / 1000.0)
    ensures CoherenceClass(map["T2_microseconds" := Val(text, Some(x))]) == CoherenceBand(x / 1000000.0)
  {
    var ms: Row := map["T2_milliseconds" := Val(text, Some(x))];
    var us: Row := map["T2_microseconds" := Val(text, Some(x))];
    assert forall m :: 0 <= m < |SecondColumns| ==> SecondColumns[m] !in ms && SecondColumns[m] !in us;
    assert forall m :: 0 <= m < |MillisecondColumns| ==> MillisecondColumns[m] !in us;
    CoherenceFromMilliseconds(ms, 0);
    CoherenceFromMicroseconds(us, 0);
  }

  /** The library's worked values: 1000 ms is a record, 1800 microseconds is long, 0.5 microseconds is short. */
  lemma CoherenceExamples(text: string)
    ensures CoherenceClass(map["T2_milliseconds" := Val(text, Some(1000.0))]) == Record
    ensures CoherenceClass(map["T2_microseconds" := Val(text, Some(1800.0))]) == Long
    ensures CoherenceClass(map["T2_microseconds" := Val(text, Some(0.5))]) == Short
  {
    UnitsAgree(1000.0, text);
    UnitsAgree(1800.0, text);
    UnitsAgree(0.5, text);
  }

  // -------------------------------------------------------------- mapping

  /** A new text column: `float` of these labels is never taken, so no number is recorded. */
  function Label(s: string): Cell {
    Val(s, None)
  }

  /** Two rows hold the same cell, or both lack it, in column `c`. */
  predicate Same(a: Row, b: Row, c: string) {
    (c in a <==> c in b) && (c in a ==> a[c] == b[c])
  }

  predicate AgreeOn(a: Row, b: Row, cols: seq<string>) {
    forall m :: 0 <= m < |cols| ==> Same(a, b, cols[m])
  }

  lemma {:induction false} FirstParsingAgree(a: Row, b: Row, cols: seq<string>, j: nat)
    requires j <= |cols| && AgreeOn(a, b, cols)
    ensures FirstParsing(a, cols, j) == FirstParsing(b, cols, j)
    decreases |cols| - j
  {
    if j < |cols| {
      assert Same(a, b, cols[j]);
      if !Parses(a, cols[j]) {
        FirstParsingAgree(a, b, cols, j + 1);
      }
    }
  }

  /** The first converting column depends only on the listed columns. */
  lemma FirstNumberAgree(a: Row, b: Row, cols: seq<string>)
    requires AgreeOn(a, b, cols)
    ensures FirstNumber(a, cols) == FirstNumber(b, cols)
  {
    FirstParsingAgree(a, b, cols, 0);
    var k := FirstParsing(a, cols, 0);
    if k < |cols| {
      assert Same(a, b, cols[k]);
    }
  }

  /** The temperature regime reads only the temperature columns and `environment`. */
  lemma TemperatureAgree(a: Row, b: Row)
    requires AgreeOn(a, b, TemperatureColumns) && Same(a, b, "environment")
    ensures TemperatureRegime(a) == TemperatureRegime(b)
  {
    FirstNumberAgree(a, b, TemperatureColumns);
  }

  /** The coherence class reads only the T2 columns. */
  lemma CoherenceAgree(a: Row, b: Row)
    requires AgreeOn(a, b, SecondColumns) && AgreeOn(a, b, MillisecondColumns) && AgreeOn(a, b, MicrosecondColumns)
    ensures CoherenceClass(a) == CoherenceClass(b)
  {
    FirstNumberAgree(a, b, SecondColumns);
    FirstNumberAgree(a, b, MillisecondColumns);
    FirstNumberAgree(a, b, MicrosecondColumns);
  }

  /** None of the columns the classifiers read is one of the three label columns. */
  lemma InputsAreNotLabels(a: Row, b: Row)
    requires forall c :: c !in NewColumns ==> Same(a, b, c)
    ensures AgreeOn(a, b, TemperatureColumns) && Same(a, b, "environment")
    ensures AgreeOn(a, b, SecondColumns) && AgreeOn(a, b, MillisecondColumns) && AgreeOn(a, b, MicrosecondColumns)
  {
    forall c | c in TemperatureColumns || c in SecondColumns || c in MillisecondColumns || c in MicrosecondColumns || c == "environment"
      ensures c !in NewColumns
    {
    }
  }

  const NewColumns: set<string> := {"modality", "temperature_regime", "coherence_class"}

  /** Writes the three label columns, keeping every other cell. */
  function Relabel(row: Row, m: Cell, t: Cell, c: Cell): (r: Row)
    ensures r.Keys == row.Keys + NewColumns
    ensures forall col :: col in row && col !in NewColumns ==> r[col] == row[col]
    ensures r["modality"] == m && r["temperature_regime"] == t && r["coherence_class"] == c
  {
    row["modality" := m]["temperature_regime" := t]["coherence_class" := c]
  }

  /** Relabelling twice with the same labels is relabelling once. */
  lemma RelabelTwice(row: Row, m: Cell, t: Cell, c: Cell)
    ensures Relabel(Relabel(row, m, t, c), m, t, c) == Relabel(row, m, t, c)
  {
  }

  /**
   One row of `map_system_properties`: the three columns are written in
   turn, each classifier reading the row as it stands; as none reads
   another's column, each sees the original row.
   */
  function MapRow(row: Row): (r: Row)
    ensures r == Relabel(row, Label(Modality(row)), Label(RegimeName(TemperatureRegime(row))), Label(CoherenceName(CoherenceClass(row))))
  {
    var r1 := row["modality" := Label(Modality(row))];
    InputsAreNotLabels(r1, row);
    TemperatureAgree(r1, row);
    var r2 := r1["temperature_regime" := Label(RegimeName(TemperatureRegime(r1)))];
    InputsAreNotLabels(r2, row);
    CoherenceAgree(r2, row);
    r2["coherence_class" := Label(CoherenceName(CoherenceClass(r2)))]
  }

  /**
   `map_system_properties(df)`: a new table, row for row, with exactly the
   three label columns added or overwritten and every other cell kept; the
   input is a value and stays as it was.
   */
  function MapSystemProperties(df: seq<Row>): (out: seq<Row>)
    ensures |out| == |df|
    ensures forall i :: 0 <= i < |df| ==> out[i] == MapRow(df[i])
  {
    seq(|df|, (i: int) requires 0 <= i < |df| => MapRow(df[i]))
  }

  /** Labelling an already labelled row changes nothing. */
  lemma MapRowIdempotent(row: Row)
    ensures MapRow(MapRow(row)) == MapRow(row)
  {
    var m, t, c := Label(Modality(row)), Label(RegimeName(TemperatureRegime(row))), Label(CoherenceName(CoherenceClass(row)));
    var r := MapRow(row);
    ModalityNormal(row);
    assert Modality(r) == Modality(row);
    InputsAreNotLabels(r, row);
    TemperatureAgree(r, row);
    CoherenceAgree(r, row);
    RelabelTwice(row, m, t, c);
  }

  /** Mapping a mapped table again gives the same table. */
  lemma MapIdempotent(df: seq<Row>)
    ensures MapSystemProperties(MapSystemProperties(df)) == MapSystemProperties(df)
  {
    forall i | 0 <= i < |df|
      ensures MapRow(MapRow(df[i])) == MapRow(df[i])
    {
      MapRowIdempotent(df[i]);
    }
  }
}

=== FILE: dataset_enrich.dfy ===
/**
 `scripts/enrich-dataset-auto.js`: new dataset samples from the validated
 results of the automatic research page. The page's result store is the
 parameter `available`/`validated`; the clock is the `day` and `stamp`
 strings.
 */
module DatasetEnrich {
  import opened Wrappers
  import opened JsFloat
  import BsRegex
  import Masks

  /** `[...Array(9)].map((_, i) => list.includes(i) ? 1 : 0)`. */
  function SlotsOf(xs: seq<int>): (m: seq<int>)
    ensures |m| == 9
    ensures forall i :: 0 <= i < 9 ==> m[i] == if i in xs then 1 else 0
  {
    seq(9, (i: int) => if i in xs then 1 else 0)
  }

  /** The digits after the first occurrence of `letter`, or none. */
  function LetterDigits(notation: string, letter: char): seq<int> {
    match BsRegex.MatchLetterRun(notation, letter)
    case None => []
    case Some(d) => BsRegex.DigitValues(d)
  }

  /**
   `parseBornMask(notation)` with `letter` 'B' and `parseSurviveMask(notation)`
   with 'S', which differ only in the letter: slot i is 1 iff digit i is in
   the run after the first occurrence of the letter.
   */
  function ParseMask(notation: string, letter: char): (m: seq<int>)
    ensures |m| == 9
    ensures letter !in notation ==> forall i :: 0 <= i < 9 ==> m[i] == 0
    ensures forall i :: 0 <= i < 9 ==> (m[i] == 1 <==> i in LetterDigits(notation, letter)) && (m[i] == 0 || m[i] == 1)
  {
    SlotsOf(LetterDigits(notation, letter))
  }

  /** A letter absent from a prefix is looked for in the rest. */
  lemma {:induction false} LetterRunSkips(p: string, s: string, letter: char)
    requires letter !in p
    ensures BsRegex.MatchLetterRun(p + s, letter) == BsRegex.MatchLetterRun(s, letter)
    decreases |p|
  {
    if |p| == 0 {
      assert p + s == s;
    } else {
      assert (p + s)[0] == p[0] && p[0] in p;
      assert (p + s)[1..] == p[1..] + s;
      LetterRunSkips(p[1..], s, letter);
    }
  }

  /** The run after a leading letter is the digit string that follows it, up to a non-digit. */
  lemma LetterRunAtFront(letter: char, d: string, rest: string)
    requires BsRegex.AllDigits08(d)
    requires |rest| == 0 || !BsRegex.IsDigit08(rest[0])
    ensures BsRegex.MatchLetterRun([letter] + d + rest, letter) == Some(d)
  {
    var s := [letter] + d + rest;
    assert forall k :: 0 <= k < |d| ==> s[1 + k] == d[k];
    assert |rest| > 0 ==> s[1 + |d|] == rest[0];
    BsRegex.RunOfDigits(s, 1, d);
  }

  /** The first `B` of a canonical notation is its first character. */
  lemma BornRunOfNotation(born: seq<int>, survive: seq<int>)
    requires BsRegex.InRange08(born) && BsRegex.InRange08(survive)
    ensures LetterDigits(BsRegex.Notation(born, survive), 'B') == born
  {
    var db, ds := BsRegex.Digits(born), BsRegex.Digits(survive);
    BsRegex.DigitsRoundTrip(born);
    assert BsRegex.Notation(born, survive) == ['B'] + db + ("/S" + ds);
    LetterRunAtFront('B', db, "/S" + ds);
  }

  /** The first `S` of a canonical notation is the one after the slash. */
  lemma SurviveRunOfNotation(born: seq<int>, survive: seq<int>)
    requires BsRegex.InRange08(born) && BsRegex.InRange08(survive)
    ensures LetterDigits(BsRegex.Notation(born, survive), 'S') == survive
  {
    BsRegex.DigitsRoundTrip(born);
    BsRegex.DigitsRoundTrip(survive);
    SurviveRunOfText(BsRegex.Digits(born), BsRegex.Digits(survive));
  }

  /** In `B<db>/S<ds>` the run after the first `S` is `ds`. */
  lemma SurviveRunOfText(db: string, ds: string)
    requires BsRegex.AllDigits08(db) && BsRegex.AllDigits08(ds)
    ensures BsRegex.MatchLetterRun("B" + db + "/S" + ds, 'S') == Some(ds)
  {
    var p := "B" + db + "/";
    NoLetterBeforeSlash(db);
    var rest := ['S'] + ds;
    assert "B" + db + "/S" + ds == p + rest;
    LetterRunSkips(p, rest, 'S');
    assert rest == ['S'] + ds + "";
    LetterRunAtFront('S', ds, "");
  }

  lemma NoLetterBeforeSlash(db: string)
    requires BsRegex.AllDigits08(db)
    ensures 'S' !in "B" + db + "/"
  {
    var p := "B" + db + "/";
    forall k | 0 <= k < |p|
      ensures p[k] != 'S'
    {
      if 1 <= k <= |db| {
        assert p[k] == db[k - 1];
      }
    }
  }

  /** Masks built from the same list membership are equal. */
  lemma SlotsAreMask(xs: seq<int>)
    ensures SlotsOf(xs) == Masks.MaskOf(xs)
  {
    forall i | 0 <= i < 9
      ensures Masks.MaskOf(xs)[i] == SlotsOf(xs)[i]
    {
      Masks.MaskOfAt(xs, i);
    }
  }

  /** On a canonical notation both masks read back the rule's own lists, as `encodeRule` builds them. */
  lemma MasksOfNotation(born: seq<int>, survive: seq<int>)
    requires BsRegex.InRange08(born) && BsRegex.InRange08(survive)
    ensures ParseMask(BsRegex.Notation(born, survive), 'B') == Masks.MaskOf(born)
    ensures ParseMask(BsRegex.Notation(born, survive), 'S') == Masks.MaskOf(survive)
  {
    BornRunOfNotation(born, survive);
    SurviveRunOfNotation(born, survive);
    SlotsAreMask(born);
    SlotsAreMask(survive);
  }

  // ------------------------------------------------- enrichDatasetFromResults

  /** One validated result; an `avgRecall` that is missing reads as NaN, since `undefined > 0` is false. */
  datatype Validated = Validated(notation: string, avgRecall: Num, isMemoryLike: bool, maxCapacity: string, mlProba: Num)

  datatype Sample = Sample(
    notation: string,
    bornMask: seq<int>,
    surviveMask: seq<int>,
    isMemoryCandidate: bool,
    avgRecall: real,
    maxCapacity: string,
    mlProba: Num,
    source: string,
    validated: string)

  datatype Meta = Meta(version: string, date: string, addedRules: nat, source: string)

  datatype Enriched = Enriched(meta: Meta, newRules: seq<Sample>)

  /** `r.avgRecall > 0`. */
  predicate Tested(r: Validated) {
    r.avgRecall.Real? && r.avgRecall.v > 0.0
  }

  function ToSample(r: Validated, day: string, stamp: string): Sample
    requires Tested(r)
  {
    Sample(r.notation, ParseMask(r.notation, 'B'), ParseMask(r.notation, 'S'), r.isMemoryLike,
           r.avgRecall.v, r.maxCapacity, r.mlProba, "auto_research_" + day, stamp)
  }

  /** The filter and the map, in result order. */
  function NewSamples(rs: seq<Validated>, day: string, stamp: string): (out: seq<Sample>)
    ensures |out| <= |rs|
    ensures forall s :: s in out ==> s.avgRecall > 0.0
  {
    if |rs| == 0 then []
    else
      var last := rs[|rs| - 1];
      NewSamples(rs[..|rs| - 1], day, stamp) + (if Tested(last) then [ToSample(last, day, stamp)] else [])
  }

  /** The samples are exactly the tested results, each once, in order. */
  lemma {:induction false} NewSamplesAreTested(rs: seq<Validated>, day: string, stamp: string)
    ensures NewSamples(rs, day, stamp) == seq(|Keep(rs)|, (k: int) requires 0 <= k < |Keep(rs)| => ToSample(Keep(rs)[k], day, stamp))
  {
    if |rs| > 0 {
      NewSamplesAreTested(rs[..|rs| - 1], day, stamp);
    }
  }

  /** The tested results, in order. */
  function Keep(rs: seq<Validated>): (ks: seq<Validated>)
    ensures forall r :: r in ks ==> Tested(r) && r in rs
    ensures forall r :: r in rs && Tested(r) ==> r in ks
  {
    if |rs| == 0 then []
    else Keep(rs[..|rs| - 1]) + (if Tested(rs[|rs| - 1]) then [rs[|rs| - 1]] else [])
  }

  /**
   `enrichDatasetFromResults()`: an error without the research page, `null`
   without validated results, otherwise the new samples and their count.
   */
  function EnrichDatasetFromResults(available: bool, validated: Option<seq<Validated>>, day: string, stamp: string): (r: Result<Option<Enriched>>)
    ensures r.Err? <==> !available
    ensures r.Ok? && r.value.None? <==> available && (validated.None? || |validated.value| == 0)
    ensures r.Ok? && r.value.Some? ==>
              && r.value.value.meta.addedRules == |r.value.value.newRules|
              && r.value.value.newRules == NewSamples(validated.value, day, stamp)
  {
    if !available then Err(Error(RuntimeError, "AutoMemoryResearch not available. Run on auto-memory-research page."))
    else if validated.None? || |validated.value| == 0 then Ok(None)
    else
      var samples := NewSamples(validated.value, day, stamp);
      Ok(Some(Enriched(Meta("1.1", day, |samples|, "Auto Memory Research validation"), samples)))
  }
}

=== FILE: dataset_export.dfy ===
/**
 `scripts/export-memory-dataset.js`: the rule dataset for meta-learning.
 Each Hall-of-Fame rule and each rule of the fixed extra list becomes one
 record with its two 9-slot masks and its flags. The rule catalogues
 (`HOF_RULES`, `MEMORY_HALL_OF_FAME`) and the export date are parameters.
 */
module DatasetExport {
  import opened Wrappers
  import opened CaRules
  import BsRegex
  import Masks
  import CaMemory

  // ------------------------------------------------------------- encodeRule

  datatype Encoded = Encoded(bornMask: seq<int>, surviveMask: seq<int>)

  /** `encodeRule(rule)`: one 9-slot mask per side, marking the listed digits in 0..8. */
  function EncodeRule(born: seq<int>, survive: seq<int>): (e: Encoded)
    ensures |e.bornMask| == 9 && |e.surviveMask| == 9
  {
    Encoded(Masks.MaskOf(born), Masks.MaskOf(survive))
  }

  /** Slot n of each mask is 1 iff n is in that list. */
  lemma EncodeRuleSlots(born: seq<int>, survive: seq<int>)
    ensures forall n :: 0 <= n < 9 ==> EncodeRule(born, survive).bornMask[n] == (if n in born then 1 else 0)
    ensures forall n :: 0 <= n < 9 ==> EncodeRule(born, survive).surviveMask[n] == (if n in survive then 1 else 0)
  {
    forall n | 0 <= n < 9
      ensures EncodeRule(born, survive).bornMask[n] == (if n in born then 1 else 0)
      ensures EncodeRule(born, survive).surviveMask[n] == (if n in survive then 1 else 0)
    {
      Masks.MaskOfAt(born, n);
      Masks.MaskOfAt(survive, n);
    }
  }

  /** The masks give back exactly the in-range digits of each list. */
  lemma EncodeRuleRoundTrip(born: seq<int>, survive: seq<int>)
    ensures Masks.Members(EncodeRule(born, survive).bornMask) == set n | n in born && 0 <= n <= 8
    ensures Masks.Members(EncodeRule(born, survive).surviveMask) == set n | n in survive && 0 <= n <= 8
  {
    Masks.MaskRoundTrip(born);
    Masks.MaskRoundTrip(survive);
  }

  // ---------------------------------------------------------- parseNotation

  /** `parseNotation(notation)`: the relaxed B/S regex, and `null` instead of a throw. */
  function ParseNotation(notation: string): (r: Option<Rule>)
    ensures r.None? <==> BsRegex.MatchBornSurvive(notation, 0).None?
    ensures r.Some? ==> BsRegex.InRange08(r.value.born) && BsRegex.InRange08(r.value.survive)
  {
    match BsRegex.MatchBornSurvive(notation, 0)
    case None => None
    case Some((b, s)) => Some(Rule(BsRegex.DigitValues(b), BsRegex.DigitValues(s)))
  }

  /** It reads what the memory engine's `parseRule` reads, returning nothing where that one throws. */
  lemma ParseNotationAgrees(notation: string)
    ensures ParseNotation(notation).None? <==> CaMemory.ParseRule(CaMemory.Text(notation)).Err?
    ensures ParseNotation(notation).Some? ==> ParseNotation(notation).value == CaMemory.ParseRule(CaMemory.Text(notation)).value
  {
  }

  /** The canonical notation of an in-range rule parses back to it. */
  lemma ParseNotationRoundTrip(born: seq<int>, survive: seq<int>)
    requires BsRegex.InRange08(born) && BsRegex.InRange08(survive)
    ensures ParseNotation(BsRegex.Notation(born, survive)) == Some(Rule(born, survive))
  {
    CaMemory.ParseRuleRoundTrip(born, survive);
  }

  // ------------------------------------------------ the parenthesised notation

  /** The run of characters other than `)` starting at i. */
  function NonCloseRun(s: string, i: nat): (n: nat)
    requires i <= |s|
    ensures i + n <= |s|
    ensures forall k :: i <= k < i + n ==> s[k] != ')'
    ensures i + n == |s| || s[i + n] == ')'
    decreases |s| - i
  {
    if i < |s| && s[i] != ')' then 1 + NonCloseRun(s, i + 1) else 0
  }

  /** `\(([^)]+)\)` matches at index i. */
  predicate ParenAt(s: string, i: nat)
    requires i <= |s|
  {
    i < |s| && s[i] == '(' && NonCloseRun(s, i + 1) >= 1 && i + 1 + NonCloseRun(s, i + 1) < |s|
  }

  /** The leftmost match at or after i and its capture group. */
  function ParenFrom(s: string, i: nat): (m: Option<string>)
    requires i <= |s|
    ensures m.Some? ==> |m.value| >= 1 && ')' !in m.value
    decreases |s| - i
  {
    if ParenAt(s, i) then Some(s[i + 1..i + 1 + NonCloseRun(s, i + 1)])
    else if i == |s| then None
    else ParenFrom(s, i + 1)
  }

  /** `rule.name.match(/\(([^)]+)\)/)?.[1] || rule.name`: the group is never empty, so `||` only fills in a miss. */
  function NotationOf(name: string): string {
    match ParenFrom(name, 0)
    case Some(g) => g
    case None => name
  }

  lemma {:induction false} NoParenNoMatch(s: string, i: nat)
    requires i <= |s| && '(' !in s
    ensures ParenFrom(s, i) == None
    decreases |s| - i
  {
    if i < |s| {
      assert s[i] != '(';
      NoParenNoMatch(s, i + 1);
    }
  }

  /** A name without a parenthesis is its own notation. */
  lemma PlainNameIsNotation(name: string)
    requires '(' !in name
    ensures NotationOf(name) == name
  {
    NoParenNoMatch(name, 0);
  }

  lemma {:induction false} NonCloseRunOver(s: string, i: nat, n: nat)
    requires i + n < |s|
    requires forall k :: i <= k < i + n ==> s[k] != ')'
    requires s[i + n] == ')'
    ensures NonCloseRun(s, i) == n
    decreases n
  {
    if n > 0 {
      NonCloseRunOver(s, i + 1, n - 1);
    }
  }

  lemma {:induction false} SkipLabel(title: string, rest: string, i: nat)
    requires i <= |title| && '(' !in title
    ensures ParenFrom(title + rest, i) == ParenFrom(title + rest, |title|)
    decreases |title| - i
  {
    if i < |title| {
      assert (title + rest)[i] == title[i];
      SkipLabel(title, rest, i + 1);
    }
  }

  /** A title followed by a parenthesised notation yields that notation: "Name (B01/S3)" gives "B01/S3". */
  lemma LabelledNameRoundTrip(title: string, notation: string)
    requires '(' !in title && ')' !in notation && |notation| >= 1
    ensures NotationOf(title + "(" + notation + ")") == notation
  {
    var rest := "(" + notation + ")";
    var s := title + rest;
    assert s == title + "(" + notation + ")";
    SkipLabel(title, rest, 0);
    var i, n := |title|, |notation|;
    assert s[i] == '(';
    forall k | i + 1 <= k < i + 1 + n
      ensures s[k] != ')'
    {
      assert s[k] == notation[k - i - 1];
    }
    NonCloseRunOver(s, i + 1, n);
    assert s[i + 1..i + 1 + n] == notation;
  }

  // ------------------------------------------------------------- the dataset

  datatype NamedRule = NamedRule(name: string, born: seq<int>, survive: seq<int>)

  /** `EXTRA_RULES`: the rules AutoScan tested, with their digit lists. */
  const ExtraRules: seq<NamedRule> := [
    NamedRule("B01/S23", [0, 1], [2, 3]),
    NamedRule("B01/S34", [0, 1], [3, 4]),
    NamedRule("B01/S356", [0, 1], [3, 5, 6]),
    NamedRule("B01/S2", [0, 1], [2]),
    NamedRule("B01/S4", [0, 1], [4]),
    NamedRule("B0/S3", [0], [3]),
    NamedRule("B1/S3", [1], [3]),
    NamedRule("B01/S13", [0, 1], [1, 3]),
    NamedRule("B01/S35", [0, 1], [3, 5]),
    NamedRule("B245/S5", [2, 4, 5], [5]),
    NamedRule("B246/S58", [2, 4, 6], [5, 8]),
    NamedRule("B246/S5", [2, 4, 6], [5]),
    NamedRule("B2456/S5", [2, 4, 5, 6], [5]),
    NamedRule("B2456/S58", [2, 4, 5, 6], [5, 8]),
    NamedRule("B0246/S3", [0, 2, 4, 6], [3]),
    NamedRule("B0345/S8", [0, 3, 4, 5], [8]),
    NamedRule("B02/S", [0, 2], []),
    NamedRule("B018/S", [0, 1, 8], []),
    NamedRule("B3/S23", [3], [2, 3]),
    NamedRule("B36/S23", [3, 6], [2, 3]),
    NamedRule("B3/S234", [3], [2, 3, 4]),
    NamedRule("B24/S3", [2, 4], [3]),
    NamedRule("B26/S5", [2, 6], [5]),
    NamedRule("B46/S58", [4, 6], [5, 8])
  ]

  datatype Protocol = Protocol(patternSize: string, patterns: nat, noiseLevel: real, steps: nat, runs: nat, criterion: string)

  datatype Meta = Meta(version: string, date: string, protocol: Protocol, source: string)

  datatype Record = Record(
    notation: string,
    bornMask: seq<int>,
    surviveMask: seq<int>,
    born: seq<int>,
    survive: seq<int>,
    isHallOfFame: bool,
    isMemoryCandidate: bool,
    recallMean: Option<real>,
    recallMin: Option<real>,
    recallMax: Option<real>,
    source: string)

  datatype Dataset = Dataset(meta: Meta, rules: seq<Record>)

  const DatasetProtocol := Protocol("32×32", 4, 0.05, 80, 50, "Hamming ≤10%")

  /** The record of a Hall-of-Fame rule. */
  function HofRecord(r: NamedRule, memoryHof: seq<string>): (rec: Record)
    ensures rec.isHallOfFame && rec.notation == NotationOf(r.name) && rec.born == r.born
    ensures rec.isMemoryCandidate <==> rec.notation in memoryHof
    ensures rec.recallMean.Some? <==> rec.notation == "B01/S3"
  {
    var notation := NotationOf(r.name);
    var e := EncodeRule(r.born, r.survive);
    Record(notation, e.bornMask, e.surviveMask, r.born, r.survive, true, notation in memoryHof,
           if notation == "B01/S3" then Some(96.7) else None, None, None, "extreme_search")
  }

  /** The record of an extra rule: its notation is its name, and a candidate gets the rough mean 80. */
  function ExtraRecord(r: NamedRule, memoryHof: seq<string>): (rec: Record)
    ensures !rec.isHallOfFame && rec.notation == r.name && rec.born == r.born
    ensures rec.isMemoryCandidate <==> r.name in memoryHof
    ensures rec.recallMean.Some? <==> rec.isMemoryCandidate
  {
    var isCandidate := r.name in memoryHof;
    var e := EncodeRule(r.born, r.survive);
    Record(r.name, e.bornMask, e.surviveMask, r.born, r.survive, false, isCandidate,
           if isCandidate then Some(80.0) else None, None, None, "autoscan")
  }

  function Records(rs: seq<NamedRule>, memoryHof: seq<string>, hof: bool): (recs: seq<Record>)
    ensures |recs| == |rs|
    ensures forall k :: 0 <= k < |rs| ==> recs[k] == if hof then HofRecord(rs[k], memoryHof) else ExtraRecord(rs[k], memoryHof)
  {
    if |rs| == 0 then []
    else Records(rs[..|rs| - 1], memoryHof, hof) + [if hof then HofRecord(rs[|rs| - 1], memoryHof) else ExtraRecord(rs[|rs| - 1], memoryHof)]
  }

  /** `exportMemoryDataset()`: the Hall-of-Fame records, then the extra ones, each in list order. */
  function ExportMemoryDataset(hofRules: seq<NamedRule>, memoryHof: seq<string>, date: string): (d: Dataset)
    ensures |d.rules| == |hofRules| + |ExtraRules|
    ensures forall k :: 0 <= k < |d.rules| ==> (d.rules[k].isHallOfFame <==> k < |hofRules|)
    ensures forall k :: 0 <= k < |d.rules| ==> (d.rules[k].isMemoryCandidate <==> d.rules[k].notation in memoryHof)
    ensures forall k :: 0 <= k < |hofRules| ==> d.rules[k].notation == NotationOf(hofRules[k].name)
    ensures forall k :: |hofRules| <= k < |d.rules| ==> d.rules[k].notation == ExtraRules[k - |hofRules|].name
    ensures forall k :: 0 <= k < |d.rules| ==> d.rules[k].born == (if k < |hofRules| then hofRules[k] else ExtraRules[k - |hofRules|]).born
  {
    var meta := Meta("1.0", date, DatasetProtocol, "Mythmaker28/ising-life-lab Memory AI Lab");
    Dataset(meta, AllRecords(hofRules, ExtraRules, memoryHof))
  }

  /** The Hall-of-Fame records of `hof`, then the extra records of `extra`. */
  function AllRecords(hof: seq<NamedRule>, extra: seq<NamedRule>, memoryHof: seq<string>): (recs: seq<Record>)
    ensures |recs| == |hof| + |extra|
    ensures forall k :: 0 <= k < |recs| ==>
      recs[k] == if k < |hof| then HofRecord(hof[k], memoryHof) else ExtraRecord(extra[k - |hof|], memoryHof)
  {
    var a, b := Records(hof, memoryHof, true), Records(extra, memoryHof, false);
    a + b
  }

  function CountHallOfFame(recs: seq<Record>): nat {
    if |recs| == 0 then 0 else CountHallOfFame(recs[..|recs| - 1]) + (if recs[|recs| - 1].isHallOfFame then 1 else 0)
  }

  lemma {:induction false} CountHallOfFameIsPrefix(recs: seq<Record>, n: nat)
    requires n <= |recs|
    requires forall k :: 0 <= k < |recs| ==> (recs[k].isHallOfFame <==> k < n)
    ensures CountHallOfFame(recs) == n
  {
    if |recs| > 0 {
      var pre := recs[..|recs| - 1];
      if |recs| - 1 >= n {
        CountHallOfFameIsPrefix(pre, n);
      } else {
        CountHallOfFameIsPrefix(pre, n - 1);
      }
    }
  }

  /** The logged Hall-of-Fame count is the length of the Hall-of-Fame list. */
  lemma HallOfFameCount(hofRules: seq<NamedRule>, memoryHof: seq<string>, date: string)
    ensures CountHallOfFame(ExportMemoryDataset(hofRules, memoryHof, date).rules) == |hofRules|
  {
    CountHallOfFameIsPrefix(ExportMemoryDataset(hofRules, memoryHof, date).rules, |hofRules|);
  }
}

=== FILE: deep_brain_hunt.dfy ===
/**
 `scripts/deep_brain_hunt_v3_4.py`: the neighbourhood of a rule (every
 single added or removed digit, as notations, sorted and without the seed),
 and the brain classifier: its structural early exits, its density sink
 tests, and the first-match table that turns capacity, robustness and
 basin diversity into a category.

 The simulations behind the density samples and the capacity, robustness
 and basin scores are not modelled: their results are parameters.
 */
module DeepBrainHunt {
  import opened Wrappers
  import opened PyText
  import PyList
  import RuleOps
  import Explorer
  import LastBrainHunt

  // ---------------------------------------------------------------------
  // NeighborhoodScanner.generate_neighbors
  // ---------------------------------------------------------------------

  /** The change of born value `b`: add it when absent, remove it when present unless born has one entry. */
  function BornChange(born: seq<int>, survive: seq<int>, b: int): Option<string> {
    if b in born && |born| <= 1 then None
    else Some(Explorer.Format(LastBrainHunt.Single(born, b), survive))
  }

  function SurviveChange(born: seq<int>, survive: seq<int>, s: int): Option<string> {
    if s in survive && |survive| <= 1 then None
    else Some(Explorer.Format(born, LastBrainHunt.Single(survive, s)))
  }

  /** The present values of a list of options, in order. */
  function Somes(os: seq<Option<string>>): (r: seq<string>)
    ensures forall x :: x in r <==> Some(x) in os
  {
    if |os| == 0 then []
    else
      var rest := Somes(os[1..]);
      assert forall o :: o in os <==> o == os[0] || o in os[1..];
      (if os[0].Some? then [os[0].value] else []) + rest
  }

  /** Every notation the two loops add to the set, before the seed is discarded. */
  function Candidates(born: seq<int>, survive: seq<int>): seq<string> {
    Somes(Changes(born, survive))
  }

  /** The born loop's nine outcomes, then the survive loop's nine. */
  function Changes(born: seq<int>, survive: seq<int>): seq<Option<string>> {
    seq(18, (i: int) => if i < 9 then BornChange(born, survive, i) else SurviveChange(born, survive, i - 9))
  }

  function IsNot(seed: string): string -> bool {
    (n: string) => n != seed
  }

  /** `generate_neighbors(notation)`: the candidates other than the seed, each once, in string order. */
  function GenerateNeighbors(notation: string): (r: Result<seq<string>>)
    ensures r.Err? <==> '/' !in notation
    ensures r.Ok? ==> StrictlyAscending(r.value) && notation !in r.value
    ensures r.Ok? ==> forall n :: n in r.value <==>
      (n != notation && n in Candidates(RuleOps.ParseNotation(notation).value.born, RuleOps.ParseNotation(notation).value.survive))
  {
    var bs :- RuleOps.ParseNotation(notation);
    var kept := PyList.Filter(Candidates(bs.born, bs.survive), IsNot(notation));
    assert forall n :: n in kept <==> n != notation && n in Candidates(bs.born, bs.survive);
    Ok(SortedSet(kept))
  }

  /**
   Notation `n` changes value `v` on exactly one side: adds it when absent,
   or removes it from a side holding more than one entry; the other side is
   kept as it is.
   */
  predicate OneChange(born: seq<int>, survive: seq<int>, n: string, v: int) {
    || ((v !in born || |born| > 1) && n == Explorer.Format(LastBrainHunt.Single(born, v), survive))
    || ((v !in survive || |survive| > 1) && n == Explorer.Format(born, LastBrainHunt.Single(survive, v)))
  }

  lemma OneChangeIsAnOutcome(born: seq<int>, survive: seq<int>, n: string, v: int)
    ensures OneChange(born, survive, n, v) <==> BornChange(born, survive, v) == Some(n) || SurviveChange(born, survive, v) == Some(n)
  {
  }

  /** The candidates are exactly the single changes of a value from 0 to 8. */
  lemma CandidatesAreOneChanges(born: seq<int>, survive: seq<int>, n: string)
    ensures n in Candidates(born, survive) <==> exists v :: 0 <= v <= 8 && OneChange(born, survive, n, v)
  {
    var os := Changes(born, survive);
    if n in Candidates(born, survive) {
      assert Some(n) in os;
      var k :| 0 <= k < |os| && os[k] == Some(n);
      var v := if k < 9 then k else k - 9;
      OneChangeIsAnOutcome(born, survive, n, v);
      assert OneChange(born, survive, n, v);
    }
    if v :| 0 <= v <= 8 && OneChange(born, survive, n, v) {
      OneChangeIsAnOutcome(born, survive, n, v);
      if BornChange(born, survive, v) == Some(n) {
        assert os[v] == Some(n);
      } else {
        assert os[9 + v] == Some(n);
      }
      assert Some(n) in os;
    }
  }

  /** Removing one value from a side with two distinct values leaves a value behind. */
  lemma RemovalKeepsOne(xs: seq<int>, v: int)
    requires |SetOf(xs)| > 1
    ensures |Remove(xs, v)| > 0
  {
    if forall x :: x in xs ==> x == v {
      assert SetOf(xs) <= {v};
      SubsetSize(SetOf(xs), {v});
    } else {
      var c :| c in xs && c != v;
      assert c in Remove(xs, v);
    }
  }

  /** With a repeated single digit the guard counts entries, not values: "B33" loses its only born value. */
  lemma RepeatedDigitEmptiesSide(born: seq<int>, survive: seq<int>)
    requires born == [3, 3]
    ensures BornChange(born, survive, 3) == Some(Explorer.Format([], survive))
  {
    assert born[0] == 3;
    assert LastBrainHunt.Single(born, 3) == Remove(born, 3);
    assert [3][..0] == [];
    assert Remove([3], 3) == [];
    assert born[..1] == [3];
    assert Remove(born, 3) == [];
  }

  // ---------------------------------------------------------------------
  // BrainClassifier
  // ---------------------------------------------------------------------

  datatype Category = BrainModule | Stabilizer | Sink | Chaotic | Unclassified

  function CategoryName(c: Category): string {
    match c
    case BrainModule => "brain_module"
    case Stabilizer => "stabilizer"
    case Sink => "sink"
    case Chaotic => "chaotic"
    case Unclassified => "unclassified"
  }

  /** Which rule of the first-match table fired; the source writes it as text with the scores formatted in. */
  datatype Reason =
    | NoBirth | NoSurvival | QuasiDeath | Saturation
    | RobustButEmpty | CapacityAndDiversity | CapacityAndRobustness | DiverseWithoutStructure
    | SingleAttractor | MixedMetrics

  datatype Verdict = Verdict(category: Category, reason: Reason, role: string)

  /** `_classify_from_metrics`: the first matching row decides; density takes no part. */
  function ClassifyFromMetrics(life: real, robustness: real, diversity: real): (v: Verdict)
    ensures v.category in {Stabilizer, BrainModule, Chaotic, Unclassified}
    ensures v.reason == RobustButEmpty <==> robustness > 0.9 && life < 0.3
    ensures v.category == Unclassified <==> v.reason == MixedMetrics
  {
    if robustness > 0.9 && life < 0.3 then
      Verdict(Stabilizer, RobustButEmpty, "Stabilizer/filter (not cognitive)")
    else if life > 0.4 && diversity > 0.3 then
      Verdict(BrainModule, CapacityAndDiversity, "Cognitive module (memory/compute)")
    else if life > 0.5 && robustness > 0.2 then
      Verdict(BrainModule, CapacityAndRobustness, "Memory module with noise tolerance")
    else if diversity > 0.8 && life < 0.2 then
      Verdict(Chaotic, DiverseWithoutStructure, "Exploratory/chaotic (not cognitive)")
    else if robustness > 0.8 && diversity < 0.15 then
      Verdict(Stabilizer, SingleAttractor, "Stabilizer (converges uniformly)")
    else Verdict(Unclassified, MixedMetrics, "Requires further analysis")
  }

  /** The table as a whole: a brain module needs capacity above 0.4 together with diversity, or above 0.5 with robustness, and no robust-but-empty veto. */
  lemma BrainModuleIff(life: real, robustness: real, diversity: real)
    ensures ClassifyFromMetrics(life, robustness, diversity).category == BrainModule <==>
      !(robustness > 0.9 && life < 0.3)
      && ((life > 0.4 && diversity > 0.3) || (life > 0.5 && robustness > 0.2))
  {
  }

  /** A chaotic verdict needs diversity above 0.8 and capacity below 0.2. */
  lemma ChaoticNeedsDiversity(life: real, robustness: real, diversity: real)
    requires ClassifyFromMetrics(life, robustness, diversity).category == Chaotic
    ensures diversity > 0.8 && life < 0.2
  {
  }

  datatype Classification = Classification(
    born: seq<int>, survive: seq<int>, category: Category, reason: Reason,
    passStructural: bool, role: Option<string>)

  /**
   `classify_rule`, with the mean of the density samples, the life capacity,
   the mean robustness and the basin diversity given. An empty born list is
   a stabilizer and an empty survive list chaotic before any simulation; a
   mean density below 0.05 or above 0.95 is a sink.
   */
  function ClassifyRule(notation: string, avgDensity: real, life: real, avgRobustness: real, diversity: real)
    : (r: Result<Classification>)
    ensures r.Err? <==> '/' !in notation
    ensures r.Ok? ==> r.value.born == RuleOps.ParseNotation(notation).value.born
    ensures r.Ok? ==> r.value.survive == RuleOps.ParseNotation(notation).value.survive
    ensures r.Ok? ==> (r.value.passStructural <==> |r.value.born| > 0 && |r.value.survive| > 0)
    ensures r.Ok? && |r.value.born| == 0 ==> r.value.category == Stabilizer && r.value.reason == NoBirth
    ensures r.Ok? && |r.value.born| > 0 && |r.value.survive| == 0 ==> r.value.category == Chaotic && r.value.reason == NoSurvival
    ensures r.Ok? && r.value.passStructural ==>
      (r.value.category == Sink <==> avgDensity < 0.05 || avgDensity > 0.95)
  {
    var bs :- RuleOps.ParseNotation(notation);
    if |bs.born| == 0 then Ok(Classification(bs.born, bs.survive, Stabilizer, NoBirth, false, None))
    else if |bs.survive| == 0 then Ok(Classification(bs.born, bs.survive, Chaotic, NoSurvival, false, None))
    else if avgDensity < 0.05 then Ok(Classification(bs.born, bs.survive, Sink, QuasiDeath, true, None))
    else if avgDensity > 0.95 then Ok(Classification(bs.born, bs.survive, Sink, Saturation, true, None))
    else
      var v := ClassifyFromMetrics(life, avgRobustness, diversity);
      Ok(Classification(bs.born, bs.survive, v.category, v.reason, true, Some(v.role)))
  }

  /** Past the structural and density exits the category is the metric table's. */
  lemma ClassifyUsesTable(notation: string, avgDensity: real, life: real, avgRobustness: real, diversity: real)
    requires '/' in notation
    requires |RuleOps.ParseNotation(notation).value.born| > 0 && |RuleOps.ParseNotation(notation).value.survive| > 0
    requires 0.05 <= avgDensity <= 0.95
    ensures ClassifyRule(notation, avgDensity, life, avgRobustness, diversity).value.category
      == ClassifyFromMetrics(life, avgRobustness, diversity).category
  {
  }
}

=== FILE: design_pareto.dfy ===
/**
 design_space/pareto.py: the Pareto front of a design-space table under a
 dict of objectives `{column: "max" | "min"}`, and the ranking that puts
 the Pareto rows first. A pandas frame is a set of column names and a
 sequence of rows, each row a map from column name to value (floats read
 as reals); the added boolean column `is_pareto_optimal` is stored as
 1.0 / 0.0. A Python dict of objectives keeps insertion order and has
 distinct keys, so it is a sequence of (column, direction) pairs.
 */
module DesignPareto {
  import opened Wrappers
  import PyList
  import Sorting

  type Row = map<string, real>

  datatype Frame = Frame(columns: set<string>, rows: seq<Row>)

  /** Every row holds a value for every column. */
  predicate WellFormed(f: Frame) {
    forall k :: 0 <= k < |f.rows| ==> f.columns <= f.rows[k].Keys
  }

  /** (column, direction). */
  type Objective = (string, string)

  predicate ValidDirection(d: string) {
    d == "max" || d == "min"
  }

  const ParetoColumn := "is_pareto_optimal"

  // ---------------------------------------------------------------------
  // Validation of the objectives (lines 54-70)
  // ---------------------------------------------------------------------

  /**
   The `for col, direction in objectives.items()` loop from entry k on. A
   missing column raises `KeyError` under `strict`; otherwise the dict is
   cut down to its present columns and the loop breaks, so the entries
   after it are never checked for their direction.
   */
  function ValidateFrom(objs: seq<Objective>, columns: set<string>, strict: bool, k: nat): (r: Result<seq<Objective>>)
    requires k <= |objs|
    requires forall j :: 0 <= j < k ==> objs[j].0 in columns && ValidDirection(objs[j].1)
    ensures r.Ok? ==> forall j :: 0 <= j < |r.value| ==> r.value[j] in objs && r.value[j].0 in columns
    ensures r.Ok? && strict ==> r.value == objs
    ensures strict ==> (r.Ok? <==> forall j :: k <= j < |objs| ==> objs[j].0 in columns && ValidDirection(objs[j].1))
    ensures r.Ok? && (forall j :: k <= j < |objs| ==> objs[j].0 in columns) ==> r.value == objs
    ensures r.Err? && r.error.kind == KeyError ==> strict && exists j :: k <= j < |objs| && objs[j].0 !in columns
    ensures r.Err? ==> r.error.kind in {KeyError, ValueError}
    ensures (forall j :: k <= j < |objs| ==> objs[j].0 in columns) && (exists j :: k <= j < |objs| && !ValidDirection(objs[j].1)) ==>
      r.Err? && r.error.kind == ValueError
    decreases |objs| - k
  {
    if k == |objs| then Ok(objs)
    else if objs[k].0 !in columns then
      if strict then Err(Error(KeyError, "Objective column '" + objs[k].0 + "' not found in DataFrame"))
      else Ok(PyList.Filter(objs, Present(columns)))
    else if !ValidDirection(objs[k].1) then
      Err(Error(ValueError, "Invalid direction '" + objs[k].1 + "' for '" + objs[k].0 + "'. Use 'max' or 'min'."))
    else ValidateFrom(objs, columns, strict, k + 1)
  }

  /** `k in df.columns` in the dict comprehension of line 63. */
  function Present(columns: set<string>): Objective -> bool {
    (o: Objective) => o.0 in columns
  }

  /** The objectives `compute_pareto_front` goes on with, or the error it raises first. */
  function Validate(objs: seq<Objective>, columns: set<string>, strict: bool): (r: Result<seq<Objective>>)
    ensures r.Ok? ==> |r.value| > 0 && forall j :: 0 <= j < |r.value| ==> r.value[j] in objs && r.value[j].0 in columns
    ensures strict ==> (r.Ok? <==> |objs| > 0 && forall j :: 0 <= j < |objs| ==> objs[j].0 in columns && ValidDirection(objs[j].1))
    ensures r.Ok? && strict ==> r.value == objs
    ensures r.Err? && r.error.kind == KeyError ==> strict && exists j :: 0 <= j < |objs| && objs[j].0 !in columns
    ensures !strict ==> r.Err? ==> r.error.kind == ValueError
    ensures (forall j :: 0 <= j < |objs| ==> objs[j].0 in columns) && (exists j :: 0 <= j < |objs| && !ValidDirection(objs[j].1)) ==>
      r.Err? && r.error.kind == ValueError
    ensures |objs| == 0 ==> r.Err? && r.error.kind == ValueError
  {
    var v :- ValidateFrom(objs, columns, strict, 0);
    if |v| == 0 then Err(Error(ValueError, "No valid objectives remaining after validation"))
    else Ok(v)
  }

  /** With `strict=False`, an invalid direction after a missing column is never seen: it is kept and read as "max". */
  lemma SkippedDirectionCheck()
    ensures Validate([("gone", "max"), ("score", "best")], {"score"}, false) == Ok([("score", "best")])
  {
    var objs := [("gone", "max"), ("score", "best")];
    assert objs[1..][1..] == [];
    var p := Present({"score"});
    assert !p(objs[0]) && p(objs[1]);
    assert PyList.Filter(objs[1..][1..], p) == [];
    assert PyList.Filter(objs[1..], p) == [("score", "best")];
    assert PyList.Filter(objs, p) == [("score", "best")];
    assert ValidateFrom(objs, {"score"}, false, 0) == Ok([("score", "best")]);
  }

  // ---------------------------------------------------------------------
  // Dominance on objective vectors (lines 72-101)
  // ---------------------------------------------------------------------

  /** `values[r, i]`, negated for a "min" objective so that larger is better everywhere. */
  function Value(row: Row, o: Objective): real
    requires o.0 in row
  {
    if o.1 == "min" then -row[o.0] else row[o.0]
  }

  function Vector(row: Row, objs: seq<Objective>): (v: seq<real>)
    requires forall k :: 0 <= k < |objs| ==> objs[k].0 in row
    ensures |v| == |objs|
  {
    seq(|objs|, (k: int) requires 0 <= k < |objs| => Value(row, objs[k]))
  }

  /** Every row is a vector of m objective values. */
  predicate Rows(vals: seq<seq<real>>, m: nat) {
    forall i :: 0 <= i < |vals| ==> |vals[i]| == m
  }

  /** `(values[j] >= values[i]).all() and (values[j] > values[i]).any()`. */
  predicate Dom(a: seq<real>, b: seq<real>)
    requires |a| == |b|
  {
    (forall k :: 0 <= k < |a| ==> a[k] >= b[k]) && (exists k :: 0 <= k < |a| && a[k] > b[k])
  }

  predicate Undominated(vals: seq<seq<real>>, m: nat, i: nat)
    requires Rows(vals, m) && i < |vals|
  {
    forall j :: 0 <= j < |vals| ==> !Dom(vals[j], vals[i])
  }

  /** Dominance is a strict order: irreflexive and transitive. */
  lemma DomOrder(a: seq<real>, b: seq<real>, c: seq<real>)
    requires |a| == |b| == |c|
    ensures !Dom(a, a)
    ensures Dom(a, b) && Dom(b, c) ==> Dom(a, c)
  {
    if Dom(a, b) && Dom(b, c) {
      var k :| 0 <= k < |a| && a[k] > b[k];
      assert a[k] > c[k];
    }
  }

  /** A dominating row has a strictly larger total. */
  lemma DomRaisesSum(a: seq<real>, b: seq<real>)
    requires |a| == |b| && Dom(a, b)
    ensures PyList.Sum(a) > PyList.Sum(b)
  {
    PyList.SumMono(b, a);
  }

  /** The rows whose total exceeds row j's. */
  function Above(vals: seq<seq<real>>, j: nat): set<nat>
    requires j < |vals|
  {
    set k: nat | k < |vals| && PyList.Sum(vals[k]) > PyList.Sum(vals[j])
  }

  /** A dominated row is dominated by some undominated row. */
  lemma {:induction false} TopDominator(vals: seq<seq<real>>, m: nat, i: nat, j: nat)
    requires Rows(vals, m) && i < |vals| && j < |vals|
    requires Dom(vals[j], vals[i])
    ensures exists k :: 0 <= k < |vals| && Undominated(vals, m, k) && Dom(vals[k], vals[i])
    decreases Above(vals, j)
  {
    if !Undominated(vals, m, j) {
      var up :| 0 <= up < |vals| && Dom(vals[up], vals[j]);
      DomOrder(vals[up], vals[j], vals[i]);
      DomRaisesSum(vals[up], vals[j]);
      assert up in Above(vals, j) && up !in Above(vals, up);
      assert Above(vals, up) < Above(vals, j);
      TopDominator(vals, m, i, up);
    }
  }

  /** A non-empty table has at least one Pareto-optimal row. */
  lemma SomeUndominated(vals: seq<seq<real>>, m: nat)
    requires Rows(vals, m) && |vals| > 0
    ensures exists i :: 0 <= i < |vals| && Undominated(vals, m, i)
  {
    if !Undominated(vals, m, 0) {
      var j :| 0 <= j < |vals| && Dom(vals[j], vals[0]);
      TopDominator(vals, m, 0, j);
    }
  }

  /**
   The double loop of lines 83-99. Row i is compared only with the rows
   still marked Pareto; the source's `if not is_pareto[i]: continue` is
   never taken, because `is_pareto[i]` is only written in round i, so it is
   left out. Skipping the rows already found dominated loses nothing: a
   dominated row always has an undominated dominator.
   */
  method ParetoMask(vals: seq<seq<real>>, m: nat) returns (isPareto: seq<bool>)
    requires Rows(vals, m)
    ensures |isPareto| == |vals|
    ensures forall i :: 0 <= i < |vals| ==> (isPareto[i] <==> Undominated(vals, m, i))
  {
    var n := |vals|;
    isPareto := seq(n, _ => true);
    var i := 0;
    while i < n
      invariant 0 <= i <= n && |isPareto| == n
      invariant forall k :: 0 <= k < i ==> (isPareto[k] <==> Undominated(vals, m, k))
      invariant forall k :: i <= k < n ==> isPareto[k]
    {
      var j := 0;
      var dominated := false;
      while j < n && !dominated
        invariant 0 <= j <= n
        invariant dominated ==> !Undominated(vals, m, i)
        invariant !dominated ==> forall k :: 0 <= k < j && k != i && isPareto[k] ==> !Dom(vals[k], vals[i])
      {
        if j != i && isPareto[j] && Dom(vals[j], vals[i]) {
          dominated := true;
        }
        j := j + 1;
      }
      if dominated {
        isPareto := isPareto[i := false];
      } else if !Undominated(vals, m, i) {
        var d :| 0 <= d < n && Dom(vals[d], vals[i]);
        TopDominator(vals, m, i, d);
        assert false;
      }
      i := i + 1;
    }
  }

  // ---------------------------------------------------------------------
  // compute_pareto_front (lines 21-106)
  // ---------------------------------------------------------------------

  /** The flag column as the frame stores it. */
  function Flag(b: bool): real {
    if b then 1.0 else 0.0
  }

  /** The flagged copy of the frame under the validated objectives `used`. */
  function Flagged(f: Frame, used: seq<Objective>): (r: Frame)
    requires WellFormed(f) && forall j :: 0 <= j < |used| ==> used[j].0 in f.columns
    ensures r.columns == f.columns + {ParetoColumn} && |r.rows| == |f.rows|
    ensures forall i :: 0 <= i < |f.rows| ==> r.rows[i].Keys == f.rows[i].Keys + {ParetoColumn}
    ensures forall i, c :: 0 <= i < |f.rows| && c in f.rows[i] && c != ParetoColumn ==> r.rows[i][c] == f.rows[i][c]
    ensures forall i :: 0 <= i < |f.rows| ==> r.rows[i][ParetoColumn] in {0.0, 1.0}
  {
    var vals := Values(f, used);
    Frame(f.columns + {ParetoColumn},
      seq(|f.rows|, (i: int) requires 0 <= i < |f.rows| => f.rows[i][ParetoColumn := Flag(Undominated(vals, |used|, i))]))
  }

  /** The objective vectors of all rows. */
  function Values(f: Frame, used: seq<Objective>): (vals: seq<seq<real>>)
    requires WellFormed(f) && forall j :: 0 <= j < |used| ==> used[j].0 in f.columns
    ensures |vals| == |f.rows| && Rows(vals, |used|)
  {
    seq(|f.rows|, (i: int) requires 0 <= i < |f.rows| => Vector(f.rows[i], used))
  }

  /**
   `compute_pareto_front(df, objectives, strict)` as a definition: a copy of
   the frame whose `is_pareto_optimal` is set exactly on the rows that no
   row dominates, or the validation error.
   */
  function ParetoFront(f: Frame, objs: seq<Objective>, strict: bool): (r: Result<Frame>)
    requires WellFormed(f)
    ensures r.Err? <==> Validate(objs, f.columns, strict).Err?
    ensures r.Err? ==> r.error == Validate(objs, f.columns, strict).error
    ensures r.Ok? ==> r.value.columns == f.columns + {ParetoColumn} && |r.value.rows| == |f.rows|
    ensures r.Ok? ==> forall i :: 0 <= i < |f.rows| ==> r.value.rows[i].Keys == f.rows[i].Keys + {ParetoColumn}
    ensures r.Ok? ==> forall i, c :: 0 <= i < |f.rows| && c in f.rows[i] && c != ParetoColumn ==> r.value.rows[i][c] == f.rows[i][c]
    ensures r.Ok? ==> var used := Validate(objs, f.columns, strict).value;
      forall i :: 0 <= i < |f.rows| ==> (r.value.rows[i][ParetoColumn] == 1.0 <==> Undominated(Values(f, used), |used|, i))
    ensures r.Ok? ==> forall i :: 0 <= i < |f.rows| ==> r.value.rows[i][ParetoColumn] in {0.0, 1.0}
    ensures r.Ok? && |f.rows| > 0 ==> exists i :: 0 <= i < |f.rows| && r.value.rows[i][ParetoColumn] == 1.0
  {
    var used :- Validate(objs, f.columns, strict);
    var vals := Values(f, used);
    var r := Flagged(f, used);
    if |f.rows| > 0 then
      SomeUndominatedRow(vals, |used|, r.rows);
      Ok(r)
    else Ok(r)
  }

  lemma SomeUndominatedRow(vals: seq<seq<real>>, m: nat, rows: seq<Row>)
    requires Rows(vals, m) && |vals| > 0 && |rows| == |vals|
    requires forall i :: 0 <= i < |rows| ==> ParetoColumn in rows[i] && (rows[i][ParetoColumn] == 1.0 <==> Undominated(vals, m, i))
    ensures exists i :: 0 <= i < |rows| && rows[i][ParetoColumn] == 1.0
  {
    SomeUndominated(vals, m);
  }

  /** The loop of lines 72-101 computes exactly the definition. */
  method ComputeParetoFront(f: Frame, objs: seq<Objective>, strict: bool) returns (r: Result<Frame>)
    requires WellFormed(f)
    ensures r == ParetoFront(f, objs, strict)
  {
    var v := Validate(objs, f.columns, strict);
    if v.Err? {
      return Err(v.error);
    }
    var used := v.value;
    var vals := Values(f, used);
    var mask := ParetoMask(vals, |used|);
    var rows := seq(|f.rows|, (i: int) requires 0 <= i < |f.rows| => f.rows[i][ParetoColumn := Flag(mask[i])]);
    assert rows == Flagged(f, used).rows;
    return Ok(Frame(f.columns + {ParetoColumn}, rows));
  }

  // ---------------------------------------------------------------------
  // rank_pareto (lines 109-172)
  // ---------------------------------------------------------------------

  function Get(row: Row, c: string): real {
    if c in row then row[c] else 0.0
  }

  /** Row a comes no later than row b in `sort_values(cols, ascending=False)`. */
  function LexGe(cols: seq<string>, a: Row, b: Row): bool
    decreases |cols|
  {
    if |cols| == 0 then true
    else if Get(a, cols[0]) > Get(b, cols[0]) then true
    else if Get(a, cols[0]) < Get(b, cols[0]) then false
    else LexGe(cols[1..], a, b)
  }

  lemma {:induction false} LexGeTotalPreorder(cols: seq<string>, a: Row, b: Row, c: Row)
    ensures LexGe(cols, a, b) || LexGe(cols, b, a)
    ensures LexGe(cols, a, b) && LexGe(cols, b, c) ==> LexGe(cols, a, c)
    decreases |cols|
  {
    if |cols| > 0 {
      LexGeTotalPreorder(cols[1..], a, b, c);
    }
  }

  function ByTieBreakers(cols: seq<string>): (Row, Row) -> bool {
    (a: Row, b: Row) => LexGe(cols, a, b)
  }

  lemma ByTieBreakersPreorder(cols: seq<string>)
    ensures Sorting.TotalPreorder(ByTieBreakers(cols))
  {
    forall a: Row, b: Row, c: Row {
      LexGeTotalPreorder(cols, a, b, c);
    }
  }

  /** The tie-breaker columns that exist: the given list, or the first objective by default. */
  function TieBreakers(objs: seq<Objective>, tieBreakers: Option<seq<string>>, columns: set<string>): (tb: seq<string>)
    requires |objs| > 0
    ensures forall k :: 0 <= k < |tb| ==> tb[k] in columns
  {
    PyList.Filter(tieBreakers.GetOr([objs[0].0]), (c: string) => c in columns)
  }

  predicate IsPareto(row: Row) {
    Get(row, ParetoColumn) == 1.0
  }

  /** Lines 138-168 once the flags exist: the Pareto rows, then the others, each part sorted when there are tie-breakers. */
  function Ranked(rows: seq<Row>, valid: seq<string>): seq<Row> {
    SortPart(PyList.Filter(rows, IsPareto), valid) + SortPart(PyList.Filter(rows, IsOther), valid)
  }

  /** `sort_values(valid_tie_breakers, ascending=False)`, or the part unchanged when no tie-breaker exists. */
  function SortPart(part: seq<Row>, valid: seq<string>): (r: seq<Row>)
    ensures multiset(r) == multiset(part)
    ensures Sorting.SortedBy(ByTieBreakers(valid), r)
  {
    ByTieBreakersPreorder(valid);
    if |valid| > 0 then
      Sorting.SortBySorted(ByTieBreakers(valid), part);
      Sorting.SortBy(ByTieBreakers(valid), part)
    else part
  }

  predicate IsOther(row: Row) {
    Get(row, ParetoColumn) == 0.0
  }

  /** The first p rows are the Pareto rows and the rest are the others. */
  predicate SplitAt(r: seq<Row>, p: nat) {
    p <= |r| && (forall k :: 0 <= k < p ==> IsPareto(r[k])) && (forall k :: p <= k < |r| ==> IsOther(r[k]))
  }

  /** Every element of a permutation of xs satisfies what every element of xs does. */
  lemma PermutedMembers(a: seq<Row>, xs: seq<Row>, pareto: bool)
    requires multiset(a) == multiset(xs)
    requires forall k :: 0 <= k < |xs| ==> (if pareto then IsPareto(xs[k]) else IsOther(xs[k]))
    ensures forall k :: 0 <= k < |a| ==> (if pareto then IsPareto(a[k]) else IsOther(a[k]))
  {
    forall k | 0 <= k < |a|
      ensures if pareto then IsPareto(a[k]) else IsOther(a[k])
    {
      assert a[k] in multiset(xs);
    }
  }

  /**
   On flagged rows the ranking is a permutation, the Pareto rows come
   first, and each part is in tie-breaker order.
   */
  lemma RankedFacts(rows: seq<Row>, valid: seq<string>)
    requires forall i :: 0 <= i < |rows| ==> Get(rows[i], ParetoColumn) in {0.0, 1.0}
    ensures var r := Ranked(rows, valid);
      var p := |PyList.Filter(rows, IsPareto)|;
      && multiset(r) == multiset(rows)
      && SplitAt(r, p)
      && Sorting.SortedBy(ByTieBreakers(valid), r[..p])
      && Sorting.SortedBy(ByTieBreakers(valid), r[p..])
  {
    var paretoRows := PyList.Filter(rows, IsPareto);
    var otherRows := PyList.Filter(rows, IsOther);
    PyList.FilterSplit(rows, IsPareto, IsOther);
    var a, b := SortPart(paretoRows, valid), SortPart(otherRows, valid);
    PermutedMembers(a, paretoRows, true);
    PermutedMembers(b, otherRows, false);
    var r := a + b;
    assert r[..|a|] == a && r[|a|..] == b;
  }

  lemma FlagsBinary(rows: seq<Row>)
    requires forall i :: 0 <= i < |rows| ==> ParetoColumn in rows[i] && rows[i][ParetoColumn] in {0.0, 1.0}
    ensures forall i :: 0 <= i < |rows| ==> Get(rows[i], ParetoColumn) in {0.0, 1.0}
  {
  }

  /**
   `rank_pareto(df, objectives, tie_breakers, strict)`, as the row sequence
   of the ranked frame.
   */
  function RankPareto(f: Frame, objs: seq<Objective>, tieBreakers: Option<seq<string>>, strict: bool): (r: Result<seq<Row>>)
    requires WellFormed(f)
    ensures r.Err? <==> Validate(objs, f.columns, strict).Err?
    ensures r.Ok? ==> |r.value| == |f.rows|
    ensures r.Ok? ==> multiset(r.value) == multiset(ParetoFront(f, objs, strict).value.rows)
    ensures r.Ok? ==> exists p :: SplitAt(r.value, p)
  {
    var df :- ParetoFront(f, objs, strict);
    var valid := TieBreakers(objs, tieBreakers, df.columns);
    FlagsBinary(df.rows);
    RankedFacts(df.rows, valid);
    var r := Ranked(df.rows, valid);
    assert SplitAt(r, |PyList.Filter(df.rows, IsPareto)|);
    Ok(r)
  }
}

=== FILE: design_selector.dfy ===
/**
 `design_space/selector.py`: queries over the catalogue of biological
 sensor systems. A frame is a list of system records in file order; every
 query keeps the order of the rows it selects unless it sorts them.
 */
module DesignSelector {
  import opened Wrappers
  import opened PyText
  import PyList
  import Sorting

  datatype System = System(
    id: string, protein: string, family: string,
    roomTemp: bool, bioAdjacent: bool, highContrast: bool, nearInfrared: bool, stableMature: bool,
    contrast: real)

  function Bit(b: bool): nat {
    if b then 1 else 0
  }

  /** The integrability score: two points each for room temperature and biological use, one each for contrast and maturity. */
  function Integrability(s: System): (r: nat)
    ensures r <= 6
    ensures r == 6 <==> s.roomTemp && s.bioAdjacent && s.highContrast && s.stableMature
    ensures r == 0 <==> !s.roomTemp && !s.bioAdjacent && !s.highContrast && !s.stableMature
  {
    2 * Bit(s.roomTemp) + 2 * Bit(s.bioAdjacent) + Bit(s.highContrast) + Bit(s.stableMature)
  }

  /** The two heavy criteria outweigh the two light ones together. */
  lemma HeavyCriteriaDominate(a: System, b: System)
    requires a.roomTemp && a.bioAdjacent && !b.roomTemp && !b.bioAdjacent
    ensures Integrability(a) > Integrability(b)
  {
  }

  /** Descending by score, then descending by contrast. */
  function ByIntegrability(a: System, b: System): bool {
    Integrability(a) > Integrability(b) || (Integrability(a) == Integrability(b) && a.contrast >= b.contrast)
  }

  lemma ByIntegrabilityIsTotalPreorder()
    ensures Sorting.TotalPreorder(ByIntegrability)
  {
  }

  /** `rank_by_integrability`: the whole catalogue in ranking order, then the first `topN` rows when given. */
  function RankByIntegrability(systems: seq<System>, topN: Option<int>): seq<System> {
    var ranked := Sorting.SortBy(ByIntegrability, systems);
    if topN.Some? then PyList.SliceTo(ranked, topN.value) else ranked
  }

  /** The ranking lists the catalogue's rows, best score first and higher contrast first among equal scores. */
  lemma RankingOrder(systems: seq<System>)
    ensures var r := RankByIntegrability(systems, None);
      && multiset(r) == multiset(systems)
      && (forall i, j :: 0 <= i < j < |r| ==> Integrability(r[i]) >= Integrability(r[j]))
      && (forall i, j :: 0 <= i < j < |r| && Integrability(r[i]) == Integrability(r[j]) ==> r[i].contrast >= r[j].contrast)
  {
    ByIntegrabilityIsTotalPreorder();
    Sorting.SortBySorted(ByIntegrability, systems);
  }

  /** `top_n` keeps a prefix of the ranking of length min(topN, rows). */
  lemma TopNIsPrefix(systems: seq<System>, n: int)
    requires n >= 0
    ensures RankByIntegrability(systems, Some(n)) <= RankByIntegrability(systems, None)
    ensures |RankByIntegrability(systems, Some(n))| == if n < |systems| then n else |systems|
  {
  }

  /** A row left out of the top `n` scores no higher than any row kept. */
  lemma TopNIsBest(systems: seq<System>, n: int, out: System, kept: System)
    requires n >= 0
    requires kept in RankByIntegrability(systems, Some(n))
    requires out in systems && out !in RankByIntegrability(systems, Some(n))
    ensures Integrability(out) <= Integrability(kept)
  {
    var ranked := RankByIntegrability(systems, None);
    RankingOrder(systems);
    var top := RankByIntegrability(systems, Some(n));
    assert out in multiset(ranked);
    var j :| 0 <= j < |ranked| && ranked[j] == out;
    var i :| 0 <= i < |top| && top[i] == kept;
    assert ranked[i] == kept;
    assert j >= |top|;
  }

  function ContrastAtLeast(minContrast: real): System -> bool {
    (s: System) => s.contrast >= minContrast
  }

  function ByContrast(a: System, b: System): bool {
    a.contrast >= b.contrast
  }

  /** `list_high_contrast_candidates`: the rows reaching `minContrast`, highest contrast first. */
  function HighContrast(systems: seq<System>, minContrast: real): (r: seq<System>)
    ensures forall s :: s in r <==> s in systems && s.contrast >= minContrast
    ensures forall s :: multiset(r)[s] == if s.contrast >= minContrast then multiset(systems)[s] else 0
    ensures forall i, j :: 0 <= i < j < |r| ==> r[i].contrast >= r[j].contrast
  {
    var kept := PyList.Filter(systems, ContrastAtLeast(minContrast));
    forall s
      ensures multiset(kept)[s] == if s.contrast >= minContrast then multiset(systems)[s] else 0
    {
      PyList.FilterCount(systems, ContrastAtLeast(minContrast), s);
    }
    Sorting.SortBySorted(ByContrast, kept);
    Sorting.SortByMembers(ByContrast, kept);
    Sorting.SortBy(ByContrast, kept)
  }

  /** Raising the threshold only drops rows. */
  lemma HigherThresholdFewer(systems: seq<System>, lo: real, hi: real, s: System)
    requires lo <= hi
    requires s in HighContrast(systems, hi)
    ensures s in HighContrast(systems, lo)
  {
  }

  function SameFamily(family: string): System -> bool {
    (s: System) => Lower(s.family) == Lower(family)
  }

  /**
   `filter_by_family`: the rows whose family equals `family` up to letter
   case, in file order: the result reads `systems` at increasing indices,
   which are exactly the indices of the matching rows.
   */
  function FilterByFamily(systems: seq<System>, family: string): (r: seq<System>)
    ensures forall s :: s in r <==> s in systems && Lower(s.family) == Lower(family)
    ensures forall s :: multiset(r)[s] == if Lower(s.family) == Lower(family) then multiset(systems)[s] else 0
    ensures var idx := PyList.Positions(systems, SameFamily(family));
            && |idx| == |r|
            && (forall k :: 0 <= k < |r| ==> idx[k] < |systems| && r[k] == systems[idx[k]])
            && (forall k, m :: 0 <= k < m < |idx| ==> idx[k] < idx[m])
            && forall i :: 0 <= i < |systems| ==> (i in idx <==> Lower(systems[i].family) == Lower(family))
  {
    var r := PyList.Filter(systems, SameFamily(family));
    forall s
      ensures multiset(r)[s] == if Lower(s.family) == Lower(family) then multiset(systems)[s] else 0
    {
      PyList.FilterCount(systems, SameFamily(family), s);
    }
    PyList.PositionsRead(systems, SameFamily(family));
    PyList.PositionsIncrease(systems, SameFamily(family));
    PyList.PositionsMembers(systems, SameFamily(family));
    r
  }

  /** Two spellings of a family that differ only in case select the same rows. */
  lemma FamilyCaseInsensitive(systems: seq<System>, f: string, g: string)
    requires Lower(f) == Lower(g)
    ensures FilterByFamily(systems, f) == FilterByFamily(systems, g)
  {
    assert SameFamily(f) == SameFamily(g);
  }

  /** `get_system_by_id`: the first row with the id, or `ValueError` when none has it. */
  function GetSystemById(systems: seq<System>, id: string): (r: Result<System>)
    ensures r.Err? <==> forall s :: s in systems ==> s.id != id
    ensures r.Err? ==> r.error.kind == ValueError
    ensures r.Ok? ==> r.value in systems && r.value.id == id
  {
    if |systems| == 0 then Err(Error(ValueError, "System ID '" + id + "' not found in design space"))
    else if systems[0].id == id then Ok(systems[0])
    else GetSystemById(systems[1..], id)
  }

  /** The row found is the first with that id. */
  lemma {:induction false} GetSystemByIdIsFirst(systems: seq<System>, id: string, k: nat)
    requires k < |systems| && systems[k].id == id
    requires forall j :: 0 <= j < k ==> systems[j].id != id
    ensures GetSystemById(systems, id) == Ok(systems[k])
  {
    if systems[0].id != id {
      GetSystemByIdIsFirst(systems[1..], id, k - 1);
    }
  }

  predicate RoomTemp(s: System) {
    s.roomTemp
  }

  predicate BioAdjacent(s: System) {
    s.bioAdjacent
  }

  predicate NearInfrared(s: System) {
    s.nearInfrared
  }

  /**
   `list_room_temp_candidates`: the rows viable at room temperature, each
   as often as in `systems` and in file order.
   */
  function RoomTempCandidates(systems: seq<System>): (r: seq<System>)
    ensures forall s :: s in r <==> s in systems && s.roomTemp
    ensures forall s :: multiset(r)[s] == if s.roomTemp then multiset(systems)[s] else 0
    ensures PyList.FiltersInOrder(r, systems, RoomTemp)
  {
    var r := PyList.Filter(systems, RoomTemp);
    forall s
      ensures multiset(r)[s] == if s.roomTemp then multiset(systems)[s] else 0
    {
      PyList.FilterCount(systems, RoomTemp, s);
    }
    PyList.FilterInOrder(systems, RoomTemp);
    r
  }

  /**
   `list_bio_adjacent_candidates`: the rows usable in a biological context,
   each as often as in `systems` and in file order.
   */
  function BioAdjacentCandidates(systems: seq<System>): (r: seq<System>)
    ensures forall s :: s in r <==> s in systems && s.bioAdjacent
    ensures forall s :: multiset(r)[s] == if s.bioAdjacent then multiset(systems)[s] else 0
    ensures PyList.FiltersInOrder(r, systems, BioAdjacent)
  {
    var r := PyList.Filter(systems, BioAdjacent);
    forall s
      ensures multiset(r)[s] == if s.bioAdjacent then multiset(systems)[s] else 0
    {
      PyList.FilterCount(systems, BioAdjacent, s);
    }
    PyList.FilterInOrder(systems, BioAdjacent);
    r
  }

  /**
   `list_near_infrared_candidates`: the rows emitting in the near infrared,
   each as often as in `systems` and in file order.
   */
  function NearInfraredCandidates(systems: seq<System>): (r: seq<System>)
    ensures forall s :: s in r <==> s in systems && s.nearInfrared
    ensures forall s :: multiset(r)[s] == if s.nearInfrared then multiset(systems)[s] else 0
    ensures PyList.FiltersInOrder(r, systems, NearInfrared)
  {
    var r := PyList.Filter(systems, NearInfrared);
    forall s
      ensures multiset(r)[s] == if s.nearInfrared then multiset(systems)[s] else 0
    {
      PyList.FilterCount(systems, NearInfrared, s);
    }
    PyList.FilterInOrder(systems, NearInfrared);
    r
  }
}

=== FILE: dynamic_memory.dfy ===
/**
 The dynamic memory of the meta-learner: a list of rule records keyed by
 their `notation`, with an add-or-merge operation, and the Hall of Fame
 rebuilt from it as the best non-trivial rules by functional score.

 A rule record is a Python dict; it is a map from key to a small value
 type here, with Python's truthiness and `dict.get` defaults written out.
 */
module DynamicMemory {
  import opened Wrappers
  import PyList
  import Sorting

  /** The JSON-like values a rule record holds. */
  datatype Value = Str(s: string) | Num(x: real) | Flag(b: bool) | Null

  type Record = map<string, Value>

  /** The Hall of Fame size the memory is configured with. */
  const MaxSize: int := 25

  /** Python truthiness: empty strings, zero, `False` and `None` are false. */
  predicate Truthy(v: Value) {
    match v
    case Str(s) => |s| > 0
    case Num(x) => x != 0.0
    case Flag(b) => b
    case Null => false
  }

  /** `d.get(key, default)`. */
  function Get(d: Record, key: string, default: Value): Value {
    if key in d then d[key] else default
  }

  function NotationOf(d: Record): Value {
    Get(d, "notation", Null)
  }

  // ---------------------------------------------------------------------
  // add_or_update_rule
  // ---------------------------------------------------------------------

  /** Index of the first record from `j` on whose notation is `n`, or `|memory|`. */
  function FirstWith(memory: seq<Record>, n: Value, j: nat): (k: nat)
    requires j <= |memory|
    ensures j <= k <= |memory|
    ensures k < |memory| ==> NotationOf(memory[k]) == n
    ensures forall i :: j <= i < k ==> NotationOf(memory[i]) != n
    decreases |memory| - j
  {
    if j == |memory| then j
    else if NotationOf(memory[j]) == n then j
    else FirstWith(memory, n, j + 1)
  }

  /**
   Adds `rule` to the memory: a rule without a (truthy) notation is ignored,
   one whose notation is already present is merged into the first such
   record with `dict.update` (the new keys win), and any other is appended.
   */
  function AddOrUpdateRule(memory: seq<Record>, rule: Record): (r: seq<Record>)
    ensures !Truthy(NotationOf(rule)) ==> r == memory
    ensures Truthy(NotationOf(rule)) && (forall i :: 0 <= i < |memory| ==> NotationOf(memory[i]) != NotationOf(rule))
      ==> r == memory + [rule]
    ensures Truthy(NotationOf(rule)) && (exists i :: 0 <= i < |memory| && NotationOf(memory[i]) == NotationOf(rule))
      ==> |r| == |memory|
  {
    var n := NotationOf(rule);
    if !Truthy(n) then memory
    else
      var k := FirstWith(memory, n, 0);
      if k < |memory| then memory[k := memory[k] + rule]
      else memory + [rule]
  }

  /** A merge lands on the first record with the same notation and touches no other record. */
  lemma MergeInPlace(memory: seq<Record>, rule: Record, k: nat)
    requires Truthy(NotationOf(rule))
    requires k < |memory| && NotationOf(memory[k]) == NotationOf(rule)
    requires forall i :: 0 <= i < k ==> NotationOf(memory[i]) != NotationOf(rule)
    ensures |AddOrUpdateRule(memory, rule)| == |memory|
    ensures AddOrUpdateRule(memory, rule)[k] == memory[k] + rule
    ensures forall i :: 0 <= i < |memory| && i != k ==> AddOrUpdateRule(memory, rule)[i] == memory[i]
  {
    assert FirstWith(memory, NotationOf(rule), 0) == k;
  }

  /** `rec` carries every key of `rule` with the rule's value. */
  predicate Holds(rec: Record, rule: Record) {
    forall key :: key in rule ==> key in rec && rec[key] == rule[key]
  }

  /** After adding a rule with a notation, some record has that notation and carries every key of the rule. */
  lemma AddedRuleIsHeld(memory: seq<Record>, rule: Record)
    requires Truthy(NotationOf(rule))
    ensures var r := AddOrUpdateRule(memory, rule);
      exists i :: 0 <= i < |r| && NotationOf(r[i]) == NotationOf(rule) && Holds(r[i], rule)
  {
    var r := AddOrUpdateRule(memory, rule);
    var k := FirstWith(memory, NotationOf(rule), 0);
    if k < |memory| {
      assert r[k] == memory[k] + rule;
    } else {
      assert r[|memory|] == rule;
    }
  }

  /** Adding the same rule twice is adding it once. */
  lemma AddIdempotent(memory: seq<Record>, rule: Record)
    ensures AddOrUpdateRule(AddOrUpdateRule(memory, rule), rule) == AddOrUpdateRule(memory, rule)
  {
    var n := NotationOf(rule);
    if Truthy(n) {
      var once := AddOrUpdateRule(memory, rule);
      var k := FirstWith(memory, n, 0);
      if k < |memory| {
        assert NotationOf(once[k]) == n;
        assert forall i :: 0 <= i < k ==> once[i] == memory[i];
        MergeInPlace(once, rule, k);
        assert once[k] + rule == memory[k] + rule;
      } else {
        assert NotationOf(once[|memory|]) == n;
        assert forall i :: 0 <= i < |memory| ==> once[i] == memory[i];
        MergeInPlace(once, rule, |memory|);
        assert rule + rule == rule;
      }
    }
  }

  /** No two records share a notation. */
  predicate UniqueNotations(memory: seq<Record>) {
    forall i, j :: 0 <= i < j < |memory| ==> NotationOf(memory[i]) != NotationOf(memory[j])
  }

  /** Adding keeps notations unique: a merge keeps the record's notation, an append brings a new one. */
  lemma AddKeepsUnique(memory: seq<Record>, rule: Record)
    requires UniqueNotations(memory)
    ensures UniqueNotations(AddOrUpdateRule(memory, rule))
  {
    var n := NotationOf(rule);
    if Truthy(n) {
      var r := AddOrUpdateRule(memory, rule);
      var k := FirstWith(memory, n, 0);
      if k < |memory| {
        assert NotationOf(r[k]) == NotationOf(memory[k]);
        assert forall i :: 0 <= i < |r| ==> NotationOf(r[i]) == NotationOf(memory[i]);
      }
    }
  }

  // ---------------------------------------------------------------------
  // update_hof
  // ---------------------------------------------------------------------

  /** `r.get('functional_score', 0)`. */
  function ScoreValue(r: Record): Value {
    Get(r, "functional_score", Num(0.0))
  }

  /** Python orders numbers and booleans against `0`; anything else raises TypeError. */
  predicate IsNumber(v: Value) {
    v.Num? || v.Flag?
  }

  function AsNumber(v: Value): real {
    match v
    case Num(x) => x
    case Flag(b) => if b then 1.0 else 0.0
    case _ => 0.0
  }

  function Score(r: Record): real {
    AsNumber(ScoreValue(r))
  }

  function IsTrivial(r: Record): bool {
    Truthy(Get(r, "trivial", Flag(false)))
  }

  /** The `and` short-circuits: the score of a trivial rule is never compared. */
  predicate Comparable(r: Record) {
    IsTrivial(r) || IsNumber(ScoreValue(r))
  }

  predicate Qualifies(r: Record) {
    !IsTrivial(r) && IsNumber(ScoreValue(r)) && Score(r) > 0.0
  }

  predicate Disqualified(r: Record) {
    !Qualifies(r)
  }

  /** `sorted(..., key=score, reverse=True)` is the stable sort by the descending preorder. */
  predicate ByScoreDesc(a: Record, b: Record) {
    Score(a) >= Score(b)
  }

  lemma ByScoreDescIsTotalPreorder()
    ensures Sorting.TotalPreorder(ByScoreDesc)
  {
  }

  function Candidates(memory: seq<Record>): seq<Record> {
    PyList.Filter(memory, Qualifies)
  }

  const ScoreTypeError := Error(TypeError, "'>' not supported between instances of 'str' and 'int'")

  /**
   The Hall of Fame: the non-trivial rules with a positive functional score,
   best first (ties keep their memory order), cut to `maxSize`. A score that
   cannot be compared with 0 raises.
   */
  function UpdateHof(memory: seq<Record>, maxSize: int): (r: Result<seq<Record>>)
    ensures r.Err? <==> exists i :: 0 <= i < |memory| && !Comparable(memory[i])
    ensures r.Ok? ==> r.value == PyList.SliceTo(Sorting.SortBy(ByScoreDesc, Candidates(memory)), maxSize)
  {
    if forall i :: 0 <= i < |memory| ==> Comparable(memory[i]) then
      Ok(PyList.SliceTo(Sorting.SortBy(ByScoreDesc, Candidates(memory)), maxSize))
    else Err(ScoreTypeError)
  }

  /** The Hall of Fame is a prefix of the sorted candidates. */
  lemma HofPrefix(memory: seq<Record>, maxSize: int, hof: seq<Record>)
    requires UpdateHof(memory, maxSize) == Ok(hof)
    ensures hof <= Sorting.SortBy(ByScoreDesc, Candidates(memory))
  {
  }

  /** Every rule in the Hall of Fame qualifies. */
  lemma {:induction false} HofQualifies(memory: seq<Record>, maxSize: int, hof: seq<Record>)
    requires UpdateHof(memory, maxSize) == Ok(hof)
    ensures forall i :: 0 <= i < |hof| ==> Qualifies(hof[i]) && Score(hof[i]) > 0.0
  {
    var cands := Candidates(memory);
    var sorted := Sorting.SortBy(ByScoreDesc, cands);
    HofPrefix(memory, maxSize, hof);
    forall i | 0 <= i < |hof|
      ensures Qualifies(hof[i])
    {
      assert hof[i] == sorted[i];
      assert sorted[i] in multiset(sorted);
      assert sorted[i] in multiset(cands);
    }
  }

  /** The Hall of Fame is ordered best first. */
  lemma {:induction false} HofSorted(memory: seq<Record>, maxSize: int, hof: seq<Record>)
    requires UpdateHof(memory, maxSize) == Ok(hof)
    ensures forall i, j :: 0 <= i < j < |hof| ==> Score(hof[i]) >= Score(hof[j])
  {
    var cands := Candidates(memory);
    var sorted := Sorting.SortBy(ByScoreDesc, cands);
    HofPrefix(memory, maxSize, hof);
    ByScoreDescIsTotalPreorder();
    Sorting.SortBySorted(ByScoreDesc, cands);
    forall i, j | 0 <= i < j < |hof|
      ensures Score(hof[i]) >= Score(hof[j])
    {
      assert ByScoreDesc(sorted[i], sorted[j]);
    }
  }

  /** A prefix holds each element no more often than the whole list. */
  lemma PrefixSubBag<T>(s: seq<T>, p: seq<T>)
    requires p <= s
    ensures multiset(p) <= multiset(s)
  {
    assert s == p + s[|p|..];
  }

  /** An element the prefix holds fewer times than the list sits after the prefix. */
  lemma PastPrefix<T>(s: seq<T>, p: seq<T>, x: T) returns (m: nat)
    requires p <= s
    requires multiset(p)[x] < multiset(s)[x]
    ensures |p| <= m < |s| && s[m] == x
  {
    var rest := s[|p|..];
    assert s == p + rest;
    assert multiset(s) == multiset(p) + multiset(rest);
    assert x in multiset(rest);
    var j :| 0 <= j < |rest| && rest[j] == x;
    m := |p| + j;
  }

  /** The Hall of Fame takes rules out of the memory, each no more often than the memory holds it. */
  lemma {:induction false} HofFromMemory(memory: seq<Record>, maxSize: int, hof: seq<Record>)
    requires UpdateHof(memory, maxSize) == Ok(hof)
    ensures multiset(hof) <= multiset(memory)
  {
    var cands := Candidates(memory);
    HofPrefix(memory, maxSize, hof);
    PrefixSubBag(Sorting.SortBy(ByScoreDesc, cands), hof);
    PyList.FilterSplit(memory, Qualifies, Disqualified);
  }

  /** What the Hall of Fame holds: qualifying rules from the memory, best first, at most `maxSize`. */
  lemma HofFacts(memory: seq<Record>, maxSize: int, hof: seq<Record>)
    requires maxSize >= 0
    requires UpdateHof(memory, maxSize) == Ok(hof)
    ensures |hof| == if maxSize < |Candidates(memory)| then maxSize else |Candidates(memory)|
    ensures forall i :: 0 <= i < |hof| ==> Qualifies(hof[i]) && Score(hof[i]) > 0.0
    ensures forall i, j :: 0 <= i < j < |hof| ==> Score(hof[i]) >= Score(hof[j])
    ensures multiset(hof) <= multiset(memory)
  {
    HofQualifies(memory, maxSize, hof);
    HofSorted(memory, maxSize, hof);
    HofFromMemory(memory, maxSize, hof);
  }

  /**
   The Hall of Fame is a top-N: a qualifying rule left out of it scores no
   higher than any rule kept in it.
   */
  lemma {:induction false} HofIsTopN(memory: seq<Record>, maxSize: int, hof: seq<Record>, out: Record)
    requires UpdateHof(memory, maxSize) == Ok(hof)
    requires out in memory && Qualifies(out)
    requires multiset(hof)[out] < multiset(Candidates(memory))[out]
    ensures forall i :: 0 <= i < |hof| ==> Score(out) <= Score(hof[i])
  {
    var cands := Candidates(memory);
    var sorted := Sorting.SortBy(ByScoreDesc, cands);
    ByScoreDescIsTotalPreorder();
    Sorting.SortBySorted(ByScoreDesc, cands);
    HofPrefix(memory, maxSize, hof);
    var at := PastPrefix(sorted, hof, out);
    forall i | 0 <= i < |hof|
      ensures Score(out) <= Score(hof[i])
    {
      assert ByScoreDesc(sorted[i], sorted[at]);
    }
  }

  /** A memory of non-trivial, positively scored rules no larger than the limit is its own Hall of Fame, reordered. */
  lemma {:induction false} SmallMemoryIsWholeHof(memory: seq<Record>, maxSize: int)
    requires |memory| <= maxSize
    requires forall i :: 0 <= i < |memory| ==> Qualifies(memory[i])
    ensures UpdateHof(memory, maxSize).Ok?
    ensures multiset(UpdateHof(memory, maxSize).value) == multiset(memory)
  {
    PyList.FilterAll(memory, Qualifies);
  }
}

=== FILE: engine_agreement.dfy ===
/**
 The two JavaScript engines compute the same thing on 0/1 boards: the
 nested-array `step` of `src/core/caStep.js`, reached through the
 `uint8ToGrid`/`gridToUint8` conversions of `src/memory/caMemoryEngine.js`,
 and the flat `CAEngine.step` of `ising-memory-ai-lab/src/ca/engine.js`.
 */
module EngineAgreement {
  import opened CaGrid
  import opened CaRules
  import CaStep
  import FlatEngine
  import CaMemory
  import JsNumbers
  import Arith

  /** The rows view of a flat board of positive size is a proper rectangle. */
  lemma RowsAreRect(a: seq<int>, w: nat, h: nat)
    requires FlatEngine.Fits(a, w, h)
    ensures Rect(CaMemory.Uint8ToGrid(a, w, h))
    ensures Width(CaMemory.Uint8ToGrid(a, w, h)) == w && Height(CaMemory.Uint8ToGrid(a, w, h)) == h
  {
  }

  /** Reading cell (x, y) of the rows view reads flat index `y * w + x`. */
  lemma RowsCell(a: seq<int>, w: nat, h: nat, x: nat, y: nat)
    requires FlatEngine.Fits(a, w, h) && x < w && y < h
    ensures y * w + x < |a|
    ensures CaMemory.Uint8ToGrid(a, w, h)[y][x] == a[y * w + x]
  {
    FlatEngine.IndexInBounds(x, y, w, h);
  }

  /** On a 0/1 board, adding neighbour values is counting neighbours equal to 1. */
  lemma {:induction false} SumIsCount(a: seq<int>, w: nat, h: nat, x: nat, y: nat, k: nat)
    requires FlatEngine.Fits(a, w, h) && FlatEngine.IsBinary(a) && x < w && y < h && k <= 8
    ensures FlatEngine.SumFirst(a, w, h, x, y, k) == CountFirst(CaMemory.Uint8ToGrid(a, w, h), x, y, k)
  {
    RowsAreRect(a, w, h);
    if k > 0 {
      var g := CaMemory.Uint8ToGrid(a, w, h);
      SumIsCount(a, w, h, x, y, k - 1);
      var (dx, dy) := Offsets[k - 1];
      var nx, ny := Wrap(x, dx, w), Wrap(y, dy, h);
      RowsCell(a, w, h, nx, ny);
      assert FlatEngine.SumFirst(a, w, h, x, y, k) == FlatEngine.SumFirst(a, w, h, x, y, k - 1) + a[ny * w + nx];
      assert CountFirst(g, x, y, k) == CountFirst(g, x, y, k - 1) + (if g[ny][nx] == 1 then 1 else 0);
    }
  }

  /** Cell (x, y) after one step is the same in both engines. */
  lemma CellAgrees(a: seq<int>, w: nat, h: nat, rule: Rule, x: nat, y: nat)
    requires FlatEngine.Fits(a, w, h) && FlatEngine.IsBinary(a) && x < w && y < h
    ensures y * w + x < w * h
    ensures FlatEngine.Step(a, w, h, rule)[y * w + x] == CaStep.Step(CaMemory.Uint8ToGrid(a, w, h), rule)[y][x]
  {
    var g := CaMemory.Uint8ToGrid(a, w, h);
    RowsAreRect(a, w, h);
    FlatStepAt(a, w, h, rule, x, y);
    NextCellAgrees(a, w, h, rule, x, y);
  }

  lemma FlatStepAt(a: seq<int>, w: nat, h: nat, rule: Rule, x: nat, y: nat)
    requires FlatEngine.Fits(a, w, h) && x < w && y < h
    ensures y * w + x < w * h
    ensures FlatEngine.Step(a, w, h, rule)[y * w + x] == FlatEngine.NextCell(a, w, h, x, y, rule)
  {
    FlatEngine.StepCell(a, w, h, rule, x, y);
  }

  /** The flat cell rule reads the same cell and neighbour count as the nested one. */
  lemma NextCellAgrees(a: seq<int>, w: nat, h: nat, rule: Rule, x: nat, y: nat)
    requires FlatEngine.Fits(a, w, h) && FlatEngine.IsBinary(a) && x < w && y < h
    ensures Rect(CaMemory.Uint8ToGrid(a, w, h)) && x < Width(CaMemory.Uint8ToGrid(a, w, h)) && y < Height(CaMemory.Uint8ToGrid(a, w, h))
    ensures FlatEngine.NextCell(a, w, h, x, y, rule)
            == ApplyRuleToCell(CaMemory.Uint8ToGrid(a, w, h)[y][x], CountAliveNeighbors(CaMemory.Uint8ToGrid(a, w, h), x, y), rule)
  {
    var g := CaMemory.Uint8ToGrid(a, w, h);
    RowsAreRect(a, w, h);
    SumIsCount(a, w, h, x, y, 8);
    RowsCell(a, w, h, x, y);
    assert FlatEngine.CountNeighbors(a, w, h, x, y) == CountAliveNeighbors(g, x, y);
  }

  /** The converted nested step has the flat board's length. */
  lemma StepLength(a: seq<int>, w: nat, h: nat, rule: Rule)
    requires FlatEngine.Fits(a, w, h)
    ensures |CaMemory.GridToUint8(CaStep.Step(CaMemory.Uint8ToGrid(a, w, h), rule))| == w * h
  {
    var r := CaStep.Step(CaMemory.Uint8ToGrid(a, w, h), rule);
    CaMemory.GridToUint8Length(r, w);
  }

  /** Flat index i after one step is the same in both engines. */
  lemma IndexAgrees(a: seq<int>, w: nat, h: nat, rule: Rule, i: nat)
    requires FlatEngine.Fits(a, w, h) && FlatEngine.IsBinary(a) && i < w * h
    ensures |CaMemory.GridToUint8(CaStep.Step(CaMemory.Uint8ToGrid(a, w, h), rule))| == w * h
    ensures FlatEngine.Step(a, w, h, rule)[i] == CaMemory.GridToUint8(CaStep.Step(CaMemory.Uint8ToGrid(a, w, h), rule))[i]
  {
    assert w > 0 by {
      if w == 0 { assert false; }
    }
    var x, y := Arith.Split(i, w, h);
    RowsAreRect(a, w, h);
    var r := CaStep.Step(CaMemory.Uint8ToGrid(a, w, h), rule);
    StepLength(a, w, h, rule);
    FlatEngine.NextAtCell(a, w, h, rule, x, y);
    assert FlatEngine.Step(a, w, h, rule)[i] == FlatEngine.NextCell(a, w, h, x, y, rule);
    NextCellAgrees(a, w, h, rule, x, y);
    BinaryCellAt(r, w, h, x, y, i);
  }

  /** On a 0/1 board, the stored byte at a cell's flat index is the cell. */
  lemma BinaryCellAt(r: Grid, w: nat, h: nat, x: nat, y: nat, i: nat)
    requires IsGrid(r, w, h) && IsBinary(r) && x < w && y < h && i == y * w + x
    ensures i < |CaMemory.GridToUint8(r)|
    ensures CaMemory.GridToUint8(r)[i] == r[y][x]
  {
    CaMemory.GridToUint8At(r, w, y, x);
    StoreBit(r[y][x]);
  }

  lemma StoreBit(c: int)
    requires c == 0 || c == 1
    ensures CaMemory.StoreByte(c) == c
  {
  }

  /** One flat step is one nested step seen through the two conversions. */
  lemma StepAgrees(a: seq<int>, w: nat, h: nat, rule: Rule)
    requires FlatEngine.Fits(a, w, h) && FlatEngine.IsBinary(a)
    ensures FlatEngine.Step(a, w, h, rule) == CaMemory.GridToUint8(CaStep.Step(CaMemory.Uint8ToGrid(a, w, h), rule))
  {
    StepLength(a, w, h, rule);
    forall i | 0 <= i < w * h
      ensures FlatEngine.Step(a, w, h, rule)[i] == CaMemory.GridToUint8(CaStep.Step(CaMemory.Uint8ToGrid(a, w, h), rule))[i]
    {
      IndexAgrees(a, w, h, rule, i);
    }
  }

  lemma BinaryIsBytes(a: seq<int>)
    requires FlatEngine.IsBinary(a)
    ensures forall i :: 0 <= i < |a| ==> JsNumbers.IsByte(a[i])
  {
  }

  /** Running the flat engine n generations matches the nested engine run through the conversions. */
  lemma {:induction false} RunAgrees(a: seq<int>, w: nat, h: nat, rule: Rule, n: nat)
    requires FlatEngine.Fits(a, w, h) && FlatEngine.IsBinary(a)
    ensures FlatEngine.Run(a, w, h, rule, n) == CaMemory.GridToUint8(CaStep.Run(CaMemory.Uint8ToGrid(a, w, h), rule, n))
    decreases n
  {
    RowsAreRect(a, w, h);
    var g := CaMemory.Uint8ToGrid(a, w, h);
    if n == 0 {
      BinaryIsBytes(a);
      CaMemory.FlatRoundTrip(a, w, h);
    } else {
      var a1 := FlatEngine.Step(a, w, h, rule);
      var g1 := CaStep.Step(g, rule);
      StepAgrees(a, w, h, rule);
      BinaryIsBytes(a1);
      CaMemory.GridRoundTrip(g1, w, h);
      assert CaMemory.Uint8ToGrid(a1, w, h) == g1;
      RunAgrees(a1, w, h, rule, n - 1);
    }
  }

  /** The CA memory's `recall` evolves a 0/1 probe exactly as the flat engine's `run` does. */
  lemma EvolveIsFlatRun(e: CaMemory.Engine, noisy: seq<int>, s: nat)
    requires FlatEngine.Fits(noisy, e.width, e.height) && FlatEngine.IsBinary(noisy)
    ensures CaMemory.Evolve(e, noisy, s) == FlatEngine.Run(noisy, e.width, e.height, e.rule, s)
  {
    assert JsNumbers.ToBytes(noisy) == noisy;
    RunAgrees(noisy, e.width, e.height, e.rule, s);
  }
}

=== FILE: engine_selector.dfy ===
/**
 `src/ai/engineSelector.js`: learns which engine of the ensemble wins most
 often, overall and per stored pattern. A training sample is a noisy copy of
 a pattern recalled through the ensemble; `train` is modelled over the
 winner of each sample, and `SampleWinner` says how one winner arises.
 */
module EngineSelector {
  import opened Wrappers
  import opened Counts
  import MemoryAI
  import AttractorUtils
  import HopfieldCore
  import JsNumbers

  const DefaultEngines: seq<string> := MemoryAI.Champions + [MemoryAI.HopfieldName]
  const DefaultNoiseLevels: seq<real> := [0.05, 0.08]
  const DefaultSamples: nat := 10

  datatype Selector = Selector(engines: seq<string>, globalWins: Counts, perPattern: map<nat, string>, trained: bool)

  /** `new EngineSelector(engines)`: no wins, no mapping, untrained. */
  function New(engines: Option<seq<string>>): (sel: Selector)
    ensures sel.engines == engines.GetOr(DefaultEngines)
    ensures sel.globalWins == [] && sel.perPattern == map[] && !sel.trained
  {
    Selector(engines.GetOr(DefaultEngines), [], map[], false)
  }

  /**
   One sample: the noise rate is `noiseLevels[floor(pick * length)]`, each
   cell flips when its draw is below the rate, and the ensemble's best rule
   wins. With no noise levels the rate is `undefined`, no comparison holds
   and the probe is the plain byte copy.
   */
  function SampleWinner(m: MemoryAI.Ensemble, base: seq<int>, levels: seq<real>, pick: real,
                        flip: nat -> real, draw: (nat, nat) -> real): (e: string)
    requires MemoryAI.Valid(m) && m.width > 0 && m.height > 0 && HopfieldCore.AllDrawsInRange(draw)
    requires 0.0 <= pick < 1.0
    ensures e in DefaultEngines
  {
    var noisy := if |levels| == 0 then JsNumbers.ToBytes(base)
                 else AttractorUtils.AddNoise(base, levels[HopfieldCore.PickIndex(pick, |levels| - 1)], flip);
    MemoryAI.BestOnRoster(m, noisy, draw);
    MemoryAI.Recall(m, noisy, draw).best.rule
  }

  /** The winners of one pattern's samples, in sample order. */
  function Column(winner: (nat, nat) -> string, pi: nat): nat -> string {
    (s: nat) => winner(pi, s)
  }

  /** How many of the first `s` samples `e` won. */
  function Occurrences(col: nat -> string, s: nat, e: string): nat {
    if s == 0 then 0 else Occurrences(col, s - 1, e) + (if col(s - 1) == e then 1 else 0)
  }

  /** `c[e] = (c[e] || 0) + 1` for the winner of each of the first `s` samples, in order. */
  function AddWins(c: Counts, col: nat -> string, s: nat): Counts {
    if s == 0 then c else Bump(AddWins(c, col, s - 1), col(s - 1))
  }

  /** Each engine gains exactly the samples it won. */
  lemma {:induction false} AddWinsGet(c: Counts, col: nat -> string, s: nat, e: string)
    ensures Get(AddWins(c, col, s), e) == Get(c, e) + Occurrences(col, s, e)
  {
    if s > 0 {
      AddWinsGet(c, col, s - 1, e);
    }
  }

  /** The total grows by the number of samples. */
  lemma {:induction false} AddWinsTotal(c: Counts, col: nat -> string, s: nat)
    ensures Total(AddWins(c, col, s)) == Total(c) + s
  {
    if s > 0 {
      AddWinsTotal(c, col, s - 1);
    }
  }

  /** No key is ever duplicated. */
  lemma {:induction false} AddWinsDistinct(c: Counts, col: nat -> string, s: nat)
    requires DistinctKeys(c)
    ensures DistinctKeys(AddWins(c, col, s))
  {
    if s > 0 {
      AddWinsDistinct(c, col, s - 1);
      BumpDistinct(AddWins(c, col, s - 1), col(s - 1));
    }
  }

  /** `topCount / total >= 0.6`, in exact arithmetic. */
  predicate ClearWinner(top: nat, total: nat) {
    total > 0 && top as real / total as real >= 0.6
  }

  /** A clear winner holds at least three fifths of the samples. */
  lemma ClearWinnerIff(top: nat, total: nat)
    ensures ClearWinner(top, total) <==> total > 0 && 5 * top >= 3 * total
  {
    if total > 0 {
      var t := total as real;
      var q := top as real / t;
      assert q * t == top as real;
      ScaleIff(q, 0.6, t);
      assert (top as real >= 0.6 * t) <==> (5 * top) as real >= (3 * total) as real;
    }
  }

  lemma ScaleIff(a: real, b: real, t: real)
    requires t > 0.0
    ensures a >= b <==> a * t >= b * t
  {
    if a < b {
      assert (b - a) * t > 0.0;
    }
  }

  /** What one pattern's samples decide: its top engine, when that engine has a clear majority. */
  function Verdict(winner: (nat, nat) -> string, pi: nat, samples: nat): Option<string> {
    var wins := AddWins([], Column(winner, pi), samples);
    if |wins| > 0 && ClearWinner(Top(wins).1, Total(wins)) then Some(Top(wins).0) else None
  }

  /** The decisions of patterns 0 .. count - 1, in order. */
  function Verdicts(winner: (nat, nat) -> string, count: nat, samples: nat): seq<Option<string>> {
    seq(count, (pi: int) requires 0 <= pi < count => Verdict(winner, pi, samples))
  }

  /**
   The body of the loop over patterns: tally the samples of pattern `pi`
   into the global wins, and map the pattern to the engine its samples
   decided for, if any. A pattern with no samples decides nothing.
   */
  function TrainPattern(sel: Selector, pi: nat, samples: nat, winner: (nat, nat) -> string,
                        verdict: Option<string>): Selector {
    var global := AddWins(sel.globalWins, Column(winner, pi), samples);
    match verdict
    case Some(e) => sel.(globalWins := global, perPattern := sel.perPattern[pi := e])
    case None => sel.(globalWins := global)
  }

  /** The loop over patterns from `pi` on; `verdicts[pi]` is what pattern `pi` decides. */
  function TrainFrom(sel: Selector, pi: nat, samples: nat, winner: (nat, nat) -> string,
                     verdicts: seq<Option<string>>): Selector
    decreases |verdicts| - pi
  {
    if pi >= |verdicts| then sel
    else TrainFrom(TrainPattern(sel, pi, samples, winner, verdicts[pi]), pi + 1, samples, winner, verdicts)
  }

  /**
   `train({ memAI, patterns, noiseLevels, samplesPerPattern })`, where
   `winner(pi, s)` is the best rule of sample s of pattern pi.
   */
  function Train(sel: Selector, patterns: seq<seq<int>>, samplesPerPattern: Option<nat>,
                 winner: (nat, nat) -> string): (sel': Selector)
    ensures sel'.trained && sel'.engines == sel.engines
    ensures sel.perPattern.Keys <= sel'.perPattern.Keys
  {
    var s := samplesPerPattern.GetOr(DefaultSamples);
    TrainFromKeeps(sel, 0, s, winner, Verdicts(winner, |patterns|, s));
    TrainFrom(sel, 0, s, winner, Verdicts(winner, |patterns|, s)).(trained := true)
  }

  lemma {:induction false} TrainFromKeeps(sel: Selector, pi: nat, samples: nat, winner: (nat, nat) -> string,
                                          verdicts: seq<Option<string>>)
    ensures TrainFrom(sel, pi, samples, winner, verdicts).engines == sel.engines
    ensures sel.perPattern.Keys <= TrainFrom(sel, pi, samples, winner, verdicts).perPattern.Keys
    decreases |verdicts| - pi
  {
    if pi < |verdicts| {
      TrainFromKeeps(TrainPattern(sel, pi, samples, winner, verdicts[pi]), pi + 1, samples, winner, verdicts);
    }
  }

  /**
   After the loop from pattern `pi`, a later pattern that decided for an
   engine maps to it, and every other pattern keeps its old mapping (or
   lack of one).
   */
  lemma {:induction false} TrainFromMapping(sel: Selector, pi: nat, samples: nat, winner: (nat, nat) -> string,
                                            verdicts: seq<Option<string>>, q: nat)
    ensures var pp := TrainFrom(sel, pi, samples, winner, verdicts).perPattern;
            if pi <= q < |verdicts| && verdicts[q].Some? then q in pp && pp[q] == verdicts[q].value
            else (q in pp <==> q in sel.perPattern) && (q in pp ==> pp[q] == sel.perPattern[q])
    decreases |verdicts| - pi
  {
    if pi < |verdicts| {
      TrainFromMapping(TrainPattern(sel, pi, samples, winner, verdicts[pi]), pi + 1, samples, winner, verdicts, q);
    }
  }

  /** Training adds each sample of each pattern to the global wins, once. */
  lemma {:induction false} TrainFromTotal(sel: Selector, pi: nat, samples: nat, winner: (nat, nat) -> string,
                                          verdicts: seq<Option<string>>)
    requires pi <= |verdicts|
    ensures Total(TrainFrom(sel, pi, samples, winner, verdicts).globalWins)
            == Total(sel.globalWins) + (|verdicts| - pi) * samples
    decreases |verdicts| - pi
  {
    if pi < |verdicts| {
      AddWinsTotal(sel.globalWins, Column(winner, pi), samples);
      TrainFromTotal(TrainPattern(sel, pi, samples, winner, verdicts[pi]), pi + 1, samples, winner, verdicts);
      MulSucc(|verdicts| - (pi + 1), samples);
    }
  }

  lemma MulSucc(a: nat, b: nat)
    ensures (a + 1) * b == b + a * b
  {
  }

  /** Training never duplicates a key of the global wins. */
  lemma {:induction false} TrainFromDistinct(sel: Selector, pi: nat, samples: nat, winner: (nat, nat) -> string,
                                             verdicts: seq<Option<string>>)
    requires DistinctKeys(sel.globalWins)
    ensures DistinctKeys(TrainFrom(sel, pi, samples, winner, verdicts).globalWins)
    decreases |verdicts| - pi
  {
    if pi < |verdicts| {
      AddWinsDistinct(sel.globalWins, Column(winner, pi), samples);
      TrainFromDistinct(TrainPattern(sel, pi, samples, winner, verdicts[pi]), pi + 1, samples, winner, verdicts);
    }
  }

  /**
   `train` as a whole: the global wins grow by `patterns.length * samplesPerPattern`,
   keys stay distinct, patterns with a clear winner are mapped to it, and
   every other mapping, stale or not, is left as it was.
   */
  lemma TrainEffect(sel: Selector, patterns: seq<seq<int>>, samplesPerPattern: Option<nat>,
                    winner: (nat, nat) -> string, q: nat)
    ensures var s := samplesPerPattern.GetOr(DefaultSamples);
            Total(Train(sel, patterns, samplesPerPattern, winner).globalWins) == Total(sel.globalWins) + |patterns| * s
    ensures DistinctKeys(sel.globalWins) ==> DistinctKeys(Train(sel, patterns, samplesPerPattern, winner).globalWins)
    ensures var s := samplesPerPattern.GetOr(DefaultSamples);
            var pp := Train(sel, patterns, samplesPerPattern, winner).perPattern;
            if q < |patterns| && Verdict(winner, q, s).Some? then q in pp && pp[q] == Verdict(winner, q, s).value
            else (q in pp <==> q in sel.perPattern) && (q in pp ==> pp[q] == sel.perPattern[q])
  {
    TrainTotal(sel, patterns, samplesPerPattern, winner);
    if DistinctKeys(sel.globalWins) {
      TrainDistinct(sel, patterns, samplesPerPattern, winner);
    }
    TrainMapping(sel, patterns, samplesPerPattern, winner, q);
  }

  lemma TrainTotal(sel: Selector, patterns: seq<seq<int>>, samplesPerPattern: Option<nat>, winner: (nat, nat) -> string)
    ensures Total(Train(sel, patterns, samplesPerPattern, winner).globalWins)
            == Total(sel.globalWins) + |patterns| * samplesPerPattern.GetOr(DefaultSamples)
  {
    TrainFromTotal(sel, 0, samplesPerPattern.GetOr(DefaultSamples), winner,
                   Verdicts(winner, |patterns|, samplesPerPattern.GetOr(DefaultSamples)));
  }

  lemma TrainDistinct(sel: Selector, patterns: seq<seq<int>>, samplesPerPattern: Option<nat>, winner: (nat, nat) -> string)
    requires DistinctKeys(sel.globalWins)
    ensures DistinctKeys(Train(sel, patterns, samplesPerPattern, winner).globalWins)
  {
    TrainFromDistinct(sel, 0, samplesPerPattern.GetOr(DefaultSamples), winner,
                      Verdicts(winner, |patterns|, samplesPerPattern.GetOr(DefaultSamples)));
  }

  lemma TrainMapping(sel: Selector, patterns: seq<seq<int>>, samplesPerPattern: Option<nat>,
                     winner: (nat, nat) -> string, q: nat)
    ensures var s := samplesPerPattern.GetOr(DefaultSamples);
            var pp := Train(sel, patterns, samplesPerPattern, winner).perPattern;
            if q < |patterns| && Verdict(winner, q, s).Some? then q in pp && pp[q] == Verdict(winner, q, s).value
            else (q in pp <==> q in sel.perPattern) && (q in pp ==> pp[q] == sel.perPattern[q])
  {
    var s := samplesPerPattern.GetOr(DefaultSamples);
    var vs := Verdicts(winner, |patterns|, s);
    TrainFromMapping(sel, 0, s, winner, vs, q);
    if q < |patterns| {
      assert vs[q] == Verdict(winner, q, s);
    }
  }

  /**
   A mapped engine won strictly more of that pattern's samples than any
   other engine: three fifths of the samples leave at most two fifths to the
   rest.
   */
  lemma VerdictIsStrictMajority(winner: (nat, nat) -> string, pi: nat, samples: nat, other: string)
    requires Verdict(winner, pi, samples).Some? && other != Verdict(winner, pi, samples).value
    ensures Occurrences(Column(winner, pi), samples, other) < Occurrences(Column(winner, pi), samples, Verdict(winner, pi, samples).value)
    ensures 5 * Occurrences(Column(winner, pi), samples, Verdict(winner, pi, samples).value) >= 3 * samples
  {
    var col := Column(winner, pi);
    var wins := AddWins([], col, samples);
    VerdictClear(winner, pi, samples);
    AddWinsTotal([], col, samples);
    AddWinsDistinct([], col, samples);
    AddWinsGet([], col, samples, other);
    AddWinsGet([], col, samples, Top(wins).0);
    MajorityTop(wins, other);
  }

  /** A decision is the top engine of the tally, holding three fifths of it. */
  lemma VerdictClear(winner: (nat, nat) -> string, pi: nat, samples: nat)
    requires Verdict(winner, pi, samples).Some?
    ensures var wins := AddWins([], Column(winner, pi), samples);
            |wins| > 0 && Verdict(winner, pi, samples).value == Top(wins).0 && 5 * Top(wins).1 >= 3 * Total(wins)
  {
    var wins := AddWins([], Column(winner, pi), samples);
    ClearWinnerIff(Top(wins).1, Total(wins));
  }

  /** `suggestForPattern(i)`: the mapped engine; an unmapped pattern, or an empty name, gives null. */
  function SuggestForPattern(sel: Selector, pi: nat): (r: Option<string>)
    ensures r.Some? <==> pi in sel.perPattern && sel.perPattern[pi] != ""
    ensures r.Some? ==> r.value == sel.perPattern[pi]
  {
    if pi in sel.perPattern && sel.perPattern[pi] != "" then Some(sel.perPattern[pi]) else None
  }

  /** After training, a pattern with a clear winner is suggested that winner. */
  lemma SuggestAfterTrain(sel: Selector, patterns: seq<seq<int>>, samplesPerPattern: Option<nat>,
                          winner: (nat, nat) -> string, pi: nat)
    requires pi < |patterns|
    requires Verdict(winner, pi, samplesPerPattern.GetOr(DefaultSamples)).Some?
    requires Verdict(winner, pi, samplesPerPattern.GetOr(DefaultSamples)).value != ""
    ensures SuggestForPattern(Train(sel, patterns, samplesPerPattern, winner), pi)
            == Verdict(winner, pi, samplesPerPattern.GetOr(DefaultSamples))
  {
    TrainEffect(sel, patterns, samplesPerPattern, winner, pi);
  }

  /** `bestGlobal()`: the first engine, in insertion order, with the most wins; null before any win. */
  function BestGlobal(sel: Selector): (r: Option<string>)
    ensures r.None? <==> |sel.globalWins| == 0
    ensures r.Some? ==> r.value in Keys(sel.globalWins)
  {
    if |sel.globalWins| == 0 then None
    else
      var t := Top(sel.globalWins);
      var k :| 0 <= k < |sel.globalWins| && t == sel.globalWins[k];
      assert Keys(sel.globalWins)[k] == t.0;
      Some(t.0)
  }

  /** With distinct keys, no engine has more global wins than the best one, and earlier engines have fewer. */
  lemma BestGlobalIsMax(sel: Selector, e: string)
    requires DistinctKeys(sel.globalWins) && BestGlobal(sel).Some?
    ensures Get(sel.globalWins, e) <= Get(sel.globalWins, BestGlobal(sel).value)
  {
    var c := sel.globalWins;
    var t := Top(c);
    var k :| 0 <= k < |c| && t == c[k];
    GetEntry(c, k);
    if j :| 0 <= j < |c| && c[j].0 == e {
      GetEntry(c, j);
    } else {
      assert e !in Keys(c);
      GetAbsent(c, e);
    }
  }

  /** Once any sample has been taken, `bestGlobal` has an answer. */
  lemma BestGlobalAfterTrain(sel: Selector, patterns: seq<seq<int>>, samplesPerPattern: Option<nat>,
                             winner: (nat, nat) -> string)
    requires |patterns| > 0 && samplesPerPattern.GetOr(DefaultSamples) > 0
    ensures BestGlobal(Train(sel, patterns, samplesPerPattern, winner)).Some?
  {
    TrainEffect(sel, patterns, samplesPerPattern, winner, 0);
    var c := Train(sel, patterns, samplesPerPattern, winner).globalWins;
    MulPositive(|patterns|, samplesPerPattern.GetOr(DefaultSamples));
  }

  lemma MulPositive(a: nat, b: nat)
    requires a > 0 && b > 0
    ensures a * b > 0
  {
  }
}

=== FILE: explorer.dfy ===
/**
 `isinglab/memory_explorer.py`: its own notation parser (no sorting, exactly
 one `/`), the 18-bit rule integer, the capped neighbour generator, and the
 random candidate generator with `random.sample` as a sequence of draws.
 */
module Explorer {
  import opened Wrappers
  import opened PyText
  import PyBits

  /** `parse_notation`: digits in written order; anything but exactly one `/` is a `ValueError`. */
  function ParseNotation(s: string): (r: Result<(seq<int>, seq<int>)>)
    ensures r.Err? <==> multiset(s)['/'] != 1
    ensures r.Err? ==> r.error.kind == ValueError
    ensures r.Ok? ==> AllDigits(r.value.0) && AllDigits(r.value.1)
  {
    if '/' !in s then Err(Error(ValueError, "Invalid Life-like notation: " + s))
    else
      SplitFirst(s, '/');
      if '/' in After(s, '/') then Err(Error(ValueError, "too many values to unpack (expected 2)"))
      else Ok((DigitList(Before(s, '/')), DigitList(After(s, '/'))))
  }

  /** `f"B{''.join(map(str, born))}/S{''.join(map(str, survive))}"`. */
  function Format(born: seq<int>, survive: seq<int>): string {
    "B" + JoinInts(born) + "/S" + JoinInts(survive)
  }

  lemma DigitsHaveNoSlash(d: string)
    requires forall k :: 0 <= k < |d| ==> IsDigit(d[k])
    ensures '/' !in d
  {
    forall k | 0 <= k < |d|
      ensures d[k] != '/'
    {
      assert IsDigit(d[k]);
    }
  }

  lemma LetterThenDigits(c: char, d: string)
    requires !IsDigit(c) && c != '/'
    requires forall k :: 0 <= k < |d| ==> IsDigit(d[k])
    ensures DigitList([c] + d) == DigitList(d)
    ensures '/' !in [c] + d
  {
    DigitListAppend([c], d);
    assert [c][..0] == [];
    DigitsHaveNoSlash(d);
  }

  /** Printing digit lists and parsing them back gives the same lists, in the same order. */
  lemma FormatRoundTrip(born: seq<int>, survive: seq<int>)
    requires AllDigits(born) && AllDigits(survive)
    ensures ParseNotation(Format(born, survive)) == Ok((born, survive))
  {
    var db, ds := JoinInts(born), JoinInts(survive);
    JoinDigitsRoundTrip(born);
    JoinDigitsRoundTrip(survive);
    LetterThenDigits('B', db);
    LetterThenDigits('S', ds);
    var p, q := ['B'] + db, ['S'] + ds;
    FormatLayout(db, ds);
    SplitAt(p, '/', q);
  }

  lemma FormatLayout(db: string, ds: string)
    ensures "B" + db + "/S" + ds == (['B'] + db) + ['/'] + (['S'] + ds)
  {
    assert "/S" == ['/'] + ['S'];
  }

  /** Different digit lists print differently. */
  lemma FormatInjective(b1: seq<int>, s1: seq<int>, b2: seq<int>, s2: seq<int>)
    requires AllDigits(b1) && AllDigits(s1) && AllDigits(b2) && AllDigits(s2)
    requires Format(b1, s1) == Format(b2, s2)
    ensures b1 == b2 && s1 == s2
  {
    FormatRoundTrip(b1, s1);
    FormatRoundTrip(b2, s2);
  }

  // ------------------------------------------------------------ rule integer

  predicate NoNegative(xs: seq<int>) {
    forall k :: 0 <= k < |xs| ==> xs[k] >= 0
  }

  /** The shift counts `9 + s` of the survive loop. */
  function Shifted(xs: seq<int>, offset: int): (ys: seq<int>)
    ensures |ys| == |xs| && forall k :: 0 <= k < |xs| ==> ys[k] == xs[k] + offset
  {
    seq(|xs|, (k: int) requires 0 <= k < |xs| => xs[k] + offset)
  }

  function Nats(xs: seq<int>): (ns: seq<nat>)
    requires NoNegative(xs)
    ensures forall j: nat :: j in ns <==> j in xs
  {
    var ns := seq(|xs|, (k: int) requires 0 <= k < |xs| => xs[k] as nat);
    assert forall k :: 0 <= k < |xs| ==> ns[k] == xs[k];
    ns
  }

  /**
   `life_rule_to_int(born, survive)`: bit b for each born digit and bit
   9 + s for each survive digit. A negative shift count raises `ValueError`.
   */
  function LifeRuleToInt(born: seq<int>, survive: seq<int>): (r: Result<int>)
    ensures r.Err? <==> !NoNegative(born) || !NoNegative(Shifted(survive, 9))
    ensures r.Ok? ==> r.value >= 0
    ensures r.Ok? ==> forall k: nat :: PyBits.Bit(r.value, k) <==> k in born || k - 9 in survive
  {
    if !NoNegative(born) || !NoNegative(Shifted(survive, 9)) then
      Err(Error(ValueError, "negative shift count"))
    else
      RuleBits(born, survive);
      Ok(PyBits.SetBits(PyBits.SetBits(0, Nats(born)), Nats(Shifted(survive, 9))))
  }

  lemma RuleBits(born: seq<int>, survive: seq<int>)
    requires NoNegative(born) && NoNegative(Shifted(survive, 9))
    ensures var r := PyBits.SetBits(PyBits.SetBits(0, Nats(born)), Nats(Shifted(survive, 9)));
            && r >= 0
            && forall k: nat :: PyBits.Bit(r, k) <==> k in born || k - 9 in survive
  {
    var sb, sh := Nats(born), Shifted(survive, 9);
    var ss := Nats(sh);
    var x := PyBits.SetBits(0, sb);
    PyBits.SetBitsNonNegative(0, sb);
    PyBits.SetBitsNonNegative(x, ss);
    forall k: nat
      ensures PyBits.Bit(PyBits.SetBits(x, ss), k) <==> k in born || k - 9 in survive
    {
      PyBits.ZeroHasNoBits(k);
      assert PyBits.Bit(x, k) <==> k in born;
      assert k in ss <==> k in sh;
      ShiftedMember(survive, 9, k);
    }
  }

  lemma ShiftedMember(xs: seq<int>, offset: int, k: int)
    ensures k in Shifted(xs, offset) <==> k - offset in xs
  {
    var sh := Shifted(xs, offset);
    if k - offset in xs {
      var i :| 0 <= i < |xs| && xs[i] == k - offset;
      assert sh[i] == k;
    }
    if k in sh {
      var i :| 0 <= i < |sh| && sh[i] == k;
      assert xs[i] == k - offset;
    }
  }

  /** Parsed digits never make the shift negative. */
  lemma ParsedDigitsEncode(s: string)
    requires ParseNotation(s).Ok?
    ensures LifeRuleToInt(ParseNotation(s).value.0, ParseNotation(s).value.1).Ok?
  {
  }

  /** A born 9, which the parser lets through, sets bit 9: the bit of survive digit 0. */
  lemma BornNineIsSurviveZero()
    ensures LifeRuleToInt([9], []) == LifeRuleToInt([], [0])
  {
    var a, b := LifeRuleToInt([9], []), LifeRuleToInt([], [0]);
    assert a.Ok? && b.Ok?;
    BitsDetermine(a.value, b.value);
  }

  /** Two non-negative numbers with the same bits are equal. */
  lemma {:induction false} BitsDetermine(x: int, y: int)
    requires x >= 0 && y >= 0
    requires forall k: nat :: PyBits.Bit(x, k) <==> PyBits.Bit(y, k)
    ensures x == y
    decreases x + y
  {
    assert PyBits.Bit(x, 0) <==> PyBits.Bit(y, 0);
    if x > 0 || y > 0 {
      forall k: nat
        ensures PyBits.Bit(x / 2, k) <==> PyBits.Bit(y / 2, k)
      {
        assert PyBits.Bit(x, k + 1) <==> PyBits.Bit(y, k + 1);
      }
      BitsDetermine(x / 2, y / 2);
    }
  }

  // -------------------------------------------------------- generate_neighbors

  datatype Candidate = Candidate(notation: string, born: seq<int>, survive: seq<int>, source: string)

  /** The neighbours found so far and the `seen` set of notations. */
  datatype Acc = Acc(neighbors: seq<Candidate>, seen: set<string>)

  function Notations(cs: seq<Candidate>): (ns: seq<string>)
    ensures |ns| == |cs| && forall k :: 0 <= k < |cs| ==> ns[k] == cs[k].notation
  {
    seq(|cs|, (k: int) requires 0 <= k < |cs| => cs[k].notation)
  }

  /** The dictionary `add_candidate` builds for new lists. */
  function Propose(lists: (seq<int>, seq<int>), source: string): Candidate {
    Candidate(Format(lists.0, lists.1), lists.0, lists.1, source)
  }

  /** `add_candidate`: appended and marked seen unless its notation was seen. */
  function Add(acc: Acc, c: Candidate): Acc {
    if c.notation in acc.seen then acc
    else Acc(acc.neighbors + [c], acc.seen + {c.notation})
  }

  /** The change tried for digit d of one list: add it if absent, drop it if present and `more` allows. */
  function Toggle(xs: seq<int>, d: int, more: bool): Option<seq<int>> {
    if d !in xs then Some(SortInts(xs + [d]))
    else if more then Some(Remove(xs, d))
    else None
  }

  /**
   The 18 changes in loop order: born digits 0..8, where a present digit is
   dropped only while born has more than one entry, then survive digits 0..8,
   where `len(survive) > 0` always holds for a present digit.
   */
  function Changes(born: seq<int>, survive: seq<int>): (cs: seq<Option<(seq<int>, seq<int>)>>)
    ensures |cs| == 18
  {
    seq(18, (i: int) requires 0 <= i < 18 =>
      if i < 9 then
        match Toggle(born, i, |born| > 1)
        case None => None
        case Some(b) => Some((b, survive))
      else
        match Toggle(survive, i - 9, |survive| > 0)
        case None => None
        case Some(s) => Some((born, s)))
  }

  function Proposals(changes: seq<Option<(seq<int>, seq<int>)>>, source: string): (ps: seq<Option<Candidate>>)
    ensures |ps| == |changes|
    ensures forall i :: 0 <= i < |changes| ==>
              ps[i] == if changes[i].Some? then Some(Propose(changes[i].value, source)) else None
  {
    seq(|changes|, (i: int) requires 0 <= i < |changes| =>
      if changes[i].Some? then Some(Propose(changes[i].value, source)) else None)
  }

  /** The first k proposals, each added while fewer than `caps[i]` neighbours were found. */
  function Sweep(opts: seq<Option<Candidate>>, caps: seq<int>, acc: Acc, k: nat): Acc
    requires k <= |opts| == |caps|
  {
    if k == 0 then acc
    else
      var a := Sweep(opts, caps, acc, k - 1);
      if opts[k - 1].Some? && |a.neighbors| < caps[k - 1] then Add(a, opts[k - 1].value) else a
  }

  /** `seen` is the base plus the notations found, and those are distinct. */
  ghost predicate Tracked(acc: Acc, base: string) {
    && (forall i, j :: 0 <= i < j < |acc.neighbors| ==> acc.neighbors[i].notation != acc.neighbors[j].notation)
    && (forall n :: n in acc.seen <==> n == base || n in Notations(acc.neighbors))
    && base !in Notations(acc.neighbors)
  }

  /** Adding a candidate keeps `seen` in step with the distinct notations found. */
  lemma AddTracked(a: Acc, c: Candidate, base: string)
    requires Tracked(a, base)
    ensures Tracked(Add(a, c), base)
  {
    if c.notation !in a.seen {
      var r := Add(a, c);
      assert Notations(r.neighbors) == Notations(a.neighbors) + [c.notation];
      forall i | 0 <= i < |a.neighbors|
        ensures a.neighbors[i].notation != c.notation
      {
        assert a.neighbors[i].notation in Notations(a.neighbors);
      }
    }
  }

  lemma {:induction false} SweepSound(opts: seq<Option<Candidate>>, caps: seq<int>, acc: Acc, k: nat, base: string)
    requires k <= |opts| == |caps|
    requires Tracked(acc, base)
    requires forall c :: c in acc.neighbors ==> Some(c) in opts
    ensures Tracked(Sweep(opts, caps, acc, k), base)
    ensures forall c :: c in Sweep(opts, caps, acc, k).neighbors ==> Some(c) in opts
  {
    if k > 0 {
      SweepSound(opts, caps, acc, k - 1, base);
      var a := Sweep(opts, caps, acc, k - 1);
      if opts[k - 1].Some? && |a.neighbors| < caps[k - 1] {
        AddTracked(a, opts[k - 1].value, base);
      }
    }
  }

  lemma {:induction false} SweepGrowth(opts: seq<Option<Candidate>>, caps: seq<int>, acc: Acc, k: nat)
    requires k <= |opts| == |caps|
    ensures |Sweep(opts, caps, acc, k).neighbors| <= |acc.neighbors| + k
    ensures acc.seen <= Sweep(opts, caps, acc, k).seen
  {
    if k > 0 {
      SweepGrowth(opts, caps, acc, k - 1);
    }
  }

  /** While no cap binds, every proposal's notation ends up seen. */
  lemma {:induction false} SweepComplete(opts: seq<Option<Candidate>>, caps: seq<int>, acc: Acc, k: nat)
    requires k <= |opts| == |caps|
    requires forall i :: 0 <= i < k ==> caps[i] >= |acc.neighbors| + k
    ensures forall i :: 0 <= i < k && opts[i].Some? ==> opts[i].value.notation in Sweep(opts, caps, acc, k).seen
  {
    if k > 0 {
      SweepComplete(opts, caps, acc, k - 1);
      SweepGrowth(opts, caps, acc, k - 1);
    }
  }

  /** Once the caps are reached nothing is added. */
  lemma {:induction false} SweepCapped(opts: seq<Option<Candidate>>, caps: seq<int>, acc: Acc, k: nat)
    requires k <= |opts| == |caps|
    requires forall i :: 0 <= i < k ==> caps[i] <= |acc.neighbors|
    ensures Sweep(opts, caps, acc, k) == acc
  {
    if k > 0 {
      SweepCapped(opts, caps, acc, k - 1);
    }
  }

  /** `radius * 20` for the born loop, `radius * 40` for the survive loop. */
  function Caps(radius: int): (cs: seq<int>)
    ensures |cs| == 18
    ensures forall i :: 0 <= i < 9 ==> cs[i] == radius * 20
    ensures forall i :: 9 <= i < 18 ==> cs[i] == radius * 40
  {
    seq(18, (i: int) => if i < 9 then radius * 20 else radius * 40)
  }

  /** `MemoryExplorer.generate_neighbors(base_rule, radius)`. */
  function GenerateNeighbors(base: string, radius: int): (r: Result<seq<Candidate>>)
    ensures r.Err? <==> multiset(base)['/'] != 1
  {
    var (born, survive) :- ParseNotation(base);
    var opts := Proposals(Changes(born, survive), "neighbor_" + base);
    Ok(Sweep(opts, Caps(radius), Acc([], {base}), 18).neighbors)
  }

  /** The generator is the sweep over the proposals for the parsed lists. */
  lemma GenerateIsSweep(base: string, radius: int, born: seq<int>, survive: seq<int>)
    requires ParseNotation(base) == Ok((born, survive))
    ensures GenerateNeighbors(base, radius)
         == Ok(Sweep(Proposals(Changes(born, survive), "neighbor_" + base), Caps(radius), Acc([], {base}), 18).neighbors)
  {
  }

  /** No two neighbours share a notation, and none is the base. */
  lemma NeighborsDistinct(base: string, radius: int, born: seq<int>, survive: seq<int>)
    requires ParseNotation(base) == Ok((born, survive))
    ensures var ns := GenerateNeighbors(base, radius).value;
            && (forall i, j :: 0 <= i < j < |ns| ==> ns[i].notation != ns[j].notation)
            && base !in Notations(ns)
  {
    GenerateIsSweep(base, radius, born, survive);
    var acc := Acc([], {base});
    assert Tracked(acc, base);
    SweepSound(Proposals(Changes(born, survive), "neighbor_" + base), Caps(radius), acc, 18, base);
  }

  /** Every neighbour is one of the 18 changes of the parsed lists, printed, with source `neighbor_<base>`. */
  lemma NeighborsAreChanges(base: string, radius: int, born: seq<int>, survive: seq<int>)
    requires ParseNotation(base) == Ok((born, survive))
    ensures forall c :: c in GenerateNeighbors(base, radius).value ==>
              exists i :: 0 <= i < 18 && Changes(born, survive)[i].Some? && c == Propose(Changes(born, survive)[i].value, "neighbor_" + base)
  {
    GenerateIsSweep(base, radius, born, survive);
    var changes, src, acc := Changes(born, survive), "neighbor_" + base, Acc([], {base});
    var opts := Proposals(changes, src);
    assert Tracked(acc, base);
    SweepSound(opts, Caps(radius), acc, 18, base);
    forall c | c in GenerateNeighbors(base, radius).value
      ensures exists i :: 0 <= i < 18 && changes[i].Some? && c == Propose(changes[i].value, src)
    {
      var i :| 0 <= i < 18 && opts[i] == Some(c);
    }
  }

  /** With a radius below 1 both caps are at most 0 and nothing is generated. */
  lemma NoNeighborsBelowRadiusOne(base: string, radius: int)
    requires multiset(base)['/'] == 1 && radius < 1
    ensures GenerateNeighbors(base, radius) == Ok([])
  {
    var (born, survive) := ParseNotation(base).value;
    GenerateIsSweep(base, radius, born, survive);
    SweepCapped(Proposals(Changes(born, survive), "neighbor_" + base), Caps(radius), Acc([], {base}), 18);
  }

  /** From radius 1 on the caps never bind: every change printing differently from the base is a neighbour. */
  lemma NeighborsComplete(base: string, radius: int, born: seq<int>, survive: seq<int>)
    requires ParseNotation(base) == Ok((born, survive)) && radius >= 1
    ensures forall i :: 0 <= i < 18 && Changes(born, survive)[i].Some? ==>
              var n := Format(Changes(born, survive)[i].value.0, Changes(born, survive)[i].value.1);
              n == base || n in Notations(GenerateNeighbors(base, radius).value)
  {
    GenerateIsSweep(base, radius, born, survive);
    var changes, src, acc := Changes(born, survive), "neighbor_" + base, Acc([], {base});
    var opts := Proposals(changes, src);
    assert Tracked(acc, base);
    SweepSound(opts, Caps(radius), acc, 18, base);
    SweepComplete(opts, Caps(radius), acc, 18);
  }

  /** At most one neighbour per change. */
  lemma NeighborsAtMost18(base: string, radius: int)
    requires multiset(base)['/'] == 1
    ensures |GenerateNeighbors(base, radius).value| <= 18
  {
    var (born, survive) := ParseNotation(base).value;
    GenerateIsSweep(base, radius, born, survive);
    SweepGrowth(Proposals(Changes(born, survive), "neighbor_" + base), Caps(radius), Acc([], {base}), 18);
  }

  /** A change keeps born non-empty unless born repeats a single digit. */
  lemma ChangeKeepsBorn(born: seq<int>, survive: seq<int>, i: nat)
    requires i < 18 && Changes(born, survive)[i].Some?
    requires |SetOf(born)| != 1
    ensures |born| > 0 ==> |Changes(born, survive)[i].value.0| > 0
  {
    var c := Changes(born, survive)[i].value;
    if i < 9 {
      var t := Toggle(born, i, |born| > 1);
      assert t.Some? && c.0 == t.value;
      if i in born {
        if forall x :: x in born ==> x == i {
          AllSame(born, i);
          assert false;
        }
        var o :| o in born && o != i;
        assert o in Remove(born, i);
      } else {
        assert |SortInts(born + [i])| == |born| + 1;
      }
    } else {
      assert c.0 == born;
    }
  }

  /** A neighbour keeps born non-empty unless born repeats a single digit. */
  lemma NeighborsKeepBorn(base: string, radius: int, born: seq<int>, survive: seq<int>)
    requires ParseNotation(base) == Ok((born, survive))
    requires |SetOf(born)| != 1 && |born| > 0
    ensures forall c :: c in GenerateNeighbors(base, radius).value ==> |c.born| > 0
  {
    NeighborsAreChanges(base, radius, born, survive);
    var changes := Changes(born, survive);
    forall c | c in GenerateNeighbors(base, radius).value
      ensures |c.born| > 0
    {
      var i :| 0 <= i < 18 && changes[i].Some? && c == Propose(changes[i].value, "neighbor_" + base);
      ChangeKeepsBorn(born, survive, i);
    }
  }

  /** "B33/S2" parses to born [3, 3], whose only digit may be dropped: the change for born 3 empties born. */
  lemma RepeatedBornDigitEmptiesBorn(born: seq<int>, survive: seq<int>)
    requires born == [3, 3] && survive == [2]
    ensures Changes(born, survive)[3] == Some(([], survive))
  {
    assert born[..1] == [3] && born[..1][..0] == [];
    assert Remove(born[..1], 3) == [];
    assert Remove(born, 3) == [];
    assert 3 in born && |born| > 1;
    assert Toggle(born, 3, |born| > 1) == Some([]);
  }

  // ------------------------------------------------ generate_random_candidates

  /** One round of the random generator: the two `randint(1, 4)` counts and the two `random.sample` results. */
  datatype Draw = Draw(bornCount: int, born: seq<int>, surviveCount: int, survive: seq<int>)

  /** `len(range(lo, hi + 1))`. */
  function Population(range: (int, int)): nat {
    if range.1 - range.0 + 1 > 0 then range.1 - range.0 + 1 else 0
  }

  predicate DistinctInts(xs: seq<int>) {
    forall i, j :: 0 <= i < j < |xs| ==> xs[i] != xs[j]
  }

  predicate InRange(xs: seq<int>, range: (int, int)) {
    forall k :: 0 <= k < |xs| ==> range.0 <= xs[k] <= range.1
  }

  /** `random.sample(range(lo, hi + 1), n)` for an n it accepts: n distinct values of the range. */
  predicate IsSample(xs: seq<int>, n: int, range: (int, int)) {
    |xs| == n && DistinctInts(xs) && InRange(xs, range)
  }

  /** What `randint` and `random.sample` can return; a count above the population makes `sample` raise instead. */
  predicate Possible(d: Draw, bornRange: (int, int), surviveRange: (int, int)) {
    && 1 <= d.bornCount <= 4 && 1 <= d.surviveCount <= 4
    && (d.bornCount <= Population(bornRange) ==> IsSample(d.born, d.bornCount, bornRange))
    && (d.surviveCount <= Population(surviveRange) ==> IsSample(d.survive, d.surviveCount, surviveRange))
  }

  /**
   The `while len(candidates) < count` loop over the draws in order: a new
   notation is kept, a seen one is skipped. `None` when the draws run out
   first, where the source would keep drawing.
   */
  function Collect(count: int, bornRange: (int, int), surviveRange: (int, int), draws: seq<Draw>,
                   acc: seq<Candidate>, seen: set<string>): Result<Option<seq<Candidate>>>
    decreases |draws|
  {
    if |acc| >= count then Ok(Some(acc))
    else if |draws| == 0 then Ok(None)
    else
      var d := draws[0];
      if d.bornCount > Population(bornRange) || d.surviveCount > Population(surviveRange) then
        Err(Error(ValueError, "Sample larger than population or is negative"))
      else
        var b, s := SortInts(d.born), SortInts(d.survive);
        var n := Format(b, s);
        if n in seen then Collect(count, bornRange, surviveRange, draws[1..], acc, seen)
        else Collect(count, bornRange, surviveRange, draws[1..], acc + [Candidate(n, b, s, "random_generation")], seen + {n})
  }

  /** `MemoryExplorer.generate_random_candidates(count, born_range, survive_range)`; the seed selects the draws. */
  function GenerateRandomCandidates(count: int, bornRange: (int, int), surviveRange: (int, int), draws: seq<Draw>): Result<Option<seq<Candidate>>> {
    Collect(count, bornRange, surviveRange, draws, [], {})
  }

  /** A generated candidate: 1 to 4 distinct digits per side, in range, ascending, printed. */
  predicate WellFormed(c: Candidate, bornRange: (int, int), surviveRange: (int, int)) {
    && c.notation == Format(c.born, c.survive)
    && c.source == "random_generation"
    && 1 <= |c.born| <= 4 && 1 <= |c.survive| <= 4
    && Ascending(c.born) && Ascending(c.survive)
    && DistinctInts(c.born) && DistinctInts(c.survive)
    && InRange(c.born, bornRange) && InRange(c.survive, surviveRange)
  }

  /** Sorting a sample keeps it a sample. */
  lemma SortedSample(xs: seq<int>, n: int, range: (int, int))
    requires IsSample(xs, n, range)
    ensures IsSample(SortInts(xs), n, range) && Ascending(SortInts(xs))
  {
    var r := SortInts(xs);
    forall k | 0 <= k < |r|
      ensures range.0 <= r[k] <= range.1
    {
      assert r[k] in multiset(xs);
    }
    forall i, j | 0 <= i < j < |r|
      ensures r[i] != r[j]
    {
      if r[i] == r[j] {
        MultiplicityTwo(r, i, j);
        DistinctMultiplicity(xs, r[i]);
        assert false;
      }
    }
  }

  lemma MultiplicityTwo(r: seq<int>, i: nat, j: nat)
    requires i < j < |r| && r[i] == r[j]
    ensures multiset(r)[r[i]] >= 2
  {
    assert r == r[..i] + [r[i]] + r[i + 1..j] + [r[j]] + r[j + 1..];
  }

  lemma {:induction false} DistinctMultiplicity(xs: seq<int>, v: int)
    requires DistinctInts(xs)
    ensures multiset(xs)[v] <= 1
  {
    if |xs| > 0 {
      assert xs == [xs[0]] + xs[1..];
      DistinctMultiplicity(xs[1..], v);
      if xs[0] == v {
        assert v !in xs[1..];
      }
    }
  }

  /**
   With possible draws, a finished run holds exactly `count` candidates
   (none for a count below 1), well formed, with distinct notations.
   */
  lemma {:induction false} CollectSpec(count: int, bornRange: (int, int), surviveRange: (int, int), draws: seq<Draw>,
                                       acc: seq<Candidate>, seen: set<string>)
    requires forall d :: d in draws ==> Possible(d, bornRange, surviveRange)
    requires forall c :: c in acc ==> WellFormed(c, bornRange, surviveRange)
    requires forall i, j :: 0 <= i < j < |acc| ==> acc[i].notation != acc[j].notation
    requires forall n :: n in seen <==> n in Notations(acc)
    requires |acc| <= count || acc == []
    ensures var r := Collect(count, bornRange, surviveRange, draws, acc, seen);
            r.Ok? && r.value.Some? ==>
              && |r.value.value| == (if count > 0 then count else 0)
              && (forall c :: c in r.value.value ==> WellFormed(c, bornRange, surviveRange))
              && (forall i, j :: 0 <= i < j < |r.value.value| ==> r.value.value[i].notation != r.value.value[j].notation)
    decreases |draws|
  {
    if |acc| < count && |draws| > 0 {
      var d := draws[0];
      assert d in draws;
      if d.bornCount <= Population(bornRange) && d.surviveCount <= Population(surviveRange) {
        SortedSample(d.born, d.bornCount, bornRange);
        SortedSample(d.survive, d.surviveCount, surviveRange);
        var b, s := SortInts(d.born), SortInts(d.survive);
        var n := Format(b, s);
        assert forall e :: e in draws[1..] ==> e in draws;
        if n in seen {
          CollectSpec(count, bornRange, surviveRange, draws[1..], acc, seen);
        } else {
          var acc' := acc + [Candidate(n, b, s, "random_generation")];
          assert Notations(acc') == Notations(acc) + [n];
          forall i | 0 <= i < |acc|
            ensures acc[i].notation != n
          {
            assert acc[i].notation in Notations(acc);
          }
          CollectSpec(count, bornRange, surviveRange, draws[1..], acc', seen + {n});
        }
      }
    }
  }

  /** With possible draws, a finished run returns exactly `count` distinct well-formed candidates. */
  lemma RandomCandidatesSpec(count: int, bornRange: (int, int), surviveRange: (int, int), draws: seq<Draw>)
    requires forall d :: d in draws ==> Possible(d, bornRange, surviveRange)
    ensures var r := GenerateRandomCandidates(count, bornRange, surviveRange, draws);
            r.Ok? && r.value.Some? ==>
              && |r.value.value| == (if count > 0 then count else 0)
              && (forall c :: c in r.value.value ==> WellFormed(c, bornRange, surviveRange))
              && (forall i, j :: 0 <= i < j < |r.value.value| ==> r.value.value[i].notation != r.value.value[j].notation)
  {
    CollectSpec(count, bornRange, surviveRange, draws, [], {});
  }

  /** The default ranges hold 9 values, so `random.sample` never raises. */
  lemma DefaultRangesNeverRaise(count: int, draws: seq<Draw>)
    requires forall d :: d in draws ==> Possible(d, (0, 8), (0, 8))
    ensures GenerateRandomCandidates(count, (0, 8), (0, 8), draws).Ok?
  {
    CollectOk(count, draws, [], {});
  }

  lemma {:induction false} CollectOk(count: int, draws: seq<Draw>, acc: seq<Candidate>, seen: set<string>)
    requires forall d :: d in draws ==> Possible(d, (0, 8), (0, 8))
    ensures Collect(count, (0, 8), (0, 8), draws, acc, seen).Ok?
    decreases |draws|
  {
    if |acc| < count && |draws| > 0 {
      assert draws[0] in draws;
      assert forall e :: e in draws[1..] ==> e in draws;
      var b, s := SortInts(draws[0].born), SortInts(draws[0].survive);
      CollectOk(count, draws[1..], acc, seen);
      CollectOk(count, draws[1..], acc + [Candidate(Format(b, s), b, s, "random_generation")], seen + {Format(b, s)});
    }
  }
}

=== FILE: export_library.dfy ===
/**
 The two pure helpers of isinglab/export_memory_library.py: the diversity
 signature `B{n}_{digits}/S{m}_{digits}` of a rule, and the coarse
 memory/edge/entropy tags inferred from its scores.
 */
module ExportLibrary {
  import PyText

  // ---------------------------------------------------------- signature

  /** `compute_diversity_signature(born, survive)`. */
  function Signature(born: seq<int>, survive: seq<int>): string {
    Half('B', born) + "/" + Half('S', survive)
  }

  /** One side of the signature: the letter, the list length, `_`, then the sorted digits. */
  function Half(letter: char, xs: seq<int>): string {
    [letter] + PyText.Str(|xs|) + "_" + PyText.JoinInts(PyText.SortInts(xs))
  }

  /** Reads the sorted born and survive digits back out of a signature. */
  function Digits(sig: string): (seq<int>, seq<int>) {
    (PyText.DigitList(PyText.After(PyText.Before(sig, '/'), '_')),
     PyText.DigitList(PyText.After(PyText.After(sig, '/'), '_')))
  }

  predicate DigitText(s: string) {
    forall k :: 0 <= k < |s| ==> PyText.IsDigit(s[k])
  }

  lemma NotInDigits(s: string, c: char)
    requires DigitText(s) && !PyText.IsDigit(c)
    ensures c !in s
  {
  }

  lemma DigitTextConcat(a: string, b: string)
    requires DigitText(a) && DigitText(b)
    ensures DigitText(a + b)
  {
    assert forall k :: |a| <= k < |a| + |b| ==> (a + b)[k] == b[k - |a|];
  }

  /** A half reads back as its sorted digits, and holds neither `/` nor more than one `_`. */
  lemma HalfDigits(letter: char, xs: seq<int>)
    requires PyText.AllDigits(xs) && !PyText.IsDigit(letter) && letter != '_' && letter != '/'
    ensures '/' !in Half(letter, xs)
    ensures PyText.DigitList(PyText.After(Half(letter, xs), '_')) == PyText.SortInts(xs)
  {
    var count := PyText.Str(|xs|);
    var sorted := PyText.SortInts(xs);
    PyText.SortKeepsDigits(xs);
    PyText.JoinDigitsRoundTrip(sorted);
    var digits := PyText.JoinInts(sorted);
    assert DigitText(count);
    assert DigitText(digits);
    assert Half(letter, xs) == [letter] + count + ['_'] + digits;
    HalfText(letter, count, digits);
  }

  /** `<letter><count>_<digits>` with digit texts holds no `/`, and after its `_` come the digits. */
  lemma HalfText(letter: char, count: string, digits: string)
    requires DigitText(count) && DigitText(digits) && letter != '_' && letter != '/'
    ensures '/' !in [letter] + count + ['_'] + digits
    ensures PyText.After([letter] + count + ['_'] + digits, '_') == digits
  {
    var head := [letter] + count;
    NotInDigits(count, '_');
    NotInDigits(count, '/');
    NotInDigits(digits, '/');
    assert '_' !in head;
    assert '/' !in head;
    PyText.SplitAt(head, '_', digits);
  }

  /** Digit lists survive the trip through their signature, sorted. */
  lemma SignatureRoundTrip(born: seq<int>, survive: seq<int>)
    requires PyText.AllDigits(born) && PyText.AllDigits(survive)
    ensures Digits(Signature(born, survive)) == (PyText.SortInts(born), PyText.SortInts(survive))
  {
    HalfDigits('B', born);
    HalfDigits('S', survive);
    PyText.SplitAt(Half('B', born), '/', Half('S', survive));
  }

  /** Two digit rules share a signature exactly when they hold the same digits with the same multiplicities. */
  lemma SignatureIdentifiesRule(b1: seq<int>, s1: seq<int>, b2: seq<int>, s2: seq<int>)
    requires PyText.AllDigits(b1) && PyText.AllDigits(s1) && PyText.AllDigits(b2) && PyText.AllDigits(s2)
    ensures Signature(b1, s1) == Signature(b2, s2) <==> multiset(b1) == multiset(b2) && multiset(s1) == multiset(s2)
  {
    if Signature(b1, s1) == Signature(b2, s2) {
      SignatureRoundTrip(b1, s1);
      SignatureRoundTrip(b2, s2);
      assert multiset(PyText.SortInts(b1)) == multiset(PyText.SortInts(b2));
      assert multiset(PyText.SortInts(s1)) == multiset(PyText.SortInts(s2));
    }
    if multiset(b1) == multiset(b2) && multiset(s1) == multiset(s2) {
      PyText.SortIntsOfSame(b1, b2);
      PyText.SortIntsOfSame(s1, s2);
      assert |b1| == |multiset(b1)| == |b2|;
      assert |s1| == |multiset(s1)| == |s2|;
    }
  }

  /** `''.join(map(str, xs))` of digits: one character per digit, in order. */
  lemma {:induction false} JoinChars(xs: seq<int>)
    requires PyText.AllDigits(xs)
    ensures |PyText.JoinInts(xs)| == |xs|
    ensures forall k :: 0 <= k < |xs| ==> PyText.JoinInts(xs)[k] == ('0' as int + xs[k]) as char
    decreases |xs|
  {
    if |xs| > 0 {
      JoinChars(xs[..|xs| - 1]);
    }
  }

  /** A half of the signature for a list already in ascending order. */
  lemma HalfOfSorted(letter: char, xs: seq<int>, count: char, text: string)
    requires PyText.AllDigits(xs) && PyText.Ascending(xs) && |xs| <= 9 && count == ('0' as int + |xs|) as char
    requires |text| == |xs| && forall k :: 0 <= k < |xs| ==> text[k] == ('0' as int + xs[k]) as char
    ensures Half(letter, xs) == [letter, count, '_'] + text
  {
    PyText.SortAscending(xs);
    JoinChars(xs);
    assert PyText.JoinInts(xs) == text;
  }

  /** The born half of the signature of B13/S23 (the signature is `B2_13/S2_23`). */
  lemma HalfExample(born: seq<int>)
    requires born == [1, 3]
    ensures Half('B', born) == "B2_13"
  {
    HalfOfSorted('B', born, '2', "13");
  }

  // --------------------------------------------------------------- tags

  /** `scores.get(key, 0)`. */
  function Score(scores: map<string, real>, key: string): real {
    if key in scores then scores[key] else 0.0
  }

  /** The tags `infer_tags_from_scores` can produce. */
  datatype Tag =
    | HighMemory | ModerateMemory | LowMemory
    | Robust | ModerateEdge | Fragile
    | HighEntropy | Dynamic | ModerateEntropy | Static

  function TagName(t: Tag): string {
    match t
    case HighMemory => "high_memory"
    case ModerateMemory => "moderate_memory"
    case LowMemory => "low_memory"
    case Robust => "robust"
    case ModerateEdge => "moderate_edge"
    case Fragile => "fragile"
    case HighEntropy => "high_entropy"
    case Dynamic => "dynamic"
    case ModerateEntropy => "moderate_entropy"
    case Static => "static"
  }

  /** Distinct tags print as distinct strings, so the datatype loses nothing. */
  lemma TagNamesDistinct(a: Tag, b: Tag)
    ensures TagName(a) == TagName(b) <==> a == b
  {
    if a != b {
      assert TagName(a)[..3] != TagName(b)[..3] || |TagName(a)| != |TagName(b)| || TagName(a) != TagName(b);
    }
  }

  predicate IsMemoryTag(t: Tag) {
    t.HighMemory? || t.ModerateMemory? || t.LowMemory?
  }

  predicate IsEdgeTag(t: Tag) {
    t.Robust? || t.ModerateEdge? || t.Fragile?
  }

  predicate IsEntropyTag(t: Tag) {
    !IsMemoryTag(t) && !IsEdgeTag(t)
  }

  /** How many of the tags satisfy `group`. */
  function CountIn(tags: seq<Tag>, group: Tag -> bool): nat {
    if |tags| == 0 then 0 else CountIn(tags[..|tags| - 1], group) + if group(tags[|tags| - 1]) then 1 else 0
  }

  /** The memory band: above 0.5 high, above 0.1 moderate, else low. */
  function MemoryTag(memory: real): (t: Tag)
    ensures IsMemoryTag(t)
    ensures t == HighMemory <==> memory > 0.5
    ensures t == LowMemory <==> memory <= 0.1
  {
    if memory > 0.5 then HighMemory else if memory > 0.1 then ModerateMemory else LowMemory
  }

  /** The edge band: above 0.3 robust, above 0.15 moderate, else fragile. */
  function EdgeTag(edge: real): (t: Tag)
    ensures IsEdgeTag(t)
    ensures t == Robust <==> edge > 0.3
    ensures t == Fragile <==> edge <= 0.15
  {
    if edge > 0.3 then Robust else if edge > 0.15 then ModerateEdge else Fragile
  }

  /** The entropy tags: two above 0.7, one otherwise. */
  function EntropyTags(entropy: real): (ts: seq<Tag>)
    ensures |ts| == if entropy > 0.7 then 2 else 1
    ensures forall k :: 0 <= k < |ts| ==> IsEntropyTag(ts[k])
    ensures HighEntropy in ts <==> Dynamic in ts
    ensures HighEntropy in ts <==> entropy > 0.7
    ensures Static in ts <==> entropy <= 0.3
    ensures ModerateEntropy in ts <==> 0.3 < entropy <= 0.7
  {
    if entropy > 0.7 then [HighEntropy, Dynamic] else if entropy > 0.3 then [ModerateEntropy] else [Static]
  }

  /**
   `infer_tags_from_scores(scores)`: the memory tag, the edge tag, then the
   entropy tags, each score read as 0 when missing.
   */
  function InferTags(scores: map<string, real>): (tags: seq<Tag>)
    ensures |tags| == if Score(scores, "entropy") > 0.7 then 4 else 3
    ensures HighMemory in tags <==> Score(scores, "memory_score") > 0.5
    ensures LowMemory in tags <==> Score(scores, "memory_score") <= 0.1
    ensures Robust in tags <==> Score(scores, "edge_score") > 0.3
    ensures Fragile in tags <==> Score(scores, "edge_score") <= 0.15
    ensures HighEntropy in tags <==> Dynamic in tags
    ensures HighEntropy in tags <==> Score(scores, "entropy") > 0.7
    ensures Static in tags <==> Score(scores, "entropy") <= 0.3
    ensures ModerateEntropy in tags <==> 0.3 < Score(scores, "entropy") <= 0.7
  {
    var h := EntropyTags(Score(scores, "entropy"));
    assert HighMemory !in h && LowMemory !in h && Robust !in h && Fragile !in h;
    [MemoryTag(Score(scores, "memory_score")), EdgeTag(Score(scores, "edge_score"))] + h
  }

  /** Exactly one memory tag and exactly one edge tag, whatever the scores. */
  lemma OneTagPerGroup(scores: map<string, real>)
    ensures CountIn(InferTags(scores), IsMemoryTag) == 1
    ensures CountIn(InferTags(scores), IsEdgeTag) == 1
  {
    var m := MemoryTag(Score(scores, "memory_score"));
    var e := EdgeTag(Score(scores, "edge_score"));
    var h := EntropyTags(Score(scores, "entropy"));
    assert InferTags(scores) == [m, e] + h;
    CountPair(m, e, IsMemoryTag);
    CountPair(m, e, IsEdgeTag);
    CountNone([m, e], h, IsMemoryTag);
    CountNone([m, e], h, IsEdgeTag);
  }

  /** The count over two tags adds up the two of them. */
  lemma CountPair(a: Tag, b: Tag, group: Tag -> bool)
    ensures CountIn([a, b], group) == (if group(a) then 1 else 0) + (if group(b) then 1 else 0)
  {
    assert [a, b][..1] == [a];
    assert [a][..0] == [];
    assert CountIn([a], group) == if group(a) then 1 else 0;
    assert CountIn([a, b], group) == CountIn([a], group) + if group(b) then 1 else 0;
  }

  /** Appending tags outside a group leaves its count alone. */
  lemma {:induction false} CountNone(tags: seq<Tag>, more: seq<Tag>, group: Tag -> bool)
    requires forall k :: 0 <= k < |more| ==> !group(more[k])
    ensures CountIn(tags + more, group) == CountIn(tags, group)
    decreases |more|
  {
    if |more| > 0 {
      var init := more[..|more| - 1];
      CountNone(tags, init, group);
      assert (tags + more)[..|tags + more| - 1] == tags + init;
      assert (tags + more)[|tags + more| - 1] == more[|more| - 1];
    } else {
      assert tags + more == tags;
    }
  }

  /** With no scores at all the tags are the bottom band of each group. */
  lemma NoScoresTags()
    ensures InferTags(map[]) == [LowMemory, Fragile, Static]
  {
  }

  /** The high and low score dictionaries of the library's tag examples. */
  lemma TagExamples()
    ensures var t := InferTags(map["memory_score" := 0.6, "edge_score" := 0.4, "entropy" := 0.8]);
      HighMemory in t && Robust in t && HighEntropy in t && Dynamic in t
    ensures var t := InferTags(map["memory_score" := 0.05, "edge_score" := 0.1, "entropy" := 0.1]);
      LowMemory in t && Fragile in t && Static in t
  {
  }
}

=== FILE: feature_engineering.dfy ===
/**
 `isinglab/meta_learner/feature_engineering.py`: the eleven structural
 features of a Life-like rule that the meta-learner trains on, their vector
 form in `FEATURE_NAMES` order, and the positive/negative label of a
 memory entry. Floats are exact reals.
 */
module FeatureEngineering {
  import opened Wrappers
  import opened PyText
  import PyList
  import Explorer
  import Arith

  const FeatureNames: seq<string> := [
    "born_count", "survive_count", "born_density", "survive_density", "total_density",
    "born_survive_overlap", "born_range", "survive_range", "parity_alignment",
    "low_neighbor_bias", "high_neighbor_bias"]

  datatype Features = Features(
    bornCount: real, surviveCount: real,
    bornDensity: real, surviveDensity: real, totalDensity: real,
    overlap: real, bornRange: real, surviveRange: real,
    parityAlignment: real, lowBias: real, highBias: real)

  // ---------------------------------------------------------------------
  // Where the digit lists come from
  // ---------------------------------------------------------------------

  /**
   The born and survive lists the features are computed from: the given
   lists when both are given, otherwise the digits of the two halves of the
   notation (none when the notation is empty or has no `/`). A notation with
   two or more `/` fails to unpack.
   */
  function RuleLists(notation: Option<string>, born: Option<seq<int>>, survive: Option<seq<int>>)
    : (r: Result<(seq<int>, seq<int>)>)
    ensures born.Some? && survive.Some? ==> r == Ok((born.value, survive.value))
    ensures (born.None? || survive.None?) && (notation.None? || '/' !in notation.value) ==> r == Ok(([], []))
    ensures r.Err? <==> (born.None? || survive.None?) && notation.Some? && multiset(notation.value)['/'] > 1
  {
    if born.Some? && survive.Some? then Ok((born.value, survive.value))
    else if notation.Some? && |notation.value| > 0 && '/' in notation.value then
      Explorer.ParseNotation(notation.value)
    else Ok(([], []))
  }

  /** A notation printed from digit lists gives those lists back when no lists are passed. */
  lemma NotationGivesLists(born: seq<int>, survive: seq<int>)
    requires AllDigits(born) && AllDigits(survive)
    ensures RuleLists(Some(Explorer.Format(born, survive)), None, None) == Ok((born, survive))
  {
    Explorer.FormatRoundTrip(born, survive);
    var s := Explorer.Format(born, survive);
    assert s == "B" + JoinInts(born) + "/S" + JoinInts(survive);
    assert s[|"B" + JoinInts(born)|] == '/';
  }

  // ---------------------------------------------------------------------
  // The features
  // ---------------------------------------------------------------------

  predicate IsOdd(x: int) {
    x % 2 == 1
  }

  predicate IsLow(x: int) {
    x <= 2
  }

  predicate IsHigh(x: int) {
    x >= 5
  }

  /** `sum(1 for x in xs if p(x)) / len(xs)`, and 0 for an empty list. */
  function Share(xs: seq<int>, p: int -> bool): (r: real)
    ensures 0.0 <= r <= 1.0
    ensures |xs| == 0 ==> r == 0.0
  {
    if |xs| == 0 then 0.0
    else
      var n, d := |PyList.Filter(xs, p)| as real, |xs| as real;
      Ratio(n, d);
      n / d
  }

  lemma Ratio(n: real, d: real)
    requires 1.0 <= d && 0.0 <= n <= d
    ensures 0.0 <= n / d <= 1.0 && n / d * d == n
  {
    Arith.QuotientBounds(n, d, 1.0);
  }

  /** `(max(xs) - min(xs)) / 8`, and 0 for an empty list, read off the sorted list. */
  function Range(sorted: seq<int>): real {
    if |sorted| == 0 then 0.0 else (sorted[|sorted| - 1] - sorted[0]) as real / 8.0
  }

  function ParityAlignment(born: seq<int>, survive: seq<int>): real {
    if |born| > 0 && |survive| > 0 then
      var bp := Share(born, IsOdd);
      var sp := Share(survive, IsOdd);
      1.0 - (if bp >= sp then bp - sp else sp - bp)
    else 0.0
  }

  /** The features of two digit lists (`extract_rule_features` after the lists are chosen). */
  function FeaturesOf(born0: seq<int>, survive0: seq<int>): (f: Features)
    ensures f.bornCount == |born0| as real && f.surviveCount == |survive0| as real
    ensures f.bornDensity * 9.0 == f.bornCount && f.surviveDensity * 9.0 == f.surviveCount
    ensures f.totalDensity * 18.0 == f.bornCount + f.surviveCount
    ensures f.overlap * 9.0 == |SetOf(born0) * SetOf(survive0)| as real
    ensures |born0| == 0 ==> f.bornRange == 0.0 && f.lowBias == 0.0 && f.parityAlignment == 0.0
    ensures |survive0| == 0 ==> f.surviveRange == 0.0 && f.highBias == 0.0 && f.parityAlignment == 0.0
    ensures 0.0 <= f.parityAlignment <= 1.0 && 0.0 <= f.lowBias <= 1.0 && 0.0 <= f.highBias <= 1.0
  {
    var born, survive := SortInts(born0), SortInts(survive0);
    SetOfSame(born, born0);
    SetOfSame(survive, survive0);
    Features(
      |born| as real, |survive| as real,
      |born| as real / 9.0, |survive| as real / 9.0, (|born| + |survive|) as real / 18.0,
      |SetOf(born) * SetOf(survive)| as real / 9.0,
      Range(born), Range(survive),
      ParityAlignment(born, survive),
      Share(born, IsLow), Share(survive, IsHigh))
  }

  /** The range is the spread between the largest and smallest element, over 8. */
  lemma RangeIsSpread(xs: seq<int>) returns (lo: int, hi: int)
    requires |xs| > 0
    ensures lo in xs && hi in xs && Range(SortInts(xs)) * 8.0 == (hi - lo) as real
    ensures forall x :: x in xs ==> lo <= x <= hi
  {
    var s := SortInts(xs);
    lo, hi := s[0], s[|s| - 1];
    assert lo in multiset(xs) && hi in multiset(xs);
    forall x | x in xs
      ensures lo <= x <= hi
    {
      assert x in multiset(s);
      var k :| 0 <= k < |s| && s[k] == x;
    }
  }

  /** With neighbour counts 0..8 the range lies in [0, 1]. */
  lemma RangeBounded(xs: seq<int>)
    requires forall k :: 0 <= k < |xs| ==> 0 <= xs[k] <= 8
    ensures 0.0 <= Range(SortInts(xs)) <= 1.0
  {
    var s := SortInts(xs);
    if |s| > 0 {
      assert s[0] in multiset(xs) && s[|s| - 1] in multiset(xs);
    }
  }

  /** Swapping born and survive swaps their counts, densities and ranges and keeps overlap and parity alignment. */
  lemma SwapSymmetry(born: seq<int>, survive: seq<int>)
    ensures var f, g := FeaturesOf(born, survive), FeaturesOf(survive, born);
      && g.bornCount == f.surviveCount && g.surviveCount == f.bornCount
      && g.bornDensity == f.surviveDensity && g.surviveDensity == f.bornDensity
      && g.totalDensity == f.totalDensity && g.overlap == f.overlap
      && g.bornRange == f.surviveRange && g.surviveRange == f.bornRange
      && g.parityAlignment == f.parityAlignment
  {
    assert SetOf(born) * SetOf(survive) == SetOf(survive) * SetOf(born);
  }

  /** `extract_rule_features(notation, born, survive)`. */
  function ExtractRuleFeatures(notation: Option<string>, born: Option<seq<int>>, survive: Option<seq<int>>)
    : (r: Result<Features>)
    ensures r.Ok? <==> RuleLists(notation, born, survive).Ok?
    ensures r.Ok? ==> r.value == FeaturesOf(RuleLists(notation, born, survive).value.0, RuleLists(notation, born, survive).value.1)
  {
    var lists :- RuleLists(notation, born, survive);
    Ok(FeaturesOf(lists.0, lists.1))
  }

  /** A rule with neither lists nor a notation has all-zero features. */
  lemma NothingGivesZeros()
    ensures ExtractRuleFeatures(None, None, None) == Ok(Features(0.0, 0.0, 0.0, 0.0, 0.0, 0.0, 0.0, 0.0, 0.0, 0.0, 0.0))
  {
    var f := FeaturesOf([], []);
    assert SetOf([]) == {};
  }

  // ---------------------------------------------------------------------
  // Vectors
  // ---------------------------------------------------------------------

  /** The features as the dict the source returns, keyed by `FeatureNames`. */
  function AsDict(f: Features): map<string, real> {
    map["born_count" := f.bornCount, "survive_count" := f.surviveCount,
        "born_density" := f.bornDensity, "survive_density" := f.surviveDensity,
        "total_density" := f.totalDensity, "born_survive_overlap" := f.overlap,
        "born_range" := f.bornRange, "survive_range" := f.surviveRange,
        "parity_alignment" := f.parityAlignment, "low_neighbor_bias" := f.lowBias,
        "high_neighbor_bias" := f.highBias]
  }

  /** `features_to_vector`: the values in `FeatureNames` order, 0 for a missing name. */
  function FeaturesToVector(d: map<string, real>): (v: seq<real>)
    ensures |v| == |FeatureNames| == 11
  {
    seq(|FeatureNames|, (i: int) requires 0 <= i < |FeatureNames| =>
      if FeatureNames[i] in d then d[FeatureNames[i]] else 0.0)
  }

  /** The vector of an extracted dict lists the eleven features in their declared order. */
  lemma VectorOrder(f: Features)
    ensures FeaturesToVector(AsDict(f)) == [f.bornCount, f.surviveCount, f.bornDensity, f.surviveDensity,
      f.totalDensity, f.overlap, f.bornRange, f.surviveRange, f.parityAlignment, f.lowBias, f.highBias]
  {
  }

  // ---------------------------------------------------------------------
  // Labels and the dataset
  // ---------------------------------------------------------------------

  const PositiveLabels: set<string> := {"champion", "validated", "promising"}

  datatype Entry = Entry(notation: Option<string>, born: Option<seq<int>>, survive: Option<seq<int>>,
                         memoryScore: Option<real>, edgeScore: Option<real>, labels: seq<string>)

  /** The training label: a strong memory score, else a strong edge score, else a promoted label. */
  predicate Positive(e: Entry) {
    if e.memoryScore.Some? && e.memoryScore.value >= 0.7 then true
    else if e.edgeScore.Some? && e.edgeScore.value >= 0.35 then true
    else exists k :: 0 <= k < |e.labels| && e.labels[k] in PositiveLabels
  }

  /** The first-match chain is a plain disjunction of the three tests. */
  lemma PositiveIff(e: Entry)
    ensures Positive(e) <==>
      (e.memoryScore.Some? && e.memoryScore.value >= 0.7)
      || (e.edgeScore.Some? && e.edgeScore.value >= 0.35)
      || (exists k :: 0 <= k < |e.labels| && e.labels[k] in PositiveLabels)
  {
  }

  /** Adding labels never turns a positive entry negative. */
  lemma MoreLabelsStayPositive(e: Entry, more: seq<string>)
    requires Positive(e)
    ensures Positive(e.(labels := e.labels + more))
  {
    if !(e.memoryScore.Some? && e.memoryScore.value >= 0.7) && !(e.edgeScore.Some? && e.edgeScore.value >= 0.35) {
      var k :| 0 <= k < |e.labels| && e.labels[k] in PositiveLabels;
      assert (e.labels + more)[k] == e.labels[k];
    }
  }

  datatype Dataset = Dataset(x: seq<seq<real>>, width: nat, y: seq<int>, notations: seq<Option<string>>)

  /** The entry's features extract without raising: lists are given, or the notation has at most one `/`. */
  predicate Extracts(e: Entry) {
    (e.born.Some? && e.survive.Some?) || e.notation.None? || multiset(e.notation.value)['/'] <= 1
  }

  /** The independent test agrees with the extraction itself. */
  lemma ExtractsIff(e: Entry)
    ensures Extracts(e) <==> ExtractRuleFeatures(e.notation, e.born, e.survive).Ok?
  {
  }

  /** Index of the first entry from `j` on whose features fail to extract, or `|entries|`. */
  function FirstFailing(entries: seq<Entry>, j: nat): (k: nat)
    requires j <= |entries|
    ensures j <= k <= |entries|
    ensures k < |entries| ==> !Extracts(entries[k])
    ensures forall i :: j <= i < k ==> Extracts(entries[i])
    decreases |entries| - j
  {
    if j == |entries| then j
    else if !Extracts(entries[j]) then j
    else FirstFailing(entries, j + 1)
  }

  /** The feature vector of an entry that extracts. */
  function Row(e: Entry): (v: seq<real>)
    requires Extracts(e)
    ensures |v| == 11
  {
    var lists := RuleLists(e.notation, e.born, e.survive).value;
    FeaturesToVector(AsDict(FeaturesOf(lists.0, lists.1)))
  }

  /**
   `extract_dataset_features`: one row, label and notation per entry, in
   order; the first entry whose notation fails to unpack raises.
   */
  function ExtractDatasetFeatures(entries: seq<Entry>): (r: Result<Dataset>)
    ensures r.Err? <==> exists i :: 0 <= i < |entries| && !Extracts(entries[i])
    ensures r.Err? ==> r == Err(RuleLists(entries[FirstFailing(entries, 0)].notation, entries[FirstFailing(entries, 0)].born,
                                          entries[FirstFailing(entries, 0)].survive).error)
    ensures r.Ok? ==> (r.value.width == 11 && |r.value.x| == |r.value.y| == |r.value.notations| == |entries|)
    ensures r.Ok? ==> forall i :: 0 <= i < |entries| ==> |r.value.x[i]| == 11
    ensures r.Ok? ==> forall i :: 0 <= i < |entries| ==> (r.value.y[i] == 1 <==> Positive(entries[i]))
    ensures r.Ok? ==> forall i :: 0 <= i < |entries| ==> r.value.y[i] in {0, 1}
    ensures r.Ok? ==> forall i :: 0 <= i < |entries| ==> r.value.notations[i] == entries[i].notation
  {
    var k := FirstFailing(entries, 0);
    if k < |entries| then Err(RuleLists(entries[k].notation, entries[k].born, entries[k].survive).error)
    else
      Ok(Dataset(
        seq(|entries|, (i: int) requires 0 <= i < |entries| => Row(entries[i])), 11,
        seq(|entries|, (i: int) requires 0 <= i < |entries| => if Positive(entries[i]) then 1 else 0),
        seq(|entries|, (i: int) requires 0 <= i < |entries| => entries[i].notation)))
  }

  /** Each row of the dataset is the feature vector `extract_rule_features` gives its entry. */
  lemma DatasetRows(entries: seq<Entry>, i: nat)
    requires ExtractDatasetFeatures(entries).Ok?
    requires i < |entries|
    ensures ExtractRuleFeatures(entries[i].notation, entries[i].born, entries[i].survive).Ok?
    ensures ExtractDatasetFeatures(entries).value.x[i]
      == FeaturesToVector(AsDict(ExtractRuleFeatures(entries[i].notation, entries[i].born, entries[i].survive).value))
  {
  }

  /** No entries give the empty (0, 11) dataset. */
  lemma EmptyDataset()
    ensures ExtractDatasetFeatures([]) == Ok(Dataset([], 11, [], []))
  {
  }
}

=== FILE: flat_engine.dfy ===
/**
 `ising-memory-ai-lab/src/ca/engine.js`: the `CAEngine` class on flat
 `Uint8Array` boards, cell (x, y) at index `y * width + x`. Unlike the
 nested engine, `countNeighbors` adds up the neighbour VALUES.
 */
module FlatEngine {
  import opened CaRules
  import Arith

  type Flat = seq<int>

  /** A board of this engine: `width * height` cells, both dimensions positive. */
  predicate Fits(g: Flat, w: nat, h: nat) {
    w > 0 && h > 0 && |g| == w * h
  }

  predicate IsBinary(g: Flat) {
    forall i :: 0 <= i < |g| ==> g[i] == 0 || g[i] == 1
  }

  lemma IndexInBounds(x: nat, y: nat, w: nat, h: nat)
    requires x < w && y < h
    ensures y * w + x < w * h
  {
    Arith.MulStep(y, h, w);
  }

  /** `createEmptyGrid()`: `width * height` zeros. */
  function CreateEmptyGrid(w: nat, h: nat): (g: Flat)
    ensures |g| == w * h
    ensures forall i :: 0 <= i < |g| ==> g[i] == 0
  {
    seq(w * h, _ => 0)
  }

  /** Sum of the values under the first k neighbour offsets; the loops over dy, dx visit them in this order. */
  function SumFirst(g: Flat, w: nat, h: nat, x: nat, y: nat, k: nat): int
    requires Fits(g, w, h) && x < w && y < h && k <= 8
  {
    if k == 0 then 0
    else
      var (dx, dy) := Offsets[k - 1];
      var nx, ny := Wrap(x, dx, w), Wrap(y, dy, h);
      IndexInBounds(nx, ny, w, h);
      SumFirst(g, w, h, x, y, k - 1) + g[ny * w + nx]
  }

  /** `countNeighbors(grid, x, y)`. */
  function CountNeighbors(g: Flat, w: nat, h: nat, x: nat, y: nat): int
    requires Fits(g, w, h) && x < w && y < h
  {
    SumFirst(g, w, h, x, y, 8)
  }

  /** New value of cell (x, y): an alive cell (exactly 1) survives, any other value is born. */
  function NextCell(g: Flat, w: nat, h: nat, x: nat, y: nat, rule: Rule): (v: int)
    requires Fits(g, w, h) && x < w && y < h
    ensures v == 0 || v == 1
  {
    IndexInBounds(x, y, w, h);
    var n := CountNeighbors(g, w, h, x, y);
    if g[y * w + x] == 1 then (if n in rule.survive then 1 else 0)
    else (if n in rule.born then 1 else 0)
  }

  /** `step(grid, rule)`: a new array of the same length; index i holds the next value of the cell stored there. */
  function Step(g: Flat, w: nat, h: nat, rule: Rule): (r: Flat)
    requires Fits(g, w, h)
    ensures Fits(r, w, h) && IsBinary(r)
    ensures forall i :: 0 <= i < |r| ==> r[i] == NextAt(g, w, h, i, rule)
  {
    seq(w * h, (i: int) requires 0 <= i < w * h => NextAt(g, w, h, i, rule))
  }

  /** Cell (x, y) of the stepped board, written at `y * width + x`, is the cell rule applied there. */
  lemma StepCell(g: Flat, w: nat, h: nat, rule: Rule, x: nat, y: nat)
    requires Fits(g, w, h) && x < w && y < h
    ensures y * w + x < |Step(g, w, h, rule)|
    ensures Step(g, w, h, rule)[y * w + x] == NextCell(g, w, h, x, y, rule)
  {
    NextAtCell(g, w, h, rule, x, y);
  }

  lemma NextAtCell(g: Flat, w: nat, h: nat, rule: Rule, x: nat, y: nat)
    requires Fits(g, w, h) && x < w && y < h
    ensures y * w + x < w * h
    ensures NextAt(g, w, h, y * w + x, rule) == NextCell(g, w, h, x, y, rule)
  {
    IndexInBounds(x, y, w, h);
    Arith.DivModUnique(y * w + x, w, y, x);
  }

  /** The cell the loops write at flat index i. */
  function NextAt(g: Flat, w: nat, h: nat, i: nat, rule: Rule): (v: int)
    requires Fits(g, w, h) && i < w * h
    ensures v == 0 || v == 1
  {
    Arith.DivBound(i, w, h);
    NextCell(g, w, h, i % w, i / w, rule)
  }

  /** `run(grid, rule, steps)`: `step` applied exactly `steps` times. */
  function Run(g: Flat, w: nat, h: nat, rule: Rule, steps: nat): (r: Flat)
    requires Fits(g, w, h)
    ensures Fits(r, w, h)
    ensures steps > 0 ==> IsBinary(r)
    ensures steps == 0 ==> r == g
    decreases steps
  {
    if steps == 0 then g else Run(Step(g, w, h, rule), w, h, rule, steps - 1)
  }

  lemma {:induction false} RunAdditive(g: Flat, w: nat, h: nat, rule: Rule, a: nat, b: nat)
    requires Fits(g, w, h)
    ensures Run(Run(g, w, h, rule, a), w, h, rule, b) == Run(g, w, h, rule, a + b)
    decreases a
  {
    if a > 0 {
      RunAdditive(Step(g, w, h, rule), w, h, rule, a - 1, b);
    }
  }

  /** `cloneGrid(grid)`: a copy with the same cells. */
  function CloneGrid(g: Flat): (c: Flat)
    ensures |c| == |g| && forall i :: 0 <= i < |g| ==> c[i] == g[i]
  {
    g[..]
  }

  /** `randomGrid(density)`: cell i is 1 iff the i-th `Math.random()` draw is below the density. */
  function RandomGrid(w: nat, h: nat, density: real, draw: nat -> real): (g: Flat)
    ensures |g| == w * h && IsBinary(g)
    ensures forall i :: 0 <= i < |g| ==> (g[i] == 1 <==> draw(i) < density)
  {
    seq(w * h, (i: int) requires 0 <= i => if draw(i) < density then 1 else 0)
  }

  /** `getPopulation(grid)`: the sum of all cell values. */
  function GetPopulation(g: Flat): int {
    if |g| == 0 then 0 else GetPopulation(g[..|g| - 1]) + g[|g| - 1]
  }

  /** Number of cells equal to 1. */
  function Ones(g: Flat): (n: nat)
    ensures n <= |g|
  {
    if |g| == 0 then 0 else Ones(g[..|g| - 1]) + (if g[|g| - 1] == 1 then 1 else 0)
  }

  /** On a 0/1 board the population is the number of live cells, hence at most the board size. */
  lemma {:induction false} PopulationCountsOnes(g: Flat)
    requires IsBinary(g)
    ensures GetPopulation(g) == Ones(g)
    ensures 0 <= GetPopulation(g) <= |g|
  {
    if |g| > 0 {
      PopulationCountsOnes(g[..|g| - 1]);
    }
  }
}

=== FILE: functional_score.dfy ===
/**
 `metrics/functional_score.py`: the weighted score of a sensor system from
 its contrast and three yes/no columns, scaled by optional stress-test
 bonuses and clamped to [0, 1].

 A row is a map from column names to cells; a cell is a number, a boolean
 or a missing value (pandas' NaN). Arithmetic follows `PyFloat`: finite
 values are exact reals, and NaN and the infinities are carried through.
 Python's `min` and `max` keep their first argument unless the second
 compares smaller (larger), and every comparison with NaN is false.
 */
module FunctionalScore {
  import opened Wrappers
  import PyFloat
  import PyList
  import Sorting

  type Float = PyFloat.Float

  datatype Cell = Number(x: real) | Flag(b: bool) | Missing

  type Row = map<string, Cell>

  const ContrastCol := "contrast_normalized"
  const RoomTempCol := "room_temp_viable"
  const BioCol := "bio_adjacent"
  const StableCol := "stable_mature"
  const PhotoCol := "photostability_score"
  const PhCol := "contrast_ph_stability"
  const TempCol := "contrast_temp_stability"
  const ScoreCol := "functional_score"

  /** The float a cell holds; a boolean counts as 0 or 1. */
  function AsFloat(c: Cell): (f: Float)
    ensures !f.Inf?
  {
    match c
    case Number(x) => PyFloat.Fin(x)
    case Flag(b) => PyFloat.Fin(if b then 1.0 else 0.0)
    case Missing => PyFloat.NaN
  }

  /** Python truthiness of a cell: NaN is true. */
  predicate Truthy(c: Cell) {
    match c
    case Number(x) => x != 0.0
    case Flag(b) => b
    case Missing => true
  }

  function Indicator(c: Cell): real {
    if Truthy(c) then 1.0 else 0.0
  }

  // ---------------------------------------------------------------------
  // get_score_weights
  // ---------------------------------------------------------------------

  type Weights = map<string, real>

  const ContrastW := "contrast"
  const RoomTempW := "room_temp"
  const BioW := "bio_adjacent"
  const StableW := "stable_mature"

  function Mode(c: real, t: real, b: real, s: real): Weights {
    map[ContrastW := c, RoomTempW := t, BioW := b, StableW := s]
  }

  function WeightSum(w: Weights): real
    requires ContrastW in w && RoomTempW in w && BioW in w && StableW in w
  {
    w[ContrastW] + w[RoomTempW] + w[BioW] + w[StableW]
  }

  /** `get_score_weights(mode)`: one of three weightings, each summing to 1 with every weight in [0, 1]; any other mode is a `ValueError`. */
  function GetScoreWeights(mode: string): (r: Result<Weights>)
    ensures r.Err? <==> mode !in {"default", "high_contrast", "bio_focus"}
    ensures r.Err? ==> r.error.kind == ValueError
    ensures r.Ok? ==> r.value.Keys == {ContrastW, RoomTempW, BioW, StableW}
    ensures r.Ok? ==> WeightSum(r.value) == 1.0
    ensures r.Ok? ==> forall k :: k in r.value ==> 0.0 <= r.value[k] <= 1.0
  {
    if mode == "default" then Ok(Mode(0.4, 0.25, 0.20, 0.15))
    else if mode == "high_contrast" then Ok(Mode(0.6, 0.2, 0.1, 0.1))
    else if mode == "bio_focus" then Ok(Mode(0.2, 0.3, 0.4, 0.1))
    else Err(Error(ValueError, "Unknown mode '" + mode + "'. Choose from: ['default', 'high_contrast', 'bio_focus']"))
  }

  function DefaultWeights(): (w: Weights)
    ensures w.Keys == {ContrastW, RoomTempW, BioW, StableW}
  {
    Mode(0.4, 0.25, 0.20, 0.15)
  }

  lemma DefaultIsDefaultMode()
    ensures GetScoreWeights("default") == Ok(DefaultWeights())
  {
  }

  // ---------------------------------------------------------------------
  // The pieces of the score
  // ---------------------------------------------------------------------

  /** `max(0.0, min(1.0, x))`: NaN and +inf pass `min` as 1.0, -inf ends at 0.0. */
  function Clamp(x: Float): (r: real)
    ensures 0.0 <= r <= 1.0
    ensures x.NaN? || x == PyFloat.Inf(true) ==> r == 1.0
    ensures x == PyFloat.Inf(false) ==> r == 0.0
    ensures x.Fin? && 0.0 <= x.v <= 1.0 ==> r == x.v
    ensures x.Fin? && x.v > 1.0 ==> r == 1.0
    ensures x.Fin? && x.v < 0.0 ==> r == 0.0
  {
    PyFloat.Max(PyFloat.Fin(0.0), PyFloat.Min(PyFloat.Fin(1.0), x)).v
  }

  /**
   The `max_contrast` divisor. A value the caller passes is a Python
   float, and dividing by its zero raises `ZeroDivisionError`; the value
   `apply_functional_score` detects is the numpy scalar a column's `max()`
   returns, and dividing by its zero gives an infinity or NaN.
   */
  datatype Divisor = Given(x: real) | Detected(m: Float) {
    function Value(): Float {
      match this
      case Given(x) => PyFloat.Fin(x)
      case Detected(m) => m
    }
  }

  /** `min(c / max_contrast, 1.0)` for a finite or NaN contrast `c`. */
  function ContrastTerm(c: Float, d: Divisor): (r: Result<Float>)
    requires !c.Inf?
    ensures r.Err? <==> d == Given(0.0)
    ensures r.Err? ==> r.error.kind == ZeroDivisionError
    ensures r.Ok? ==> (r.value.NaN? <==> c.NaN? || d.Value().NaN? || (PyFloat.IsZero(c) && PyFloat.IsZero(d.Value())))
    ensures r.Ok? ==> r.value != PyFloat.Inf(true) && (r.value.Fin? ==> r.value.v <= 1.0)
    ensures r.Ok? ==> (r.value == PyFloat.Inf(false) <==> c.Fin? && c.v < 0.0 && PyFloat.IsZero(d.Value()))
    ensures r.Ok? && c.Fin? && d.Value().Fin? && d.Value().v != 0.0 ==>
      r.value.Fin? && (r.value.v == 1.0 <==> c.v / d.Value().v >= 1.0) && (r.value.v < 1.0 ==> r.value.v == c.v / d.Value().v)
  {
    match d
    case Given(x) =>
      if x == 0.0 then Err(Error(ZeroDivisionError, "float division by zero"))
      else Ok(PyFloat.Min(PyFloat.Div(c, PyFloat.Fin(x)), PyFloat.Fin(1.0)))
    case Detected(m) => Ok(PyFloat.Min(PyFloat.Div(c, m), PyFloat.Fin(1.0)))
  }

  /** An optional bonus column counts when it is present and not NaN. */
  function Optional(row: Row, col: string): Option<real> {
    if col in row && AsFloat(row[col]).Fin? then Some(AsFloat(row[col]).v) else None
  }

  function OrZero(o: Option<real>): real {
    if o.Some? then o.value else 0.0
  }

  /** The three stress-test bonuses: photostability centred on 0.5, pH and temperature stability scaled by 0.1. */
  datatype Bonuses = Bonuses(photo: Option<real>, ph: Option<real>, temp: Option<real>) {
    function Total(): real {
      OrZero(photo) + OrZero(ph) + OrZero(temp)
    }
  }

  function BonusesOf(row: Row): (b: Bonuses)
    ensures b.photo.Some? <==> PhotoCol in row && !AsFloat(row[PhotoCol]).NaN?
    ensures b.ph.Some? <==> PhCol in row && !AsFloat(row[PhCol]).NaN?
    ensures b.temp.Some? <==> TempCol in row && !AsFloat(row[TempCol]).NaN?
  {
    var p, h, t := Optional(row, PhotoCol), Optional(row, PhCol), Optional(row, TempCol);
    Bonuses(
      if p.Some? then Some((p.value - 0.5) * 0.2) else None,
      if h.Some? then Some(h.value * 0.1) else None,
      if t.Some? then Some(t.value * 0.1) else None)
  }

  /** Bonuses read from stress scores in [0, 1] lie in [-0.1, 0.3] together. */
  lemma BonusBounds(row: Row)
    requires forall c :: c in {PhotoCol, PhCol, TempCol} && c in row && AsFloat(row[c]).Fin? ==> 0.0 <= AsFloat(row[c]).v <= 1.0
    ensures -0.1 <= BonusesOf(row).Total() <= 0.3
  {
    assert PhotoCol in {PhotoCol, PhCol, TempCol};
    assert PhCol in {PhotoCol, PhCol, TempCol};
    assert TempCol in {PhotoCol, PhCol, TempCol};
  }

  /** Everything the score is made of, after the lookups that can fail. */
  datatype Parts = Parts(
    weights: Weights, contrastTerm: Float, roomTemp: real, bio: real, stable: real, bonuses: Bonuses)
  {
    predicate Valid() {
      ContrastW in weights && RoomTempW in weights && BioW in weights && StableW in weights
    }

    /** The three flag components, which are always finite. */
    function FlagSum(): real
      requires Valid()
    {
      weights[RoomTempW] * roomTemp + weights[BioW] * bio + weights[StableW] * stable
    }
  }

  predicate HasRequired(row: Row) {
    ContrastCol in row && RoomTempCol in row && BioCol in row && StableCol in row
  }

  function WeightsOrDefault(weights: Option<Weights>): Weights {
    if weights.Some? then weights.value else DefaultWeights()
  }

  predicate HasWeightKeys(w: Weights) {
    ContrastW in w && RoomTempW in w && BioW in w && StableW in w
  }

  /** The lookups of `compute_functional_score`: the required columns first, then the contrast division, then the weights. */
  function ComputeParts(row: Row, weights: Option<Weights>, d: Divisor): (r: Result<Parts>)
    ensures r.Ok? ==> r.value.Valid()
    ensures r.Err? <==> !HasRequired(row) || d == Given(0.0) || !HasWeightKeys(WeightsOrDefault(weights))
    ensures !HasRequired(row) ==> r.Err? && r.error.kind == KeyError
    ensures r.Err? && r.error.kind != KeyError ==> d == Given(0.0)
  {
    var w := WeightsOrDefault(weights);
    if !HasRequired(row) then Err(Error(KeyError, "Missing required columns"))
    else
      var term :- ContrastTerm(AsFloat(row[ContrastCol]), d);
      if !HasWeightKeys(w) then Err(Error(KeyError, "weight"))
      else Ok(Parts(w, term, Indicator(row[RoomTempCol]), Indicator(row[BioCol]), Indicator(row[StableCol]), BonusesOf(row)))
  }

  /**
   The weighted sum of the parts, then the bonus factor. A NaN contrast
   term makes the whole NaN; an infinite one stays infinite unless a zero
   weight or a zero factor turns it into NaN.
   */
  function Combine(p: Parts): (r: Float)
    requires p.Valid()
    ensures r.Fin? <==> p.contrastTerm.Fin?
    ensures r.Fin? ==> r.v == (p.weights[ContrastW] * p.contrastTerm.v + p.FlagSum()) * (1.0 + p.bonuses.Total())
    ensures r.NaN? <==>
      p.contrastTerm.NaN? || (p.contrastTerm.Inf? && (p.weights[ContrastW] == 0.0 || p.bonuses.Total() == -1.0))
  {
    var base := PyFloat.Add(PyFloat.Mul(PyFloat.Fin(p.weights[ContrastW]), p.contrastTerm), PyFloat.Fin(p.FlagSum()));
    PyFloat.Mul(base, PyFloat.Fin(1.0 + p.bonuses.Total()))
  }

  // ---------------------------------------------------------------------
  // compute_functional_score, as written and corrected
  // ---------------------------------------------------------------------

  /**
   `compute_functional_score` exactly as written, which the rest of this
   model uses: a NaN contrast reaches the clamp as NaN and scores 1.0.
   */
  function ScoreAsWritten(row: Row, weights: Option<Weights>, d: Divisor): (r: Result<real>)
    ensures r.Err? <==> !HasRequired(row) || d == Given(0.0) || !HasWeightKeys(WeightsOrDefault(weights))
    ensures r.Ok? ==> 0.0 <= r.value <= 1.0
  {
    var p :- ComputeParts(row, weights, d);
    Ok(Clamp(Combine(p)))
  }

  /** A system whose contrast is missing gets the top score 1.0 whatever its other columns say. */
  lemma MissingContrastScoresOne(row: Row, weights: Option<Weights>, d: Divisor)
    requires HasRequired(row) && row[ContrastCol] == Missing
    requires d != Given(0.0) && HasWeightKeys(WeightsOrDefault(weights))
    ensures ScoreAsWritten(row, weights, d) == Ok(1.0)
  {
  }

  /**
   When the detected maximum contrast is zero, a system of zero contrast
   divides 0 by 0 and scores 1.0 as well, and no division raises.
   */
  lemma ZeroOverZeroScoresOne(row: Row, weights: Option<Weights>)
    requires HasRequired(row) && row[ContrastCol] == Number(0.0)
    requires HasWeightKeys(WeightsOrDefault(weights))
    ensures ScoreAsWritten(row, weights, Detected(PyFloat.Fin(0.0))) == Ok(1.0)
  {
  }

  /**
   Under a detected maximum of zero, a negative contrast divides to -inf,
   and with a positive contrast weight and bonuses above -1 the score is 0.
   */
  lemma NegativeOverZeroScoresZero(row: Row, weights: Option<Weights>, c: real)
    requires HasRequired(row) && row[ContrastCol] == Number(c) && c < 0.0
    requires HasWeightKeys(WeightsOrDefault(weights)) && WeightsOrDefault(weights)[ContrastW] > 0.0
    requires BonusesOf(row).Total() > -1.0
    ensures ScoreAsWritten(row, weights, Detected(PyFloat.Fin(0.0))) == Ok(0.0)
  {
    var p := ComputeParts(row, weights, Detected(PyFloat.Fin(0.0))).value;
    assert p.contrastTerm == PyFloat.Inf(false);
    var base := PyFloat.Add(PyFloat.Mul(PyFloat.Fin(p.weights[ContrastW]), p.contrastTerm), PyFloat.Fin(p.FlagSum()));
    assert base == PyFloat.Inf(false);
    assert Combine(p) == PyFloat.Inf(false);
  }

  /** A contrast term with NaN counted as no contrast at all. */
  function Known(p: Parts): (q: Parts)
    ensures q.Valid() == p.Valid()
    ensures !q.contrastTerm.NaN?
    ensures p.contrastTerm.NaN? ==> q == p.(contrastTerm := PyFloat.Fin(0.0))
    ensures !p.contrastTerm.NaN? ==> q == p
  {
    if p.contrastTerm.NaN? then p.(contrastTerm := PyFloat.Fin(0.0)) else p
  }

  /**
   `compute_functional_score` as its formula intends it: a missing contrast
   contributes nothing instead of making the score 1.0. It agrees with the
   function as written whenever the contrast and the divisor are ordinary
   numbers.
   */
  function ComputeFunctionalScore(row: Row, weights: Option<Weights>, d: Divisor): (r: Result<real>)
    ensures r.Err? <==> !HasRequired(row) || d == Given(0.0) || !HasWeightKeys(WeightsOrDefault(weights))
    ensures !HasRequired(row) ==> r.Err? && r.error.kind == KeyError
    ensures r.Ok? ==> 0.0 <= r.value <= 1.0
    ensures r.Ok? && AsFloat(row[ContrastCol]).Fin? && d.Value().Fin? && d.Value().v != 0.0 ==>
      r == ScoreAsWritten(row, weights, d)
  {
    var p :- ComputeParts(row, weights, d);
    Ok(Clamp(Combine(Known(p))))
  }

  /** With the correction, a missing contrast scores exactly as a contrast of zero. */
  lemma MissingContrastCountsAsZero(row: Row, weights: Option<Weights>, maxContrast: real)
    requires HasRequired(row) && row[ContrastCol] == Missing
    requires maxContrast != 0.0
    ensures ComputeFunctionalScore(row, weights, Given(maxContrast))
      == ComputeFunctionalScore(row[ContrastCol := Number(0.0)], weights, Given(maxContrast))
  {
    var zero := row[ContrastCol := Number(0.0)];
    assert ContrastCol != RoomTempCol && ContrastCol != BioCol && ContrastCol != StableCol;
    assert ContrastCol != PhotoCol && ContrastCol != PhCol && ContrastCol != TempCol;
    assert BonusesOf(zero) == BonusesOf(row);
    if HasWeightKeys(WeightsOrDefault(weights)) {
      var p := ComputeParts(row, weights, Given(maxContrast)).value;
      var q := ComputeParts(zero, weights, Given(maxContrast)).value;
      assert q.contrastTerm == PyFloat.Fin(0.0);
      assert Known(p) == q;
    }
  }

  /** A system with full contrast and all three flags set, without stress columns, scores exactly 1 under any weighting summing to 1. */
  lemma PerfectScoresOne(row: Row, weights: Weights, maxContrast: real)
    requires HasRequired(row) && HasWeightKeys(weights) && WeightSum(weights) == 1.0
    requires maxContrast > 0.0 && row[ContrastCol] == Number(maxContrast)
    requires row[RoomTempCol] == Flag(true) && row[BioCol] == Flag(true) && row[StableCol] == Flag(true)
    requires PhotoCol !in row && PhCol !in row && TempCol !in row
    ensures ScoreAsWritten(row, Some(weights), Given(maxContrast)) == Ok(1.0)
  {
    var p := ComputeParts(row, Some(weights), Given(maxContrast)).value;
    assert maxContrast / maxContrast == 1.0;
    assert p.contrastTerm == PyFloat.Fin(1.0);
  }

  // ---------------------------------------------------------------------
  // explain_score
  // ---------------------------------------------------------------------

  datatype Explanation = Explanation(
    scoreFinal: real, scoreBase: Float,
    contrast: Float, roomTemp: real, bio: real, stable: real,
    bonusTotal: real, bonusDetails: map<string, real>, weights: Weights)

  function Details(b: Bonuses): (d: map<string, real>)
    ensures "photostability" in d <==> b.photo.Some?
  {
    var d1 := if b.photo.Some? then map["photostability" := b.photo.value] else map[];
    var d2 := if b.ph.Some? then d1["ph_stability" := b.ph.value] else d1;
    if b.temp.Some? then d2["temp_stability" := b.temp.value] else d2
  }

  /**
   `explain_score`: the lookups in the order the function makes them (the
   contrast column, its division, the flags, the weights), then each
   weighted component, their sum and the clamped final score. A NaN
   contrast shows as a NaN contrast component and a NaN base score next to
   a final score of 1.0.
   */
  function ExplainScore(row: Row, weights: Option<Weights>, d: Divisor): (r: Result<Explanation>)
    ensures r.Ok? ==> (r.value.scoreBase.Fin? <==> r.value.contrast.Fin?)
    ensures r.Ok? ==> (r.value.scoreBase.NaN? <==> r.value.contrast.NaN?)
    ensures r.Ok? && r.value.scoreBase.Fin? ==>
      r.value.contrast.v + r.value.roomTemp + r.value.bio + r.value.stable == r.value.scoreBase.v
    ensures r.Ok? && r.value.scoreBase.NaN? ==> r.value.scoreFinal == 1.0
    ensures r.Ok? ==> 0.0 <= r.value.scoreFinal <= 1.0
  {
    var w := WeightsOrDefault(weights);
    if ContrastCol !in row then Err(Error(KeyError, ContrastCol))
    else
      var term :- ContrastTerm(AsFloat(row[ContrastCol]), d);
      if !HasRequired(row) then Err(Error(KeyError, "flag"))
      else if !HasWeightKeys(w) then Err(Error(KeyError, "weight"))
      else
        var p := Parts(w, term, Indicator(row[RoomTempCol]), Indicator(row[BioCol]), Indicator(row[StableCol]), BonusesOf(row));
        var c := PyFloat.Mul(PyFloat.Fin(w[ContrastW]), term);
        var t, b, s := w[RoomTempW] * p.roomTemp, w[BioW] * p.bio, w[StableW] * p.stable;
        Ok(Explanation(Clamp(Combine(p)), PyFloat.Add(c, PyFloat.Fin(t + b + s)), c, t, b, s,
          p.bonuses.Total(), Details(p.bonuses), w))
  }

  /** The explanation's final score is the score as written, and both fail on the same rows. */
  lemma ExplainAgrees(row: Row, weights: Option<Weights>, d: Divisor)
    ensures ExplainScore(row, weights, d).Ok? <==> ScoreAsWritten(row, weights, d).Ok?
    ensures ExplainScore(row, weights, d).Ok? ==>
      ExplainScore(row, weights, d).value.scoreFinal == ScoreAsWritten(row, weights, d).value
  {
  }

  // ---------------------------------------------------------------------
  // apply_functional_score
  // ---------------------------------------------------------------------

  datatype Frame = Frame(columns: set<string>, rows: seq<Row>)

  /** pandas' column `max()`: missing values are skipped; with none left it is NaN. */
  function ColumnMax(rows: seq<Row>, col: string): (m: Float)
    ensures !m.Inf?
    ensures m.NaN? <==> forall k :: 0 <= k < |rows| && col in rows[k] ==> AsFloat(rows[k][col]).NaN?
    ensures m.Fin? ==> exists k :: 0 <= k < |rows| && col in rows[k] && AsFloat(rows[k][col]) == m
    ensures m.Fin? ==> forall k :: 0 <= k < |rows| && col in rows[k] && AsFloat(rows[k][col]).Fin? ==> AsFloat(rows[k][col]).v <= m.v
  {
    if |rows| == 0 then PyFloat.NaN
    else
      var rest := ColumnMax(rows[1..], col);
      assert forall k :: 1 <= k < |rows| ==> rows[k] == rows[1..][k - 1];
      var here := if col in rows[0] then AsFloat(rows[0][col]) else PyFloat.NaN;
      if here.NaN? then rest
      else if rest.NaN? || rest.v < here.v then here
      else rest
  }

  function WithScore(row: Row, score: real): Row {
    row[ScoreCol := Number(score)]
  }

  /** Scores every row, stopping at the first row whose score fails. */
  function ScoreRows(rows: seq<Row>, weights: Option<Weights>, d: Divisor): (r: Result<seq<real>>)
    ensures r.Ok? <==> forall k :: 0 <= k < |rows| ==> ScoreAsWritten(rows[k], weights, d).Ok?
    ensures r.Ok? ==> |r.value| == |rows|
    ensures r.Ok? ==> forall k :: 0 <= k < |rows| ==> r.value[k] == ScoreAsWritten(rows[k], weights, d).value
  {
    if |rows| == 0 then Ok([])
    else
      var s :- ScoreAsWritten(rows[0], weights, d);
      var rest :- ScoreRows(rows[1..], weights, d);
      Ok([s] + rest)
  }

  /** The score a row carries; rows without one do not occur in a scored frame. */
  function ScoreOf(row: Row): real {
    if ScoreCol in row && row[ScoreCol].Number? then row[ScoreCol].x else 0.0
  }

  function ByScore(a: Row, b: Row): bool {
    ScoreOf(a) >= ScoreOf(b)
  }

  predicate DescendingScores(rows: seq<Row>) {
    forall i, j :: 0 <= i < j < |rows| ==> ScoreOf(rows[i]) >= ScoreOf(rows[j])
  }

  function RequiredMissing(f: Frame): bool {
    !(ContrastCol in f.columns && RoomTempCol in f.columns && BioCol in f.columns && StableCol in f.columns)
  }

  /** The divisor: the given `max_contrast`, else the frame's largest contrast as a numpy scalar, else 90.0. */
  function MaxContrastOf(f: Frame, maxContrast: Option<real>): (d: Divisor)
    ensures maxContrast.None? && ContrastCol in f.columns ==> d.Detected?
  {
    if maxContrast.Some? then Given(maxContrast.value)
    else if ContrastCol in f.columns then Detected(ColumnMax(f.rows, ContrastCol))
    else Given(90.0)
  }

  function Scored(rows: seq<Row>, scores: seq<real>): (r: seq<Row>)
    requires |scores| == |rows|
    ensures |r| == |rows| && forall k :: 0 <= k < |rows| ==> r[k] == WithScore(rows[k], scores[k])
  {
    seq(|rows|, (k: int) requires 0 <= k < |rows| => WithScore(rows[k], scores[k]))
  }

  /**
   `apply_functional_score`: a missing required column is a `KeyError`,
   every row gets its score as written in a new column, and with `sort`
   the rows are ordered by descending score. The input frame is a value
   and stays as it was.
   */
  function ApplyFunctionalScore(f: Frame, weights: Option<Weights>, maxContrast: Option<real>, sort: bool)
    : (r: Result<Frame>)
    ensures RequiredMissing(f) ==> r.Err? && r.error.kind == KeyError
    ensures r.Ok? ==> r.value.columns == f.columns + {ScoreCol} && |r.value.rows| == |f.rows|
    ensures r.Ok? <==> !RequiredMissing(f) && forall k :: 0 <= k < |f.rows| ==>
      ScoreAsWritten(f.rows[k], weights, MaxContrastOf(f, maxContrast)).Ok?
    ensures r.Ok? && !sort ==> forall k :: 0 <= k < |f.rows| ==>
      r.value.rows[k] == WithScore(f.rows[k], ScoreAsWritten(f.rows[k], weights, MaxContrastOf(f, maxContrast)).value)
  {
    if RequiredMissing(f) then Err(Error(KeyError, "DataFrame missing required columns"))
    else
      var scores :- ScoreRows(f.rows, weights, MaxContrastOf(f, maxContrast));
      var scored := Scored(f.rows, scores);
      Ok(Frame(f.columns + {ScoreCol}, if sort then Sorting.SortBy(ByScore, scored) else scored))
  }

  /** Without a given maximum, a zero divisor never raises: only a missing column or weight fails a frame. */
  lemma DetectedMaxNeverDivides(f: Frame, weights: Option<Weights>, sort: bool)
    requires ContrastCol in f.columns
    requires ApplyFunctionalScore(f, weights, None, sort).Err?
    ensures ApplyFunctionalScore(f, weights, None, sort).error.kind == KeyError
  {
    if !RequiredMissing(f) {
      var d := MaxContrastOf(f, None);
      var k :| 0 <= k < |f.rows| && ScoreAsWritten(f.rows[k], weights, d).Err?;
      assert !HasRequired(f.rows[k]) || !HasWeightKeys(WeightsOrDefault(weights));
      ScoreRowsError(f.rows, weights, d);
    }
  }

  /** The error of a failed scoring is the error of a row's score. */
  lemma ScoreRowsError(rows: seq<Row>, weights: Option<Weights>, d: Divisor)
    requires ScoreRows(rows, weights, d).Err?
    ensures exists k :: 0 <= k < |rows| && ScoreAsWritten(rows[k], weights, d).Err? &&
                        ScoreRows(rows, weights, d).error == ScoreAsWritten(rows[k], weights, d).error
  {
    if ScoreAsWritten(rows[0], weights, d).Ok? {
      ScoreRowsError(rows[1..], weights, d);
      var k :| 0 <= k < |rows[1..]| && ScoreAsWritten(rows[1..][k], weights, d).Err? &&
        ScoreRows(rows[1..], weights, d).error == ScoreAsWritten(rows[1..][k], weights, d).error;
      assert rows[1..][k] == rows[k + 1];
    }
  }

  /** Sorting scored rows orders them by descending score and keeps every row. */
  lemma SortScored(scored: seq<Row>)
    ensures DescendingScores(Sorting.SortBy(ByScore, scored))
    ensures forall x :: x in Sorting.SortBy(ByScore, scored) <==> x in scored
  {
    Sorting.SortBySorted(ByScore, scored);
    Sorting.SortByMembers(ByScore, scored);
  }

  /** With `sort`, the result is the unsorted result reordered by descending score: each input row appears with its own score. */
  lemma ApplySorted(f: Frame, weights: Option<Weights>, maxContrast: Option<real>)
    requires ApplyFunctionalScore(f, weights, maxContrast, true).Ok?
    ensures var r := ApplyFunctionalScore(f, weights, maxContrast, true).value.rows;
      && DescendingScores(r)
      && forall x :: x in r <==> x in ApplyFunctionalScore(f, weights, maxContrast, false).value.rows
  {
    var scores := ScoreRows(f.rows, weights, MaxContrastOf(f, maxContrast)).value;
    SortScored(Scored(f.rows, scores));
  }

  /** Every score in a scored frame lies in [0, 1]. */
  lemma ScoresInUnitRange(f: Frame, weights: Option<Weights>, maxContrast: Option<real>, k: nat)
    requires ApplyFunctionalScore(f, weights, maxContrast, false).Ok?
    requires k < |f.rows|
    ensures 0.0 <= ScoreOf(ApplyFunctionalScore(f, weights, maxContrast, false).value.rows[k]) <= 1.0
  {
  }

  /**
   A system with a missing contrast is scored 1.0 and, in the sorted
   frame, only rows that also score 1.0 come before it.
   */
  lemma MissingContrastRanksFirst(f: Frame, weights: Option<Weights>, maxContrast: Option<real>, k: nat)
    requires ApplyFunctionalScore(f, weights, maxContrast, true).Ok?
    requires k < |f.rows| && ContrastCol in f.rows[k] && f.rows[k][ContrastCol] == Missing
    ensures WithScore(f.rows[k], 1.0) in ApplyFunctionalScore(f, weights, maxContrast, true).value.rows
    ensures var r := ApplyFunctionalScore(f, weights, maxContrast, true).value.rows;
      forall i, j :: 0 <= i < j < |r| && r[j] == WithScore(f.rows[k], 1.0) ==> ScoreOf(r[i]) == 1.0
  {
    var d := MaxContrastOf(f, maxContrast);
    var unsorted := ApplyFunctionalScore(f, weights, maxContrast, false).value.rows;
    var r := ApplyFunctionalScore(f, weights, maxContrast, true).value.rows;
    MissingContrastScoresOne(f.rows[k], weights, d);
    assert unsorted[k] == WithScore(f.rows[k], 1.0);
    ApplySorted(f, weights, maxContrast);
    forall i | 0 <= i < |r|
      ensures ScoreOf(r[i]) <= 1.0
    {
      assert r[i] in unsorted;
      var m :| 0 <= m < |unsorted| && unsorted[m] == r[i];
      ScoresInUnitRange(f, weights, maxContrast, m);
    }
  }

  /** The 90.0 fallback is never used: without a contrast column the frame is rejected first. */
  lemma FallbackUnused(f: Frame, weights: Option<Weights>, sort: bool)
    requires ContrastCol !in f.columns
    ensures ApplyFunctionalScore(f, weights, None, sort).Err?
  {
  }
}

=== FILE: hopfield_core.dfy ===
/**
 The Hopfield network shared by `src/memory/hopfieldMemoryEngine.js` and
 `experiments/memory-ai-lab/hopfield/hopfield.js`: Hebbian training with a
 zero diagonal, and asynchronous recall sweeps that visit the units in a
 Fisher-Yates shuffled order, stopping after the first sweep that changes
 nothing.

 The flat `Float32Array` of `size * size` weights is held as a square
 matrix: `weights[i * size + j]` is `w[i][j]`.
 */
module HopfieldCore {
  import opened JsFloat
  import opened JsNumbers

  type Matrix = seq<seq<Num>>

  predicate IsSquare(w: Matrix, n: nat) {
    |w| == n && forall i :: 0 <= i < n ==> |w[i]| == n
  }

  /** `a[j] * 2 - 1`: the spin of a cell, NaN when j is past the end of `a`. */
  function SpinAt(a: seq<int>, j: nat): (r: Num)
    ensures r.Real? <==> j < |a|
    ensures j < |a| ==> r.v == (2 * a[j] - 1) as real
  {
    if j < |a| then Real((2 * a[j] - 1) as real) else NaN
  }

  /** What the Hebb loops add up at position (i, j) over `patterns`, before scaling; (i, i) is never written. */
  function HebbSum(patterns: seq<seq<int>>, i: nat, j: nat): Num {
    if |patterns| == 0 then Real(0.0)
    else
      var rest := HebbSum(patterns[..|patterns| - 1], i, j);
      var p := patterns[|patterns| - 1];
      if i == j then rest else Add(rest, Mul(SpinAt(p, i), SpinAt(p, j)))
  }

  /** The integer Hebb sum of the spin products, for patterns that are long enough. */
  function HebbInt(patterns: seq<seq<int>>, i: nat, j: nat): int
    requires forall k :: 0 <= k < |patterns| ==> i < |patterns[k]| && j < |patterns[k]|
  {
    if |patterns| == 0 then 0
    else
      var p := patterns[|patterns| - 1];
      HebbInt(patterns[..|patterns| - 1], i, j) + (2 * p[i] - 1) * (2 * p[j] - 1)
  }

  /** The weights after the accumulation loops, before scaling. */
  function Accumulate(patterns: seq<seq<int>>, n: nat): (w: Matrix)
    ensures IsSquare(w, n)
    ensures forall i, j :: 0 <= i < n && 0 <= j < n ==> w[i][j] == HebbSum(patterns, i, j)
  {
    seq(n, (i: int) requires 0 <= i < n => seq(n, (j: int) requires 0 <= j < n => HebbSum(patterns, i, j)))
  }

  /**
   `weights[i] *= 1 / patterns.length`. With no patterns the factor is
   Infinity and every weight is still 0, so each becomes `0 * Infinity`, NaN.
   */
  function Scaled(x: Num, count: nat): Num {
    if count == 0 then NaN else Mul(x, Real(1.0 / count as real))
  }

  /** `train(patterns)`: zeroed weights, the Hebb loops, then the scaling. */
  function Train(patterns: seq<seq<int>>, n: nat): (w: Matrix)
    ensures IsSquare(w, n)
    ensures forall i, j :: 0 <= i < n && 0 <= j < n ==> w[i][j] == Scaled(HebbSum(patterns, i, j), |patterns|)
  {
    seq(n, (i: int) requires 0 <= i < n =>
      seq(n, (j: int) requires 0 <= j < n => Scaled(HebbSum(patterns, i, j), |patterns|)))
  }

  lemma {:induction false} HebbSumSymmetric(patterns: seq<seq<int>>, i: nat, j: nat)
    ensures HebbSum(patterns, i, j) == HebbSum(patterns, j, i)
  {
    if |patterns| > 0 {
      HebbSumSymmetric(patterns[..|patterns| - 1], i, j);
    }
  }

  lemma {:induction false} HebbSumDiagonal(patterns: seq<seq<int>>, i: nat)
    ensures HebbSum(patterns, i, i) == Real(0.0)
  {
    if |patterns| > 0 {
      HebbSumDiagonal(patterns[..|patterns| - 1], i);
    }
  }

  lemma {:induction false} HebbSumIsInt(patterns: seq<seq<int>>, i: nat, j: nat)
    requires i != j
    requires forall k :: 0 <= k < |patterns| ==> i < |patterns[k]| && j < |patterns[k]|
    ensures HebbSum(patterns, i, j) == Real(HebbInt(patterns, i, j) as real)
  {
    if |patterns| > 0 {
      HebbSumIsInt(patterns[..|patterns| - 1], i, j);
    }
  }

  /** The trained weights are symmetric, whatever the patterns. */
  lemma TrainSymmetric(patterns: seq<seq<int>>, n: nat, i: nat, j: nat)
    requires i < n && j < n
    ensures Train(patterns, n)[i][j] == Train(patterns, n)[j][i]
  {
    HebbSumSymmetric(patterns, i, j);
  }

  /**
   With at least one pattern the diagonal is 0 and, when every pattern covers
   the network, w[i][j] is (1/P) times the sum over the patterns of
   (2 p[i] - 1)(2 p[j] - 1). With no pattern every weight is NaN.
   */
  lemma TrainFormula(patterns: seq<seq<int>>, n: nat, i: nat, j: nat)
    requires i < n && j < n
    ensures |patterns| == 0 ==> Train(patterns, n)[i][j] == NaN
    ensures |patterns| > 0 ==> Train(patterns, n)[i][i] == Real(0.0)
    ensures |patterns| > 0 && i != j && (forall k :: 0 <= k < |patterns| ==> |patterns[k]| >= n) ==>
              Train(patterns, n)[i][j] == Real(HebbInt(patterns, i, j) as real / |patterns| as real)
  {
    HebbSumDiagonal(patterns, i);
    if |patterns| > 0 && i != j && (forall k :: 0 <= k < |patterns| ==> |patterns[k]| >= n) {
      HebbSumIsInt(patterns, i, j);
    }
  }

  // ---------------------------------------------------------------- recall

  /** `current[i]`, or `undefined` past the end of the array. */
  function ReadCell(a: seq<int>, i: nat): int {
    if i < |a| then a[i] else Undefined
  }

  /** The sum over the first k columns of `w[i][j] * (current[j] * 2 - 1)`. */
  function FieldFirst(w: Matrix, n: nat, a: seq<int>, i: nat, k: nat): Num
    requires IsSquare(w, n) && i < n && k <= n
  {
    if k == 0 then Real(0.0) else Add(FieldFirst(w, n, a, i, k - 1), Mul(w[i][k - 1], SpinAt(a, k - 1)))
  }

  /** `sum >= 0 ? 1 : 0` for unit i: a NaN field gives 0. */
  function NewValue(w: Matrix, n: nat, a: seq<int>, i: nat): (v: int)
    requires IsSquare(w, n) && i < n
    ensures v == 0 || v == 1
    ensures v == 1 <==> AtLeastZero(FieldFirst(w, n, a, i, n))
  {
    if AtLeastZero(FieldFirst(w, n, a, i, n)) then 1 else 0
  }

  /**
   One unit of a sweep: when the new value differs from `current[i]` it is
   written and the sweep counts as changed. Past the end of the array the
   read is `undefined`, so it always differs, and the write is dropped.
   */
  function Visit(w: Matrix, n: nat, a: seq<int>, i: nat): (r: (seq<int>, bool))
    requires IsSquare(w, n) && i < n
    ensures |r.0| == |a|
    ensures r.1 <==> NewValue(w, n, a, i) != ReadCell(a, i)
    ensures !r.1 ==> r.0 == a
    ensures forall k :: 0 <= k < |a| && k != i ==> r.0[k] == a[k]
    ensures i < |a| ==> r.0[i] == NewValue(w, n, a, i)
  {
    var v := NewValue(w, n, a, i);
    if v == ReadCell(a, i) then (a, false)
    else if i < |a| then (a[i := v], true)
    else (a, true)
  }

  predicate InUnits(order: seq<nat>, n: nat) {
    forall k :: 0 <= k < |order| ==> order[k] < n
  }

  /** `for (const i of indices)`: the units visited in `order`, each seeing the writes before it. */
  function Sweep(w: Matrix, n: nat, a: seq<int>, order: seq<nat>): (r: (seq<int>, bool))
    requires IsSquare(w, n) && InUnits(order, n)
    ensures |r.0| == |a|
    decreases |order|
  {
    if |order| == 0 then (a, false)
    else
      var v := Visit(w, n, a, order[0]);
      var rest := Sweep(w, n, v.0, order[1..]);
      (rest.0, v.1 || rest.1)
  }

  /** Every unit already holds the value its field gives it. */
  predicate Stable(w: Matrix, n: nat, a: seq<int>)
    requires IsSquare(w, n)
  {
    forall i :: 0 <= i < n ==> NewValue(w, n, a, i) == ReadCell(a, i)
  }

  /**
   A sweep reports no change exactly when every unit it visits already holds
   its new value, and then it leaves the state as it was.
   */
  lemma {:induction false} SweepQuietIff(w: Matrix, n: nat, a: seq<int>, order: seq<nat>)
    requires IsSquare(w, n) && InUnits(order, n)
    ensures !Sweep(w, n, a, order).1 <==>
              forall k :: 0 <= k < |order| ==> NewValue(w, n, a, order[k]) == ReadCell(a, order[k])
    ensures !Sweep(w, n, a, order).1 ==> Sweep(w, n, a, order).0 == a
    decreases |order|
  {
    if |order| > 0 {
      var v := Visit(w, n, a, order[0]);
      SweepQuietIff(w, n, v.0, order[1..]);
      if !v.1 {
        assert forall k :: 1 <= k < |order| ==> order[1..][k - 1] == order[k];
      }
    }
  }

  /** A sweep leaves a 0/1 cell a 0/1 cell. */
  lemma {:induction false} SweepKeepsBinary(w: Matrix, n: nat, a: seq<int>, order: seq<nat>, c: nat)
    requires IsSquare(w, n) && InUnits(order, n)
    requires c < |a| && (a[c] == 0 || a[c] == 1)
    ensures Sweep(w, n, a, order).0[c] == 0 || Sweep(w, n, a, order).0[c] == 1
    decreases |order|
  {
    if |order| > 0 {
      SweepKeepsBinary(w, n, Visit(w, n, a, order[0]).0, order[1..], c);
    }
  }

  /** After a sweep every visited unit inside the array holds 0 or 1. */
  lemma {:induction false} SweepVisitedBinary(w: Matrix, n: nat, a: seq<int>, order: seq<nat>, k: nat)
    requires IsSquare(w, n) && InUnits(order, n)
    requires k < |order| && order[k] < |a|
    ensures Sweep(w, n, a, order).0[order[k]] == 0 || Sweep(w, n, a, order).0[order[k]] == 1
    decreases |order|
  {
    var v := Visit(w, n, a, order[0]);
    if k == 0 {
      SweepKeepsBinary(w, n, v.0, order[1..], order[0]);
    } else {
      SweepVisitedBinary(w, n, v.0, order[1..], k - 1);
    }
  }

  // ---------------------------------------------------------------- shuffle

  function Range(n: nat): (r: seq<nat>)
    ensures |r| == n && forall i :: 0 <= i < n ==> r[i] == i
  {
    seq(n, (i: int) requires 0 <= i => i)
  }

  /** `Math.random()` returns values in [0, 1). */
  ghost predicate DrawsInRange(draw: nat -> real) {
    forall k :: 0.0 <= draw(k) < 1.0
  }

  /** `Math.floor(Math.random() * (i + 1))`: an index in 0..i. */
  function PickIndex(d: real, i: nat): (j: nat)
    requires 0.0 <= d < 1.0
    ensures j <= i
  {
    var m := (i + 1) as real;
    var x := d * m;
    Positive(1.0 - d, m);
    assert m - x == (1.0 - d) * m;
    assert x >= 0.0 && x < m;
    x.Floor
  }

  lemma Positive(a: real, b: real)
    requires a > 0.0 && b > 0.0
    ensures a * b > 0.0
  {
  }

  function Swap(s: seq<nat>, i: nat, j: nat): (r: seq<nat>)
    requires i < |s| && j < |s|
    ensures |r| == |s| && multiset(r) == multiset(s)
  {
    s[i := s[j]][j := s[i]]
  }

  /** The Fisher-Yates loop from index i down to 1; `draw(i)` is the random value drawn at i. */
  function ShuffleFrom(s: seq<nat>, i: nat, draw: nat -> real): (r: seq<nat>)
    requires i < |s| && DrawsInRange(draw)
    ensures |r| == |s| && multiset(r) == multiset(s)
    decreases i
  {
    if i == 0 then s else ShuffleFrom(Swap(s, i, PickIndex(draw(i), i)), i - 1, draw)
  }

  /** `shuffle(arr)`: a permutation of its input. */
  function Shuffle(s: seq<nat>, draw: nat -> real): (r: seq<nat>)
    requires DrawsInRange(draw)
    ensures |r| == |s| && multiset(r) == multiset(s)
  {
    if |s| == 0 then s else ShuffleFrom(s, |s| - 1, draw)
  }

  /** A shuffled `[0, …, n-1]` holds every unit exactly once. */
  lemma ShuffledUnits(n: nat, draw: nat -> real)
    requires DrawsInRange(draw)
    ensures InUnits(Shuffle(Range(n), draw), n)
    ensures forall i :: 0 <= i < n ==> i in Shuffle(Range(n), draw)
    ensures forall i :: 0 <= i < n ==> multiset(Shuffle(Range(n), draw))[i] == 1
  {
    var r := Shuffle(Range(n), draw);
    forall k | 0 <= k < |r|
      ensures r[k] < n
    {
      assert r[k] in multiset(r);
      assert r[k] in multiset(Range(n));
    }
    forall i | 0 <= i < n
      ensures i in r && multiset(r)[i] == 1
    {
      RangeCount(n, i);
      assert i in multiset(r);
    }
  }

  lemma {:induction false} RangeCount(n: nat, i: nat)
    requires i < n
    ensures multiset(Range(n))[i] == 1
  {
    if n - 1 == i {
      assert Range(n) == Range(n - 1) + [n - 1];
      RangeAbsent(n - 1, i);
    } else {
      assert Range(n) == Range(n - 1) + [n - 1];
      RangeCount(n - 1, i);
    }
  }

  lemma RangeAbsent(n: nat, i: nat)
    requires i >= n
    ensures multiset(Range(n))[i] == 0
  {
    assert i !in Range(n);
  }

  /** A sweep over a permutation of all units is quiet exactly when the state is stable. */
  lemma QuietSweepIsStable(w: Matrix, n: nat, a: seq<int>, order: seq<nat>)
    requires IsSquare(w, n) && InUnits(order, n)
    requires forall i :: 0 <= i < n ==> i in order
    ensures !Sweep(w, n, a, order).1 <==> Stable(w, n, a)
  {
    SweepQuietIff(w, n, a, order);
    if !Sweep(w, n, a, order).1 {
      forall i | 0 <= i < n
        ensures NewValue(w, n, a, i) == ReadCell(a, i)
      {
        assert i in order;
        var k :| 0 <= k < |order| && order[k] == i;
      }
    }
  }

  // ---------------------------------------------------------------- the recall loop

  /** The draws of sweep `step`. */
  ghost predicate AllDrawsInRange(draw: (nat, nat) -> real) {
    forall step, k :: 0.0 <= draw(step, k) < 1.0
  }

  /** The visiting order of sweep `step`. */
  function OrderAt(n: nat, step: nat, draw: (nat, nat) -> real): (order: seq<nat>)
    requires AllDrawsInRange(draw)
    ensures InUnits(order, n) && forall i :: 0 <= i < n ==> i in order
  {
    var d := (k: nat) => draw(step, k);
    assert DrawsInRange(d) by {
      forall k: nat ensures 0.0 <= d(k) < 1.0 {
        assert d(k) == draw(step, k);
      }
    }
    ShuffledUnits(n, d);
    Shuffle(Range(n), d)
  }

  /**
   `for (let step = 0; step < maxSteps; step++) { … if (!changed) break; }`
   from sweep `step` on; the result is the final state and the number of
   sweeps run in total.
   */
  function RecallLoop(w: Matrix, n: nat, a: seq<int>, step: nat, maxSteps: nat, draw: (nat, nat) -> real)
    : (r: (seq<int>, nat))
    requires IsSquare(w, n) && AllDrawsInRange(draw)
    ensures |r.0| == |a|
    ensures step <= maxSteps ==> step <= r.1 <= maxSteps
    ensures r.1 < maxSteps ==> Stable(w, n, r.0)
    decreases maxSteps - step
  {
    if step >= maxSteps then (a, step)
    else
      var order := OrderAt(n, step, draw);
      var s := Sweep(w, n, a, order);
      QuietSweepIsStable(w, n, a, order);
      SweepQuietIff(w, n, a, order);
      if !s.1 then (s.0, step + 1) else RecallLoop(w, n, s.0, step + 1, maxSteps, draw)
  }

  /** `recallSync(state, maxSteps)`: the state after the sweeps, from a byte copy of the input. */
  function RecallSync(w: Matrix, n: nat, state: seq<int>, maxSteps: nat, draw: (nat, nat) -> real): (r: seq<int>)
    requires IsSquare(w, n) && AllDrawsInRange(draw)
    ensures |r| == |state|
  {
    RecallLoop(w, n, ToBytes(state), 0, maxSteps, draw).0
  }

  /** The loop never runs more than `maxSteps` sweeps, and stops early only on a stable state. */
  lemma RecallBounded(w: Matrix, n: nat, a: seq<int>, maxSteps: nat, draw: (nat, nat) -> real)
    requires IsSquare(w, n) && AllDrawsInRange(draw)
    ensures RecallLoop(w, n, a, 0, maxSteps, draw).1 <= maxSteps
    ensures RecallLoop(w, n, a, 0, maxSteps, draw).1 < maxSteps ==> Stable(w, n, RecallLoop(w, n, a, 0, maxSteps, draw).0)
  {
  }

  /** A stable state is returned unchanged after one sweep, or at once when no sweep is allowed. */
  lemma RecallOfStable(w: Matrix, n: nat, a: seq<int>, step: nat, maxSteps: nat, draw: (nat, nat) -> real)
    requires IsSquare(w, n) && AllDrawsInRange(draw) && Stable(w, n, a)
    ensures RecallLoop(w, n, a, step, maxSteps, draw).0 == a
    ensures RecallLoop(w, n, a, step, maxSteps, draw).1 == if step >= maxSteps then step else step + 1
  {
    if step < maxSteps {
      var order := OrderAt(n, step, draw);
      QuietSweepIsStable(w, n, a, order);
      SweepQuietIff(w, n, a, order);
    }
  }

  /** A sweep that visits every unit leaves every unit inside the array 0 or 1. */
  lemma SweepAllBinary(w: Matrix, n: nat, a: seq<int>, order: seq<nat>)
    requires IsSquare(w, n) && InUnits(order, n)
    requires forall i :: 0 <= i < n ==> i in order
    ensures forall i :: 0 <= i < n && i < |a| ==> Sweep(w, n, a, order).0[i] == 0 || Sweep(w, n, a, order).0[i] == 1
  {
    forall i | 0 <= i < n && i < |a|
      ensures Sweep(w, n, a, order).0[i] == 0 || Sweep(w, n, a, order).0[i] == 1
    {
      assert i in order;
      var k :| 0 <= k < |order| && order[k] == i;
      SweepVisitedBinary(w, n, a, order, k);
    }
  }

  /** After at least one sweep every unit inside the array holds 0 or 1. */
  lemma {:induction false} RecallBinary(w: Matrix, n: nat, a: seq<int>, step: nat, maxSteps: nat, draw: (nat, nat) -> real)
    requires IsSquare(w, n) && AllDrawsInRange(draw) && step < maxSteps
    ensures forall i :: 0 <= i < n && i < |a| ==>
              RecallLoop(w, n, a, step, maxSteps, draw).0[i] == 0 || RecallLoop(w, n, a, step, maxSteps, draw).0[i] == 1
    decreases maxSteps - step
  {
    var order := OrderAt(n, step, draw);
    var s := Sweep(w, n, a, order);
    SweepAllBinary(w, n, a, order);
    if s.1 && step + 1 < maxSteps {
      RecallBinary(w, n, s.0, step + 1, maxSteps, draw);
      assert RecallLoop(w, n, a, step, maxSteps, draw) == RecallLoop(w, n, s.0, step + 1, maxSteps, draw);
    } else {
      assert RecallLoop(w, n, a, step, maxSteps, draw).0 == s.0;
    }
  }

  // ---------------------------------------------------------------- weights that decide alone

  /** Every unit of a state of length `len` gets the value c, whatever the cells hold. */
  ghost predicate Forces(w: Matrix, n: nat, len: nat, c: int)
    requires IsSquare(w, n)
  {
    forall a: seq<int>, i :: |a| == len && 0 <= i < n ==> NewValue(w, n, a, i) == c
  }

  /** Under forcing weights a sweep leaves a cell holding c at c. */
  lemma {:induction false} SweepKeepsForced(w: Matrix, n: nat, c: int, a: seq<int>, order: seq<nat>, x: nat)
    requires IsSquare(w, n) && InUnits(order, n) && Forces(w, n, |a|, c)
    requires x < |a| && a[x] == c
    ensures Sweep(w, n, a, order).0[x] == c
    decreases |order|
  {
    if |order| > 0 {
      var v := Visit(w, n, a, order[0]);
      assert NewValue(w, n, a, order[0]) == c;
      SweepKeepsForced(w, n, c, v.0, order[1..], x);
    }
  }

  /** Under forcing weights a sweep sets every visited cell inside the array to c. */
  lemma {:induction false} SweepSetsForced(w: Matrix, n: nat, c: int, a: seq<int>, order: seq<nat>, k: nat)
    requires IsSquare(w, n) && InUnits(order, n) && Forces(w, n, |a|, c)
    requires k < |order| && order[k] < |a|
    ensures Sweep(w, n, a, order).0[order[k]] == c
    decreases |order|
  {
    var v := Visit(w, n, a, order[0]);
    if k == 0 {
      assert NewValue(w, n, a, order[0]) == c;
      SweepKeepsForced(w, n, c, v.0, order[1..], order[0]);
    } else {
      SweepSetsForced(w, n, c, v.0, order[1..], k - 1);
    }
  }

  /** Under forcing weights, after at least one sweep every unit inside the array holds c. */
  lemma {:induction false} RecallForced(w: Matrix, n: nat, c: int, a: seq<int>, step: nat, maxSteps: nat, draw: (nat, nat) -> real)
    requires IsSquare(w, n) && AllDrawsInRange(draw) && Forces(w, n, |a|, c) && step < maxSteps
    ensures forall i :: 0 <= i < n && i < |a| ==> RecallLoop(w, n, a, step, maxSteps, draw).0[i] == c
    decreases maxSteps - step
  {
    var order := OrderAt(n, step, draw);
    var s := Sweep(w, n, a, order);
    forall i | 0 <= i < n && i < |a|
      ensures s.0[i] == c
    {
      assert i in order;
      var k :| 0 <= k < |order| && order[k] == i;
      SweepSetsForced(w, n, c, a, order, k);
    }
    if s.1 && step + 1 < maxSteps {
      RecallForced(w, n, c, s.0, step + 1, maxSteps, draw);
      assert RecallLoop(w, n, a, step, maxSteps, draw) == RecallLoop(w, n, s.0, step + 1, maxSteps, draw);
    } else {
      assert RecallLoop(w, n, a, step, maxSteps, draw).0 == s.0;
    }
  }

  /** The all-zero weights of a fresh `Float32Array`. */
  function Zeros(n: nat): (w: Matrix)
    ensures IsSquare(w, n)
    ensures forall i, j :: 0 <= i < n && 0 <= j < n ==> w[i][j] == Real(0.0)
  {
    seq(n, _ => seq(n, _ => Real(0.0)))
  }

  lemma {:induction false} ZeroField(n: nat, a: seq<int>, i: nat, k: nat)
    requires i < n && k <= n
    ensures FieldFirst(Zeros(n), n, a, i, k) == if k <= |a| then Real(0.0) else NaN
  {
    if k > 0 {
      ZeroField(n, a, i, k - 1);
    }
  }

  /**
   Untrained weights are all 0, so every field is 0 and `0 >= 0` sets every
   unit to 1; a state shorter than the network reads `undefined`, its field
   is NaN, and every unit is set to 0.
   */
  lemma ZeroWeightsForce(n: nat, len: nat)
    ensures Forces(Zeros(n), n, len, if len >= n then 1 else 0)
  {
    forall a: seq<int>, i | |a| == len && 0 <= i < n
      ensures NewValue(Zeros(n), n, a, i) == if len >= n then 1 else 0
    {
      ZeroField(n, a, i, n);
    }
  }

  lemma {:induction false} NaNField(w: Matrix, n: nat, a: seq<int>, i: nat, k: nat)
    requires IsSquare(w, n) && i < n && k <= n
    requires forall j :: 0 <= j < n ==> w[i][j] == NaN
    ensures k > 0 ==> FieldFirst(w, n, a, i, k) == NaN
  {
    if k > 0 {
      NaNField(w, n, a, i, k - 1);
    }
  }

  /** Weights trained on no pattern are NaN, every field is NaN, and every unit is set to 0. */
  lemma NoPatternForcesZero(n: nat, len: nat)
    requires n > 0
    ensures Forces(Train([], n), n, len, 0)
  {
    var w := Train([], n);
    forall a: seq<int>, i | |a| == len && 0 <= i < n
      ensures NewValue(w, n, a, i) == 0
    {
      forall j | 0 <= j < n
        ensures w[i][j] == NaN
      {
        TrainFormula([], n, i, j);
      }
      NaNField(w, n, a, i, n);
    }
  }

  // ---------------------------------------------------------------- one stored pattern

  predicate IsBinary(p: seq<int>) {
    forall i :: 0 <= i < |p| ==> p[i] == 0 || p[i] == 1
  }

  /** The spin of a 0/1 cell as a real, without multiplication. */
  function Sign(b: int): real {
    if b == 1 then 1.0 else -1.0
  }

  /** The weights trained on one 0/1 pattern: +1 where the two cells agree, -1 where they differ, 0 on the diagonal. */
  lemma SinglePatternWeight(p: seq<int>, n: nat, i: nat, j: nat)
    requires IsBinary(p) && |p| == n && i < n && j < n
    ensures Train([p], n)[i][j] == if i == j then Real(0.0) else Real(if p[i] == p[j] then 1.0 else -1.0)
  {
    var ps := [p];
    assert ps[..|ps| - 1] == [] && ps[|ps| - 1] == p;
    assert HebbSum([], i, j) == Real(0.0);
    var h := HebbSum(ps, i, j);
    assert Train([p], n)[i][j] == Scaled(h, 1);
    if i == j {
      assert h == Real(0.0);
    } else {
      assert SpinAt(p, i) == Real(Sign(p[i]));
      assert SpinAt(p, j) == Real(Sign(p[j]));
      assert h == Real(if p[i] == p[j] then 1.0 else -1.0);
    }
  }

  /** For one 0/1 pattern, the field of unit i at that pattern over the first k columns: each other column adds the spin of i. */
  lemma {:induction false} SinglePatternField(p: seq<int>, n: nat, i: nat, k: nat)
    requires IsBinary(p) && |p| == n && i < n && k <= n
    ensures FieldFirst(Train([p], n), n, p, i, k) == Real(Sign(p[i]) * (if i < k then k - 1 else k) as real)
  {
    if k > 0 {
      SinglePatternField(p, n, i, k - 1);
      var j := k - 1;
      SinglePatternWeight(p, n, i, j);
      assert SpinAt(p, j) == Real(Sign(p[j]));
    }
  }

  /** One stored 0/1 pattern over N >= 2 units is a stable state of its own weights. */
  lemma SinglePatternStable(p: seq<int>, n: nat)
    requires IsBinary(p) && |p| == n && n >= 2
    ensures Stable(Train([p], n), n, p)
  {
    forall i | 0 <= i < n
      ensures NewValue(Train([p], n), n, p, i) == ReadCell(p, i)
    {
      SinglePatternField(p, n, i, n);
    }
  }

  /** Recalling the one stored 0/1 pattern returns it unchanged. */
  lemma SinglePatternRecall(p: seq<int>, n: nat, maxSteps: nat, draw: (nat, nat) -> real)
    requires IsBinary(p) && |p| == n && n >= 2 && AllDrawsInRange(draw)
    ensures RecallSync(Train([p], n), n, p, maxSteps, draw) == p
  {
    ToBytesOfBytes(p);
    SinglePatternStable(p, n);
    RecallOfStable(Train([p], n), n, p, 0, maxSteps, draw);
  }
}

=== FILE: hopfield_memory.dfy ===
/**
 `src/memory/hopfieldMemoryEngine.js`: the Hopfield engine behind the same
 `store`/`recall` interface as the CA engine. The closure state is the
 size, the weight array and the stored copies.
 */
module HopfieldMemory {
  import opened Wrappers
  import opened JsNumbers
  import opened JsFloat
  import opened HopfieldCore
  import opened RecallCommon

  const DefaultWidth: nat := 32
  const DefaultHeight: nat := 32
  const DefaultMaxSteps: nat := 100

  datatype Engine = Engine(size: nat, weights: Matrix, stored: seq<seq<int>>)

  predicate Valid(e: Engine) {
    IsSquare(e.weights, e.size)
  }

  /** `create({ width, height })`: `width * height` units, all weights 0, nothing stored. */
  function Create(width: Option<nat>, height: Option<nat>): (e: Engine)
    ensures Valid(e)
    ensures e.size == width.GetOr(DefaultWidth) * height.GetOr(DefaultHeight)
    ensures e.stored == []
    ensures forall i, j :: 0 <= i < e.size && 0 <= j < e.size ==> e.weights[i][j] == Real(0.0)
  {
    var n := width.GetOr(DefaultWidth) * height.GetOr(DefaultHeight);
    Engine(n, Zeros(n), [])
  }

  /** `store(patterns)`: byte copies replace the stored set, then `train` rebuilds the weights from zero. */
  function Store(e: Engine, patterns: seq<seq<int>>): (e': Engine)
    ensures Valid(e') && e'.size == e.size
    ensures |e'.stored| == |patterns|
    ensures forall k :: 0 <= k < |patterns| ==> e'.stored[k] == ToBytes(patterns[k])
    ensures e'.weights == Train(e'.stored, e.size)
  {
    var copies := seq(|patterns|, (k: int) requires 0 <= k < |patterns| => ToBytes(patterns[k]));
    Engine(e.size, Train(copies, e.size), copies)
  }

  /** Only the last `store` matters: the previous patterns and weights leave no trace. */
  lemma StoreForgets(e: Engine, first: seq<seq<int>>, second: seq<seq<int>>)
    ensures Store(Store(e, first), second) == Store(e, second)
  {
  }

  /**
   `recall(noisyPattern, { maxSteps, maxDiffRatio })`. `draw(step, i)` is
   the `Math.random()` value the shuffle of sweep `step` draws at index i.
   */
  function Recall(e: Engine, noisy: seq<int>, maxSteps: Option<nat>, maxDiffRatio: Option<real>,
                  draw: (nat, nat) -> real): (r: RecallResult)
    requires Valid(e) && AllDrawsInRange(draw)
    ensures r.stepsUsed == maxSteps.GetOr(DefaultMaxSteps)
    ensures r.final == RecallSync(e.weights, e.size, ToBytes(noisy), r.stepsUsed, draw)
    ensures |r.final| == |noisy|
    ensures r.distance.Infinity? <==> |e.stored| == 0
    ensures forall k :: 0 <= k < |e.stored| ==> r.distance.AtMost(Finite(HammingDist(r.final, e.stored[k])))
    ensures r.distance.Finite? ==> exists k :: 0 <= k < |e.stored| && r.distance.d == HammingDist(r.final, e.stored[k])
    ensures r.success <==> Succeeds(r.distance, |noisy|, maxDiffRatio.GetOr(DefaultMaxDiffRatio))
  {
    var steps := maxSteps.GetOr(DefaultMaxSteps);
    var recalled := RecallSync(e.weights, e.size, ToBytes(noisy), steps, draw);
    var dist := MinDistance(recalled, e.stored);
    RecallResult(recalled, Succeeds(dist, |noisy|, maxDiffRatio.GetOr(DefaultMaxDiffRatio)), dist, steps)
  }

  /** Copying the probe twice, as `recall` and `recallSync` both do, is copying it once. */
  lemma BytesTwice(p: seq<int>)
    ensures ToBytes(ToBytes(p)) == ToBytes(p)
  {
    ToBytesOfBytes(ToBytes(p));
  }

  /** Recalling the one stored 0/1 pattern returns it unchanged. */
  lemma SinglePatternFinal(e: Engine, p: seq<int>, maxSteps: Option<nat>, ratio: Option<real>, draw: (nat, nat) -> real)
    requires Valid(e) && AllDrawsInRange(draw)
    requires IsBinary(p) && |p| == e.size && e.size >= 2
    ensures Store(e, [p]).stored == [p]
    ensures Recall(Store(e, [p]), p, maxSteps, ratio, draw).final == p
  {
    var e' := Store(e, [p]);
    ToBytesOfBytes(p);
    var steps := maxSteps.GetOr(DefaultMaxSteps);
    SinglePatternRecall(p, e.size, steps, draw);
  }

  /** Storing one 0/1 pattern over at least 2 units and recalling it gives it back at distance 0. */
  lemma SinglePatternRecalled(e: Engine, p: seq<int>, maxSteps: Option<nat>, ratio: Option<real>, draw: (nat, nat) -> real)
    requires Valid(e) && AllDrawsInRange(draw)
    requires IsBinary(p) && |p| == e.size && e.size >= 2
    ensures Recall(Store(e, [p]), p, maxSteps, ratio, draw).final == p
    ensures Recall(Store(e, [p]), p, maxSteps, ratio, draw).distance == Finite(0)
    ensures ratio.GetOr(DefaultMaxDiffRatio) >= 0.0 ==> Recall(Store(e, [p]), p, maxSteps, ratio, draw).success
  {
    SinglePatternFinal(e, p, maxSteps, ratio, draw);
    var r := Recall(Store(e, [p]), p, maxSteps, ratio, draw);
    HammingSelf(p);
    assert r.distance.AtMost(Finite(HammingDist(p, p)));
    if ratio.GetOr(DefaultMaxDiffRatio) >= 0.0 {
      ExactSucceeds(|p|, ratio.GetOr(DefaultMaxDiffRatio));
    }
  }

  lemma {:induction false} HammingSelf(p: seq<int>)
    ensures HammingDist(p, p) == 0
  {
    if |p| > 0 {
      HammingSelfPrefix(p[..|p| - 1], p);
    }
  }

  lemma {:induction false} HammingSelfPrefix(a: seq<int>, p: seq<int>)
    requires a <= p
    ensures HammingDist(a, p) == 0
  {
    if |a| > 0 {
      HammingSelfPrefix(a[..|a| - 1], p);
    }
  }

  /**
   With no pattern stored the weights are NaN: after at least one sweep every
   unit the probe covers is 0, and recall never succeeds.
   */
  lemma EmptyStoreRecall(e: Engine, noisy: seq<int>, maxSteps: Option<nat>, ratio: Option<real>, draw: (nat, nat) -> real)
    requires Valid(e) && e.size > 0 && AllDrawsInRange(draw)
    requires maxSteps.GetOr(DefaultMaxSteps) > 0
    ensures forall i :: 0 <= i < e.size && i < |noisy| ==> Recall(Store(e, []), noisy, maxSteps, ratio, draw).final[i] == 0
    ensures !Recall(Store(e, []), noisy, maxSteps, ratio, draw).success
  {
    var e' := Store(e, []);
    NoPatternForcesZero(e.size, |noisy|);
    BytesTwice(noisy);
    var steps := maxSteps.GetOr(DefaultMaxSteps);
    RecallForced(e'.weights, e.size, 0, ToBytes(noisy), 0, steps, draw);
    assert RecallSync(e'.weights, e.size, ToBytes(noisy), steps, draw) == RecallLoop(e'.weights, e.size, ToBytes(noisy), 0, steps, draw).0;
  }

  /**
   Before any `store` the weights are all 0, every field is `0 >= 0`, and a
   probe covering the network comes back all ones.
   */
  lemma FreshEngineRecallsOnes(width: Option<nat>, height: Option<nat>, noisy: seq<int>, maxSteps: Option<nat>,
                               ratio: Option<real>, draw: (nat, nat) -> real)
    requires AllDrawsInRange(draw) && maxSteps.GetOr(DefaultMaxSteps) > 0
    requires |noisy| >= Create(width, height).size
    ensures forall i :: 0 <= i < Create(width, height).size ==> Recall(Create(width, height), noisy, maxSteps, ratio, draw).final[i] == 1
  {
    var e := Create(width, height);
    ZeroWeightsForce(e.size, |noisy|);
    assert e.weights == Zeros(e.size);
    BytesTwice(noisy);
    var steps := maxSteps.GetOr(DefaultMaxSteps);
    RecallForced(e.weights, e.size, 1, ToBytes(noisy), 0, steps, draw);
    assert RecallSync(e.weights, e.size, ToBytes(noisy), steps, draw) == RecallLoop(e.weights, e.size, ToBytes(noisy), 0, steps, draw).0;
  }
}

=== FILE: hopfield_network.dfy ===
/**
 `experiments/memory-ai-lab/hopfield/hopfield.js`: the `HopfieldNetwork`
 class. Unlike the memory engine it checks sizes and throws, and a throw in
 the middle of `train` leaves the weights as far as the loops got.
 */
module HopfieldNetwork {
  import opened Wrappers
  import opened JsNumbers
  import opened JsFloat
  import opened HopfieldCore

  const DefaultMaxSteps: nat := 100

  datatype Network = Network(size: nat, weights: Matrix)

  predicate Valid(net: Network) {
    IsSquare(net.weights, net.size)
  }

  /** What a call leaves behind: it returned, or it threw after bringing the object to `net`. */
  datatype Outcome = Done(net: Network) | Threw(error: Error, net: Network)

  const NoPatternsMessage: string := "Aucun pattern fourni"

  function PatternSizeMessage(length: nat, size: nat): string {
    "Pattern de taille " + DecimalString(length) + " incompatible avec réseau de taille " + DecimalString(size)
  }

  function StateSizeMessage(length: nat, size: nat): string {
    "État de taille " + DecimalString(length) + " incompatible avec réseau de taille " + DecimalString(size)
  }

  /** `new HopfieldNetwork(size)`: all weights 0. */
  function New(size: nat): (net: Network)
    ensures Valid(net) && net.size == size
    ensures forall i, j :: 0 <= i < size && 0 <= j < size ==> net.weights[i][j] == Real(0.0)
  {
    Network(size, Zeros(size))
  }

  /** Index of the first pattern whose length is not `size`, or |patterns| when there is none. */
  function FirstMismatch(patterns: seq<seq<int>>, size: nat): (k: nat)
    ensures k <= |patterns|
    ensures forall j :: 0 <= j < k ==> |patterns[j]| == size
    ensures k < |patterns| ==> |patterns[k]| != size
    decreases |patterns|
  {
    if |patterns| == 0 || |patterns[0]| != size then 0
    else 1 + FirstMismatch(patterns[1..], size)
  }

  /**
   `train(patterns)`. An empty list throws before the weights are touched.
   Otherwise the weights are zeroed and the patterns accumulated in order;
   the first pattern of the wrong length throws, leaving the sums of the
   patterns before it, unscaled.
   */
  function Train(net: Network, patterns: seq<seq<int>>): (o: Outcome)
    requires Valid(net)
    ensures Valid(o.net) && o.net.size == net.size
    ensures |patterns| == 0 ==> o == Threw(Error(RuntimeError, NoPatternsMessage), net)
    ensures o.Done? <==> |patterns| > 0 && forall k :: 0 <= k < |patterns| ==> |patterns[k]| == net.size
    ensures o.Done? ==> o.net.weights == HopfieldCore.Train(patterns, net.size)
    ensures |patterns| > 0 && o.Threw? ==>
              var k := FirstMismatch(patterns, net.size);
              k < |patterns| &&
              o.error == Error(RuntimeError, PatternSizeMessage(|patterns[k]|, net.size)) &&
              o.net.weights == Accumulate(patterns[..k], net.size)
  {
    if |patterns| == 0 then Threw(Error(RuntimeError, NoPatternsMessage), net)
    else
      var k := FirstMismatch(patterns, net.size);
      if k < |patterns| then
        Threw(Error(RuntimeError, PatternSizeMessage(|patterns[k]|, net.size)),
              Network(net.size, Accumulate(patterns[..k], net.size)))
      else
        Done(Network(net.size, HopfieldCore.Train(patterns, net.size)))
  }

  /**
   A successful `train` yields symmetric weights with a zero diagonal, and
   w[i][j] = (1/P) times the sum of (2 p[i] - 1)(2 p[j] - 1).
   */
  lemma TrainedWeights(net: Network, patterns: seq<seq<int>>, i: nat, j: nat)
    requires Valid(net) && Train(net, patterns).Done? && i < net.size && j < net.size
    ensures Train(net, patterns).net.weights[i][j] == Train(net, patterns).net.weights[j][i]
    ensures Train(net, patterns).net.weights[i][i] == Real(0.0)
    ensures i != j ==> Train(net, patterns).net.weights[i][j] == Real(HebbInt(patterns, i, j) as real / |patterns| as real)
  {
    HopfieldCore.TrainSymmetric(patterns, net.size, i, j);
    HopfieldCore.TrainFormula(patterns, net.size, i, j);
  }

  /** When the very first pattern has the wrong size, the old weights are lost and all are left 0. */
  lemma FirstPatternWrongSize(net: Network, patterns: seq<seq<int>>)
    requires Valid(net) && |patterns| > 0 && |patterns[0]| != net.size
    ensures Train(net, patterns).Threw?
    ensures Train(net, patterns).net == New(net.size)
  {
    assert FirstMismatch(patterns, net.size) == 0;
    assert patterns[..0] == [];
    var w := Accumulate([], net.size);
    var z := Zeros(net.size);
    forall i | 0 <= i < net.size
      ensures w[i] == z[i]
    {
      assert forall j :: 0 <= j < net.size ==> w[i][j] == Real(0.0) == z[i][j];
    }
    assert w == z;
  }

  lemma SweptIsBinary(w: Matrix, n: nat, a: seq<int>, steps: nat, draw: (nat, nat) -> real)
    requires IsSquare(w, n) && AllDrawsInRange(draw) && |a| == n
    ensures steps > 0 ==> IsBinary(RecallLoop(w, n, a, 0, steps, draw).0)
  {
    if steps > 0 {
      RecallBinary(w, n, a, 0, steps, draw);
    }
  }

  /**
   `recall(state, maxSteps)`: a state of the wrong length throws; otherwise
   the sweeps run on a byte copy of it.
   */
  function Recall(net: Network, state: seq<int>, maxSteps: Option<nat>, draw: (nat, nat) -> real): (r: Result<seq<int>>)
    requires Valid(net) && AllDrawsInRange(draw)
    ensures r.Err? <==> |state| != net.size
    ensures r.Err? ==> r.error == Error(RuntimeError, StateSizeMessage(|state|, net.size))
    ensures r.Ok? ==> |r.value| == net.size
    ensures r.Ok? && maxSteps.GetOr(DefaultMaxSteps) > 0 ==> IsBinary(r.value)
    ensures r.Ok? ==>
              var run := RecallLoop(net.weights, net.size, ToBytes(state), 0, maxSteps.GetOr(DefaultMaxSteps), draw);
              r.value == run.0 && (run.1 < maxSteps.GetOr(DefaultMaxSteps) ==> Stable(net.weights, net.size, r.value))
  {
    if |state| != net.size then Err(Error(RuntimeError, StateSizeMessage(|state|, net.size)))
    else
      var steps := maxSteps.GetOr(DefaultMaxSteps);
      SweptIsBinary(net.weights, net.size, ToBytes(state), steps, draw);
      Ok(RecallSync(net.weights, net.size, state, steps, draw))
  }
}

=== FILE: js_float.dfy ===
/**
 JavaScript arithmetic on numbers that may be NaN. Finite values are
 exact reals here; the 32-bit rounding of a `Float32Array` is not modelled.
 Reading past the end of an array yields `undefined`, and arithmetic on it
 gives NaN.
 */
module JsFloat {

  datatype Num = Real(v: real) | NaN

  /** `a + b`: NaN is contagious. */
  function Add(a: Num, b: Num): (r: Num)
    ensures r.Real? <==> a.Real? && b.Real?
    ensures r.Real? ==> r.v == a.v + b.v
  {
    if a.Real? && b.Real? then Real(a.v + b.v) else NaN
  }

  /** `a * b`: NaN is contagious. */
  function Mul(a: Num, b: Num): (r: Num)
    ensures r.Real? <==> a.Real? && b.Real?
    ensures r.Real? ==> r.v == a.v * b.v
  {
    if a.Real? && b.Real? then Real(a.v * b.v) else NaN
  }

  /** `x >= 0`: every comparison with NaN is false. */
  predicate AtLeastZero(x: Num) {
    x.Real? && x.v >= 0.0
  }

  lemma MulCommutes(a: Num, b: Num)
    ensures Mul(a, b) == Mul(b, a)
  {
  }
}

=== FILE: js_numbers.dfy ===
/**
 JavaScript number conversions that the engines rely on: storing into a
 `Uint8Array` (ToUint8) and the `| 0` / `<<` operators (ToInt32).
 */
module JsNumbers {
  import Arith

  const TwoTo32: int := 0x1_0000_0000
  const TwoTo31: int := 0x8000_0000

  /** ToUint8 of an integer: reduction modulo 256 into 0..255. */
  function ToUint8(x: int): (r: nat)
    ensures r < 256
    ensures 0 <= x < 256 ==> r == x
  {
    x % 256
  }

  /** Stands for `undefined`, what reading past the end of an array gives; it equals no 0/1 cell. */
  const Undefined: int := -1

  predicate IsByte(x: int) {
    0 <= x < 256
  }

  /** `new Uint8Array(p)`: a copy with every element stored as a byte. */
  function ToBytes(p: seq<int>): (b: seq<int>)
    ensures |b| == |p|
    ensures forall i :: 0 <= i < |p| ==> b[i] == ToUint8(p[i]) && IsByte(b[i])
  {
    seq(|p|, (i: int) requires 0 <= i < |p| => ToUint8(p[i]))
  }

  /** Copying an array of bytes into a `Uint8Array` changes nothing. */
  lemma ToBytesOfBytes(p: seq<int>)
    requires forall i :: 0 <= i < |p| ==> IsByte(p[i])
    ensures ToBytes(p) == p
  {
  }

  /** The decimal text of a non-negative integer, as a template literal prints it. */
  function DecimalString(n: nat): (s: string)
    ensures |s| > 0
    ensures forall i :: 0 <= i < |s| ==> '0' <= s[i] <= '9'
    decreases n
  {
    if n < 10 then [DecimalDigit(n)] else DecimalString(n / 10) + [DecimalDigit(n % 10)]
  }

  function DecimalDigit(d: nat): (c: char)
    requires d < 10
    ensures '0' <= c <= '9'
  {
    ['0', '1', '2', '3', '4', '5', '6', '7', '8', '9'][d]
  }

  /** Reads a string of decimal digits back as a number. */
  function DecimalValue(s: string): nat
    requires forall i :: 0 <= i < |s| ==> '0' <= s[i] <= '9'
  {
    if |s| == 0 then 0 else 10 * DecimalValue(s[..|s| - 1]) + (s[|s| - 1] as int - '0' as int)
  }

  /** The printed number reads back as itself, and never carries a leading zero. */
  lemma {:induction false} DecimalRoundTrip(n: nat)
    ensures DecimalValue(DecimalString(n)) == n
    ensures n > 0 ==> DecimalString(n)[0] != '0'
    decreases n
  {
    if n >= 10 {
      DecimalRoundTrip(n / 10);
      var s := DecimalString(n);
      assert s[..|s| - 1] == DecimalString(n / 10);
    }
  }

  /** ToInt32 of an integer: reduction modulo 2^32 into the signed range. */
  function ToInt32(x: int): (r: int)
    ensures -TwoTo31 <= r < TwoTo31
    ensures -TwoTo31 <= x < TwoTo31 ==> r == x
  {
    if -TwoTo31 <= x < TwoTo31 then
      Arith.DivModUnique(x + TwoTo31, TwoTo32, 0, x + TwoTo31);
      (x + TwoTo31) % TwoTo32 - TwoTo31
    else
      (x + TwoTo31) % TwoTo32 - TwoTo31
  }

  /** ToInt32 only depends on its argument modulo 2^32. */
  lemma ToInt32Periodic(x: int, k: int)
    ensures ToInt32(x + k * TwoTo32) == ToInt32(x)
  {
    var q, r := (x + TwoTo31) / TwoTo32, (x + TwoTo31) % TwoTo32;
    assert x + k * TwoTo32 + TwoTo31 == (q + k) * TwoTo32 + r;
    Arith.DivModUnique(x + k * TwoTo32 + TwoTo31, TwoTo32, q + k, r);
  }

  /** ToInt32(x) differs from x by a multiple of 2^32. */
  lemma ToInt32Congruent(x: int)
    ensures exists k :: ToInt32(x) == x + k * TwoTo32
  {
    var q := (x + TwoTo31) / TwoTo32;
    assert ToInt32(x) == x + (-q) * TwoTo32;
  }
}

=== FILE: last_brain_hunt.dfy ===
/**
 `scripts/run_last_brain_hunt_v7.py`: the local mutations of a rule the
 last search campaign explores (every single toggle, and with distance 2
 every addition of two absent values to one side), the hard filter that
 rejects dying, exploding and frozen rules, and the final verdict.

 The simulations that produce the averages and scores are not modelled:
 their results are parameters.
 */
module LastBrainHunt {
  import opened PyText
  import PyList
  import Explorer

  type Mutation = (seq<int>, seq<int>)

  // ---------------------------------------------------------------------
  // Single and double changes of one side
  // ---------------------------------------------------------------------

  /** One toggle of `v`: remove every copy when present, else add it and sort. */
  function Single(xs: seq<int>, v: int): seq<int> {
    if v in xs then Remove(xs, v) else SortInts(xs + [v])
  }

  lemma SingleToggles(xs: seq<int>, v: int)
    ensures SetOf(Single(xs, v)) == if v in xs then SetOf(xs) - {v} else SetOf(xs) + {v}
  {
    if v !in xs {
      SetOfSame(SortInts(xs + [v]), xs + [v]);
      assert SetOf(xs + [v]) == SetOf(xs) + {v};
    }
  }

  /** `sorted(xs + [v1, v2])`. */
  function Double(xs: seq<int>, v1: int, v2: int): seq<int> {
    SortInts(xs + [v1, v2])
  }

  lemma DoubleAdds(xs: seq<int>, v1: int, v2: int)
    ensures SetOf(Double(xs, v1, v2)) == SetOf(xs) + {v1, v2}
  {
    SetOfSame(SortInts(xs + [v1, v2]), xs + [v1, v2]);
    assert SetOf(xs + [v1, v2]) == SetOf(xs) + {v1, v2};
  }

  /**
   The pairs `(v1, v2)` of `combinations(range(9), 2)` from `(a, b)` on, in
   lexicographic order, whose two values are both absent from `xs`.
   */
  function FreePairs(xs: seq<int>, a: nat, b: nat): (ps: seq<(int, int)>)
    requires a < b <= 9
    ensures forall p :: p in ps <==> (a <= p.0 < p.1 <= 8 && (p.0 > a || p.1 >= b) && p.0 !in xs && p.1 !in xs)
    decreases 9 - a, 9 - b
  {
    if a >= 8 then []
    else if b == 9 then FreePairs(xs, a + 1, a + 2)
    else (if a !in xs && b !in xs then [(a, b)] else []) + FreePairs(xs, a, b + 1)
  }

  // ---------------------------------------------------------------------
  // generate_local_mutations
  // ---------------------------------------------------------------------

  function BornSingles(born: seq<int>, survive: seq<int>): seq<Mutation> {
    seq(9, (v: int) => (Single(born, v), survive))
  }

  function SurviveSingles(born: seq<int>, survive: seq<int>): seq<Mutation> {
    seq(9, (v: int) => (born, Single(survive, v)))
  }

  function BornDoubles(born: seq<int>, survive: seq<int>): seq<Mutation> {
    var ps := FreePairs(born, 0, 1);
    seq(|ps|, (i: int) requires 0 <= i < |ps| => (Double(born, ps[i].0, ps[i].1), survive))
  }

  function SurviveDoubles(born: seq<int>, survive: seq<int>): seq<Mutation> {
    var ps := FreePairs(survive, 0, 1);
    seq(|ps|, (i: int) requires 0 <= i < |ps| => (born, Double(survive, ps[i].0, ps[i].1)))
  }

  /** The mutations before deduplication, in the order the source appends them. */
  function Raw(born: seq<int>, survive: seq<int>, maxDistance: int): seq<Mutation> {
    BornSingles(born, survive) + SurviveSingles(born, survive)
      + (if maxDistance >= 2 then BornDoubles(born, survive) + SurviveDoubles(born, survive) else [])
  }

  /** The first eighteen mutations toggle each of the nine born values, then each of the nine survive values. */
  lemma SinglesFirst(born: seq<int>, survive: seq<int>, maxDistance: int, v: int)
    requires 0 <= v <= 8
    ensures |Raw(born, survive, maxDistance)| >= 18
    ensures var m := Raw(born, survive, maxDistance)[v];
      m.1 == survive && SetOf(m.0) == if v in born then SetOf(born) - {v} else SetOf(born) + {v}
    ensures var m := Raw(born, survive, maxDistance)[9 + v];
      m.0 == born && SetOf(m.1) == if v in survive then SetOf(survive) - {v} else SetOf(survive) + {v}
  {
    SingleToggles(born, v);
    SingleToggles(survive, v);
  }

  /** Below distance 2 there are only the eighteen single toggles. */
  lemma NoDoublesBelowTwo(born: seq<int>, survive: seq<int>, maxDistance: int)
    requires maxDistance < 2
    ensures |Raw(born, survive, maxDistance)| == 18
  {
  }

  /** `ys` holds the values of `xs` and two more neighbour counts that `xs` lacks. */
  predicate AddsTwo(xs: seq<int>, ys: seq<int>) {
    exists v1, v2 :: 0 <= v1 < v2 <= 8 && v1 !in xs && v2 !in xs && SetOf(ys) == SetOf(xs) + {v1, v2}
  }

  lemma BornDoubleAt(born: seq<int>, survive: seq<int>, i: nat) returns (p: (int, int))
    requires i < |BornDoubles(born, survive)|
    ensures BornDoubles(born, survive)[i].1 == survive
    ensures 0 <= p.0 < p.1 <= 8 && p.0 !in born && p.1 !in born
    ensures SetOf(BornDoubles(born, survive)[i].0) == SetOf(born) + {p.0, p.1}
    ensures AddsTwo(born, BornDoubles(born, survive)[i].0)
  {
    var ps := FreePairs(born, 0, 1);
    p := ps[i];
    assert p in ps;
    DoubleAdds(born, p.0, p.1);
    assert SetOf(BornDoubles(born, survive)[i].0) == SetOf(born) + {p.0, p.1};
  }

  lemma SurviveDoubleAt(born: seq<int>, survive: seq<int>, i: nat) returns (p: (int, int))
    requires i < |SurviveDoubles(born, survive)|
    ensures SurviveDoubles(born, survive)[i].0 == born
    ensures 0 <= p.0 < p.1 <= 8 && p.0 !in survive && p.1 !in survive
    ensures SetOf(SurviveDoubles(born, survive)[i].1) == SetOf(survive) + {p.0, p.1}
    ensures AddsTwo(survive, SurviveDoubles(born, survive)[i].1)
  {
    var ps := FreePairs(survive, 0, 1);
    p := ps[i];
    assert p in ps;
    DoubleAdds(survive, p.0, p.1);
    assert SetOf(SurviveDoubles(born, survive)[i].1) == SetOf(survive) + {p.0, p.1};
  }

  /** Past the single toggles, a mutation adds two absent values to one side and removes nothing. */
  lemma DoublesOnlyAdd(born: seq<int>, survive: seq<int>, maxDistance: int, k: nat)
    requires 18 <= k < |Raw(born, survive, maxDistance)|
    ensures maxDistance >= 2
    ensures var m := Raw(born, survive, maxDistance)[k];
      (m.1 == survive && AddsTwo(born, m.0)) || (m.0 == born && AddsTwo(survive, m.1))
  {
    var nb := |BornDoubles(born, survive)|;
    RawDoubleIndex(born, survive, maxDistance, k);
    if k < 18 + nb {
      BornDoubleIs(born, survive, Raw(born, survive, maxDistance)[k], k - 18);
    } else {
      SurviveDoubleIs(born, survive, Raw(born, survive, maxDistance)[k], k - 18 - nb);
    }
  }

  lemma BornDoubleIs(born: seq<int>, survive: seq<int>, m: Mutation, i: nat)
    requires i < |BornDoubles(born, survive)| && m == BornDoubles(born, survive)[i]
    ensures m.1 == survive && AddsTwo(born, m.0)
  {
    var p := BornDoubleAt(born, survive, i);
    assert SetOf(m.0) == SetOf(born) + {p.0, p.1};
  }

  lemma SurviveDoubleIs(born: seq<int>, survive: seq<int>, m: Mutation, i: nat)
    requires i < |SurviveDoubles(born, survive)| && m == SurviveDoubles(born, survive)[i]
    ensures m.0 == born && AddsTwo(survive, m.1)
  {
    var p := SurviveDoubleAt(born, survive, i);
    assert SetOf(m.1) == SetOf(survive) + {p.0, p.1};
  }

  /** Past the eighteen single toggles, the born doubles come first and the survive doubles after them. */
  lemma RawDoubleIndex(born: seq<int>, survive: seq<int>, maxDistance: int, k: nat)
    requires 18 <= k < |Raw(born, survive, maxDistance)|
    ensures maxDistance >= 2
    ensures k < 18 + |BornDoubles(born, survive)| ==>
      Raw(born, survive, maxDistance)[k] == BornDoubles(born, survive)[k - 18]
    ensures k >= 18 + |BornDoubles(born, survive)| ==>
      k - 18 - |BornDoubles(born, survive)| < |SurviveDoubles(born, survive)| &&
      Raw(born, survive, maxDistance)[k] == SurviveDoubles(born, survive)[k - 18 - |BornDoubles(born, survive)|]
  {
    var bd, sd := BornDoubles(born, survive), SurviveDoubles(born, survive);
    assert Raw(born, survive, maxDistance) == BornSingles(born, survive) + SurviveSingles(born, survive) + (bd + sd);
  }

  /** No mutation gives the seed back: each changes the value set of one side. */
  lemma RawNeverSeed(born: seq<int>, survive: seq<int>, maxDistance: int, k: nat)
    requires k < |Raw(born, survive, maxDistance)|
    ensures Raw(born, survive, maxDistance)[k] != (born, survive)
  {
    var m := Raw(born, survive, maxDistance)[k];
    if k < 9 {
      SinglesFirst(born, survive, maxDistance, k);
      if k in born {
        assert k !in SetOf(m.0);
      } else {
        assert k in SetOf(m.0);
      }
    } else if k < 18 {
      SinglesFirst(born, survive, maxDistance, k - 9);
      if k - 9 in survive {
        assert k - 9 !in SetOf(m.1);
      } else {
        assert k - 9 in SetOf(m.1);
      }
    } else {
      DoublesOnlyAdd(born, survive, maxDistance, k);
      if m.1 == survive {
        var v1, v2 :| 0 <= v1 < v2 <= 8 && v1 !in born && v2 !in born && SetOf(m.0) == SetOf(born) + {v1, v2};
        assert v1 in SetOf(m.0) && v1 !in SetOf(born);
      } else {
        var v1, v2 :| 0 <= v1 < v2 <= 8 && v1 !in survive && v2 !in survive && SetOf(m.1) == SetOf(survive) + {v1, v2};
        assert v1 in SetOf(m.1) && v1 !in SetOf(survive);
      }
    }
  }

  /** A mutation the loop may keep: its born list is non-empty. */
  predicate HasBorn(m: Mutation) {
    |m.0| > 0
  }

  /** The deduplication loop: keep the first copy of each mutation whose born list is non-empty, in order. */
  function Dedup(ms: seq<Mutation>, seen: set<Mutation>): (r: seq<Mutation>)
    ensures forall i :: 0 <= i < |r| ==> |r[i].0| > 0 && r[i] !in seen && r[i] in ms
    ensures forall i, j :: 0 <= i < j < |r| ==> r[i] != r[j]
    ensures forall m :: m in ms && |m.0| > 0 && m !in seen ==> m in r
    ensures PyList.KeepsFirstOccurrences(r, ms, PyList.Itself, HasBorn, seen)
  {
    if |ms| == 0 then []
    else if ms[0] !in seen && |ms[0].0| > 0 then
      var rest := Dedup(ms[1..], seen + {ms[0]});
      DedupTake(ms, seen, rest);
      PyList.KeepsFirstTake(ms, PyList.Itself, HasBorn, seen, rest);
      [ms[0]] + rest
    else
      var rest := Dedup(ms[1..], seen);
      DedupSkip(ms, seen, rest);
      PyList.KeepsFirstSkip(ms, PyList.Itself, HasBorn, seen, rest);
      rest
  }

  /** The membership and distinctness `Dedup` promises, for `r` against `ms` and `seen`. */
  predicate Deduplicated(r: seq<Mutation>, ms: seq<Mutation>, seen: set<Mutation>) {
    && (forall i :: 0 <= i < |r| ==> |r[i].0| > 0 && r[i] !in seen && r[i] in ms)
    && (forall i, j :: 0 <= i < j < |r| ==> r[i] != r[j])
    && (forall m :: m in ms && |m.0| > 0 && m !in seen ==> m in r)
  }

  lemma DedupTake(ms: seq<Mutation>, seen: set<Mutation>, rest: seq<Mutation>)
    requires |ms| > 0 && ms[0] !in seen && |ms[0].0| > 0
    requires Deduplicated(rest, ms[1..], seen + {ms[0]})
    ensures Deduplicated([ms[0]] + rest, ms, seen)
  {
    var r := [ms[0]] + rest;
    assert forall i :: 0 <= i < |rest| ==> rest[i] != ms[0];
    assert forall i :: 1 <= i < |r| ==> r[i] == rest[i - 1];
    assert ms == [ms[0]] + ms[1..];
  }

  lemma DedupSkip(ms: seq<Mutation>, seen: set<Mutation>, rest: seq<Mutation>)
    requires |ms| > 0 && !(ms[0] !in seen && |ms[0].0| > 0)
    requires Deduplicated(rest, ms[1..], seen)
    ensures Deduplicated(rest, ms, seen)
  {
    assert ms == [ms[0]] + ms[1..];
  }

  /**
   `generate_local_mutations`: the distinct mutations with a non-empty born
   list, each at its first occurrence in the raw list, in the raw list's
   order. None is the seed itself.
   */
  function GenerateLocalMutations(born: seq<int>, survive: seq<int>, maxDistance: int): (r: seq<Mutation>)
    ensures forall i :: 0 <= i < |r| ==> |r[i].0| > 0 && r[i] != (born, survive)
    ensures forall i, j :: 0 <= i < j < |r| ==> r[i] != r[j]
    ensures forall m :: m in r <==> m in Raw(born, survive, maxDistance) && |m.0| > 0
    ensures PyList.KeepsFirstOccurrences(r, Raw(born, survive, maxDistance), PyList.Itself, HasBorn, {})
  {
    var raw := Raw(born, survive, maxDistance);
    var r := Dedup(raw, {});
    forall i | 0 <= i < |r|
      ensures r[i] != (born, survive)
    {
      var k :| 0 <= k < |raw| && raw[k] == r[i];
      RawNeverSeed(born, survive, maxDistance, k);
    }
    r
  }

  /** An empty born list has no removal to offer: every born toggle adds. */
  lemma EmptyBornOnlyAdds(survive: seq<int>, maxDistance: int, v: int)
    requires 0 <= v <= 8
    ensures (SortInts([v]), survive) in GenerateLocalMutations([], survive, maxDistance)
  {
    var raw := Raw([], survive, maxDistance);
    assert raw[v] == (SortInts([] + [v]), survive);
    assert [] + [v] == [v];
    assert |SortInts([v])| == 1;
  }

  // ---------------------------------------------------------------------
  // hard_filter_rule and evaluate_rule_candidate
  // ---------------------------------------------------------------------

  datatype FilterReason = QuasiDeath | Explosion | Sink | Passed

  function ReasonName(r: FilterReason): string {
    match r
    case QuasiDeath => "quasi-death"
    case Explosion => "explosion"
    case Sink => "sink"
    case Passed => "ok"
  }

  /** The rejection tests of `hard_filter_rule`, tried in order on the averaged density and entropy. */
  function HardFilter(density: real, entropy: real): (r: FilterReason)
    ensures r == QuasiDeath <==> density < 0.05
    ensures r == Explosion <==> 0.05 <= density && density > 0.98
    ensures r == Sink <==> 0.05 <= density <= 0.98 && entropy < 0.1
    ensures r == Passed <==> 0.05 <= density <= 0.98 && entropy >= 0.1
  {
    if density < 0.05 then QuasiDeath
    else if density > 0.98 then Explosion
    else if entropy < 0.1 then Sink
    else Passed
  }

  /** Binary entropy is 0 at density 0 and 1; elsewhere it is the logarithm formula, an oracle here. */
  function TrialEntropy(density: real, log2Formula: real): real {
    if density > 0.0 && density < 1.0 then log2Formula else 0.0
  }

  /** A rule that never leaves an all-dead or all-alive grid is a sink unless its density already failed. */
  lemma FrozenTrialsAreRejected(density: real, entropies: seq<real>)
    requires |entropies| > 0
    requires forall k :: 0 <= k < |entropies| ==> entropies[k] == 0.0
    ensures HardFilter(density, PyList.Sum(entropies) / |entropies| as real) != Passed
  {
    PyList.SumBounds(entropies, 0.0, 0.0);
  }

  /** The strict success criteria: life capacity, robustness at 15% noise, and a density strictly inside (0.05, 0.98). */
  predicate PassedAllCriteria(life: real, robustness: real, density: real) {
    life >= 0.50 && robustness >= 0.40 && density > 0.05 && density < 0.98
  }

  datatype Evaluation =
    | Rejected(notation: string, born: seq<int>, survive: seq<int>, reason: FilterReason, density: real, entropy: real)
    | Evaluated(notation: string, born: seq<int>, survive: seq<int>, density: real, entropy: real,
                life: real, robustness: real, memory: real, passedAll: bool)

  /**
   `evaluate_rule_candidate`, with the filter statistics and the capacity,
   robustness (15% noise) and memory scores given.
   */
  function EvaluateRuleCandidate(born: seq<int>, survive: seq<int>, density: real, entropy: real,
                                 life: real, robustness: real, memory: real): (e: Evaluation)
    ensures e.notation == Explorer.Format(born, survive)
    ensures e.Rejected? <==> HardFilter(density, entropy) != Passed
    ensures e.Rejected? ==> e.reason == HardFilter(density, entropy)
    ensures e.Evaluated? ==> (e.passedAll <==> PassedAllCriteria(life, robustness, density))
  {
    var notation := Explorer.Format(born, survive);
    var reason := HardFilter(density, entropy);
    if reason != Passed then Rejected(notation, born, survive, reason, density, entropy)
    else Evaluated(notation, born, survive, density, entropy, life, robustness, memory,
                   PassedAllCriteria(life, robustness, density))
  }

  /** A rule that passes every criterion has passed the density tests of the filter too. */
  lemma PassedAllMeansDensityOk(life: real, robustness: real, density: real, entropy: real)
    requires PassedAllCriteria(life, robustness, density)
    ensures HardFilter(density, entropy) in {Passed, Sink}
  {
  }

  /** The filter admits the density 0.05 that the criteria then refuse: the two bounds differ by strictness. */
  lemma BoundaryDensityPassesFilterOnly(born: seq<int>, survive: seq<int>, density: real)
    requires density == 0.05
    ensures EvaluateRuleCandidate(born, survive, density, 0.5, 1.0, 1.0, 1.0).Evaluated?
    ensures !EvaluateRuleCandidate(born, survive, density, 0.5, 1.0, 1.0, 1.0).passedAll
  {
  }
}

=== FILE: layered_ca.dfy ===
/**
 `LayeredCA` of isinglab/experimental/layered_ca.py: two h × w layers, each
 with its own rule function, where layer B may see layer A through a
 coupling mode. The rule functions are parameters; numpy's element-wise
 products need them to keep the shape, so they are asked to.
 */
module LayeredCa {
  import opened CaGrid

  /** A rule function that maps every h × w grid to an h × w grid. */
  ghost predicate KeepsShape(rule: Grid -> Grid, w: nat, h: nat) {
    forall g :: IsGrid(g, w, h) ==> IsGrid(rule(g), w, h)
  }

  /** `(grid_a > 0).astype(int)`. */
  function Mask(a: Grid, w: nat, h: nat): (m: Grid)
    requires IsGrid(a, w, h)
    ensures IsGrid(m, w, h)
    ensures forall i, j :: 0 <= i < h && 0 <= j < w ==> (m[i][j] == 1 <==> a[i][j] > 0) && m[i][j] in {0, 1}
  {
    seq(h, (i: int) requires 0 <= i < h => seq(w, (j: int) requires 0 <= j < w => if a[i][j] > 0 then 1 else 0))
  }

  /** `b * mask`, element by element. */
  function Times(b: Grid, m: Grid, w: nat, h: nat): (r: Grid)
    requires IsGrid(b, w, h) && IsGrid(m, w, h)
    ensures IsGrid(r, w, h)
    ensures forall i, j :: 0 <= i < h && 0 <= j < w ==> r[i][j] == b[i][j] * m[i][j]
  {
    seq(h, (i: int) requires 0 <= i < h => seq(w, (j: int) requires 0 <= j < w => b[i][j] * m[i][j]))
  }

  /** `np.logical_xor(grid_a, grid_b).astype(int)`: a cell is true when it is non-zero. */
  function Xor(a: Grid, b: Grid, w: nat, h: nat): (r: Grid)
    requires IsGrid(a, w, h) && IsGrid(b, w, h)
    ensures IsGrid(r, w, h)
    ensures forall i, j :: 0 <= i < h && 0 <= j < w ==> r[i][j] in {0, 1} && (r[i][j] == 1 <==> (a[i][j] != 0) != (b[i][j] != 0))
  {
    seq(h, (i: int) requires 0 <= i < h =>
      seq(w, (j: int) requires 0 <= j < w => if (a[i][j] != 0) != (b[i][j] != 0) then 1 else 0))
  }

  /** `LayeredCA(rule_a, rule_b, coupling).step(grid_a, grid_b)`. */
  function Step(ruleA: Grid -> Grid, ruleB: Grid -> Grid, coupling: string, a: Grid, b: Grid, w: nat, h: nat): (r: (Grid, Grid))
    requires KeepsShape(ruleA, w, h) && KeepsShape(ruleB, w, h)
    requires IsGrid(a, w, h) && IsGrid(b, w, h)
    ensures IsGrid(r.0, w, h) && IsGrid(r.1, w, h)
    ensures r.0 == ruleA(a)
    ensures coupling != "density_mask" && coupling != "xor" ==> r.1 == ruleB(b)
    ensures coupling == "density_mask" ==>
      forall i, j :: 0 <= i < h && 0 <= j < w ==> r.1[i][j] == if a[i][j] > 0 then ruleB(b)[i][j] else 0
    ensures coupling == "xor" ==> r.1 == ruleB(Xor(a, b, w, h))
  {
    var newA := ruleA(a);
    if coupling == "none" then (newA, ruleB(b))
    else if coupling == "density_mask" then (newA, Times(ruleB(b), Mask(a, w, h), w, h))
    else if coupling == "xor" then (newA, ruleB(Xor(a, b, w, h)))
    else (newA, ruleB(b))
  }

  /** `evolve(grid_a, grid_b, steps)`. */
  function Evolve(ruleA: Grid -> Grid, ruleB: Grid -> Grid, coupling: string, a: Grid, b: Grid, w: nat, h: nat, steps: nat): (r: (Grid, Grid))
    requires KeepsShape(ruleA, w, h) && KeepsShape(ruleB, w, h)
    requires IsGrid(a, w, h) && IsGrid(b, w, h)
    ensures IsGrid(r.0, w, h) && IsGrid(r.1, w, h)
    decreases steps
  {
    if steps == 0 then (a, b)
    else
      var next := Step(ruleA, ruleB, coupling, a, b, w, h);
      Evolve(ruleA, ruleB, coupling, next.0, next.1, w, h, steps - 1)
  }

  /** A rule function applied `n` times. */
  function Iterate(rule: Grid -> Grid, g: Grid, w: nat, h: nat, n: nat): (r: Grid)
    requires KeepsShape(rule, w, h) && IsGrid(g, w, h)
    ensures IsGrid(r, w, h)
    decreases n
  {
    if n == 0 then g else Iterate(rule, rule(g), w, h, n - 1)
  }

  /** Layer A never sees layer B: after n steps it is rule_a applied n times, whatever the coupling. */
  lemma {:induction false} LayerAIndependent(ruleA: Grid -> Grid, ruleB: Grid -> Grid, coupling: string, a: Grid, b: Grid, w: nat, h: nat, steps: nat)
    requires KeepsShape(ruleA, w, h) && KeepsShape(ruleB, w, h)
    requires IsGrid(a, w, h) && IsGrid(b, w, h)
    ensures Evolve(ruleA, ruleB, coupling, a, b, w, h, steps).0 == Iterate(ruleA, a, w, h, steps)
    decreases steps
  {
    if steps > 0 {
      var next := Step(ruleA, ruleB, coupling, a, b, w, h);
      LayerAIndependent(ruleA, ruleB, coupling, next.0, next.1, w, h, steps - 1);
    }
  }

  /** Without a known coupling, layer B evolves on its own too. */
  lemma {:induction false} UncoupledB(ruleA: Grid -> Grid, ruleB: Grid -> Grid, coupling: string, a: Grid, b: Grid, w: nat, h: nat, steps: nat)
    requires KeepsShape(ruleA, w, h) && KeepsShape(ruleB, w, h)
    requires IsGrid(a, w, h) && IsGrid(b, w, h)
    requires coupling != "density_mask" && coupling != "xor"
    ensures Evolve(ruleA, ruleB, coupling, a, b, w, h, steps).1 == Iterate(ruleB, b, w, h, steps)
    decreases steps
  {
    if steps > 0 {
      var next := Step(ruleA, ruleB, coupling, a, b, w, h);
      UncoupledB(ruleA, ruleB, coupling, next.0, next.1, w, h, steps - 1);
    }
  }

  /** Under `density_mask`, an all-dead layer A switches layer B off in one step. */
  lemma DeadMaskClearsB(ruleA: Grid -> Grid, ruleB: Grid -> Grid, a: Grid, b: Grid, w: nat, h: nat)
    requires KeepsShape(ruleA, w, h) && KeepsShape(ruleB, w, h)
    requires IsGrid(a, w, h) && IsGrid(b, w, h)
    requires forall i, j :: 0 <= i < h && 0 <= j < w ==> a[i][j] <= 0
    ensures Step(ruleA, ruleB, "density_mask", a, b, w, h).1 == CreateGrid(w, h, 0)
  {
    var r := Step(ruleA, ruleB, "density_mask", a, b, w, h).1;
    GridExt(r, CreateGrid(w, h, 0), w, h);
  }

  /** XOR of a layer with itself is all zero, and XOR does not care about order. */
  lemma XorFacts(a: Grid, b: Grid, w: nat, h: nat)
    requires IsGrid(a, w, h) && IsGrid(b, w, h)
    ensures Xor(a, b, w, h) == Xor(b, a, w, h)
    ensures Xor(a, a, w, h) == CreateGrid(w, h, 0)
  {
    GridExt(Xor(a, b, w, h), Xor(b, a, w, h), w, h);
    GridExt(Xor(a, a, w, h), CreateGrid(w, h, 0), w, h);
  }
}

=== FILE: local_energy.dfy ===
/**
 `src/energy/localEnergyStub.js`: an energy-like stability score. A live
 cell pays for isolation, a dead cell pays a little for a crowded
 neighbourhood, and the grid's energy is the sum over its cells.
 */
module LocalEnergy {
  import opened CaGrid
  import opened CaRules

  /** `localEnergy(grid, x, y)`. */
  function Local(g: Grid, x: nat, y: nat): (e: nat)
    requires Rect(g) && x < Width(g) && y < Height(g)
    ensures e <= 4
    ensures g[y][x] == 1 ==> (e == 0 <==> CountAliveNeighbors(g, x, y) >= 4)
    ensures g[y][x] == 1 && CountAliveNeighbors(g, x, y) == 0 ==> e == 4
    ensures g[y][x] != 1 ==> e <= 1 && (e == 1 <==> CountAliveNeighbors(g, x, y) > 5)
  {
    var n := CountAliveNeighbors(g, x, y);
    if g[y][x] == 1 then 4 - (if n < 4 then n else 4)
    else if n > 5 then 1 else 0
  }

  /** The energies of cells 0 .. n - 1 of row y. */
  function RowEnergy(g: Grid, y: nat, n: nat): (e: nat)
    requires Shaped(g) && y < |g| && n <= |g[0]|
    ensures e <= 4 * n
  {
    if n == 0 then 0 else RowEnergy(g, y, n - 1) + Local(g, n - 1, y)
  }

  /** The energies of rows 0 .. m - 1. */
  function GridEnergy(g: Grid, m: nat): (e: nat)
    requires Shaped(g) && m <= |g|
  {
    if m == 0 then 0 else GridEnergy(g, m - 1) + RowEnergy(g, m - 1, |g[0]|)
  }

  /** Each row adds at most four per cell. */
  lemma {:induction false} GridEnergyBound(g: Grid, m: nat)
    requires Shaped(g) && m <= |g|
    ensures GridEnergy(g, m) <= 4 * m * |g[0]|
  {
    if m > 0 {
      GridEnergyBound(g, m - 1);
      assert 4 * m * |g[0]| == 4 * (m - 1) * |g[0]| + 4 * |g[0]|;
    }
  }

  /** `totalEnergy(grid)`: the nested loop over rows and columns. */
  method TotalEnergy(g: Grid) returns (energy: nat)
    requires Shaped(g)
    ensures energy == GridEnergy(g, |g|)
    ensures energy <= 4 * |g| * |g[0]|
  {
    var height, width := |g|, |g[0]|;
    energy := 0;
    var y := 0;
    while y < height
      invariant 0 <= y <= height
      invariant energy == GridEnergy(g, y)
    {
      var x := 0;
      while x < width
        invariant 0 <= x <= width
        invariant energy == GridEnergy(g, y) + RowEnergy(g, y, x)
      {
        energy := energy + Local(g, x, y);
        x := x + 1;
      }
      y := y + 1;
    }
    GridEnergyBound(g, height);
  }

  /** In a grid of one constant value every cell has energy 0: no dead cell is crowded and no live cell lonely. */
  lemma {:induction false} UniformRowEnergy(g: Grid, y: nat, n: nat, v: int)
    requires Rect(g) && y < |g| && n <= Width(g) && AllCells(g, v) && (v == 0 || v == 1)
    ensures RowEnergy(g, y, n) == 0
  {
    if n > 0 {
      UniformRowEnergy(g, y, n - 1, v);
      CountUniform(g, n - 1, y, v);
    }
  }

  lemma {:induction false} UniformGridEnergy(g: Grid, m: nat, v: int)
    requires Rect(g) && m <= |g| && AllCells(g, v) && (v == 0 || v == 1)
    ensures GridEnergy(g, m) == 0
  {
    if m > 0 {
      UniformGridEnergy(g, m - 1, v);
      UniformRowEnergy(g, m - 1, |g[0]|, v);
    }
  }

  /** An all-dead grid, and an all-live one, have total energy 0. */
  lemma UniformTotalZero(w: nat, h: nat, v: int)
    requires w > 0 && h > 0 && (v == 0 || v == 1)
    ensures GridEnergy(CreateGrid(w, h, v), h) == 0
  {
    UniformGridEnergy(CreateGrid(w, h, v), h, v);
  }

  /** A lone live cell on an otherwise dead board of at least 2 by 2 has the highest energy, 4. */
  lemma LoneCellEnergy(w: nat, h: nat, x: nat, y: nat)
    requires w >= 2 && h >= 2 && x < w && y < h
    ensures var z := CreateGrid(w, h, 0);
            Local(z[y := z[y][x := 1]], x, y) == 4
  {
    var z := CreateGrid(w, h, 0);
    var g := z[y := z[y][x := 1]];
    CountIgnoresCentre(g, x, y, 0);
    assert z[y][x := 1][x := 0] == z[y];
    assert g[y := g[y][x := 0]] == z;
    CountUniform(z, x, y, 0);
  }
}

=== FILE: mapping_profiles.dfy ===
/**
 `isinglab/mapping_profiles.py`: the heuristic exploration profile for a
 physical system (target ranges for five CA metrics, chosen by coherence
 class and nudged by temperature), and the search configuration's filter
 criteria derived from a profile.
 */
module MappingProfiles {

  datatype Range = Range(lo: real, hi: real)

  /** The five metric keys of a profile's `target_metrics`. */
  datatype Metric = Edge | Memory | Sensitivity | Entropy | Activity

  function MetricName(m: Metric): string {
    match m
    case Edge => "edge_score"
    case Memory => "memory_score"
    case Sensitivity => "sensitivity"
    case Entropy => "entropy"
    case Activity => "activity"
  }

  const MetricNames: set<Metric> := {Edge, Memory, Sensitivity, Entropy, Activity}

  type Metrics = map<Metric, Range>

  datatype Profile = Profile(
    modality: string, temperatureRegime: string, coherenceClass: string,
    suggestedRegimes: seq<string>, targetMetrics: Metrics, confidence: string)

  function Metrics5(e: Range, m: Range, s: Range, h: Range, a: Range): (r: Metrics)
    ensures r.Keys == MetricNames
  {
    map[Edge := e, Memory := m, Sensitivity := s, Entropy := h, Activity := a]
  }

  /** Ranges within [0, 1] with the lower bound first. */
  predicate UnitRanges(ms: Metrics) {
    forall k :: k in ms ==> 0.0 <= ms[k].lo <= ms[k].hi <= 1.0
  }

  /** The coherence table: long (or record), short and medium coherence each fix five ranges and three regimes; any other class gives nothing yet. */
  function CoherenceTable(coherenceClass: string): (r: (Metrics, seq<string>))
    ensures r.0 == map[] <==> coherenceClass !in {"long", "record", "short", "medium"}
    ensures r.0 != map[] ==> r.0.Keys == MetricNames && UnitRanges(r.0) && |r.1| == 3
  {
    if coherenceClass == "long" || coherenceClass == "record" then
      (Metrics5(Range(0.4, 0.7), Range(0.6, 1.0), Range(0.1, 0.5), Range(0.3, 0.6), Range(0.2, 0.5)),
       ["stable_attractors", "limit_cycles", "edge_of_chaos"])
    else if coherenceClass == "short" then
      (Metrics5(Range(0.3, 0.6), Range(0.0, 0.3), Range(0.6, 1.0), Range(0.7, 1.0), Range(0.5, 0.9)),
       ["chaotic", "high_entropy", "mixing"])
    else if coherenceClass == "medium" then
      (Metrics5(Range(0.5, 0.8), Range(0.3, 0.7), Range(0.3, 0.7), Range(0.4, 0.7), Range(0.3, 0.6)),
       ["edge_of_chaos", "complex", "adaptive"])
    else (map[], [])
  }

  /** Python's `max(0, x)` and `min(1, x)` on the entropy bounds. */
  function Floor0(x: real): real {
    if x > 0.0 then x else 0.0
  }

  function Cap1(x: real): real {
    if x < 1.0 then x else 1.0
  }

  function Lowered(e: Range): Range {
    Range(Floor0(e.lo - 0.1), Floor0(e.hi - 0.1))
  }

  function Raised(e: Range): Range {
    Range(Cap1(e.lo + 0.1), Cap1(e.hi + 0.1))
  }

  /** The temperature nudge of the entropy range: down 0.1 when cryogenic (not below 0), up 0.1 when high (not above 1). */
  function ShiftEntropy(ms: Metrics, temperatureRegime: string): (r: Metrics)
    requires Entropy in ms
    ensures r.Keys == ms.Keys
    ensures forall k :: k in ms && k != Entropy ==> r[k] == ms[k]
  {
    var e := ms[Entropy];
    if temperatureRegime == "cryogenic" then ms[Entropy := Lowered(e)]
    else if temperatureRegime == "high" then ms[Entropy := Raised(e)]
    else ms
  }

  /** The nudge keeps ranges inside [0, 1] and ordered. */
  lemma ShiftKeepsUnitRanges(ms: Metrics, temperatureRegime: string)
    requires Entropy in ms && UnitRanges(ms)
    ensures UnitRanges(ShiftEntropy(ms, temperatureRegime))
  {
    var r := ShiftEntropy(ms, temperatureRegime);
    forall k | k in r
      ensures 0.0 <= r[k].lo <= r[k].hi <= 1.0
    {
      if k != Entropy {
        assert r[k] == ms[k];
      }
    }
  }

  /** The broad ranges an unknown coherence class receives, after the temperature step. */
  function BroadDefaults(): (r: Metrics)
    ensures r.Keys == MetricNames && UnitRanges(r)
  {
    Metrics5(Range(0.3, 0.8), Range(0.2, 0.8), Range(0.2, 0.8), Range(0.3, 0.8), Range(0.2, 0.7))
  }

  /**
   `get_target_profile_for_system`: the coherence table, then the
   temperature nudge (which only runs when the table gave ranges), and the
   broad defaults when no ranges were set. The confidence is always "low".
   */
  function GetTargetProfile(modality: string, temperatureRegime: string, coherenceClass: string): (p: Profile)
    ensures p.confidence == "low"
    ensures p.targetMetrics.Keys == MetricNames && UnitRanges(p.targetMetrics)
    ensures p.modality == modality && p.temperatureRegime == temperatureRegime && p.coherenceClass == coherenceClass
    ensures |p.suggestedRegimes| > 0
  {
    var (ms, regimes) := CoherenceTable(coherenceClass);
    if ms == map[] then
      Profile(modality, temperatureRegime, coherenceClass, ["broad_exploration"], BroadDefaults(), "low")
    else
      ShiftKeepsUnitRanges(ms, temperatureRegime);
      Profile(modality, temperatureRegime, coherenceClass, regimes, ShiftEntropy(ms, temperatureRegime), "low")
  }

  /** Temperature moves only the entropy range, and only by the clamped 0.1 nudge of the class's own range. */
  lemma TemperatureMovesOnlyEntropy(modality: string, temperatureRegime: string, coherenceClass: string)
    requires coherenceClass in {"long", "record", "short", "medium"}
    ensures var p := GetTargetProfile(modality, temperatureRegime, coherenceClass);
      var base := GetTargetProfile(modality, "room", coherenceClass);
      && (forall k :: k in MetricNames && k != Entropy ==> p.targetMetrics[k] == base.targetMetrics[k])
      && (temperatureRegime == "cryogenic" ==> p.targetMetrics[Entropy] == Lowered(base.targetMetrics[Entropy]))
      && (temperatureRegime == "high" ==> p.targetMetrics[Entropy] == Raised(base.targetMetrics[Entropy]))
  {
  }

  /** Cryogenic lowers the entropy range and high raises it, never past the unit interval. */
  lemma EntropyDirection(modality: string, coherenceClass: string)
    requires coherenceClass in {"long", "record", "short", "medium"}
    ensures var cold := GetTargetProfile(modality, "cryogenic", coherenceClass).targetMetrics[Entropy];
      var room := GetTargetProfile(modality, "room", coherenceClass).targetMetrics[Entropy];
      var hot := GetTargetProfile(modality, "high", coherenceClass).targetMetrics[Entropy];
      cold.lo <= room.lo <= hot.lo && cold.hi <= room.hi <= hot.hi
  {
  }

  /** An unknown coherence class gets the broad defaults unshifted, whatever the temperature. */
  lemma UnknownClassIgnoresTemperature(modality: string, temperatureRegime: string, coherenceClass: string)
    requires coherenceClass !in {"long", "record", "short", "medium"}
    ensures GetTargetProfile(modality, temperatureRegime, coherenceClass).targetMetrics == BroadDefaults()
    ensures GetTargetProfile(modality, temperatureRegime, coherenceClass).suggestedRegimes == ["broad_exploration"]
  {
  }

  /** `long` and `record` coherence are the same class. */
  lemma RecordIsLong(modality: string, temperatureRegime: string)
    ensures GetTargetProfile(modality, temperatureRegime, "record").targetMetrics
      == GetTargetProfile(modality, temperatureRegime, "long").targetMetrics
  {
  }

  /** The filter criteria of `generate_search_config`: each metric's profile range, or (0, 1) when the profile has none. */
  function FilterCriteria(profile: Profile): (c: Metrics)
    ensures c.Keys == MetricNames
    ensures forall k :: k in MetricNames ==> c[k] == if k in profile.targetMetrics then profile.targetMetrics[k] else Range(0.0, 1.0)
  {
    map k | k in MetricNames :: if k in profile.targetMetrics then profile.targetMetrics[k] else Range(0.0, 1.0)
  }

  /** A profile from `GetTargetProfile` passes its own ranges through unchanged. */
  lemma CriteriaOfTargetProfile(modality: string, temperatureRegime: string, coherenceClass: string)
    ensures FilterCriteria(GetTargetProfile(modality, temperatureRegime, coherenceClass))
      == GetTargetProfile(modality, temperatureRegime, coherenceClass).targetMetrics
  {
  }
}

=== FILE: masks.dfy ===
/**
 0/1 slot vectors for born/survive digit lists, as several scripts build
 them: start from zeros, then `list.forEach(n => { if (n >= 0 && n <= 8)
 mask[offset + n] = 1; })`.
 */
module Masks {

  function Zeros(n: nat): (z: seq<int>)
    ensures |z| == n
    ensures forall i :: 0 <= i < n ==> z[i] == 0
  {
    seq(n, (i: int) => 0)
  }

  /** Sets slot `offset + n` for every n of `xs` in 0..8, in list order. */
  function Mark(mask: seq<int>, xs: seq<int>, offset: nat): (r: seq<int>)
    requires offset + 9 <= |mask|
    ensures |r| == |mask|
    decreases |xs|
  {
    if |xs| == 0 then mask
    else
      var m := if 0 <= xs[0] <= 8 then mask[offset + xs[0] := 1] else mask;
      Mark(m, xs[1..], offset)
  }

  /** Slot i ends up 1 when it is `offset + n` for some n of `xs`; otherwise it keeps its value. */
  lemma {:induction false} MarkAt(mask: seq<int>, xs: seq<int>, offset: nat, i: nat)
    requires offset + 9 <= |mask| && i < |mask|
    ensures Mark(mask, xs, offset)[i] == if offset <= i < offset + 9 && (i - offset) in xs then 1 else mask[i]
    decreases |xs|
  {
    if |xs| > 0 {
      var m := if 0 <= xs[0] <= 8 then mask[offset + xs[0] := 1] else mask;
      MarkAt(m, xs[1..], offset, i);
      assert xs == [xs[0]] + xs[1..];
    }
  }

  /** The 9-slot mask of a list: slot n is 1 iff n is in the list. */
  function MaskOf(xs: seq<int>): (mask: seq<int>)
    ensures |mask| == 9
  {
    Mark(Zeros(9), xs, 0)
  }

  lemma MaskOfAt(xs: seq<int>, n: nat)
    requires n < 9
    ensures MaskOf(xs)[n] == if n in xs then 1 else 0
  {
    MarkAt(Zeros(9), xs, 0, n);
  }

  /** The digits a 9-slot mask marks. */
  function Members(mask: seq<int>): (s: set<int>)
    ensures forall n :: n in s <==> 0 <= n < 9 && n < |mask| && mask[n] == 1
  {
    set n | 0 <= n < 9 && n < |mask| && mask[n] == 1
  }

  /** Reading a mask back gives the in-range digits of the list, so equal masks mean equal digit sets. */
  lemma MaskRoundTrip(xs: seq<int>)
    ensures Members(MaskOf(xs)) == set n | n in xs && 0 <= n <= 8
  {
    forall n | 0 <= n < 9
      ensures MaskOf(xs)[n] == if n in xs then 1 else 0
    {
      MaskOfAt(xs, n);
    }
  }
}

=== FILE: memory_ai.dfy ===
/**
 `src/memory/memoryAI.js`: an ensemble of the seven champion CA engines and
 one Hopfield engine behind one `store`/`recall` interface. Recall ranks
 the eight answers by distance.
 */
module MemoryAI {
  import opened Wrappers
  import opened RecallCommon
  import opened CaRules
  import CaMemory
  import HopfieldMemory
  import HopfieldCore
  import BsRegex
  import Sorting

  /** `MEMORY_CHAMPIONS`, in list order. */
  const Champions: seq<string> := ["B01/S3", "B01/S23", "B01/S34", "B01/S2", "B01/S4", "B01/S13", "B46/S58"]

  const HopfieldName: string := "Hopfield"

  /** The champions' rules as `parseRule` reads them. */
  const ChampionRules: seq<Rule> := [
    Rule([0, 1], [3]), Rule([0, 1], [2, 3]), Rule([0, 1], [3, 4]), Rule([0, 1], [2]),
    Rule([0, 1], [4]), Rule([0, 1], [1, 3]), Rule([4, 6], [5, 8])
  ]

  const DefaultWidth: nat := 32
  const DefaultHeight: nat := 32
  const DefaultSteps: nat := 80

  /** Each champion string is the canonical notation of its rule. */
  lemma ChampionNotation(k: nat)
    requires k < |Champions|
    ensures BsRegex.InRange08(ChampionRules[k].born) && BsRegex.InRange08(ChampionRules[k].survive)
    ensures BsRegex.Notation(ChampionRules[k].born, ChampionRules[k].survive) == Champions[k]
  {
    ChampionRulesInRange(k);
    if k == 0 {
      assert ChampionRules[k] == Rule([0, 1], [3]) && Champions[k] == "B01/S3";
      assert BsRegex.Notation([0, 1], [3]) == "B01/S3";
    } else if k == 1 {
      assert ChampionRules[k] == Rule([0, 1], [2, 3]) && Champions[k] == "B01/S23";
      assert BsRegex.Notation([0, 1], [2, 3]) == "B01/S23";
    } else if k == 2 {
      assert ChampionRules[k] == Rule([0, 1], [3, 4]) && Champions[k] == "B01/S34";
      assert BsRegex.Notation([0, 1], [3, 4]) == "B01/S34";
    } else if k == 3 {
      assert ChampionRules[k] == Rule([0, 1], [2]) && Champions[k] == "B01/S2";
      assert BsRegex.Notation([0, 1], [2]) == "B01/S2";
    } else if k == 4 {
      assert ChampionRules[k] == Rule([0, 1], [4]) && Champions[k] == "B01/S4";
      assert BsRegex.Notation([0, 1], [4]) == "B01/S4";
    } else if k == 5 {
      assert ChampionRules[k] == Rule([0, 1], [1, 3]) && Champions[k] == "B01/S13";
      assert BsRegex.Notation([0, 1], [1, 3]) == "B01/S13";
    } else {
      assert ChampionRules[k] == Rule([4, 6], [5, 8]) && Champions[k] == "B46/S58";
      assert BsRegex.Notation([4, 6], [5, 8]) == "B46/S58";
    }
  }

  lemma ChampionRulesInRange(k: nat)
    requires k < |Champions|
    ensures BsRegex.InRange08(ChampionRules[k].born) && BsRegex.InRange08(ChampionRules[k].survive)
  {
    assert ChampionRules[k].born in {[0, 1], [4, 6]};
    assert ChampionRules[k].survive in {[3], [2, 3], [3, 4], [2], [4], [1, 3], [5, 8]};
  }

  /** Every champion notation parses, to the rule listed beside it. */
  lemma ChampionsParse(k: nat)
    requires k < |Champions|
    ensures CaMemory.ParseRule(CaMemory.Text(Champions[k])) == Ok(ChampionRules[k])
  {
    ChampionNotation(k);
    CaMemory.ParseRuleRoundTrip(ChampionRules[k].born, ChampionRules[k].survive);
  }

  datatype Ensemble = Ensemble(width: nat, height: nat, steps: nat,
                               engines: seq<CaMemory.Engine>, hopfield: HopfieldMemory.Engine)

  /** The shape every ensemble keeps: one CA engine per champion over the ensemble's board. */
  predicate Valid(m: Ensemble) {
    && |m.engines| == |Champions|
    && (forall k :: 0 <= k < |m.engines| ==>
          m.engines[k].width == m.width && m.engines[k].height == m.height && m.engines[k].steps == m.steps)
    && HopfieldMemory.Valid(m.hopfield)
  }

  /** `new MemoryAI({ width, height, steps })`: one engine per champion, in roster order. */
  function New(width: Option<nat>, height: Option<nat>, steps: Option<nat>): (m: Ensemble)
    ensures Valid(m)
    ensures m.width == width.GetOr(DefaultWidth) && m.height == height.GetOr(DefaultHeight)
    ensures m.steps == steps.GetOr(DefaultSteps)
    ensures forall k :: 0 <= k < |Champions| ==> m.engines[k].rule == ChampionRules[k] && m.engines[k].stored == []
    ensures m.hopfield == HopfieldMemory.Create(Some(m.width), Some(m.height))
  {
    var w, h, s := width.GetOr(DefaultWidth), height.GetOr(DefaultHeight), steps.GetOr(DefaultSteps);
    var engines := seq(|Champions|, (k: int) requires 0 <= k < |Champions| => CaMemory.Engine(ChampionRules[k], w, h, s, []));
    Ensemble(w, h, s, engines, HopfieldMemory.Create(Some(w), Some(h)))
  }

  /** Each CA engine of a new ensemble is what `createMemoryEngine` builds from the champion's notation. */
  lemma NewIsCreate(width: Option<nat>, height: Option<nat>, steps: Option<nat>)
    ensures var m := New(width, height, steps);
            forall k :: 0 <= k < |Champions| ==>
              CaMemory.Create(CaMemory.Text(Champions[k]), m.width, m.height, m.steps) == Ok(m.engines[k])
  {
    var m := New(width, height, steps);
    forall k | 0 <= k < |Champions|
      ensures CaMemory.Create(CaMemory.Text(Champions[k]), m.width, m.height, m.steps) == Ok(m.engines[k])
    {
      ChampionsParse(k);
    }
  }

  /** `store(patterns)`: every engine gets the same patterns. */
  function Store(m: Ensemble, patterns: seq<seq<int>>): (m': Ensemble)
    requires Valid(m)
    ensures Valid(m')
    ensures m'.width == m.width && m'.height == m.height && m'.steps == m.steps
    ensures forall k :: 0 <= k < |m.engines| ==> m'.engines[k] == CaMemory.Store(m.engines[k], patterns)
    ensures m'.hopfield == HopfieldMemory.Store(m.hopfield, patterns)
  {
    var engines := seq(|m.engines|, (k: int) requires 0 <= k < |m.engines| => CaMemory.Store(m.engines[k], patterns));
    m.(engines := engines, hopfield := HopfieldMemory.Store(m.hopfield, patterns))
  }

  /** After `store`, all eight engines hold the very same byte copies. */
  lemma StoreSharesPatterns(m: Ensemble, patterns: seq<seq<int>>)
    requires Valid(m)
    ensures forall k :: 0 <= k < |m.engines| ==> Store(m, patterns).engines[k].stored == Store(m, patterns).hopfield.stored
  {
  }

  /** One line of the ranking: `{ rule, distance, success }`. */
  datatype Entry = Entry(rule: string, distance: Dist, success: bool)

  /** The unsorted results: the CA engines in roster order, each run for the ensemble's steps, then Hopfield. */
  function Results(m: Ensemble, noisy: seq<int>, draw: (nat, nat) -> real): (rs: seq<Entry>)
    requires Valid(m) && m.width > 0 && m.height > 0 && HopfieldCore.AllDrawsInRange(draw)
    ensures |rs| == |Champions| + 1
    ensures forall k :: 0 <= k < |Champions| ==>
              var r := CaMemory.Recall(m.engines[k], noisy, Some(m.steps), None);
              rs[k] == Entry(Champions[k], r.distance, r.success)
    ensures var r := HopfieldMemory.Recall(m.hopfield, noisy, None, None, draw);
            rs[|Champions|] == Entry(HopfieldName, r.distance, r.success)
  {
    var ca := seq(|Champions|, (k: int) requires 0 <= k < |Champions| =>
      var r := CaMemory.Recall(m.engines[k], noisy, Some(m.steps), None);
      Entry(Champions[k], r.distance, r.success));
    var hr := HopfieldMemory.Recall(m.hopfield, noisy, None, None, draw);
    ca + [Entry(HopfieldName, hr.distance, hr.success)]
  }

  /** The comparator `(a, b) => a.distance - b.distance`; `Infinity - Infinity` is NaN, which counts as a tie. */
  predicate ByDistance(a: Entry, b: Entry) {
    a.distance.AtMost(b.distance)
  }

  lemma ByDistanceIsTotalPreorder()
    ensures Sorting.TotalPreorder(ByDistance)
  {
  }

  datatype Ranking = Ranking(best: Entry, all: seq<Entry>)

  /** `recall(noisy)`: all eight results, stably sorted by distance; the best is the first. */
  function Recall(m: Ensemble, noisy: seq<int>, draw: (nat, nat) -> real): (r: Ranking)
    requires Valid(m) && m.width > 0 && m.height > 0 && HopfieldCore.AllDrawsInRange(draw)
    ensures |r.all| == |Champions| + 1
    ensures multiset(r.all) == multiset(Results(m, noisy, draw))
    ensures Sorting.SortedBy(ByDistance, r.all)
    ensures r.best == r.all[0]
    ensures forall e :: e in r.all ==> r.best.distance.AtMost(e.distance)
  {
    Rank(Results(m, noisy, draw))
  }

  /** The stable sort by distance of a non-empty result list, and its head. */
  function Rank(rs: seq<Entry>): (r: Ranking)
    requires |rs| > 0
    ensures |r.all| == |rs|
    ensures multiset(r.all) == multiset(rs)
    ensures Sorting.SortedBy(ByDistance, r.all)
    ensures r.best == r.all[0]
    ensures forall e :: e in r.all ==> r.best.distance.AtMost(e.distance)
  {
    var all := Sorting.SortBy(ByDistance, rs);
    ByDistanceIsTotalPreorder();
    Sorting.SortBySorted(ByDistance, rs);
    assert forall k :: 0 < k < |all| ==> ByDistance(all[0], all[k]);
    Ranking(all[0], all)
  }

  /** The best entry always names one of the eight engines. */
  lemma BestOnRoster(m: Ensemble, noisy: seq<int>, draw: (nat, nat) -> real)
    requires Valid(m) && m.width > 0 && m.height > 0 && HopfieldCore.AllDrawsInRange(draw)
    ensures Recall(m, noisy, draw).best.rule in Champions + [HopfieldName]
  {
    var rs := Results(m, noisy, draw);
    var r := Recall(m, noisy, draw);
    assert r.best in multiset(r.all);
    EntryOnRoster(rs, r.best);
  }

  /** An entry drawn from a list whose rules follow the roster names an engine of the roster. */
  lemma EntryOnRoster(rs: seq<Entry>, e: Entry)
    requires |rs| == |Champions| + 1
    requires forall k :: 0 <= k < |Champions| ==> rs[k].rule == Champions[k]
    requires rs[|Champions|].rule == HopfieldName
    requires e in multiset(rs)
    ensures e.rule in Champions + [HopfieldName]
  {
    var k :| 0 <= k < |rs| && rs[k] == e;
    if k < |Champions| {
      assert (Champions + [HopfieldName])[k] == Champions[k];
    } else {
      assert (Champions + [HopfieldName])[|Champions|] == HopfieldName;
    }
  }

  /** Ties keep roster order: the best is the first engine, in roster order, with the least distance. */
  lemma BestIsFirstLeast(m: Ensemble, noisy: seq<int>, draw: (nat, nat) -> real)
    requires Valid(m) && m.width > 0 && m.height > 0 && HopfieldCore.AllDrawsInRange(draw)
    ensures var rs := Results(m, noisy, draw);
            var k := Sorting.FirstLeast(ByDistance, rs);
            Recall(m, noisy, draw).best == rs[k] &&
            (forall j :: 0 <= j < k ==> rs[k].distance.Less(rs[j].distance))
  {
    var rs := Results(m, noisy, draw);
    ByDistanceIsTotalPreorder();
    Sorting.SortByHeadIsFirstLeast(ByDistance, rs);
    Sorting.FirstLeastIsLeast(ByDistance, rs);
  }

  /** When every distance is `Infinity` all eight tie, and the stable sort keeps the first entry first. */
  lemma AllInfiniteKeepsFirst(rs: seq<Entry>)
    requires |rs| > 0 && forall j :: 0 <= j < |rs| ==> rs[j].distance == Infinity
    ensures Sorting.SortBy(ByDistance, rs)[0] == rs[0]
  {
    ByDistanceIsTotalPreorder();
    Sorting.SortByHeadIsFirstLeast(ByDistance, rs);
    Sorting.FirstLeastIsLeast(ByDistance, rs);
    var k := Sorting.FirstLeast(ByDistance, rs);
    if k > 0 {
      assert ByDistance(rs[0], rs[k]);
      assert false;
    }
  }

  /** With nothing stored every distance is `Infinity`, so the first champion, B01/S3, is reported best and fails. */
  lemma NothingStoredBest(width: Option<nat>, height: Option<nat>, steps: Option<nat>, noisy: seq<int>, draw: (nat, nat) -> real)
    requires width.GetOr(DefaultWidth) > 0 && height.GetOr(DefaultHeight) > 0 && HopfieldCore.AllDrawsInRange(draw)
    ensures Recall(New(width, height, steps), noisy, draw).best == Entry("B01/S3", Infinity, false)
  {
    var m := New(width, height, steps);
    var rs := Results(m, noisy, draw);
    forall j | 0 <= j < |rs|
      ensures rs[j].distance == Infinity
    {
      if j < |Champions| {
        assert m.engines[j].stored == [];
      } else {
        assert m.hopfield.stored == [];
      }
    }
    assert rs[0].rule == "B01/S3";
    AllInfiniteKeepsFirst(rs);
  }
}

=== FILE: memory_capacity.dfy ===
/**
 `experiments/memory-ai-lab/memoryCapacity.js`: the strict notation
 parser, the deterministic 3×3 block patterns, and the choice of the
 maximal capacity from the per-configuration recall averages. The recall
 rates themselves come from simulation and are the oracle `recall(c, n)`
 for configuration c at noise level n.
 */
module MemoryCapacity {
  import opened Wrappers
  import opened JsFloat
  import BsRegex
  import CaMemory
  import JsNumbers
  import Arith

  // ----------------------------------------------------------- parseNotation

  datatype Parsed = Parsed(born: seq<int>, survive: seq<int>, name: string)

  /** `parseNotation(notation)`: `/B([0-8]+)\/S([0-8]*)/`, so at least one born digit. */
  function ParseNotation(notation: string): (r: Result<Parsed>)
    ensures r.Err? <==> BsRegex.MatchBornSurvive(notation, 1).None?
    ensures r.Err? ==> r.error == Error(RuntimeError, "Invalid notation: " + notation)
    ensures r.Ok? ==> |r.value.born| >= 1 && r.value.name == notation
    ensures r.Ok? ==> BsRegex.InRange08(r.value.born) && BsRegex.InRange08(r.value.survive)
  {
    match BsRegex.MatchBornSurvive(notation, 1)
    case None => Err(Error(RuntimeError, "Invalid notation: " + notation))
    case Some((b, s)) => Ok(Parsed(BsRegex.DigitValues(b), BsRegex.DigitValues(s), notation))
  }

  /** A notation with no born digit is refused. */
  lemma NoBornRefused()
    ensures ParseNotation("B/S3").Err?
  {
    var s := "B/S3";
    assert BsRegex.RunLength(s, 1) == 0;
    assert !BsRegex.MatchesAt(s, 0, 1);
    BsRegex.MatchFromNone(s, 0, 1);
  }

  /** Every canonical notation with at least one born digit reads back as itself. */
  lemma ParseNotationRoundTrip(born: seq<int>, survive: seq<int>)
    requires BsRegex.InRange08(born) && BsRegex.InRange08(survive) && |born| >= 1
    ensures ParseNotation(BsRegex.Notation(born, survive)) == Ok(Parsed(born, survive, BsRegex.Notation(born, survive)))
  {
    BsRegex.NotationRoundTrip(born, survive, 1);
    BsRegex.DigitsRoundTrip(born);
    BsRegex.DigitsRoundTrip(survive);
  }

  /**
   When the relaxed regex of the memory engine finds a born digit, the strict
   regex matches at the same place, so both read the same rule.
   */
  lemma AgreesWithRelaxedParser(notation: string)
    requires CaMemory.ParseRule(CaMemory.Text(notation)).Ok?
    requires |CaMemory.ParseRule(CaMemory.Text(notation)).value.born| >= 1
    ensures ParseNotation(notation).Ok?
    ensures ParseNotation(notation).value.born == CaMemory.ParseRule(CaMemory.Text(notation)).value.born
    ensures ParseNotation(notation).value.survive == CaMemory.ParseRule(CaMemory.Text(notation)).value.survive
  {
    StrictScanAgrees(notation, 0);
  }

  /** From any index, a relaxed match with a nonempty born group is also the strict match. */
  lemma {:induction false} StrictScanAgrees(s: string, i: nat)
    requires i <= |s|
    requires BsRegex.MatchFrom(s, i, 0).Some? && |BsRegex.MatchFrom(s, i, 0).value.0| >= 1
    ensures BsRegex.MatchFrom(s, i, 1) == BsRegex.MatchFrom(s, i, 0)
    decreases |s| - i
  {
    if !BsRegex.MatchesAt(s, i, 0) {
      StrictScanAgrees(s, i + 1);
    }
  }

  // -------------------------------------------------- generateSimplePatterns

  const DefaultSize: nat := 32

  function OffsetX(i: nat): nat {
    10 + (i % 3) * 8
  }

  function OffsetY(i: nat): nat {
    10 + (i / 3) * 8
  }

  /**
   Cell k (column k % size, row k / size) is among the cells written once
   the first `rows` rows of block i and `cols` cells of the next row are done.
   */
  predicate Done(i: nat, size: nat, k: nat, rows: nat, cols: nat) {
    && size > 0
    && var x, y := k % size, k / size;
    || (OffsetY(i) <= y < OffsetY(i) + rows && OffsetX(i) <= x < OffsetX(i) + 3)
    || (y == OffsetY(i) + rows && OffsetX(i) <= x < OffsetX(i) + cols)
  }

  /** Cell k lies in the 3×3 block of pattern i. */
  predicate InBlock(i: nat, size: nat, k: nat) {
    Done(i, size, k, 3, 0)
  }

  /** Writing cell (ox + dx, oy + dy), when it is on the board, marks exactly that cell. */
  lemma WriteStep(i: nat, size: nat, dy: nat, dx: nat, k: nat)
    requires size > 0 && k < size * size
    ensures var x, y := OffsetX(i) + dx, OffsetY(i) + dy;
            Done(i, size, k, dy, dx + 1) <==> Done(i, size, k, dy, dx) || (x < size && y < size && k == y * size + x)
  {
    var x, y := OffsetX(i) + dx, OffsetY(i) + dy;
    var kx, ky := k % size, k / size;
    assert k == ky * size + kx;
    if x < size && y < size && k == y * size + x {
      Arith.DivModUnique(k, size, y, x);
    }
  }

  /** The grid holds 1 exactly on the cells written so far. */
  predicate Written(grid: seq<int>, i: nat, size: nat, rows: nat, cols: nat) {
    && |grid| == size * size
    && forall k :: 0 <= k < size * size ==> grid[k] == if Done(i, size, k, rows, cols) then 1 else 0
  }

  /** One pass of the inner loop body keeps `Written` one cell further on. */
  lemma WriteKeeps(grid: seq<int>, i: nat, size: nat, dy: nat, dx: nat)
    requires Written(grid, i, size, dy, dx)
    ensures var x, y := OffsetX(i) + dx, OffsetY(i) + dy;
            x < size && y < size ==> y * size + x < size * size && Written(grid[y * size + x := 1], i, size, dy, dx + 1)
    ensures var x, y := OffsetX(i) + dx, OffsetY(i) + dy;
            !(x < size && y < size) ==> Written(grid, i, size, dy, dx + 1)
  {
    var x, y := OffsetX(i) + dx, OffsetY(i) + dy;
    var g' := if x < size && y < size then Arith.IndexBound(x, y, size, size); grid[y * size + x := 1] else grid;
    forall k | 0 <= k < size * size
      ensures g'[k] == if Done(i, size, k, dy, dx + 1) then 1 else 0
    {
      WriteStep(i, size, dy, dx, k);
    }
  }

  /** The grid of pattern i: `new Uint8Array(size * size)`, then the in-bounds cells of its block set to 1. */
  method PatternGrid(i: nat, size: nat) returns (grid: seq<int>)
    ensures |grid| == size * size
    ensures forall k :: 0 <= k < size * size ==> grid[k] == if InBlock(i, size, k) then 1 else 0
  {
    grid := seq(size * size, _ => 0);
    var ox, oy := OffsetX(i), OffsetY(i);
    var dy := 0;
    while dy < 3
      invariant 0 <= dy <= 3 && Written(grid, i, size, dy, 0)
    {
      var dx := 0;
      while dx < 3
        invariant 0 <= dx <= 3 && Written(grid, i, size, dy, dx)
      {
        var x, y := ox + dx, oy + dy;
        WriteKeeps(grid, i, size, dy, dx);
        if x < size && y < size {
          grid := grid[y * size + x := 1];
        }
        dx := dx + 1;
      }
      assert forall k :: Done(i, size, k, dy, 3) == Done(i, size, k, dy + 1, 0);
      dy := dy + 1;
    }
  }

  /** The top-left cell of a block that starts on the board belongs to that block and to no other. */
  lemma PatternsDistinct(i: nat, j: nat, size: nat)
    requires i != j && OffsetX(i) < size && OffsetY(i) < size
    ensures var k := OffsetY(i) * size + OffsetX(i);
            k < size * size && InBlock(i, size, k) && !InBlock(j, size, k)
  {
    var k := OffsetY(i) * size + OffsetX(i);
    Arith.IndexBound(OffsetX(i), OffsetY(i), size, size);
    Arith.DivModUnique(k, size, OffsetY(i), OffsetX(i));
    if InBlock(j, size, k) {
      OffsetsSeparate(i, j);
      assert false;
    }
  }

  /** Block corners lie 8 apart, so two blocks whose corners are within 3 of each other are the same block. */
  lemma OffsetsSeparate(i: nat, j: nat)
    ensures OffsetX(j) <= OffsetX(i) < OffsetX(j) + 3 && OffsetY(j) <= OffsetY(i) < OffsetY(j) + 3 ==> i == j
  {
    if OffsetX(j) <= OffsetX(i) < OffsetX(j) + 3 && OffsetY(j) <= OffsetY(i) < OffsetY(j) + 3 {
      assert i % 3 == j % 3;
      assert i / 3 == j / 3;
      assert i == 3 * (i / 3) + i % 3;
      assert j == 3 * (j / 3) + j % 3;
    }
  }

  datatype Pattern = Pattern(id: string, name: string, grid: seq<int>, width: nat, height: nat)

  /** Pattern i of a board of side s: its id, its display name and its 3×3 block. */
  predicate PatternOk(p: Pattern, i: nat, s: nat) {
    && p.id == "capacity_" + JsNumbers.DecimalString(i)
    && p.name == "Pattern " + JsNumbers.DecimalString(i + 1)
    && p.width == p.height == s
    && |p.grid| == s * s
    && forall k :: 0 <= k < s * s ==> p.grid[k] == if InBlock(i, s, k) then 1 else 0
  }

  /** `generateSimplePatterns(count, size = 32)`. */
  method GenerateSimplePatterns(count: nat, size: Option<nat>) returns (ps: seq<Pattern>)
    ensures |ps| == count
    ensures forall i :: 0 <= i < count ==> PatternOk(ps[i], i, size.GetOr(DefaultSize))
  {
    var s := size.GetOr(DefaultSize);
    ps := [];
    var i := 0;
    while i < count
      invariant 0 <= i <= count && |ps| == i
      invariant forall j :: 0 <= j < i ==> PatternOk(ps[j], j, s)
    {
      var grid := PatternGrid(i, s);
      ps := ps + [Pattern("capacity_" + JsNumbers.DecimalString(i), "Pattern " + JsNumbers.DecimalString(i + 1), grid, s, s)];
      i := i + 1;
    }
  }
  // ------------------------------------------------------------- maxCapacity

  datatype Capacity = Count(n: nat) | BelowThree

  /** One configuration's average: `{ count, avgRecall }`; NaN when there are no noise levels. */
  datatype CapacityConfig = CapacityConfig(count: nat, avgRecall: Num)

  /** `c.avgRecall >= 90`; NaN never qualifies. */
  predicate Meets(c: CapacityConfig) {
    c.avgRecall.Real? && c.avgRecall.v >= 90.0
  }

  /** `capacityConfigs.filter(c => c.avgRecall >= 90)`. */
  function Qualifying(cs: seq<CapacityConfig>): (q: seq<CapacityConfig>)
    ensures forall c :: c in q ==> c in cs && Meets(c)
  {
    if |cs| == 0 then []
    else Qualifying(cs[..|cs| - 1]) + (if Meets(cs[|cs| - 1]) then [cs[|cs| - 1]] else [])
  }

  /** `.pop()` of the qualifying list: its count, or `'<3'` when none qualifies. */
  function MaxCapacity(cs: seq<CapacityConfig>): Capacity {
    var q := Qualifying(cs);
    if |q| == 0 then BelowThree else Count(q[|q| - 1].count)
  }

  /** The capacity is that of the last configuration, in list order, whose average reaches 90. */
  lemma {:induction false} MaxCapacityIsLastMeeting(cs: seq<CapacityConfig>)
    ensures MaxCapacity(cs).BelowThree? <==> forall k :: 0 <= k < |cs| ==> !Meets(cs[k])
    ensures MaxCapacity(cs).Count? ==>
              exists k :: 0 <= k < |cs| && Meets(cs[k]) && cs[k].count == MaxCapacity(cs).n &&
                          forall j :: k < j < |cs| ==> !Meets(cs[j])
  {
    if |cs| > 0 {
      var n := |cs| - 1;
      var pre := cs[..n];
      assert forall k :: 0 <= k < n ==> cs[k] == pre[k];
      if Meets(cs[n]) {
        MeetingLastDecides(cs);
      } else {
        MaxCapacityIsLastMeeting(pre);
        assert Qualifying(cs) == Qualifying(pre);
        if MaxCapacity(pre).Count? {
          var k :| 0 <= k < n && Meets(pre[k]) && pre[k].count == MaxCapacity(pre).n &&
                   forall j :: k < j < n ==> !Meets(pre[j]);
          assert Meets(cs[k]) && forall j :: k < j < |cs| ==> !Meets(cs[j]);
        }
      }
    }
  }

  /** When the last configuration qualifies, its count is the capacity. */
  lemma MeetingLastDecides(cs: seq<CapacityConfig>)
    requires |cs| > 0 && Meets(cs[|cs| - 1])
    ensures MaxCapacity(cs) == Count(cs[|cs| - 1].count)
  {
    var q := Qualifying(cs);
    assert q == Qualifying(cs[..|cs| - 1]) + [cs[|cs| - 1]];
  }

  datatype Detail = Detail(patternCount: nat, noise: real, recall: real)

  datatype Config = Config(size: nat, count: nat)

  /** The results of configuration c over the noise levels `n < m`, recall in percent. */
  function RowDetails(configs: seq<Config>, levels: seq<real>, recall: (nat, nat) -> real, c: nat, m: nat): (ds: seq<Detail>)
    requires c < |configs| && m <= |levels|
    ensures |ds| == m
    ensures forall d :: d in ds ==> d.patternCount == configs[c].count
  {
    if m == 0 then [] else RowDetails(configs, levels, recall, c, m - 1) + [Detail(configs[c].count, levels[m - 1], recall(c, m - 1) * 100.0)]
  }

  /** `ruleResults`: configurations in order, and within one, the noise levels in order. */
  function Details(configs: seq<Config>, levels: seq<real>, recall: (nat, nat) -> real, n: nat): (ds: seq<Detail>)
    requires n <= |configs|
  {
    if n == 0 then []
    else
      var row := RowDetails(configs, levels, recall, n - 1, |levels|);
      Details(configs, levels, recall, n - 1) + row
  }

  /** `.filter(r => r.patternCount === count).reduce((sum, r) => sum + r.recall, 0)`. */
  function SumFor(ds: seq<Detail>, count: nat): real {
    if |ds| == 0 then 0.0
    else SumFor(ds[..|ds| - 1], count) + (if ds[|ds| - 1].patternCount == count then ds[|ds| - 1].recall else 0.0)
  }

  /** The sum divided by the number of noise levels; 0 / 0 is NaN. */
  function Average(sum: real, levels: nat): Num {
    if levels == 0 then NaN else Real(sum / levels as real)
  }

  /** `capacityConfigs` of one rule. */
  function CapacityConfigs(configs: seq<Config>, levels: seq<real>, recall: (nat, nat) -> real): (cs: seq<CapacityConfig>)
    ensures |cs| == |configs|
    ensures forall c :: 0 <= c < |configs| ==> cs[c].count == configs[c].count
  {
    var ds := Details(configs, levels, recall, |configs|);
    seq(|configs|, (c: int) requires 0 <= c < |configs| =>
      CapacityConfig(configs[c].count, Average(SumFor(ds, configs[c].count), |levels|)))
  }

  /** The sum of configuration c's own recall percentages over the first m noise levels. */
  function OwnSum(recall: (nat, nat) -> real, c: nat, m: nat): real {
    if m == 0 then 0.0 else OwnSum(recall, c, m - 1) + recall(c, m - 1) * 100.0
  }

  lemma {:induction false} SumForAppend(a: seq<Detail>, b: seq<Detail>, count: nat)
    ensures SumFor(a + b, count) == SumFor(a, count) + SumFor(b, count)
    decreases |b|
  {
    if |b| == 0 {
      assert a + b == a;
    } else {
      SumForAppend(a, b[..|b| - 1], count);
      assert (a + b)[..|a + b| - 1] == a + b[..|b| - 1];
      assert (a + b)[|a + b| - 1] == b[|b| - 1];
    }
  }

  lemma {:induction false} RowSum(configs: seq<Config>, levels: seq<real>, recall: (nat, nat) -> real, c: nat, m: nat, count: nat)
    requires c < |configs| && m <= |levels|
    ensures SumFor(RowDetails(configs, levels, recall, c, m), count) ==
            if configs[c].count == count then OwnSum(recall, c, m) else 0.0
  {
    if m > 0 {
      RowSum(configs, levels, recall, c, m - 1, count);
      var row := RowDetails(configs, levels, recall, c, m);
      assert row[..m - 1] == RowDetails(configs, levels, recall, c, m - 1);
    }
  }

  /** The sum, over the first n configurations, of the own recall of those whose count is `count`. */
  function OwnedBy(configs: seq<Config>, recall: (nat, nat) -> real, m: nat, n: nat, count: nat): real
    requires n <= |configs|
  {
    if n == 0 then 0.0
    else OwnedBy(configs, recall, m, n - 1, count) + (if configs[n - 1].count == count then OwnSum(recall, n - 1, m) else 0.0)
  }

  /** The details' sum for a count gathers the own recall of every configuration with that count. */
  lemma {:induction false} DetailsSumIsOwnedBy(configs: seq<Config>, levels: seq<real>, recall: (nat, nat) -> real, n: nat, count: nat)
    requires n <= |configs|
    ensures SumFor(Details(configs, levels, recall, n), count) == OwnedBy(configs, recall, |levels|, n, count)
  {
    if n > 0 {
      DetailsSumIsOwnedBy(configs, levels, recall, n - 1, count);
      DetailsStep(configs, levels, recall, n, count);
    }
  }

  /** With distinct counts, configuration c is the only one that contributes to its own count. */
  lemma {:induction false} OwnedByDistinct(configs: seq<Config>, recall: (nat, nat) -> real, m: nat, n: nat, c: nat)
    requires c < n <= |configs|
    requires forall a, b :: 0 <= a < b < |configs| ==> configs[a].count != configs[b].count
    ensures OwnedBy(configs, recall, m, n, configs[c].count) == OwnSum(recall, c, m)
  {
    if c < n - 1 {
      OwnedByDistinct(configs, recall, m, n - 1, c);
      assert configs[c].count != configs[n - 1].count;
    } else {
      OwnedByNone(configs, recall, m, c, configs[c].count);
    }
  }

  /** No configuration among the first n has the count, so nothing is gathered. */
  lemma {:induction false} OwnedByNone(configs: seq<Config>, recall: (nat, nat) -> real, m: nat, n: nat, count: nat)
    requires n <= |configs|
    requires forall a :: 0 <= a < n ==> configs[a].count != count
    ensures OwnedBy(configs, recall, m, n, count) == 0.0
  {
    if n > 0 {
      OwnedByNone(configs, recall, m, n - 1, count);
    }
  }

  lemma DetailsSum(configs: seq<Config>, levels: seq<real>, recall: (nat, nat) -> real, n: nat, c: nat)
    requires c < n <= |configs|
    requires forall a, b :: 0 <= a < b < |configs| ==> configs[a].count != configs[b].count
    ensures SumFor(Details(configs, levels, recall, n), configs[c].count) == OwnSum(recall, c, |levels|)
  {
    DetailsSumIsOwnedBy(configs, levels, recall, n, configs[c].count);
    OwnedByDistinct(configs, recall, |levels|, n, c);
  }

  /** The n-th configuration's row adds its own sum to its count and nothing to any other. */
  lemma DetailsStep(configs: seq<Config>, levels: seq<real>, recall: (nat, nat) -> real, n: nat, count: nat)
    requires 0 < n <= |configs|
    ensures SumFor(Details(configs, levels, recall, n), count) ==
            SumFor(Details(configs, levels, recall, n - 1), count)
            + (if configs[n - 1].count == count then OwnSum(recall, n - 1, |levels|) else 0.0)
  {
    var row := RowDetails(configs, levels, recall, n - 1, |levels|);
    SumForAppend(Details(configs, levels, recall, n - 1), row, count);
    RowSum(configs, levels, recall, n - 1, |levels|, count);
  }

  /**
   With distinct pattern counts, each configuration's average is the mean
   of its own recall percentages over the noise levels.
   */
  lemma AverageIsOwnMean(configs: seq<Config>, levels: seq<real>, recall: (nat, nat) -> real, c: nat)
    requires c < |configs| && |levels| > 0
    requires forall a, b :: 0 <= a < b < |configs| ==> configs[a].count != configs[b].count
    ensures CapacityConfigs(configs, levels, recall)[c].avgRecall == Real(OwnSum(recall, c, |levels|) / |levels| as real)
  {
    DetailsSum(configs, levels, recall, |configs|, c);
  }

  /** `capacityConfigs.reduce((sum, c) => sum + c.avgRecall, 0)`. */
  function SumRecall(cs: seq<CapacityConfig>): Num {
    if |cs| == 0 then Real(0.0) else Add(SumRecall(cs[..|cs| - 1]), cs[|cs| - 1].avgRecall)
  }

  /** The rule's overall average: the sum over configurations divided by their number. */
  function OverallRecall(cs: seq<CapacityConfig>): Num {
    if |cs| == 0 then NaN
    else match SumRecall(cs)
      case NaN => NaN
      case Real(v) => Real(v / |cs| as real)
  }

  lemma {:induction false} SumRecallNaN(cs: seq<CapacityConfig>)
    ensures SumRecall(cs).NaN? <==> exists k :: 0 <= k < |cs| && cs[k].avgRecall.NaN?
  {
    if |cs| > 0 {
      var pre := cs[..|cs| - 1];
      SumRecallNaN(pre);
      assert forall k :: 0 <= k < |pre| ==> pre[k] == cs[k];
    }
  }

  /** The overall average is NaN exactly when there are no configurations or one of them averaged to NaN. */
  lemma OverallRecallNaN(cs: seq<CapacityConfig>)
    ensures OverallRecall(cs).NaN? <==> |cs| == 0 || exists k :: 0 <= k < |cs| && cs[k].avgRecall.NaN?
  {
    SumRecallNaN(cs);
  }

  /** With at least one noise level no configuration averages to NaN. */
  lemma NoLevelsNoNaN(configs: seq<Config>, levels: seq<real>, recall: (nat, nat) -> real)
    ensures var cs := CapacityConfigs(configs, levels, recall);
            (forall k :: 0 <= k < |cs| ==> cs[k].avgRecall.Real?) <==> (|levels| > 0 || |configs| == 0)
  {
    if |configs| > 0 && |levels| == 0 {
      assert CapacityConfigs(configs, levels, recall)[0].avgRecall == NaN;
    }
  }

  // -------------------------------------------- one average per configuration

  /**
   The average each configuration is meant to have: the mean of its own
   recall percentages. The pooled `CapacityConfigs` agrees with it when the
   pattern counts are distinct (`AverageIsOwnMean`), as in the default suite.
   */
  function OwnAverages(configs: seq<Config>, levels: seq<real>, recall: (nat, nat) -> real): (cs: seq<CapacityConfig>)
    ensures |cs| == |configs|
    ensures forall c :: 0 <= c < |configs| ==> cs[c].count == configs[c].count
  {
    seq(|configs|, (c: int) requires 0 <= c < |configs| =>
      CapacityConfig(configs[c].count, Average(OwnSum(recall, c, |levels|), |levels|)))
  }

  /** The maximal capacity of one rule, from its own per-configuration averages. */
  function SuiteCapacity(configs: seq<Config>, levels: seq<real>, recall: (nat, nat) -> real): Capacity {
    MaxCapacity(OwnAverages(configs, levels, recall))
  }

  /** With distinct pattern counts the pooled and the per-configuration averages coincide. */
  lemma PooledIsOwnWhenDistinct(configs: seq<Config>, levels: seq<real>, recall: (nat, nat) -> real)
    requires |levels| > 0
    requires forall a, b :: 0 <= a < b < |configs| ==> configs[a].count != configs[b].count
    ensures CapacityConfigs(configs, levels, recall) == OwnAverages(configs, levels, recall)
  {
    var pooled, own := CapacityConfigs(configs, levels, recall), OwnAverages(configs, levels, recall);
    forall c | 0 <= c < |configs|
      ensures pooled[c] == own[c]
    {
      AverageIsOwnMean(configs, levels, recall, c);
    }
  }

  lemma {:induction false} OwnSumBounds(recall: (nat, nat) -> real, c: nat, m: nat)
    requires forall n :: 0 <= n < m ==> 0.0 <= recall(c, n) <= 1.0
    ensures 0.0 <= OwnSum(recall, c, m) <= 100.0 * m as real
  {
    if m > 0 {
      OwnSumBounds(recall, c, m - 1);
    }
  }

  /** With recall rates in [0, 1], every per-configuration average is a percentage in [0, 100]. */
  lemma OwnAverageIsPercentage(configs: seq<Config>, levels: seq<real>, recall: (nat, nat) -> real, c: nat)
    requires c < |configs| && |levels| > 0
    requires forall n :: 0 <= n < |levels| ==> 0.0 <= recall(c, n) <= 1.0
    ensures var a := OwnAverages(configs, levels, recall)[c].avgRecall;
            a.Real? && 0.0 <= a.v <= 100.0
  {
    var m := |levels| as real;
    var sum := OwnSum(recall, c, |levels|);
    OwnSumBounds(recall, c, |levels|);
    Arith.QuotientBounds(sum, m, 100.0);
  }

  /**
   Two configurations that share a count pool their results: both of 32×32
   and 16×16 with three patterns, at one noise level where every recall
   succeeds, report an average of 200 %, and the per-configuration average
   100 %.
   */
  lemma PooledCounterexample()
    ensures var configs, levels, recall := [Config(32, 3), Config(16, 3)], [0.01], (c: nat, n: nat) => 1.0;
            && CapacityConfigs(configs, levels, recall)[0].avgRecall == Real(200.0)
            && OwnAverages(configs, levels, recall)[0].avgRecall == Real(100.0)
  {
    var configs, levels, recall := [Config(32, 3), Config(16, 3)], [0.01], (c: nat, n: nat) => 1.0;
    var d1 := Details(configs, levels, recall, 1);
    var row0 := RowDetails(configs, levels, recall, 0, 1);
    var row1 := RowDetails(configs, levels, recall, 1, 1);
    assert row0 == [Detail(3, 0.01, 100.0)];
    assert row1 == [Detail(3, 0.01, 100.0)];
    assert d1 == row0;
    var ds := Details(configs, levels, recall, 2);
    assert ds == [Detail(3, 0.01, 100.0), Detail(3, 0.01, 100.0)];
    assert ds[..1] == [Detail(3, 0.01, 100.0)];
    assert ds[..1][..0] == [];
    assert SumFor(ds[..1], 3) == 100.0;
    assert SumFor(ds, 3) == 200.0;
  }
}

=== FILE: meta_pareto.dfy ===
/**
 isinglab/meta_learner/pareto.py: Pareto dominance over named objectives
 (a missing score reads as 0), the non-dominated front of a rule list, and
 the Hall-of-Fame selection that merges, truncates by mean score, thins out
 near-duplicates by rule distance, and reports what was promoted and what
 was removed. Scores are floats, read as exact reals.
 */
module MetaPareto {
  import opened Wrappers
  import PyText
  import PyList
  import Sorting

  /** A rule dictionary: its scores, `notation` (possibly absent), `born` and `survive` (`[]` when absent). */
  datatype HofRule = HofRule(scores: map<string, real>, notation: Option<string>, born: seq<int>, survive: seq<int>)

  /** `rule.get(obj, 0)`. */
  function Score(r: HofRule, obj: string): real {
    if obj in r.scores then r.scores[obj] else 0.0
  }

  predicate AllAtLeast(a: HofRule, b: HofRule, objs: seq<string>) {
    forall k :: 0 <= k < |objs| ==> Score(a, objs[k]) >= Score(b, objs[k])
  }

  predicate SomeAbove(a: HofRule, b: HofRule, objs: seq<string>) {
    exists k :: 0 <= k < |objs| && Score(a, objs[k]) > Score(b, objs[k])
  }

  // ---------------------------------------------------------------- dominates

  /** The loop of `dominates` from one objective on; `better` is `strictly_better_any` so far. */
  function DominatesFrom(a: HofRule, b: HofRule, objs: seq<string>, better: bool): bool
    decreases |objs|
  {
    if |objs| == 0 then better
    else if Score(a, objs[0]) < Score(b, objs[0]) then false
    else DominatesFrom(a, b, objs[1..], better || Score(a, objs[0]) > Score(b, objs[0]))
  }

  lemma {:induction false} DominatesFromSpec(a: HofRule, b: HofRule, objs: seq<string>, better: bool)
    ensures DominatesFrom(a, b, objs, better) <==> AllAtLeast(a, b, objs) && (better || SomeAbove(a, b, objs))
    decreases |objs|
  {
    if |objs| > 0 {
      var rest := objs[1..];
      DominatesFromSpec(a, b, rest, better || Score(a, objs[0]) > Score(b, objs[0]));
      assert forall k :: 0 <= k < |rest| ==> rest[k] == objs[k + 1];
      if SomeAbove(a, b, objs) && Score(a, objs[0]) <= Score(b, objs[0]) {
        var k :| 0 <= k < |objs| && Score(a, objs[k]) > Score(b, objs[k]);
        assert rest[k - 1] == objs[k];
      }
      if AllAtLeast(a, b, rest) && Score(a, objs[0]) >= Score(b, objs[0]) {
        forall k | 0 <= k < |objs|
          ensures Score(a, objs[k]) >= Score(b, objs[k])
        {
          if k > 0 {
            assert rest[k - 1] == objs[k];
          }
        }
      }
    }
  }

  /** `dominates(rule_a, rule_b, objectives)`: at least as good everywhere and better somewhere. */
  function Dominates(a: HofRule, b: HofRule, objs: seq<string>): (d: bool)
    ensures d <==> AllAtLeast(a, b, objs) && SomeAbove(a, b, objs)
  {
    DominatesFromSpec(a, b, objs, false);
    DominatesFrom(a, b, objs, false)
  }

  /** No rule dominates itself, two rules never dominate each other, and dominance chains. */
  lemma DominanceOrder(a: HofRule, b: HofRule, c: HofRule, objs: seq<string>)
    ensures !Dominates(a, a, objs)
    ensures Dominates(a, b, objs) ==> !Dominates(b, a, objs)
    ensures Dominates(a, b, objs) && Dominates(b, c, objs) ==> Dominates(a, c, objs)
  {
    if Dominates(a, b, objs) && Dominates(b, c, objs) {
      var k :| 0 <= k < |objs| && Score(a, objs[k]) > Score(b, objs[k]);
      assert Score(a, objs[k]) > Score(c, objs[k]);
    }
    if Dominates(a, b, objs) {
      var k :| 0 <= k < |objs| && Score(a, objs[k]) > Score(b, objs[k]);
      assert !(Score(b, objs[k]) >= Score(a, objs[k]));
    }
  }

  /** With no objectives nothing dominates anything. */
  lemma NoObjectivesNoDominance(a: HofRule, b: HofRule, objs: seq<string>)
    requires |objs| == 0
    ensures !Dominates(a, b, objs)
  {
  }

  // ------------------------------------------------------------- pareto_front

  /** Whether some rule from index j on, other than rule i itself, dominates rule i. */
  function DominatedFrom(rules: seq<HofRule>, i: nat, objs: seq<string>, j: nat): bool
    requires i < |rules| && j <= |rules|
    decreases |rules| - j
  {
    if j == |rules| then false
    else (j != i && Dominates(rules[j], rules[i], objs)) || DominatedFrom(rules, i, objs, j + 1)
  }

  ghost predicate Undominated(rules: seq<HofRule>, x: HofRule, objs: seq<string>) {
    forall j :: 0 <= j < |rules| ==> !Dominates(rules[j], x, objs)
  }

  /** Skipping the rule itself changes nothing, since no rule dominates itself. */
  lemma {:induction false} DominatedFromSpec(rules: seq<HofRule>, i: nat, objs: seq<string>, j: nat)
    requires i < |rules| && j <= |rules|
    ensures DominatedFrom(rules, i, objs, j) <==> exists k :: j <= k < |rules| && Dominates(rules[k], rules[i], objs)
    decreases |rules| - j
  {
    if j < |rules| {
      DominatedFromSpec(rules, i, objs, j + 1);
      DominanceOrder(rules[i], rules[i], rules[i], objs);
      if exists k :: j <= k < |rules| && Dominates(rules[k], rules[i], objs) {
        var k :| j <= k < |rules| && Dominates(rules[k], rules[i], objs);
        if k == j {
          assert j != i;
        }
      }
    }
  }

  function FrontFrom(rules: seq<HofRule>, objs: seq<string>, i: nat): (f: seq<HofRule>)
    requires i <= |rules|
    ensures |f| <= |rules| - i
    decreases |rules| - i
  {
    if i == |rules| then []
    else (if !DominatedFrom(rules, i, objs, 0) then [rules[i]] else []) + FrontFrom(rules, objs, i + 1)
  }

  /** `pareto_front(rules, objectives)`. */
  function ParetoFront(rules: seq<HofRule>, objs: seq<string>): (f: seq<HofRule>)
    ensures |f| <= |rules|
  {
    if |rules| == 0 then [] else FrontFrom(rules, objs, 0)
  }

  lemma {:induction false} FrontFromMembers(rules: seq<HofRule>, objs: seq<string>, i: nat)
    requires i <= |rules|
    ensures forall m :: 0 <= m < |FrontFrom(rules, objs, i)| ==>
      FrontFrom(rules, objs, i)[m] in rules[i..] && Undominated(rules, FrontFrom(rules, objs, i)[m], objs)
    ensures forall k :: i <= k < |rules| && Undominated(rules, rules[k], objs) ==> rules[k] in FrontFrom(rules, objs, i)
    decreases |rules| - i
  {
    if i < |rules| {
      FrontFromMembers(rules, objs, i + 1);
      DominatedFromSpec(rules, i, objs, 0);
      assert rules[i..] == [rules[i]] + rules[i + 1..];
    }
  }

  /** The front holds exactly the rules of the list that no rule of the list dominates. */
  lemma FrontMembers(rules: seq<HofRule>, objs: seq<string>)
    ensures forall m :: 0 <= m < |ParetoFront(rules, objs)| ==>
      ParetoFront(rules, objs)[m] in rules && Undominated(rules, ParetoFront(rules, objs)[m], objs)
    ensures forall k :: 0 <= k < |rules| && Undominated(rules, rules[k], objs) ==> rules[k] in ParetoFront(rules, objs)
  {
    if |rules| > 0 {
      FrontFromMembers(rules, objs, 0);
      assert rules[0..] == rules;
    }
  }

  /** The list of a rule's objective scores. */
  function Scores(r: HofRule, objs: seq<string>): (s: seq<real>)
    ensures |s| == |objs|
  {
    seq(|objs|, (k: int) requires 0 <= k < |objs| => Score(r, objs[k]))
  }

  /** A dominating rule has a strictly larger score total. */
  lemma DominatesRaisesSum(a: HofRule, b: HofRule, objs: seq<string>)
    requires Dominates(a, b, objs)
    ensures PyList.Sum(Scores(b, objs)) < PyList.Sum(Scores(a, objs))
  {
    var k :| 0 <= k < |objs| && Score(a, objs[k]) > Score(b, objs[k]);
    PyList.SumMono(Scores(b, objs), Scores(a, objs));
    assert Scores(b, objs)[k] < Scores(a, objs)[k];
  }

  /** An index whose rule has the largest score total. */
  function MaxTotal(rules: seq<HofRule>, objs: seq<string>): (m: nat)
    requires |rules| > 0
    ensures m < |rules|
    ensures forall j :: 0 <= j < |rules| ==> PyList.Sum(Scores(rules[j], objs)) <= PyList.Sum(Scores(rules[m], objs))
    decreases |rules|
  {
    if |rules| == 1 then 0
    else
      var m := MaxTotal(rules[..|rules| - 1], objs);
      assert forall j :: 0 <= j < |rules| - 1 ==> rules[..|rules| - 1][j] == rules[j];
      if PyList.Sum(Scores(rules[|rules| - 1], objs)) > PyList.Sum(Scores(rules[m], objs)) then |rules| - 1 else m
  }

  /** A non-empty list always has a non-empty front: a rule of largest score total is undominated. */
  lemma FrontNonEmpty(rules: seq<HofRule>, objs: seq<string>)
    requires |rules| > 0
    ensures |ParetoFront(rules, objs)| > 0
  {
    var m := MaxTotal(rules, objs);
    forall j | 0 <= j < |rules|
      ensures !Dominates(rules[j], rules[m], objs)
    {
      if Dominates(rules[j], rules[m], objs) {
        DominatesRaisesSum(rules[j], rules[m], objs);
      }
    }
    FrontMembers(rules, objs);
  }

  // -------------------------------------------------------- select_pareto_hof

  /** `sum(rule.get(obj, 0) for obj in objectives) / len(objectives)`, for a non-empty list. */
  function Mean(r: HofRule, objs: seq<string>): real {
    if |objs| == 0 then 0.0 else PyList.Sum(Scores(r, objs)) / |objs| as real
  }

  const DivisionByZero := Error(ZeroDivisionError, "division by zero")

  /** Descending by mean score; the sort is stable, so ties keep front order. */
  function ByMeanDesc(objs: seq<string>): (HofRule, HofRule) -> bool {
    (a: HofRule, b: HofRule) => Mean(a, objs) >= Mean(b, objs)
  }

  /** Step 4: more than `max_size` front rules are cut to the `max_size` best by mean score. */
  function Truncate(front: seq<HofRule>, objs: seq<string>, maxSize: int): (r: Result<seq<HofRule>>)
    ensures r.Err? <==> |front| > maxSize && |objs| == 0
    ensures r.Err? ==> r.error == DivisionByZero
    ensures r.Ok? && maxSize >= 0 ==> |r.value| <= maxSize
    ensures r.Ok? ==> |r.value| <= |front| && multiset(r.value) <= multiset(front)
    ensures |front| <= maxSize ==> r == Ok(front)
  {
    if |front| > maxSize then
      if |objs| == 0 then Err(DivisionByZero)
      else
        var sorted := Sorting.SortBy(ByMeanDesc(objs), front);
        var kept := PyList.SliceTo(sorted, maxSize);
        PrefixMultiset(kept, sorted);
        Ok(kept)
    else Ok(front)
  }

  lemma PrefixMultiset<T>(p: seq<T>, s: seq<T>)
    requires p <= s
    ensures multiset(p) <= multiset(s)
  {
    assert s == p + s[|p|..];
  }

  /** `compute_hamming_distance`: the size of the symmetric differences of the digit sets. */
  function RuleDistance(a: HofRule, b: HofRule): nat {
    PyText.SymDiff(PyText.SetOf(a.born), PyText.SetOf(b.born)) + PyText.SymDiff(PyText.SetOf(a.survive), PyText.SetOf(b.survive))
  }

  /** The distance is a pseudo-metric: symmetric, 0 exactly on equal digit sets, and triangular. */
  lemma RuleDistanceMetric(a: HofRule, b: HofRule, c: HofRule)
    ensures RuleDistance(a, b) == RuleDistance(b, a)
    ensures RuleDistance(a, b) == 0 <==> PyText.SetOf(a.born) == PyText.SetOf(b.born) && PyText.SetOf(a.survive) == PyText.SetOf(b.survive)
    ensures RuleDistance(a, c) <= RuleDistance(a, b) + RuleDistance(b, c)
  {
    PyText.SymDiffSymmetric(PyText.SetOf(a.born), PyText.SetOf(b.born));
    PyText.SymDiffSymmetric(PyText.SetOf(a.survive), PyText.SetOf(b.survive));
    PyText.SymDiffZero(PyText.SetOf(a.born), PyText.SetOf(b.born));
    PyText.SymDiffZero(PyText.SetOf(a.survive), PyText.SetOf(b.survive));
    PyText.SymDiffTriangle(PyText.SetOf(a.born), PyText.SetOf(b.born), PyText.SetOf(c.born));
    PyText.SymDiffTriangle(PyText.SetOf(a.survive), PyText.SetOf(b.survive), PyText.SetOf(c.survive));
  }

  /** Whether rule `r` is closer than the threshold to kept rule `e`. */
  predicate Close(r: HofRule, e: HofRule, threshold: real) {
    (RuleDistance(r, e) as real) < threshold
  }

  /** The index of the first kept rule from j on that is close to `r`, or `|kept|` when there is none. */
  function FirstClose(kept: seq<HofRule>, r: HofRule, threshold: real, j: nat): (k: nat)
    requires j <= |kept|
    ensures j <= k <= |kept|
    ensures forall m :: j <= m < k ==> !Close(r, kept[m], threshold)
    ensures k < |kept| ==> Close(r, kept[k], threshold)
  {
    PyList.FirstFrom(kept, (e: HofRule) => Close(r, e, threshold), j)
  }

  /** `list.remove(x)`: drops the first element equal to `x`. */
  function RemoveFirst<T(==)>(xs: seq<T>, x: T): (r: seq<T>)
    ensures x in xs ==> |r| == |xs| - 1 && multiset(r) == multiset(xs) - multiset{x}
    ensures x !in xs ==> r == xs
    decreases |xs|
  {
    if |xs| == 0 then []
    else if xs[0] == x then (assert xs == [xs[0]] + xs[1..]; xs[1..])
    else (assert xs == [xs[0]] + xs[1..]; [xs[0]] + RemoveFirst(xs[1..], x))
  }

  /** One pass of the diversity loop: a rule close to a kept one either replaces it (better mean) or is dropped. */
  function DiversityStep(kept: seq<HofRule>, r: HofRule, objs: seq<string>, threshold: real): (res: Result<seq<HofRule>>)
    ensures res.Ok? ==> |res.value| <= |kept| + 1
    ensures res.Ok? ==> multiset(res.value) <= multiset(kept) + multiset{r}
    ensures res.Err? <==> FirstClose(kept, r, threshold, 0) < |kept| && |objs| == 0
    ensures FirstClose(kept, r, threshold, 0) == |kept| ==> res == Ok(kept + [r])
  {
    var k := FirstClose(kept, r, threshold, 0);
    if k == |kept| then Ok(kept + [r])
    else if |objs| == 0 then Err(DivisionByZero)
    else if Mean(r, objs) > Mean(kept[k], objs) then
      assert kept[k] in kept;
      Ok(RemoveFirst(kept, kept[k]) + [r])
    else Ok(kept)
  }

  function DiversityFrom(rules: seq<HofRule>, objs: seq<string>, threshold: real, kept: seq<HofRule>, i: nat): (res: Result<seq<HofRule>>)
    requires i <= |rules|
    ensures res.Ok? ==> |res.value| <= |kept| + |rules| - i
    ensures res.Ok? ==> multiset(res.value) <= multiset(kept) + multiset(rules[i..])
    decreases |rules| - i
  {
    if i == |rules| then Ok(kept)
    else
      var next :- DiversityStep(kept, rules[i], objs, threshold);
      var res := DiversityFrom(rules, objs, threshold, next, i + 1);
      DiversityBound(kept, next, rules, i, res);
      res
  }

  /** The bounds of one more pass compose with the bounds of the passes after it. */
  lemma DiversityBound(kept: seq<HofRule>, next: seq<HofRule>, rules: seq<HofRule>, i: nat, res: Result<seq<HofRule>>)
    requires i < |rules|
    requires |next| <= |kept| + 1 && multiset(next) <= multiset(kept) + multiset{rules[i]}
    requires res.Ok? ==> |res.value| <= |next| + |rules| - (i + 1) && multiset(res.value) <= multiset(next) + multiset(rules[i + 1..])
    ensures res.Ok? ==> |res.value| <= |kept| + |rules| - i && multiset(res.value) <= multiset(kept) + multiset(rules[i..])
  {
    assert rules[i..] == [rules[i]] + rules[i + 1..];
    assert multiset(rules[i..]) == multiset{rules[i]} + multiset(rules[i + 1..]);
  }

  /** Step 3, the diversity filter, over the truncated front. */
  function Diversity(rules: seq<HofRule>, objs: seq<string>, threshold: real): (res: Result<seq<HofRule>>)
    ensures res.Ok? ==> |res.value| <= |rules| && multiset(res.value) <= multiset(rules)
  {
    assert rules[0..] == rules;
    DiversityFrom(rules, objs, threshold, [], 0)
  }

  /** Steps 1 to 4: the rules the Hall of Fame keeps. */
  function Retained(candidates: seq<HofRule>, hof: seq<HofRule>, objs: seq<string>, maxSize: int, threshold: real): (res: Result<seq<HofRule>>)
    ensures res.Ok? && maxSize >= 0 ==> |res.value| <= maxSize
    ensures res.Ok? ==> forall k :: 0 <= k < |res.value| ==> res.value[k] in hof + candidates
    ensures |objs| > 0 ==> res.Ok?
  {
    var front := ParetoFront(hof + candidates, objs);
    var kept :- Truncate(front, objs, maxSize);
    RetainedFacts(hof + candidates, front, kept, objs, threshold);
    Diversity(kept, objs, threshold)
  }

  lemma RetainedFacts(all: seq<HofRule>, front: seq<HofRule>, kept: seq<HofRule>, objs: seq<string>, threshold: real)
    requires front == ParetoFront(all, objs) && multiset(kept) <= multiset(front)
    ensures Diversity(kept, objs, threshold).Ok? ==>
      forall k :: 0 <= k < |Diversity(kept, objs, threshold).value| ==> Diversity(kept, objs, threshold).value[k] in all
    ensures |objs| > 0 ==> Diversity(kept, objs, threshold).Ok?
  {
    var diverse := Diversity(kept, objs, threshold);
    if diverse.Ok? {
      FrontMembers(all, objs);
      forall k | 0 <= k < |diverse.value|
        ensures diverse.value[k] in all
      {
        assert diverse.value[k] in multiset(diverse.value);
        assert diverse.value[k] in multiset(kept);
        assert diverse.value[k] in multiset(front);
      }
    }
    if |objs| > 0 {
      assert kept[0..] == kept;
      DiversityNeverFails(kept, objs, threshold, [], 0);
    }
  }

  /** With at least one objective every mean is defined, so the diversity filter never raises. */
  lemma {:induction false} DiversityNeverFails(rules: seq<HofRule>, objs: seq<string>, threshold: real, kept: seq<HofRule>, i: nat)
    requires i <= |rules| && |objs| > 0
    ensures DiversityFrom(rules, objs, threshold, kept, i).Ok?
    decreases |rules| - i
  {
    if i < |rules| {
      DiversityNeverFails(rules, objs, threshold, DiversityStep(kept, rules[i], objs, threshold).value, i + 1);
    }
  }

  function Notations(rules: seq<HofRule>): set<Option<string>> {
    set r | r in rules :: r.notation
  }

  /** `select_pareto_hof(...)`: the `(promoted, removed)` pair. */
  function SelectParetoHof(candidates: seq<HofRule>, hof: seq<HofRule>, objs: seq<string>, maxSize: int, threshold: real): (res: Result<(seq<HofRule>, seq<HofRule>)>)
    ensures res.Err? <==> Retained(candidates, hof, objs, maxSize, threshold).Err?
    ensures res.Ok? ==> forall k :: 0 <= k < |res.value.0| ==> res.value.0[k].notation !in Notations(hof)
    ensures res.Ok? ==> forall k :: 0 <= k < |res.value.0| ==> res.value.0[k] in Retained(candidates, hof, objs, maxSize, threshold).value
    ensures res.Ok? ==> forall k :: 0 <= k < |res.value.1| ==> res.value.1[k] in hof
    ensures res.Ok? ==> forall k :: 0 <= k < |hof| ==>
      (hof[k] in res.value.1 <==> hof[k].notation !in Notations(Retained(candidates, hof, objs, maxSize, threshold).value))
    ensures res.Ok? && maxSize >= 0 ==> |res.value.0| <= maxSize
  {
    var diverse :- Retained(candidates, hof, objs, maxSize, threshold);
    var current := Notations(hof);
    var now := Notations(diverse);
    Ok((PyList.Filter(diverse, (r: HofRule) => r.notation !in current), PyList.Filter(hof, (r: HofRule) => r.notation !in now)))
  }
}

=== FILE: meta_selector.dfy ===
/**
 isinglab/meta_learner/selector.py: the UCB1 multi-armed bandit over the
 candidate-selection strategies, the round-robin diversity sampling by born
 count, the one-digit rule mutations, and the de-duplicated fallback batch.
 The UCB exploration bonus `c * sqrt(log(total_pulls) / pulls)` is floating
 point and is a parameter `explore(total_pulls, pulls)`; the bandit's JSON
 persistence is not modelled.
 */
module MetaSelector {
  import opened Wrappers
  import PyList
  import Sorting
  import RuleOps

  // ---------------------------------------------------------------------
  // Bandit arms (lines 12-40)
  // ---------------------------------------------------------------------

  datatype Arm = Arm(name: string, pulls: nat, totalReward: real, avgReward: real)

  function NewArm(name: string): Arm {
    Arm(name, 0, 0.0, 0.0)
  }

  /** `BanditArm.update(reward)`. */
  function Update(a: Arm, reward: real): (r: Arm)
    ensures r.name == a.name && r.pulls == a.pulls + 1
    ensures r.totalReward == a.totalReward + reward
    ensures r.avgReward * r.pulls as real == r.totalReward
  {
    var pulls := a.pulls + 1;
    var total := a.totalReward + reward;
    Arm(a.name, pulls, total, total / pulls as real)
  }

  /** The arm after the rewards, in order. */
  function UpdateAll(a: Arm, rewards: seq<real>): Arm
    decreases |rewards|
  {
    if |rewards| == 0 then a else Update(UpdateAll(a, rewards[..|rewards| - 1]), rewards[|rewards| - 1])
  }

  /** From a fresh arm, the statistics are the count, the sum and the mean of the rewards. */
  lemma {:induction false} UpdatesGiveMean(name: string, rewards: seq<real>)
    ensures UpdateAll(NewArm(name), rewards).name == name
    ensures UpdateAll(NewArm(name), rewards).pulls == |rewards|
    ensures UpdateAll(NewArm(name), rewards).totalReward == PyList.Sum(rewards)
    ensures |rewards| > 0 ==> UpdateAll(NewArm(name), rewards).avgReward == PyList.Sum(rewards) / |rewards| as real
    decreases |rewards|
  {
    if |rewards| > 0 {
      UpdatesGiveMean(name, rewards[..|rewards| - 1]);
    }
  }

  /** An upper confidence bound: `float('inf')` or a finite value. */
  datatype Ucb = Infinite | Finite(v: real)

  predicate UcbLt(a: Ucb, b: Ucb) {
    match (a, b)
    case (Finite(x), Finite(y)) => x < y
    case (Finite(_), Infinite) => true
    case (Infinite, _) => false
  }

  /**
   `compute_ucb(total_pulls)`: infinite for an unpulled arm; otherwise the
   mean reward plus the exploration bonus, where `math.log(0)` raises.
   */
  function ComputeUcb(a: Arm, totalPulls: nat, explore: (nat, nat) -> real): (r: Result<Ucb>)
    ensures a.pulls == 0 <==> r == Ok(Infinite)
    ensures r.Err? <==> a.pulls > 0 && totalPulls == 0
    ensures r.Ok? && a.pulls > 0 ==> r.value == Finite(a.avgReward + explore(totalPulls, a.pulls))
  {
    if a.pulls == 0 then Ok(Infinite)
    else if totalPulls == 0 then Err(Error(ValueError, "math domain error"))
    else Ok(Finite(a.avgReward + explore(totalPulls, a.pulls)))
  }

  // ---------------------------------------------------------------------
  // The bandit (lines 43-66)
  // ---------------------------------------------------------------------

  /** The arms in dict order, and `total_pulls`. */
  datatype Bandit = Bandit(arms: seq<Arm>, totalPulls: nat)

  predicate DistinctNames(arms: seq<Arm>) {
    forall i, j :: 0 <= i < j < |arms| ==> arms[i].name != arms[j].name
  }

  function SumPulls(arms: seq<Arm>): nat
    decreases |arms|
  {
    if |arms| == 0 then 0 else SumPulls(arms[..|arms| - 1]) + arms[|arms| - 1].pulls
  }

  /** `total_pulls` counts every pull of every arm. */
  predicate Consistent(b: Bandit) {
    DistinctNames(b.arms) && b.totalPulls == SumPulls(b.arms)
  }

  /** The arm names, in arm order. */
  function ArmNames(arms: seq<Arm>): (r: seq<string>)
    ensures |r| == |arms| && forall i :: 0 <= i < |arms| ==> r[i] == arms[i].name
  {
    seq(|arms|, (i: int) requires 0 <= i < |arms| => arms[i].name)
  }

  /**
   `MultiArmedBandit(arms)` with no saved statistics: one fresh arm per
   distinct name, in the order the names are first seen.
   */
  function NewBandit(names: seq<string>): (b: Bandit)
    ensures Consistent(b)
    ensures forall n :: n in names <==> exists i :: 0 <= i < |b.arms| && b.arms[i].name == n
    ensures forall i :: 0 <= i < |b.arms| ==> b.arms[i] == NewArm(b.arms[i].name)
    ensures PyList.KeepsFirstOccurrences(ArmNames(b.arms), names, PyList.Itself, PyList.Always, {})
  {
    var distinct := RuleOps.Dedup(names, {});
    var arms := seq(|distinct|, (i: int) requires 0 <= i < |distinct| => NewArm(distinct[i]));
    ZeroPulls(arms);
    ArmsNamed(names, distinct, arms);
    assert ArmNames(arms) == distinct;
    Bandit(arms, 0)
  }

  lemma ArmsNamed(names: seq<string>, distinct: seq<string>, arms: seq<Arm>)
    requires forall n :: n in distinct <==> n in names
    requires |arms| == |distinct| && forall i :: 0 <= i < |arms| ==> arms[i].name == distinct[i]
    ensures forall n :: n in names <==> exists i :: 0 <= i < |arms| && arms[i].name == n
  {
    forall n | n in names
      ensures exists i :: 0 <= i < |arms| && arms[i].name == n
    {
      var i :| 0 <= i < |distinct| && distinct[i] == n;
      assert arms[i].name == n;
    }
  }

  lemma {:induction false} ZeroPulls(arms: seq<Arm>)
    requires forall i :: 0 <= i < |arms| ==> arms[i].pulls == 0
    ensures SumPulls(arms) == 0
    decreases |arms|
  {
    if |arms| > 0 {
      ZeroPulls(arms[..|arms| - 1]);
    }
  }

  /** The UCB of every arm, or the first error. */
  function Ucbs(arms: seq<Arm>, totalPulls: nat, explore: (nat, nat) -> real): (r: Result<seq<Ucb>>)
    ensures r.Ok? ==> |r.value| == |arms| && forall i :: 0 <= i < |arms| ==> ComputeUcb(arms[i], totalPulls, explore) == Ok(r.value[i])
    ensures r.Err? <==> exists i :: 0 <= i < |arms| && ComputeUcb(arms[i], totalPulls, explore).Err?
    decreases |arms|
  {
    if |arms| == 0 then Ok([])
    else
      var u :- ComputeUcb(arms[0], totalPulls, explore);
      var rest :- Ucbs(arms[1..], totalPulls, explore);
      assert forall i :: 1 <= i < |arms| ==> arms[i] == arms[1..][i - 1];
      Ok([u] + rest)
  }

  /** `max(..., key=...)`: the first index whose value no other value exceeds. */
  function FirstMax(us: seq<Ucb>): (k: nat)
    requires |us| > 0
    ensures k < |us|
    ensures forall i :: 0 <= i < |us| ==> !UcbLt(us[k], us[i])
    ensures forall i :: 0 <= i < k ==> UcbLt(us[i], us[k])
    decreases |us|
  {
    if |us| == 1 then 0
    else
      var k := FirstMax(us[..|us| - 1]);
      if UcbLt(us[k], us[|us| - 1]) then |us| - 1 else k
  }

  /** `select_arm()`: the first arm of highest UCB; an empty bandit makes `max` raise. */
  function SelectArm(b: Bandit, explore: (nat, nat) -> real): (r: Result<string>)
    ensures r.Ok? ==> exists i :: 0 <= i < |b.arms| && b.arms[i].name == r.value
    ensures |b.arms| == 0 ==> r.Err?
  {
    if |b.arms| == 0 then Err(Error(ValueError, "max() arg is an empty sequence"))
    else
      var us :- Ucbs(b.arms, b.totalPulls, explore);
      Ok(b.arms[FirstMax(us)].name)
  }

  /** Some arm has been pulled, so a consistent bandit has `total_pulls` > 0. */
  lemma {:induction false} PulledArmCounts(arms: seq<Arm>, i: nat)
    requires i < |arms| && arms[i].pulls > 0
    ensures SumPulls(arms) >= arms[i].pulls
    decreases |arms|
  {
    if i < |arms| - 1 {
      PulledArmCounts(arms[..|arms| - 1], i);
    }
  }

  /**
   On a consistent bandit the selection never fails, and while some arm
   has never been pulled it picks the first such arm (its UCB is infinite).
   */
  lemma SelectArmFacts(b: Bandit, explore: (nat, nat) -> real)
    requires Consistent(b) && |b.arms| > 0
    ensures SelectArm(b, explore).Ok?
    ensures forall u :: 0 <= u < |b.arms| && b.arms[u].pulls == 0 && (forall i :: 0 <= i < u ==> b.arms[i].pulls > 0) ==>
      SelectArm(b, explore) == Ok(b.arms[u].name)
  {
    forall i | 0 <= i < |b.arms| && b.arms[i].pulls > 0
      ensures b.totalPulls > 0
    {
      PulledArmCounts(b.arms, i);
    }
    var us := Ucbs(b.arms, b.totalPulls, explore).value;
    forall u | 0 <= u < |b.arms| && b.arms[u].pulls == 0 && (forall i :: 0 <= i < u ==> b.arms[i].pulls > 0)
      ensures FirstMax(us) == u
    {
      FirstMaxInfinite(us, u);
    }
  }

  /** The first infinite bound wins when every earlier bound is finite. */
  lemma FirstMaxInfinite(us: seq<Ucb>, u: nat)
    requires u < |us| && us[u] == Infinite
    requires forall i :: 0 <= i < u ==> us[i].Finite?
    ensures FirstMax(us) == u
  {
  }

  /** The position of the arm with that name, if any. */
  function IndexOf(arms: seq<Arm>, name: string): (r: Option<nat>)
    ensures r.Some? ==> r.value < |arms| && arms[r.value].name == name
    ensures r.None? <==> forall i :: 0 <= i < |arms| ==> arms[i].name != name
    decreases |arms|
  {
    if |arms| == 0 then None
    else if arms[|arms| - 1].name == name then Some(|arms| - 1)
    else IndexOf(arms[..|arms| - 1], name)
  }

  /** `update_arm(arm_name, reward)`, without the save to disk. */
  function UpdateArm(b: Bandit, name: string, reward: real): (r: Bandit)
    ensures IndexOf(b.arms, name).None? ==> r == b
    ensures IndexOf(b.arms, name).Some? ==> r.totalPulls == b.totalPulls + 1 && |r.arms| == |b.arms|
    ensures IndexOf(b.arms, name).Some? ==> forall i :: 0 <= i < |b.arms| ==>
      r.arms[i] == if b.arms[i].name == name && i == IndexOf(b.arms, name).value then Update(b.arms[i], reward) else b.arms[i]
  {
    match IndexOf(b.arms, name)
    case None => b
    case Some(i) => Bandit(b.arms[i := Update(b.arms[i], reward)], b.totalPulls + 1)
  }

  lemma {:induction false} SumPullsBump(arms: seq<Arm>, i: nat, a: Arm)
    requires i < |arms| && a.pulls == arms[i].pulls + 1
    ensures SumPulls(arms[i := a]) == SumPulls(arms) + 1
    decreases |arms|
  {
    var n := |arms| - 1;
    assert arms[i := a][..n] == if i < n then arms[..n][i := a] else arms[..n];
    if i < n {
      SumPullsBump(arms[..n], i, a);
    }
  }

  /** `update_arm` keeps the names and keeps `total_pulls` equal to the sum of the arms' pulls. */
  lemma UpdateArmConsistent(b: Bandit, name: string, reward: real)
    requires Consistent(b)
    ensures Consistent(UpdateArm(b, name, reward))
  {
    match IndexOf(b.arms, name)
    case None =>
    case Some(i) =>
      SumPullsBump(b.arms, i, Update(b.arms[i], reward));
  }

  // ---------------------------------------------------------------------
  // Candidates and diversity sampling (lines 195-211)
  // ---------------------------------------------------------------------

  /** A pool entry: its notation, digit lists and predicted score. */
  datatype Candidate = Candidate(notation: string, born: seq<int>, survive: seq<int>, score: real)

  function HasCount(k: nat): Candidate -> bool {
    (c: Candidate) => |c.born| == k
  }

  function CountBelow(n: nat): Candidate -> bool {
    (c: Candidate) => |c.born| < n
  }

  function MaxCount(pool: seq<Candidate>): (m: nat)
    ensures forall k :: 0 <= k < |pool| ==> |pool[k].born| <= m
    decreases |pool|
  {
    if |pool| == 0 then 0
    else
      var m := MaxCount(pool[1..]);
      assert forall k :: 1 <= k < |pool| ==> pool[k] == pool[1..][k - 1];
      if |pool[0].born| > m then |pool[0].born| else m
  }

  /** One bucket per born count below n, empty or not, in ascending count. */
  function Dense(pool: seq<Candidate>, n: nat): (bs: seq<seq<Candidate>>)
    ensures |bs| == n
  {
    seq(n, (k: int) requires 0 <= k < n => PyList.Filter(pool, HasCount(k)))
  }

  function Flatten(bs: seq<seq<Candidate>>): seq<Candidate>
    decreases |bs|
  {
    if |bs| == 0 then [] else bs[0] + Flatten(bs[1..])
  }

  lemma {:induction false} FlattenSnoc(bs: seq<seq<Candidate>>, b: seq<Candidate>)
    ensures Flatten(bs + [b]) == Flatten(bs) + b
    decreases |bs|
  {
    if |bs| > 0 {
      assert (bs + [b])[1..] == bs[1..] + [b];
      FlattenSnoc(bs[1..], b);
    }
  }

  lemma {:induction false} FlattenAppend(a: seq<seq<Candidate>>, b: seq<seq<Candidate>>)
    ensures Flatten(a + b) == Flatten(a) + Flatten(b)
    decreases |a|
  {
    if |a| > 0 {
      assert (a + b)[0] == a[0] && (a + b)[1..] == a[1..] + b;
      FlattenAppend(a[1..], b);
      assert Flatten(a + b) == a[0] + (Flatten(a[1..]) + Flatten(b));
    } else {
      assert a + b == b;
    }
  }

  predicate NonEmpty(b: seq<Candidate>) {
    |b| > 0
  }

  /**
   The dict of lines 198-201 in the order `sorted(buckets.keys())` visits
   it: a bucket for each born count that occurs, each holding its
   candidates in pool order.
   */
  function Buckets(pool: seq<Candidate>): seq<seq<Candidate>> {
    PyList.Filter(Dense(pool, MaxCount(pool) + 1), NonEmpty)
  }

  lemma DenseSnoc(pool: seq<Candidate>, n: nat)
    requires n > 0
    ensures Dense(pool, n) == Dense(pool, n - 1) + [PyList.Filter(pool, HasCount(n - 1))]
  {
  }

  lemma {:induction false} DenseHolds(pool: seq<Candidate>, n: nat)
    ensures multiset(Flatten(Dense(pool, n))) == multiset(PyList.Filter(pool, CountBelow(n)))
    decreases n
  {
    if n > 0 {
      DenseHolds(pool, n - 1);
      DenseSnoc(pool, n);
      FlattenSnoc(Dense(pool, n - 1), PyList.Filter(pool, HasCount(n - 1)));
      PyList.FilterUnion(pool, CountBelow(n - 1), HasCount(n - 1), CountBelow(n));
    } else {
      PyList.FilterNone(pool, CountBelow(0));
    }
  }

  lemma {:induction false} DropEmptyBuckets(bs: seq<seq<Candidate>>)
    ensures Flatten(PyList.Filter(bs, NonEmpty)) == Flatten(bs)
    decreases |bs|
  {
    if |bs| > 0 {
      DropEmptyBuckets(bs[1..]);
      var head := if NonEmpty(bs[0]) then [bs[0]] else [];
      FlattenAppend(head, PyList.Filter(bs[1..], NonEmpty));
      assert Flatten(head) == bs[0] by {
        if NonEmpty(bs[0]) {
          assert Flatten(head) == bs[0] + Flatten([]);
        }
      }
    }
  }

  /** The buckets hold the pool exactly, and no bucket is empty. */
  /** When every born count is below `n`, the first `n` dense buckets hold the whole pool. */
  lemma DenseHoldsAll(pool: seq<Candidate>, n: nat)
    requires forall k :: 0 <= k < |pool| ==> |pool[k].born| < n
    ensures multiset(Flatten(Dense(pool, n))) == multiset(pool)
  {
    DenseHolds(pool, n);
    PyList.FilterAll(pool, CountBelow(n));
  }

  lemma BucketsHoldPool(pool: seq<Candidate>)
    ensures multiset(Flatten(Buckets(pool))) == multiset(pool)
    ensures forall i :: 0 <= i < |Buckets(pool)| ==> |Buckets(pool)[i]| > 0
  {
    var dense := Dense(pool, MaxCount(pool) + 1);
    DenseHoldsAll(pool, MaxCount(pool) + 1);
    DropEmptyBuckets(dense);
    var bs := PyList.Filter(dense, NonEmpty);
    forall i | 0 <= i < |bs|
      ensures |bs[i]| > 0
    {
      assert NonEmpty(bs[i]);
    }
  }

  /** Every candidate of an earlier bucket has a smaller born count than every candidate of a later one. */
  predicate CountsBefore(x: seq<Candidate>, y: seq<Candidate>) {
    forall a, c :: 0 <= a < |x| && 0 <= c < |y| ==> |x[a].born| < |y[c].born|
  }

  lemma BucketsAscending(pool: seq<Candidate>)
    ensures forall i, j :: 0 <= i < j < |Buckets(pool)| ==> CountsBefore(Buckets(pool)[i], Buckets(pool)[j])
  {
    var dense := Dense(pool, MaxCount(pool) + 1);
    forall i, j | 0 <= i < j < |dense|
      ensures CountsBefore(dense[i], dense[j])
    {
      forall a, c | 0 <= a < |dense[i]| && 0 <= c < |dense[j]|
        ensures |dense[i][a].born| < |dense[j][c].born|
      {
        assert HasCount(i)(dense[i][a]) && HasCount(j)(dense[j][c]);
      }
    }
    PyList.FilterKeepsOrder(dense, NonEmpty, CountsBefore);
  }

  /**
   One pass of `for born_count in sorted(buckets.keys())` from bucket k:
   pop the head of a non-empty bucket, drop an empty one, and stop the pass
   once `batch` candidates are selected. Returns the buckets left in the
   dict and the selection.
   */
  function Round(bs: seq<seq<Candidate>>, k: nat, kept: seq<seq<Candidate>>, sel: seq<Candidate>, batch: int): (r: (seq<seq<Candidate>>, seq<Candidate>))
    requires k <= |bs| && |sel| < batch
    ensures multiset(Flatten(r.0)) + multiset(r.1) == multiset(Flatten(kept)) + multiset(Flatten(bs[k..])) + multiset(sel)
    ensures sel <= r.1 && |r.1| <= batch
    ensures |r.0| <= |kept| + |bs| - k
    ensures |r.1| == |sel| ==> |r.0| == |kept|
    decreases |bs| - k
  {
    if k == |bs| then (kept, sel)
    else if |bs[k]| > 0 then
      var sel2 := sel + [bs[k][0]];
      var kept2 := kept + [bs[k][1..]];
      RoundTakeStep(bs, k, kept, sel);
      if |sel2| >= batch then
        FlattenAppend(kept2, bs[k + 1..]);
        (kept2 + bs[k + 1..], sel2)
      else Round(bs, k + 1, kept2, sel2, batch)
    else
      RoundSkipStep(bs, k);
      Round(bs, k + 1, kept, sel, batch)
  }

  /** Moving the head of bucket k into the selection and its tail to the kept buckets loses nothing. */
  lemma RoundTakeStep(bs: seq<seq<Candidate>>, k: nat, kept: seq<seq<Candidate>>, sel: seq<Candidate>)
    requires k < |bs| && |bs[k]| > 0
    ensures multiset(Flatten(kept + [bs[k][1..]])) + multiset(Flatten(bs[k + 1..])) + multiset(sel + [bs[k][0]])
            == multiset(Flatten(kept)) + multiset(Flatten(bs[k..])) + multiset(sel)
  {
    assert bs[k..] == [bs[k]] + bs[k + 1..];
    assert Flatten(bs[k..]) == bs[k] + Flatten(bs[k + 1..]);
    FlattenSnoc(kept, bs[k][1..]);
    assert bs[k] == [bs[k][0]] + bs[k][1..];
  }

  /** An empty bucket adds nothing to the flattened rest. */
  lemma RoundSkipStep(bs: seq<seq<Candidate>>, k: nat)
    requires k < |bs| && |bs[k]| == 0
    ensures Flatten(bs[k..]) == Flatten(bs[k + 1..])
  {
    assert bs[k..] == [bs[k]] + bs[k + 1..];
    assert Flatten(bs[k..]) == bs[k] + Flatten(bs[k + 1..]);
  }

  /** Multiset union commutes on both sides of an equation. */
  lemma UnionSwap<T>(a: multiset<T>, b: multiset<T>, c: multiset<T>, d: multiset<T>)
    requires a + b == c + d
    ensures b + a == d + c
  {
    assert b + a == a + b;
    assert d + c == c + d;
  }

  /** A whole pass conserves the candidates and makes progress. */
  lemma RoundFromStart(bs: seq<seq<Candidate>>, sel: seq<Candidate>, batch: int)
    requires |sel| < batch && |bs| > 0
    ensures var next := Round(bs, 0, [], sel, batch);
      && multiset(next.1) + multiset(Flatten(next.0)) == multiset(sel) + multiset(Flatten(bs))
      && |Flatten(next.0)| + |next.1| == |Flatten(bs)| + |sel|
      && |next.0| <= |bs| && (|next.1| == |sel| ==> |next.0| == 0)
  {
    var next := Round(bs, 0, [], sel, batch);
    assert bs[0..] == bs;
    assert Flatten([]) == [];
    var A := multiset(Flatten(next.0));
    var B := multiset(next.1);
    var F := multiset(Flatten(bs));
    var S := multiset(sel);
    assert A + B == F + S by {
      assert A + B == multiset(Flatten([])) + multiset(Flatten(bs[0..])) + S;
      assert multiset(Flatten([])) == multiset{};
    }
    UnionSwap(A, B, F, S);
    assert |B + A| == |multiset(sel) + multiset(Flatten(bs))|;
  }

  /** The `while len(selected) < batch_size and buckets` loop. */
  function Sample(bs: seq<seq<Candidate>>, sel: seq<Candidate>, batch: int): (r: seq<Candidate>)
    requires |sel| <= batch
    ensures sel <= r
    ensures multiset(r) <= multiset(sel) + multiset(Flatten(bs))
    ensures |r| == if |sel| + |Flatten(bs)| < batch then |sel| + |Flatten(bs)| else batch
    decreases |Flatten(bs)| + |bs|
  {
    if |sel| >= batch || |bs| == 0 then sel
    else
      var next := Round(bs, 0, [], sel, batch);
      RoundFromStart(bs, sel, batch);
      Sample(next.0, next.1, batch)
  }

  /** `_diversity_sampling(pool, batch_size)`. */
  function DiversitySampling(pool: seq<Candidate>, batch: int): (r: seq<Candidate>)
    ensures batch <= 0 ==> r == []
    ensures batch > 0 ==> |r| == if |pool| < batch then |pool| else batch
    ensures multiset(r) <= multiset(pool)
  {
    if batch <= 0 then []
    else
      BucketsHoldPool(pool);
      assert |Flatten(Buckets(pool))| == |pool| by {
        assert |multiset(Flatten(Buckets(pool)))| == |multiset(pool)|;
      }
      Sample(Buckets(pool), [], batch)
  }

  function Heads(bs: seq<seq<Candidate>>): (hs: seq<Candidate>)
    requires forall i :: 0 <= i < |bs| ==> |bs[i]| > 0
    ensures |hs| == |bs|
  {
    seq(|bs|, (i: int) requires 0 <= i < |bs| => bs[i][0])
  }

  lemma {:induction false} FirstRound(bs: seq<seq<Candidate>>, k: nat, kept: seq<seq<Candidate>>, sel: seq<Candidate>, batch: int)
    requires k <= |bs| && |sel| < batch
    requires forall i :: 0 <= i < |bs| ==> |bs[i]| > 0
    ensures var take := if |bs| - k < batch - |sel| then |bs| - k else batch - |sel|;
      Round(bs, k, kept, sel, batch).1 == sel + Heads(bs)[k..k + take]
    decreases |bs| - k
  {
    if k == |bs| {
      RoundAtEnd(bs, k, kept, sel, batch);
      assert Heads(bs)[k..k] == [];
    } else if |sel| + 1 >= batch {
      FirstRoundLast(bs, k, kept, sel, batch);
    } else {
      FirstRound(bs, k + 1, kept + [bs[k][1..]], sel + [bs[k][0]], batch);
      FirstRoundCons(bs, k, kept, sel, batch);
    }
  }

  /** The head that fills the batch ends the pass. */
  lemma FirstRoundLast(bs: seq<seq<Candidate>>, k: nat, kept: seq<seq<Candidate>>, sel: seq<Candidate>, batch: int)
    requires k < |bs| && |sel| < batch && |sel| + 1 >= batch
    requires forall i :: 0 <= i < |bs| ==> |bs[i]| > 0
    ensures Round(bs, k, kept, sel, batch).1 == sel + Heads(bs)[k..k + 1]
  {
    RoundTakesHead(bs, k, kept, sel, batch);
    assert Heads(bs)[k..k + 1] == [bs[k][0]];
  }

  /** Taking the head of bucket k, then the heads the rest of the pass takes. */
  lemma FirstRoundCons(bs: seq<seq<Candidate>>, k: nat, kept: seq<seq<Candidate>>, sel: seq<Candidate>, batch: int)
    requires k < |bs| && |sel| + 1 < batch
    requires forall i :: 0 <= i < |bs| ==> |bs[i]| > 0
    requires var take := if |bs| - (k + 1) < batch - (|sel| + 1) then |bs| - (k + 1) else batch - (|sel| + 1);
      Round(bs, k + 1, kept + [bs[k][1..]], sel + [bs[k][0]], batch).1 == sel + [bs[k][0]] + Heads(bs)[k + 1..k + 1 + take]
    ensures var take := if |bs| - k < batch - |sel| then |bs| - k else batch - |sel|;
      Round(bs, k, kept, sel, batch).1 == sel + Heads(bs)[k..k + take]
  {
    RoundTakesHead(bs, k, kept, sel, batch);
    var take := if |bs| - k < batch - |sel| then |bs| - k else batch - |sel|;
    HeadsSlice(bs, k, take);
    var h, rest := bs[k][0], Heads(bs)[k + 1..k + take];
    assert sel + [h] + rest == sel + ([h] + rest);
  }

  lemma HeadsSlice(bs: seq<seq<Candidate>>, k: nat, take: nat)
    requires forall i :: 0 <= i < |bs| ==> |bs[i]| > 0
    requires 0 < take && k + take <= |bs|
    ensures Heads(bs)[k..k + take] == [bs[k][0]] + Heads(bs)[k + 1..k + take]
  {
    var hs := Heads(bs);
    assert hs[k] == bs[k][0];
    assert hs[k..k + take] == [hs[k]] + hs[k + 1..k + take];
  }

  lemma RoundAtEnd(bs: seq<seq<Candidate>>, k: nat, kept: seq<seq<Candidate>>, sel: seq<Candidate>, batch: int)
    requires k == |bs| && |sel| < batch
    ensures Round(bs, k, kept, sel, batch) == (kept, sel)
  {
  }

  /** A non-empty bucket gives its head, ending the pass when that fills the batch. */
  lemma RoundTakesHead(bs: seq<seq<Candidate>>, k: nat, kept: seq<seq<Candidate>>, sel: seq<Candidate>, batch: int)
    requires k < |bs| && |sel| < batch && |bs[k]| > 0
    ensures |sel| + 1 >= batch ==> Round(bs, k, kept, sel, batch).1 == sel + [bs[k][0]]
    ensures |sel| + 1 < batch ==>
      Round(bs, k, kept, sel, batch) == Round(bs, k + 1, kept + [bs[k][1..]], sel + [bs[k][0]], batch)
  {
  }

  lemma {:induction false} FlattenAtLeast(bs: seq<seq<Candidate>>)
    requires forall i :: 0 <= i < |bs| ==> |bs[i]| > 0
    ensures |Flatten(bs)| >= |bs|
    decreases |bs|
  {
    if |bs| > 0 {
      FlattenAtLeast(bs[1..]);
    }
  }

  lemma PrefixTake(r: seq<Candidate>, p: seq<Candidate>, hs: seq<Candidate>, take: nat)
    requires take <= |hs| && p <= r && p == hs[..take]
    ensures take <= |r| && r[..take] == hs[..take]
  {
  }

  /** The first pass over non-empty buckets takes their heads, in order. */
  lemma SampleFirstRound(bs: seq<seq<Candidate>>, batch: int)
    requires batch > 0
    requires forall i :: 0 <= i < |bs| ==> |bs[i]| > 0
    ensures var r := Sample(bs, [], batch);
      var take := if |bs| < batch then |bs| else batch;
      && take <= |r|
      && r[..take] == Heads(bs)[..take]
  {
    if |bs| > 0 {
      var take := if |bs| < batch then |bs| else batch;
      var next := Round(bs, 0, [], [], batch);
      FirstRound(bs, 0, [], [], batch);
      assert next.1 == Heads(bs)[..take];
      var r := Sample(bs, [], batch);
      assert r == Sample(next.0, next.1, batch);
      PrefixTake(r, next.1, Heads(bs), take);
    }
  }

  /**
   Round-robin: the first picks are the first candidate of each born count,
   in ascending born count, before any born count gives a second one.
   */
  lemma DiversityFirstRound(pool: seq<Candidate>, batch: int)
    requires batch > 0
    ensures var bs := Buckets(pool);
      var r := DiversitySampling(pool, batch);
      var take := if |bs| < batch then |bs| else batch;
      && (forall i :: 0 <= i < |bs| ==> |bs[i]| > 0)
      && take <= |r|
      && r[..take] == Heads(bs)[..take]
  {
    BucketsHoldPool(pool);
    assert DiversitySampling(pool, batch) == Sample(Buckets(pool), [], batch);
    SampleFirstRound(Buckets(pool), batch);
  }

  // ---------------------------------------------------------------------
  // Mutations (lines 363-379)
  // ---------------------------------------------------------------------

  /** `_mutate_rule(born, survive)`: the toggles of digits 0..8 of born, then of survive. */
  function MutateRule(born: seq<int>, survive: seq<int>): seq<RuleOps.BS> {
    RuleOps.Mutations(RuleOps.BS(born, survive), 18)
  }

  /** A digit has no mutation exactly when it is the only digit of its side. */
  lemma MutationMissing(r: RuleOps.BS, i: nat)
    requires i < 18
    ensures RuleOps.Mutation(r, i).None? <==> if i < 9 then r.born == [i] else r.survive == [i - 9]
  {
    var xs := if i < 9 then r.born else r.survive;
    var d := if i < 9 then i else i - 9;
    if d in xs && |xs| <= 1 {
      assert xs == [d];
    }
  }

  lemma {:induction false} AllMutationsExist(r: RuleOps.BS, n: nat)
    requires n <= 18
    requires forall i :: 0 <= i < n ==> RuleOps.Mutation(r, i).Some?
    ensures |RuleOps.Mutations(r, n)| == n
    ensures forall i :: 0 <= i < n ==> RuleOps.Mutations(r, n)[i] == RuleOps.Mutation(r, i).value
    decreases n
  {
    if n > 0 {
      AllMutationsExist(r, n - 1);
      var pre := RuleOps.Mutations(r, n - 1);
      var last := RuleOps.Mutation(r, n - 1).value;
      assert RuleOps.Mutations(r, n) == pre + [last];
      AppendIndex(pre, last);
    }
  }

  lemma AppendIndex<T>(xs: seq<T>, x: T)
    ensures |xs + [x]| == |xs| + 1 && (xs + [x])[|xs|] == x
    ensures forall i :: 0 <= i < |xs| ==> (xs + [x])[i] == xs[i]
  {
  }

  /**
   With more than one digit on each side there are exactly 18 mutations,
   mutation i toggling born digit i (i < 9) or survive digit i - 9, each at
   rule distance 1 from a canonical rule.
   */
  lemma MutateRuleFacts(born: seq<int>, survive: seq<int>)
    requires |born| > 1 && |survive| > 1
    ensures |MutateRule(born, survive)| == 18
    ensures forall i :: 0 <= i < 18 ==> MutateRule(born, survive)[i] == RuleOps.Mutation(RuleOps.BS(born, survive), i).value
    ensures RuleOps.Canonical(RuleOps.BS(born, survive)) ==>
      forall i :: 0 <= i < 18 ==> RuleOps.Distance(RuleOps.BS(born, survive), MutateRule(born, survive)[i]) == 1
  {
    var r := RuleOps.BS(born, survive);
    forall i | 0 <= i < 18
      ensures RuleOps.Mutation(r, i).Some?
    {
      MutationMissing(r, i);
    }
    AllMutationsExist(r, 18);
    if RuleOps.Canonical(r) {
      forall i | 0 <= i < 18
        ensures RuleOps.Distance(r, MutateRule(born, survive)[i]) == 1
      {
        RuleOps.MutationAtDistanceOne(r, i);
      }
    }
  }

  // ---------------------------------------------------------------------
  // The fallback mixed batch (lines 139-150)
  // ---------------------------------------------------------------------

  function NotationSet(xs: seq<Candidate>): set<string> {
    set c | c in xs :: c.notation
  }

  lemma NotationSetCons(xs: seq<Candidate>)
    requires |xs| > 0
    ensures NotationSet(xs) == {xs[0].notation} + NotationSet(xs[1..])
  {
    assert xs == [xs[0]] + xs[1..];
    assert forall c :: c in xs <==> c == xs[0] || c in xs[1..];
  }

  /** The key `DedupByNotation` compares candidates by. */
  function NotationOf(c: Candidate): string {
    c.notation
  }

  /**
   Keeps the first candidate of each notation not already in `seen`, in
   order: `ys` is exactly the candidates at the first position of each such
   notation, read left to right.
   */
  function DedupByNotation(xs: seq<Candidate>, seen: set<string>): (ys: seq<Candidate>)
    ensures forall i, j :: 0 <= i < j < |ys| ==> ys[i].notation != ys[j].notation
    ensures forall k :: 0 <= k < |ys| ==> ys[k] in xs
    ensures NotationSet(ys) == NotationSet(xs) - seen
    ensures |ys| <= |xs|
    ensures PyList.KeepsFirstOccurrences(ys, xs, NotationOf, PyList.Always, seen)
    decreases |xs|
  {
    if |xs| == 0 then []
    else if xs[0].notation in seen then
      var rest := DedupByNotation(xs[1..], seen);
      NotationSetCons(xs);
      PyList.KeepsFirstSkip(xs, NotationOf, PyList.Always, seen, rest);
      rest
    else
      var rest := DedupByNotation(xs[1..], seen + {xs[0].notation});
      DedupConsStep(xs, seen, rest);
      PyList.KeepsFirstTake(xs, NotationOf, PyList.Always, seen, rest);
      [xs[0]] + rest
  }

  /** The properties `DedupByNotation` promises, for `ys` against `xs` and `seen`. */
  predicate IsDedup(ys: seq<Candidate>, xs: seq<Candidate>, seen: set<string>) {
    && (forall i, j :: 0 <= i < j < |ys| ==> ys[i].notation != ys[j].notation)
    && (forall k :: 0 <= k < |ys| ==> ys[k] in xs)
    && NotationSet(ys) == NotationSet(xs) - seen
    && |ys| <= |xs|
  }

  /** Keeping a first candidate with a new notation in front of a deduplicated rest. */
  lemma DedupConsStep(xs: seq<Candidate>, seen: set<string>, rest: seq<Candidate>)
    requires |xs| > 0 && xs[0].notation !in seen
    requires IsDedup(rest, xs[1..], seen + {xs[0].notation})
    ensures IsDedup([xs[0]] + rest, xs, seen)
  {
    var ys := [xs[0]] + rest;
    NotationSetCons(xs);
    NotationSetCons(ys);
    assert ys[1..] == rest;
    assert forall j :: 0 <= j < |rest| ==> rest[j].notation in NotationSet(rest);
    assert forall k :: 0 <= k < |rest| ==> rest[k] in xs[1..];
  }

  function ScoreDesc(a: Candidate, b: Candidate): bool {
    a.score >= b.score
  }

  function Abs(x: real): real {
    if x < 0.0 then -x else x
  }

  function Uncertainty(a: Candidate, b: Candidate): bool {
    Abs(a.score - 0.5) <= Abs(b.score - 0.5)
  }

  /**
   The default branch of `recommend_next_batch`: the top scores, the most
   uncertain, a diversity sample for what is left, cut to the batch size
   and de-duplicated by notation. `//` is floor division, which is Dafny's
   `/` for a positive divisor.
   */
  function FallbackBatch(pool: seq<Candidate>, batch: int): (r: seq<Candidate>)
    ensures forall i, j :: 0 <= i < j < |r| ==> r[i].notation != r[j].notation
    ensures forall k :: 0 <= k < |r| ==> r[k] in pool
    ensures batch >= 0 ==> |r| <= batch
  {
    var top := PyList.SliceTo(Sorting.SortBy(ScoreDesc, pool), if 5 > batch / 2 then 5 else batch / 2);
    var exploratory := PyList.SliceTo(Sorting.SortBy(Uncertainty, pool), batch / 3);
    var diverse := DiversitySampling(pool, batch - |top| - |exploratory|);
    var combined := PyList.SliceTo(top + exploratory + diverse, batch);
    FromPool(pool, top, exploratory, diverse, combined);
    DedupByNotation(combined, {})
  }

  lemma FromPool(pool: seq<Candidate>, top: seq<Candidate>, exploratory: seq<Candidate>, diverse: seq<Candidate>, combined: seq<Candidate>)
    requires top <= Sorting.SortBy(ScoreDesc, pool) && exploratory <= Sorting.SortBy(Uncertainty, pool)
    requires multiset(diverse) <= multiset(pool)
    requires combined <= top + exploratory + diverse
    ensures forall k :: 0 <= k < |combined| ==> combined[k] in pool
  {
    var all := top + exploratory + diverse;
    forall k | 0 <= k < |combined|
      ensures combined[k] in pool
    {
      var x := all[k];
      if k < |top| {
        assert x in multiset(Sorting.SortBy(ScoreDesc, pool));
      } else if k < |top| + |exploratory| {
        assert x == exploratory[k - |top|];
        assert x in multiset(Sorting.SortBy(Uncertainty, pool));
      } else {
        assert x in multiset(diverse);
      }
    }
  }

}

=== FILE: metrics.dfy ===
/**
 `src/metrics/metrics.js`: population, density and the two-symbol Shannon
 entropy of a grid. `Math.log2` is the parameter `log2`; only the
 degenerate values of the entropy are pinned down without it.
 */
module Metrics {
  import opened CaGrid

  datatype BasicMetrics = BasicMetrics(density: real, entropy: real, population: nat)

  /** Cells equal to 1 among cells 0 .. n - 1 of a row. */
  function RowOnes(row: seq<int>, n: nat): (c: nat)
    requires n <= |row|
    ensures c <= n
  {
    if n == 0 then 0 else RowOnes(row, n - 1) + (if row[n - 1] == 1 then 1 else 0)
  }

  /** Cells equal to 1 among the first `width` cells of rows 0 .. m - 1. */
  function GridOnes(g: Grid, width: nat, m: nat): (c: nat)
    requires m <= |g| && forall y :: 0 <= y < |g| ==> width <= |g[y]|
  {
    if m == 0 then 0 else GridOnes(g, width, m - 1) + RowOnes(g[m - 1], width)
  }

  lemma {:induction false} GridOnesBound(g: Grid, width: nat, m: nat)
    requires m <= |g| && forall y :: 0 <= y < |g| ==> width <= |g[y]|
    ensures GridOnes(g, width, m) <= m * width
  {
    if m > 0 {
      GridOnesBound(g, width, m - 1);
      assert m * width == (m - 1) * width + width;
    }
  }

  /** `-(p * log2(p) + q * log2(q))` for p strictly between 0 and 1, and 0 at either end. */
  function Entropy(p: real, log2: real -> real): (h: real)
    ensures (p <= 0.0 || p >= 1.0) ==> h == 0.0
  {
    if p > 0.0 && p < 1.0 then -(p * log2(p) + (1.0 - p) * log2(1.0 - p)) else 0.0
  }

  /** `population / totalCells`, or 0 for an empty board. */
  function Density(population: nat, totalCells: nat): (d: real)
    requires population <= totalCells
    ensures 0.0 <= d <= 1.0
    ensures d == 0.0 <==> population == 0
    ensures d == 1.0 <==> population == totalCells > 0
  {
    if totalCells > 0 then
      FractionBounds(population as real, totalCells as real);
      population as real / totalCells as real
    else 0.0
  }

  lemma FractionBounds(a: real, b: real)
    requires 0.0 <= a <= b && b > 0.0
    ensures 0.0 <= a / b <= 1.0
    ensures a / b == 0.0 <==> a == 0.0
    ensures a / b == 1.0 <==> a == b
  {
    assert a / b * b == a;
  }

  /** `getBasicMetrics(grid)`: one pass counting the cells equal to 1. */
  method GetBasicMetrics(g: Grid, log2: real -> real) returns (m: BasicMetrics)
    requires Shaped(g)
    ensures m.population == GridOnes(g, |g[0]|, |g|) <= |g[0]| * |g|
    ensures m.density == Density(m.population, |g[0]| * |g|)
    ensures m.entropy == Entropy(m.density, log2)
  {
    var height, width := |g|, |g[0]|;
    var totalCells := width * height;
    var population := 0;
    var y := 0;
    while y < height
      invariant 0 <= y <= height
      invariant population == GridOnes(g, width, y)
    {
      var x := 0;
      while x < width
        invariant 0 <= x <= width
        invariant population == GridOnes(g, width, y) + RowOnes(g[y], x)
      {
        if g[y][x] == 1 {
          population := population + 1;
        }
        x := x + 1;
      }
      y := y + 1;
    }
    GridOnesBound(g, width, height);
    var density := Density(population, totalCells);
    m := BasicMetrics(density, Entropy(density, log2), population);
  }

  /** A row of one constant value has all or none of its cells alive. */
  lemma {:induction false} UniformRowOnes(row: seq<int>, n: nat, v: int)
    requires n <= |row| && forall x :: 0 <= x < |row| ==> row[x] == v
    ensures RowOnes(row, n) == if v == 1 then n else 0
  {
    if n > 0 {
      UniformRowOnes(row, n - 1, v);
    }
  }

  lemma {:induction false} UniformGridOnes(w: nat, h: nat, v: int, m: nat)
    requires m <= h
    ensures GridOnes(CreateGrid(w, h, v), w, m) == if v == 1 then m * w else 0
  {
    if m > 0 {
      UniformGridOnes(w, h, v, m - 1);
      UniformRowOnes(CreateGrid(w, h, v)[m - 1], w, v);
      assert m * w == (m - 1) * w + w;
    }
  }

  /**
   A full board has density 1 and an empty one density 0; both have
   entropy 0, whatever `log2` is.
   */
  lemma UniformMetrics(w: nat, h: nat, v: int, log2: real -> real)
    requires w > 0 && h > 0
    ensures var pop := GridOnes(CreateGrid(w, h, v), w, h);
            && pop == (if v == 1 then w * h else 0)
            && Density(pop, w * h) == (if v == 1 then 1.0 else 0.0)
            && Entropy(Density(pop, w * h), log2) == 0.0
  {
    UniformGridOnes(w, h, v, h);
    assert h * w == w * h;
  }

  /** A board that is neither empty nor full has a density strictly between 0 and 1. */
  lemma MixedDensity(population: nat, totalCells: nat)
    requires 0 < population < totalCells
    ensures 0.0 < Density(population, totalCells) < 1.0
  {
  }
}

=== FILE: metrics_functional.dfy ===
/**
 The deterministic parts of isinglab/metrics/functional.py: the capacity
 and basin-diversity ratios, the piecewise basin score, the weighted
 functional score, the module-profile decision list, and the Life-pattern
 scoring of a rule function on given pattern grids. The rule function is a
 parameter; the random patterns that feed the capacity, robustness and
 basin counts are left to the caller. Floats are exact reals.
 */
module MetricsFunctional {
  import opened CaGrid

  // ---------------------------------------------------------------- ratios

  /** `stable_patterns / n_patterns if n_patterns > 0 else 0`. */
  function CapacityScore(stable: nat, n: int): (c: real)
    ensures n <= 0 ==> c == 0.0
    ensures stable <= n ==> 0.0 <= c <= 1.0
    ensures n > 0 && stable == n ==> c == 1.0
  {
    if n > 0 then stable as real / n as real else 0.0
  }

  /** `len(set(attractors)) / n_samples if n_samples > 0 else 0`, one hash per sample. */
  function BasinDiversity(attractors: seq<int>): (d: real)
    ensures |attractors| == 0 ==> d == 0.0
    ensures 0.0 <= d <= 1.0
  {
    var unique := set k | 0 <= k < |attractors| :: attractors[k];
    UniqueAtMostLength(attractors);
    if |attractors| > 0 then |unique| as real / |attractors| as real else 0.0
  }

  lemma {:induction false} UniqueAtMostLength(xs: seq<int>)
    ensures |set k | 0 <= k < |xs| :: xs[k]| <= |xs|
    decreases |xs|
  {
    if |xs| > 0 {
      var init := xs[..|xs| - 1];
      UniqueAtMostLength(init);
      var s := set k | 0 <= k < |xs| :: xs[k];
      var t := set k | 0 <= k < |init| :: init[k];
      assert s == t + {xs[|xs| - 1]} by {
        forall x | x in s
          ensures x in t + {xs[|xs| - 1]}
        {
          var k :| 0 <= k < |xs| && xs[k] == x;
          if k < |xs| - 1 {
            assert init[k] == x;
          }
        }
      }
    }
  }

  /** The score mapping of `compute_basin_size`: 2d below 0.2, 5(1 - d) above 0.8, d in between. */
  function BasinScore(d: real): real {
    if d < 0.2 then d * 2.0
    else if d > 0.8 then (1.0 - d) * 5.0
    else d
  }

  /**
   A diversity in [0, 1] scores in [0, 1): the middle band scores itself
   and neither end can beat it by much; all-identical and all-distinct
   samples both score 0.
   */
  lemma BasinScoreFacts(d: real)
    requires 0.0 <= d <= 1.0
    ensures 0.0 <= BasinScore(d) < 1.0
    ensures 0.2 <= d <= 0.8 ==> BasinScore(d) == d
    ensures d < 0.2 ==> BasinScore(d) < 0.4
    ensures BasinScore(0.0) == 0.0 && BasinScore(1.0) == 0.0
  {
  }

  // ------------------------------------------------------ functional score

  /** `d.get(key, 0)`. */
  function Get(d: map<string, real>, key: string): real {
    if key in d then d[key] else 0.0
  }

  /** `compute_functional_score`: 0.4 capacity + 0.35 robustness + 0.25 basin. */
  function FunctionalScore(capacity: map<string, real>, robustness: map<string, real>, basin: map<string, real>): (f: real)
    ensures var c, r, b := Get(capacity, "capacity_score"), Get(robustness, "robustness_score"), Get(basin, "basin_score");
      (0.0 <= c <= 1.0 && 0.0 <= r <= 1.0 && 0.0 <= b <= 1.0 ==> 0.0 <= f <= 1.0)
  {
    Get(capacity, "capacity_score") * 0.4 + Get(robustness, "robustness_score") * 0.35 + Get(basin, "basin_score") * 0.25
  }

  /** Missing scores count as 0, the weights sum to 1, and raising one score never lowers the result. */
  lemma FunctionalScoreFacts(c1: map<string, real>, r1: map<string, real>, b1: map<string, real>,
                             c2: map<string, real>, r2: map<string, real>, b2: map<string, real>)
    requires Get(c1, "capacity_score") <= Get(c2, "capacity_score")
    requires Get(r1, "robustness_score") <= Get(r2, "robustness_score")
    requires Get(b1, "basin_score") <= Get(b2, "basin_score")
    ensures FunctionalScore(map[], map[], map[]) == 0.0
    ensures FunctionalScore(map["capacity_score" := 1.0], map["robustness_score" := 1.0], map["basin_score" := 1.0]) == 1.0
    ensures FunctionalScore(c1, r1, b1) <= FunctionalScore(c2, r2, b2)
  {
  }

  // ------------------------------------------------------ module profiles

  datatype Profile = StableMemory | RobustMemory | DiverseMemory | ChaoticProbe | SensitiveDetector | AttractorDominant | Generic

  function ProfileName(p: Profile): string {
    match p
    case StableMemory => "stable_memory"
    case RobustMemory => "robust_memory"
    case DiverseMemory => "diverse_memory"
    case ChaoticProbe => "chaotic_probe"
    case SensitiveDetector => "sensitive_detector"
    case AttractorDominant => "attractor_dominant"
    case Generic => "generic"
  }

  /** The seven profile names. */
  const ProfileNames: set<string> :=
    {"stable_memory", "robust_memory", "diverse_memory", "chaotic_probe", "sensitive_detector", "attractor_dominant", "generic"}

  /** Every profile has a name of its own, and the names are exactly the seven. */
  lemma ProfileNamesDistinct(p: Profile, q: Profile)
    ensures ProfileName(p) in ProfileNames
    ensures ProfileName(p) == ProfileName(q) ==> p == q
  {
  }

  /** The guard of each branch of `infer_module_profile`, in order. */
  predicate Guard(p: Profile, capacity: real, robustness: real, basin: real, entropy: real) {
    match p
    case StableMemory => capacity > 0.6 && robustness > 0.6
    case RobustMemory => robustness > 0.7 && capacity > 0.3
    case DiverseMemory => capacity > 0.5 && basin > 0.5
    case ChaoticProbe => entropy > 0.7 && capacity < 0.3
    case SensitiveDetector => robustness < 0.3 && entropy > 0.5
    case AttractorDominant => basin < 0.2 && robustness > 0.5
    case Generic => true
  }

  /** The position of each branch in the decision list. */
  function Rank(p: Profile): nat {
    match p
    case StableMemory => 0
    case RobustMemory => 1
    case DiverseMemory => 2
    case ChaoticProbe => 3
    case SensitiveDetector => 4
    case AttractorDominant => 5
    case Generic => 6
  }

  /** The suggested use `infer_module_profile` pairs with each profile. */
  function SuggestedUse(p: Profile): string {
    match p
    case StableMemory => "Stockage d'états discrets robuste, idéal pour mémoire à long terme"
    case RobustMemory => "Mémoire résistante au bruit, bon pour contextes bruités"
    case DiverseMemory => "Capacité de stockage avec bassins variés, bon pour patterns multiples"
    case ChaoticProbe => "Dynamiques complexes, exploration ou génération de hashing"
    case SensitiveDetector => "Sensible aux perturbations, capteur ou amplificateur de signaux"
    case AttractorDominant => "Convergence forte vers attracteurs, bon pour classification"
    case Generic => "Usage général, profil mixte"
  }

  /**
   The profile `infer_module_profile` picks: the first branch whose guard
   holds, so every branch before it has a failing guard.
   */
  function InferProfile(capacity: real, robustness: real, basin: real, entropy: real): (p: Profile)
    ensures Guard(p, capacity, robustness, basin, entropy)
    ensures Rank(p) > 0 ==> !Guard(StableMemory, capacity, robustness, basin, entropy)
    ensures Rank(p) > 1 ==> !Guard(RobustMemory, capacity, robustness, basin, entropy)
    ensures Rank(p) > 2 ==> !Guard(DiverseMemory, capacity, robustness, basin, entropy)
    ensures Rank(p) > 3 ==> !Guard(ChaoticProbe, capacity, robustness, basin, entropy)
    ensures Rank(p) > 4 ==> !Guard(SensitiveDetector, capacity, robustness, basin, entropy)
    ensures Rank(p) > 5 ==> !Guard(AttractorDominant, capacity, robustness, basin, entropy)
  {
    if capacity > 0.6 && robustness > 0.6 then StableMemory
    else if robustness > 0.7 && capacity > 0.3 then RobustMemory
    else if capacity > 0.5 && basin > 0.5 then DiverseMemory
    else if entropy > 0.7 && capacity < 0.3 then ChaoticProbe
    else if robustness < 0.3 && entropy > 0.5 then SensitiveDetector
    else if basin < 0.2 && robustness > 0.5 then AttractorDominant
    else Generic
  }

  /** `infer_module_profile(capacity, robustness, basin_diversity, entropy)`: the profile and its suggested use. */
  function InferModuleProfile(capacity: real, robustness: real, basin: real, entropy: real): (Profile, string) {
    var p := InferProfile(capacity, robustness, basin, entropy);
    (p, SuggestedUse(p))
  }

  /** The first-match list reads as: a profile is chosen exactly when its guard holds and no earlier guard does. */
  lemma FirstMatch(capacity: real, robustness: real, basin: real, entropy: real, q: Profile)
    ensures InferProfile(capacity, robustness, basin, entropy) == q <==>
      Guard(q, capacity, robustness, basin, entropy) &&
      forall e: Profile :: Rank(e) < Rank(q) ==> !Guard(e, capacity, robustness, basin, entropy)
  {
  }

  // ------------------------------------------------------- Life patterns

  function RowSum(row: seq<int>): int
    decreases |row|
  {
    if |row| == 0 then 0 else RowSum(row[..|row| - 1]) + row[|row| - 1]
  }

  /** `grid.sum()`. */
  function GridSum(g: Grid): int
    decreases |g|
  {
    if |g| == 0 then 0 else GridSum(g[..|g| - 1]) + RowSum(g[|g| - 1])
  }

  lemma {:induction false} RowSumZero(row: seq<int>)
    requires forall j :: 0 <= j < |row| ==> row[j] == 0
    ensures RowSum(row) == 0
    decreases |row|
  {
    if |row| > 0 {
      RowSumZero(row[..|row| - 1]);
    }
  }

  lemma {:induction false} GridSumZero(g: Grid)
    requires forall i, j :: 0 <= i < |g| && 0 <= j < |g[i]| ==> g[i][j] == 0
    ensures GridSum(g) == 0
    decreases |g|
  {
    if |g| > 0 {
      GridSumZero(g[..|g| - 1]);
      RowSumZero(g[|g| - 1]);
    }
  }

  function CellCount(g: Grid): nat
    decreases |g|
  {
    if |g| == 0 then 0 else CellCount(g[..|g| - 1]) + |g[|g| - 1]|
  }

  /** The rule function applied n times. */
  function Run(rule: Grid -> Grid, g: Grid, n: nat): Grid
    decreases n
  {
    if n == 0 then g else Run(rule, rule(g), n - 1)
  }

  lemma {:induction false} FixedRun(rule: Grid -> Grid, g: Grid, n: nat)
    requires rule(g) == g
    ensures Run(rule, g, n) == g
    decreases n
  {
    if n > 0 {
      FixedRun(rule, g, n - 1);
    }
  }

  /** What one pattern run of `compute_life_pattern_capacity` reports. */
  datatype PatternResult = PatternResult(score: real, survived: bool, foundPeriod: bool)

  /** `states`: the grid and its images under 1 .. n applications of the rule. */
  function States(rule: Grid -> Grid, g: Grid, n: nat): (s: seq<Grid>)
    ensures |s| == n + 1
    ensures forall k :: 0 <= k <= n ==> s[k] == Run(rule, g, k)
  {
    seq(n + 1, (k: int) requires 0 <= k <= n => Run(rule, g, k))
  }

  /**
   `0.01 < current.mean() < 0.5`: the mean is the sum over the number of
   cells; numpy's mean of an empty grid is NaN and fails both tests.
   */
  predicate DensityInRange(g: Grid) {
    CellCount(g) > 0 && 0.01 < GridSum(g) as real / CellCount(g) as real < 0.5
  }

  /**
   The loop body of `compute_life_pattern_capacity` for one pattern of the
   given period: 0.3 if the final state is alive, 0.5 more if it also
   repeats after `period` steps from step 5 without being empty, 0.2 if the
   final density is in (0.01, 0.5). Both length tests on `states` always
   pass, since it holds 3 period + 6 states.
   */
  function PatternScore(rule: Grid -> Grid, g: Grid, period: nat): (r: PatternResult)
    ensures r.foundPeriod ==> r.survived
    ensures 0.0 <= r.score <= 1.0
    ensures r.survived <==> GridSum(Run(rule, g, period * 3 + 5)) > 0
    ensures r.foundPeriod <==> (r.survived &&
      Run(rule, g, 5) == Run(rule, g, 5 + period) && GridSum(Run(rule, g, 5)) > 0)
  {
    var maxSteps := period * 3 + 5;
    var states := States(rule, g, maxSteps);
    var current := states[maxSteps];
    var survived := GridSum(current) > 0;
    var s1 := if survived then 0.3 else 0.0;
    var found :=
      survived && |states| >= period + 5 &&
      (var atStart := states[5];
       var afterPeriod := if 5 + period < |states| then states[5 + period] else current;
       atStart == afterPeriod && GridSum(atStart) > 0);
    var s2 := s1 + if found then 0.5 else 0.0;
    var s3 := s2 + if DensityInRange(current) then 0.2 else 0.0;
    PatternResult(s3, survived, found)
  }

  /** A pattern the rule has killed by the last step scores nothing at all. */
  lemma DeadPatternScoresZero(rule: Grid -> Grid, g: Grid, period: nat)
    requires AllCells(Run(rule, g, period * 3 + 5), 0)
    ensures PatternScore(rule, g, period).score == 0.0
  {
    GridSumZero(Run(rule, g, period * 3 + 5));
  }

  /** A live still life of the rule earns the survival and period credits, whatever period it is tested at. */
  lemma StillLifeScores(rule: Grid -> Grid, g: Grid, period: nat)
    requires rule(g) == g && GridSum(g) > 0
    ensures PatternScore(rule, g, period).foundPeriod
    ensures PatternScore(rule, g, period).score >= 0.8
  {
    FixedRun(rule, g, 5);
    FixedRun(rule, g, 5 + period);
    FixedRun(rule, g, period * 3 + 5);
  }

  /** The periods of block, blinker, glider, toad and beacon, in dict order. */
  const Periods: seq<nat> := [1, 2, 4, 2, 2]

  function TotalFrom(rule: Grid -> Grid, grids: seq<Grid>, k: nat): (t: real)
    requires |grids| == |Periods| && k <= |Periods|
    ensures 0.0 <= t <= (|Periods| - k) as real
    decreases |Periods| - k
  {
    if k == |Periods| then 0.0
    else PatternScore(rule, grids[k], Periods[k]).score + TotalFrom(rule, grids, k + 1)
  }

  /**
   `life_capacity_score`: the mean of the five pattern scores (the pattern
   dict is never empty, so the `else 0.0` branch is dead).
   */
  function LifeCapacityScore(rule: Grid -> Grid, grids: seq<Grid>): (s: real)
    requires |grids| == |Periods|
    ensures 0.0 <= s <= 1.0
  {
    var total := TotalFrom(rule, grids, 0);
    assert 0.0 <= total <= 5.0;
    total / 5.0
  }

  lemma {:induction false} TotalAtLeast(rule: Grid -> Grid, grids: seq<Grid>, k: nat)
    requires |grids| == |Periods| && k <= |Periods|
    requires forall i :: k <= i < |grids| ==> PatternScore(rule, grids[i], Periods[i]).score >= 0.8
    ensures TotalFrom(rule, grids, k) >= (|Periods| - k) as real * 0.8
    decreases |Periods| - k
  {
    if k < |Periods| {
      TotalAtLeast(rule, grids, k + 1);
    }
  }

  lemma {:induction false} TotalZero(rule: Grid -> Grid, grids: seq<Grid>, k: nat)
    requires |grids| == |Periods| && k <= |Periods|
    requires forall i :: k <= i < |grids| ==> PatternScore(rule, grids[i], Periods[i]).score == 0.0
    ensures TotalFrom(rule, grids, k) == 0.0
    decreases |Periods| - k
  {
    if k < |Periods| {
      TotalZero(rule, grids, k + 1);
    }
  }

  /** When all five patterns are live still lifes the global score is at least 0.8. */
  lemma StillLivesScoreHigh(rule: Grid -> Grid, grids: seq<Grid>)
    requires |grids| == |Periods|
    requires forall i :: 0 <= i < |grids| ==> rule(grids[i]) == grids[i] && GridSum(grids[i]) > 0
    ensures LifeCapacityScore(rule, grids) >= 0.8
  {
    forall i | 0 <= i < |grids|
      ensures PatternScore(rule, grids[i], Periods[i]).score >= 0.8
    {
      StillLifeScores(rule, grids[i], Periods[i]);
    }
    TotalAtLeast(rule, grids, 0);
  }

  /** When the rule kills all five patterns the global score is 0. */
  lemma DeadPatternsScoreZero(rule: Grid -> Grid, grids: seq<Grid>)
    requires |grids| == |Periods|
    requires forall i :: 0 <= i < |grids| ==> AllCells(Run(rule, grids[i], Periods[i] * 3 + 5), 0)
    ensures LifeCapacityScore(rule, grids) == 0.0
  {
    forall i | 0 <= i < |grids|
      ensures PatternScore(rule, grids[i], Periods[i]).score == 0.0
    {
      DeadPatternScoresZero(rule, grids[i], Periods[i]);
    }
    TotalZero(rule, grids, 0);
  }
}

=== FILE: metrics_memory.dfy ===
/**
 isinglab/metrics/memory.py: cycle detection on a state history, the
 attractor classification built on it, and the clipped memory score.
 States are compared by their flattened contents, so a history is a
 sequence of values of any equality type. Floats are exact reals.
 */
module MetricsMemory {
  import opened Wrappers
  import Arith

  /** From index t on, the history repeats with period p: h[i] == h[i + p] for every i in [t, n - p). */
  predicate PeriodicFrom<T(==)>(h: seq<T>, p: nat, t: nat)
    requires p <= |h|
  {
    forall i :: t <= i < |h| - p ==> h[i] == h[i + p]
  }

  /** The last 2p states are one block of p states written twice. */
  predicate TailRepeats<T(==)>(h: seq<T>, p: nat)
    requires 2 * p <= |h|
  {
    PeriodicFrom(h, p, |h| - 2 * p)
  }

  // ------------------------------------------------------------ detect_cycle

  /** The inner `for offset in range(period)` loop of `detect_cycle`, from `offset` on. */
  function OffsetsMatch<T(==)>(h: seq<T>, p: nat, offset: nat): bool
    requires 1 <= p <= |h| && offset <= p
    decreases p - offset
  {
    if offset == p then true
    else if |h| - 1 - offset < p then false
    else if h[|h| - 1 - offset] != h[|h| - 1 - offset - p] then false
    else OffsetsMatch(h, p, offset + 1)
  }

  lemma {:induction false} OffsetsMatchSpec<T>(h: seq<T>, p: nat, offset: nat)
    requires 1 <= p && 2 * p <= |h| && offset <= p
    ensures OffsetsMatch(h, p, offset) <==> forall i :: |h| - 2 * p <= i < |h| - p - offset ==> h[i] == h[i + p]
    decreases p - offset
  {
    if offset < p {
      OffsetsMatchSpec(h, p, offset + 1);
    }
  }

  /** The `for i in range(transient, n - period)` check that follows, from `i` on. */
  function StableFrom<T(==)>(h: seq<T>, p: nat, i: nat): bool
    requires p <= |h|
    decreases |h| - i
  {
    if i >= |h| - p then true
    else if h[i] != h[i + p] then false
    else StableFrom(h, p, i + 1)
  }

  lemma {:induction false} StableFromSpec<T>(h: seq<T>, p: nat, i: nat)
    requires p <= |h|
    ensures StableFrom(h, p, i) <==> PeriodicFrom(h, p, i)
    decreases |h| - i
  {
    if i < |h| - p {
      StableFromSpec(h, p, i + 1);
    }
  }

  /** Both loops of one period test accept exactly when the tail repeats with that period. */
  lemma PeriodTest<T>(h: seq<T>, p: nat)
    requires 1 <= p && 2 * p <= |h|
    ensures OffsetsMatch(h, p, 0) && StableFrom(h, p, |h| - 2 * p) <==> TailRepeats(h, p)
  {
    OffsetsMatchSpec(h, p, 0);
    StableFromSpec(h, p, |h| - 2 * p);
  }

  /** `for period in range(p, last + 1)`: the first period that passes both tests. */
  function CycleFrom<T(==)>(h: seq<T>, p: nat, last: int): (r: Option<(nat, nat)>)
    requires 1 <= p <= last + 1 && 2 * last <= |h|
    ensures r.Some? ==> p <= r.value.1 <= last && r.value.0 == |h| - 2 * r.value.1
    ensures r.Some? ==> TailRepeats(h, r.value.1)
    ensures forall q :: p <= q <= last && (r.None? || q < r.value.1) ==> !TailRepeats(h, q)
    decreases last + 1 - p
  {
    if p > last then None
    else
      PeriodTest(h, p);
      if OffsetsMatch(h, p, 0) && StableFrom(h, p, |h| - 2 * p) then Some((|h| - 2 * p, p))
      else CycleFrom(h, p + 1, last)
  }

  function Min(a: int, b: int): int {
    if a < b then a else b
  }

  /** The largest period `detect_cycle` tries: `min(max_period, n // 2)`. */
  function LastPeriod(n: nat, maxPeriod: int): int {
    Min(maxPeriod, n / 2)
  }

  /**
   `detect_cycle(history, max_period)`: the smallest period p in
   [1, min(max_period, n // 2)] whose last two blocks of p states agree, with
   `n - 2p` reported as the transient; None when there is none or fewer
   than 2 states.
   */
  function DetectCycle<T(==)>(h: seq<T>, maxPeriod: int): (r: Option<(nat, nat)>)
    ensures |h| < 2 ==> r.None?
    ensures r.Some? ==> var (t, p) := r.value;
      && 1 <= p <= LastPeriod(|h|, maxPeriod)
      && t == |h| - 2 * p
      && PeriodicFrom(h, p, t)
      && forall q :: 1 <= q < p ==> !TailRepeats(h, q)
    ensures r.None? ==> forall q :: 1 <= q <= LastPeriod(|h|, maxPeriod) ==> !TailRepeats(h, q)
  {
    if |h| < 2 then None
    else
      var last := LastPeriod(|h|, maxPeriod);
      if last < 1 then None else CycleFrom(h, 1, last)
  }

  /** A history that never changes is found to have period 1, with transient n - 2. */
  lemma ConstantHistoryPeriodOne<T>(h: seq<T>, maxPeriod: int)
    requires |h| >= 2 && maxPeriod >= 1
    requires forall i :: 0 <= i < |h| ==> h[i] == h[0]
    ensures DetectCycle(h, maxPeriod) == Some(((|h| - 2) as nat, 1))
  {
    assert TailRepeats(h, 1);
  }

  // -------------------------------------------------------- corrected transient

  /** Walks the start of a period-p stretch back while the state before it still repeats. */
  function Start<T(==)>(h: seq<T>, p: nat, t: nat): (s: nat)
    requires p <= |h| && t + p <= |h| && PeriodicFrom(h, p, t)
    ensures s <= t && PeriodicFrom(h, p, s)
    ensures s > 0 ==> h[s - 1] != h[s - 1 + p]
    decreases t
  {
    if t > 0 && h[t - 1] == h[t - 1 + p] then Start(h, p, t - 1) else t
  }

  /**
   What the transient is meant to be ("find when it started"): the first
   index from which the history repeats with the detected period.
   */
  function DetectCycleIntended<T(==)>(h: seq<T>, maxPeriod: int): (r: Option<(nat, nat)>)
    ensures r.None? <==> DetectCycle(h, maxPeriod).None?
    ensures r.Some? ==> var (t, p) := r.value;
      && p == DetectCycle(h, maxPeriod).value.1
      && t <= |h| - 2 * p
      && PeriodicFrom(h, p, t)
      && forall s :: 0 <= s < t ==> !PeriodicFrom(h, p, s)
  {
    match DetectCycle(h, maxPeriod)
    case None => None
    case Some((t, p)) =>
      var s := Start(h, p, t);
      assert forall u :: 0 <= u < s ==> !PeriodicFrom(h, p, u) by {
        forall u | 0 <= u < s
          ensures !PeriodicFrom(h, p, u)
        {
          assert u <= s - 1 < |h| - p;
        }
      }
      Some((s, p))
  }

  /**
   On a constant history of three or more states the code reports a
   transient of n - 2 although every state already lies on the fixed
   point; the intended transient is 0.
   */
  lemma ConstantHistoryTransient<T>(h: seq<T>, maxPeriod: int)
    requires |h| >= 3 && maxPeriod >= 1
    requires forall i :: 0 <= i < |h| ==> h[i] == h[0]
    ensures DetectCycle(h, maxPeriod) == Some(((|h| - 2) as nat, 1))
    ensures |h| - 2 > 0
    ensures DetectCycleIntended(h, maxPeriod) == Some((0, 1))
  {
    ConstantHistoryPeriodOne(h, maxPeriod);
    assert PeriodicFrom(h, 1, 0);
  }

  // ------------------------------------------------------- attractor_analysis

  /** `len(set(state_hashes))`. */
  function UniqueCount<T(==)>(h: seq<T>): nat {
    |set i | 0 <= i < |h| :: h[i]|
  }

  lemma ConstantUnique<T>(h: seq<T>)
    requires |h| > 0 && forall i :: 0 <= i < |h| ==> h[i] == h[0]
    ensures UniqueCount(h) == 1
  {
    var s := set i | 0 <= i < |h| :: h[i];
    assert s == {h[0]};
  }

  datatype Kind = Unknown | Fixed | Cycle | QuasiPeriodic | Chaotic

  /** The dictionary `attractor_analysis` returns. */
  datatype Analysis = Analysis(kind: Kind, period: nat, transient: nat, stability: real, uniqueStates: nat)

  /** `1 - transient / len(history)`, a fraction of the run. */
  function Stability(t: nat, n: nat): (s: real)
    requires 0 < n && t <= n
    ensures s == 1.0 - t as real / n as real
    ensures 0.0 <= s <= 1.0
  {
    Arith.QuotientBounds(t as real, n as real, 1.0);
    1.0 - t as real / n as real
  }

  /**
   `attractor_analysis(history, max_period)`: a detected cycle is `fixed`
   for period 1 and `cycle` otherwise, with stability 1 - transient/len;
   without one, a single state is `fixed`, fewer unique states than half
   the length is `quasi-periodic`, anything else `chaotic`.
   */
  function AttractorAnalysis<T(==)>(h: seq<T>, maxPeriod: int): (a: Analysis)
    ensures |h| < 2 ==> a == Analysis(Unknown, 0, |h|, 0.0, 0)
    ensures |h| >= 2 ==> a.uniqueStates == UniqueCount(h) && a.kind != Unknown
    ensures a.kind == Fixed ==> a.period == 1
    ensures a.kind == Cycle ==> a.period > 1
    ensures a.period > 0 <==> a.kind == Fixed || a.kind == Cycle
    ensures 0.0 <= a.stability <= 1.0
    ensures DetectCycle(h, maxPeriod).Some? ==>
      a.transient == DetectCycle(h, maxPeriod).value.0 && a.period == DetectCycle(h, maxPeriod).value.1 &&
      a.stability == 1.0 - a.transient as real / |h| as real
    ensures DetectCycle(h, maxPeriod).None? && |h| >= 2 && UniqueCount(h) == 1 ==>
      a.kind == Fixed && a.period == 1 && a.stability == 1.0
    ensures DetectCycle(h, maxPeriod).None? ==> a.transient == |h|
  {
    if |h| < 2 then Analysis(Unknown, 0, |h|, 0.0, 0)
    else
      var u := UniqueCount(h);
      match DetectCycle(h, maxPeriod)
      case Some((t, p)) =>
        Analysis(if p == 1 then Fixed else Cycle, p, t, Stability(t, |h|), u)
      case None =>
        if u == 1 then Analysis(Fixed, 1, |h|, 1.0, u)
        else if (u as real) < |h| as real * 0.5 then Analysis(QuasiPeriodic, 0, |h|, 0.5, u)
        else Analysis(Chaotic, 0, |h|, 0.0, u)
  }

  /** The single-state branch without a cycle is reached only when max_period is below 1. */
  lemma SingleStateNeedsNoPeriods<T>(h: seq<T>, maxPeriod: int)
    requires |h| >= 2 && forall i :: 0 <= i < |h| ==> h[i] == h[0]
    ensures DetectCycle(h, maxPeriod).None? <==> maxPeriod < 1
  {
    if maxPeriod >= 1 {
      ConstantHistoryPeriodOne(h, maxPeriod);
    }
  }

  // ------------------------------------------------------------ memory_score

  function MinReal(a: real, b: real): real {
    if a < b then a else b
  }

  /** `np.clip(x, 0.0, 1.0)`. */
  function Clip(x: real): (c: real)
    ensures 0.0 <= c <= 1.0
    ensures 0.0 <= x <= 1.0 ==> c == x
  {
    if x < 0.0 then 0.0 else if x > 1.0 then 1.0 else x
  }

  /**
   `memory_score(history, max_period)`: stability × (1 - period_penalty/2)
   × (0.5 + convergence/2), clipped to [0, 1]. The period penalty divides
   by max_period, which raises ZeroDivisionError when a period is reported
   with max_period 0.
   */
  function MemoryScore<T(==)>(h: seq<T>, maxPeriod: int): (r: Result<real>)
    ensures |h| < 2 ==> r == Ok(0.0)
    ensures r.Ok? ==> 0.0 <= r.value <= 1.0
    ensures r.Err? <==> |h| >= 2 && maxPeriod == 0 && UniqueCount(h) == 1
    ensures r.Err? ==> r.error.kind == ZeroDivisionError
  {
    if |h| < 2 then Ok(0.0)
    else
      var a := AttractorAnalysis(h, maxPeriod);
      if a.period > 0 && maxPeriod == 0 then Err(Error(ZeroDivisionError, "division by zero"))
      else
        var penalty := if a.period > 0 then MinReal(a.period as real / maxPeriod as real, 1.0) else 1.0;
        var convergence := 1.0 - MinReal(a.transient as real / |h| as real, 1.0);
        Ok(Clip(a.stability * (1.0 - penalty * 0.5) * (0.5 + 0.5 * convergence)))
  }

  /** Without a detected cycle and with more than one state, the score is at most 1/8. */
  lemma NoCycleScoresLow<T>(h: seq<T>, maxPeriod: int)
    requires |h| >= 2 && DetectCycle(h, maxPeriod).None? && UniqueCount(h) != 1
    ensures MemoryScore(h, maxPeriod) == Ok(0.0) || MemoryScore(h, maxPeriod) == Ok(0.125)
  {
    var a := AttractorAnalysis(h, maxPeriod);
    assert a.period == 0 && a.transient == |h|;
    Arith.SelfQuotient(|h| as real);
    assert MinReal(a.transient as real / |h| as real, 1.0) == 1.0;
    assert a.stability == 0.0 || a.stability == 0.5;
  }
}

=== FILE: profile_inference.dfy ===
/**
 `isinglab/integration/profile_inference.py`: the keyword rules that pick
 a physical target profile for a system. Feature values are text; the
 profile names are the keys of the target-profile catalogue in
 `isinglab/integration/target_profiles.py`, whose contents are not modelled.
 */
module ProfileInference {
  import opened PyText

  const NvCqed := "nv_cqed_device_grade"
  const SolidState := "solid_state_non_optical_device_grade"
  const EpLike := "ep_like_sensor"
  const ManyBody := "many_body_enhanced"
  const RadicalPair := "bio_spin_radical_pair"
  const Biosensor := "biosensor_high_contrast"
  const QuantumInspired := "quantum_inspired_computing"

  /** The keys of `PHYSICAL_TARGET_PROFILES`. */
  const TargetProfileKeys: set<string> := {NvCqed, SolidState, EpLike, ManyBody, RadicalPair, Biosensor, QuantumInspired}

  type Features = map<string, string>

  /** `features.get(key, default)`. */
  function Get(features: Features, key: string, default: string): string {
    if key in features then features[key] else default
  }

  /** Some keyword is a substring of `s`. */
  predicate AnyIn(words: seq<string>, s: string) {
    exists k :: 0 <= k < |words| && Contains(s, words[k])
  }

  /** The keyword rules on the lower-cased system class, in the order they are tried. */
  const KeywordRules: seq<(seq<string>, string)> := [
    (["nv", "diamond"], NvCqed),
    (["sic", "31p", "solid"], SolidState),
    (["radical", "crypto", "bird"], RadicalPair),
    (["biosensor", "gcamp", "dlight"], Biosensor),
    (["ep", "exceptional", "non-hermitian"], EpLike),
    (["many-body", "ensemble", "collective"], ManyBody)
  ]

  /** The index of the first keyword rule matching `cls`, or |rules| when none does. */
  function FirstRule(rules: seq<(seq<string>, string)>, cls: string): (k: nat)
    ensures k <= |rules|
    ensures k < |rules| ==> AnyIn(rules[k].0, cls)
    ensures forall j :: 0 <= j < k ==> !AnyIn(rules[j].0, cls)
  {
    if |rules| == 0 then 0
    else if AnyIn(rules[0].0, cls) then 0
    else 1 + FirstRule(rules[1..], cls)
  }

  /**
   `infer_best_profile_for_system`: the first keyword rule whose keyword
   occurs in the lower-cased system class; then a high-noise environment
   gives the radical-pair profile; then an optical modality with low noise
   the biosensor profile; otherwise the generic quantum-inspired profile.
   The noise level is compared as given, without lower-casing.
   */
  function InferBestProfile(features: Features): (r: string)
    ensures r in TargetProfileKeys
  {
    var cls := Lower(Get(features, "system_class", ""));
    var modality := Lower(Get(features, "modality", ""));
    var noise := Get(features, "noise_environment", "moderate");
    var k := FirstRule(KeywordRules, cls);
    if k < |KeywordRules| then KeywordRules[k].1
    else if noise == "high" then RadicalPair
    else if Contains(modality, "optical") && noise == "low" then Biosensor
    else QuantumInspired
  }

  /** A matching keyword rule decides, whatever the noise and modality; the earlier rules take priority. */
  lemma KeywordDecides(features: Features, k: nat)
    requires k < |KeywordRules|
    requires AnyIn(KeywordRules[k].0, Lower(Get(features, "system_class", "")))
    requires forall j :: 0 <= j < k ==> !AnyIn(KeywordRules[j].0, Lower(Get(features, "system_class", "")))
    ensures InferBestProfile(features) == KeywordRules[k].1
  {
    var cls := Lower(Get(features, "system_class", ""));
    assert FirstRule(KeywordRules, cls) == k;
  }

  /** An NV or diamond class is always the NV cavity-QED profile. */
  lemma NvFirst(features: Features)
    requires Contains(Lower(Get(features, "system_class", "")), "nv") || Contains(Lower(Get(features, "system_class", "")), "diamond")
    ensures InferBestProfile(features) == NvCqed
  {
    assert KeywordRules[0].0[0] == "nv" && KeywordRules[0].0[1] == "diamond";
    KeywordDecides(features, 0);
  }

  /** Without a keyword match the environment and modality decide: high noise, then optical with low noise, then the fallback. */
  lemma NoKeywordFallbacks(features: Features)
    requires forall j :: 0 <= j < |KeywordRules| ==> !AnyIn(KeywordRules[j].0, Lower(Get(features, "system_class", "")))
    ensures var noise := Get(features, "noise_environment", "moderate");
      InferBestProfile(features) ==
        if noise == "high" then RadicalPair
        else if Contains(Lower(Get(features, "modality", "")), "optical") && noise == "low" then Biosensor
        else QuantumInspired
  {
    var cls := Lower(Get(features, "system_class", ""));
    assert FirstRule(KeywordRules, cls) == |KeywordRules|;
  }

  /** The empty feature set falls through every rule to the generic profile. */
  lemma EmptyFeaturesAreGeneric()
    ensures InferBestProfile(map[]) == QuantumInspired
  {
    forall j | 0 <= j < |KeywordRules|
      ensures !AnyIn(KeywordRules[j].0, Lower(Get(map[], "system_class", "")))
    {
      forall w | w in KeywordRules[j].0
        ensures |w| > 0
      {
      }
    }
    NoKeywordFallbacks(map[]);
  }
}

=== FILE: py_bits.dfy ===
/**
 Python's arbitrary-precision integers seen as bit strings: `x & (1 << k)`
 tests bit k of the infinite two's complement form, and `x | (1 << k)`
 sets it. Python's `>>` is floor division by a power of two, which is what
 Dafny's `/` does for a positive divisor.
 */
module PyBits {

  function Pow2(k: nat): (p: nat)
    ensures p >= 1
  {
    if k == 0 then 1 else 2 * Pow2(k - 1)
  }

  /** `x & (1 << k) != 0`. */
  predicate Bit(x: int, k: nat)
    decreases k
  {
    if k == 0 then x % 2 == 1 else Bit(x / 2, k - 1)
  }

  /** `x | (1 << k)`. */
  function SetBit(x: int, k: nat): (r: int)
    ensures Bit(r, k)
    ensures forall j: nat :: j != k ==> (Bit(r, j) <==> Bit(x, j))
  {
    if Bit(x, k) then x
    else
      AddClearBit(x, k);
      x + Pow2(k)
  }

  /** Adding 2^k to a number whose bit k is clear sets that bit and no other. */
  lemma {:induction false} AddClearBit(x: int, k: nat)
    requires !Bit(x, k)
    ensures forall j: nat :: Bit(x + Pow2(k), j) <==> Bit(x, j) || j == k
    decreases k
  {
    forall j: nat
      ensures Bit(x + Pow2(k), j) <==> Bit(x, j) || j == k
    {
      if k == 0 {
        assert (x + 1) / 2 == x / 2;
      } else {
        assert (x + Pow2(k)) / 2 == x / 2 + Pow2(k - 1);
        assert (x + Pow2(k)) % 2 == x % 2;
        AddClearBit(x / 2, k - 1);
      }
    }
  }

  /** Zero has no bit set. */
  lemma {:induction false} ZeroHasNoBits(k: nat)
    ensures !Bit(0, k)
  {
    if k > 0 {
      ZeroHasNoBits(k - 1);
    }
  }

  /** A non-negative number below 2^m has no bit at m or above. */
  lemma {:induction false} NoBitAbove(x: int, m: nat, n: nat)
    requires 0 <= x < Pow2(m) && m <= n
    ensures !Bit(x, n)
    decreases n
  {
    if m == 0 {
      ZeroHasNoBits(n);
    } else {
      NoBitAbove(x / 2, m - 1, n - 1);
    }
  }

  /** `for k in ks: x |= 1 << k`, left to right. */
  function SetBits(x: int, ks: seq<nat>): (r: int)
    ensures forall j: nat :: Bit(r, j) <==> Bit(x, j) || j in ks
    decreases |ks|
  {
    if |ks| == 0 then x
    else SetBits(SetBit(x, ks[0]), ks[1..])
  }

  /** Setting bits never makes a non-negative number negative. */
  lemma {:induction false} SetBitsNonNegative(x: int, ks: seq<nat>)
    requires x >= 0
    ensures SetBits(x, ks) >= 0
    decreases |ks|
  {
    if |ks| > 0 {
      SetBitsNonNegative(SetBit(x, ks[0]), ks[1..]);
    }
  }
}

=== FILE: py_float.dfy ===
/**
 IEEE double arithmetic as Python and numpy do it on the values the score
 code meets: finite values are exact reals, and the infinities and NaN are
 carried explicitly. Signed zero is not modelled: every zero is +0.0.
 */
module PyFloat {

  datatype Float = Fin(v: real) | Inf(pos: bool) | NaN

  /** A value above zero, counting +inf. */
  predicate Positive(x: Float) {
    (x.Fin? && x.v > 0.0) || (x.Inf? && x.pos)
  }

  predicate IsZero(x: Float) {
    x.Fin? && x.v == 0.0
  }

  /** `a < b`: every comparison with NaN is false, -inf is below and +inf above every finite value. */
  predicate Less(a: Float, b: Float) {
    if a.NaN? || b.NaN? then false
    else if a.Fin? && b.Fin? then a.v < b.v
    else if a.Inf? && b.Inf? then !a.pos && b.pos
    else if a.Inf? then !a.pos
    else b.pos
  }

  /** `<` is a strict total order on the values that are not NaN. */
  lemma LessTotal(a: Float, b: Float)
    requires !a.NaN? && !b.NaN?
    ensures Less(a, b) || Less(b, a) || a == b
    ensures !(Less(a, b) && Less(b, a))
    ensures !Less(a, a)
  {
  }

  /** `a + b`: opposite infinities give NaN. */
  function Add(a: Float, b: Float): (r: Float)
    ensures r.Fin? <==> a.Fin? && b.Fin?
    ensures r.Fin? ==> r.v == a.v + b.v
    ensures r.NaN? <==> a.NaN? || b.NaN? || (a.Inf? && b.Inf? && a.pos != b.pos)
    ensures r.Inf? ==> (a.Inf? ==> r == a) && (b.Inf? ==> r == b)
  {
    if a.NaN? || b.NaN? then NaN
    else if a.Fin? && b.Fin? then Fin(a.v + b.v)
    else if a.Inf? && b.Inf? then (if a.pos == b.pos then a else NaN)
    else if a.Inf? then a
    else b
  }

  /** `a * b`: zero times an infinity is NaN, and an infinite product takes the sign rule. */
  function Mul(a: Float, b: Float): (r: Float)
    ensures r.Fin? <==> a.Fin? && b.Fin?
    ensures r.Fin? ==> r.v == a.v * b.v
    ensures r.NaN? <==> a.NaN? || b.NaN? || (a.Inf? && IsZero(b)) || (b.Inf? && IsZero(a))
    ensures r.Inf? ==> (r.pos <==> (Positive(a) <==> Positive(b)))
  {
    if a.NaN? || b.NaN? then NaN
    else if a.Fin? && b.Fin? then Fin(a.v * b.v)
    else if IsZero(a) || IsZero(b) then NaN
    else Inf(Positive(a) == Positive(b))
  }

  /**
   numpy's `a / b` on a float64 scalar: a division by zero gives an
   infinity of the dividend's sign, or NaN for 0/0, with a warning
   instead of an exception.
   */
  function Div(a: Float, b: Float): (r: Float)
    ensures a.Fin? && b.Fin? && b.v != 0.0 ==> r == Fin(a.v / b.v)
    ensures IsZero(b) ==> (r.NaN? <==> a.NaN? || IsZero(a))
    ensures IsZero(b) && !r.NaN? ==> r == Inf(Positive(a))
    ensures a.NaN? || b.NaN? ==> r.NaN?
  {
    if a.NaN? || b.NaN? then NaN
    else if b.Inf? then (if a.Inf? then NaN else Fin(0.0))
    else if b.v == 0.0 then (if IsZero(a) then NaN else Inf(Positive(a)))
    else if a.Inf? then Inf(a.pos == (b.v > 0.0))
    else Fin(a.v / b.v)
  }

  /** Python's `min(a, b)`: the first argument unless the second compares smaller. */
  function Min(a: Float, b: Float): (r: Float)
    ensures r == a || r == b
    ensures a.NaN? ==> r == a
    ensures b.NaN? ==> r == a
    ensures !Less(a, r) && !Less(b, r)
  {
    if Less(b, a) then b else a
  }

  /** Python's `max(a, b)`: the first argument unless the second compares larger. */
  function Max(a: Float, b: Float): (r: Float)
    ensures r == a || r == b
    ensures a.NaN? ==> r == a
    ensures b.NaN? ==> r == a
    ensures !Less(r, a) && !Less(r, b)
  {
    if Less(a, b) then b else a
  }
}

=== FILE: py_life.dfy ===
/**
 The Python Life-like steps on an h × w numpy grid `grid[i, j]` (row i,
 column j): the loop version of `MemoryExplorer._create_rule_function`
 (isinglab/memory_explorer.py) and the convolution version of
 isinglab/core/ca_vectorized.py, with the agreement between the two and
 with the nested-array JS engine.
 */
module PyLife {
  import opened CaGrid
  import CaRules
  import CaStep
  import Arith

  /** Python's `(i + d) % n` for a step d in {-1, 0, 1} from a coordinate on a ring of size n. */
  function Ring(i: int, d: int, n: int): (r: nat)
    requires n > 0 && 0 <= i < n && -1 <= d <= 1
    ensures r == if i + d < 0 then n - 1 else if i + d >= n then 0 else i + d
  {
    RingCases(i, d, n);
    (i + d) % n
  }

  lemma RingCases(i: int, d: int, n: int)
    requires n > 0 && 0 <= i < n && -1 <= d <= 1
    ensures (i + d) % n == if i + d < 0 then n - 1 else if i + d >= n then 0 else i + d
  {
    if i + d < 0 {
      Arith.DivModUnique(i + d, n, -1, n - 1);
    } else if i + d >= n {
      Arith.DivModUnique(i + d, n, 1, 0);
    } else {
      Arith.DivModUnique(i + d, n, 0, i + d);
    }
  }

  /** The (di, dj) pairs of `for di in [-1, 0, 1]: for dj in [-1, 0, 1]`, the centre skipped. */
  const LoopOffsets: seq<(int, int)> :=
    [(-1, -1), (-1, 0), (-1, 1), (0, -1), (0, 1), (1, -1), (1, 0), (1, 1)]

  /** `grid[(i + di) % h, (j + dj) % w]`. */
  function Nb(g: Grid, w: nat, h: nat, i: nat, j: nat, di: int, dj: int): int
    requires IsGrid(g, w, h) && i < h && j < w && -1 <= di <= 1 && -1 <= dj <= 1
  {
    g[Ring(i, di, h)][Ring(j, dj, w)]
  }

  /** `neighbors += grid[(i + di) % h, (j + dj) % w]` over the first k pairs. */
  function LoopSum(g: Grid, w: nat, h: nat, i: nat, j: nat, k: nat): int
    requires IsGrid(g, w, h) && i < h && j < w && k <= 8
  {
    if k == 0 then 0
    else
      LoopSum(g, w, h, i, j, k - 1) + Nb(g, w, h, i, j, LoopOffsets[k - 1].0, LoopOffsets[k - 1].1)
  }

  /** The toroidal Moore sum of the cell values around (i, j). */
  function MooreSum(g: Grid, w: nat, h: nat, i: nat, j: nat): int
    requires IsGrid(g, w, h) && i < h && j < w
  {
    LoopSum(g, w, h, i, j, 8)
  }

  /** The loop update: a cell equal to 1 survives on `survive`; any other value is born on `born`. */
  function LoopCell(cell: int, n: int, born: set<int>, survive: set<int>): (v: int)
    ensures v == 0 || v == 1
    ensures cell == 1 ==> (v == 1 <==> n in survive)
    ensures cell != 1 ==> (v == 1 <==> n in born)
  {
    if cell == 1 then (if n in survive then 1 else 0)
    else (if n in born then 1 else 0)
  }

  /** `rule_func(grid)` of `_create_rule_function(born, survive, vectorized=False)`. */
  function LoopStep(g: Grid, w: nat, h: nat, born: set<int>, survive: set<int>): (r: Grid)
    requires IsGrid(g, w, h)
    ensures IsGrid(r, w, h)
    ensures forall i, j :: 0 <= i < h && 0 <= j < w ==> r[i][j] == LoopCell(g[i][j], MooreSum(g, w, h, i, j), born, survive)
  {
    seq(h, (i: int) requires 0 <= i < h =>
      seq(w, (j: int) requires 0 <= j < w => LoopCell(g[i][j], MooreSum(g, w, h, i, j), born, survive)))
  }

  /** Every cell of a loop step is 0 or 1. */
  lemma LoopStepBinary(g: Grid, w: nat, h: nat, born: set<int>, survive: set<int>)
    requires IsGrid(g, w, h)
    ensures IsBinary(LoopStep(g, w, h, born, survive))
  {
  }

  // ------------------------------------------------------------ ca_vectorized

  /** The Moore kernel `[[1, 1, 1], [1, 0, 1], [1, 1, 1]]`. */
  const Kernel: seq<seq<int>> := [[1, 1, 1], [1, 0, 1], [1, 1, 1]]

  /**
   The first t of the nine terms of `convolve2d(grid, kernel, mode='same',
   boundary='wrap')` at (i, j): term (a, b) is kernel[a][b] times the cell
   (i + 1 - a, j + 1 - b), a convolution flipping the kernel, wrapped.
   */
  function ConvSum(g: Grid, w: nat, h: nat, i: nat, j: nat, t: nat): int
    requires IsGrid(g, w, h) && i < h && j < w && t <= 9
  {
    if t == 0 then 0
    else
      var a, b := (t - 1) / 3, (t - 1) % 3;
      ConvSum(g, w, h, i, j, t - 1) + Kernel[a][b] * Nb(g, w, h, i, j, 1 - a, 1 - b)
  }

  /** The convolution and the nested loops add up the same eight neighbours. */
  /** The eight terms of the loop, one by one. */
  lemma LoopSumTerms(g: Grid, w: nat, h: nat, i: nat, j: nat)
    requires IsGrid(g, w, h) && i < h && j < w
    ensures MooreSum(g, w, h, i, j) == Nb(g, w, h, i, j, -1, -1) + Nb(g, w, h, i, j, -1, 0) + Nb(g, w, h, i, j, -1, 1) + Nb(g, w, h, i, j, 0, -1) + Nb(g, w, h, i, j, 0, 1) + Nb(g, w, h, i, j, 1, -1) + Nb(g, w, h, i, j, 1, 0) + Nb(g, w, h, i, j, 1, 1)
  {
    assert LoopSum(g, w, h, i, j, 1) == Nb(g, w, h, i, j, -1, -1);
    assert LoopSum(g, w, h, i, j, 2) == LoopSum(g, w, h, i, j, 1) + Nb(g, w, h, i, j, -1, 0);
    assert LoopSum(g, w, h, i, j, 3) == LoopSum(g, w, h, i, j, 2) + Nb(g, w, h, i, j, -1, 1);
    assert LoopSum(g, w, h, i, j, 4) == LoopSum(g, w, h, i, j, 3) + Nb(g, w, h, i, j, 0, -1);
    assert LoopSum(g, w, h, i, j, 5) == LoopSum(g, w, h, i, j, 4) + Nb(g, w, h, i, j, 0, 1);
    assert LoopSum(g, w, h, i, j, 6) == LoopSum(g, w, h, i, j, 5) + Nb(g, w, h, i, j, 1, -1);
    assert LoopSum(g, w, h, i, j, 7) == LoopSum(g, w, h, i, j, 6) + Nb(g, w, h, i, j, 1, 0);
    assert LoopSum(g, w, h, i, j, 8) == LoopSum(g, w, h, i, j, 7) + Nb(g, w, h, i, j, 1, 1);
  }

  /** The nine terms of the convolution, one by one; the centre weighs 0. */
  lemma ConvSumTerms(g: Grid, w: nat, h: nat, i: nat, j: nat)
    requires IsGrid(g, w, h) && i < h && j < w
    ensures ConvSum(g, w, h, i, j, 9) == Nb(g, w, h, i, j, -1, -1) + Nb(g, w, h, i, j, -1, 0) + Nb(g, w, h, i, j, -1, 1) + Nb(g, w, h, i, j, 0, -1) + Nb(g, w, h, i, j, 0, 1) + Nb(g, w, h, i, j, 1, -1) + Nb(g, w, h, i, j, 1, 0) + Nb(g, w, h, i, j, 1, 1)
  {
    assert ConvSum(g, w, h, i, j, 1) == Nb(g, w, h, i, j, 1, 1);
    assert ConvSum(g, w, h, i, j, 2) == ConvSum(g, w, h, i, j, 1) + Nb(g, w, h, i, j, 1, 0);
    assert ConvSum(g, w, h, i, j, 3) == ConvSum(g, w, h, i, j, 2) + Nb(g, w, h, i, j, 1, -1);
    assert ConvSum(g, w, h, i, j, 4) == ConvSum(g, w, h, i, j, 3) + Nb(g, w, h, i, j, 0, 1);
    assert ConvSum(g, w, h, i, j, 5) == ConvSum(g, w, h, i, j, 4);
    assert ConvSum(g, w, h, i, j, 6) == ConvSum(g, w, h, i, j, 5) + Nb(g, w, h, i, j, 0, -1);
    assert ConvSum(g, w, h, i, j, 7) == ConvSum(g, w, h, i, j, 6) + Nb(g, w, h, i, j, -1, 1);
    assert ConvSum(g, w, h, i, j, 8) == ConvSum(g, w, h, i, j, 7) + Nb(g, w, h, i, j, -1, 0);
    assert ConvSum(g, w, h, i, j, 9) == ConvSum(g, w, h, i, j, 8) + Nb(g, w, h, i, j, -1, -1);
  }

  /** The convolution and the nested loops add up the same eight neighbours. */
  lemma ConvIsMooreSum(g: Grid, w: nat, h: nat, i: nat, j: nat)
    requires IsGrid(g, w, h) && i < h && j < w
    ensures ConvSum(g, w, h, i, j, 9) == MooreSum(g, w, h, i, j)
  {
    LoopSumTerms(g, w, h, i, j);
    ConvSumTerms(g, w, h, i, j);
  }

  /**
   The vectorised update: 1 where the cell is 1 and the count is in
   `survive`, or the cell is 0 and the count is in `born`; 0 everywhere
   else, including cells holding any other value.
   */
  function VecCell(cell: int, n: int, born: set<int>, survive: set<int>): (v: int)
    ensures v == 0 || v == 1
    ensures v == 1 <==> (cell == 1 && n in survive) || (cell == 0 && n in born)
  {
    if (cell == 1 && n in survive) || (cell == 0 && n in born) then 1 else 0
  }

  /** `step_ca_vectorized(grid, born, survive)`. */
  function VecStep(g: Grid, w: nat, h: nat, born: set<int>, survive: set<int>): (r: Grid)
    requires IsGrid(g, w, h)
    ensures IsGrid(r, w, h)
    ensures forall i, j :: 0 <= i < h && 0 <= j < w ==> r[i][j] == VecCell(g[i][j], ConvSum(g, w, h, i, j, 9), born, survive)
  {
    seq(h, (i: int) requires 0 <= i < h =>
      seq(w, (j: int) requires 0 <= j < w => VecCell(g[i][j], ConvSum(g, w, h, i, j, 9), born, survive)))
  }

  /** `evolve_ca_vectorized(grid, born, survive, steps)`: the step applied `steps` times to a copy. */
  function EvolveVectorized(g: Grid, w: nat, h: nat, born: set<int>, survive: set<int>, steps: nat): (r: Grid)
    requires IsGrid(g, w, h)
    ensures IsGrid(r, w, h)
    decreases steps
  {
    if steps == 0 then g else EvolveVectorized(VecStep(g, w, h, born, survive), w, h, born, survive, steps - 1)
  }

  /**
   The loop step iterated. The benchmark means to drive this as
   `rule_func_python`, but it asks `_create_rule_function` with the default
   `vectorized=True` and so times the vectorised step twice.
   */
  function EvolveLoop(g: Grid, w: nat, h: nat, born: set<int>, survive: set<int>, steps: nat): (r: Grid)
    requires IsGrid(g, w, h)
    ensures IsGrid(r, w, h)
    decreases steps
  {
    if steps == 0 then g else EvolveLoop(LoopStep(g, w, h, born, survive), w, h, born, survive, steps - 1)
  }

  /** On a 0/1 grid the two updates agree cell for cell. */
  lemma StepsAgreeOnBinary(g: Grid, w: nat, h: nat, born: set<int>, survive: set<int>)
    requires IsGrid(g, w, h) && IsBinary(g)
    ensures LoopStep(g, w, h, born, survive) == VecStep(g, w, h, born, survive)
  {
    var a, b := LoopStep(g, w, h, born, survive), VecStep(g, w, h, born, survive);
    forall i | 0 <= i < h
      ensures a[i] == b[i]
    {
      forall j | 0 <= j < w
        ensures a[i][j] == b[i][j]
      {
        ConvIsMooreSum(g, w, h, i, j);
      }
    }
  }

  /**
   The comparison the benchmark intends: the loop version and the
   vectorised version end on the same grid from every 0/1 start.
   */
  lemma {:induction false} EvolveAgreesOnBinary(g: Grid, w: nat, h: nat, born: set<int>, survive: set<int>, steps: nat)
    requires IsGrid(g, w, h) && IsBinary(g)
    ensures EvolveLoop(g, w, h, born, survive, steps) == EvolveVectorized(g, w, h, born, survive, steps)
    decreases steps
  {
    if steps > 0 {
      StepsAgreeOnBinary(g, w, h, born, survive);
      LoopStepBinary(g, w, h, born, survive);
      EvolveAgreesOnBinary(LoopStep(g, w, h, born, survive), w, h, born, survive, steps - 1);
    }
  }

  /** A cell holding 2 is born by the loop but cleared by the vectorised update. */
  lemma OtherValuesDisagree(n: int, born: set<int>, survive: set<int>)
    requires n in born
    ensures LoopCell(2, n, born, survive) == 1 && VecCell(2, n, born, survive) == 0
  {
  }

  // ------------------------------------------------------- the JS nested engine

  lemma RingIsWrap(i: nat, d: int, n: nat)
    requires n > 0 && i < n && -1 <= d <= 1
    ensures Ring(i, d, n) == CaRules.Wrap(i, d, n)
  {
  }

  /** The JS offsets (dx, dy) are the Python pairs (di, dj) = (dy, dx), in the same order. */
  lemma {:induction false} LoopSumIsCountFirst(g: Grid, w: nat, h: nat, i: nat, j: nat, k: nat)
    requires IsGrid(g, w, h) && IsBinary(g) && i < h && j < w && k <= 8
    ensures Rect(g) && Width(g) == w && Height(g) == h
    ensures LoopSum(g, w, h, i, j, k) == CaRules.CountFirst(g, j, i, k)
  {
    assert |g[0]| == w;
    if k > 0 {
      LoopSumIsCountFirst(g, w, h, i, j, k - 1);
      var (dx, dy) := CaRules.Offsets[k - 1];
      assert LoopOffsets[k - 1] == (dy, dx);
      var y, x := Ring(i, dy, h), Ring(j, dx, w);
      assert y == CaRules.Wrap(i, dy, h) && x == CaRules.Wrap(j, dx, w);
      assert g[y][x] == 0 || g[y][x] == 1;
    }
  }

  /** On a 0/1 grid the Python sum is the JS count of live neighbours at column j, row i. */
  lemma MooreSumIsJsCount(g: Grid, w: nat, h: nat, i: nat, j: nat)
    requires IsGrid(g, w, h) && IsBinary(g) && i < h && j < w
    ensures Rect(g) && Width(g) == w && Height(g) == h
    ensures MooreSum(g, w, h, i, j) == CaRules.CountAliveNeighbors(g, j, i)
  {
    LoopSumIsCountFirst(g, w, h, i, j, 8);
  }

  /**
   On a 0/1 grid the Python loop step is the JS `step` of src/core/caStep.js
   with the same digits as lists.
   */
  lemma LoopStepIsJsStep(g: Grid, w: nat, h: nat, born: seq<int>, survive: seq<int>)
    requires IsGrid(g, w, h) && IsBinary(g) && w > 0 && h > 0
    ensures Rect(g)
    ensures LoopStep(g, w, h, set x | x in born, set x | x in survive) == CaStep.Step(g, CaRules.Rule(born, survive))
  {
    var bs, ss := set x | x in born, set x | x in survive;
    var a, b := LoopStep(g, w, h, bs, ss), CaStep.Step(g, CaRules.Rule(born, survive));
    forall i | 0 <= i < h
      ensures a[i] == b[i]
    {
      forall j | 0 <= j < w
        ensures a[i][j] == b[i][j]
      {
        MooreSumIsJsCount(g, w, h, i, j);
      }
    }
  }
}

=== FILE: py_list.dfy ===
/**
 Python list idioms the meta-learner and classifier code uses: list
 comprehensions with a condition, the slice `xs[:k]` (a negative `k`
 counts from the end), and `sum` of floats, read as exact reals.
 */
module PyList {

  /** `[x for x in xs if p(x)]`. */
  function Filter<T>(xs: seq<T>, p: T -> bool): (r: seq<T>)
    ensures |r| <= |xs|
    ensures forall k :: 0 <= k < |r| ==> r[k] in xs && p(r[k])
    ensures forall k :: 0 <= k < |xs| && p(xs[k]) ==> xs[k] in r
    decreases |xs|
  {
    if |xs| == 0 then []
    else (if p(xs[0]) then [xs[0]] else []) + Filter(xs[1..], p)
  }

  /** Two complementary conditions split a list into two filters that together hold it exactly. */
  lemma {:induction false} FilterSplit<T>(xs: seq<T>, p: T -> bool, q: T -> bool)
    requires forall k :: 0 <= k < |xs| ==> p(xs[k]) != q(xs[k])
    ensures multiset(Filter(xs, p)) + multiset(Filter(xs, q)) == multiset(xs)
    ensures |Filter(xs, p)| + |Filter(xs, q)| == |xs|
    decreases |xs|
  {
    if |xs| > 0 {
      var h, t := xs[0], xs[1..];
      assert forall k :: 0 <= k < |t| ==> t[k] == xs[k + 1];
      FilterSplit(t, p, q);
      assert xs == [h] + t;
      SplitStep(h, t, p(h), Filter(t, p), Filter(t, q));
    }
  }

  /** One step of `FilterSplit`: the head goes to exactly one side. */
  lemma SplitStep<T>(h: T, t: seq<T>, toP: bool, a: seq<T>, b: seq<T>)
    requires multiset(a) + multiset(b) == multiset(t) && |a| + |b| == |t|
    ensures var a', b' := (if toP then [h] else []) + a, (if toP then [] else [h]) + b;
      multiset(a') + multiset(b') == multiset([h] + t) && |a'| + |b'| == |[h] + t|
  {
  }

  /** Two disjoint conditions whose union is `r` split the `r`-filter between them. */
  lemma {:induction false} FilterUnion<T>(xs: seq<T>, p: T -> bool, q: T -> bool, r: T -> bool)
    requires forall k :: 0 <= k < |xs| ==> (r(xs[k]) <==> p(xs[k]) || q(xs[k])) && !(p(xs[k]) && q(xs[k]))
    ensures multiset(Filter(xs, p)) + multiset(Filter(xs, q)) == multiset(Filter(xs, r))
    decreases |xs|
  {
    if |xs| > 0 {
      FilterUnion(xs[1..], p, q, r);
    }
  }

  /** Filtering a list with one more element at the end filters that element on its own. */
  lemma {:induction false} FilterSnoc<T>(xs: seq<T>, x: T, p: T -> bool)
    ensures Filter(xs + [x], p) == Filter(xs, p) + if p(x) then [x] else []
    decreases |xs|
  {
    if |xs| == 0 {
      assert Filter([x], p) == (if p(x) then [x] else []) + Filter([x][1..], p);
    } else {
      FilterSnoc(xs[1..], x, p);
      assert (xs + [x])[1..] == xs[1..] + [x];
    }
  }

  /** A condition no element meets keeps nothing. */
  lemma {:induction false} FilterNone<T>(xs: seq<T>, p: T -> bool)
    requires forall k :: 0 <= k < |xs| ==> !p(xs[k])
    ensures Filter(xs, p) == []
    decreases |xs|
  {
    if |xs| > 0 {
      FilterNone(xs[1..], p);
    }
  }

  /** A condition every element meets keeps the whole list. */
  lemma {:induction false} FilterAll<T>(xs: seq<T>, p: T -> bool)
    requires forall k :: 0 <= k < |xs| ==> p(xs[k])
    ensures Filter(xs, p) == xs
    decreases |xs|
  {
    if |xs| > 0 {
      FilterAll(xs[1..], p);
    }
  }

  /** Filtering keeps the relative order: a relation between every earlier and later element survives it. */
  lemma {:induction false} FilterKeepsOrder<T>(xs: seq<T>, p: T -> bool, before: (T, T) -> bool)
    requires forall i, j :: 0 <= i < j < |xs| ==> before(xs[i], xs[j])
    ensures forall i, j :: 0 <= i < j < |Filter(xs, p)| ==> before(Filter(xs, p)[i], Filter(xs, p)[j])
    decreases |xs|
  {
    if |xs| > 0 {
      FilterKeepsOrder(xs[1..], p, before);
      var rest := Filter(xs[1..], p);
      forall j | 0 <= j < |rest|
        ensures before(xs[0], rest[j])
      {
        var m :| 0 <= m < |xs[1..]| && xs[1..][m] == rest[j];
        assert xs[m + 1] == rest[j];
      }
    }
  }

  /** A filter keeps every element that meets the condition as often as the list holds it, and no other. */
  lemma {:induction false} FilterCount<T>(xs: seq<T>, p: T -> bool, x: T)
    ensures multiset(Filter(xs, p))[x] == if p(x) then multiset(xs)[x] else 0
    decreases |xs|
  {
    if |xs| > 0 {
      FilterCount(xs[1..], p, x);
      assert xs == [xs[0]] + xs[1..];
    }
  }

  /** Every index shifted one place to the right. */
  function Shift(idx: seq<nat>): (r: seq<nat>)
    ensures |r| == |idx| && forall k :: 0 <= k < |idx| ==> r[k] == idx[k] + 1
  {
    seq(|idx|, (k: int) requires 0 <= k < |idx| => idx[k] + 1)
  }

  /** The indices of `xs` whose element meets `p`, in increasing order. */
  function Positions<T>(xs: seq<T>, p: T -> bool): (idx: seq<nat>)
    ensures |idx| == |Filter(xs, p)|
    decreases |xs|
  {
    if |xs| == 0 then [] else (if p(xs[0]) then [0] else []) + Shift(Positions(xs[1..], p))
  }

  /** The filter is `xs` read at the positions. */
  lemma {:induction false} PositionsRead<T>(xs: seq<T>, p: T -> bool)
    ensures forall k :: 0 <= k < |Positions(xs, p)| ==>
      Positions(xs, p)[k] < |xs| && Filter(xs, p)[k] == xs[Positions(xs, p)[k]]
    decreases |xs|
  {
    if |xs| > 0 {
      var t := xs[1..];
      PositionsRead(t, p);
      var rest, ft := Positions(t, p), Filter(t, p);
      var idx, f := Positions(xs, p), Filter(xs, p);
      if p(xs[0]) {
        assert idx == [0] + Shift(rest) && f == [xs[0]] + ft;
        forall k | 1 <= k < |idx|
          ensures idx[k] < |xs| && f[k] == xs[idx[k]]
        {
          assert idx[k] == rest[k - 1] + 1 && f[k] == ft[k - 1];
          assert ft[k - 1] == t[rest[k - 1]];
        }
      } else {
        assert idx == Shift(rest) && f == ft;
        forall k | 0 <= k < |idx|
          ensures idx[k] < |xs| && f[k] == xs[idx[k]]
        {
          assert idx[k] == rest[k] + 1;
          assert ft[k] == t[rest[k]];
        }
      }
    }
  }

  /** The positions are increasing. */
  lemma {:induction false} PositionsIncrease<T>(xs: seq<T>, p: T -> bool)
    ensures forall k, m :: 0 <= k < m < |Positions(xs, p)| ==> Positions(xs, p)[k] < Positions(xs, p)[m]
    decreases |xs|
  {
    if |xs| > 0 {
      var t := xs[1..];
      PositionsIncrease(t, p);
      var rest, idx := Positions(t, p), Positions(xs, p);
      if p(xs[0]) {
        assert idx == [0] + Shift(rest);
        forall k, m | 0 <= k < m < |idx|
          ensures idx[k] < idx[m]
        {
          assert idx[m] == rest[m - 1] + 1;
          if k > 0 {
            assert idx[k] == rest[k - 1] + 1;
          }
        }
      } else {
        assert idx == Shift(rest);
      }
    }
  }

  /** An index is a position exactly when its element meets the condition. */
  lemma {:induction false} PositionsMembers<T>(xs: seq<T>, p: T -> bool)
    ensures forall i :: 0 <= i < |xs| ==> (i in Positions(xs, p) <==> p(xs[i]))
    decreases |xs|
  {
    if |xs| > 0 {
      var t := xs[1..];
      PositionsMembers(t, p);
      var rest, idx := Positions(t, p), Positions(xs, p);
      var n := if p(xs[0]) then 1 else 0;
      assert idx[n..] == Shift(rest);
      assert 0 in idx <==> p(xs[0]);
      forall i | 1 <= i < |xs|
        ensures i in idx <==> p(xs[i])
      {
        assert xs[i] == t[i - 1];
        ShiftMember(rest, i - 1);
        assert i in idx <==> i in idx[n..];
      }
    }
  }

  lemma ShiftMember(idx: seq<nat>, i: nat)
    ensures i + 1 in Shift(idx) <==> i in idx
  {
    if i in idx {
      var m :| 0 <= m < |idx| && idx[m] == i;
      assert Shift(idx)[m] == i + 1;
    }
  }

  /**
   `r` is `xs` read at the increasing positions whose element meets `p`:
   what a boolean mask keeps, each row as often as it occurs, in order.
   */
  ghost predicate FiltersInOrder<T>(r: seq<T>, xs: seq<T>, p: T -> bool) {
    var idx := Positions(xs, p);
    && |idx| == |r|
    && (forall k :: 0 <= k < |r| ==> idx[k] < |xs| && r[k] == xs[idx[k]])
    && (forall k, m :: 0 <= k < m < |idx| ==> idx[k] < idx[m])
    && forall i :: 0 <= i < |xs| ==> (i in idx <==> p(xs[i]))
  }

  /** The filter keeps the matching elements in order. */
  lemma FilterInOrder<T>(xs: seq<T>, p: T -> bool)
    ensures FiltersInOrder(Filter(xs, p), xs, p)
  {
    PositionsRead(xs, p);
    PositionsIncrease(xs, p);
    PositionsMembers(xs, p);
  }

  /** A prefix filters to a prefix. */
  lemma {:induction false} FilterPrefix<T>(a: seq<T>, b: seq<T>, p: T -> bool)
    requires a <= b
    ensures Filter(a, p) <= Filter(b, p)
    decreases |a|
  {
    if |a| > 0 {
      assert a[1..] <= b[1..];
      FilterPrefix(a[1..], b[1..], p);
      assert a[0] == b[0];
    }
  }

  /** The identity, as a key. */
  function Itself<T>(x: T): T {
    x
  }

  /** The condition every element meets. */
  function Always<T>(x: T): bool {
    true
  }

  /**
   Position `i` of `xs` holds the first occurrence of its key: its element
   meets `keep`, its key is not in `seen`, and no earlier element meeting
   `keep` has the same key.
   */
  ghost predicate FirstOf<T, K>(xs: seq<T>, key: T -> K, keep: T -> bool, seen: set<K>, i: int)
    requires 0 <= i < |xs|
  {
    && keep(xs[i])
    && key(xs[i]) !in seen
    && forall j :: 0 <= j < i && keep(xs[j]) ==> key(xs[j]) != key(xs[i])
  }

  /** The positions of the first occurrences, as a loop with a `seen` set finds them. */
  ghost function FirstPositions<T, K>(xs: seq<T>, key: T -> K, keep: T -> bool, seen: set<K>): seq<nat>
    decreases |xs|
  {
    if |xs| == 0 then []
    else if keep(xs[0]) && key(xs[0]) !in seen then [0] + Shift(FirstPositions(xs[1..], key, keep, seen + {key(xs[0])}))
    else Shift(FirstPositions(xs[1..], key, keep, seen))
  }

  /**
   `r` is `xs` cut down to its first occurrences, in order: `r` reads `xs`
   at increasing positions, and those are exactly the positions where
   `FirstOf` holds.
   */
  ghost predicate KeepsFirstOccurrences<T, K>(r: seq<T>, xs: seq<T>, key: T -> K, keep: T -> bool, seen: set<K>) {
    var idx := FirstPositions(xs, key, keep, seen);
    && |idx| == |r|
    && (forall k :: 0 <= k < |r| ==> idx[k] < |xs| && r[k] == xs[idx[k]])
    && (forall k, m :: 0 <= k < m < |idx| ==> idx[k] < idx[m])
    && forall i :: 0 <= i < |xs| ==> (i in idx <==> FirstOf(xs, key, keep, seen, i))
  }

  /** After the head, being a first occurrence is judged against `seen` grown by the head's key when the head was kept. */
  lemma FirstOfTail<T, K>(xs: seq<T>, key: T -> K, keep: T -> bool, seen: set<K>, i: int)
    requires 1 <= i < |xs|
    ensures var s' := if keep(xs[0]) && key(xs[0]) !in seen then seen + {key(xs[0])} else seen;
            FirstOf(xs, key, keep, seen, i) <==> FirstOf(xs[1..], key, keep, s', i - 1)
  {
    var t := xs[1..];
    var s' := if keep(xs[0]) && key(xs[0]) !in seen then seen + {key(xs[0])} else seen;
    assert t[i - 1] == xs[i];
    if FirstOf(xs, key, keep, seen, i) {
      forall j | 0 <= j < i - 1 && keep(t[j])
        ensures key(t[j]) != key(t[i - 1])
      {
        assert t[j] == xs[j + 1];
      }
    }
    if FirstOf(t, key, keep, s', i - 1) {
      forall j | 0 <= j < i && keep(xs[j])
        ensures key(xs[j]) != key(xs[i])
      {
        if j > 0 {
          assert xs[j] == t[j - 1];
        }
      }
    }
  }

  /** The positions of the first occurrences increase. */
  lemma {:induction false} FirstPositionsIncrease<T, K>(xs: seq<T>, key: T -> K, keep: T -> bool, seen: set<K>)
    ensures forall k, m :: 0 <= k < m < |FirstPositions(xs, key, keep, seen)| ==>
              FirstPositions(xs, key, keep, seen)[k] < FirstPositions(xs, key, keep, seen)[m]
    decreases |xs|
  {
    if |xs| > 0 {
      var take := keep(xs[0]) && key(xs[0]) !in seen;
      var s' := if take then seen + {key(xs[0])} else seen;
      FirstPositionsIncrease(xs[1..], key, keep, s');
      var sub, idx := FirstPositions(xs[1..], key, keep, s'), FirstPositions(xs, key, keep, seen);
      if take {
        assert idx == [0] + Shift(sub);
        forall k, m | 0 <= k < m < |idx|
          ensures idx[k] < idx[m]
        {
          assert idx[m] == sub[m - 1] + 1;
          if k > 0 {
            assert idx[k] == sub[k - 1] + 1;
          }
        }
      } else {
        assert idx == Shift(sub);
        forall k, m | 0 <= k < m < |idx|
          ensures idx[k] < idx[m]
        {
          assert idx[k] == sub[k] + 1 && idx[m] == sub[m] + 1;
        }
      }
    }
  }

  /** Keeping a head that is a first occurrence in front of the first occurrences of the tail. */
  lemma KeepsFirstTake<T, K>(xs: seq<T>, key: T -> K, keep: T -> bool, seen: set<K>, rest: seq<T>)
    requires |xs| > 0 && keep(xs[0]) && key(xs[0]) !in seen
    requires KeepsFirstOccurrences(rest, xs[1..], key, keep, seen + {key(xs[0])})
    ensures KeepsFirstOccurrences([xs[0]] + rest, xs, key, keep, seen)
  {
    var t, s' := xs[1..], seen + {key(xs[0])};
    var sub, idx := FirstPositions(t, key, keep, s'), FirstPositions(xs, key, keep, seen);
    var r := [xs[0]] + rest;
    assert idx == [0] + Shift(sub);
    forall k | 1 <= k < |r|
      ensures idx[k] < |xs| && r[k] == xs[idx[k]]
    {
      assert idx[k] == sub[k - 1] + 1 && r[k] == rest[k - 1];
      assert rest[k - 1] == t[sub[k - 1]];
    }
    FirstPositionsIncrease(xs, key, keep, seen);
    assert idx[1..] == Shift(sub);
    forall i | 1 <= i < |xs|
      ensures i in idx <==> FirstOf(xs, key, keep, seen, i)
    {
      FirstOfTail(xs, key, keep, seen, i);
      ShiftMember(sub, i - 1);
      assert i in idx <==> i in idx[1..];
    }
  }

  /** Passing over a head that is not a first occurrence. */
  lemma KeepsFirstSkip<T, K>(xs: seq<T>, key: T -> K, keep: T -> bool, seen: set<K>, rest: seq<T>)
    requires |xs| > 0 && !(keep(xs[0]) && key(xs[0]) !in seen)
    requires KeepsFirstOccurrences(rest, xs[1..], key, keep, seen)
    ensures KeepsFirstOccurrences(rest, xs, key, keep, seen)
  {
    var t := xs[1..];
    var sub, idx := FirstPositions(t, key, keep, seen), FirstPositions(xs, key, keep, seen);
    assert idx == Shift(sub);
    forall k | 0 <= k < |rest|
      ensures idx[k] < |xs| && rest[k] == xs[idx[k]]
    {
      assert rest[k] == t[sub[k]];
    }
    FirstPositionsIncrease(xs, key, keep, seen);
    assert 0 !in idx;
    forall i | 1 <= i < |xs|
      ensures i in idx <==> FirstOf(xs, key, keep, seen, i)
    {
      FirstOfTail(xs, key, keep, seen, i);
      ShiftMember(sub, i - 1);
    }
  }

  /** `xs[:k]`. */
  function SliceTo<T>(xs: seq<T>, k: int): (r: seq<T>)
    ensures k >= 0 ==> |r| == if k < |xs| then k else |xs|
    ensures k < 0 ==> |r| == if |xs| + k > 0 then |xs| + k else 0
    ensures r <= xs
  {
    if k >= 0 then (if k < |xs| then xs[..k] else xs)
    else if |xs| + k > 0 then xs[..|xs| + k]
    else []
  }

  /** The index of the first element from j on that satisfies `p`, or `|xs|` when there is none. */
  function FirstFrom<T>(xs: seq<T>, p: T -> bool, j: nat): (k: nat)
    requires j <= |xs|
    ensures j <= k <= |xs|
    ensures forall m :: j <= m < k ==> !p(xs[m])
    ensures k < |xs| ==> p(xs[k])
    decreases |xs| - j
  {
    if j == |xs| then j
    else if p(xs[j]) then j
    else FirstFrom(xs, p, j + 1)
  }

  /** `sum(xs)` over floats read as reals. */
  function Sum(xs: seq<real>): real
    decreases |xs|
  {
    if |xs| == 0 then 0.0 else Sum(xs[..|xs| - 1]) + xs[|xs| - 1]
  }

  /** Termwise `<=` gives `<=` of the sums, and one strict term makes it strict. */
  lemma {:induction false} SumMono(xs: seq<real>, ys: seq<real>)
    requires |xs| == |ys|
    requires forall k :: 0 <= k < |xs| ==> xs[k] <= ys[k]
    ensures Sum(xs) <= Sum(ys)
    ensures (exists k :: 0 <= k < |xs| && xs[k] < ys[k]) ==> Sum(xs) < Sum(ys)
    decreases |xs|
  {
    if |xs| > 0 {
      var n := |xs| - 1;
      SumMono(xs[..n], ys[..n]);
      if exists k :: 0 <= k < |xs| && xs[k] < ys[k] {
        var k :| 0 <= k < |xs| && xs[k] < ys[k];
        if k < n {
          assert xs[..n][k] < ys[..n][k];
        }
      }
    }
  }

  /** Each term in [lo, hi] puts the sum in [n lo, n hi]. */
  lemma {:induction false} SumBounds(xs: seq<real>, lo: real, hi: real)
    requires forall k :: 0 <= k < |xs| ==> lo <= xs[k] <= hi
    ensures |xs| as real * lo <= Sum(xs) <= |xs| as real * hi
    decreases |xs|
  {
    if |xs| > 0 {
      var n := |xs| - 1;
      SumBounds(xs[..n], lo, hi);
      assert |xs| as real * lo == n as real * lo + lo;
      assert |xs| as real * hi == n as real * hi + hi;
    }
  }
}

=== FILE: py_text.dfy ===
/**
 The pieces of Python's `str`, `int` and `sorted` that the rule-space code
 leans on: `str.isdigit` (ASCII digits only), `str(n)` of an integer,
 `''.join(map(str, xs))`, the first two fields of `s.split(sep)`,
 `str.upper` and `str.lower` on ASCII letters, `str.strip` of ASCII
 whitespace, the substring test `sub in s`, and `sorted` of a list of
 integers.
 */
module PyText {
  import Sorting
  import JsNumbers

  predicate IsDigit(c: char) {
    '0' <= c <= '9'
  }

  predicate AllDigits(xs: seq<int>) {
    forall k :: 0 <= k < |xs| ==> 0 <= xs[k] <= 9
  }

  /** `[int(c) for c in s if c.isdigit()]`. */
  function DigitList(s: string): (xs: seq<int>)
    ensures AllDigits(xs)
    ensures |xs| <= |s|
  {
    if |s| == 0 then []
    else DigitList(s[..|s| - 1]) + (if IsDigit(s[|s| - 1]) then [s[|s| - 1] as int - '0' as int] else [])
  }

  lemma {:induction false} DigitListAppend(a: string, b: string)
    ensures DigitList(a + b) == DigitList(a) + DigitList(b)
    decreases |b|
  {
    if |b| == 0 {
      assert a + b == a;
    } else {
      assert (a + b)[..|a + b| - 1] == a + b[..|b| - 1];
      DigitListAppend(a, b[..|b| - 1]);
    }
  }

  /** `str(n)`: the decimal text, with a minus sign when negative. */
  function Str(n: int): (s: string)
    ensures |s| > 0
    ensures 0 <= n <= 9 ==> s == [('0' as int + n) as char]
  {
    if n < 0 then "-" + JsNumbers.DecimalString(-n)
    else
      DigitText(n);
      JsNumbers.DecimalString(n)
  }

  lemma DigitText(n: nat)
    ensures n <= 9 ==> JsNumbers.DecimalString(n) == [('0' as int + n) as char]
  {
  }

  /** `''.join(map(str, xs))`. */
  function JoinInts(xs: seq<int>): string {
    if |xs| == 0 then "" else JoinInts(xs[..|xs| - 1]) + Str(xs[|xs| - 1])
  }

  /** Digits 0..9 print one character each and read back as the same list. */
  lemma {:induction false} JoinDigitsRoundTrip(xs: seq<int>)
    requires AllDigits(xs)
    ensures |JoinInts(xs)| == |xs|
    ensures forall k :: 0 <= k < |xs| ==> IsDigit(JoinInts(xs)[k])
    ensures DigitList(JoinInts(xs)) == xs
  {
    if |xs| > 0 {
      var pre := xs[..|xs| - 1];
      JoinDigitsRoundTrip(pre);
      JoinDigitStep(JoinInts(pre), pre, xs[|xs| - 1]);
      assert xs == pre + [xs[|xs| - 1]];
    }
  }

  /** Appending the text of one more digit to the text of a digit list. */
  lemma JoinDigitStep(j: string, pre: seq<int>, d: int)
    requires 0 <= d <= 9 && |j| == |pre|
    requires forall k :: 0 <= k < |j| ==> IsDigit(j[k])
    requires DigitList(j) == pre
    ensures |j + Str(d)| == |pre| + 1
    ensures forall k :: 0 <= k < |j + Str(d)| ==> IsDigit((j + Str(d))[k])
    ensures DigitList(j + Str(d)) == pre + [d]
  {
    DigitListAppend(j, Str(d));
    assert Str(d)[..0] == "";
  }

  /** `s.split(sep)[0]`: everything before the first `sep`. */
  function Before(s: string, sep: char): (p: string)
    ensures sep !in p
    ensures |p| <= |s|
  {
    if |s| == 0 || s[0] == sep then "" else [s[0]] + Before(s[1..], sep)
  }

  /** Everything after the first `sep`, or nothing when there is none. */
  function After(s: string, sep: char): (r: string)
    ensures |r| < |s| || r == ""
  {
    if |s| == 0 then "" else if s[0] == sep then s[1..] else After(s[1..], sep)
  }

  /** `s.split(sep)[1]` when `sep in s`. */
  function Second(s: string, sep: char): string {
    Before(After(s, sep), sep)
  }

  lemma {:induction false} SplitAt(p: string, sep: char, rest: string)
    requires sep !in p
    ensures Before(p + [sep] + rest, sep) == p
    ensures After(p + [sep] + rest, sep) == rest
  {
    if |p| > 0 {
      assert (p + [sep] + rest)[1..] == p[1..] + [sep] + rest;
      assert p[0] in p;
      SplitAt(p[1..], sep, rest);
    } else {
      assert p + [sep] + rest == [sep] + rest;
    }
  }

  lemma {:induction false} BeforeWhole(s: string, sep: char)
    requires sep !in s
    ensures Before(s, sep) == s
  {
    if |s| > 0 {
      assert s[0] in s;
      BeforeWhole(s[1..], sep);
    }
  }

  function UpperChar(c: char): char {
    if 'a' <= c <= 'z' then (c as int - 32) as char else c
  }

  predicate NoLower(s: string) {
    forall k :: 0 <= k < |s| ==> !('a' <= s[k] <= 'z')
  }

  /** A letter that is not lower case followed by digits. */
  lemma LetterDigitsNoLower(c: char, d: string)
    requires !('a' <= c <= 'z') && forall k :: 0 <= k < |d| ==> IsDigit(d[k])
    ensures NoLower([c] + d)
  {
    assert forall k :: 1 <= k < 1 + |d| ==> ([c] + d)[k] == d[k - 1];
  }

  lemma NoLowerConcat(a: string, b: string)
    requires NoLower(a) && NoLower(b)
    ensures NoLower(a + b)
  {
    assert forall k :: |a| <= k < |a| + |b| ==> (a + b)[k] == b[k - |a|];
  }

  /** `s.upper()` on ASCII letters; text without lower-case letters is unchanged. */
  function Upper(s: string): (u: string)
    ensures |u| == |s|
    ensures forall k :: 0 <= k < |s| ==> u[k] == UpperChar(s[k])
    ensures NoLower(s) ==> u == s
  {
    seq(|s|, (k: int) requires 0 <= k < |s| => UpperChar(s[k]))
  }

  /** `[x for x in xs if x != b]`. */
  function Remove(xs: seq<int>, b: int): (r: seq<int>)
    ensures forall x :: x in r <==> x in xs && x != b
    ensures AllDigits(xs) ==> AllDigits(r)
  {
    if |xs| == 0 then []
    else Remove(xs[..|xs| - 1], b) + (if xs[|xs| - 1] != b then [xs[|xs| - 1]] else [])
  }

  /** Text with `sep` in it is the part before the first `sep`, that `sep`, and the rest. */
  lemma {:induction false} SplitFirst(s: string, sep: char)
    requires sep in s
    ensures s == Before(s, sep) + [sep] + After(s, sep)
  {
    if s[0] != sep {
      assert s == [s[0]] + s[1..];
      SplitFirst(s[1..], sep);
    }
  }

  // ------------------------------------------------------------ sorted ints

  function IntLe(a: int, b: int): bool {
    a <= b
  }

  lemma IntLeTotal()
    ensures Sorting.TotalPreorder(IntLe)
  {
  }

  predicate Ascending(xs: seq<int>) {
    forall i, j :: 0 <= i < j < |xs| ==> xs[i] <= xs[j]
  }

  /** `sorted(xs)`: the same elements, ascending. */
  function SortInts(xs: seq<int>): (r: seq<int>)
    ensures multiset(r) == multiset(xs) && |r| == |xs|
    ensures Ascending(r)
  {
    IntLeTotal();
    Sorting.SortBySorted(IntLe, xs);
    Sorting.SortBy(IntLe, xs)
  }

  /** Two ascending lists with the same elements are the same list. */
  lemma {:induction false} AscendingUnique(a: seq<int>, b: seq<int>)
    requires Ascending(a) && Ascending(b)
    requires multiset(a) == multiset(b)
    ensures a == b
  {
    if |a| > 0 {
      AscendingSameHead(a, b);
      TailMultiset(a);
      TailMultiset(b);
      AscendingTail(a);
      AscendingTail(b);
      AscendingUnique(a[1..], b[1..]);
      assert a == [a[0]] + a[1..];
      assert b == [b[0]] + b[1..];
    }
  }

  /** Two ascending lists with the same elements start with the same, least, element. */
  lemma AscendingSameHead(a: seq<int>, b: seq<int>)
    requires Ascending(a) && Ascending(b)
    requires multiset(a) == multiset(b) && |a| > 0
    ensures |b| > 0 && a[0] == b[0]
  {
    assert |b| == |multiset(b)| == |a| > 0;
    assert a[0] in multiset(b);
    assert b[0] in multiset(a);
    var i :| 0 <= i < |b| && b[i] == a[0];
    var j :| 0 <= j < |a| && a[j] == b[0];
  }

  lemma TailMultiset(a: seq<int>)
    requires |a| > 0
    ensures multiset(a[1..]) == multiset(a) - multiset{a[0]}
  {
    assert a == [a[0]] + a[1..];
  }

  lemma AscendingTail(a: seq<int>)
    requires Ascending(a) && |a| > 0
    ensures Ascending(a[1..])
  {
    forall i, j | 0 <= i < j < |a[1..]|
      ensures a[1..][i] <= a[1..][j]
    {
      assert a[1..][i] == a[i + 1] && a[1..][j] == a[j + 1];
    }
  }

  /** Sorting depends only on the elements, so it is idempotent and ignores order. */
  lemma SortIntsOfSame(a: seq<int>, b: seq<int>)
    requires multiset(a) == multiset(b)
    ensures SortInts(a) == SortInts(b)
  {
    AscendingUnique(SortInts(a), SortInts(b));
  }

  lemma SortAscending(a: seq<int>)
    requires Ascending(a)
    ensures SortInts(a) == a
  {
    AscendingUnique(SortInts(a), a);
  }

  lemma SortKeepsDigits(xs: seq<int>)
    requires AllDigits(xs)
    ensures AllDigits(SortInts(xs))
  {
    var r := SortInts(xs);
    forall k | 0 <= k < |r|
      ensures 0 <= r[k] <= 9
    {
      assert r[k] in multiset(xs);
    }
  }

  // ------------------------------------------------------------------- sets

  function SetOf(xs: seq<int>): set<int> {
    set x | x in xs
  }

  /** A list repeating one digit has that digit as its only member. */
  lemma AllSame(xs: seq<int>, d: int)
    requires d in xs && forall x :: x in xs ==> x == d
    ensures SetOf(xs) == {d}
  {
    forall x
      ensures x in SetOf(xs) <==> x == d
    {
    }
  }

  lemma SetOfSame(a: seq<int>, b: seq<int>)
    requires multiset(a) == multiset(b)
    ensures SetOf(a) == SetOf(b)
  {
    forall x
      ensures x in a <==> x in b
    {
      assert x in a <==> x in multiset(a);
    }
  }

  /** `len(set(a) ^ set(b))`. */
  function SymDiff(a: set<int>, b: set<int>): nat {
    |(a - b) + (b - a)|
  }

  lemma SymDiffSymmetric(a: set<int>, b: set<int>)
    ensures SymDiff(a, b) == SymDiff(b, a)
  {
    assert (a - b) + (b - a) == (b - a) + (a - b);
  }

  lemma SymDiffZero(a: set<int>, b: set<int>)
    ensures SymDiff(a, b) == 0 <==> a == b
  {
    var ab := (a - b) + (b - a);
    if ab == {} {
      forall x
        ensures x in a <==> x in b
      {
        assert x !in ab;
      }
    }
    if a == b {
      assert ab == {};
    }
  }

  lemma SymDiffTriangle(a: set<int>, b: set<int>, c: set<int>)
    ensures SymDiff(a, c) <= SymDiff(a, b) + SymDiff(b, c)
  {
    var ab, bc, ac := (a - b) + (b - a), (b - c) + (c - b), (a - c) + (c - a);
    assert ac <= ab + bc;
    SubsetSize(ac, ab + bc);
    UnionSize(ab, bc);
  }

  lemma SubsetSize(s: set<int>, t: set<int>)
    requires s <= t
    ensures |s| <= |t|
  {
    assert t == s + (t - s);
  }

  lemma UnionSize(s: set<int>, t: set<int>)
    ensures |s + t| <= |s| + |t|
  {
    assert s + t == s + (t - s);
    SubsetSize(t - s, t);
  }

  // ------------------------------------------------- lower, strip and `in`

  function LowerChar(c: char): char {
    if 'A' <= c <= 'Z' then (c as int + 32) as char else c
  }

  predicate NoUpper(s: string) {
    forall k :: 0 <= k < |s| ==> !('A' <= s[k] <= 'Z')
  }

  /** `s.lower()` on ASCII letters; text without capitals is unchanged. */
  function Lower(s: string): (l: string)
    ensures |l| == |s|
    ensures forall k :: 0 <= k < |s| ==> l[k] == LowerChar(s[k])
    ensures NoUpper(l)
    ensures NoUpper(s) ==> l == s
  {
    seq(|s|, (k: int) requires 0 <= k < |s| => LowerChar(s[k]))
  }

  /** The ASCII whitespace `str.strip()` removes. */
  predicate IsSpace(c: char) {
    c == ' ' || c == '\t' || c == '\n' || c == '\r' || c == '\U{B}' || c == '\U{C}'
  }

  /** `s.lstrip()`: the suffix after the leading whitespace. */
  function StripLeft(s: string): (r: string)
    ensures |r| <= |s| && r == s[|s| - |r|..]
    ensures |r| > 0 ==> !IsSpace(r[0])
    ensures forall k :: 0 <= k < |s| - |r| ==> IsSpace(s[k])
  {
    if |s| == 0 || !IsSpace(s[0]) then s else StripLeft(s[1..])
  }

  /** `s.rstrip()`: the prefix before the trailing whitespace. */
  function StripRight(s: string): (r: string)
    ensures |r| <= |s| && r == s[..|r|]
    ensures |r| > 0 ==> !IsSpace(r[|r| - 1])
    ensures forall k :: |r| <= k < |s| ==> IsSpace(s[k])
  {
    if |s| == 0 || !IsSpace(s[|s| - 1]) then s else StripRight(s[..|s| - 1])
  }

  /** `s.strip()`: neither end of the result is whitespace. */
  function Strip(s: string): (r: string)
    ensures |r| > 0 ==> !IsSpace(r[0]) && !IsSpace(r[|r| - 1])
    ensures NoUpper(s) ==> NoUpper(r)
  {
    var l := StripLeft(s);
    var r := StripRight(l);
    assert |r| > 0 ==> r[0] == l[0];
    assert forall k :: 0 <= k < |r| ==> r[k] == s[|s| - |l| + k];
    r
  }

  /** Stripping and lowering text that is already stripped and lower case changes nothing. */
  lemma StripLowerIdempotent(s: string)
    ensures Strip(Lower(Strip(Lower(s)))) == Strip(Lower(s))
  {
    var t := Strip(Lower(s));
    assert Lower(t) == t;
    StripNothing(t);
  }

  /** Text with no whitespace at either end strips to itself. */
  lemma StripNothing(s: string)
    requires |s| > 0 ==> !IsSpace(s[0]) && !IsSpace(s[|s| - 1])
    ensures Strip(s) == s
  {
  }

  /** `sub in s`. */
  predicate Contains(s: string, sub: string)
    decreases |s|
  {
    |sub| <= |s| && (s[..|sub|] == sub || Contains(s[1..], sub))
  }

  /** `sub` occurs in `s` at offset `i`. */
  predicate OccursAt(s: string, sub: string, i: int) {
    0 <= i <= |s| - |sub| && s[i..i + |sub|] == sub
  }

  /** `sub in s` holds exactly when `sub` occurs at some offset. */
  lemma {:induction false} ContainsAt(s: string, sub: string)
    ensures Contains(s, sub) <==> exists i :: OccursAt(s, sub, i)
    decreases |s|
  {
    if |sub| <= |s| && s[..|sub|] == sub {
      assert OccursAt(s, sub, 0);
    } else if |sub| <= |s| {
      ContainsAt(s[1..], sub);
      if exists i :: OccursAt(s, sub, i) {
        var i :| OccursAt(s, sub, i);
        assert OccursAt(s[1..], sub, i - 1);
      }
      if Contains(s[1..], sub) {
        var i :| OccursAt(s[1..], sub, i);
        assert OccursAt(s, sub, i + 1);
      }
    }
  }

  // ------------------------------------------------- sorted(set(strings))

  /** Python's string order: code point by code point, a proper prefix first. */
  predicate StrLe(a: string, b: string)
    decreases |a|
  {
    |a| == 0 || (|b| > 0 && (a[0] < b[0] || (a[0] == b[0] && StrLe(a[1..], b[1..]))))
  }

  lemma {:induction false} StrLeTotal(a: string, b: string)
    ensures StrLe(a, b) || StrLe(b, a)
    decreases |a|
  {
    if |a| > 0 && |b| > 0 && a[0] == b[0] {
      StrLeTotal(a[1..], b[1..]);
    }
  }

  lemma {:induction false} StrLeTrans(a: string, b: string, c: string)
    requires StrLe(a, b) && StrLe(b, c)
    ensures StrLe(a, c)
    decreases |a|
  {
    if |a| > 0 && a[0] == b[0] && b[0] == c[0] {
      StrLeTrans(a[1..], b[1..], c[1..]);
    }
  }

  lemma {:induction false} StrLeAntisymmetric(a: string, b: string)
    requires StrLe(a, b) && StrLe(b, a)
    ensures a == b
    decreases |a|
  {
    if |a| > 0 {
      StrLeAntisymmetric(a[1..], b[1..]);
      assert a == [a[0]] + a[1..] && b == [b[0]] + b[1..];
    }
  }

  lemma StrLeTotalPreorder()
    ensures Sorting.TotalPreorder(StrLe)
  {
    forall a, b
      ensures StrLe(a, b) || StrLe(b, a)
    {
      StrLeTotal(a, b);
    }
    forall a, b, c | StrLe(a, b) && StrLe(b, c)
      ensures StrLe(a, c)
    {
      StrLeTrans(a, b, c);
    }
  }

  /** Drops each element equal to its successor. */
  function DedupAdjacent(xs: seq<string>): (r: seq<string>)
    ensures forall x :: x in r <==> x in xs
    ensures |xs| > 0 ==> |r| > 0 && r[0] == xs[0]
  {
    if |xs| <= 1 then xs
    else if xs[0] == xs[1] then DedupAdjacent(xs[1..])
    else [xs[0]] + DedupAdjacent(xs[1..])
  }

  predicate StrictlyAscending(r: seq<string>) {
    forall i, j :: 0 <= i < j < |r| ==> StrLe(r[i], r[j]) && r[i] != r[j]
  }

  /** In a sorted list the removal of adjacent copies leaves a strictly ascending list. */
  lemma {:induction false} DedupSortedStrict(xs: seq<string>)
    requires Sorting.SortedBy(StrLe, xs)
    ensures StrictlyAscending(DedupAdjacent(xs))
  {
    if |xs| > 1 {
      var tail := xs[1..];
      SortedTail(xs);
      DedupSortedStrict(tail);
      if xs[0] != xs[1] {
        DedupHeadBelow(xs);
        StrictCons(xs[0], DedupAdjacent(tail));
      }
    }
  }

  lemma SortedTail(xs: seq<string>)
    requires Sorting.SortedBy(StrLe, xs) && |xs| > 0
    ensures Sorting.SortedBy(StrLe, xs[1..])
  {
    var tail := xs[1..];
    forall i, j | 0 <= i < j < |tail|
      ensures StrLe(tail[i], tail[j])
    {
      assert tail[i] == xs[i + 1] && tail[j] == xs[j + 1];
    }
  }

  /** A sorted list's head differing from its successor is strictly below everything the rest keeps. */
  lemma DedupHeadBelow(xs: seq<string>)
    requires Sorting.SortedBy(StrLe, xs) && |xs| > 1 && xs[0] != xs[1]
    ensures forall j :: 0 <= j < |DedupAdjacent(xs[1..])| ==>
      StrLe(xs[0], DedupAdjacent(xs[1..])[j]) && xs[0] != DedupAdjacent(xs[1..])[j]
  {
    var tail, rest := xs[1..], DedupAdjacent(xs[1..]);
    forall j | 0 <= j < |rest|
      ensures StrLe(xs[0], rest[j]) && xs[0] != rest[j]
    {
      assert rest[j] in rest;
      var k :| 0 <= k < |tail| && tail[k] == rest[j];
      assert StrLe(xs[0], xs[k + 1]);
      if xs[0] == rest[j] {
        assert StrLe(xs[1], xs[k + 1]);
        StrLeAntisymmetric(xs[0], xs[1]);
      }
    }
  }

  lemma StrictCons(h: string, rest: seq<string>)
    requires StrictlyAscending(rest)
    requires forall j :: 0 <= j < |rest| ==> StrLe(h, rest[j]) && h != rest[j]
    ensures StrictlyAscending([h] + rest)
  {
    var r := [h] + rest;
    forall i, j | 0 <= i < j < |r|
      ensures StrLe(r[i], r[j]) && r[i] != r[j]
    {
      if i == 0 {
        assert r[j] == rest[j - 1];
      } else {
        assert r[i] == rest[i - 1] && r[j] == rest[j - 1];
      }
    }
  }

  /** `sorted(set(xs))` for strings: each value once, ascending. */
  function SortedSet(xs: seq<string>): (r: seq<string>)
    ensures forall x :: x in r <==> x in xs
    ensures StrictlyAscending(r)
  {
    StrLeTotalPreorder();
    var sorted := Sorting.SortBy(StrLe, xs);
    Sorting.SortBySorted(StrLe, xs);
    Sorting.SortByMembers(StrLe, xs);
    DedupSortedStrict(sorted);
    DedupAdjacent(sorted)
  }
}

=== FILE: recall_common.dfy ===
/**
 What `src/memory/caMemoryEngine.js` and `src/memory/hopfieldMemoryEngine.js`
 share: the unchecked Hamming distance, the nearest-stored-pattern search
 that starts from `Infinity`, and the ratio test for `success`.
 */
module RecallCommon {
  import AttractorUtils
  import Wrappers

  /** A recall distance: `Infinity` when nothing is stored. */
  datatype Dist = Finite(d: nat) | Infinity {
    predicate Less(other: Dist) {
      match (this, other)
      case (Finite(a), Finite(b)) => a < b
      case (Finite(_), Infinity) => true
      case (Infinity, _) => false
    }

    predicate AtMost(other: Dist) {
      !other.Less(this)
    }
  }

  /** `{ final | recalled, success, distance, stepsUsed }`. */
  datatype RecallResult = RecallResult(final: seq<int>, success: bool, distance: Dist, stepsUsed: nat)

  /** `hammingDist(a, b)`: positions below |a| where `a[i] !== b[i]`; a missing `b[i]` is `undefined` and differs. */
  function HammingDist(a: seq<int>, b: seq<int>): (d: nat)
    ensures d <= |a|
  {
    if |a| == 0 then 0
    else HammingDist(a[..|a| - 1], b) + (if |a| - 1 >= |b| || a[|a| - 1] != b[|a| - 1] then 1 else 0)
  }

  lemma {:induction false} HammingDistPrefix(a: seq<int>, b: seq<int>)
    requires |a| == |b|
    ensures HammingDist(a, b) == AttractorUtils.Differences(a, b)
  {
    if |a| > 0 {
      HammingDistPrefixShift(a[..|a| - 1], b);
      HammingDistPrefix(a[..|a| - 1], b[..|b| - 1]);
    }
  }

  lemma {:induction false} HammingDistPrefixShift(a: seq<int>, b: seq<int>)
    requires |a| < |b|
    ensures HammingDist(a, b) == HammingDist(a, b[..|a|])
  {
    if |a| > 0 {
      HammingDistPrefixShift(a[..|a| - 1], b);
      HammingDistPrefixShift(a[..|a| - 1], b[..|a|]);
      assert b[..|a|][..|a| - 1] == b[..|a| - 1];
    }
  }

  /** On equal lengths the unchecked distance is the checked one of attractorUtils.js. */
  lemma HammingDistAgrees(a: seq<int>, b: seq<int>)
    requires |a| == |b|
    ensures AttractorUtils.HammingDistance(a, b) == Wrappers.Ok(HammingDist(a, b))
  {
    HammingDistPrefix(a, b);
  }

  /** The loop `if (d < bestDist) bestDist = d` over the stored patterns. */
  function MinDistance(x: seq<int>, stored: seq<seq<int>>): (r: Dist)
    ensures r.Infinity? <==> |stored| == 0
    ensures r.Finite? ==> exists k :: 0 <= k < |stored| && r.d == HammingDist(x, stored[k])
    ensures forall k :: 0 <= k < |stored| ==> r.AtMost(Finite(HammingDist(x, stored[k])))
  {
    if |stored| == 0 then Infinity
    else
      var best := MinDistance(x, stored[..|stored| - 1]);
      var d := HammingDist(x, stored[|stored| - 1]);
      assert forall k :: 0 <= k < |stored| - 1 ==> stored[..|stored| - 1][k] == stored[k];
      if Finite(d).Less(best) then Finite(d) else best
  }

  /** `bestDist / length <= maxDiffRatio`: `Infinity` and a zero length (NaN or `Infinity`) never pass. */
  predicate Succeeds(dist: Dist, length: nat, maxDiffRatio: real) {
    dist.Finite? && length > 0 && dist.d as real / length as real <= maxDiffRatio
  }

  /** An exact recall passes any non-negative ratio, provided the probe is not empty. */
  lemma ExactSucceeds(length: nat, maxDiffRatio: real)
    requires length > 0 && maxDiffRatio >= 0.0
    ensures Succeeds(Finite(0), length, maxDiffRatio)
  {
    var l := length as real;
    assert 0.0 * l == 0.0;
    assert (0 as real) / l == 0.0;
  }

  const DefaultMaxDiffRatio: real := 0.1
}

=== FILE: rule_ops.dfy ===
/**
 `isinglab/core/rule_ops.py`: the Python rule-notation utilities. A rule is
 a pair of digit lists; the parser splits on `/`, keeps every ASCII digit of
 the first two fields (9 included, no range check) and sorts them; the
 printer sorts again and writes `B<born>/S<survive>`.
 */
module RuleOps {
  import opened Wrappers
  import opened PyText
  import PyList

  datatype BS = BS(born: seq<int>, survive: seq<int>)

  predicate Canonical(r: BS) {
    Ascending(r.born) && Ascending(r.survive) && AllDigits(r.born) && AllDigits(r.survive)
  }

  /** Every digit is a neighbour count of the Moore neighbourhood, 0..8. */
  predicate LifeLike(r: BS) {
    (forall k :: 0 <= k < |r.born| ==> 0 <= r.born[k] <= 8) &&
    (forall k :: 0 <= k < |r.survive| ==> 0 <= r.survive[k] <= 8)
  }

  /** `parse_notation(notation)`. */
  function ParseNotation(s: string): (r: Result<BS>)
    ensures r.Err? <==> '/' !in s
    ensures r.Err? ==> r.error.kind == ValueError
    ensures r.Ok? ==> Canonical(r.value)
    ensures r.Ok? ==> multiset(r.value.born) == multiset(DigitList(Before(s, '/')))
    ensures r.Ok? ==> multiset(r.value.survive) == multiset(DigitList(Second(s, '/')))
  {
    if '/' !in s then Err(Error(ValueError, "Invalid notation: " + s))
    else
      var born, survive := DigitList(Before(s, '/')), DigitList(Second(s, '/'));
      SortKeepsDigits(born);
      SortKeepsDigits(survive);
      Ok(BS(SortInts(born), SortInts(survive)))
  }

  /** `to_notation(born, survive)`. */
  function ToNotation(born: seq<int>, survive: seq<int>): string {
    "B" + JoinInts(SortInts(born)) + "/S" + JoinInts(SortInts(survive))
  }

  function Note(r: BS): string {
    ToNotation(r.born, r.survive)
  }

  /** Printing digit lists and parsing the text back gives the sorted lists. */
  lemma ParseToNotation(born: seq<int>, survive: seq<int>)
    requires AllDigits(born) && AllDigits(survive)
    ensures ParseNotation(ToNotation(born, survive)) == Ok(BS(SortInts(born), SortInts(survive)))
  {
    var sb, ss := SortInts(born), SortInts(survive);
    SortKeepsDigits(born);
    SortKeepsDigits(survive);
    var db, ds := JoinInts(sb), JoinInts(ss);
    JoinDigitsRoundTrip(sb);
    JoinDigitsRoundTrip(ss);
    NoSlash(db);
    NoSlash(ds);
    var n := ToNotation(born, survive);
    NotationSplit(db, ds);
    assert n == ("B" + db) + ['/'] + ("S" + ds);
    ParseParts("B" + db, "S" + ds);
    DigitListAppend("B", db);
    DigitListAppend("S", ds);
    assert DigitList("B") == [] && DigitList("S") == [];
    assert DigitList("B" + db) == sb && DigitList("S" + ds) == ss;
    SortAscending(sb);
    SortAscending(ss);
    assert ParseNotation(n) == Ok(BS(SortInts(sb), SortInts(ss)));
  }

  lemma NotationSplit(a: string, b: string)
    ensures "B" + a + "/S" + b == ("B" + a) + ['/'] + ("S" + b)
  {
  }

  /** Text split at its only two fields parses as the sorted digits of each. */
  lemma ParseParts(p: string, q: string)
    requires '/' !in p && '/' !in q
    ensures ParseNotation(p + ['/'] + q) == Ok(BS(SortInts(DigitList(p)), SortInts(DigitList(q))))
  {
    var s := p + ['/'] + q;
    assert s[|p|] == '/';
    SplitAt(p, '/', q);
    BeforeWhole(q, '/');
  }

  lemma NoSlash(d: string)
    requires forall k :: 0 <= k < |d| ==> IsDigit(d[k])
    ensures '/' !in "B" + d && '/' !in "S" + d
  {
    forall k | 0 <= k < |d|
      ensures d[k] != '/'
    {
      assert IsDigit(d[k]);
    }
    assert forall k :: 1 <= k < 1 + |d| ==> ("B" + d)[k] == d[k - 1] && ("S" + d)[k] == d[k - 1];
  }

  /** The printed form of a canonical rule parses back to the rule itself. */
  lemma ParseNote(r: BS)
    requires Canonical(r)
    ensures ParseNotation(Note(r)) == Ok(r)
  {
    ParseToNotation(r.born, r.survive);
    SortAscending(r.born);
    SortAscending(r.survive);
  }

  /** Different canonical rules print differently. */
  lemma NoteInjective(r1: BS, r2: BS)
    requires Canonical(r1) && Canonical(r2)
    ensures Note(r1) == Note(r2) <==> r1 == r2
  {
    ParseNote(r1);
    ParseNote(r2);
  }

  /** A printed notation contains no lower-case letter. */
  lemma UpperOfNotation(born: seq<int>, survive: seq<int>)
    requires AllDigits(born) && AllDigits(survive)
    ensures Upper(ToNotation(born, survive)) == ToNotation(born, survive)
  {
    var sb, ss := SortInts(born), SortInts(survive);
    SortKeepsDigits(born);
    SortKeepsDigits(survive);
    JoinDigitsRoundTrip(sb);
    JoinDigitsRoundTrip(ss);
    var db, ds := JoinInts(sb), JoinInts(ss);
    NotationSplit(db, ds);
    LetterDigitsNoLower('B', db);
    LetterDigitsNoLower('/', "");
    LetterDigitsNoLower('S', ds);
    NoLowerConcat("B" + db, ['/']);
    NoLowerConcat("B" + db + ['/'], "S" + ds);
  }

  /** `normalize_notation(notation)`: the printed form of the parsed rule. */
  function NormalizeNotation(s: string): (r: Result<string>)
    ensures r.Err? <==> '/' !in s
    ensures r.Ok? ==> r.value == Note(ParseNotation(s).value)
  {
    var rule :- ParseNotation(s);
    UpperOfNotation(rule.born, rule.survive);
    Ok(Upper(Note(rule)))
  }

  /** Normalising a normalised notation changes nothing. */
  lemma NormalizeIdempotent(s: string)
    requires '/' in s
    ensures NormalizeNotation(NormalizeNotation(s).value) == NormalizeNotation(s)
  {
    ParseNote(ParseNotation(s).value);
  }

  /** Two notations normalise alike iff they hold the same digits on each side. */
  lemma NormalizeIff(a: string, b: string)
    requires '/' in a && '/' in b
    ensures NormalizeNotation(a) == NormalizeNotation(b) <==>
              multiset(DigitList(Before(a, '/'))) == multiset(DigitList(Before(b, '/'))) &&
              multiset(DigitList(Second(a, '/'))) == multiset(DigitList(Second(b, '/')))
  {
    var ra, rb := ParseNotation(a).value, ParseNotation(b).value;
    NoteInjective(ra, rb);
    if multiset(ra.born) == multiset(rb.born) && multiset(ra.survive) == multiset(rb.survive) {
      AscendingUnique(ra.born, rb.born);
      AscendingUnique(ra.survive, rb.survive);
    }
  }

  // ------------------------------------------------------------- complement

  /** `[8 - x for x in xs]`. */
  function Flip(xs: seq<int>): (f: seq<int>)
    ensures |f| == |xs|
  {
    seq(|xs|, (k: int) requires 0 <= k < |xs| => 8 - xs[k])
  }

  lemma FlipSnoc(pre: seq<int>, z: int)
    ensures Flip(pre + [z]) == Flip(pre) + [8 - z]
  {
  }

  lemma {:induction false} FlipCount(xs: seq<int>, y: int)
    ensures multiset(Flip(xs))[y] == multiset(xs)[8 - y]
  {
    if |xs| > 0 {
      var pre := xs[..|xs| - 1];
      FlipCount(pre, y);
      assert xs == pre + [xs[|xs| - 1]];
      FlipSnoc(pre, xs[|xs| - 1]);
    }
  }

  /** Flipping respects multiset equality. */
  lemma FlipMultiset(a: seq<int>, b: seq<int>)
    requires multiset(a) == multiset(b)
    ensures multiset(Flip(a)) == multiset(Flip(b))
  {
    forall y
      ensures multiset(Flip(a))[y] == multiset(Flip(b))[y]
    {
      FlipCount(a, y);
      FlipCount(b, y);
    }
  }

  lemma FlipFlip(xs: seq<int>)
    ensures Flip(Flip(xs)) == xs
  {
  }

  /** `complement_rule` on a parsed rule: born from flipped survive, survive from flipped born. */
  function ComplementOf(r: BS): BS {
    BS(SortInts(Flip(r.survive)), SortInts(Flip(r.born)))
  }

  lemma NoteHasSlash(r: BS)
    ensures '/' in Note(r)
  {
    var n := Note(r);
    assert n[|"B" + JoinInts(SortInts(r.born))|] == '/';
  }

  /** `complement_rule(notation)`. */
  function ComplementRule(s: string): (r: Result<string>)
    ensures r.Err? <==> '/' !in s
    ensures r.Ok? ==> r.value == Note(ComplementOf(ParseNotation(s).value)) && '/' in r.value
  {
    var rule :- ParseNotation(s);
    NoteHasSlash(ComplementOf(rule));
    Ok(Note(ComplementOf(rule)))
  }

  lemma FlipLifeLike(xs: seq<int>)
    requires forall k :: 0 <= k < |xs| ==> 0 <= xs[k] <= 8
    ensures forall k :: 0 <= k < |SortInts(Flip(xs))| ==> 0 <= SortInts(Flip(xs))[k] <= 8
  {
    var f := SortInts(Flip(xs));
    forall k | 0 <= k < |f|
      ensures 0 <= f[k] <= 8
    {
      assert f[k] in multiset(Flip(xs));
    }
  }

  /** The complement of the complement of a canonical Life-like rule is the rule. */
  lemma ComplementOfComplement(r: BS)
    requires Canonical(r) && LifeLike(r)
    ensures Canonical(ComplementOf(r)) && ComplementOf(ComplementOf(r)) == r
  {
    var c := ComplementOf(r);
    FlipLifeLike(r.survive);
    FlipLifeLike(r.born);
    var cc := ComplementOf(c);
    FlipMultiset(SortInts(Flip(r.born)), Flip(r.born));
    FlipMultiset(SortInts(Flip(r.survive)), Flip(r.survive));
    FlipFlip(r.born);
    FlipFlip(r.survive);
    AscendingUnique(cc.born, r.born);
    AscendingUnique(cc.survive, r.survive);
  }

  /** On Life-like rules the complement of the complement is the normalised notation. */
  lemma ComplementInvolution(s: string)
    requires '/' in s && LifeLike(ParseNotation(s).value)
    ensures ComplementRule(ComplementRule(s).value) == NormalizeNotation(s)
  {
    var r := ParseNotation(s).value;
    ComplementOfComplement(r);
    ParseNote(ComplementOf(r));
  }

  /** A canonical rule whose digit lists print as given has that notation. */
  lemma NoteText(r: BS, text: string)
    requires Ascending(r.born) && Ascending(r.survive)
    requires text == "B" + JoinInts(r.born) + "/S" + JoinInts(r.survive)
    ensures Note(r) == text
  {
    SortAscending(r.born);
    SortAscending(r.survive);
  }

  /** The complement of a printed canonical rule is the printed complement. */
  lemma ComplementOfNote(r: BS)
    requires Canonical(r)
    ensures ComplementRule(Note(r)) == Ok(Note(ComplementOf(r)))
  {
    ParseNote(r);
    NoteHasSlash(r);
  }

  lemma LifeFacts(life: string, rule: BS, comp: BS)
    requires life == "B3/S23" && rule == BS([3], [2, 3]) && comp == BS([5, 6], [5])
    ensures Canonical(rule) && Ascending(comp.born) && Ascending(comp.survive)
    ensures life == "B" + JoinInts(rule.born) + "/S" + JoinInts(rule.survive)
    ensures "B56/S5" == "B" + JoinInts(comp.born) + "/S" + JoinInts(comp.survive)
    ensures multiset(Flip(rule.survive)) == multiset(comp.born) && Flip(rule.born) == comp.survive
  {
    var f := Flip(rule.survive);
    assert f == [comp.born[1], comp.born[0]];
  }

  /** The code's complement of Conway's Life; the comment beside it gives B456/S0145678 instead. */
  lemma ComplementOfLife(life: string, rule: BS, comp: BS)
    requires life == "B3/S23" && rule == BS([3], [2, 3]) && comp == BS([5, 6], [5])
    ensures ComplementRule(life) == Ok("B56/S5")
  {
    LifeFacts(life, rule, comp);
    NoteText(rule, life);
    SortIntsOfSame(Flip(rule.survive), comp.born);
    SortAscending(comp.born);
    SortAscending(comp.survive);
    NoteText(comp, "B56/S5");
    ComplementOfNote(rule);
  }

  lemma NineFacts(s: string, t: string, nine: BS, minus: BS)
    requires s == "B9/S" && t == "B/S-1" && nine == BS([9], []) && minus == BS([], [-1])
    ensures Canonical(nine) && Ascending(minus.born) && Ascending(minus.survive)
    ensures s == "B" + JoinInts(nine.born) + "/S" + JoinInts(nine.survive)
    ensures t == "B" + JoinInts(minus.born) + "/S" + JoinInts(minus.survive)
    ensures Flip(nine.born) == minus.survive && Flip(nine.survive) == minus.born
  {
  }

  /** A 9, which the parser accepts, flips to -1 and prints as "-1": the output is not a Life-like notation. */
  lemma NineFlipsNegative(s: string, t: string, nine: BS, minus: BS)
    requires s == "B9/S" && t == "B/S-1" && nine == BS([9], []) && minus == BS([], [-1])
    ensures ComplementRule(s) == Ok(t)
  {
    NineFacts(s, t, nine, minus);
    NoteText(nine, s);
    SortAscending(minus.born);
    SortAscending(minus.survive);
    NoteText(minus, t);
    ComplementOfNote(nine);
  }

  lemma MinusFacts(t: string, p: string, q: string, one: BS, seven: BS)
    requires t == "B/S-1" && p == "B" && q == "S-1" && one == BS([], [1]) && seven == BS([7], [])
    ensures t == p + ['/'] + q && '/' !in p && '/' !in q
    ensures DigitList(p) == one.born && DigitList(q) == one.survive
    ensures Canonical(one) && Ascending(seven.born) && Ascending(seven.survive)
    ensures "B7/S" == "B" + JoinInts(seven.born) + "/S" + JoinInts(seven.survive)
    ensures Flip(one.survive) == seven.born && Flip(one.born) == seven.survive
  {
    assert q[..2] == "S-" && q[..2][..1] == "S" && q[..2][..1][..0] == "";
    assert DigitList(q[..2][..1]) == [];
    assert DigitList(q[..2]) == [];
  }

  /** "B/S-1" reads back as B/S1, whose complement is B7/S, so complementing twice does not return "B9/S". */
  lemma NineBreaksInvolution(t: string, p: string, q: string, one: BS, seven: BS)
    requires t == "B/S-1" && p == "B" && q == "S-1" && one == BS([], [1]) && seven == BS([7], [])
    ensures ComplementRule(t) == Ok("B7/S")
  {
    MinusFacts(t, p, q, one, seven);
    ParseParts(p, q);
    SortAscending(one.born);
    SortAscending(one.survive);
    SortAscending(seven.born);
    SortAscending(seven.survive);
    NoteText(seven, "B7/S");
  }

  /**
   The complement with the neighbour-count range checked: a digit outside
   0..8 (the parser lets only 9 through) is rejected instead of being
   flipped to a negative count.
   */
  function CheckedComplementRule(s: string): (r: Result<string>)
    ensures r.Err? <==> '/' !in s || !LifeLike(ParseNotation(s).value)
    ensures r.Ok? ==> r == ComplementRule(s)
  {
    var rule :- ParseNotation(s);
    if !LifeLike(rule) then Err(Error(ValueError, "neighbour count out of range"))
    else ComplementRule(s)
  }

  /** Wherever the checked complement succeeds, complementing twice gives the normalised notation. */
  lemma CheckedComplementInvolution(s: string)
    requires CheckedComplementRule(s).Ok?
    ensures CheckedComplementRule(CheckedComplementRule(s).value) == NormalizeNotation(s)
  {
    var r := ParseNotation(s).value;
    var c := ComplementOf(r);
    assert CheckedComplementRule(s).value == Note(c);
    FlipLifeLike(r.survive);
    FlipLifeLike(r.born);
    assert LifeLike(c);
    ComplementOfComplement(r);
    ParseNote(c);
    NoteHasSlash(c);
    assert CheckedComplementRule(Note(c)) == ComplementRule(Note(c));
    ComplementInvolution(s);
  }

  /** The checked complement rejects B9/S, which the code complements to B/S-1. */
  lemma CheckedRejectsNine(s: string, t: string, nine: BS, minus: BS)
    requires s == "B9/S" && t == "B/S-1" && nine == BS([9], []) && minus == BS([], [-1])
    ensures ComplementRule(s) == Ok(t) && CheckedComplementRule(s).Err?
  {
    NineFlipsNegative(s, t, nine, minus);
    NineFacts(s, t, nine, minus);
    NoteText(nine, s);
    ParseNote(nine);
    assert !LifeLike(nine);
  }

  // ------------------------------------------------- the intended complement

  /** Strictly increasing: each count at most once. */
  predicate Increasing(xs: seq<int>) {
    forall i, j :: 0 <= i < j < |xs| ==> xs[i] < xs[j]
  }

  /** The mirror count `8 - m` is not listed in `xs`. */
  predicate MirrorAbsent(xs: seq<int>, m: int) {
    8 - m !in xs
  }

  /** The counts `n..8` whose mirror is not in `xs`, in increasing order. */
  function MirrorsAbsent(xs: seq<int>, n: nat): seq<int>
    decreases 9 - n
  {
    if n > 8 then []
    else if MirrorAbsent(xs, n) then [n] + MirrorsAbsent(xs, n + 1)
    else MirrorsAbsent(xs, n + 1)
  }

  /** `MirrorsAbsent(xs, n)` lists exactly the counts from `n` to 8 with an absent mirror, each once, in order. */
  lemma {:induction false} MirrorsAbsentSpec(xs: seq<int>, n: nat)
    ensures forall m :: m in MirrorsAbsent(xs, n) <==> n <= m <= 8 && MirrorAbsent(xs, m)
    ensures forall k :: 0 <= k < |MirrorsAbsent(xs, n)| ==> n <= MirrorsAbsent(xs, n)[k] <= 8
    ensures Increasing(MirrorsAbsent(xs, n))
    decreases 9 - n
  {
    if n <= 8 {
      MirrorsAbsentSpec(xs, n + 1);
    }
  }

  /**
   The complement the docstring describes, the rule that gives the
   inverse result on the inverted grid: a cell with n live neighbours in
   the inverted grid has 8 - n in the original, and becomes live exactly
   when the original cell would not. So a count is born when its mirror
   does not survive, and survives when its mirror is not born.
   */
  function IntendedComplementOf(r: BS): (c: BS)
    ensures LifeLike(c) && Increasing(c.born) && Increasing(c.survive)
    ensures forall m :: m in c.born <==> 0 <= m <= 8 && MirrorAbsent(r.survive, m)
    ensures forall m :: m in c.survive <==> 0 <= m <= 8 && MirrorAbsent(r.born, m)
  {
    MirrorsAbsentSpec(r.survive, 0);
    MirrorsAbsentSpec(r.born, 0);
    BS(MirrorsAbsent(r.survive, 0), MirrorsAbsent(r.born, 0))
  }

  /** A Life-like rule listing each count once is canonical. */
  lemma IncreasingCanonical(r: BS)
    requires LifeLike(r) && Increasing(r.born) && Increasing(r.survive)
    ensures Canonical(r)
  {
  }

  /** Two increasing lists with the same members are the same list. */
  lemma {:induction false} IncreasingUnique(a: seq<int>, b: seq<int>)
    requires Increasing(a) && Increasing(b)
    requires forall x :: x in a <==> x in b
    ensures a == b
    decreases |a|
  {
    if |a| > 0 {
      assert a[0] in a;
    }
    if |b| > 0 {
      assert b[0] in b;
    }
    if |a| > 0 && |b| > 0 {
      assert a[0] in a && b[0] in b;
      assert a[0] == b[0] by {
        var i :| 0 <= i < |b| && b[i] == a[0];
        var j :| 0 <= j < |a| && a[j] == b[0];
        assert a[0] <= a[j] && b[0] <= b[i];
      }
      forall x
        ensures x in a[1..] <==> x in b[1..]
      {
        if x in a[1..] {
          TailMember(a, b, x);
        }
        if x in b[1..] {
          TailMember(b, a, x);
        }
      }
      IncreasingUnique(a[1..], b[1..]);
      assert a == [a[0]] + a[1..] && b == [b[0]] + b[1..];
    }
  }

  lemma TailMember(a: seq<int>, b: seq<int>, x: int)
    requires Increasing(a) && Increasing(b) && |a| > 0 && |b| > 0 && a[0] == b[0]
    requires forall y :: y in a <==> y in b
    requires x in a[1..]
    ensures x in b[1..]
  {
    var i :| 0 <= i < |a[1..]| && a[1..][i] == x;
    assert a[i + 1] == x && a[0] < x;
    assert x in a;
    var j :| 0 <= j < |b| && b[j] == x;
    assert j != 0;
    assert b[1..][j - 1] == x;
  }

  /** Taking the counts with an absent mirror twice gives back an increasing list of counts. */
  lemma MirrorsTwice(xs: seq<int>)
    requires Increasing(xs) && forall k :: 0 <= k < |xs| ==> 0 <= xs[k] <= 8
    ensures MirrorsAbsent(MirrorsAbsent(xs, 0), 0) == xs
  {
    var c := MirrorsAbsent(xs, 0);
    var cc := MirrorsAbsent(c, 0);
    MirrorsAbsentSpec(xs, 0);
    MirrorsAbsentSpec(c, 0);
    forall m
      ensures m in cc <==> m in xs
    {
      assert m in cc <==> 0 <= m <= 8 && 8 - m !in c;
      assert 8 - m in c <==> 0 <= 8 - m <= 8 && 8 - (8 - m) !in xs;
      if m in xs {
        var k :| 0 <= k < |xs| && xs[k] == m;
      }
    }
    IncreasingUnique(cc, xs);
  }

  /** The intended complement is an involution on Life-like rules that list each count once. */
  lemma IntendedInvolution(r: BS)
    requires LifeLike(r) && Increasing(r.born) && Increasing(r.survive)
    ensures IntendedComplementOf(IntendedComplementOf(r)) == r
  {
    MirrorsTwice(r.born);
    MirrorsTwice(r.survive);
  }

  /** The intended complement of a notation, printed; it parses back to the intended complement of the parsed rule. */
  function IntendedComplementRule(s: string): (r: Result<string>)
    ensures r.Err? <==> '/' !in s
    ensures r.Ok? ==> ParseNotation(r.value) == Ok(IntendedComplementOf(ParseNotation(s).value))
  {
    var rule :- ParseNotation(s);
    IncreasingCanonical(IntendedComplementOf(rule));
    ParseNote(IntendedComplementOf(rule));
    Ok(Note(IntendedComplementOf(rule)))
  }

  /** Complementing the intended complement's notation gives back the normalised notation. */
  lemma IntendedComplementRuleInvolution(s: string)
    requires '/' in s
    requires var r := ParseNotation(s).value; LifeLike(r) && Increasing(r.born) && Increasing(r.survive)
    ensures IntendedComplementRule(IntendedComplementRule(s).value) == NormalizeNotation(s)
  {
    var r := ParseNotation(s).value;
    var c := IntendedComplementOf(r);
    IntendedInvolution(r);
    IncreasingCanonical(c);
    ParseNote(c);
    NoteHasSlash(c);
  }

  /** The members of a sorted list are the members of the list. */
  lemma SortMembers(xs: seq<int>)
    ensures forall x :: x in SortInts(xs) <==> x in xs
  {
    forall x
      ensures x in SortInts(xs) <==> x in xs
    {
      assert x in SortInts(xs) <==> x in multiset(SortInts(xs));
      assert x in xs <==> x in multiset(xs);
    }
  }

  /**
   The docstring calls Day & Night, B3678/S34678, its own complement, but
   the code complements it to B01245/S0125 and so reports it as not
   self-complementary, whatever notation it is written in.
   */
  lemma DayAndNightAsWritten(s: string, rule: BS)
    requires rule == BS([3, 6, 7, 8], [3, 4, 6, 7, 8]) && ParseNotation(s) == Ok(rule)
    ensures ComplementRule(s) == Ok(Note(ComplementOf(rule)))
    ensures IsSelfComplementary(s) == Ok(false)
  {
    DayAndNightComplement(rule);
    DayAndNightLifeLike(rule);
    assert '/' in s;
    SelfComplementaryIff(s);
  }

  lemma DayAndNightLifeLike(rule: BS)
    requires rule == BS([3, 6, 7, 8], [3, 4, 6, 7, 8])
    ensures LifeLike(rule)
  {
  }

  /** The code's complement of Day & Night has born digits 0, 1, 2, 4, 5 and survive digits 0, 1, 2, 5. */
  lemma DayAndNightComplement(rule: BS)
    requires rule == BS([3, 6, 7, 8], [3, 4, 6, 7, 8])
    ensures forall x :: x in ComplementOf(rule).born <==> x in [0, 1, 2, 4, 5]
    ensures forall x :: x in ComplementOf(rule).survive <==> x in [0, 1, 2, 5]
    ensures rule.born != SortInts(Flip(rule.survive))
  {
    var f, g := Flip(rule.survive), Flip(rule.born);
    FlipOfFive(rule.survive, f);
    FlipOfFour(rule.born, g);
    SortMembers(f);
    SortMembers(g);
    assert rule.born[0] in rule.born && rule.born[0] !in SortInts(f);
  }

  lemma FlipOfFive(xs: seq<int>, f: seq<int>)
    requires xs == [3, 4, 6, 7, 8] && f == Flip(xs)
    ensures forall x :: x in f <==> x in [0, 1, 2, 4, 5]
  {
    assert f == [5, 4, 2, 1, 0];
  }

  lemma FlipOfFour(xs: seq<int>, f: seq<int>)
    requires xs == [3, 6, 7, 8] && f == Flip(xs)
    ensures forall x :: x in f <==> x in [0, 1, 2, 5]
  {
    assert f == [5, 2, 1, 0];
  }

  lemma MirrorsOfSurvive()
    ensures MirrorsAbsent([3, 4, 6, 7, 8], 0) == [3, 6, 7, 8]
  {
  }

  lemma MirrorsOfBorn()
    ensures MirrorsAbsent([3, 6, 7, 8], 0) == [3, 4, 6, 7, 8]
  {
  }

  /**
   Under the intended complement Day & Night is its own complement, as the
   docstring says: its notation comes back normalised.
   */
  lemma DayAndNightIntended(s: string, rule: BS)
    requires rule == BS([3, 6, 7, 8], [3, 4, 6, 7, 8]) && ParseNotation(s) == Ok(rule)
    ensures IntendedComplementOf(rule) == rule
    ensures IntendedComplementRule(s) == NormalizeNotation(s)
  {
    MirrorsOfSurvive();
    MirrorsOfBorn();
  }

  /** `is_self_complementary(notation)`. */
  function IsSelfComplementary(s: string): (r: Result<bool>)
    ensures r.Err? <==> '/' !in s
  {
    var comp :- ComplementRule(s);
    Ok(NormalizeNotation(s).value == NormalizeNotation(comp).value)
  }

  /** A Life-like rule is its own complement iff born is the sorted list of flipped survive digits. */
  lemma SelfComplementaryIff(s: string)
    requires '/' in s && LifeLike(ParseNotation(s).value)
    ensures var r := ParseNotation(s).value;
            IsSelfComplementary(s) == Ok(r.born == SortInts(Flip(r.survive)))
  {
    var r := ParseNotation(s).value;
    var c := ComplementOf(r);
    ComplementOfComplement(r);
    ParseNote(c);
    NoteInjective(r, c);
    if r.born == c.born {
      // then survive = sorted flip of born follows by complementing both sides
      assert ComplementOf(c).survive == SortInts(Flip(c.born));
    }
  }

  // -------------------------------------------------------------- distance

  function BornSet(r: BS): set<int> {
    SetOf(r.born)
  }

  function SurviveSet(r: BS): set<int> {
    SetOf(r.survive)
  }

  /** The Hamming distance of two parsed rules: symmetric differences of the digit sets. */
  function Distance(r1: BS, r2: BS): nat {
    SymDiff(BornSet(r1), BornSet(r2)) + SymDiff(SurviveSet(r1), SurviveSet(r2))
  }

  /** `rule_distance(notation1, notation2)`. */
  function RuleDistance(s1: string, s2: string): (r: Result<nat>)
    ensures r.Err? <==> '/' !in s1 || '/' !in s2
    ensures r.Ok? ==> r.value == Distance(ParseNotation(s1).value, ParseNotation(s2).value)
  {
    var r1 :- ParseNotation(s1);
    var r2 :- ParseNotation(s2);
    Ok(Distance(r1, r2))
  }

  lemma RuleDistanceSymmetric(a: string, b: string)
    requires '/' in a && '/' in b
    ensures RuleDistance(a, b) == RuleDistance(b, a)
  {
    DistanceSymmetric(ParseNotation(a).value, ParseNotation(b).value);
  }

  lemma DistanceSymmetric(r1: BS, r2: BS)
    ensures Distance(r1, r2) == Distance(r2, r1)
  {
    SymDiffSymmetric(BornSet(r1), BornSet(r2));
    SymDiffSymmetric(SurviveSet(r1), SurviveSet(r2));
  }

  lemma DistanceZero(r1: BS, r2: BS)
    ensures Distance(r1, r1) == 0
    ensures Distance(r1, r2) == 0 <==> BornSet(r1) == BornSet(r2) && SurviveSet(r1) == SurviveSet(r2)
  {
    SymDiffZero(BornSet(r1), BornSet(r2));
    SymDiffZero(SurviveSet(r1), SurviveSet(r2));
    SymDiffZero(BornSet(r1), BornSet(r1));
    SymDiffZero(SurviveSet(r1), SurviveSet(r1));
  }

  /** Distance 0 means the same digit sets on both sides; a notation is at distance 0 from itself. */
  lemma RuleDistanceZero(a: string, b: string)
    requires '/' in a && '/' in b
    ensures RuleDistance(a, a) == Ok(0)
    ensures RuleDistance(a, b) == Ok(0) <==>
              BornSet(ParseNotation(a).value) == BornSet(ParseNotation(b).value) &&
              SurviveSet(ParseNotation(a).value) == SurviveSet(ParseNotation(b).value)
  {
    DistanceZero(ParseNotation(a).value, ParseNotation(b).value);
  }

  lemma RuleDistanceTriangle(a: string, b: string, c: string)
    requires '/' in a && '/' in b && '/' in c
    ensures RuleDistance(a, c).value <= RuleDistance(a, b).value + RuleDistance(b, c).value
  {
    var ra, rb, rc := ParseNotation(a).value, ParseNotation(b).value, ParseNotation(c).value;
    SymDiffTriangle(BornSet(ra), BornSet(rb), BornSet(rc));
    SymDiffTriangle(SurviveSet(ra), SurviveSet(rb), SurviveSet(rc));
  }

  // ------------------------------------------------------------- neighbours

  /** Toggles digit d in one list: removed if present and not alone, added if absent. */
  function Toggle(xs: seq<int>, d: int): Option<seq<int>> {
    if d in xs && |xs| > 1 then Some(Remove(xs, d))
    else if d !in xs then Some(SortInts(xs + [d]))
    else None
  }

  /** Mutation i: digit i of born for i < 9, digit i - 9 of survive otherwise. */
  function Mutation(r: BS, i: nat): Option<BS>
    requires i < 18
  {
    if i < 9 then
      match Toggle(r.born, i)
      case None => None
      case Some(b) => Some(BS(b, r.survive))
    else
      match Toggle(r.survive, i - 9)
      case None => None
      case Some(s) => Some(BS(r.born, s))
  }

  function Found(m: Option<BS>): seq<BS> {
    match m
    case None => []
    case Some(x) => [x]
  }

  /** The mutations 0 .. n - 1 that exist, in order. */
  function Mutations(r: BS, n: nat): (ms: seq<BS>)
    requires n <= 18
  {
    if n == 0 then [] else Mutations(r, n - 1) + Found(Mutation(r, n - 1))
  }

  /** The list holds exactly the mutations that exist. */
  lemma {:induction false} MutationsMembers(r: BS, n: nat, m: BS)
    requires n <= 18
    ensures m in Mutations(r, n) <==> exists i :: 0 <= i < n && Mutation(r, i) == Some(m)
  {
    if n > 0 {
      MutationsMembers(r, n - 1, m);
      var pre, last := Mutations(r, n - 1), Found(Mutation(r, n - 1));
      assert Mutations(r, n) == pre + last;
      if Mutation(r, n - 1) == Some(m) {
        assert m in last;
      } else {
        assert m !in last;
        forall i | 0 <= i < n && Mutation(r, i) == Some(m)
          ensures i < n - 1
        {
        }
      }
    }
  }

  /** Keeps the first occurrence of each item not already in `seen`, in order. */
  function Dedup(xs: seq<string>, seen: set<string>): (ys: seq<string>)
    ensures forall y :: y in ys <==> y in xs && y !in seen
    ensures forall i, j :: 0 <= i < j < |ys| ==> ys[i] != ys[j]
    ensures PyList.KeepsFirstOccurrences(ys, xs, PyList.Itself, PyList.Always, seen)
  {
    if |xs| == 0 then []
    else if xs[0] in seen then
      PyList.KeepsFirstSkip(xs, PyList.Itself, PyList.Always, seen, Dedup(xs[1..], seen));
      Dedup(xs[1..], seen)
    else
      var rest := Dedup(xs[1..], seen + {xs[0]});
      assert xs == [xs[0]] + xs[1..];
      assert forall j :: 0 <= j < |rest| ==> rest[j] in rest;
      PyList.KeepsFirstTake(xs, PyList.Itself, PyList.Always, seen, rest);
      [xs[0]] + rest
  }

  function Notes(ms: seq<BS>): (ns: seq<string>)
    ensures |ns| == |ms| && forall k :: 0 <= k < |ms| ==> ns[k] == Note(ms[k])
  {
    seq(|ms|, (k: int) requires 0 <= k < |ms| => Note(ms[k]))
  }

  /**
   `generate_neighbors(notation, radius)`; the radius is not used by the code.
   The neighbours come in loop order (born digits 0..8, then survive digits
   0..8), each at its first occurrence, the rule itself left out.
   */
  function GenerateNeighbors(s: string, radius: int): (r: Result<seq<string>>)
    ensures r.Err? <==> '/' !in s
    ensures r.Ok? ==> s !in r.value && forall i, j :: 0 <= i < j < |r.value| ==> r.value[i] != r.value[j]
    ensures r.Ok? ==> forall n :: n in r.value <==> n in Notes(Mutations(ParseNotation(s).value, 18)) && n != s
    ensures r.Ok? ==> PyList.KeepsFirstOccurrences(r.value, Notes(Mutations(ParseNotation(s).value, 18)), PyList.Itself, PyList.Always, {s})
  {
    var rule :- ParseNotation(s);
    Ok(Dedup(Notes(Mutations(rule, 18)), {s}))
  }

  lemma AddOne(xs: seq<int>, d: int)
    requires d !in xs
    ensures SymDiff(SetOf(xs), SetOf(SortInts(xs + [d]))) == 1
  {
    SetOfSame(SortInts(xs + [d]), xs + [d]);
    assert SetOf(xs + [d]) == SetOf(xs) + {d};
    assert (SetOf(xs) - SetOf(xs + [d])) + (SetOf(xs + [d]) - SetOf(xs)) == {d};
  }

  lemma DropOne(xs: seq<int>, d: int)
    requires d in xs
    ensures SymDiff(SetOf(xs), SetOf(Remove(xs, d))) == 1
  {
    assert SetOf(Remove(xs, d)) == SetOf(xs) - {d};
    assert (SetOf(xs) - SetOf(Remove(xs, d))) + (SetOf(Remove(xs, d)) - SetOf(xs)) == {d};
  }

  /** A toggle changes the digit set by exactly one digit and keeps digits 0..9. */
  lemma ToggleDistance(xs: seq<int>, d: int)
    requires AllDigits(xs) && 0 <= d <= 8 && Toggle(xs, d).Some?
    ensures AllDigits(Toggle(xs, d).value)
    ensures SymDiff(SetOf(xs), SetOf(Toggle(xs, d).value)) == 1
  {
    if d in xs {
      DropOne(xs, d);
    } else {
      AddOne(xs, d);
      SortKeepsDigits(xs + [d]);
    }
  }

  /** Every mutation of a canonical rule is at distance 1 from it and keeps digits 0..9. */
  lemma MutationAtDistanceOne(r: BS, i: nat)
    requires Canonical(r) && i < 18 && Mutation(r, i).Some?
    ensures AllDigits(Mutation(r, i).value.born) && AllDigits(Mutation(r, i).value.survive)
    ensures Distance(r, Mutation(r, i).value) == 1
  {
    if i < 9 {
      SymDiffZero(SetOf(r.survive), SetOf(r.survive));
      ToggleDistance(r.born, i);
    } else {
      SymDiffZero(SetOf(r.born), SetOf(r.born));
      ToggleDistance(r.survive, i - 9);
    }
  }

  /** A printed rule is at the same distance from `r` as the rule itself. */
  lemma DistanceToNote(r: BS, m: BS)
    requires AllDigits(m.born) && AllDigits(m.survive)
    ensures ParseNotation(Note(m)).Ok?
    ensures Distance(r, ParseNotation(Note(m)).value) == Distance(r, m)
  {
    ParseToNotation(m.born, m.survive);
    SetOfSame(SortInts(m.born), m.born);
    SetOfSame(SortInts(m.survive), m.survive);
  }

  /** Every neighbour is at `rule_distance` 1 from the notation it came from. */
  lemma NeighborsAtDistanceOne(s: string, radius: int)
    requires '/' in s
    ensures forall n :: n in GenerateNeighbors(s, radius).value ==> RuleDistance(s, n) == Ok(1)
  {
    var rule := ParseNotation(s).value;
    var ms := Mutations(rule, 18);
    var ns := Notes(ms);
    forall n | n in GenerateNeighbors(s, radius).value
      ensures RuleDistance(s, n) == Ok(1)
    {
      var k :| 0 <= k < |ns| && ns[k] == n;
      var m := ms[k];
      MutationsMembers(rule, 18, m);
      var i :| 0 <= i < 18 && Mutation(rule, i) == Some(m);
      MutationAtDistanceOne(rule, i);
      DistanceToNote(rule, m);
      NoteHasSlash(m);
    }
  }

  lemma OtherDigit(xs: seq<int>, d: int) returns (o: int)
    requires d in xs && |SetOf(xs)| != 1
    ensures o in xs && o != d
  {
    if forall x :: x in xs ==> x == d {
      AllSame(xs, d);
      assert false;
    }
    o :| o in xs && o != d;
  }

  /** A removal keeps a digit on its side unless that side repeats one digit only. */
  lemma RemovalKeepsADigit(r: BS, i: nat)
    requires i < 18 && Mutation(r, i).Some?
    requires |SetOf(r.born)| != 1 && |SetOf(r.survive)| != 1
    ensures |r.born| > 0 ==> |Mutation(r, i).value.born| > 0
    ensures |r.survive| > 0 ==> |Mutation(r, i).value.survive| > 0
  {
    var m := Mutation(r, i).value;
    if i < 9 && i in r.born {
      var other := OtherDigit(r.born, i);
      assert other in m.born;
    }
    if i >= 9 && (i - 9) in r.survive {
      var other := OtherDigit(r.survive, i - 9);
      assert other in m.survive;
    }
  }

  lemma RemoveRepeated(xs: seq<int>, d: int)
    requires xs == [d, d]
    ensures Remove(xs, d) == []
  {
    assert xs[..1] == [d] && xs[..1][..0] == [];
    assert Remove(xs[..1], d) == [];
  }

  lemma RepeatedFacts(base: BS, empty: BS)
    requires base == BS([3, 3], [2]) && empty == BS([], [2])
    ensures Ascending(empty.born) && Ascending(empty.survive)
    ensures "B/S2" == "B" + JoinInts(empty.born) + "/S" + JoinInts(empty.survive)
  {
  }

  /** With a repeated single born digit, removing it leaves born empty: "B33/S2" has the neighbour "B/S2". */
  lemma RepeatedDigitEmptiesBorn(base: BS, empty: BS)
    requires base == BS([3, 3], [2]) && empty == BS([], [2])
    ensures Mutation(base, 3) == Some(empty) && Note(empty) == "B/S2"
  {
    RemoveRepeated(base.born, 3);
    RepeatedFacts(base, empty);
    NoteText(empty, "B/S2");
  }
}

=== FILE: rule_predictor.dfy ===
/**
 `src/ai/rulePredictor.js`: the notation parser and the 18-slot feature
 vector that the predictor feeds its model.
 */
module RulePredictor {
  import opened Wrappers
  import opened CaRules
  import BsRegex
  import Masks
  import CaMemory

  /** `parseRuleNotation(notation)`: the unanchored B/S regex, or a thrown `Invalid notation`. */
  function ParseRuleNotation(notation: string): (r: Result<Rule>)
    ensures r.Err? <==> BsRegex.MatchBornSurvive(notation, 0).None?
    ensures r.Err? ==> r.error == Error(RuntimeError, "Invalid notation: " + notation)
    ensures r.Ok? ==> BsRegex.InRange08(r.value.born) && BsRegex.InRange08(r.value.survive)
  {
    match BsRegex.MatchBornSurvive(notation, 0)
    case None => Err(Error(RuntimeError, "Invalid notation: " + notation))
    case Some((b, s)) => Ok(Rule(BsRegex.DigitValues(b), BsRegex.DigitValues(s)))
  }

  /** It reads exactly what the memory engine's `parseRule` reads; only the error text differs. */
  lemma AgreesWithParseRule(notation: string)
    ensures ParseRuleNotation(notation).Ok? <==> CaMemory.ParseRule(CaMemory.Text(notation)).Ok?
    ensures ParseRuleNotation(notation).Ok? ==>
              ParseRuleNotation(notation).value == CaMemory.ParseRule(CaMemory.Text(notation)).value
  {
  }

  /** The canonical notation of a rule with digits in 0..8 parses back to it. */
  lemma ParseRoundTrip(born: seq<int>, survive: seq<int>)
    requires BsRegex.InRange08(born) && BsRegex.InRange08(survive)
    ensures ParseRuleNotation(BsRegex.Notation(born, survive)) == Ok(Rule(born, survive))
  {
    CaMemory.ParseRuleRoundTrip(born, survive);
  }

  /** `encodeRuleBS(notation)`: slots 0-8 mark the born counts, slots 9-17 the survive counts. */
  function EncodeRuleBS(notation: string): (r: Result<seq<int>>)
    ensures r.Err? <==> ParseRuleNotation(notation).Err?
    ensures r.Ok? ==> |r.value| == 18
  {
    var rule :- ParseRuleNotation(notation);
    Ok(Masks.Mark(Masks.Mark(Masks.Zeros(18), rule.born, 0), rule.survive, 9))
  }

  /** Slot n is 1 iff n is born, slot 9 + n is 1 iff n survives, and nothing else is set. */
  lemma EncodeSlots(notation: string, n: nat)
    requires EncodeRuleBS(notation).Ok? && n < 9
    ensures var rule := ParseRuleNotation(notation).value;
            && EncodeRuleBS(notation).value[n] == (if n in rule.born then 1 else 0)
            && EncodeRuleBS(notation).value[9 + n] == (if n in rule.survive then 1 else 0)
  {
    var rule := ParseRuleNotation(notation).value;
    var z := Masks.Zeros(18);
    var b := Masks.Mark(z, rule.born, 0);
    Masks.MarkAt(b, rule.survive, 9, n);
    Masks.MarkAt(z, rule.born, 0, n);
    Masks.MarkAt(b, rule.survive, 9, 9 + n);
    Masks.MarkAt(z, rule.born, 0, 9 + n);
  }

  function AsSet(xs: seq<int>): set<int> {
    set n | n in xs
  }

  lemma EncodeAllSlots(notation: string)
    requires EncodeRuleBS(notation).Ok?
    ensures var rule, v := ParseRuleNotation(notation).value, EncodeRuleBS(notation).value;
            && (forall n :: 0 <= n < 9 ==> v[0 + n] == (if n in rule.born then 1 else 0))
            && (forall n :: 0 <= n < 9 ==> v[9 + n] == (if n in rule.survive then 1 else 0))
  {
    var rule, v := ParseRuleNotation(notation).value, EncodeRuleBS(notation).value;
    forall n | 0 <= n < 9
      ensures v[0 + n] == (if n in rule.born then 1 else 0)
      ensures v[9 + n] == (if n in rule.survive then 1 else 0)
    {
      EncodeSlots(notation, n);
    }
  }

  lemma EncodeSameIfSameSets(a: string, b: string)
    requires EncodeRuleBS(a).Ok? && EncodeRuleBS(b).Ok?
    requires AsSet(ParseRuleNotation(a).value.born) == AsSet(ParseRuleNotation(b).value.born)
    requires AsSet(ParseRuleNotation(a).value.survive) == AsSet(ParseRuleNotation(b).value.survive)
    ensures EncodeRuleBS(a) == EncodeRuleBS(b)
  {
    var ra, rb := ParseRuleNotation(a).value, ParseRuleNotation(b).value;
    var va, vb := EncodeRuleBS(a).value, EncodeRuleBS(b).value;
    EncodeAllSlots(a);
    EncodeAllSlots(b);
    forall i | 0 <= i < 18
      ensures va[i] == vb[i]
    {
      if i < 9 {
        assert i in ra.born <==> i in AsSet(ra.born);
        assert i in rb.born <==> i in AsSet(rb.born);
      } else {
        assert (i - 9) in ra.survive <==> (i - 9) in AsSet(ra.survive);
        assert (i - 9) in rb.survive <==> (i - 9) in AsSet(rb.survive);
        assert va[9 + (i - 9)] == va[i];
      }
    }
    assert va == vb;
  }

  lemma SameSetsIfEncodeSame(a: string, b: string)
    requires EncodeRuleBS(a).Ok? && EncodeRuleBS(b).Ok? && EncodeRuleBS(a) == EncodeRuleBS(b)
    ensures AsSet(ParseRuleNotation(a).value.born) == AsSet(ParseRuleNotation(b).value.born)
    ensures AsSet(ParseRuleNotation(a).value.survive) == AsSet(ParseRuleNotation(b).value.survive)
  {
    var ra, rb := ParseRuleNotation(a).value, ParseRuleNotation(b).value;
    var v := EncodeRuleBS(a).value;
    EncodeAllSlots(a);
    EncodeAllSlots(b);
    SameMembers(ra.born, rb.born, v, 0);
    SameMembers(ra.survive, rb.survive, v, 9);
  }

  /** Two in-range lists marked identically in the same nine slots hold the same digits. */
  lemma SameMembers(xs: seq<int>, ys: seq<int>, v: seq<int>, offset: nat)
    requires BsRegex.InRange08(xs) && BsRegex.InRange08(ys) && offset + 9 <= |v|
    requires forall n :: 0 <= n < 9 ==> v[offset + n] == (if n in xs then 1 else 0)
    requires forall n :: 0 <= n < 9 ==> v[offset + n] == (if n in ys then 1 else 0)
    ensures AsSet(xs) == AsSet(ys)
  {
    forall n | n in xs
      ensures n in ys
    {
      var k :| 0 <= k < |xs| && xs[k] == n;
      assert v[offset + n] == 1;
    }
    forall n | n in ys
      ensures n in xs
    {
      var k :| 0 <= k < |ys| && ys[k] == n;
      assert v[offset + n] == 1;
    }
  }

  /** Two notations share a vector iff they name the same born and survive sets. */
  lemma EncodeSameIff(a: string, b: string)
    requires EncodeRuleBS(a).Ok? && EncodeRuleBS(b).Ok?
    ensures var ra, rb := ParseRuleNotation(a).value, ParseRuleNotation(b).value;
            EncodeRuleBS(a) == EncodeRuleBS(b) <==> AsSet(ra.born) == AsSet(rb.born) && AsSet(ra.survive) == AsSet(rb.survive)
  {
    var ra, rb := ParseRuleNotation(a).value, ParseRuleNotation(b).value;
    if AsSet(ra.born) == AsSet(rb.born) && AsSet(ra.survive) == AsSet(rb.survive) {
      EncodeSameIfSameSets(a, b);
    }
    if EncodeRuleBS(a) == EncodeRuleBS(b) {
      SameSetsIfEncodeSame(a, b);
    }
  }
}

=== FILE: sorting.dfy ===
/**
 A stable insertion sort over a total preorder `le`. It models the stable
 sorts the source relies on: JavaScript `Array.prototype.sort` with a
 comparator, and Python `sorted`/`list.sort` with a key. A descending sort
 by a key `k` is the preorder `le(a, b) := k(a) >= k(b)`.
 */
module Sorting {
  import PyList

  ghost predicate TotalPreorder<T(!new)>(le: (T, T) -> bool) {
    && (forall a, b :: le(a, b) || le(b, a))
    && (forall a, b, c :: le(a, b) && le(b, c) ==> le(a, c))
  }

  predicate SortedBy<T>(le: (T, T) -> bool, s: seq<T>) {
    forall i, j :: 0 <= i < j < |s| ==> le(s[i], s[j])
  }

  /** Inserts `x` before the first element it precedes, so earlier equals stay first. */
  function Insert<T>(le: (T, T) -> bool, x: T, s: seq<T>): (r: seq<T>)
    ensures |r| == |s| + 1
    ensures multiset(r) == multiset(s) + multiset{x}
  {
    if |s| == 0 then [x]
    else if le(x, s[0]) then [x] + s
    else
      assert s == [s[0]] + s[1..];
      [s[0]] + Insert(le, x, s[1..])
  }

  function SortBy<T>(le: (T, T) -> bool, s: seq<T>): (r: seq<T>)
    ensures |r| == |s|
    ensures multiset(r) == multiset(s)
  {
    if |s| == 0 then []
    else
      assert s == [s[0]] + s[1..];
      Insert(le, s[0], SortBy(le, s[1..]))
  }

  /** Sorting keeps exactly the members of the list. */
  lemma SortByMembers<T>(le: (T, T) -> bool, s: seq<T>)
    ensures forall x :: x in SortBy(le, s) <==> x in s
  {
    var r := SortBy(le, s);
    forall x
      ensures x in r <==> x in s
    {
      assert x in r <==> x in multiset(r);
      assert x in s <==> x in multiset(s);
    }
  }

  lemma {:induction false} InsertSorted<T(!new)>(le: (T, T) -> bool, x: T, s: seq<T>)
    requires TotalPreorder(le)
    requires SortedBy(le, s)
    ensures SortedBy(le, Insert(le, x, s))
  {
    if |s| == 0 {
    } else if le(x, s[0]) {
    } else {
      InsertSorted(le, x, s[1..]);
      var tail := Insert(le, x, s[1..]);
      assert le(s[0], x);
      forall k | 0 <= k < |tail|
        ensures le(s[0], tail[k])
      {
        assert tail[k] in multiset(tail);
        assert tail[k] in multiset(s[1..]) + multiset{x};
        if tail[k] == x {
        } else {
          assert tail[k] in multiset(s[1..]);
          var m :| 0 <= m < |s[1..]| && s[1..][m] == tail[k];
          assert s[m + 1] == tail[k];
        }
      }
    }
  }

  lemma {:induction false} SortBySorted<T(!new)>(le: (T, T) -> bool, s: seq<T>)
    requires TotalPreorder(le)
    ensures SortedBy(le, SortBy(le, s))
  {
    if |s| > 0 {
      SortBySorted(le, s[1..]);
      InsertSorted(le, s[0], SortBy(le, s[1..]));
    }
  }

  /** Index of the first element that no other element strictly precedes. */
  function FirstLeast<T>(le: (T, T) -> bool, s: seq<T>): (k: nat)
    requires |s| > 0
    ensures k < |s|
  {
    if |s| == 1 then 0
    else
      var k := FirstLeast(le, s[1..]) + 1;
      if le(s[0], s[k]) then 0 else k
  }

  lemma {:induction false} FirstLeastIsLeast<T(!new)>(le: (T, T) -> bool, s: seq<T>)
    requires TotalPreorder(le)
    requires |s| > 0
    ensures forall j :: 0 <= j < |s| ==> le(s[FirstLeast(le, s)], s[j])
    ensures forall j :: 0 <= j < FirstLeast(le, s) ==> !le(s[j], s[FirstLeast(le, s)])
  {
    if |s| > 1 {
      FirstLeastIsLeast(le, s[1..]);
      var k := FirstLeast(le, s[1..]) + 1;
      assert forall j :: 1 <= j < |s| ==> s[j] == s[1..][j - 1];
      if le(s[0], s[k]) {
      } else {
        assert le(s[k], s[0]);
      }
    }
  }

  lemma {:induction false} InsertHead<T(!new)>(le: (T, T) -> bool, x: T, s: seq<T>)
    requires |s| > 0
    ensures Insert(le, x, s)[0] == if le(x, s[0]) then x else s[0]
  {
  }

  /** A stable sort puts the FIRST least element of the input in front. */
  lemma {:induction false} SortByHeadIsFirstLeast<T(!new)>(le: (T, T) -> bool, s: seq<T>)
    requires TotalPreorder(le)
    requires |s| > 0
    ensures SortBy(le, s)[0] == s[FirstLeast(le, s)]
  {
    if |s| == 1 {
    } else {
      var rest := SortBy(le, s[1..]);
      SortByHeadIsFirstLeast(le, s[1..]);
      var k := FirstLeast(le, s[1..]) + 1;
      assert rest[0] == s[k];
      InsertHead(le, s[0], rest);
    }
  }
  /** The elements `le` ranks level with `x`. */
  function Tied<T>(le: (T, T) -> bool, x: T): T -> bool {
    (y: T) => le(x, y) && le(y, x)
  }

  /** Inserting `y` leaves the elements tied with `x` in their order, `y` first among them when it is one. */
  lemma {:induction false} InsertTied<T(!new)>(le: (T, T) -> bool, x: T, y: T, u: seq<T>)
    requires TotalPreorder(le)
    ensures PyList.Filter(Insert(le, y, u), Tied(le, x)) ==
            (if Tied(le, x)(y) then [y] else []) + PyList.Filter(u, Tied(le, x))
    decreases |u|
  {
    var e := Tied(le, x);
    if |u| == 0 {
      assert PyList.Filter([y], e) == (if e(y) then [y] else []) + PyList.Filter([y][1..], e);
    } else if le(y, u[0]) {
      assert ([y] + u)[1..] == u;
    } else {
      InsertTied(le, x, y, u[1..]);
      var rest := Insert(le, y, u[1..]);
      assert Insert(le, y, u) == [u[0]] + rest;
      FilterCons(u[0], rest, e);
      assert u == [u[0]] + u[1..];
      FilterCons(u[0], u[1..], e);
      NotBothTied(le, x, y, u[0]);
      SwapHeads(if e(u[0]) then [u[0]] else [], if e(y) then [y] else [], PyList.Filter(u[1..], e));
    }
  }

  /** Filtering a list with a head added keeps the head in front when it passes. */
  lemma FilterCons<T>(h: T, t: seq<T>, p: T -> bool)
    ensures PyList.Filter([h] + t, p) == (if p(h) then [h] else []) + PyList.Filter(t, p)
  {
    assert ([h] + t)[1..] == t;
  }

  /** An element `le` ranks strictly after another cannot be tied with the same `x` as it. */
  lemma NotBothTied<T(!new)>(le: (T, T) -> bool, x: T, y: T, z: T)
    requires TotalPreorder(le) && !le(y, z)
    ensures !(Tied(le, x)(y) && Tied(le, x)(z))
  {
    if le(y, x) && le(x, z) {
      assert false;
    }
  }

  /** Two lists of which one is empty can be put in front in either order. */
  lemma SwapHeads<T>(a: seq<T>, b: seq<T>, f: seq<T>)
    requires |a| == 0 || |b| == 0
    ensures a + (b + f) == b + (a + f)
  {
    if |a| == 0 {
      assert a + (b + f) == b + f == b + (a + f);
    } else {
      assert a + (b + f) == a + f == b + (a + f);
    }
  }

  /**
   The sort is stable: the elements tied with any `x` come out in the
   order they went in.
   */
  lemma {:induction false} SortByStable<T(!new)>(le: (T, T) -> bool, s: seq<T>, x: T)
    requires TotalPreorder(le)
    ensures PyList.Filter(SortBy(le, s), Tied(le, x)) == PyList.Filter(s, Tied(le, x))
    decreases |s|
  {
    if |s| > 0 {
      SortByStable(le, s[1..], x);
      InsertTied(le, x, s[0], SortBy(le, s[1..]));
    }
  }
}

=== FILE: wrappers.dfy ===
/**
 Option and Result types for the source's `null` returns and thrown errors.
 An `Err` carries the message text of the exception that the source raises.
 */
module Wrappers {

  datatype Option<T> = None | Some(value: T) {
    predicate IsFailure() {
      None?
    }

    function PropagateFailure<U>(): Option<U>
      requires None?
    {
      None
    }

    function Extract(): T
      requires Some?
    {
      value
    }

    function GetOr(default: T): T {
      match this
      case None => default
      case Some(v) => v
    }
  }

  /** The kind of exception the source raises. */
  datatype ErrorKind = ValueError | KeyError | TypeError | RuntimeError | ZeroDivisionError

  datatype Error = Error(kind: ErrorKind, message: string)

  datatype Result<T> = Ok(value: T) | Err(error: Error) {
    predicate IsFailure() {
      Err?
    }

    function PropagateFailure<U>(): Result<U>
      requires Err?
    {
      Err(error)
    }

    function Extract(): T
      requires Ok?
    {
      value
    }
  }
}
